=== FILE: README.md ===
# Advent of Code solutions, modelled in Dafny

This project models the computational cores of a collection of Advent of Code
solutions as pure Dafny functions and proves properties of them. The two
virtual machines come first:

- the 2019 Intcode VM, a fetch-decode-execute loop over a flat integer memory
  with the opcodes ADD, MUL and HALT;
- the 2024 day 17 three-bit machine, with its hand-decompiled loop body.

Each of the other puzzle solutions becomes one module. Its parsed input is a
parameter, and file reading is left out.

The Intcode model follows the code rather than the usual description of
Intcode. It has no parameter modes and no opcode registry. Every operand is an
address, and every instruction is four cells wide. There is no fault flag: a
caught out-of-bounds fault leaves the VM looking exactly as a HALT does.

## Model

| member | source | states |
|---|---|---|
| Intcode.Init | 2019/intcode.py:22-26 | a fresh VM has pc 0, tick count 0, halt unset and the program as its memory |
| Intcode.DecodeOpcode | 2019/intcode.py:9-12 | the enum lookup succeeds exactly for 1, 2 and 99 |
| Intcode.Get | 2019/intcode.py:39-43 | in-range addresses read the cell, negative ones from the end; any other address is an out-of-bounds fault |
| Intcode.Set | 2019/intcode.py:33-37 | succeeds iff the address is in Python range, then changes only that cell and keeps the length; otherwise the fault names the address |
| Intcode.GetParams | 2019/intcode.py:30-31 | the operand slice is never longer than asked, and is exact when memory is long enough |
| Intcode.Tick | 2019/intcode.py:45-57 | each tick counts once; a continue advances pc by exactly 4 and keeps the memory size; HALT is decoded iff the opcode cell is 99 and only sets halt; faults and crashes leave pc and memory unchanged; a crash happens iff pc is past the end, the opcode is unknown, or an ADD/MUL lacks three operands |
| Intcode.Run | 2019/intcode.py:59-69 | a run that returns has halt set; memory never changes size; the tick count never decreases |
| Intcode.ArithmeticStep | 2019/intcode.py:48-55 | ADD and MUL with addressable operands write the sum or product into the destination only and advance pc by 4 |
| Intcode.HaltStep | 2019/intcode.py:56-60 | HALT sets halt, changes neither pc nor memory, and run stops right after it |
| Intcode.RunAfterHalt | 2019/intcode.py:60 | run leaves a halted VM exactly as it is |
| Intcode.OutOfBoundsOperandHalts | 2019/intcode.py:48-69 | an out-of-range operand faults before any write or pc change, and run then stops with halt set |
| Intcode.CrashEscapesRun | 2019/intcode.py:45-69 | an unknown opcode, a pc past the end and a short operand slice escape run with halt unset |
| Intcode.RunEndsAtHaltOrFault | 2019/intcode.py:59-69 | a run that returns stops at a HALT or at a faulting ADD/MUL, with nothing in the state to tell them apart |
| Intcode.ExampleAddOneTick | 2019/intcode.py:45-57 | one tick of 1,0,0,0,99 gives 2,0,0,0,99 with pc 4, and the run then halts |
| Intcode.ExampleMul | 2019/intcode.py:52-55 | 2,3,0,3,99 ends as 2,3,0,6,99 |
| Intcode.ExampleSquare | 2019/intcode.py:52-55 | 2,4,4,5,99,0 ends as 2,4,4,5,99,9801 |
| Intcode.ExampleSelfModifying | 2019/intcode.py:59-69 | 1,1,1,4,99,5,6,0,99 ends as 30,1,1,4,2,5,6,0,99 after three ticks |
| Intcode.NegativeAddressWraps | 2019/intcode.py:39-43 | address -1 reads the last cell instead of faulting |
| CubeGame.With | 2023/Day2/main.py:41 | storing a count changes that colour only |
| CubeGame.ShownUnnamed | 2023/Day2/main.py:34-41 | a colour no token of the reveal names counts 0 |
| CubeGame.ShownLast | 2023/Day2/main.py:34-41 | the last token naming a colour sets its count |
| CubeGame.PossibleState | 2023/Day2/main.py:6-12 | true iff every shown count is at most the bag's count of that colour |
| CubeGame.MinPossible | 2023/Day2/main.py:14-18 | the result holds both inputs, each count comes from one of them, and it fits in every bag that holds both (a pointwise maximum) |
| CubeGame.MinPossibleIdempotent | 2023/Day2/main.py:14-18 | a reveal the best bag already holds changes nothing, so repeating a reveal changes nothing |
| CubeGame.Power | 2023/Day2/main.py:20-21 | the power is 0 iff some colour count is 0 |
| CubeGame.BestIsLeast | 2023/Day2/main.py:56-66 | the part 2 bag holds every reveal of the game and fits in every bag that does |
| CubeGame.PossibleIff | 2023/Day2/main.py:32-42 | the part 1 fold is true iff every reveal fits in the bag |
| CubeGame.PossibleIffBestFits | 2023/Day2/main.py:32-66 | a game is possible with a bag iff its part 2 best bag fits in that bag |
| CubeGame.Part1 | 2023/Day2/main.py:23-45 | the part 1 total never exceeds the sum of all game ids |
| CubeGame.Part1IsFittingIds | 2023/Day2/main.py:23-45 | part 1 is the sum of the ids of exactly those games whose smallest bag fits in 12 red, 13 green and 14 blue |
| CubeGame.NeverShownPowerZero | 2023/Day2/main.py:56-67 | a game that never shows some colour adds nothing to part 2 |
| CubeGame.Example | 2023/Day2/main.py:47-67 | for the first game of the puzzle text the best bag is 4 red, 2 green and 6 blue, with power 48 |
| Sorting.Sort | 2024/Day01/main.py:17-18 | the result is a permutation of the input, of the same length, in which no element is smaller than one before it |
| Sorting.SortedUnique | 2024/Day01/main.py:17-18 | two sorted sequences with the same elements are equal, so `sorted` has one possible result |
| Sorting.SortPermutation | 2024/Day01/main.py:17-18 | sorting two reorderings of the same elements gives the same list |
| Sorting.LexStrictOrder | 2023/Day7/main.py:103-106 | Python's list and string comparison is a strict total order whenever the element order is |
| Sorting.IntSort | 2024/Day01/main.py:17-18 | `sorted` of integers is an ascending permutation of its input |
| ListDistance.Part1Permutation | 2024/Day01/main.py:16-19 | reordering either input list leaves part 1 unchanged |
| ListDistance.Part1Facts | 2024/Day01/main.py:16-19 | lists with the same elements are at distance 0, and swapping the lists changes nothing |
| ListDistance.Counts | 2024/Day01/main.py:22-24 | the counts hold exactly the numbers of the right list, each with its number of occurrences |
| ListDistance.Part2IsSimilarity | 2024/Day01/main.py:21-27 | part 2 is the sum over the left list of each id times its number of occurrences on the right |
| ListDistance.Part2Permutation | 2024/Day01/main.py:21-27 | reordering either input list leaves part 2 unchanged |
| ListDistance.Example | 2024/Day01/main.py:21-27 | the left list 3, 4, 1, 3 against 3, 4, 3 scores 16 |
| Galaxies.TaxicabFacts | 2023/Day11/main.py:10-11 | the taxicab distance is symmetric and is 0 exactly between equal points |
| Galaxies.GalaxiesMembers | 2023/Day11/main.py:17-23 | the galaxy list holds exactly the positions of '#' in the image |
| Galaxies.EmptyRows | 2023/Day11/main.py:25-30 | the ascending list of exactly the rows holding no '#' |
| Galaxies.EmptyColsIff | 2023/Day11/main.py:36-47 | on a rectangular image with at least one row, the ascending list of exactly the columns no row has '#' in |
| Galaxies.ExpandRowsIsSpread | 2023/Day11/main.py:32-34 | for ascending indices of existing rows, the in-place inserts duplicate exactly the listed rows, and the height grows by the number of indices |
| Galaxies.ExpandRowIsSpread | 2023/Day11/main.py:49-52 | for ascending indices of existing columns, each row gets a '.' before exactly the listed columns, and the width grows by the number of indices |
| Galaxies.ExpandMovesGalaxies | 2023/Day11/main.py:54-82 | expanding a rectangular image keeps it rectangular and moves each galaxy down by the empty rows above it and right by the empty columns left of it, in the same order |
| Galaxies.CombinationsFacts | 2023/Day11/main.py:103-105 | the pairs are exactly those at positions i < j, n(n-1)/2 of them |
| Galaxies.ExpansionTwoIsExpandedImage | 2023/Day11/main.py:87-106 | moving galaxies by one per empty row and column before them (expansion 2) gives the same sum as the plain distances in the image `expand` builds |
| GalaxiesExamples.Part1AsWrittenCounterexample | 2023/Day11/main.py:119-123 | on the column '#', '.', '#' part 1 as written sums 1, while the expansion the puzzle intends gives 3 |
| CamelCards.GetCountsFacts | 2023/Day7/main.py:16-23 | the counts hold each card of the hand once, with its number of occurrences, and add up to the hand's length |
| CamelCards.PlainNOfAKindIff | 2023/Day7/main.py:25-32 | without wild jokers, n of a kind holds iff some card occurs at least n times |
| CamelCards.WildNOfAKindIff | 2023/Day7/main.py:34-45 | with wild jokers, n of a kind holds iff some non-J card plus the jokers reaches n, or the hand is all jokers and the jokers, counted twice, reach n |
| CamelCards.FullHouseLabels | 2023/Day7/main.py:53-57 | a full house is three distinct cards when a J is held with wild jokers, and two otherwise |
| CamelCards.GetPairsIsPairedLabels | 2023/Day7/main.py:62-68 | the pair count is the number of distinct cards occurring at least twice |
| CamelCards.Value | 2023/Day7/main.py:87-99 | the hand type is between 0 (high card) and 6 (five of a kind) |
| CamelCards.NoJokerSameValue | 2023/Day7/main.py:25-99 | a hand without a J gets the same type with or without wild jokers |
| CamelCards.IndexOf | 2023/Day7/main.py:103 | `index` succeeds iff the card is in the list, and gives its first position |
| CamelCards.Indices | 2023/Day7/main.py:103 | the rank list exists iff every card is known, and holds each card's position in `card_types` |
| CamelCards.EntryOrder | 2023/Day7/main.py:103-106 | the tuple order of the sort keys is a strict total order |
| CamelCards.Part1IsPayouts | 2023/Day7/main.py:82-118 | for distinct input lines, part 1 fails iff some card is unknown, and otherwise pays every hand its bid times one more than the number of weaker hands |
| CamelCards.Part1Permutation | 2023/Day7/main.py:82-118 | reordering the input lines leaves part 1 unchanged |
| CamelCards.SumOfPermutation | 2023/Day7/main.py:108-113 | the winnings sum does not depend on the order of its terms |
| CamelCards.KeysOfMultiset | 2023/Day7/main.py:85-104 | building the keys line by line maps reorderings of the lines to reorderings of the keys |
| ThreeBitMachine.Decode | 2024/Day17/main.py:55-64 | the opcode table knows exactly the operators 0 to 7, with 0 as adv, 3 as jnz and 5 as out |
| ThreeBitMachine.Init | 2024/Day17/main.py:70-81 | a new machine holds the given registers, also as its start values, with the program, an empty output and pc 0 |
| ThreeBitMachine.Reset | 2024/Day17/main.py:100-105 | reset restores the start registers, empties the output and sets pc to 0, keeping the program and the start values |
| ThreeBitMachine.ResetRestoresInit | 2024/Day17/main.py:70-105 | reset gives back the machine the constructor built, and a second reset changes nothing |
| ThreeBitMachine.Combo | 2024/Day17/main.py:6-17 | combo operands 0 to 3 are literal, 4, 5 and 6 read A, B and C, 7 gives 0, and larger operands have no value |
| ThreeBitMachine.DivPowIsFloorDiv | 2024/Day17/main.py:20 | the division instructions compute A floor-divided by 2 to the combo operand |
| ThreeBitMachine.ExecuteFrame | 2024/Day17/main.py:19-52 | an instruction fails iff it reads a combo operand above 7; otherwise each instruction changes only its own register, every instruction except jnz advances pc by 2, out appends one value below 8 and nothing else touches the output, bst leaves B below 8 |
| ThreeBitMachine.DivisionsAgree | 2024/Day17/main.py:19-52 | adv, bdv and cdv compute the same quotient and store it in A, B and C respectively |
| ThreeBitMachine.JumpSemantics | 2024/Day17/main.py:32-36 | jnz changes only pc: to pc + 2 when A is 0, to the operand otherwise |
| ThreeBitMachine.XorSemantics | 2024/Day17/main.py:23-40 | bxl xors B with the literal operand and bxc xors B with C |
| ThreeBitMachine.Step | 2024/Day17/main.py:84-89 | fetching with fewer than two cells left fails like the tuple unpack; an operator above 7 is an unknown opcode; a step never changes the program |
| ThreeBitMachine.Run | 2024/Day17/main.py:83-98 | a run keeps the program; a finished run has pc past the end; a quine mismatch happens only in quine mode after some output |
| ThreeBitMachine.RunOutputGrows | 2024/Day17/main.py:83-98 | a run only appends to the output |
| ThreeBitMachine.QuineOutputIsPrefix | 2024/Day17/main.py:92-96 | in quine mode, a run that does not report a mismatch keeps the output a prefix of the program |
| ThreeBitMachine.QuineAgreesWithPlainRun | 2024/Day17/main.py:92-98 | quine mode accepts iff the plain run outputs exactly the program |
| ThreeBitMachine.ExampleRun | 2024/Day17/main.py:83-98 | the program 0,1,5,4,3,0 outputs A halved, modulo 8, on each loop until A is 0 |
| ThreeBitMachine.ExampleProgram | 2024/Day17/main.py:122-139 | from A = 729 that program outputs 4,6,3,5,6,3,5,2,1,0 |
| ThreeBitDecompiled.OneIter | 2024/Day17/decompiled.py:23-24 | one loop outputs a three-bit value |
| ThreeBitDecompiled.FirstMatch | 2024/Day17/decompiled.py:32-35 | the search returns the first candidate in 0..8 whose output is the wanted number, or none when no candidate hits |
| ThreeBitDecompiled.Extend | 2024/Day17/decompiled.py:30-35 | one pass shifts A left by three bits and adds at most 8; when a candidate hits, the new A outputs the number, otherwise A is only shifted |
| ThreeBitDecompiled.ExtendFindsMatch | 2024/Day17/decompiled.py:32-35 | a hit at candidate i makes the new A output the number and add at most i |
| ThreeBitDecompiled.Emit | 2024/Day17/decompiled.py:40-42 | the output loop yields three-bit values, and nothing exactly when A is 0 |
| ThreeBitDecompiled.EmitLength | 2024/Day17/decompiled.py:40-42 | a positive A has between 3(n-1)+1 and 3n bits when the loop outputs n values |
| ThreeBitDecompiled.EmitReconstruct | 2024/Day17/decompiled.py:26-42 | when every pass found its number at a candidate below 8 and the top candidate is not 0, the output loop on the rebuilt A gives back the target list |
| ThreeBitDecompiled.MachineOutputIsEmit | 2024/Day17/decompiled.py:40-42 | for A > 0 the program's do-while loop outputs what the output loop does; for A = 0 it still outputs once |
| ThreeBitDecompiled.OneLoop | 2024/Day17/decompiled.py:9-13 | eight steps of the puzzle program output one_iter(A), divide A by 8 and jump back unless A became 0 |
| ThreeBitDecompiled.MachineMatchesDecompiled | 2024/Day17/decompiled.py:9-24 | running the puzzle program halts after eight steps per loop, with the output one_iter gives for A, A >> 3, and so on |
| ThreeBitDecompiled.MachineMatchesEmit | 2024/Day17/decompiled.py:40-42 | for A > 0 the machine outputs exactly what the decompiled output loop does |
| AocUtil.CardinalOf | aoc_util.py:53-57 | every enum value 0 to 3 names the direction with that value |
| AocUtil.TurnIsMod | aoc_util.py:59-60 | turning adds the relative value modulo 4 |
| AocUtil.CardinalValueInjective | aoc_util.py:53-57 | two directions are equal iff their values are |
| AocUtil.TurnInverses | aoc_util.py:46-60 | forwards keeps the direction, and left and right undo each other |
| AocUtil.TurnBackTwice | aoc_util.py:46-60 | backwards twice is the identity, and no turn except forwards keeps the direction |
| AocUtil.TurnCompose | aoc_util.py:46-60 | four right turns are the identity, and right then backwards is left |
| AocUtil.AsCharInjective | aoc_util.py:62-70 | the arrow characters of different directions differ |
| AocUtil.FromChar | aoc_util.py:72-81 | exactly U, N, D, S, L, W, R and E name a direction, each the one its letter says; any other character gives None |
| AocUtil.Move | aoc_util.py:88-98 | a move changes exactly one coordinate by exactly 1 |
| AocUtil.MoveBack | aoc_util.py:88-98 | moving and then moving backwards returns to the start |
| AocUtil.MoveInjective | aoc_util.py:88-98 | moves in different directions reach different points |
| AocUtil.Transpose | aoc_util.py:34-35 | a matrix with no rows transposes to no columns; otherwise there is one column per index every row has, each as long as the number of rows |
| AocUtil.TransposeShape | aoc_util.py:18-35 | for a matrix with rows, transpose has one column per index every row has, and entry j, i is entry i, j of the input |
| AocUtil.TransposeAsWritten | aoc_util.py:18-35 | the column iterator never stops on a matrix with no rows, whatever bound is given |
| AocUtil.ColsAsWrittenAgrees | aoc_util.py:18-35 | on a matrix with rows the iterator as written stops, with the columns of the corrected definition |
| AocUtil.Distance | aoc_util.py:38-39 | the distance is at most the length of either string |
| AocUtil.DistanceSymmetric | aoc_util.py:38-39 | the distance is symmetric |
| AocUtil.DistanceSelf | aoc_util.py:38-39 | a string is at distance 0 from itself |
| AocUtil.DistanceZero | aoc_util.py:38-39 | the distance is 0 iff the strings agree on their common prefix length |
| AocUtil.DistanceIsDifferenceCount | aoc_util.py:38-43 | differences lists exactly the positions where the strings differ, as many as the distance |
| AocUtil.DifferencesSorted | aoc_util.py:42-43 | differences lists positions in ascending order |
| RocketFuel.FuelIsFloorThird | 2019/Day01/main.py:14 | the fuel is the floor of a third of the mass, less two |
| RocketFuel.FuelForFuel | 2019/Day01/main.py:16-22 | a module whose fuel is not positive needs nothing; otherwise it needs at least its own fuel |
| RocketFuel.Part2 | 2019/Day01/main.py:15-23 | the nested loops compute the recursive fuel total of every module |
| RocketFuel.FuelShrinks | 2019/Day01/main.py:17-22 | each positive fuel amount is smaller than the mass it came from, so the loop ends |
| RocketFuel.Part2AtLeastPart1 | 2019/Day01/main.py:13-23 | the part 2 total is at least the part 1 total |
| RocketFuel.Examples | 2019/Day01/main.py:13-23 | masses 12, 14 and 1969 need 2, 2 and 654; 14 and 1969 need 2 and 966 with fuel for fuel |
| LensHashMap.HashFrom | 2023/Day15/main.py:11-18 | the running hash stays below 256 |
| LensHashMap.HashSnoc | 2023/Day15/main.py:11-18 | the empty label hashes to 0, and one more character adds its code, multiplies by 17 and reduces modulo 256 |
| LensHashMap.HashExample | 2023/Day15/main.py:11-18 | the label HASH hashes to 52 |
| LensHashMap.New | 2023/Day15/main.py:22-24 | every box of a new map is empty, and a map with at least one box is well formed |
| LensHashMap.BoxOf | 2023/Day15/main.py:26-27 | every key goes to an existing box |
| LensHashMap.IndexOf | 2023/Day15/main.py:31-33 | the position of the first lens with the label, or none iff no lens in the box has it |
| LensHashMap.Set | 2023/Day15/main.py:37-43 | setting keeps the map well formed and changes no other box |
| LensHashMap.SetPosition | 2023/Day15/main.py:37-43 | a present label is replaced in place, an absent one appended to the end of its box |
| LensHashMap.GetAfterSet | 2023/Day15/main.py:29-43 | reading a key just set gives the value set, and reading any other key is unaffected |
| LensHashMap.SetKeepsValid | 2023/Day15/main.py:37-43 | setting keeps every label in its own box and at most once |
| LensHashMap.Pop | 2023/Day15/main.py:45-51 | a successful pop keeps the map well formed and changes no other box |
| LensHashMap.PopKeepsOrder | 2023/Day15/main.py:45-51 | pop removes exactly the first lens with the label and returns its focal length, keeping the other lenses in order |
| LensHashMap.PopAfterSet | 2023/Day15/main.py:29-51 | popping a key just set returns the value, after which the key is absent |
| LensHashMap.PopKeepsValid | 2023/Day15/main.py:45-51 | pop keeps every label in its own box and at most once |
| LensHashMap.Delete | 2023/Day15/main.py:53-57 | delete keeps the map well formed and leaves it unchanged when the key is absent |
| LensHashMap.DeleteAbsent | 2023/Day15/main.py:53-57 | deleting an absent key swallows the KeyError and changes nothing |
| LensHashMap.ValueAfterSetNew | 2023/Day15/main.py:59-63 | a new lens adds its box number times its slot times its focal length to the focusing power |
| LensHashMap.ApplyAllKeepsValid | 2023/Day15/main.py:80-90 | running the steps keeps every label in its own box and at most once |
| LensHashMap.Part1Bound | 2023/Day15/main.py:78-79 | part 1 is between 0 and 255 times the number of steps |
| MonkeyMarket.Prune | 2024/Day22/main.py:27-28 | pruning gives a value below 16777216 and keeps values already below it |
| MonkeyMarket.Evolve | 2024/Day22/main.py:30-34 | an evolved secret is below 16777216 |
| MonkeyMarket.MixLaws | 2024/Day22/main.py:24-25 | mixing a number with itself gives 0, and mixing is symmetric |
| MonkeyMarket.EvolveZero | 2024/Day22/main.py:30-34 | the secret 0 evolves to 0 |
| MonkeyMarket.Part1Bound | 2024/Day22/main.py:69-80 | part 1 is below 16777216 times one more than the number of buyers |
| MonkeyMarket.Add | 2024/Day22/main.py:14-16 | adding keeps the ring well formed and of the same size |
| MonkeyMarket.RingIndices | 2024/Day22/main.py:14-19 | add moves the index forward by one modulo the size, and last reads the slot before the index |
| MonkeyMarket.LastAfterAdd | 2024/Day22/main.py:14-19 | after an add, last is the value just added |
| MonkeyMarket.AsTupleAfterAdd | 2024/Day22/main.py:14-22 | after an add, as_tuple drops its oldest entry and ends with the new value |
| MonkeyMarket.AsTupleHistory | 2024/Day22/main.py:7-22 | a ring of size n, after any sequence of adds, reads as the last n values added, padded with None at the front |
| MonkeyMarket.ChangesAt | 2024/Day22/main.py:49-60 | change k is price k + 1 minus price k |
| MonkeyMarket.RecordKeepsFirst | 2024/Day22/main.py:56-59 | a price recorded for a window is never replaced |
| MonkeyMarket.BuyerOffersComplete | 2024/Day22/main.py:47-60 | with the corrected threshold every complete window of four changes is recorded for the buyer |
| MonkeyMarket.FirstWindowMissed | 2024/Day22/main.py:56 | on prices 0 to 4 the recording as written stores nothing, while the corrected one stores the four +1 changes at price 4 |
| MonkeyMarket.ChangesInRange | 2024/Day22/main.py:43-54 | changes between single-digit prices lie between -9 and 9 |
| MonkeyMarket.BuyerPrices | 2024/Day22/main.py:48-53 | a buyer has one price per round plus the initial one, each a single digit |
| MonkeyMarket.BestFrom | 2024/Day22/main.py:62-67 | the best total is at least every window's total and is either the starting best or one of them |
| MonkeyMarket.Offers | 2024/Day22/main.py:46-60 | each buyer's windows are recorded from its own 2000 prices, from round 4 on as written or from round 3 on corrected |
| MonkeyMarket.Part2AsWritten | 2024/Day22/main.py:41-67 | part 2 as computed, windows recorded only from round 4 on: no window earns more than the answer, which is 0 or some window's total |
| MonkeyMarket.Part2 | 2024/Day22/main.py:41-67 | part 2 with every complete window recorded (from round 3 on): no window earns more than the answer, which is 0 or some window's total |
| Decimal.Digits | 2024/Day11/main.py:15-16 | `str` of a number has as many decimal digits as the number needs, each below 10 |
| Decimal.ValueOfDigits | 2024/Day11/main.py:15-19 | reading the digits of a number back gives the number |
| Decimal.SplitDigits | 2024/Day11/main.py:18-19 | the first k digits read as the number divided by a power of ten, and the rest as the remainder |
| Decimal.ConcatDigits | 2024/Day07/main.py:11-12 | joining the digits of a and b reads as a times 10 to the digit count of b, plus b |
| Decimal.ParseShow | 2024/Day11/main.py:19 | `int` of `str(n)` is n, and with a leading minus it is -n |
| Decimal.ParseIntShape | 2024/Day11/main.py:19 | a string `int` accepts is an optional sign followed by digits |
| Stones.HalvesArithmetic | 2024/Day11/main.py:15-19 | splitting a stone with an even digit count divides it by a power of ten into quotient and remainder |
| Stones.BlinkOne | 2024/Day11/main.py:6-26 | one blink turns each stone into one or two stones |
| Stones.Blink | 2024/Day11/main.py:6-26 | the in-place loop replaces each stone by its blink result, in order |
| Stones.BlinkStone | 2024/Day11/main.py:28-43 | a stone is always at least one stone, and with no blinks exactly one |
| Stones.ZeroBecomesOne | 2024/Day11/main.py:30-34 | a 0 blinks into a 1 |
| Stones.BlinkFast | 2024/Day11/main.py:46-50 | blinking never leaves fewer stones than before |
| Stones.BlinkFastAppend | 2024/Day11/main.py:46-50 | the count for a row of stones is the sum of the counts of its parts |
| Stones.BlinkAllAgrees | 2024/Day11/main.py:6-50 | counting after one in-place blink agrees with the cached count for one more blink, and the stone count after one blink is the count for one blink |
| Stones.ExampleBlink | 2024/Day11/main.py:6-26 | one blink turns 0 1 10 99 999 into 1 2024 1 0 9 9 2021976 |
| BridgeEquations.ConcatArithmetic | 2024/Day07/main.py:11-12 | concat(a, b) is a times 10 to the digit count of b, plus b |
| BridgeEquations.ConcatExample | 2024/Day07/main.py:11-12 | concat(15, 6) is 156 and concat(12, 345) is 12345 |
| BridgeEquations.CanBeMade | 2024/Day07/main.py:14-20 | a single operand can be made iff it equals the test |
| BridgeEquations.Combine | 2024/Day07/main.py:18 | combining the first two operands shortens the list by one |
| BridgeEquations.CanBeMadeIff | 2024/Day07/main.py:14-20 | an equation can be made iff some choice of allowed operators, evaluated strictly left to right, gives the test value |
| BridgeEquations.MoreOperators | 2024/Day07/main.py:33-35 | adding operators never makes an equation impossible |
| BridgeEquations.Examples | 2024/Day07/main.py:14-20 | 190 from 10 and 19, and 3267 from 81, 40 and 27, can be made with add and multiply |
| BridgeEquations.Part2AtLeastPart1 | 2024/Day07/main.py:32-39 | the part 2 total is at least the part 1 total |
| Reports.SafeFromIff | 2024/Day02/main.py:5-17 | the loop accepts from position i iff every later step differs by 1 to 3 and the steps all rise or all fall |
| Reports.IsSafeIff | 2024/Day02/main.py:5-17 | a report is safe iff every step differs by 1 to 3 and it is strictly increasing or strictly decreasing |
| Reports.SafeShapes | 2024/Day02/main.py:5-17 | reports of at most one level are safe, and a safe report is monotone |
| Reports.Without | 2024/Day02/main.py:23 | removing one level shortens the report by one |
| Reports.DampedIff | 2024/Day02/main.py:19-25 | a report is safe with the dampener iff it is safe or some single removal makes it safe |
| Reports.DropFirstStaysSafe | 2024/Day02/main.py:19-25 | dropping the first level of a safe report keeps it safe |
| Reports.DropLastStaysSafe | 2024/Day02/main.py:19-25 | dropping the last level of a safe report keeps it safe |
| Reports.DampedExample | 2024/Day02/main.py:19-25 | 1 3 2 4 5 is unsafe but safe with the dampener |
| Reports.DampedCountsMore | 2024/Day02/main.py:27-35 | part 2 counts at least as many reports as part 1 |
| PageOrder.IsValidIff | 2024/Day05/main.py:7-15 | an update is valid iff no page comes after a page that the rules say must follow it |
| PageOrder.FirstViolation | 2024/Day05/main.py:11-12 | a violation found is a rule page in the prefix; none means no rule page is in the prefix |
| PageOrder.Index | 2024/Day05/main.py:26 | `index` gives the first position of the page |
| PageOrder.MoveAfterPermutes | 2024/Day05/main.py:26-27 | moving a page with pop and insert keeps the same pages |
| PageOrder.MoveAfterAt | 2024/Day05/main.py:26-27 | pop at j then insert at i shifts the pages between them down by one and puts the moved page at i |
| PageOrder.FixOrderCorrect | 2024/Day05/main.py:20-31 | a fix that finishes gives a reordering of the update that is valid |
| PageOrder.FixOrderKeepsValid | 2024/Day05/main.py:20-31 | fixing a valid update finishes and changes nothing |
| PageOrder.Middle | 2024/Day05/main.py:33-34 | the middle page stands at a position with as many pages before it as after it, or one more before it when the length is even |
| PageOrder.MiddleUnique | 2024/Day05/main.py:33-34 | exactly one position has that balance, `len // 2`, so the middle page is determined; for odd lengths both sides are equally long |
| PageOrder.Examples | 2024/Day05/main.py:7-34 | 75,47,61,53,29 is valid under the example rules with middle 61, and 75,97,47,61,53 breaks the rule that 97 comes before 75 |
| PageOrder.FixExample | 2024/Day05/main.py:20-31 | fixing 75,97,47,61,53 under the rule that 97 comes before 75 gives 97,75,47,61,53 |
| RockTilt.ShiftLeft | 2023/Day14/main.py:39-51 | shifting keeps the row's length |
| RockTilt.ShiftLeftFacts | 2023/Day14/main.py:39-51 | after shifting no round rock has an empty cell before it, the row holds the same cells, and every cube rock stays in place |
| RockTilt.ShiftLeftIdempotent | 2023/Day14/main.py:39-51 | a settled row does not change, so shifting twice is shifting once |
| RockTilt.ShiftExample | 2023/Day14/main.py:39-51 | .O.#..O shifts to O..#O.. |
| RockTilt.ShiftRightFacts | 2023/Day14/main.py:69-74 | the reversed shift keeps the cells and the cube rocks, and no round rock has an empty cell after it |
| RockTilt.ShiftRows | 2023/Day14/main.py:71-74 | a west or east tilt shifts every row on its own |
| RockTilt.Columns | 2023/Day14/main.py:19-36 | the column iterator stops after as many columns as the board has rows, fails when some row is too short, and gives a square board whose entry j, i is the input's entry i, j |
| RockTilt.ColumnsTruncate | 2023/Day14/main.py:19-36 | a board one row high yields only its first column |
| RockTilt.TiltSquare | 2023/Day14/main.py:58-78 | on a square board every tilt succeeds, keeps the board square and leaves the cube rocks in place |
| RockTilt.SpinSquare | 2023/Day14/main.py:96-98 | on a square board a spin cycle succeeds and keeps the board square |
| RockTilt.SpinsAdd | 2023/Day14/main.py:85-99 | m + n spin cycles are m cycles followed by n |
| RockTilt.Periodic | 2023/Day14/main.py:86-91 | once a board repeats, later boards repeat with the cycle's period |
| RockTilt.SkipCycles | 2023/Day14/main.py:86-91 | the board after count cycles is the earlier board the lookup picks, at an index already seen |
| RockTilt.Cycle | 2023/Day14/main.py:80-101 | the cycle-detecting loop returns exactly the board after count spin cycles |
| RockTilt.SidewaysKeepsLoad | 2023/Day14/main.py:58-104 | west and east tilts do not change the load |
| RockTilt.LoadExample | 2023/Day14/main.py:103-104 | rocks in rows 1 and 2 of a two-row board weigh 2 and 1 |
| Springs.LeadingBroken | 2023/Day12/main.py:22-46 | the run of broken springs at the start of a row, ending at the first other character |
| Springs.GroupsAreRuns | 2023/Day12/main.py:22-46 | the group loop reports exactly the lengths of the maximal runs of broken springs |
| Springs.GroupsFacts | 2023/Day12/main.py:22-46 | every group is positive, the groups add up to the broken springs, and they fit in the row with a gap between each |
| Springs.GroupsExample | 2023/Day12/main.py:22-46 | #.#.### has groups 1, 1, 3 |
| Springs.IsValid | 2023/Day12/main.py:22-46 | validity fails iff the row still has an unknown spring |
| Springs.Fill | 2023/Day12/main.py:48-71 | filling the unknowns keeps the row's length |
| Springs.FillFacts | 2023/Day12/main.py:48-71 | filling with known values completes the row and adds exactly the broken values to its broken count |
| Springs.Decisions | 2023/Day12/main.py:48-71 | every completion of a row is the fill of some choice of values, one per unknown |
| Springs.ProductsMembers | 2023/Day12/main.py:48-71 | the product lists exactly the strings of known springs of the given length |
| Springs.PossibilitiesIff | 2023/Day12/main.py:48-71 | the possibilities are exactly the completions of the row whose groups match, each fully known, valid and with as many broken springs as the groups sum to |
| Springs.Repeat | 2023/Day12/main.py:83-95 | repeating a sequence n times multiplies its length by n |
| Springs.UnfoldShape | 2023/Day12/main.py:83-95 | unfolding k times joins k copies of the row with k - 1 unknowns between them and repeats the groups k times |
| SpringsDynamic.Find | 2023/Day12/dynamic.py:58 | `find` gives the first position of the character, or -1 iff it is absent |
| SpringsDynamic.RoomForGroup | 2023/Day12/dynamic.py:31-50 | a group fits iff the length is not negative, the row is long enough, no working spring lies inside it and, unless at the end, no broken spring follows it |
| SpringsDynamic.NoUnknowns | 2023/Day12/dynamic.py:53-69 | a row without unknowns counts 1 iff it is valid for the groups and 0 otherwise |
| SpringsDynamic.TooShort | 2023/Day12/dynamic.py:53-74 | a row shorter than the groups plus the gaps between them has no arrangement |
| SpringsDynamic.Example | 2023/Day12/dynamic.py:53-126 | ?.# and ?# each have one arrangement for the group 1 |
| Mirrors.ReflectLoopIff | 2023/Day13/main.py:39-51 | the reflection loop accepts iff the smudges counted so far plus the distance of the mirrored rows is exactly the allowance |
| Mirrors.IsReflectionIff | 2023/Day13/main.py:39-51 | a horizontal line is a reflection iff the rows above and below it, paired outwards, differ in exactly the allowed number of cells |
| Mirrors.NoSmudgesIsZero | 2023/Day13/main.py:54-64 | the exact reflection test agrees with the smudge test at zero smudges on a rectangular pattern |
| Mirrors.Reflections | 2023/Day13/main.py:74-88 | the listed lines are exactly the reflection lines between 1 and n, in ascending order |
| Mirrors.MapOf | 2023/Day13/main.py:74-88 | the horizontal lines are exactly the row reflections and the vertical ones exactly the column reflections |
| Mirrors.ValueIs | 2023/Day13/main.py:111-112 | the value is 100 times the sum of the horizontal lines plus the sum of the vertical ones |
| Mirrors.ProblemAnswers | 2023/Day13/main.py:147-163 | the pattern loop gives an answer whenever the blank lines separate non-empty patterns |
| Mirrors.Example | 2023/Day13/main.py:74-112 | a two-row pattern of equal rows is worth 100 |
| DiskCompaction.Block | 2024/Day09/main.py:12-25 | a block holds n copies of its cell |
| DiskCompaction.ExpandEntries | 2024/Day09/main.py:12-25 | the disk is as long as the digits sum to; file k starts after the first 2k digits with the size of digit 2k and id k, and gap k after the first 2k + 1 digits |
| DiskCompaction.ExpandHolds | 2024/Day09/main.py:12-25 | every listed file and gap is on the disk where its entry says, the gaps in ascending order |
| DiskCompaction.CompactIsFill | 2024/Day09/main.py:29-40 | the corrected part 1 loop moves file blocks from the end into the leftmost gaps, giving the disk's file blocks in fill order |
| DiskCompaction.CompactAsWrittenIsFill | 2024/Day09/main.py:29-40 | the loop as written compacts correctly when the disk ends with a file block |
| DiskCompaction.FillFacts | 2024/Day09/main.py:29-40 | the compacted disk holds only file blocks, the same ones as the disk |
| DiskCompaction.StrictChecksum | 2024/Day09/main.py:67 | the checksum has a value iff every cell is a file block, since a gap cannot be multiplied |
| DiskCompaction.Part1Compacts | 2024/Day09/main.py:29-67 | corrected part 1 always has a checksum, and its disk holds the same blocks as the files |
| DiskCompaction.Part1AsWrittenCounterexample | 2024/Day09/main.py:29-67 | on the disk map 12 the loop as written leaves a gap and the checksum fails, while the corrected one gives 0 |
| DiskCompaction.MoveBlockCells | 2024/Day09/main.py:49-51 | moving a file into a gap puts its blocks there, empties its old place and changes nothing else |
| DiskCompaction.ScanIsFirstFit | 2024/Day09/main.py:43-58 | a file moves into the first gap left of it that is large enough, and stays put when there is none |
| DiskCompaction.MoveReady | 2024/Day09/main.py:43-58 | after a move the remaining files and gaps are still where their entries say, with the same blocks and no larger checksum |
| DiskCompaction.UseGapReady | 2024/Day09/main.py:52-57 | shrinking the used gap keeps the gap list accurate and ordered |
| DiskCompaction.Part2Facts | 2024/Day09/main.py:43-67 | part 2 keeps the same blocks and never increases the checksum |
| Towels.PossibleIffWays | 2024/Day19/main.py:9-31 | a design is possible exactly when the number of ways to make it is positive |
| Towels.PossibleIffSpelled | 2024/Day19/main.py:9-19 | a design is possible exactly when some sequence of patterns, repeats allowed, concatenates to it |
| Towels.WaysPermutation | 2024/Day19/main.py:21-31 | the number of ways does not depend on the order in which the set of patterns is iterated |
| Towels.PossiblePermutation | 2024/Day19/main.py:9-19 | whether a design is possible does not depend on that order either |
| Towels.EmptyDesign | 2024/Day19/main.py:12-25 | the empty design is possible and is made in exactly one way |
| Towels.Part2AtLeastPart1 | 2024/Day19/main.py:40-42 | the total number of ways is never below the number of possible designs |
| Towels.Example | 2024/Day19/main.py:21-31 | with patterns b, r and br the design r is made one way and brr two ways |
| Extrapolation.ShortCrashes | 2023/Day09/main.py:24-29 | a line of at most one reading has an empty row of differences, on which `max` raises |
| Extrapolation.TwoDifferentCrash | 2023/Day09/main.py:24-29 | two different readings also raise: their one difference is not zero and its own row is empty |
| Extrapolation.DiffsLinear | 2023/Day09/main.py:26 | the differences of an arithmetic sequence are its constant step |
| Extrapolation.ConstantExtrapolates | 2023/Day09/main.py:23-35 | a constant line of at least two readings extends by the same constant at both ends |
| Extrapolation.LinearExtrapolates | 2023/Day09/main.py:23-35 | an arithmetic line extends by one more step forwards and one step backwards |
| Extrapolation.ExtrapolateStep | 2023/Day09/main.py:32-35 | each row's next value adds the next value of the row below to its last reading, and its previous value subtracts the row below's previous value from its first |
| Extrapolation.ExtrapolateNeg | 2023/Day09/main.py:23-35 | negating every reading negates both extrapolated values, and crashes stay crashes |
| Extrapolation.DiffsReverse | 2023/Day09/main.py:26 | the differences of the reversed line are the reversed differences, negated |
| Extrapolation.ExtrapolateReverse | 2023/Day09/main.py:23-40 | the previous value of a line is the next value of the reversed line, and the other way round |
| Extrapolation.TotalsReverse | 2023/Day09/main.py:18-45 | the part 2 sum over the lines is the part 1 sum over the reversed lines |
| Extrapolation.Example | 2023/Day09/main.py:23-40 | the line 10 13 16 21 30 45 extends to 68 after and 5 before |
| RockTilt.CycleFound | 2023/Day14/main.py:86-92 | once a board repeats, the board looked up inside the period is the board after count spin cycles |
| BoatRace.CountBelow | 2023/Day6/main.py:23-29 | the count over the first n charge times is the size of the set of those that beat the record |
| BoatRace.WaysToBeat | 2023/Day6/main.py:21-29 | the loop counts exactly the charge times i in range(time) with i·(time − i) above the record |
| BoatRace.WaysBound | 2023/Day6/main.py:23 | there are never more ways than milliseconds, and none when the time is not positive |
| BoatRace.WinnersSymmetric | 2023/Day6/main.py:24-28 | charging i and charging time − i both win or both lose |
| BoatRace.NegativeRecordAll | 2023/Day6/main.py:21-29 | a negative record is beaten by every charge time |
| BoatRace.UnbeatableRecord | 2023/Day6/main.py:21-29 | a record of at least a quarter of the squared time cannot be beaten |
| BoatRace.RecordAntitone | 2023/Day6/main.py:21-29 | raising the record never adds ways |
| BoatRace.Example | 2023/Day6/main.py:21-29 | a 7 ms race against a 9 mm record is won in 4 ways |
| BoatRace.Part1ZeroIff | 2023/Day6/main.py:20-32 | the product over the races is zero exactly when some race, up to the shorter list, cannot be won |
| BoatRace.Part1NonNegative | 2023/Day6/main.py:20-32 | the product is never negative |
| BoatRace.StripRow | 2023/Day6/main.py:37-38 | deleting the spaces of a row of numbers leaves their digits run together |
| BoatRace.ReadRow | 2023/Day6/main.py:37-38 | `int` of that text is the numbers' digits read as one number |
| BoatRace.Part2Reads | 2023/Day6/main.py:35-48 | part 2 counts the ways for the one time and record it reads |
| BoatRace.Part2Kerning | 2023/Day6/main.py:35-48 | part 2 on the same two rows races once, with time and record formed from part 1's numbers run together |
| Decimal.ParseDigits | 2023/Day6/main.py:37 | `int` of one or more digits without a sign reads them as a decimal number |
| PyStr.Split | 2024/Day03/main.py:23 | `split` on one character gives at least one piece, and no piece holds the separator |
| PyStr.SplitAfter | 2024/Day03/main.py:23 | a separator after text free of it ends the first piece, and the rest splits on its own |
| PyStr.SplitJoin | 2024/Day03/main.py:23 | splitting what `join` built from pieces free of the separator gives the pieces back |
| PyStr.JoinSplit | 2024/Day03/main.py:12 | joining the pieces of a split with the same separator gives back the text |
| MulTokens.DigitRun | 2024/Day03/main.py:13 | the greedy `[\d]*` takes only digits and stops at the first character that is not one |
| MulTokens.MatchSound | 2024/Day03/main.py:13 | what the expression finds at a position is a well-formed instruction written there, and the match ends right after its text |
| MulTokens.MatchComplete | 2024/Day03/main.py:13 | a well-formed instruction written at a position is exactly what the expression finds there, `don't()` included |
| MulTokens.FoundWellFormed | 2024/Day03/main.py:13 | every instruction `findall` returns is well formed |
| MulTokens.FindAllTexts | 2024/Day03/main.py:13 | searching instructions written back to back finds exactly those instructions, in order |
| MulTokens.Classify | 2024/Day03/main.py:17-21 | a command starts with `don't` only for `don't()`, with `do` for `do()` and `don't()`, and with `mul` only for a `mul` |
| MulTokens.DoFirstMisreads | 2024/Day03/main.py:17-20 | `don't()` starts with `do`, so the `don't` test must come first |
| MulTokens.Operands | 2024/Day03/main.py:22-23 | cutting `mul(` and `)` off and splitting on the comma gives exactly the two operands |
| MulTokens.Evaluate | 2024/Day03/main.py:22-24 | a `mul` adds the product of its operands read as integers, or raises when one cannot be read |
| MulTokens.Execute | 2024/Day03/main.py:17-24 | one pass of the loop switches on or off for `do()` and `don't()` and adds a product only for a `mul` that counts |
| MulTokens.Interpret | 2024/Day03/main.py:14-25 | the loop's total is the sum of the products of the counted `mul`s, where in part 2 a `mul` counts when the last switch before it was `do()` or there was none |
| MulTokens.NoDontSameTotal | 2024/Day03/main.py:15-21 | without a `don't()` part 2 gives part 1's total |
| MulTokens.DontDisables | 2024/Day03/main.py:17-21 | in part 2 a `mul` right after `don't()` adds nothing |
| MulTokens.Part2AtMostPart1 | 2024/Day03/main.py:21-24 | part 2's total exists whenever part 1's does and is never larger |
| MulTokens.Example | 2024/Day03/main.py:14-25 | the instructions mul(2,4), don't(), mul(5,5), mul(11,8), do(), mul(8,5) total 161 in part 1 and 48 in part 2 |
| MulTokens.EmptyOperandRaises | 2024/Day03/main.py:13-24 | with `[\d]*` the memory `mul(,5)` yields a `mul` with an empty operand, and reading it raises |
| MulTokens.EmptyOperandSkipped | 2024/Day03/main.py:13 | with at least one digit per operand `mul(,5)` holds no instruction and totals 0 |
| MulTokens.ReadableTotal | 2024/Day03/main.py:24 | when every operand has a digit, the total always exists |
| MulTokens.CorrectedNeverRaises | 2024/Day03/main.py:13-25 | with at least one digit per operand the search never makes the loop raise |
| Calibration.SpelledFrom | 2023/Day1/main.py:40-44 | a spelled digit read at a position is a value from 1 to 9 whose name is written there |
| Calibration.SpelledUnique | 2023/Day1/main.py:40-44 | whatever name is written at a position is the one read there, so the order of the names does not matter |
| Calibration.NotBoth | 2023/Day1/main.py:5 | no two names can both be written at the same position |
| Calibration.ShortTail | 2023/Day1/main.py:40-44 | no name fits in the last two characters of a line |
| Calibration.DigitAt | 2023/Day1/main.py:35-44 | a digit character is read as its value in both parts, and part 1 reads nothing else |
| Calibration.Scan | 2023/Day1/main.py:35-46 | `first` is read at the leftmost position holding a digit, and nothing is read when no position holds one |
| Calibration.ScanBack | 2023/Day1/main.py:48-59 | `last` is read at the rightmost position holding a digit, and nothing is read when no position holds one |
| Calibration.Value | 2023/Day1/main.py:61 | a calibration value is at most 99, and it is missing (the Python raises) exactly when no position holds a digit |
| Calibration.Total | 2023/Day1/main.py:61-65 | the sum exists exactly when every line holds a digit, and is at most 99 per line |
| Calibration.ValueSpec | 2023/Day1/main.py:35-61 | the value is ten times the digit at the leftmost digit position plus the digit at the rightmost, whatever lies between |
| Calibration.FirstNotAfterLast | 2023/Day1/main.py:35-59 | the first digit is never to the right of the last one; they may be the same character |
| Calibration.SingleDigit | 2023/Day1/main.py:13-23 | a line holding a single digit reads it as both first and last |
| Calibration.ReverseScan | 2023/Day1/main.py:18-21 | scanning `line[::-1]` forwards meets the digits of the line from the right, so part 1's last digit is the backward scan's, at the mirrored position |
| Calibration.SpelledKeepsDigits | 2023/Day1/main.py:36-37 | part 2 reads every digit character as part 1 does |
| Calibration.FirstWidens | 2023/Day1/main.py:35-46 | part 2's first digit exists whenever part 1's does, and is never to its right |
| Calibration.LastWidens | 2023/Day1/main.py:48-59 | part 2's last digit exists whenever part 1's does, and is never to its left |
| Calibration.SpelledWidens | 2023/Day1/main.py:28-61 | every line part 1 can read, part 2 can read |
| Calibration.NoNamesSameValue | 2023/Day1/main.py:35-59 | a line without any spelled name has the same value in both parts |
| Calibration.Part1Example | 2023/Day1/main.py:13-23 | "treb7uchet" is worth 77 |
| Calibration.OverlapExample | 2023/Day1/main.py:35-59 | "eightwo" reads 8 first and 2 last, the two names sharing a letter |
| Calibration.NoDigitRaises | 2023/Day1/main.py:23 | part 1 raises on "abc" |
| PyStr.SplitConcat | 2023/Day04/main.py:20 | splitting around one separator splits the text on each side of it independently |
| Scratchcards.ReadPiecesAppend | 2023/Day04/main.py:20-23 | empty pieces from doubled spaces are skipped wherever they stand, and the numbers of two runs of pieces are those of each run in turn |
| Scratchcards.ReadShown | 2023/Day04/main.py:26-29 | reading the pieces `str(n)` gives back the numbers |
| Scratchcards.NumbersWritten | 2023/Day04/main.py:20-29 | numbers written with single spaces between them and a space at each end, as between the colon and the bar on a card, read back as written |
| Scratchcards.ParseCard | 2023/Day04/main.py:17-24 | a card is read only from a line holding exactly one bar |
| Scratchcards.NumbersAfterSpace | 2023/Day04/main.py:20-23 | numbers written after a space, as after the bar on a card, read back as written |
| Scratchcards.ParseCardLine | 2023/Day04/main.py:17-24 | a card written as `Card <id>:`, your numbers, a bar and the winning numbers reads back as your numbers in order and the winning numbers as a set |
| Scratchcards.Matches | 2023/Day04/main.py:25-31 | a card has at most as many matches as numbers |
| Scratchcards.CountMatches | 2023/Day04/main.py:25-31 | the counting loop counts, with repeats, how many of your numbers are winning numbers |
| Scratchcards.NoMatchIff | 2023/Day04/main.py:25-33 | a card has no match exactly when none of its numbers wins |
| Scratchcards.MatchesOverlap | 2023/Day04/main.py:19-31 | with no number written twice, the match count is the size of the overlap of your numbers with the winning set |
| Scratchcards.Score | 2023/Day04/main.py:32-33 | a card scores nothing exactly when it has no match |
| Scratchcards.ScoreDoubles | 2023/Day04/main.py:32-33 | the first match is worth one point and each further match doubles the score |
| Scratchcards.Part1ZeroIff | 2023/Day04/main.py:13-34 | part 1 is zero exactly when no card has a match |
| Scratchcards.Instances | 2023/Day04/main.py:41-44 | every card is held at least once |
| Scratchcards.AllInstances | 2023/Day04/main.py:38-44 | the first n cards make at least n instances |
| Scratchcards.AddCopies | 2023/Day04/main.py:62-66 | each of the next `count` queued entries grows by the card's instances, and the queue grows to `count` entries when shorter |
| Scratchcards.Play | 2023/Day04/main.py:41-66 | a card's instances are its original plus its queued copies; the queue then moves on by one card and the card's copies are added |
| Scratchcards.Part2 | 2023/Day04/main.py:36-67 | the queue loop counts exactly the instances of every card, where card m adds one copy of each card m + 1 .. m + count(m) per instance of it |
| Scratchcards.PendingCounts | 2023/Day04/main.py:61-66 | a card gets at least one copy per instance of every earlier card whose matches reach it |
| Scratchcards.AtLeastOneEach | 2023/Day04/main.py:41-44 | part 2 is at least the number of cards |
| Scratchcards.NoMatchesOneEach | 2023/Day04/main.py:61-66 | without any match every card is held exactly once |
| Scratchcards.Example | 2023/Day04/main.py:36-67 | match counts 4, 2, 2, 1, 0, 0 make 30 scratchcards |
| Warehouse.ChainFrom | 2024/Day15/main.py:20-29 | the push loop passes exactly the boxes in a row, none of them a wall, and stops at the first wall or free cell after them |
| Warehouse.Step | 2024/Day15/main.py:15-31 | walls never change; a successful move advances the robot exactly one cell; a failed move changes nothing; the number of boxes stays the same |
| Warehouse.IntoWall | 2024/Day15/main.py:16-18 | a step into a wall fails and changes nothing |
| Warehouse.IntoFree | 2024/Day15/main.py:16-31 | a step onto an empty cell moves the robot and no box |
| Warehouse.WallEndsChain | 2024/Day15/main.py:19-23 | when a wall follows the boxes in a row ahead of the robot, the move fails and nothing changes |
| Warehouse.PushChain | 2024/Day15/main.py:19-31 | when a free cell follows the boxes in a row ahead of the robot, the first box lands on that cell and the robot takes its place |
| Warehouse.StepValid | 2024/Day15/main.py:15-31 | no step puts a box on a wall or the robot on a wall or a box |
| Warehouse.Run | 2024/Day15/main.py:34-42 | a sequence of moves keeps the walls and the number of boxes |
| Warehouse.RunValid | 2024/Day15/main.py:34-42 | a sequence of moves keeps the warehouse valid |
| Warehouse.ScoreRemove | 2024/Day15/main.py:45-46 | the score is the sum over the boxes in any order: any box can be taken out first |
| Warehouse.ScoreAdd | 2024/Day15/main.py:45-46 | adding a box adds 100 times its row plus its column |
| Warehouse.PushScore | 2024/Day15/main.py:24-29 | pushing a chain of boxes changes the score as if every box of it moved one cell |
| Warehouse.StepScore | 2024/Day15/main.py:15-46 | a step changes the score by the number of pushed boxes times the step's change of coordinate, and a failed step not at all |
| Warehouse.PushExample | 2024/Day15/main.py:15-31 | a box pushed east moves one cell and then stops against the wall behind it |
| GuardWalk.InBounds | 2024/Day06/main.py:65-68 | a position is on the board exactly when 0 <= x < width and 0 <= y < height |
| GuardWalk.Reset | 2024/Day06/main.py:70-75 | the corrected reset of the finding at line 73: the guard is back at the start with the start heading, the test obstacle at (-1, -1), the grid kept, the start state (position and heading together) the one visited entry and the start cell the one visited space |
| GuardWalk.ResetAsWritten | 2024/Day06/main.py:70-75 | reset as written: the guard, heading, obstacle, grid and visited spaces are set as by the corrected reset, but the visited record differs from it |
| GuardWalk.Restart | 2024/Day06/main.py:70-75 | either reset puts the guard at the start with the start heading, clears the test obstacle and keeps the grid; the start state is missing from the record exactly for the reset as written |
| GuardWalk.New | 2024/Day06/main.py:6-12 | the board's size is the grid's, it starts at the given position and heading, and the constructor has already run the reset as written |
| GuardWalk.Walk | 2024/Day06/main.py:43-57 | the grid and obstacle are kept and records only grow; off the board the walk ends with the heading kept; on the board the guard has turned right in front of an obstacle and the new state is recorded; it goes on only when that state is new |
| GuardWalk.OffBoard | 2024/Day06/main.py:45-48 | stepping off the board ends the walk, the guard's position then outside |
| GuardWalk.TurnInPlace | 2024/Day06/main.py:49-54 | in front of a '#' or the test obstacle the guard turns right without moving, and stops walking when it had turned that way there before |
| GuardWalk.WalkRecords | 2024/Day06/main.py:55-57 | every free cell the guard walks onto is recorded in the visited spaces and with its heading in the visited states |
| GuardWalk.WalkRecorded | 2024/Day06/main.py:43-57 | every recorded cell and state lies on the board |
| GuardWalk.UnseenShrinks | 2024/Day06/main.py:50-54 | a walk that goes on has turned into a state never seen before |
| GuardWalk.WalkOff | 2024/Day06/main.py:59-63 | walking until a walk ends always stops; the guard then is off the board or in a state it has been in before |
| GuardWalk.WalkOffRecorded | 2024/Day06/main.py:59-63 | walking off keeps every recorded cell and state on the board |
| GuardWalk.ResetForgets | 2024/Day06/main.py:70-75 | resetting after a walk or a whole walk-off gives the board reset before it |
| GuardWalk.ResetIdempotent | 2024/Day06/main.py:70-75 | resetting twice is resetting once |
| GuardWalk.ResetClearsObstacle | 2024/Day06/main.py:70-75 | after a reset only the grid's '#' cells stop the guard |
| GuardWalk.ResetRecordsStart | 2024/Day06/main.py:73 | the reset board holds the start state as its one visited entry |
| GuardWalk.ResetAsWrittenLoose | 2024/Day06/main.py:73 | as written, the reset record holds the start position and heading as two loose entries and not the start state |
| GuardWalk.Part1 | 2024/Day06/main.py:77-83 | part 1 with the corrected reset counts at least the start state |
| GuardWalk.Part1AsWritten | 2024/Day06/main.py:77-83 | part 1 as computed, on the board the constructor resets as written, counts at least the two loose start entries |
| GuardWalk.OneCellExample | 2024/Day06/main.py:73-83 | on a one-cell board part 1 is 1, and 2 with the reset as written |
| GuardWalk.LoopPoints | 2024/Day06/main.py:85-95 | under either reset, every loop point is not the start and makes the guard loop |
| GuardWalk.WalkWithObstacle | 2024/Day06/main.py:43-57 | a test obstacle off the cells a walk passes changes nothing else about the walk |
| GuardWalk.WalkOffWithObstacle | 2024/Day06/main.py:59-63 | the same holds for a whole walk-off |
| GuardWalk.LoopPointsComplete | 2024/Day06/main.py:85-95 | under either reset, when the guard walks off the board unobstructed, the loop points are exactly the cells other than the start where an obstacle makes it loop, on its path or not |
| GuardWalk.CountLoopPoints | 2024/Day06/main.py:85-95 | under either reset there are fewer loop points than cells on the unobstructed path, since the start is never one |
| GuardWalk.Part2AsWritten | 2024/Day06/main.py:77-95 | part 2 as computed, every board set up by the reset as written: fewer loop points than cells on the path the constructed board walks |
| GuardWalk.Part2 | 2024/Day06/main.py:85-95 | part 2 with the corrected reset: fewer loop points than cells on the path of the reset board |
| Antinodes.March | 2024/Day08/main.py:49-58 | the resonant loop yields the points a whole number of steps from its start, all on the board, and stops at the first point off it |
| Antinodes.Between | 2024/Day08/main.py:50-58 | a point of the line between two points on the board is on the board |
| Antinodes.MarchComplete | 2024/Day08/main.py:49-58 | the resonant loop misses no point of its line on the board |
| Antinodes.PairNodesExact | 2024/Day08/main.py:42-58 | a pair's new nodes are exactly its antinodes with its frequency: one step beyond each antenna on the board, or with resonance every in-bounds point a whole number of steps outwards from either antenna |
| Antinodes.ResonantSound | 2024/Day08/main.py:47-58 | every resonant node is an in-bounds point a whole number of steps out from an antenna |
| Antinodes.ResonantComplete | 2024/Day08/main.py:47-58 | every in-bounds point a whole number of steps out from an antenna is a resonant node |
| Antinodes.AntennasResonate | 2024/Day08/main.py:49-56 | with resonance both antennas are antinodes |
| Antinodes.PairsExact | 2024/Day08/main.py:40-41 | the nested loops visit exactly the pairs of antennas i < j |
| Antinodes.PairsCount | 2024/Day08/main.py:40-41 | n antennas make n(n-1)/2 pairs, each unordered pair once |
| Antinodes.PairsDistinct | 2024/Day08/main.py:40-41 | no antenna is paired with itself |
| Antinodes.PairListExact | 2024/Day08/main.py:40-59 | the nodes of a list of pairs are exactly what some pair of it makes |
| Antinodes.TypeNodesExact | 2024/Day08/main.py:39-59 | one frequency's nodes are exactly the antinodes of its pairs i < j, with that frequency |
| Antinodes.MarkExact | 2024/Day08/main.py:37-59 | a node is marked exactly when two antennas of its own frequency make it: frequencies never pair up across |
| Antinodes.Locations | 2024/Day08/main.py:33-34 | the locations are the cells of the nodes, without duplicates or frequencies |
| Antinodes.LocationsInBounds | 2024/Day08/main.py:44-58 | every antinode location is on the board |
| Antinodes.ExamplePair | 2024/Day08/main.py:44-46 | antennas at (4, 3) and (5, 5) on a 10 by 10 board make antinodes at (3, 1) and (6, 7) |
| SeedMaps.Min | 2023/Day5/main.py:25 | `min` gives one of its arguments, no larger than either |
| SeedMaps.Max | 2023/Day5/main.py:25 | `max` gives one of its arguments, no smaller than either |
| SeedMaps.Extend | 2023/Day5/main.py:23-28 | the extended range covers both ranges |
| SeedMaps.ExtendLeast | 2023/Day5/main.py:23-28 | every range covering both covers the extended one: extending adds nothing more |
| SeedMaps.ExtendCommutes | 2023/Day5/main.py:23-28 | extending is symmetric |
| SeedMaps.ExtendAssociates | 2023/Day5/main.py:23-28 | extending is associative |
| SeedMaps.ExtendEmpty | 2023/Day5/main.py:16-28 | the default range from +inf to -inf leaves any range unchanged when extended with it |
| SeedMaps.RaiseMax | 2023/Day5/main.py:30-31 | raising the top only widens the range, and the top reaches the new maximum |
| SeedMaps.ReduceMin | 2023/Day5/main.py:33-34 | lowering the bottom only widens the range, and the bottom reaches the new minimum |
| SeedMaps.OneSided | 2023/Day5/main.py:23-34 | raising the top or lowering the bottom is extending with a range open on the other side |
| SeedMaps.EqIsSame | 2023/Day5/main.py:39-43 | the intended equality holds exactly for ranges with the same (min, max) pair |
| SeedMaps.EqAsWrittenSound | 2023/Day5/main.py:39-43 | ranges with the same pair compare equal as written too |
| SeedMaps.EqAsWrittenCollides | 2023/Day5/main.py:39-43 | as written, the ranges (-1, 0) and (-2, 0) compare equal, whatever the tuple hash combines |
| SeedMaps.Get | 2023/Day5/main.py:71-79 | a value in the source span keeps its offset from the span's start in the destination; any other value comes back unchanged |
| SeedMaps.GetInvert | 2023/Day5/main.py:71-79 | the range read backwards undoes it on its span |
| SeedMaps.GetMonotone | 2023/Day5/main.py:71-79 | on its span a range keeps the order of values |
| SeedMaps.InsertDesc | 2023/Day5/main.py:98-100 | inserting fails exactly on a tied source start, and otherwise adds the range to the others |
| SeedMaps.InsertDescSorted | 2023/Day5/main.py:98-100 | inserting keeps the ranges in descending order of source start |
| SeedMaps.TieSnoc | 2023/Day5/main.py:98-100 | a tie in a list with one more range is a tie before it or with the new range |
| SeedMaps.Build | 2023/Day5/main.py:87-100 | the map holds the same ranges in strictly descending order of source start, and fails exactly when two ranges share a start |
| SeedMaps.MapGetInSpan | 2023/Day5/main.py:152-162 | with non-empty, non-overlapping spans a value is moved by the range whose span holds it |
| SeedMaps.MapGetOutside | 2023/Day5/main.py:152-162 | a value in no span comes back unchanged |
| SeedMaps.Part1 | 2023/Day5/main.py:177-189 | the answer is the location of some seed and no larger than any seed's location; with no seeds `min` raises |
| SeedMaps.SoilBuilt | 2023/Day5/main.py:87-100 | the example's seed-to-soil ranges are kept in their given descending order |
| SeedMaps.SoilExample | 2023/Day5/main.py:152-162 | in the example's seed-to-soil map seed 79 goes to 81 and seed 14 to 14 |
| LogicGates.Op | 2024/Day24/main.py:60-73 | XOR is set iff exactly one input is, OR iff at least one is, AND iff both are |
| LogicGates.OpSymmetric | 2024/Day24/main.py:60-73 | no gate depends on the order of its inputs |
| LogicGates.Update | 2024/Day24/main.py:45-54 | reports True iff both inputs are known and the output is not; then the output holds the gate's function of the inputs; otherwise nothing changes; known wires keep their bits and every wire learnt is the output of a gate that computes it |
| LogicGates.Set | 2024/Day24/main.py:18-21 | the wire holds the bit afterwards, every other known wire keeps its bit, and every wire the cascade learns is the output of a gate that computes it |
| LogicGates.Cascade | 2024/Day24/main.py:20-21 | updating the gates that read a wire keeps the known wires and learns only wires that some gate computes |
| LogicGates.Pass | 2024/Day24/main.py:147-150 | a sweep that reports no change changes nothing and found no gate ready; a sweep that reports a change learns a new wire; a sweep over gates none of which is ready reports no change |
| LogicGates.Sim | 2024/Day24/main.py:145-152 | the loop ends with no gate able to fire, keeping every known wire, and every wire it learnt is the output of a gate that computes it |
| LogicGates.SimComputes | 2024/Day24/main.py:145-152 | when each wire is the output of at most one gate and the given wires are outputs of none, the settled circuit computes every gate whose inputs are known |
| LogicGates.Reset | 2024/Day24/main.py:89-91 | no wire is known afterwards |
| LogicGates.ResetSettles | 2024/Day24/main.py:89-91 | a reset circuit has no gate that can fire, so sim changes nothing |
| LogicGates.PadParses | 2024/Day24/main.py:138 | the two-digit zero-padded bit number reads back as the number |
| LogicGates.NameInjective | 2024/Day24/main.py:138 | different prefixes or bit numbers name different wires |
| LogicGates.ExtractNum | 2024/Day24/main.py:135-139 | gives a number iff every wire it reads is known, and the number is below 2 to the number of bits read |
| LogicGates.SetNum | 2024/Day24/main.py:141-143 | succeeds iff every bit wire exists; then bit wire i holds bit i of the value in two's complement and wires with other prefixes keep their states |
| LogicGates.LowBitsMod | 2024/Day24/main.py:143 | the first n bits of a value, negative values too, make the value modulo 2^n |
| LogicGates.ExtractAfterSet | 2024/Day24/main.py:135-143 | for any prefix but 'z', reading back the number just set gives the value modulo 2^num_size |
| LogicGates.Setup | 2024/Day24/main.py:93-96 | succeeds iff every x and y bit wire exists |
| LogicGates.SetupReads | 2024/Day24/main.py:93-96 | afterwards the x wires read x and the y wires read y, each modulo 2^num_size |
| LogicGates.Simulate | 2024/Day24/main.py:145-155 | gives a number iff every z wire is known once the circuit settles, and it is below 2^(num_size + 1) |
| Workflows.Assignment | 2023/Day19/main.py:12-28 | an item that reads succeeds only with one of the four category keys; a key outside them raises KeyError |
| Workflows.Assign | 2023/Day19/main.py:12-14 | the loop succeeds iff every item reads, keeps the keys already there, adds every item's key and no key outside the categories |
| Workflows.PartFromString | 2023/Day19/main.py:10-15 | a part read from text has no key outside x, m, a and s |
| Workflows.PartRoundTrip | 2023/Day19/main.py:10-32 | reading back the text `__str__` writes for a fully rated part gives the part |
| Workflows.RatingEmpty | 2023/Day19/main.py:17-18 | a part without values rates 0 |
| Workflows.RatingSet | 2023/Day19/main.py:17-18 | setting a category moves the rating by the change in that value, so the rating is the sum of the values |
| Workflows.RuleFromString | 2023/Day19/main.py:44-58 | text without ':' is an unconditional rule to itself; a test's destination holds no ':' |
| Workflows.CondParses | 2023/Day19/main.py:44-56 | `c<n:d` and `c>n:d` read as the test of category c against n, sending the part to d |
| Workflows.BadOperatorRaises | 2023/Day19/main.py:49-55 | a test with a number but an operator other than '<' and '>' raises the uncaught NameError |
| Workflows.Applies | 2023/Day19/main.py:20-23 | an unconditional rule applies; a test of a rated category compares its value with the number; a test of any other key raises KeyError |
| Workflows.FirstMatch | 2023/Day19/main.py:78-81 | the destination is that of a rule that applies with every earlier rule not applying; None iff no rule applies; every test succeeding means no error |
| Workflows.Base | 2023/Day19/main.py:68 | the registry starts with exactly 'A' accepting and 'R' rejecting |
| Workflows.EvaluateMore | 2023/Day19/main.py:75-82 | an evaluation that finished within some rounds gives the same answer with more |
| Workflows.NoMatchHangs | 2023/Day19/main.py:76-81 | a workflow none of whose rules applies makes `evaluate` loop for ever |
| Workflows.EvaluateStep | 2023/Day19/main.py:79-80 | a round that picks destination d stops at d's verdict or goes on with d's rules |
| Workflows.SomeRuleApplies | 2023/Day19/main.py:78-81 | in a workflow ending in an unconditional rule a fully rated part always finds a rule, which leads lower in the ranking |
| Workflows.SendsSomewhere | 2023/Day19/main.py:75-82 | with every workflow ranked above its destinations, `evaluate` sends every fully rated part to a verdict within rank + 1 rounds |
| Workflows.WorkflowFromString | 2023/Day19/main.py:85-91 | the name read holds no '{'; text without exactly one '{' raises ValueError |
| Workflows.ParseRules | 2023/Day19/main.py:87-88 | succeeds iff every rule text reads, giving one rule per text in order |
| Workflows.Load | 2023/Day19/main.py:69-72 | registering succeeds iff every line reads; the registry keeps its names, gains every workflow's name and no other |
| Workflows.JudgeOf | 2023/Day19/main.py:112-120 | a line adds its part's rating when accepted and 0 when rejected, when the part rates all four categories; otherwise the debug line of either verdict, which formats the part through `Part.__str__` (line 31), raises KeyError |
| Workflows.IncompleteRaises | 2023/Day19/main.py:31 | a part that evaluates but lacks one of x, m, a, s raises KeyError on its debug line (117 when accepted, 120 when rejected) |
| Workflows.TotalIncomplete | 2023/Day19/main.py:110-121 | when every line reads and every part evaluates but some part lacks a category, the answer is KeyError, raised at the first such part |
| Workflows.CollectSums | 2023/Day19/main.py:111-118 | when no line raises the answer is the sum of what the lines add |
| Workflows.CollectFails | 2023/Day19/main.py:111-118 | the first line that raises decides the error |
| Workflows.TotalUniform | 2023/Day19/main.py:110-122 | when every part is accepted the answer is the sum of all ratings, and when every part is rejected it is 0; either way it is KeyError when some part lacks a category (lines 31, 117, 120) |
| Workflows.Problem | 2023/Day19/main.py:101-122 | without a workflow named 'in' the answer is KeyError |
| Workflows.TotalMixed | 2023/Day19/main.py:110-122 | when every line reads and every part evaluates, the answer is the sum of the ratings of exactly the accepted parts, for any mix of verdicts, or KeyError when some part lacks a category (lines 31, 117, 120) |
| Workflows.ProblemAccepted | 2023/Day19/main.py:101-122 | with a workflow named 'in', the answer is the sum of the ratings of exactly the parts it accepts, or KeyError when some part lacks a category (lines 31, 117, 120) |
| WordSearch.Horizontal | 2024/Day04/main.py:13-17 | one line per row, each of the grid's width, holding the row's characters, in reverse order when `reverse` |
| WordSearch.Vertical | 2024/Day04/main.py:19-23 | one line per column, each of the grid's height, character k of line i being row k of column i, or row h-1-k when `reverse` |
| WordSearch.VerticalTwice | 2024/Day04/main.py:19-23 | the columns of the columns are the rows again: `get_vertical` transposes |
| WordSearch.HorizontalReverseTwice | 2024/Day04/main.py:13-17 | reversing the rows twice gives the grid back |
| WordSearch.DiagonalToXY | 2024/Day04/main.py:62-72 | every position j on diagonal i of a w by h grid is a cell of the grid |
| WordSearch.DiagonalRoundTrip | 2024/Day04/main.py:62-72 | every (diagonal, position) pair is recovered from the cell `diagonal_to_xy` gives: the map is one-to-one |
| WordSearch.CellRoundTrip | 2024/Day04/main.py:62-72 | every cell of the grid is the image of a (diagonal, position) pair in range: the map is onto |
| WordSearch.DiagonalStep | 2024/Day04/main.py:62-72 | one step along a diagonal goes one row down and one column right, or left for the down-left family |
| WordSearch.RowDiagonal | 2024/Day04/main.py:31-41 | the line read from row `row` is diagonal h-1-row, read through Python's negative column index for the down-left family |
| WordSearch.ColumnDiagonal | 2024/Day04/main.py:42-51 | the line read from column `col` is diagonal h+col-1 |
| WordSearch.GetDiagonals | 2024/Day04/main.py:26-52 | h+w-1 lines, line i being diagonal i, so that `diagonal_to_xy(i, j)` is the cell of its character j; reversed when `reverse` |
| WordSearch.AllDirections | 2024/Day04/main.py:54-56 | one line per row, per column and per diagonal of both families |
| WordSearch.FindIter | 2024/Day04/main.py:97-101 | every start reported by `finditer` is a place where the word starts |
| WordSearch.FindIterFindsAll | 2024/Day04/main.py:97-101 | for MAS and SAM `finditer` reports every place the word starts: no match hides inside another |
| WordSearch.FindAllCountsAll | 2024/Day04/main.py:86-87 | for XMAS and SAMX `findall` counts every occurrence, although it resumes after each match |
| WordSearch.Part1 | 2024/Day04/main.py:82-90 | an answer iff the file has a line; an empty file raises IndexError |
| WordSearch.Part1CountsAll | 2024/Day04/main.py:83-90 | part 1 is the number of occurrences of XMAS and SAMX over every row, column and diagonal |
| WordSearch.Part2 | 2024/Day04/main.py:93-108 | an answer iff the file has a line |
| WordSearch.CentersAreArms | 2024/Day04/main.py:96-101 | the cell `diagonal_to_xy` gives for the middle of a MAS or SAM match holds an A with M and S at its two diagonal neighbours |
| WordSearch.ArmsAreCenters | 2024/Day04/main.py:96-101 | every inner cell holding an A with M and S at its two diagonal neighbours is found as a centre |
| WordSearch.CentersExact | 2024/Day04/main.py:96-105 | the set of centres of a family is exactly the set of cells with a MAS across them along that family |
| WordSearch.Part2CountsXmas | 2024/Day04/main.py:93-108 | part 2 is the number of cells where two MAS cross in an X, each read either way |
| GardenRegions.At | 2024/Day12/main.py:12-15 | None exactly off the grid; on it, the plant of the cell |
| GardenRegions.Neighbors | 2024/Day12/main.py:17-19 | a cell is listed iff it is on the grid and shares a side with p; at most four |
| GardenRegions.NeighborsSymmetric | 2024/Day12/main.py:17-19 | q is a neighbour of p iff p is a neighbour of q |
| GardenRegions.Grown | 2024/Day12/main.py:114-116 | one round queues exactly the neighbours of the popped cell holding the region's plant that are not yet in the region |
| GardenRegions.Fill | 2024/Day12/main.py:108-116 | the loop ends whatever cell `pop` takes; its result holds the start region and fringe and lies on the grid |
| GardenRegions.FillKind | 2024/Day12/main.py:107-116 | the fill takes only cells of the start's plant |
| GardenRegions.FillClosed | 2024/Day12/main.py:111-116 | the fill stops with every same-plant neighbour of its cells inside it |
| GardenRegions.FillLeast | 2024/Day12/main.py:111-116 | the fill takes nothing outside any closed set holding its start |
| GardenRegions.ComponentShape | 2024/Day12/main.py:104-117 | a region holds one plant and is closed under same-plant neighbours |
| GardenRegions.ComponentLeast | 2024/Day12/main.py:104-117 | a region is the least such set holding its start: nothing unreachable from the start is in it |
| GardenRegions.ComponentShared | 2024/Day12/main.py:104-117 | filling from any cell of a region gives the same region |
| GardenRegions.GrowSound | 2024/Day12/main.py:104-117 | the fill from each cell is a set of that cell's plant holding it, and the fill from any of its cells is the same set |
| GardenRegions.ScanCovers | 2024/Day12/main.py:102-118 | the scan leaves no cell of the grid outside both the visited cells and its regions |
| GardenRegions.ScanFresh | 2024/Day12/main.py:102-118 | the scan's regions lie on the grid and share no cell with the visited cells |
| GardenRegions.ScanSeparate | 2024/Day12/main.py:102-118 | each region of the scan shares no cell with the regions found after it |
| GardenRegions.ScanRegions | 2024/Day12/main.py:102-118 | every region of the scan is nonempty, holds its plant, and is the fill from each of its cells |
| GardenRegions.FromFilePartitions | 2024/Day12/main.py:98-119 | the regions cover the grid, no two share a cell, and each is the flood-filled component of every cell in it |
| GardenRegions.OneRegion | 2024/Day12/main.py:98-119 | every cell of the grid is in exactly one region |
| GardenRegions.AreasCoverGrid | 2024/Day12/main.py:31-32 | the areas of the regions add up to the number of cells of the grid |
| GardenRegions.Exposed | 2024/Day12/main.py:34-35 | a cell faces out towards d iff it is in the region and its neighbour towards d is not |
| GardenRegions.Perimeter | 2024/Day12/main.py:34-35 | the perimeter is at most 4 times the area |
| GardenRegions.PerimeterAtLeastFour | 2024/Day12/main.py:34-35 | a region with a cell has perimeter at least 4 |
| GardenRegions.PerimeterSingle | 2024/Day12/main.py:34-35 | a one-cell region has perimeter 4 |
| GardenRegions.Price | 2024/Day12/main.py:88-89 | the price of a nonempty region lies between 4 times its area and 4 times its area squared |
| GardenRegions.Part1 | 2024/Day12/main.py:122-127 | an answer iff the file has a line; an empty file raises IndexError |
| GardenRegions.Part1AtLeast | 2024/Day12/main.py:122-127 | part 1 is at least 4 times the number of cells |
| GearRatios.RunEnd | 2023/Day3/main.py:36-38 | the inner loop passes only digits and stops at the end of the line or at a character that is no digit |
| GearRatios.TokensFromRuns | 2023/Day3/main.py:32-43 | every token is a maximal run of digits of the line, carrying the decimal value of its digits |
| GearRatios.TokensOrdered | 2023/Day3/main.py:32-43 | the tokens of a line come left to right and never overlap |
| GearRatios.TokensCoverDigits | 2023/Day3/main.py:32-43 | every digit of a line lies inside a token, so the tokens are exactly the maximal runs |
| GearRatios.FindToken | 2023/Day3/main.py:48-49 | the token found covers the column, and no token is found only when none covers it |
| GearRatios.LookupIff | 2023/Day3/main.py:44-49 | the dictionary maps a cell to a number iff the number lies in that row and covers that column, so every cell of a number maps to that number and to no other |
| GearRatios.VisitProduct | 2023/Day3/main.py:56-64 | the loop keeps `ratio` equal to the product of the numbers in `seen`, and `seen` free of repeats |
| GearRatios.VisitMembers | 2023/Day3/main.py:58-66 | a number ends up in `seen` iff it was there or one of the remaining cells belongs to it |
| GearRatios.RatioIsProduct | 2023/Day3/main.py:56-64 | a symbol's ratio is the product of the distinct numbers around it, each taken once |
| GearRatios.SeenIsNear | 2023/Day3/main.py:58-66 | the numbers around a cell are exactly the numbers that reach within one row and one column of it, diagonals included |
| GearRatios.GearRatioIsPair | 2023/Day3/main.py:67-69 | a symbol with exactly two numbers around it has two different numbers and its ratio is their product |
| GearRatios.SymbolsFrom | 2023/Day3/main.py:52-55 | the scan meets only symbol cells, in reading order from its start |
| GearRatios.SymbolsExact | 2023/Day3/main.py:52-55 | the scan meets a cell iff it holds a character other than '.' and a digit |
| GearRatios.IncludedIff | 2023/Day3/main.py:58-61 | a number is marked included iff it is a number of the schematic and comes near some symbol |
| GearRatios.NumbersFromExact | 2023/Day3/main.py:44-47 | the list of numbers holds every number of the schematic and holds each only once |
| GearRatios.Parts | 2023/Day3/main.py:90-93 | the kept numbers are the included ones of the list, still without repeats |
| GearRatios.TotalIsParts | 2023/Day3/main.py:90-93 | the total adds up a list that holds every part number once and no other number |
| GearRatios.GearSumIsPairs | 2023/Day3/main.py:67-69 | adding up the gears' ratios adds up the products of each gear's two numbers |
| GearRatios.Part1AsWritten | 2023/Day3/main.py:51-95 | the source's answer fails exactly when the schematic has no symbol, since `ratio` is then never bound |
| GearRatios.Part1Gears | 2023/Day3/main.py:51-95 | the corrected answer is the total of the part numbers and, over the gears, the sum of the products of their two numbers |
| GearRatios.LoneSymbolAsWritten | 2023/Day3/main.py:95 | the schematic `#` gives (0, 1) as written and (0, 0) corrected |
| GearRatios.NoSymbolAsWritten | 2023/Day3/main.py:95 | the schematic `1` raises as written and has no gear ratio corrected |
| NodeNetwork.ParseShow | 2023/Day8/main.py:33-35 | reading back the line `id = (left, right)` of a node whose names are plain words gives that node: the brackets and comma go, the line splits into four words and the second is dropped |
| NodeNetwork.UnpunctConcat | 2023/Day8/main.py:34 | deleting the brackets and commas of a text deletes them piece by piece |
| NodeNetwork.Build | 2023/Day8/main.py:14-21 | every node read is stored, and each under its own id |
| NodeNetwork.BuildLast | 2023/Day8/main.py:14-21 | an id maps to the last node read with that id, since a later line overwrites the dictionary entry |
| NodeNetwork.Move | 2023/Day8/main.py:48-53 | a step lands on a node of the network, and a character other than L and R leaves the walk where it is |
| NodeNetwork.Part1 | 2023/Day8/main.py:44-46 | without a node AAA part 1 fails with the lookup, and with no instructions the count stays 0 |
| NodeNetwork.WalkIsFirstArrival | 2023/Day8/main.py:46-59 | the loop from any point of the walk stops at the first later step on ZZZ, and fails only where the walk meets a neighbour without a line |
| NodeNetwork.Part1IsFirstArrival | 2023/Day8/main.py:44-61 | an answer of part 1 is a positive step count at which the walk from AAA stands on ZZZ, with no ZZZ before it |
| NodeNetwork.Part1Finds | 2023/Day8/main.py:44-61 | conversely, the first step count on ZZZ is the answer when the walk is allowed that many steps |
| NodeNetwork.SameStateOnward | 2023/Day8/main.py:145-147 | two step counts in the same (node, instruction index) state stay in equal states every step after, which is why the loop keys on that pair |
| NodeNetwork.CycleCloses | 2023/Day8/main.py:147-153 | the step that meets a recorded state closes a cycle from its first sighting, of positive length |
| NodeNetwork.CycleSound | 2023/Day8/main.py:128-154 | a cycle the search finds is real: the walk is in the same state at the lead-up and one positive length later, and the end it records is the one it was given or an end node this walk reached |
| NodeNetwork.CycleRepeats | 2023/Day8/main.py:128-154 | from the lead-up on, the walk from a start repeats itself with the cycle's length |
| NodeNetwork.LcmIsLeast | 2023/Day8/main.py:158 | the lcm of two positive numbers is a positive multiple of both, and no smaller positive number is |
| NodeNetwork.LcmDivides | 2023/Day8/main.py:158 | every common multiple of two numbers is a multiple of their lcm |
| NodeNetwork.LcmAllIsLeast | 2023/Day8/main.py:158 | the lcm of positive numbers is positive, a multiple of each, and divides every common multiple of them |
| NodeNetwork.Cycles | 2023/Day8/main.py:123-153 | a search that succeeds records one cycle per start node |
| NodeNetwork.CyclesAllSound | 2023/Day8/main.py:123-154 | every recorded cycle is a real cycle of its own start, of positive length |
| NodeNetwork.Part2 | 2023/Day8/main.py:119-161 | part 2 answers a number exactly when every start's search succeeds |
| NodeNetwork.Part2IsLcm | 2023/Day8/main.py:158-161 | the answer is positive, every cycle length divides it, every cycle is real, and it divides every common multiple of the cycle lengths |
| PulseModules.Invert | 2023/Day20/main.py:11-14 | inverting always changes the level |
| PulseModules.InvertTwice | 2023/Day20/main.py:11-14 | inverting twice gives the level back |
| PulseModules.FlipFlopParity | 2023/Day20/main.py:137-140 | a flip-flop ignores HIGH pulses and toggles on each LOW one: after a run of pulses it is toggled once per LOW pulse, and it has sent one pulse per LOW pulse, alternating ON and OFF from its starting state |
| PulseModules.ConjunctionRemembers | 2023/Day20/main.py:154-160 | a conjunction remembers for each sender the last level it sent, and for no one else; it answers every pulse, with LOW exactly when every remembered level is HIGH |
| PulseModules.BroadcasterForwards | 2023/Day20/main.py:166-168 | a broadcaster keeps no state and sends every pulse on at the level it got |
| PulseModules.Send | 2023/Day20/main.py:112-114 | sending queues one pulse per destination, in the destinations' order, behind everything already queued |
| PulseModules.RegisterAllMemory | 2023/Day20/main.py:61-65 | the registration loop makes a conjunction remember each source of a link into it at LOW, skips links to names without a module, and leaves other modules alone |
| PulseModules.LinksFromSpecs | 2023/Day20/main.py:56-60 | the link list holds a (source, destination) pair exactly when the source's line lists that destination |
| PulseModules.Modules | 2023/Day20/main.py:100-104 | every module is stored under its own name, and every line's name has a module |
| PulseModules.InitConjunction | 2023/Day20/main.py:48-65 | after set-up a conjunction remembers exactly the modules whose line lists it, each at LOW |
| PulseModules.Tick | 2023/Day20/main.py:71-85 | a tick takes the oldest pulse, counts it at its level, changes no module but its receiver, keeps the rest of the queue in order at the front, keeps every recorded input of `zh`, and drops a pulse to a name without a module after counting it |
| PulseModules.TickDelivers | 2023/Day20/main.py:82-85 | a delivered pulse updates its receiver and queues the receiver's answer to each of its destinations, in order, from the receiver's name |
| PulseModules.TickWell | 2023/Day20/main.py:76-81 | a tick records an input of `zh` only once, at the current press count, so every recorded count lies between 1 and the presses so far |
| PulseModules.Push | 2023/Day20/main.py:87-90 | a press adds one to the press count and queues one LOW pulse from the button to the broadcaster |
| PulseModules.Run | 2023/Day20/main.py:92-95 | a run that ends leaves the queue empty and has counted at least every pulse that was queued |
| PulseModules.RunWell | 2023/Day20/main.py:92-95 | a run keeps the set-up sound and keeps every input of `zh` already recorded |
| PulseModules.PressesCount | 2023/Day20/main.py:31-34 | every press counts at least the pulse from the button |
| PulseModules.Part1 | 2023/Day20/main.py:31-35 | part 1 answers the product of the low and the high pulse counts after 1000 presses, each followed by a full run |
| PulseModules.Part2LoopSound | 2023/Day20/main.py:37-43 | part 2 presses until at least four inputs of `zh` are recorded and answers the product of their press counts |
| PulseModules.Part2LoopPositive | 2023/Day20/main.py:37-43 | the answer of part 2 is positive, since every recorded press count is |
| PulseModules.Part2 | 2023/Day20/main.py:36-43 | part 2 from the set-up answers a positive number when it ends |
| PipeMaze.Opposite | 2023/Day10/main.py:76 | the accepting side is another of the four sides; UP pairs with DOWN and LEFT with RIGHT |
| PipeMaze.OppositeTwice | 2023/Day10/main.py:76 | taking the opposite side twice gives back the side |
| PipeMaze.ConnectsFrom | 2023/Day10/main.py:25-55 | every side is one of the four; each pipe glyph connects two sides, `S` all four, anything else none |
| PipeMaze.GlyphsArePairs | 2023/Day10/main.py:25-48 | every pair of distinct sides is the connection set of some pipe glyph |
| PipeMaze.TargetAsWritten | 2023/Day10/main.py:63-74 | the lookup of `connect` with Python's indexing always lands on a tile of the grid when it succeeds |
| PipeMaze.Target | 2023/Day10/main.py:63-74 | the plain lookup of the tile next door lands on a tile of the grid |
| PipeMaze.TargetAgrees | 2023/Day10/main.py:63-74 | away from the top row and the left column the lookup as written is the plain one |
| PipeMaze.TargetBack | 2023/Day10/main.py:63-78 | the step on the opposite side from the tile next door leads back |
| PipeMaze.Link | 2023/Day10/main.py:63-78 | one call of `connect` adds at most one neighbour, and it lies in the grid |
| PipeMaze.NeighborsWith | 2023/Day10/main.py:58-60 | `make_connections` leaves at most four neighbours, all in the grid |
| PipeMaze.NeighborsIff | 2023/Day10/main.py:58-78 | a tile is a neighbour exactly when some side the pipe connects from leads to it and it connects back from the opposite side |
| PipeMaze.NeighborsSymmetric | 2023/Day10/main.py:63-78 | with the plain lookup a pipe is a neighbour of each of its neighbours |
| PipeMaze.NeighborsAdjacent | 2023/Day10/main.py:63-72 | neighbours are one row or one column apart |
| PipeMaze.WrapAsWritten | 2023/Day10/main.py:63-74 | as written the pipe at the left end of the row `-.-` takes the pipe at the right end as a neighbour, and that pipe does not take it back |
| PipeMaze.NoWrap | 2023/Day10/main.py:63-78 | with the plain lookup the same pipe has no neighbour |
| PipeMaze.LastSIn | 2023/Day10/main.py:100-104 | the column kept is an `S` with no `S` after it in the row, and none means the row has no `S` |
| PipeMaze.LastS | 2023/Day10/main.py:96-105 | `start` is an `S` tile with every other `S` before it in reading order, and none means the grid has no `S` |
| PipeMaze.Starts | 2023/Day10/main.py:49-54 | the tiles at distance 0 are exactly the `S` tiles |
| PipeMaze.Adjacency | 2023/Day10/main.py:107-109 | the graph the search runs on has one entry per tile, holding its neighbours |
| PipeMaze.AdjacencyShape | 2023/Day10/main.py:107-109 | every neighbour is a tile, no tile is its own neighbour, and links run both ways |
| PipeMaze.Relax | 2023/Day10/main.py:120-121 | distances only fall, every neighbour ends at most one past the pipe, and a changed distance is exactly one past it |
| PipeMaze.Enqueue | 2023/Day10/main.py:120-123 | the fringe keeps its order, gains only unseen neighbours, never twice, and every neighbour ends up seen or waiting |
| PipeMaze.RelaxWitnessed | 2023/Day10/main.py:120-121 | after relaxing, every recorded distance is still the length of a walk from an `S` |
| PipeMaze.Farther | 2023/Day10/main.py:118-119 | `farthest` becomes the popped pipe only when it is farther, and is never nearer than either |
| PipeMaze.StepSearching | 2023/Day10/main.py:116-124 | a turn of the loop keeps the fringe and the seen set disjoint and without repeats, and every neighbour of a seen pipe seen or waiting |
| PipeMaze.StepLayered | 2023/Day10/main.py:116-124 | with a single start a turn keeps the breadth-first layering and changes no distance already known |
| PipeMaze.WalkBounded | 2023/Day10/main.py:112-124 | once the search settles, every walk from the single start stays among the seen pipes and is no shorter than their distances |
| PipeMaze.Search | 2023/Day10/main.py:112-124 | the search reaches a closed set holding the start; every distance is a walk length; with a single start `farthest` is the farthest seen pipe and the distances are the shortest walks |
| PipeMaze.Part1 | 2023/Day10/main.py:93-142 | part 1 over the corrected lookup that does not wrap round the edges: no answer without an `S`; otherwise the answer is the distance of a reached pipe, and with a single `S` the largest shortest distance from it over the tiles it reaches |
| PipeMaze.AdjacencyAsWritten | 2023/Day10/main.py:58-78 | the graph the source searches has one entry per tile, holding its neighbours through the wrapping lookup |
| PipeMaze.AdjacencyAsWrittenShape | 2023/Day10/main.py:63-74 | in a grid of at least two rows with no row one tile long, every neighbour through the wrapping lookup is a tile and no tile is its own neighbour |
| PipeMaze.Part1AsWritten | 2023/Day10/main.py:93-142 | part 1 as the source computes it, over the wrapping lookup: no answer without an `S`; otherwise the answer is the distance of a reached pipe, and with a single `S` the largest shortest distance from it over the tiles it reaches along those links |
| PipeMaze.WrapPart1Example | 2023/Day10/main.py:63-124 | on the grid `S.-` over `...` part 1 as written answers 1, because the lookup left of the `S` wraps to the `-` at the end of its row, while the corrected part 1 answers 0 |
| PipeMaze.LastDir | 2023/Day10/main.py:221-227 | `last_direction` is the direction of the nearest reached tile to the left that has one, and None when there is none |
| PipeMaze.InsideCount | 2023/Day10/main.py:218-237 | the scan counts, row by row, the unreached tiles with an odd number of crossings to their left |
| PipeMaze.RunCountsOnce | 2023/Day10/main.py:224-227 | a second reached tile going the same way adds no crossing |
| PipeMaze.OppositeCancel | 2023/Day10/main.py:224-227 | a tile going down followed by one going up leaves the count as it was |
| PipeMaze.NoLoopNoInside | 2023/Day10/main.py:218-237 | a row with no reached tile has no crossing and no tile inside |

## Left out

- File reading, argument parsing, printing and progress bars in every solution.
- Intcode's core dump (`__str__`), debug printing and the `itertools.batched` shim, which only format output.
- CamelCards: `high_card` is never called; `part2` reads its input and returns None; with `WILD_JOKERS` false `card_types` would be undefined (a NameError), so only wild jokers reach `part1`.
- CamelCards.BidValue: `int()` also accepts surrounding whitespace and digit underscores, which the model does not.
- CamelCards.Part1IsPayouts: stated for inputs without repeated lines; repeated lines pay their equal keys at consecutive ranks.
- ThreeBitMachine.Run: takes a bound on the number of instructions, because the machine's loop need not end; running out of the bound is its own outcome.
- ThreeBitMachine: registers and program values are non-negative, as in the puzzle input; Python's float results for negative shifts are not modelled. Part 2's search over A, which may never return, is left out; QuineAgreesWithPlainRun states the test it applies to each A.
- ThreeBitDecompiled.EmitReconstruct: assumes every pass of the rebuild found its number at a candidate below 8. A hit at candidate 8 carries into the higher digits, and that case is not covered.
- LensHashMap: parsing a step (`split('=')` and `int`) is left out; steps arrive as a datatype. `__str__` only formats output.
- MonkeyMarket.Part2: `MonkeyMarket.Part2AsWritten` is the source's answer and `MonkeyMarket.Part2` the one with the corrected threshold of the finding below. In both, the recorded windows come in as a parameter, in the order the dictionary yields them. The model does not show that this list holds exactly the windows some buyer recorded. The unused `itertools.product` of candidate sequences is left out.
- Decimal.ParseInt: `int()` also accepts surrounding whitespace and digit underscores, which the model does not.
- Stones: `functools.cache` only memoises and is left out; it does not change any result. Stones are non-negative (`nat`), as in the puzzle input; `int()` on line 55 also accepts a negative stone, on which the split of lines 19 and 40 can read `int('-')` (for -5, say) and raise ValueError. Negative stones are not modelled.
- CubeGame: counts and game ids are non-negative (`nat`), as in the puzzle input. `int()` on lines 29 and 40 also accepts negative ones, which the model does not take; the bound of `CubeGame.Part1` by the sum of all ids holds only for non-negative ids.
- MonkeyMarket: secret numbers are non-negative (`nat`), as in the puzzle input. `int()` on line 38 also accepts a negative one, for which Python's `^` and `%` in `mix` and `prune` are not modelled.
- BridgeEquations.CanBeMade: operands are non-negative, as in the puzzle input. An empty operand list, where Python raises IndexError, is excluded by the precondition.
- PageOrder.FixOrder: takes a bound on the number of passes and returns None when it runs out, because the loop ends only when the rules are acyclic on the update. Termination is not proved.
- RockTilt: boards compare by value. The source compares boards by the hash of their text, so two different boards whose texts collide would compare equal there. Tilts are proved total only on square boards, since the column iterator stops after as many columns as there are rows.
- SpringsDynamic.Arrangements: related to the brute-force count only for rows without unknowns and for rows that are too short. Equality with the number of completions is not proved. The mode that returns the arrangements as strings (`count_only` false) is left out.
- Towels: patterns must be non-empty. An empty pattern makes `is_possible` and `ways_to_make` call themselves on the same design until Python's recursion limit. `functools.cache` only memoises and is left out.
- Towels.Ways: not proved equal to the number of distinct pattern sequences that spell the design; it is proved positive exactly when one exists.
- Extrapolation: a line that raises ValueError makes the whole sum fail, which the model reports as None.
- BoatRace: part 1's parsing (`split(':')` and `split()`) is left out; its numbers arrive as lists. Part 2's row is taken without the trailing newline, which `int` would ignore. The progress bar only reports.
- MulTokens: reading the file, stripping its lines and joining them with newlines is left out; the memory arrives as one string. Python's `\d` also matches non-ASCII decimal digits, which `int` accepts; the model takes ASCII digits only.
- Calibration: `str.isdigit` also accepts non-ASCII digits such as superscripts, for which `int` raises; the model reads ASCII digits only. Reading the file and printing the list of values are left out; a line keeps its newline, which is no digit, so any string stands for a line.
- SeedMaps: reading the almanac, the map names and the dictionary by source type are left out; part 1 takes the maps in the order the walk from 'seed' to 'location' meets them. `Map.get_ranges`, `MapRange.get_range`, part 2 and the found/not-found counters are left out: part 2's range splitting is not part of this model.
- Antinodes: reading the map, which sets the width from the last line, and `__str__` are left out; the antennas arrive grouped by frequency with the board's size. The resonant loops never end for two antennas on one cell, so the model takes distinct cells, as a map always has.
- GuardWalk: reading the grid, replacing the '^' and `__str__` are left out; the grid arrives with the start cell free. `walk` and the parts take a rectangular grid with the guard on it, as the file always gives. `GuardWalk.Part1AsWritten` and `GuardWalk.Part2AsWritten` compute what the source computes, on boards reset as written; `GuardWalk.Part1` and `GuardWalk.Part2` use the corrected reset of the finding below. That the two part 2 counts agree is not proved: with the corrected reset a walk that turns back into the start state stops one loop earlier, but still on the board.
- Warehouse: part 2's double-wide boxes, reading the map and the moves from the file, `__str__` and the debug printing are left out; the map arrives as sets of walls and boxes.
- Scratchcards: `line.strip()` is left out; a line arrives without surrounding whitespace. Part 1 and part 2 are given parsed cards and match counts; `ParseCard` models the reading of one line.
- DiskCompaction: parsing the digit string and printing the disk are left out; the disk map arrives as a list of digits.
- LogicGates: reading the circuit (`from_file`), `get_wire_tree`, the wires' `sources`, `__str__` and part 2's bit search, which only prints, are left out; the circuit arrives as its wire names and gate list. `Wire.set` updates the gates that read the wire in the order of a Python set; the model takes the order of the gate list. A cascade deep enough to reach Python's recursion limit is not modelled.
- Workflows: the lines arrive stripped and already split into workflow lines and part lines at the blank line. `__str__` and `__repr__` of rules and workflows only format output, and so does the debug printing, with one exception that the model keeps: the verdict line formats the part through `Part.__str__`, which looks up all four categories, so a part lacking one raises KeyError whether accepted or rejected (lines 31, 117, 120). `Workflow.workflows` is a class global that keeps its entries from one call of `problem` to the next; the model starts every call from 'A' and 'R'. Part 2 is not written in the source.
- Workflows.Evaluate: takes a bound on the rounds of its while loop, because the loop need not end; running out of the bound is its own outcome, `Unfinished`.
- WordSearch: reading and stripping the lines of the file is left to the caller. A grid with rows of different lengths is excluded (`Rectangular`): the source reads it through Python's out-of-range and negative indexing, which a puzzle grid never exercises. The regular expressions `(XMAS)`, `(SAMX)`, `(MAS)` and `(SAM)` are literal words and are modelled as a left-to-right scan that resumes after each match. The lazy generators of the source are modelled as sequences.
- GardenRegions: reading and stripping the file is left to the caller, and a grid with rows of different lengths is excluded (`Shaped`). Part 2 (`edges`, `bulk_price`) walks around each region's boundary; its termination and its count rest on the boundary being closed curves, which would need a development of plane topology, so it is not modelled. `Region.merge` is never called and builds its result with the region itself in place of the cells, so it is left out. `__repr__` and the debug printing only format output. `perimiter` is summed per direction over the cells instead of per cell over the directions; the two sums count the same sides.
- GearRatios: reading and stripping the lines is left to the caller. `str.isdigit` also accepts non-ASCII digits, which the model does not: it reads ASCII digits only. The map of 'T' and 'F' and the other printing only format output. `number_set` is a set of objects; the model lists the numbers in reading order, each once, and adds up that list.
- NodeNetwork: the global `nodes` dictionary and the file reading are left out; the network and the instruction string are parameters. The start nodes, which the source takes in the order the set `start_set` yields them, are a parameter sequence. `str.split()` also splits at non-ASCII whitespace, which the model does not. Duplicate ids, which leave stale node objects in `start_set`, are not modelled; the model keys everything by id. The brute-force `part2`, the debug printing and the unreachable code after `return loop_length` are left out. The model does not claim that the lcm is the first step at which all walks stand on end nodes, which the source itself doubts.
- NodeNetwork.Part1: takes a fuel bound on the number of steps, because the source loops forever when ZZZ is never reached; `Part1Finds` shows that enough fuel gives the first arrival.
- PulseModules: the lines are taken already parsed, as (type, name, destinations). `from_line` strips the line, deletes the commas and splits it, and a line whose name is none of `%x`, `&x` and `broadcaster` gives None, on which `Sim.__init__` fails. The debug printing and `print(module)` are left out. `rx_low` is kept, but no answer reads it.
- PulseModules.Run: takes a fuel bound on the number of ticks, because a network whose pulses never die out makes the source loop forever; the same holds for `Presses` and `Part2Loop`, which also bound the presses of part 2.
- PipeMaze: the grid is taken as the stripped lines. The walk round the loop that gives the tiles their directions (2023/Day10/main.py:177-194) is left out, so the scan of part 2 takes the reached flags and the directions as input. Also left out: the repeated search of part 2, the printing and `__str__`, and the reset `segment.direction = 0` on line 229, which the scan never reads back. A grid without an `S` makes the source fail on `None.dist`; the model answers None. The search visits neighbours in the order UP, LEFT, DOWN, RIGHT rather than Python's set order, which changes the order of the fringe but not the answer with a single start.
- PipeMaze.Part1AsWritten: is the as-written half of the 2023/Day10/main.py:63-74 finding; it requires at least two rows and no row exactly one tile long. In a one-row grid, or in a row one tile long, a pipe can be its own neighbour through the wrapping lookup; the source then puts that pipe back on the fringe once more, and the search invariant, which keeps the fringe and the seen set apart, does not cover that case. With several `S` tiles the contract is as weak as Part1's, below.
- PipeMaze.Part1: searches over the corrected lookup of the 2023/Day10/main.py:63-74 finding; PipeMaze.Part1AsWritten is the search the source runs. With several `S` tiles the other ones also start at distance 0, the breadth-first layering need not hold, and the contract then promises only that the answer is the length of a walk to a reached pipe.

## Findings

| source | as written | input that shows it | evidently intended | confidence | as-written member | corrected member |
|---|---|---|---|---|---|---|
| aoc_util.py:18-35 | the column iterator stops only on IndexError, and a matrix with no rows never raises it | `transpose([])` yields empty columns forever | a matrix with no rows has no columns | not executed | AocUtil.TransposeAsWritten | AocUtil.Transpose |
| 2024/Day22/main.py:56 | windows are recorded only from loop round 4 on, though four changes are complete after round 3 | a buyer with prices 0, 1, 2, 3, 4 (four changes of +1) records nothing | `j >= 3`, so every complete window of four changes is a candidate | not executed | MonkeyMarket.FirstWindowMissed | MonkeyMarket.BuyerOffersComplete |
| 2023/Day11/main.py:119-123 | part 1 expands the image and then calls `taxicab_pairs()` with the default expansion 0, which moves galaxies back one cell per empty row and column | the one-column image `#`, `.`, `#` sums 1 | each empty row and column counts twice, giving 3 | not executed | GalaxiesExamples.Part1AsWrittenCounterexample | Galaxies.ExpansionTwoIsExpandedImage |
| 2024/Day09/main.py:29-40 | the part 1 loop can leave a gap at the end of the kept disk, and the checksum then multiplies '.' by its position | the disk map 12 keeps `0.`, and `'.' * 1` cannot be added to an integer | the kept disk holds only file blocks, and the checksum is 0 | not executed | DiskCompaction.Part1AsWrittenCounterexample | DiskCompaction.CompactIsFill |
| 2024/Day03/main.py:13 | the operands are matched with `[\d]*`, so a `mul` with an empty operand is found, and `int('')` on line 24 raises ValueError | the memory `mul(,5)` | `[\d]+`, so text without digits between the parentheses is skipped as corrupted | not executed | MulTokens.EmptyOperandRaises | MulTokens.CorrectedNeverRaises |
| 2024/Day06/main.py:73 | `set((self.pos,self.direction))` iterates over the tuple, so `visited` starts with the position and the heading as two separate entries and without the start state | a one-cell board `^`: part 1 on line 83 gives 2 | `{(self.pos, self.direction)}`, one start state, so part 1 gives 1 | not executed | GuardWalk.ResetAsWrittenLoose | GuardWalk.Reset |
| 2023/Day5/main.py:39-43 | `__eq__` compares the hashes of the (min, max) tuples, and CPython hashes -1 and -2 both to -2 | `Range((-1, 0)) == Range((-2, 0))` is True | compare the (min, max) pairs themselves | not executed | SeedMaps.EqAsWrittenCollides | SeedMaps.EqIsSame |
| 2023/Day3/main.py:95 | part 1 returns `ratio`, the product left by the last symbol scanned, and raises UnboundLocalError when no symbol exists | the schematic `#` gives (0, 1), and the schematic `1` raises | return `total_ratio`, the sum of the gear ratios, so `#` gives (0, 0) | not executed | GearRatios.LoneSymbolAsWritten | GearRatios.Part1Gears |
| 2023/Day10/main.py:63-74 | `connect` relies on IndexError to stop at the edges, but the index -1 wraps round, so a pipe in the top row or the left column looks up a tile on the opposite edge | the one-row grid `-.-`: the first `-` takes the last one as a neighbour, and the last one does not take it back (PipeMaze.WrapAsWritten); on `S.-` over `...` part 1 answers 1 instead of 0 | a tile off the grid is no neighbour, so links run both ways and join adjacent tiles only | not executed | PipeMaze.WrapPart1Example | PipeMaze.NeighborsSymmetric |

=== FILE: antinodes.dfy ===
/** The resonant collinearity of 2024/Day08. Every two antennas of the same
    frequency make antinodes on the line through them: without resonance one
    on each side at the antennas' distance, with resonance every in-bounds
    point at a whole multiple of that distance, the antennas included. */
module Antinodes {
  import opened AocUtil

  /** An antinode, tagged with the frequency that made it. */
  datatype Node = Node(at: Point, kind: char)

  /** `locations_by_type`: each frequency with its antennas, in the order the
      dictionary holds them. */
  type Antennas = seq<(char, seq<Point>)>

  predicate InBounds(p: Point, width: int, height: int)
  {
    p.x >= 0 && p.x < width && p.y >= 0 && p.y < height
  }

  /** The step from `a` to `b`: `(run, rise)`. */
  function Diff(a: Point, b: Point): Point
  {
    Point(b.x - a.x, b.y - a.y)
  }

  function Neg(s: Point): Point
  {
    Point(-s.x, -s.y)
  }

  /** `p` moved `k` times by `s`. */
  function Offset(p: Point, s: Point, k: nat): Point
  {
    Point(p.x + k * s.x, p.y + k * s.y)
  }

  lemma OffsetNext(p: Point, s: Point, k: nat)
    ensures Offset(Point(p.x + s.x, p.y + s.y), s, k) == Offset(p, s, k + 1)
  {
    assert (k + 1) * s.x == k * s.x + s.x;
    assert (k + 1) * s.y == k * s.y + s.y;
  }

  /** How far the `while` loop can still go before it leaves the board. */
  function Room(p: Point, s: Point, width: int, height: int): int
  {
    if s.x > 0 then width - p.x
    else if s.x < 0 then p.x + 1
    else if s.y > 0 then height - p.y
    else p.y + 1
  }

  /** One resonant `while` loop: the points from `p` on, a step `s` apart,
      until the first one off the board. */
  function March(p: Point, s: Point, width: int, height: int): (r: seq<Point>)
    requires s != Point(0, 0)
    ensures forall i :: 0 <= i < |r| ==> r[i] == Offset(p, s, i) && InBounds(r[i], width, height)
    ensures !InBounds(Offset(p, s, |r|), width, height)
    decreases Room(p, s, width, height)
  {
    if InBounds(p, width, height) then
      var q := Point(p.x + s.x, p.y + s.y);
      var rest := March(q, s, width, height);
      OffsetNext(p, s, |rest|);
      forall i | 0 <= i < |rest|
        ensures rest[i] == Offset(p, s, i + 1)
      {
        OffsetNext(p, s, i);
      }
      [p] + rest
    else []
  }

  lemma {:induction false} MulMono(a: nat, b: nat, c: int)
    requires a <= b
    ensures c >= 0 ==> a * c <= b * c
    ensures c < 0 ==> b * c <= a * c
    decreases b
  {
    if a < b {
      MulMono(a, b - 1, c);
      assert (b - 1) * c + c == b * c;
    }
  }

  /** The board is convex: a point between two points of the line on the
      board is on the board. */
  lemma Between(p: Point, s: Point, n: nat, k: nat, width: int, height: int)
    requires InBounds(p, width, height) && InBounds(Offset(p, s, k), width, height)
    requires n <= k
    ensures InBounds(Offset(p, s, n), width, height)
  {
    MulMono(n, k, s.x);
    MulMono(0, n, s.x);
    MulMono(n, k, s.y);
    MulMono(0, n, s.y);
  }

  /** The loop misses no point of the line on the board. */
  lemma MarchComplete(p: Point, s: Point, k: nat, width: int, height: int)
    requires s != Point(0, 0) && InBounds(p, width, height)
    requires InBounds(Offset(p, s, k), width, height)
    ensures k < |March(p, s, width, height)|
  {
    var r := March(p, s, width, height);
    if k >= |r| {
      Between(p, s, |r|, k, width, height);
    }
  }

  /** The antinodes one pair makes, as the source builds `new_nodes`. */
  function PairNodes(a: Point, b: Point, kind: char, resonant: bool, width: int, height: int): seq<Node>
    requires resonant ==> a != b
  {
    var d := Diff(a, b);
    if !resonant then
      var before, after := Point(a.x - d.x, a.y - d.y), Point(b.x + d.x, b.y + d.y);
      (if InBounds(before, width, height) then [Node(before, kind)] else [])
      + (if InBounds(after, width, height) then [Node(after, kind)] else [])
    else
      Tag(March(a, Neg(d), width, height), kind) + Tag(March(b, d, width, height), kind)
  }

  function Tag(ps: seq<Point>, kind: char): (r: seq<Node>)
    ensures |r| == |ps| && forall i :: 0 <= i < |r| ==> r[i] == Node(ps[i], kind)
  {
    seq(|ps|, i requires 0 <= i < |ps| => Node(ps[i], kind))
  }

  /** The antinodes of `a` and `b` as the puzzle defines them: on the board,
      and either one antenna distance beyond each antenna, or with resonance
      any whole number of antenna distances from either antenna, outwards. */
  ghost predicate IsAntinode(a: Point, b: Point, p: Point, resonant: bool, width: int, height: int)
  {
    var d := Diff(a, b);
    InBounds(p, width, height)
    && if !resonant then p == Offset(a, Neg(d), 1) || p == Offset(b, d, 1)
       else exists k: nat :: p == Offset(a, Neg(d), k) || p == Offset(b, d, k)
  }

  /** A pair's nodes are exactly its antinodes, tagged with its frequency. */
  lemma PairNodesExact(a: Point, b: Point, kind: char, resonant: bool, width: int, height: int, n: Node)
    requires resonant ==> a != b
    requires InBounds(a, width, height) && InBounds(b, width, height)
    ensures n in PairNodes(a, b, kind, resonant, width, height)
            <==> n.kind == kind && IsAntinode(a, b, n.at, resonant, width, height)
  {
    if resonant {
      if n in PairNodes(a, b, kind, resonant, width, height) {
        ResonantSound(a, b, kind, width, height, n);
      }
      if n.kind == kind && IsAntinode(a, b, n.at, resonant, width, height) {
        var d := Diff(a, b);
        var k: nat :| n.at == Offset(a, Neg(d), k) || n.at == Offset(b, d, k);
        ResonantComplete(a, b, kind, width, height, k);
      }
    }
  }

  /** Every resonant node is an antinode. */
  lemma ResonantSound(a: Point, b: Point, kind: char, width: int, height: int, n: Node)
    requires a != b
    requires n in PairNodes(a, b, kind, true, width, height)
    ensures n.kind == kind && IsAntinode(a, b, n.at, true, width, height)
  {
    var d := Diff(a, b);
    var back, fore := Tag(March(a, Neg(d), width, height), kind), Tag(March(b, d, width, height), kind);
    assert PairNodes(a, b, kind, true, width, height) == back + fore;
    if n in back {
      var i :| 0 <= i < |back| && back[i] == n;
      assert n.at == Offset(a, Neg(d), i);
    } else {
      var i :| 0 <= i < |fore| && fore[i] == n;
      assert n.at == Offset(b, d, i);
    }
  }

  /** Every resonant antinode `k` steps out is a node. */
  lemma ResonantComplete(a: Point, b: Point, kind: char, width: int, height: int, k: nat)
    requires a != b && InBounds(a, width, height) && InBounds(b, width, height)
    ensures var d := Diff(a, b);
            (InBounds(Offset(a, Neg(d), k), width, height) ==>
               Node(Offset(a, Neg(d), k), kind) in PairNodes(a, b, kind, true, width, height))
            && (InBounds(Offset(b, d, k), width, height) ==>
               Node(Offset(b, d, k), kind) in PairNodes(a, b, kind, true, width, height))
  {
    var d := Diff(a, b);
    var back, fore := Tag(March(a, Neg(d), width, height), kind), Tag(March(b, d, width, height), kind);
    assert PairNodes(a, b, kind, true, width, height) == back + fore;
    if InBounds(Offset(a, Neg(d), k), width, height) {
      MarchComplete(a, Neg(d), k, width, height);
      assert back[k] in back + fore;
    }
    if InBounds(Offset(b, d, k), width, height) {
      MarchComplete(b, d, k, width, height);
      assert fore[k] in back + fore;
    }
  }

  /** With resonance the antennas themselves are antinodes. */
  lemma AntennasResonate(a: Point, b: Point, width: int, height: int)
    requires InBounds(a, width, height) && InBounds(b, width, height)
    ensures IsAntinode(a, b, a, true, width, height) && IsAntinode(a, b, b, true, width, height)
  {
    assert a == Offset(a, Neg(Diff(a, b)), 0);
  }

  /** The pairs the two nested loops visit: `locations[i]` with each later
      `locations[j]`. */
  function Pairs(locs: seq<Point>): (r: seq<(Point, Point)>)
    ensures |locs| == 0 ==> r == []
    decreases |locs|
  {
    if |locs| == 0 then []
    else seq(|locs| - 1, j requires 0 <= j < |locs| - 1 => (locs[0], locs[j + 1])) + Pairs(locs[1..])
  }

  /** The loops visit exactly the pairs `i < j`. */
  lemma {:induction false} PairsExact(locs: seq<Point>, a: Point, b: Point)
    ensures (a, b) in Pairs(locs) <==> exists i, j :: 0 <= i < j < |locs| && locs[i] == a && locs[j] == b
    decreases |locs|
  {
    if |locs| > 0 {
      var head := seq(|locs| - 1, j requires 0 <= j < |locs| - 1 => (locs[0], locs[j + 1]));
      var tail := locs[1..];
      PairsExact(tail, a, b);
      assert Pairs(locs) == head + Pairs(tail);
      if (a, b) in head {
        var j :| 0 <= j < |head| && head[j] == (a, b);
        assert locs[0] == a && locs[j + 1] == b;
      } else if (a, b) in Pairs(tail) {
        var i, j :| 0 <= i < j < |tail| && tail[i] == a && tail[j] == b;
        assert locs[i + 1] == a && locs[j + 1] == b;
      }
      if exists i, j :: 0 <= i < j < |locs| && locs[i] == a && locs[j] == b {
        var i, j :| 0 <= i < j < |locs| && locs[i] == a && locs[j] == b;
        if i == 0 {
          assert head[j - 1] == (a, b);
        } else {
          assert tail[i - 1] == a && tail[j - 1] == b;
        }
      }
    }
  }

  /** Each unordered pair is visited once: n antennas make n(n-1)/2 pairs. */
  lemma {:induction false} PairsCount(locs: seq<Point>)
    ensures 2 * |Pairs(locs)| == |locs| * (|locs| - 1)
    decreases |locs|
  {
    if |locs| > 0 {
      PairsCount(locs[1..]);
      var n := |locs|;
      assert n * (n - 1) == (n - 1) * (n - 2) + 2 * (n - 1);
    }
  }

  /** No antenna shares its cell with another. */
  predicate Distinct(locs: seq<Point>)
  {
    forall i, j :: 0 <= i < j < |locs| ==> locs[i] != locs[j]
  }

  /** `Pairs` never pairs an antenna with itself when the cells differ. */
  lemma PairsDistinct(locs: seq<Point>, k: nat)
    requires Distinct(locs) && k < |Pairs(locs)|
    ensures Pairs(locs)[k].0 != Pairs(locs)[k].1
  {
    var p := Pairs(locs)[k];
    assert p in Pairs(locs);
    PairsExact(locs, p.0, p.1);
  }

  /** The antinodes of a list of pairs, one frequency. */
  function PairListNodes(pairs: seq<(Point, Point)>, kind: char, resonant: bool, width: int, height: int): seq<Node>
    requires resonant ==> forall k :: 0 <= k < |pairs| ==> pairs[k].0 != pairs[k].1
  {
    if |pairs| == 0 then []
    else PairNodes(pairs[0].0, pairs[0].1, kind, resonant, width, height)
         + PairListNodes(pairs[1..], kind, resonant, width, height)
  }

  /** Some pair of the list makes `p` an antinode. */
  ghost predicate MadeByPair(pairs: seq<(Point, Point)>, p: Point, resonant: bool, width: int, height: int)
  {
    exists k :: 0 <= k < |pairs| && IsAntinode(pairs[k].0, pairs[k].1, p, resonant, width, height)
  }

  /** Some two antennas `i < j` make `p` an antinode. */
  ghost predicate MadeBy(locs: seq<Point>, p: Point, resonant: bool, width: int, height: int)
  {
    exists i, j :: 0 <= i < j < |locs| && IsAntinode(locs[i], locs[j], p, resonant, width, height)
  }

  /** A node comes from a list of pairs exactly when one of them makes it. */
  lemma {:induction false} PairListExact(pairs: seq<(Point, Point)>, kind: char, resonant: bool, width: int, height: int, n: Node)
    requires resonant ==> forall k :: 0 <= k < |pairs| ==> pairs[k].0 != pairs[k].1
    requires forall k :: 0 <= k < |pairs| ==> InBounds(pairs[k].0, width, height) && InBounds(pairs[k].1, width, height)
    ensures n in PairListNodes(pairs, kind, resonant, width, height)
            <==> n.kind == kind && MadeByPair(pairs, n.at, resonant, width, height)
    decreases |pairs|
  {
    if |pairs| > 0 {
      var tail := pairs[1..];
      PairNodesExact(pairs[0].0, pairs[0].1, kind, resonant, width, height, n);
      PairListExact(tail, kind, resonant, width, height, n);
      if n.kind == kind && MadeByPair(pairs, n.at, resonant, width, height) {
        var k :| 0 <= k < |pairs| && IsAntinode(pairs[k].0, pairs[k].1, n.at, resonant, width, height);
        if k > 0 {
          assert tail[k - 1] == pairs[k];
          assert MadeByPair(tail, n.at, resonant, width, height);
        }
      }
      if MadeByPair(tail, n.at, resonant, width, height) {
        var k :| 0 <= k < |tail| && IsAntinode(tail[k].0, tail[k].1, n.at, resonant, width, height);
        assert tail[k] == pairs[k + 1];
      }
      if n in PairNodes(pairs[0].0, pairs[0].1, kind, resonant, width, height) {
        assert IsAntinode(pairs[0].0, pairs[0].1, n.at, resonant, width, height);
      }
    }
  }

  /** Every antenna lies on the board and no two share a cell. */
  predicate WellPlaced(antennas: Antennas, width: int, height: int)
  {
    forall t :: 0 <= t < |antennas| ==>
      Distinct(antennas[t].1)
      && forall i :: 0 <= i < |antennas[t].1| ==> InBounds(antennas[t].1[i], width, height)
  }

  /** The antinodes of one frequency. */
  function TypeNodes(locs: seq<Point>, kind: char, resonant: bool, width: int, height: int): seq<Node>
    requires Distinct(locs)
  {
    var pairs := Pairs(locs);
    forall k | 0 <= k < |pairs|
      ensures pairs[k].0 != pairs[k].1
    {
      PairsDistinct(locs, k);
    }
    PairListNodes(pairs, kind, resonant, width, height)
  }

  /** `mark_antinodes`: the antinodes of every frequency, in order. */
  function Mark(antennas: Antennas, resonant: bool, width: int, height: int): seq<Node>
    requires WellPlaced(antennas, width, height)
  {
    if |antennas| == 0 then []
    else TypeNodes(antennas[0].1, antennas[0].0, resonant, width, height)
         + Mark(antennas[1..], resonant, width, height)
  }

  /** One frequency's nodes are exactly the antinodes of its pairs `i < j`. */
  lemma TypeNodesExact(locs: seq<Point>, kind: char, resonant: bool, width: int, height: int, n: Node)
    requires Distinct(locs) && forall i :: 0 <= i < |locs| ==> InBounds(locs[i], width, height)
    ensures n in TypeNodes(locs, kind, resonant, width, height)
            <==> n.kind == kind && MadeBy(locs, n.at, resonant, width, height)
  {
    PairsOnBoard(locs, width, height);
    PairListExact(Pairs(locs), kind, resonant, width, height, n);
    PairsMadeBy(locs, n.at, resonant, width, height);
  }

  /** Some visited pair makes `p` exactly when two antennas `i < j` do. */
  lemma PairsMadeBy(locs: seq<Point>, p: Point, resonant: bool, width: int, height: int)
    ensures MadeByPair(Pairs(locs), p, resonant, width, height) <==> MadeBy(locs, p, resonant, width, height)
  {
    var pairs := Pairs(locs);
    if MadeByPair(pairs, p, resonant, width, height) {
      var k :| 0 <= k < |pairs| && IsAntinode(pairs[k].0, pairs[k].1, p, resonant, width, height);
      PairAt(locs, k);
    }
    if MadeBy(locs, p, resonant, width, height) {
      var i, j :| 0 <= i < j < |locs| && IsAntinode(locs[i], locs[j], p, resonant, width, height);
      PairsExact(locs, locs[i], locs[j]);
      var k :| 0 <= k < |pairs| && pairs[k] == (locs[i], locs[j]);
    }
  }

  /** Each visited pair is two antennas `i < j`. */
  lemma PairAt(locs: seq<Point>, k: nat)
    requires k < |Pairs(locs)|
    ensures exists i, j :: 0 <= i < j < |locs| && locs[i] == Pairs(locs)[k].0 && locs[j] == Pairs(locs)[k].1
  {
    assert Pairs(locs)[k] in Pairs(locs);
    PairsExact(locs, Pairs(locs)[k].0, Pairs(locs)[k].1);
  }

  /** The pairs of distinct antennas on the board are two distinct cells on
      the board. */
  lemma PairsOnBoard(locs: seq<Point>, width: int, height: int)
    requires Distinct(locs) && forall i :: 0 <= i < |locs| ==> InBounds(locs[i], width, height)
    ensures forall k :: 0 <= k < |Pairs(locs)| ==>
              Pairs(locs)[k].0 != Pairs(locs)[k].1
              && InBounds(Pairs(locs)[k].0, width, height) && InBounds(Pairs(locs)[k].1, width, height)
  {
    forall k | 0 <= k < |Pairs(locs)|
      ensures Pairs(locs)[k].0 != Pairs(locs)[k].1
      ensures InBounds(Pairs(locs)[k].0, width, height) && InBounds(Pairs(locs)[k].1, width, height)
    {
      PairsDistinct(locs, k);
      PairAt(locs, k);
    }
  }

  /** Some frequency's antennas make `n` an antinode of that frequency. */
  ghost predicate Marked(antennas: Antennas, n: Node, resonant: bool, width: int, height: int)
  {
    exists t :: 0 <= t < |antennas| && antennas[t].0 == n.kind && MadeBy(antennas[t].1, n.at, resonant, width, height)
  }

  /** A node is marked exactly when two antennas of its frequency make it an
      antinode: frequencies never mix. */
  lemma {:induction false} MarkExact(antennas: Antennas, resonant: bool, width: int, height: int, n: Node)
    requires WellPlaced(antennas, width, height)
    ensures n in Mark(antennas, resonant, width, height) <==> Marked(antennas, n, resonant, width, height)
    decreases |antennas|
  {
    if |antennas| > 0 {
      var tail := antennas[1..];
      TypeNodesExact(antennas[0].1, antennas[0].0, resonant, width, height, n);
      MarkExact(tail, resonant, width, height, n);
      if Marked(antennas, n, resonant, width, height) {
        var t :| 0 <= t < |antennas| && antennas[t].0 == n.kind && MadeBy(antennas[t].1, n.at, resonant, width, height);
        if t > 0 {
          assert tail[t - 1] == antennas[t];
        }
      }
      if Marked(tail, n, resonant, width, height) {
        var t :| 0 <= t < |tail| && tail[t].0 == n.kind && MadeBy(tail[t].1, n.at, resonant, width, height);
        assert tail[t] == antennas[t + 1];
      }
    }
  }

  /** `get_antinode_locations`: the cells, without their frequencies. */
  function Locations(nodes: seq<Node>): (r: set<Point>)
    ensures forall p :: p in r <==> exists k :: 0 <= k < |nodes| && nodes[k].at == p
  {
    set k | 0 <= k < |nodes| :: nodes[k].at
  }

  /** Every antinode location is on the board. */
  lemma LocationsInBounds(antennas: Antennas, resonant: bool, width: int, height: int, p: Point)
    requires WellPlaced(antennas, width, height)
    requires p in Locations(Mark(antennas, resonant, width, height))
    ensures InBounds(p, width, height)
  {
    var nodes := Mark(antennas, resonant, width, height);
    var k :| 0 <= k < |nodes| && nodes[k].at == p;
    MarkExact(antennas, resonant, width, height, nodes[k]);
    var t :| 0 <= t < |antennas| && antennas[t].0 == nodes[k].kind && MadeBy(antennas[t].1, p, resonant, width, height);
  }

  /** The two antennas of the puzzle's example at (4, 3) and (5, 5) make
      antinodes at (3, 1) and (6, 7). */
  lemma ExamplePair()
    ensures PairNodes(Point(4, 3), Point(5, 5), 'a', false, 10, 10)
            == [Node(Point(3, 1), 'a'), Node(Point(6, 7), 'a')]
  {
  }
}

=== FILE: aoc_util.dfy ===
/** aoc_util.py: the compass and relative directions, grid points, the
    column iterator behind `transpose`, and the position-wise comparison of
    two sequences shared by several puzzles. */
module AocUtil {
  import opened Wrappers

  /** `CardinalDirection`, whose values 0..3 run clockwise from NORTH. */
  datatype Cardinal = North | East | South | West

  /** `RelativeDirection`, whose values are -1, 0, 1 and 2. */
  datatype Relative = Left | Forwards | Right | Backwards

  function CardinalValue(d: Cardinal): (v: nat)
    ensures v < 4
  {
    match d
    case North => 0
    case East => 1
    case South => 2
    case West => 3
  }

  /** `CardinalDirection(v)`, the enum lookup by value. */
  function CardinalOf(v: nat): (d: Cardinal)
    requires v < 4
    ensures CardinalValue(d) == v
  {
    if v == 0 then North else if v == 1 then East else if v == 2 then South else West
  }

  function RelativeValue(r: Relative): int
  {
    match r
    case Left => -1
    case Forwards => 0
    case Right => 1
    case Backwards => 2
  }

  /** `turn`: add the relative value and wrap into 0..3. The sum lies in
      -1..5, so one correction suffices; `TurnIsMod` shows this is the
      source's `% 4`. */
  function Turn(d: Cardinal, r: Relative): Cardinal
  {
    var s := CardinalValue(d) + RelativeValue(r);
    CardinalOf(if s < 0 then s + 4 else if s >= 4 then s - 4 else s)
  }

  /** Python's `(value + rel) % 4` (floor modulus; Dafny's `%` agrees for a positive divisor). */
  lemma TurnIsMod(d: Cardinal, r: Relative)
    ensures CardinalValue(Turn(d, r)) == (CardinalValue(d) + RelativeValue(r)) % 4
  {
  }

  /** The value of a direction determines it. */
  lemma CardinalValueInjective(d: Cardinal, e: Cardinal)
    ensures CardinalValue(d) == CardinalValue(e) <==> d == e
  {
  }

  /** Turning forwards changes nothing; left undoes right and right undoes left. */
  lemma TurnInverses(d: Cardinal)
    ensures Turn(d, Forwards) == d
    ensures Turn(Turn(d, Left), Right) == d && Turn(Turn(d, Right), Left) == d
  {
    match d
    case North =>
    case East =>
    case South =>
    case West =>
  }

  /** Turning back twice is the identity, and no turn but forwards keeps the direction. */
  lemma TurnBackTwice(d: Cardinal)
    ensures Turn(Turn(d, Backwards), Backwards) == d
    ensures Turn(d, Backwards) != d && Turn(d, Right) != d && Turn(d, Left) != d
  {
    match d
    case North =>
    case East =>
    case South =>
    case West =>
  }

  /** Four right turns, or a right turn and a back turn, compose as on a compass. */
  lemma TurnCompose(d: Cardinal)
    ensures Turn(Turn(Turn(Turn(d, Right), Right), Right), Right) == d
    ensures Turn(Turn(d, Right), Backwards) == Turn(d, Left)
  {
    match d
    case North =>
    case East =>
    case South =>
    case West =>
  }

  /** `as_char`. */
  function AsChar(d: Cardinal): char
  {
    match d
    case North => '^'
    case East => '>'
    case South => 'v'
    case West => '<'
  }

  lemma AsCharInjective(d: Cardinal, e: Cardinal)
    ensures AsChar(d) == AsChar(e) <==> d == e
  {
  }

  /** `from_char`: compass or up/down/left/right letters; None otherwise. */
  function FromChar(c: char): (r: Option<Cardinal>)
    ensures r.Some? <==> c in "UNDSLWRE"
    ensures r == Some(North) <==> c == 'U' || c == 'N'
    ensures r == Some(South) <==> c == 'D' || c == 'S'
    ensures r == Some(West) <==> c == 'L' || c == 'W'
    ensures r == Some(East) <==> c == 'R' || c == 'E'
  {
    if c == 'U' || c == 'N' then Some(North)
    else if c == 'D' || c == 'S' then Some(South)
    else if c == 'L' || c == 'W' then Some(West)
    else if c == 'R' || c == 'E' then Some(East)
    else None
  }

  /** `Point`: a grid position, `y` growing southwards. */
  datatype Point = Point(x: int, y: int)

  /** `Point.move`: one step in a compass direction. */
  function Move(p: Point, d: Cardinal): (q: Point)
    ensures (q.x == p.x && (q.y == p.y + 1 || q.y == p.y - 1))
         || (q.y == p.y && (q.x == p.x + 1 || q.x == p.x - 1))
  {
    match d
    case North => Point(p.x, p.y - 1)
    case East => Point(p.x + 1, p.y)
    case South => Point(p.x, p.y + 1)
    case West => Point(p.x - 1, p.y)
  }

  /** Moving, then moving in the direction turned back, returns to the start;
      distinct directions lead to distinct points. */
  lemma MoveBack(p: Point, d: Cardinal)
    ensures Move(Move(p, d), Turn(d, Backwards)) == p
  {
  }

  lemma MoveInjective(p: Point, d: Cardinal, e: Cardinal)
    ensures Move(p, d) == Move(p, e) <==> d == e
  {
  }

  /** The cell `k` steps from `p` in direction `d`. */
  function Shift(p: Point, d: Cardinal, k: nat): (q: Point)
    ensures k == 0 ==> q == p
  {
    match d
    case North => Point(p.x, p.y - k)
    case East => Point(p.x + k, p.y)
    case South => Point(p.x, p.y + k)
    case West => Point(p.x - k, p.y)
  }

  /** One step is `move`. */
  lemma ShiftOne(p: Point, d: Cardinal)
    ensures Shift(p, d, 1) == Move(p, d)
  {
  }

  /** Walking on from one step ahead. */
  lemma ShiftMove(p: Point, d: Cardinal, k: nat)
    ensures Shift(Move(p, d), d, k) == Shift(p, d, k + 1)
  {
  }

  /** Every row of `m` is longer than `index`, so the next column exists. */
  predicate HasColumn<T>(m: seq<seq<T>>, index: nat)
  {
    forall i :: 0 <= i < |m| ==> index < |m[i]|
  }

  /** `Cols(m)` from column `index` on: the list comprehension raises
      IndexError at the first column some row is too short for, which ends
      the iteration. For a matrix with no rows the comprehension never
      raises; `TransposeAsWritten` below shows that, and this definition
      treats the empty matrix as having no columns. */
  function ColsFrom<T>(m: seq<seq<T>>, index: nat): seq<seq<T>>
    decreases if |m| == 0 then 0 else |m[0]| - index
  {
    if |m| == 0 || !HasColumn(m, index) then []
    else [seq(|m|, i requires 0 <= i < |m| => m[i][index])] + ColsFrom(m, index + 1)
  }

  /** `transpose(matrix)`, with the empty matrix transposing to no columns. */
  function Transpose<T>(m: seq<seq<T>>): (r: seq<seq<T>>)
    ensures |m| == 0 ==> r == []
    ensures |m| > 0 ==> |r| == MinLen(m) && forall j :: 0 <= j < |r| ==> |r[j]| == |m|
  {
    if |m| == 0 then [] else ColsFromShape(m, 0); ColsFrom(m, 0)
  }

  /** The shortest row length, the number of columns `Cols` yields. */
  function MinLen<T>(m: seq<seq<T>>): nat
    requires |m| > 0
  {
    if |m| == 1 then |m[0]|
    else var rest := MinLen(m[1..]); if |m[0]| < rest then |m[0]| else rest
  }

  lemma {:induction false} MinLenIsMin<T>(m: seq<seq<T>>)
    requires |m| > 0
    ensures forall i :: 0 <= i < |m| ==> MinLen(m) <= |m[i]|
    ensures exists i :: 0 <= i < |m| && MinLen(m) == |m[i]|
  {
    if |m| > 1 {
      MinLenIsMin(m[1..]);
      var i :| 0 <= i < |m[1..]| && MinLen(m[1..]) == |m[1..][i]|;
      if |m[0]| >= MinLen(m[1..]) {
        assert MinLen(m) == |m[i + 1]|;
      }
    }
  }

  lemma {:induction false} ColsFromShape<T>(m: seq<seq<T>>, index: nat)
    requires |m| > 0 && index <= MinLen(m)
    ensures |ColsFrom(m, index)| == MinLen(m) - index
    ensures forall j, i :: 0 <= j < |ColsFrom(m, index)| && 0 <= i < |m| ==>
      |ColsFrom(m, index)[j]| == |m| && index + j < |m[i]| && ColsFrom(m, index)[j][i] == m[i][index + j]
    decreases MinLen(m) - index
  {
    MinLenIsMin(m);
    if index < MinLen(m) {
      assert HasColumn(m, index);
      ColsFromShape(m, index + 1);
    } else {
      var k :| 0 <= k < |m| && MinLen(m) == |m[k]|;
      assert !HasColumn(m, index) by { assert !(index < |m[k]|); }
    }
  }

  /** For a matrix with rows, `transpose` has one column per index every row
      has, and `transpose(m)[j][i] == m[i][j]`. */
  lemma TransposeShape<T>(m: seq<seq<T>>)
    requires |m| > 0
    ensures |Transpose(m)| == MinLen(m)
    ensures forall j, i :: 0 <= j < |Transpose(m)| && 0 <= i < |m| ==>
      |Transpose(m)[j]| == |m| && j < |m[i]| && Transpose(m)[j][i] == m[i][j]
  {
    ColsFromShape(m, 0);
    var t := ColsFrom(m, 0);
    assert Transpose(m) == t;
    forall j, i | 0 <= j < |t| && 0 <= i < |m|
      ensures |t[j]| == |m| && j < |m[i]| && t[j][i] == m[i][j]
    {
      assert |t[j]| == |m| && 0 + j < |m[i]| && t[j][i] == m[i][0 + j];
    }
  }

  /** The column iterator as written, given a bound on how many columns it
      may produce: None when the bound runs out before the iteration stops. */
  function ColsAsWritten<T>(m: seq<seq<T>>, index: nat, fuel: nat): Option<seq<seq<T>>>
    decreases fuel
  {
    if !HasColumn(m, index) then Some([])
    else if fuel == 0 then None
    else
      match ColsAsWritten(m, index + 1, fuel - 1)
      case None => None
      case Some(rest) => Some([seq(|m|, i requires 0 <= i < |m| => m[i][index])] + rest)
  }

  /** The empty matrix never stops producing (empty) columns: `transpose([])`
      does not return, whatever bound is given. */
  lemma {:induction false} TransposeAsWritten<T>(fuel: nat, index: nat)
    ensures ColsAsWritten<T>([], index, fuel).None?
    decreases fuel
  {
    assert HasColumn<T>([], index);
    if fuel > 0 {
      TransposeAsWritten<T>(fuel - 1, index + 1);
    }
  }

  /** On a matrix with rows the iterator as written stops, and agrees with `ColsFrom`. */
  lemma {:induction false} ColsAsWrittenAgrees<T>(m: seq<seq<T>>, index: nat, fuel: nat)
    requires |m| > 0 && index <= |m[0]| && fuel >= |m[0]| - index
    ensures ColsAsWritten(m, index, fuel) == Some(ColsFrom(m, index))
    decreases |m[0]| - index
  {
    if HasColumn(m, index) {
      assert index < |m[0]|;
      ColsAsWrittenAgrees(m, index + 1, fuel - 1);
    }
  }

  /** `string_distance(A, B)`: positions of the common prefix where the two differ. */
  function Distance<T(==)>(a: seq<T>, b: seq<T>): (r: nat)
    ensures r <= |a| && r <= |b|
  {
    if |a| == 0 || |b| == 0 then 0
    else (if a[0] == b[0] then 0 else 1) + Distance(a[1..], b[1..])
  }

  /** `differences(A, B)`: the indices, in order, where the common prefix differs. */
  function Differences<T(==)>(a: seq<T>, b: seq<T>): seq<nat>
  {
    DifferencesFrom(a, b, 0)
  }

  function DifferencesFrom<T(==)>(a: seq<T>, b: seq<T>, offset: nat): seq<nat>
  {
    if |a| == 0 || |b| == 0 then []
    else (if a[0] == b[0] then [] else [offset]) + DifferencesFrom(a[1..], b[1..], offset + 1)
  }

  lemma {:induction false} DistanceSymmetric<T>(a: seq<T>, b: seq<T>)
    ensures Distance(a, b) == Distance(b, a)
  {
    if |a| > 0 && |b| > 0 {
      DistanceSymmetric(a[1..], b[1..]);
    }
  }

  lemma {:induction false} DistanceSelf<T>(a: seq<T>)
    ensures Distance(a, a) == 0
  {
    if |a| > 0 {
      DistanceSelf(a[1..]);
    }
  }

  /** The distance is zero exactly when the common prefix agrees. */
  lemma {:induction false} DistanceZero<T>(a: seq<T>, b: seq<T>)
    ensures Distance(a, b) == 0 <==> forall i :: 0 <= i < |a| && i < |b| ==> a[i] == b[i]
  {
    if |a| > 0 && |b| > 0 {
      DistanceZero(a[1..], b[1..]);
      if a[0] == b[0] {
        forall i | 1 <= i < |a| && i < |b| && a[1..][i - 1] == b[1..][i - 1]
          ensures a[i] == b[i]
        {
        }
      }
    }
  }

  /** `differences` has as many entries as the distance counts. */
  lemma {:induction false} DifferencesCount<T>(a: seq<T>, b: seq<T>, offset: nat)
    ensures |DifferencesFrom(a, b, offset)| == Distance(a, b)
  {
    if |a| > 0 && |b| > 0 {
      DifferencesCount(a[1..], b[1..], offset + 1);
    }
  }

  /** `differences` lists exactly the differing indices (shifted by the offset). */
  lemma {:induction false} DifferencesMembers<T>(a: seq<T>, b: seq<T>, offset: nat)
    ensures forall k :: k in DifferencesFrom(a, b, offset) <==>
      offset <= k && k - offset < |a| && k - offset < |b| && a[k - offset] != b[k - offset]
  {
    if |a| > 0 && |b| > 0 {
      DifferencesMembers(a[1..], b[1..], offset + 1);
    }
  }

  /** The indices come in increasing order. */
  lemma {:induction false} DifferencesSorted<T>(a: seq<T>, b: seq<T>, offset: nat)
    ensures forall p, q :: 0 <= p < q < |DifferencesFrom(a, b, offset)| ==>
      DifferencesFrom(a, b, offset)[p] < DifferencesFrom(a, b, offset)[q]
  {
    if |a| > 0 && |b| > 0 {
      DifferencesSorted(a[1..], b[1..], offset + 1);
      DifferencesMembers(a[1..], b[1..], offset + 1);
      var rest := DifferencesFrom(a[1..], b[1..], offset + 1);
      assert forall q :: 0 <= q < |rest| ==> rest[q] in rest;
    }
  }

  lemma DistanceIsDifferenceCount<T>(a: seq<T>, b: seq<T>)
    ensures |Differences(a, b)| == Distance(a, b)
    ensures forall i :: i in Differences(a, b) <==> 0 <= i < |a| && i < |b| && a[i] != b[i]
  {
    DifferencesCount(a, b, 0);
    DifferencesMembers(a, b, 0);
  }
}

=== FILE: boat_race.dfy ===
/** 2023 day 6: a toy boat that charges for `i` milliseconds and then runs
    at `i` millimetres per millisecond for the rest of the race. Counts the
    charge times that beat the record distance. */
module BoatRace {
  import opened Wrappers
  import PyOps
  import Decimal

  /** Charging for `i` ms leaves `time - i` ms at speed `i`, and the boat
      must go strictly further than the record. */
  predicate Beats(time: int, record: int, i: int)
  {
    i * (time - i) > record
  }

  /** The charge times in `range(n)` that beat the record. */
  function Below(time: int, record: int, n: nat): set<int>
  {
    set i | 0 <= i < n && Beats(time, record, i)
  }

  /** The charge times in `range(time)` that beat the record: empty when
      `time` is not positive, as `range` then is. */
  function Winners(time: int, record: int): set<int>
  {
    set i | 0 <= i < time && Beats(time, record, i)
  }

  lemma BelowStep(time: int, record: int, n: nat)
    ensures Below(time, record, n + 1) == Below(time, record, n) + (if Beats(time, record, n) then {n} else {})
    ensures n !in Below(time, record, n)
  {
  }

  /** The loop's count over the first `n` charge times. */
  function CountBelow(time: int, record: int, n: nat): (c: nat)
    ensures c == |Below(time, record, n)|
    ensures c <= n
  {
    if n == 0 then
      assert Below(time, record, 0) == {};
      0
    else
      BelowStep(time, record, n - 1);
      CountBelow(time, record, n - 1) + (if Beats(time, record, n - 1) then 1 else 0)
  }

  function Range(time: int): nat
  {
    if time < 0 then 0 else time
  }

  /** `ways_to_beat_record` for one race. */
  function Ways(time: int, record: int): nat
  {
    CountBelow(time, record, Range(time))
  }

  lemma WinnersBelow(time: int, record: int)
    ensures Winners(time, record) == Below(time, record, Range(time))
  {
  }

  /** The loop of `part1`'s inner `for` and of `part2`: one pass over the
      charge times, counting those that beat the record. */
  method WaysToBeat(time: int, record: int) returns (count: nat)
    ensures count == |Winners(time, record)|
    ensures count == Ways(time, record)
  {
    count := 0;
    var i := 0;
    while i < time
      invariant 0 <= i <= Range(time)
      invariant count == CountBelow(time, record, i)
    {
      var speed := i;
      var timeLeft := time - i;
      var distance := speed * timeLeft;
      if distance > record {
        count := count + 1;
      }
      i := i + 1;
    }
    assert i == Range(time);
    WinnersBelow(time, record);
  }

  /** There are at most as many winning charge times as milliseconds. */
  lemma WaysBound(time: int, record: int)
    ensures Ways(time, record) <= Range(time)
    ensures time <= 0 ==> Ways(time, record) == 0
  {
  }

  /** Charging for `i` and for `time - i` go equally far, so winners pair up. */
  lemma WinnersSymmetric(time: int, record: int, i: int)
    requires 0 < i < time
    ensures i in Winners(time, record) <==> time - i in Winners(time, record)
  {
    assert i * (time - i) == (time - i) * (time - (time - i));
  }

  lemma {:induction false} CountAll(time: int, record: int, n: nat)
    requires forall i :: 0 <= i < n ==> Beats(time, record, i)
    ensures CountBelow(time, record, n) == n
  {
    if n > 0 {
      CountAll(time, record, n - 1);
    }
  }

  lemma {:induction false} CountNone(time: int, record: int, n: nat)
    requires forall i :: 0 <= i < n ==> !Beats(time, record, i)
    ensures CountBelow(time, record, n) == 0
  {
    if n > 0 {
      CountNone(time, record, n - 1);
    }
  }

  /** A negative record is beaten by every charge time, even by not moving. */
  lemma NegativeRecordAll(time: int, record: int)
    requires record < 0
    ensures Ways(time, record) == Range(time)
  {
    forall i | 0 <= i < Range(time)
      ensures Beats(time, record, i)
    {
      var speed: nat, timeLeft: nat := i, time - i;
      assert speed * timeLeft >= 0;
    }
    CountAll(time, record, Range(time));
  }

  /** No charge time goes further than a quarter of the squared race time,
      so such a record cannot be beaten. */
  lemma UnbeatableRecord(time: int, record: int)
    requires 4 * record >= time * time
    ensures Ways(time, record) == 0
  {
    forall i | 0 <= i < Range(time)
      ensures !Beats(time, record, i)
    {
      var d := time - 2 * i;
      assert 4 * (i * (time - i)) == time * time - d * d;
      assert d * d >= 0;
    }
    CountNone(time, record, Range(time));
  }

  lemma {:induction false} CountAntitone(time: int, r1: int, r2: int, n: nat)
    requires r1 <= r2
    ensures CountBelow(time, r2, n) <= CountBelow(time, r1, n)
  {
    if n > 0 {
      CountAntitone(time, r1, r2, n - 1);
    }
  }

  /** A longer record distance leaves fewer ways to beat it. */
  lemma RecordAntitone(time: int, r1: int, r2: int)
    requires r1 <= r2
    ensures Ways(time, r2) <= Ways(time, r1)
  {
    CountAntitone(time, r1, r2, Range(time));
  }

  /** The first race of the example, 7 ms against a record of 9 mm, is won
      by charging 2, 3, 4 or 5 ms. */
  lemma Example()
    ensures Ways(7, 9) == 4
  {
    assert !Beats(7, 9, 0) && !Beats(7, 9, 1) && Beats(7, 9, 2) && Beats(7, 9, 3);
    assert Beats(7, 9, 4) && Beats(7, 9, 5) && !Beats(7, 9, 6);
    assert CountBelow(7, 9, 2) == 0;
    assert CountBelow(7, 9, 6) == 4;
  }

  /** `part1`: the product of the ways over the races, pairing times and
      records up to the shorter list, as `zip` does. */
  function Part1(times: seq<int>, records: seq<int>): int
  {
    if |times| == 0 || |records| == 0 then 1
    else Ways(times[0], records[0]) * Part1(times[1..], records[1..])
  }

  /** Part 1 is zero exactly when some race cannot be won. */
  lemma {:induction false} Part1ZeroIff(times: seq<int>, records: seq<int>)
    ensures Part1(times, records) == 0 <==>
      exists k :: 0 <= k < |times| && k < |records| && Ways(times[k], records[k]) == 0
  {
    if |times| > 0 && |records| > 0 {
      Part1ZeroIff(times[1..], records[1..]);
      var w := Ways(times[0], records[0]);
      var rest := Part1(times[1..], records[1..]);
      assert w * rest == 0 <==> w == 0 || rest == 0;
      if exists k :: 0 <= k < |times| && k < |records| && Ways(times[k], records[k]) == 0 {
        var k :| 0 <= k < |times| && k < |records| && Ways(times[k], records[k]) == 0;
        if k > 0 {
          assert times[1..][k - 1] == times[k] && records[1..][k - 1] == records[k];
        }
      }
      if rest == 0 {
        var k :| 0 <= k < |times[1..]| && k < |records[1..]| && Ways(times[1..][k], records[1..][k]) == 0;
        assert times[k + 1] == times[1..][k];
      }
    }
  }

  /** Part 1 is never negative, each factor being a count. */
  lemma {:induction false} Part1NonNegative(times: seq<int>, records: seq<int>)
    ensures Part1(times, records) >= 0
  {
    if |times| > 0 && |records| > 0 {
      Part1NonNegative(times[1..], records[1..]);
    }
  }

  /** `s.replace(' ', '')`. */
  function StripSpaces(s: string): (r: string)
    ensures |r| <= |s|
    ensures forall k :: 0 <= k < |r| ==> r[k] != ' '
  {
    if |s| == 0 then ""
    else if s[0] == ' ' then StripSpaces(s[1..])
    else [s[0]] + StripSpaces(s[1..])
  }

  lemma {:induction false} StripSpacesAppend(a: string, b: string)
    ensures StripSpaces(a + b) == StripSpaces(a) + StripSpaces(b)
  {
    if |a| > 0 {
      assert (a + b)[1..] == a[1..] + b;
      StripSpacesAppend(a[1..], b);
    } else {
      assert a + b == b;
    }
  }

  /** A string without spaces is left as it is. */
  lemma {:induction false} StripSpacesNone(s: string)
    requires forall k :: 0 <= k < |s| ==> s[k] != ' '
    ensures StripSpaces(s) == s
  {
    if |s| > 0 {
      StripSpacesNone(s[1..]);
    }
  }

  /** `n` spaces. */
  function Spaces(n: nat): (s: string)
    ensures |s| == n
    ensures forall k :: 0 <= k < n ==> s[k] == ' '
  {
    seq(n, k requires 0 <= k < n => ' ')
  }

  lemma {:induction false} StripSpacesSpaces(n: nat)
    ensures StripSpaces(Spaces(n)) == ""
  {
    if n > 0 {
      assert Spaces(n)[1..] == Spaces(n - 1);
      StripSpacesSpaces(n - 1);
    }
  }

  /** The text after the colon of an input line: each number preceded by
      its run of spaces, as the columns of the puzzle input line up. */
  function Row(ns: seq<nat>, gaps: seq<nat>): string
    requires |gaps| == |ns|
  {
    if |ns| == 0 then ""
    else Row(ns[..|ns| - 1], gaps[..|ns| - 1]) + Spaces(gaps[|ns| - 1]) + Decimal.Show(ns[|ns| - 1])
  }

  /** The numbers of a row written one after the other without spaces. */
  function Kerned(ns: seq<nat>): string
  {
    if |ns| == 0 then "" else Kerned(ns[..|ns| - 1]) + Decimal.Show(ns[|ns| - 1])
  }

  /** The number part 2 reads off a row: the numbers' digits run together. */
  function KernedValue(ns: seq<nat>): nat
  {
    if |ns| == 0 then 0
    else KernedValue(ns[..|ns| - 1]) * PyOps.Pow10(PyOps.NumDigits(ns[|ns| - 1])) + ns[|ns| - 1]
  }

  /** Deleting the spaces of a row leaves its numbers run together. */
  lemma {:induction false} StripRow(ns: seq<nat>, gaps: seq<nat>)
    requires |gaps| == |ns|
    ensures StripSpaces(Row(ns, gaps)) == Kerned(ns)
  {
    if |ns| > 0 {
      var m := |ns| - 1;
      StripRow(ns[..m], gaps[..m]);
      StripColumn(Row(ns[..m], gaps[..m]), gaps[m], ns[m]);
    }
  }

  /** Deleting the spaces before a number and after the text in front of it. */
  lemma StripColumn(front: string, gap: nat, n: nat)
    ensures StripSpaces(front + Spaces(gap) + Decimal.Show(n)) == StripSpaces(front) + Decimal.Show(n)
  {
    StripSpacesAppend(front + Spaces(gap), Decimal.Show(n));
    StripSpacesAppend(front, Spaces(gap));
    StripSpacesSpaces(gap);
    StripShow(n);
    assert StripSpaces(front) + "" == StripSpaces(front);
  }

  /** A number's text has no spaces to delete. */
  lemma StripShow(n: nat)
    ensures StripSpaces(Decimal.Show(n)) == Decimal.Show(n)
  {
    Decimal.ShowDigits(n);
    StripSpacesNone(Decimal.Show(n));
  }

  /** The run-together numbers are all digits and read as the kerned value. */
  lemma ParseKerned(ns: seq<nat>)
    requires |ns| > 0
    ensures Decimal.ParseInt(Kerned(ns)) == Some(KernedValue(ns) as int)
  {
    KernedDigits(ns);
    KernedReads(ns);
    Decimal.ParseDigits(Kerned(ns));
  }

  lemma {:induction false} KernedDigits(ns: seq<nat>)
    ensures forall k :: 0 <= k < |Kerned(ns)| ==> Decimal.IsDigit(Kerned(ns)[k])
    ensures |ns| > 0 ==> |Kerned(ns)| > 0
  {
    if |ns| > 0 {
      var m := |ns| - 1;
      KernedDigits(ns[..m]);
      var a, b := Kerned(ns[..m]), Decimal.Show(ns[m]);
      assert Kerned(ns) == a + b;
      Decimal.ShowDigits(ns[m]);
      DigitValuesAppend(a, b);
    }
  }

  lemma {:induction false} KernedReads(ns: seq<nat>)
    requires forall k :: 0 <= k < |Kerned(ns)| ==> Decimal.IsDigit(Kerned(ns)[k])
    ensures Decimal.ValueOf(Decimal.DigitValues(Kerned(ns))) == KernedValue(ns)
  {
    if |ns| > 0 {
      var m := |ns| - 1;
      var a, b := Kerned(ns[..m]), Decimal.Show(ns[m]);
      assert Kerned(ns) == a + b;
      assert forall k :: 0 <= k < |a| ==> Decimal.IsDigit(a[k]) by {
        assert forall k :: 0 <= k < |a| ==> a[k] == Kerned(ns)[k];
      }
      KernedReads(ns[..m]);
      Decimal.ShowDigits(ns[m]);
      DigitValuesAppend(a, b);
      var da, db := Decimal.DigitValues(a), Decimal.DigitValues(b);
      Decimal.ValueOfAppend(da, db);
      assert |db| == PyOps.NumDigits(ns[m]);
    }
  }

  lemma DigitValuesAppend(a: string, b: string)
    requires forall k :: 0 <= k < |a| ==> Decimal.IsDigit(a[k])
    requires forall k :: 0 <= k < |b| ==> Decimal.IsDigit(b[k])
    ensures forall k :: 0 <= k < |a + b| ==> Decimal.IsDigit((a + b)[k])
    ensures Decimal.DigitValues(a + b) == Decimal.DigitValues(a) + Decimal.DigitValues(b)
  {
  }

  /** `part2`: the time and record read with their spaces deleted, or None
      when `int` rejects either. */
  function Part2(timeRow: string, recordRow: string): Option<nat>
  {
    Part2Of(Decimal.ParseInt(StripSpaces(timeRow)), Decimal.ParseInt(StripSpaces(recordRow)))
  }

  function Part2Of(time: Option<int>, record: Option<int>): Option<nat>
  {
    if time.Some? && record.Some? then Some(Ways(time.value, record.value)) else None
  }

  /** Part 2 races once, for the time and record whose digits are those of
      part 1's numbers run together. */
  lemma Part2Kerning(times: seq<nat>, timeGaps: seq<nat>, records: seq<nat>, recordGaps: seq<nat>)
    requires |times| > 0 && |timeGaps| == |times|
    requires |records| > 0 && |recordGaps| == |records|
    ensures Part2(Row(times, timeGaps), Row(records, recordGaps)) == Some(Ways(KernedValue(times), KernedValue(records)))
  {
    ReadRow(times, timeGaps);
    ReadRow(records, recordGaps);
    Part2Reads(Row(times, timeGaps), Row(records, recordGaps), KernedValue(times), KernedValue(records));
  }

  /** Part 2 races once with the two numbers `int` reads off the rows. */
  lemma Part2Reads(timeRow: string, recordRow: string, time: int, record: int)
    requires Decimal.ParseInt(StripSpaces(timeRow)) == Some(time)
    requires Decimal.ParseInt(StripSpaces(recordRow)) == Some(record)
    ensures Part2(timeRow, recordRow) == Some(Ways(time, record))
  {
  }

  /** `int(row.replace(' ', ''))` of a row is its kerned value. */
  lemma ReadRow(ns: seq<nat>, gaps: seq<nat>)
    requires |ns| > 0 && |gaps| == |ns|
    ensures Decimal.ParseInt(StripSpaces(Row(ns, gaps))) == Some(KernedValue(ns) as int)
  {
    StripRow(ns, gaps);
    ParseKerned(ns);
  }
}

=== FILE: bridge_equations.dfy ===
/** 2024 day 7: whether a test value can be produced from a list of operands
    by inserting operators evaluated strictly left to right. */
module BridgeEquations {
  import PyOps
  import Decimal

  /** `add`, `multiply` and `concat`. */
  datatype Operator = Add | Multiply | Concat

  /** One operator applied to two non-negative operands; `concat` joins the
      decimal strings and reads the result back. */
  function ApplyOp(op: Operator, a: nat, b: nat): nat
  {
    match op
    case Add => a + b
    case Multiply => a * b
    case Concat => Decimal.ValueOf(Decimal.Digits(a) + Decimal.Digits(b))
  }

  /** `concat(a, b) == a * 10^digits(b) + b`. */
  lemma ConcatArithmetic(a: nat, b: nat)
    ensures ApplyOp(Concat, a, b) == a * PyOps.Pow10(PyOps.NumDigits(b)) + b
  {
    Decimal.ConcatDigits(a, b);
  }

  lemma ConcatExample()
    ensures ApplyOp(Concat, 15, 6) == 156 && ApplyOp(Concat, 12, 345) == 12345
  {
    ConcatArithmetic(15, 6);
    ConcatArithmetic(12, 345);
  }

  /** `can_be_made`: a single operand must equal the test; otherwise some
      operator combines the first two operands into a shorter list that can
      be made. Operands come from a split line, so the list is non-empty
      (an empty one would raise IndexError). */
  function CanBeMade(test: int, operands: seq<nat>, operators: seq<Operator>): (r: bool)
    requires |operands| >= 1
    ensures |operands| == 1 ==> (r <==> test == operands[0])
    decreases |operands|
  {
    if |operands| == 1 then test == operands[0]
    else exists k :: 0 <= k < |operators| && CanBeMade(test, Combine(operators[k], operands), operators)
  }

  /** The shorter list after combining the first two operands. */
  function Combine(op: Operator, operands: seq<nat>): (r: seq<nat>)
    requires |operands| >= 2
    ensures |r| == |operands| - 1
  {
    [ApplyOp(op, operands[0], operands[1])] + operands[2..]
  }

  /** One operator that works is enough. */
  lemma Witness(test: int, operands: seq<nat>, operators: seq<Operator>, k: nat)
    requires |operands| >= 2 && k < |operators|
    requires CanBeMade(test, Combine(operators[k], operands), operators)
    ensures CanBeMade(test, operands, operators)
  {
  }

  /** Reference definition: one operator between each pair of neighbours,
      evaluated from the left. */
  function Eval(operands: seq<nat>, choice: seq<Operator>): nat
    requires |operands| >= 1 && |choice| == |operands| - 1
    decreases |choice|
  {
    if |choice| == 0 then operands[0]
    else Eval(Combine(choice[0], operands), choice[1..])
  }

  predicate Allowed(choice: seq<Operator>, operators: seq<Operator>)
  {
    forall i :: 0 <= i < |choice| ==> choice[i] in operators
  }

  /** `can_be_made` holds exactly when some left-to-right choice of the
      allowed operators evaluates to the test value. */
  lemma CanBeMadeIff(test: int, operands: seq<nat>, operators: seq<Operator>)
    requires |operands| >= 1
    ensures CanBeMade(test, operands, operators) <==>
      exists choice :: |choice| == |operands| - 1 && Allowed(choice, operators) && Eval(operands, choice) == test
  {
    if CanBeMade(test, operands, operators) {
      var choice := MadeHasChoice(test, operands, operators);
    }
    if exists choice :: |choice| == |operands| - 1 && Allowed(choice, operators) && Eval(operands, choice) == test {
      var choice :| |choice| == |operands| - 1 && Allowed(choice, operators) && Eval(operands, choice) == test;
      ChoiceIsMade(test, operands, operators, choice);
    }
  }

  lemma {:induction false} MadeHasChoice(test: int, operands: seq<nat>, operators: seq<Operator>) returns (choice: seq<Operator>)
    requires |operands| >= 1 && CanBeMade(test, operands, operators)
    ensures |choice| == |operands| - 1 && Allowed(choice, operators) && Eval(operands, choice) == test
    decreases |operands|
  {
    if |operands| == 1 {
      choice := [];
    } else {
      var k :| 0 <= k < |operators| && CanBeMade(test, Combine(operators[k], operands), operators);
      var rest := MadeHasChoice(test, Combine(operators[k], operands), operators);
      choice := [operators[k]] + rest;
      assert choice[1..] == rest;
    }
  }

  lemma {:induction false} ChoiceIsMade(test: int, operands: seq<nat>, operators: seq<Operator>, choice: seq<Operator>)
    requires |operands| >= 1 && |choice| == |operands| - 1
    requires Allowed(choice, operators) && Eval(operands, choice) == test
    ensures CanBeMade(test, operands, operators)
    decreases |operands|
  {
    if |operands| > 1 {
      var k :| 0 <= k < |operators| && operators[k] == choice[0];
      ChoiceIsMade(test, Combine(choice[0], operands), operators, choice[1..]);
      Witness(test, operands, operators, k);
    }
  }

  /** Allowing more operators can only turn a false result true. */
  lemma {:induction false} MoreOperators(test: int, operands: seq<nat>, operators: seq<Operator>, more: seq<Operator>)
    requires |operands| >= 1
    requires forall op :: op in operators ==> op in more
    requires CanBeMade(test, operands, operators)
    ensures CanBeMade(test, operands, more)
    decreases |operands|
  {
    if |operands| > 1 {
      var k :| 0 <= k < |operators| && CanBeMade(test, Combine(operators[k], operands), operators);
      MoreOperators(test, Combine(operators[k], operands), operators, more);
      assert operators[k] in more;
      var k' :| 0 <= k' < |more| && more[k'] == operators[k];
      Witness(test, operands, more, k');
    }
  }

  /** 190 = 10 * 19, and 3267 = 81 + 40 * 27 read left to right. */
  lemma Examples()
    ensures CanBeMade(190, [10, 19], [Add, Multiply])
    ensures CanBeMade(3267, [81, 40, 27], [Add, Multiply])
  {
    assert Combine(Multiply, [10, 19]) == [190];
    Witness(190, [10, 19], [Add, Multiply], 1);
    assert Combine(Multiply, [121, 27]) == [3267];
    Witness(3267, [121, 27], [Add, Multiply], 1);
    assert Combine(Add, [81, 40, 27]) == [121, 27];
    Witness(3267, [81, 40, 27], [Add, Multiply], 0);
  }

  /** One calibration line: the test value and its operands. */
  datatype Equation = Equation(test: nat, operands: seq<nat>)

  /** The total of the test values that can be made; part 2 adds `concat`. */
  function Total(lines: seq<Equation>, part2: bool): nat
    requires forall i :: 0 <= i < |lines| ==> |lines[i].operands| >= 1
  {
    if |lines| == 0 then 0
    else
      var operators := if part2 then [Add, Multiply, Concat] else [Add, Multiply];
      (if CanBeMade(lines[0].test, lines[0].operands, operators) then lines[0].test else 0)
        + Total(lines[1..], part2)
  }

  /** Part 2 never totals less than part 1. */
  lemma {:induction false} Part2AtLeastPart1(lines: seq<Equation>)
    requires forall i :: 0 <= i < |lines| ==> |lines[i].operands| >= 1
    ensures Total(lines, true) >= Total(lines, false)
  {
    if |lines| > 0 {
      if CanBeMade(lines[0].test, lines[0].operands, [Add, Multiply]) {
        MoreOperators(lines[0].test, lines[0].operands, [Add, Multiply], [Add, Multiply, Concat]);
      }
      Part2AtLeastPart1(lines[1..]);
    }
  }
}

=== FILE: calibration.dfy ===
/** The trebuchet calibration of 2023/Day1. A line's value is ten times its
    first digit plus its last digit. Part 1 reads only digit characters;
    part 2 also reads the names "one" to "nine". The first digit is found
    scanning forwards and the last scanning backwards, so both may be the
    same character. A line without any digit makes the Python code compute
    `None * 10`, which raises; that is `None` here. */
module Calibration {
  import opened Wrappers
  import Decimal
  import PyStr
  import PyOps

  /** `digit_strings`: the names of 1 to 9, in order. */
  const Names: seq<string> :=
    ["one", "two", "three", "four", "five", "six", "seven", "eight", "nine"]

  /** Where a digit was read, and its value. */
  datatype Hit = Hit(pos: nat, digit: nat)

  /** The inner `for j, digit in enumerate(digit_strings)` loop at `line[i:]`,
      from name `j` on: the first name written there gives its value. */
  function SpelledFrom(line: string, i: nat, j: nat): (r: Option<nat>)
    requires j <= 9
    decreases 9 - j
    ensures r.Some? ==> j < r.value <= 9 && PyStr.StartsAt(line, i, Names[r.value - 1])
  {
    if j == 9 then None
    else if PyStr.StartsAt(line, i, Names[j]) then Some(j + 1)
    else SpelledFrom(line, i, j + 1)
  }

  /** The digit read at position `i`: a digit character wins; in part 2
      (`spelled`) a name written from `i` on counts too. */
  function DigitAt(line: string, i: nat, spelled: bool): (r: Option<nat>)
    requires i < |line|
    ensures r.Some? ==> r.value <= 9
    ensures Decimal.IsDigit(line[i]) ==> r == Some(Decimal.DigitValue(line[i]))
    ensures !spelled && !Decimal.IsDigit(line[i]) ==> r.None?
  {
    if Decimal.IsDigit(line[i]) then Some(Decimal.DigitValue(line[i]))
    else if spelled then SpelledFrom(line, i, 0)
    else None
  }

  /** The forward scan for `first` from position `i` on. */
  function Scan(line: string, i: nat, spelled: bool): (r: Option<Hit>)
    requires i <= |line|
    decreases |line| - i
    ensures r.Some? ==> i <= r.value.pos < |line|
                        && DigitAt(line, r.value.pos, spelled) == Some(r.value.digit)
    ensures r.Some? ==> forall k :: i <= k < r.value.pos ==> DigitAt(line, k, spelled).None?
    ensures r.None? ==> forall k :: i <= k < |line| ==> DigitAt(line, k, spelled).None?
  {
    if i == |line| then None
    else match DigitAt(line, i, spelled)
      case Some(d) => Some(Hit(i, d))
      case None => Scan(line, i + 1, spelled)
  }

  /** The backward scan for `last` over the positions below `n`, last first. */
  function ScanBack(line: string, n: nat, spelled: bool): (r: Option<Hit>)
    requires n <= |line|
    ensures r.Some? ==> r.value.pos < n
                        && DigitAt(line, r.value.pos, spelled) == Some(r.value.digit)
    ensures r.Some? ==> forall k :: r.value.pos < k < n ==> DigitAt(line, k, spelled).None?
    ensures r.None? ==> forall k :: 0 <= k < n ==> DigitAt(line, k, spelled).None?
  {
    if n == 0 then None
    else match DigitAt(line, n - 1, spelled)
      case Some(d) => Some(Hit(n - 1, d))
      case None => ScanBack(line, n - 1, spelled)
  }

  /** The calibration value of one line: `first * 10 + last`. */
  function Value(line: string, spelled: bool): (r: Option<nat>)
    ensures r.Some? ==> r.value <= 99
    ensures r.None? <==> forall k :: 0 <= k < |line| ==> DigitAt(line, k, spelled).None?
  {
    match (Scan(line, 0, spelled), ScanBack(line, |line|, spelled))
    case (Some(f), Some(l)) => Some(10 * f.digit + l.digit)
    case _ => None
  }

  /** The printed sum of the calibration values; it raises at the first line
      without a digit. */
  function Total(lines: seq<string>, spelled: bool): (r: Option<nat>)
    ensures r.Some? <==> forall k :: 0 <= k < |lines| ==> Value(lines[k], spelled).Some?
    ensures r.Some? ==> r.value <= 99 * |lines|
  {
    if |lines| == 0 then Some(0)
    else match (Value(lines[0], spelled), Total(lines[1..], spelled))
      case (Some(v), Some(t)) => Some(v + t)
      case _ =>
        assert forall k :: 1 <= k < |lines| ==> lines[k] == lines[1..][k - 1];
        None
  }

  /** The value is fixed by the leftmost and the rightmost position holding a
      digit, whatever lies between them; both may be the same position. */
  lemma ValueSpec(line: string, spelled: bool, p: nat, q: nat)
    requires p <= q < |line|
    requires DigitAt(line, p, spelled).Some? && DigitAt(line, q, spelled).Some?
    requires forall k :: 0 <= k < p ==> DigitAt(line, k, spelled).None?
    requires forall k :: q < k < |line| ==> DigitAt(line, k, spelled).None?
    ensures Value(line, spelled)
            == Some(10 * DigitAt(line, p, spelled).value + DigitAt(line, q, spelled).value)
  {
    FirstAt(line, spelled, p);
    LastAt(line, spelled, q);
  }

  lemma FirstAt(line: string, spelled: bool, p: nat)
    requires p < |line| && DigitAt(line, p, spelled).Some?
    requires forall k :: 0 <= k < p ==> DigitAt(line, k, spelled).None?
    ensures Scan(line, 0, spelled) == Some(Hit(p, DigitAt(line, p, spelled).value))
  {
    var f := Scan(line, 0, spelled);
    assert f.Some?;
    assert f.value.pos == p;
  }

  lemma LastAt(line: string, spelled: bool, q: nat)
    requires q < |line| && DigitAt(line, q, spelled).Some?
    requires forall k :: q < k < |line| ==> DigitAt(line, k, spelled).None?
    ensures ScanBack(line, |line|, spelled) == Some(Hit(q, DigitAt(line, q, spelled).value))
  {
    var l := ScanBack(line, |line|, spelled);
    assert l.Some?;
    assert l.value.pos == q;
  }

  /** The first digit is never to the right of the last one. */
  lemma FirstNotAfterLast(line: string, spelled: bool)
    requires Value(line, spelled).Some?
    ensures Scan(line, 0, spelled).value.pos <= ScanBack(line, |line|, spelled).value.pos
  {
  }

  /** A line with a single digit reads it twice. */
  lemma SingleDigit(line: string, spelled: bool, p: nat)
    requires p < |line| && DigitAt(line, p, spelled).Some?
    requires forall k :: 0 <= k < |line| && k != p ==> DigitAt(line, k, spelled).None?
    ensures Value(line, spelled) == Some(11 * DigitAt(line, p, spelled).value)
  {
    ValueSpec(line, spelled, p, p);
  }

  /** A hit at position `pos` of a line of length `n`, seen from the other end. */
  function Mirror(h: Option<Hit>, n: nat): (r: Option<Hit>)
    requires h.Some? ==> h.value.pos < n
    ensures r.Some? ==> r.value.pos < n
  {
    match h
    case None => None
    case Some(Hit(pos, d)) => Some(Hit(n - 1 - pos, d))
  }

  /** Scanning `line[::-1]` forwards from `j` meets the positions of `line`
      below `|line| - j` in the order `ScanBack` does. */
  lemma {:induction false} ReverseScan(line: string, j: nat)
    requires j <= |line|
    ensures Scan(PyOps.Reverse(line), j, false) == Mirror(ScanBack(line, |line| - j, false), |line|)
    decreases |line| - j
  {
    if j < |line| {
      var rev := PyOps.Reverse(line);
      assert rev[j] == line[|line| - 1 - j];
      ReverseScan(line, j + 1);
    }
  }

  /** No name is a prefix of another, so at most one starts at a position. */
  lemma NamesDiffer(a: nat, b: nat)
    requires a < b < 9
    ensures Names[a][0] != Names[b][0] || Names[a][1] != Names[b][1]
  {
  }

  /** Two different names cannot both be written at the same position. */
  lemma NotBoth(line: string, i: nat, a: nat, b: nat)
    requires a < 9 && b < 9 && a != b && PyStr.StartsAt(line, i, Names[a])
    ensures !PyStr.StartsAt(line, i, Names[b])
  {
    if a < b { NamesDiffer(a, b); } else { NamesDiffer(b, a); }
    var x, y := Names[a], Names[b];
    assert line[i + 0] == x[0] && line[i + 1] == x[1];
  }

  /** Trying the names from `j0` on finds the name written at `i`, if it
      comes at `j0` or later. */
  lemma {:induction false} SpelledFromFinds(line: string, i: nat, j0: nat, j: nat)
    requires j0 <= j < 9 && PyStr.StartsAt(line, i, Names[j])
    ensures SpelledFrom(line, i, j0) == Some(j + 1)
    decreases j - j0
  {
    if j0 < j {
      NotBoth(line, i, j, j0);
      SpelledFromFinds(line, i, j0 + 1, j);
    }
  }

  /** Whatever name is written at `i` is the one read there: the order of
      `digit_strings` does not matter. */
  lemma SpelledUnique(line: string, i: nat, j: nat)
    requires j < 9 && PyStr.StartsAt(line, i, Names[j])
    ensures SpelledFrom(line, i, 0) == Some(j + 1)
  {
    SpelledFromFinds(line, i, 0, j);
  }

  /** Where no name is written, no spelled digit is read. */
  lemma {:induction false} SpelledNone(line: string, i: nat, j: nat)
    requires j <= 9
    requires forall k :: j <= k < 9 ==> !PyStr.StartsAt(line, i, Names[k])
    ensures SpelledFrom(line, i, j).None?
    decreases 9 - j
  {
    if j < 9 {
      SpelledNone(line, i, j + 1);
    }
  }

  /** Part 2 reads every digit part 1 reads. */
  lemma SpelledKeepsDigits(line: string, k: nat)
    requires k < |line| && DigitAt(line, k, false).Some?
    ensures DigitAt(line, k, true) == DigitAt(line, k, false)
  {
  }

  /** Part 2's first digit is never right of part 1's. */
  lemma FirstWidens(line: string)
    requires Scan(line, 0, false).Some?
    ensures Scan(line, 0, true).Some?
    ensures Scan(line, 0, true).value.pos <= Scan(line, 0, false).value.pos
  {
    SpelledKeepsDigits(line, Scan(line, 0, false).value.pos);
  }

  /** Part 2's last digit is never left of part 1's. */
  lemma LastWidens(line: string)
    requires ScanBack(line, |line|, false).Some?
    ensures ScanBack(line, |line|, true).Some?
    ensures ScanBack(line, |line|, true).value.pos >= ScanBack(line, |line|, false).value.pos
  {
    SpelledKeepsDigits(line, ScanBack(line, |line|, false).value.pos);
  }

  /** Every line part 1 can read, part 2 can read too. */
  lemma SpelledWidens(line: string)
    requires Value(line, false).Some?
    ensures Value(line, true).Some?
  {
    FirstWidens(line);
  }

  /** Every name has at least three letters, so none fits in the last two
      characters of a line. */
  lemma ShortTail(line: string, i: nat)
    requires |line| < i + 3
    ensures SpelledFrom(line, i, 0).None?
  {
    assert forall k :: 0 <= k < 9 ==> |Names[k]| >= 3;
    SpelledNone(line, i, 0);
  }

  /** Both parts read the same where no name is written. */
  lemma {:induction false} NoNamesScan(line: string, i: nat)
    requires i <= |line|
    requires forall k :: 0 <= k < |line| ==> DigitAt(line, k, true) == DigitAt(line, k, false)
    ensures Scan(line, i, true) == Scan(line, i, false)
    decreases |line| - i
  {
    if i < |line| {
      NoNamesScan(line, i + 1);
    }
  }

  lemma {:induction false} NoNamesScanBack(line: string, n: nat)
    requires n <= |line|
    requires forall k :: 0 <= k < |line| ==> DigitAt(line, k, true) == DigitAt(line, k, false)
    ensures ScanBack(line, n, true) == ScanBack(line, n, false)
  {
    if n > 0 {
      NoNamesScanBack(line, n - 1);
    }
  }

  /** A line without any spelled name has the same value in both parts. */
  lemma NoNamesSameValue(line: string)
    requires forall k, j :: 0 <= k < |line| && 0 <= j < 9 ==> !PyStr.StartsAt(line, k, Names[j])
    ensures Value(line, true) == Value(line, false)
  {
    forall k | 0 <= k < |line|
      ensures DigitAt(line, k, true) == DigitAt(line, k, false)
    {
      if !Decimal.IsDigit(line[k]) {
        SpelledNone(line, k, 0);
      }
    }
    NoNamesScan(line, 0);
    NoNamesScanBack(line, |line|);
  }

  /** The first example line of part 1. */
  lemma Part1Example(line: string)
    requires line == "treb7uchet"
    ensures Value(line, false) == Some(77)
  {
    assert DigitAt(line, 4, false) == Some(7);
    SingleDigit(line, false, 4);
  }

  /** Overlapping names: "eightwo" reads 8 first and 2 last. */
  lemma OverlapExample(line: string)
    requires line == "eightwo"
    ensures Value(line, true) == Some(82)
  {
    EightFirst(line);
    TwoLast(line);
    ValueSpec(line, true, 0, 4);
  }

  lemma EightFirst(line: string)
    requires line == "eightwo"
    ensures DigitAt(line, 0, true) == Some(8)
  {
    assert PyStr.StartsAt(line, 0, Names[7]) by {
      assert forall i :: 0 <= i < 5 ==> line[0 + i] == Names[7][i];
    }
    SpelledUnique(line, 0, 7);
  }

  lemma TwoLast(line: string)
    requires line == "eightwo"
    ensures DigitAt(line, 4, true) == Some(2)
    ensures forall k :: 4 < k < |line| ==> DigitAt(line, k, true).None?
  {
    assert PyStr.StartsAt(line, 4, Names[1]) by {
      assert forall i :: 0 <= i < 3 ==> line[4 + i] == Names[1][i];
    }
    SpelledUnique(line, 4, 1);
    ShortTail(line, 5);
    ShortTail(line, 6);
  }

  /** A line without digits raises in part 1. */
  lemma NoDigitRaises(line: string)
    requires line == "abc"
    ensures Value(line, false).None?
  {
  }
}

=== FILE: camel_cards.dfy ===
/** 2023 day 7: Camel Cards. Each hand of cards gets a type value from 0
    (high card) to 6 (five of a kind), with jokers wild, ties go to the card
    ranks in order, and the bids are paid by rank. */
module CamelCards {
  import opened Wrappers
  import Sorting
  import Decimal

  /** `WILD_JOKERS`. The file sets it, and `card_types` is defined only when
      it is set, so part 1 always runs with wild jokers. */
  const WildJokers := true

  /** `card_types` with wild jokers: J is the weakest card. */
  const CardTypes := "J23456789TQKA"

  /** The number of times `c` occurs in the hand. */
  function Count(hand: string, c: char): nat
  {
    multiset(hand)[c]
  }

  /** The distinct cards of a hand. */
  function Labels(hand: string): set<char>
  {
    set c | c in hand
  }

  /** A Python dict from card to count, as its items in insertion order. */
  type Counts = seq<(char, nat)>

  function Keys(counts: Counts): set<char>
  {
    set i | 0 <= i < |counts| :: counts[i].0
  }

  predicate DistinctKeys(counts: Counts)
  {
    forall i, j :: 0 <= i < j < |counts| ==> counts[i].0 != counts[j].0
  }

  /** `counts[c]`, where a missing key reads as 0 (the `KeyError` fallback). */
  function Lookup(counts: Counts, c: char): nat
  {
    if |counts| == 0 then 0 else if counts[0].0 == c then counts[0].1 else Lookup(counts[1..], c)
  }

  function Total(counts: Counts): nat
  {
    if |counts| == 0 then 0 else counts[0].1 + Total(counts[1..])
  }

  /** `hand_counts[card] += 1`, or a new key with count 1 at the end. */
  function Bump(counts: Counts, c: char): Counts
  {
    if |counts| == 0 then [(c, 1)]
    else if counts[0].0 == c then [(c, counts[0].1 + 1)] + counts[1..]
    else [counts[0]] + Bump(counts[1..], c)
  }

  /** `get_counts(hand)`. */
  function GetCounts(hand: string): Counts
  {
    if |hand| == 0 then [] else Bump(GetCounts(hand[..|hand| - 1]), hand[|hand| - 1])
  }

  lemma KeysCons(x: (char, nat), rest: Counts)
    ensures Keys([x] + rest) == {x.0} + Keys(rest)
    ensures DistinctKeys([x] + rest) <==> DistinctKeys(rest) && x.0 !in Keys(rest)
  {
    var r := [x] + rest;
    forall k | k in Keys(r) ensures k in {x.0} + Keys(rest) {
      var i :| 0 <= i < |r| && r[i].0 == k;
      if i > 0 {
        assert rest[i - 1].0 == k;
      }
    }
    forall k | k in Keys(rest) ensures k in Keys(r) {
      var i :| 0 <= i < |rest| && rest[i].0 == k;
      assert r[i + 1].0 == k;
    }
    assert r[0].0 == x.0;
    if DistinctKeys(rest) && x.0 !in Keys(rest) {
      forall i, j | 0 <= i < j < |r| ensures r[i].0 != r[j].0 {
        assert r[j] == rest[j - 1];
        if i > 0 {
          assert r[i] == rest[i - 1];
        }
      }
    }
    if DistinctKeys(r) {
      forall i, j | 0 <= i < j < |rest| ensures rest[i].0 != rest[j].0 {
        assert rest[i] == r[i + 1] && rest[j] == r[j + 1];
      }
      forall i | 0 <= i < |rest| ensures rest[i].0 != x.0 {
        assert rest[i] == r[i + 1];
      }
    }
  }

  lemma KeysSnoc(init: Counts, x: (char, nat))
    ensures Keys(init + [x]) == Keys(init) + {x.0}
    ensures DistinctKeys(init + [x]) <==> DistinctKeys(init) && x.0 !in Keys(init)
  {
    var r := init + [x];
    forall k | k in Keys(r) ensures k in Keys(init) + {x.0} {
      var i :| 0 <= i < |r| && r[i].0 == k;
      if i < |init| {
        assert init[i].0 == k;
      }
    }
    forall k | k in Keys(init) ensures k in Keys(r) {
      var i :| 0 <= i < |init| && init[i].0 == k;
      assert r[i].0 == k;
    }
    assert r[|init|] == x;
    if DistinctKeys(init) && x.0 !in Keys(init) {
      forall i, j | 0 <= i < j < |r| ensures r[i].0 != r[j].0 {
        assert r[i] == init[i];
        if j < |init| {
          assert r[j] == init[j];
        }
      }
    }
    if DistinctKeys(r) {
      forall i, j | 0 <= i < j < |init| ensures init[i].0 != init[j].0 {
        assert init[i] == r[i] && init[j] == r[j];
      }
      forall i | 0 <= i < |init| ensures init[i].0 != x.0 {
        assert init[i] == r[i];
      }
    }
  }

  lemma {:induction false} BumpFacts(counts: Counts, c: char)
    requires DistinctKeys(counts)
    ensures DistinctKeys(Bump(counts, c))
    ensures Keys(Bump(counts, c)) == Keys(counts) + {c}
    ensures forall d :: Lookup(Bump(counts, c), d) == Lookup(counts, d) + if d == c then 1 else 0
    ensures Total(Bump(counts, c)) == Total(counts) + 1
  {
    if |counts| == 0 {
      KeysCons((c, 1), []);
    } else {
      var tail := counts[1..];
      assert counts == [counts[0]] + tail;
      KeysCons(counts[0], tail);
      if counts[0].0 == c {
        var r := [(c, counts[0].1 + 1)] + tail;
        KeysCons((c, counts[0].1 + 1), tail);
        assert r[1..] == tail;
        forall d ensures Lookup(r, d) == Lookup(counts, d) + if d == c then 1 else 0 {
          if d != c {
            assert Lookup(r, d) == Lookup(tail, d);
          }
        }
      } else {
        var rest := Bump(tail, c);
        BumpFacts(tail, c);
        KeysCons(counts[0], rest);
        assert Bump(counts, c) == [counts[0]] + rest;
        assert ([counts[0]] + rest)[1..] == rest;
      }
    }
  }

  /** `get_counts` holds each card of the hand once, with its number of
      occurrences, in order of first appearance; the counts add up to the
      hand's length. */
  lemma {:induction false} GetCountsFacts(hand: string)
    ensures DistinctKeys(GetCounts(hand))
    ensures Keys(GetCounts(hand)) == Labels(hand)
    ensures forall d :: Lookup(GetCounts(hand), d) == Count(hand, d)
    ensures Total(GetCounts(hand)) == |hand|
  {
    if |hand| > 0 {
      var init, last := hand[..|hand| - 1], hand[|hand| - 1];
      GetCountsFacts(init);
      BumpFacts(GetCounts(init), last);
      assert hand == init + [last];
      assert Labels(hand) == Labels(init) + {last};
    }
  }

  lemma {:induction false} LookupEntries(counts: Counts)
    requires DistinctKeys(counts)
    ensures forall i :: 0 <= i < |counts| ==> Lookup(counts, counts[i].0) == counts[i].1
  {
    if |counts| > 0 {
      var tail := counts[1..];
      assert DistinctKeys(tail) by {
        forall i, j | 0 <= i < j < |tail| ensures tail[i].0 != tail[j].0 {
          assert tail[i] == counts[i + 1] && tail[j] == counts[j + 1];
        }
      }
      LookupEntries(tail);
      forall i | 0 < i < |counts| ensures Lookup(counts, counts[i].0) == counts[i].1 {
        assert counts[i] == tail[i - 1];
      }
    }
  }

  lemma {:induction false} DistinctKeysSize(counts: Counts)
    requires DistinctKeys(counts)
    ensures |Keys(counts)| == |counts|
  {
    if |counts| > 0 {
      var init := counts[..|counts| - 1];
      assert DistinctKeys(init) by {
        forall i, j | 0 <= i < j < |init| ensures init[i].0 != init[j].0 {
          assert init[i] == counts[i] && init[j] == counts[j];
        }
      }
      DistinctKeysSize(init);
      var last := counts[|counts| - 1].0;
      assert Keys(counts) == Keys(init) + {last} by {
        forall k | k in Keys(counts) ensures k in Keys(init) + {last} {
          var i :| 0 <= i < |counts| && counts[i].0 == k;
          if i < |init| {
            assert init[i].0 == k;
          }
        }
      }
      assert last !in Keys(init) by {
        forall i | 0 <= i < |init| ensures init[i].0 != last {
          assert init[i] == counts[i];
        }
      }
    }
  }

  /** `len(get_counts(hand))` is the number of distinct cards. */
  lemma NumLabels(hand: string)
    ensures |GetCounts(hand)| == |Labels(hand)|
  {
    GetCountsFacts(hand);
    DistinctKeysSize(GetCounts(hand));
  }

  /** The loop of `wild_n_of_a_kind`: a J entry is skipped when `skipJ`
      (more than one kind of card), and any other entry wins when its count
      plus the jokers reaches `n`. With no jokers and no skipping it is the
      loop of the plain `n_of_a_kind`. */
  function Scan(counts: Counts, jokers: nat, n: int, skipJ: bool): bool
  {
    if |counts| == 0 then false
    else if counts[0].0 == 'J' && skipJ then Scan(counts[1..], jokers, n, skipJ)
    else if counts[0].1 + jokers >= n then true
    else Scan(counts[1..], jokers, n, skipJ)
  }

  lemma {:induction false} ScanIff(counts: Counts, jokers: nat, n: int, skipJ: bool)
    ensures Scan(counts, jokers, n, skipJ) <==>
      exists i :: 0 <= i < |counts| && !(counts[i].0 == 'J' && skipJ) && counts[i].1 + jokers >= n
  {
    if |counts| > 0 {
      ScanIff(counts[1..], jokers, n, skipJ);
      if exists i :: 0 <= i < |counts| && !(counts[i].0 == 'J' && skipJ) && counts[i].1 + jokers >= n {
        var i :| 0 <= i < |counts| && !(counts[i].0 == 'J' && skipJ) && counts[i].1 + jokers >= n;
        if i > 0 {
          assert counts[1..][i - 1] == counts[i];
        }
      }
      if Scan(counts[1..], jokers, n, skipJ) {
        var i :| 0 <= i < |counts[1..]| && !(counts[1..][i].0 == 'J' && skipJ) && counts[1..][i].1 + jokers >= n;
        assert counts[i + 1] == counts[1..][i];
      }
    }
  }

  /** `wild_n_of_a_kind(hand, n)`. */
  function WildNOfAKind(hand: string, n: int): bool
  {
    var counts := GetCounts(hand);
    Scan(counts, Lookup(counts, 'J'), n, |counts| > 1)
  }

  /** `n_of_a_kind(hand, n)`. */
  function NOfAKind(hand: string, n: int, wild: bool): bool
  {
    if wild then WildNOfAKind(hand, n) else Scan(GetCounts(hand), 0, n, false)
  }

  /** A key of the counts is an entry of them. */
  lemma KeyEntry(counts: Counts, c: char) returns (i: nat)
    requires c in Keys(counts)
    ensures i < |counts| && counts[i].0 == c
  {
    i :| 0 <= i < |counts| && counts[i].0 == c;
  }

  /** Without wild jokers: some card occurs at least `n` times. */
  lemma PlainNOfAKindIff(hand: string, n: int)
    ensures NOfAKind(hand, n, false) <==> exists c :: c in hand && Count(hand, c) >= n
  {
    var counts := GetCounts(hand);
    GetCountsFacts(hand);
    LookupEntries(counts);
    ScanIff(counts, 0, n, false);
    if exists c :: c in hand && Count(hand, c) >= n {
      var c :| c in hand && Count(hand, c) >= n;
      assert c in Labels(hand);
      var i := KeyEntry(counts, c);
    }
    if NOfAKind(hand, n, false) {
      var i :| 0 <= i < |counts| && counts[i].1 >= n;
      assert counts[i].0 in Keys(counts);
    }
  }

  /** With wild jokers: some card other than J, together with the jokers,
      reaches `n`; or the hand is all jokers, which count twice. */
  lemma WildNOfAKindIff(hand: string, n: int)
    ensures WildNOfAKind(hand, n) <==>
      (exists c :: c in hand && c != 'J' && Count(hand, c) + Count(hand, 'J') >= n)
      || (Labels(hand) == {'J'} && 2 * |hand| >= n)
  {
    var counts := GetCounts(hand);
    var jokers := Count(hand, 'J');
    GetCountsFacts(hand);
    LookupEntries(counts);
    NumLabels(hand);
    ScanIff(counts, jokers, n, |counts| > 1);
    if exists c :: c in hand && c != 'J' && Count(hand, c) + jokers >= n {
      var c :| c in hand && c != 'J' && Count(hand, c) + jokers >= n;
      assert c in Labels(hand);
      var i := KeyEntry(counts, c);
    }
    if Labels(hand) == {'J'} && 2 * |hand| >= n {
      var i := KeyEntry(counts, 'J');
      assert |counts| == 1;
      assert multiset(hand)['J'] == |hand| by {
        AllSame(hand, 'J');
      }
    }
    if WildNOfAKind(hand, n) {
      var i :| 0 <= i < |counts| && !(counts[i].0 == 'J' && |counts| > 1) && counts[i].1 + jokers >= n;
      var c := counts[i].0;
      assert c in Keys(counts);
      if c == 'J' {
        assert |counts| == 1;
        assert Labels(hand) == {'J'} by {
          assert Keys(counts) == {c} by {
            forall k | k in Keys(counts) ensures k == c {
              var j :| 0 <= j < |counts| && counts[j].0 == k;
            }
          }
        }
        AllSame(hand, 'J');
      }
    }
  }

  /** A hand whose only card is `c` is `c` throughout. */
  lemma {:induction false} AllSame(hand: string, c: char)
    requires Labels(hand) <= {c}
    ensures multiset(hand)[c] == |hand|
  {
    if |hand| > 0 {
      var init := hand[..|hand| - 1];
      assert hand == init + [hand[|hand| - 1]];
      assert Labels(init) <= Labels(hand);
      AllSame(init, c);
      assert hand[|hand| - 1] in Labels(hand);
    }
  }

  /** `full_house(hand)`: with a joker in the hand three kinds of card make
      a full house, and two otherwise. */
  function FullHouse(hand: string, wild: bool): bool
  {
    var kinds := |GetCounts(hand)|;
    if wild && 'J' in hand then kinds == 3 else kinds == 2
  }

  /** `full_house` counts the distinct cards of the hand. */
  lemma FullHouseLabels(hand: string, wild: bool)
    ensures FullHouse(hand, wild) <==> |Labels(hand)| == if wild && 'J' in hand then 3 else 2
  {
    NumLabels(hand);
  }

  /** The loop of `get_pairs`: entries with a count of at least 2. */
  function PairsIn(counts: Counts): nat
  {
    if |counts| == 0 then 0 else PairsIn(counts[..|counts| - 1]) + if counts[|counts| - 1].1 >= 2 then 1 else 0
  }

  function GetPairs(hand: string): nat
  {
    PairsIn(GetCounts(hand))
  }

  /** The keys of entries with count at least 2. */
  function PairKeys(counts: Counts): set<char>
  {
    set i | 0 <= i < |counts| && counts[i].1 >= 2 :: counts[i].0
  }

  lemma PairKeysSnoc(init: Counts, x: (char, nat))
    ensures PairKeys(init + [x]) == PairKeys(init) + if x.1 >= 2 then {x.0} else {}
    ensures PairKeys(init) <= Keys(init)
  {
    var r := init + [x];
    forall k | k in PairKeys(r) ensures k in PairKeys(init) + if x.1 >= 2 then {x.0} else {} {
      var i :| 0 <= i < |r| && r[i].1 >= 2 && r[i].0 == k;
      if i < |init| {
        assert init[i] == r[i];
      }
    }
    forall k | k in PairKeys(init) ensures k in PairKeys(r) {
      var i :| 0 <= i < |init| && init[i].1 >= 2 && init[i].0 == k;
      assert r[i] == init[i];
    }
    assert r[|init|] == x;
  }

  lemma {:induction false} PairsInSize(counts: Counts)
    requires DistinctKeys(counts)
    ensures PairsIn(counts) == |PairKeys(counts)|
  {
    if |counts| > 0 {
      var init := counts[..|counts| - 1];
      var last := counts[|counts| - 1];
      assert counts == init + [last];
      KeysSnoc(init, last);
      PairKeysSnoc(init, last);
      PairsInSize(init);
    }
  }

  /** `get_pairs(hand)` is the number of distinct cards occurring at least twice. */
  lemma GetPairsIsPairedLabels(hand: string)
    ensures GetPairs(hand) == |set c | c in hand && Count(hand, c) >= 2|
  {
    var counts := GetCounts(hand);
    GetCountsFacts(hand);
    LookupEntries(counts);
    PairsInSize(counts);
    assert PairKeys(counts) == set c | c in hand && Count(hand, c) >= 2 by {
      forall c | c in hand && Count(hand, c) >= 2 ensures c in PairKeys(counts) {
        assert c in Labels(hand);
        var i := KeyEntry(counts, c);
      }
      forall c | c in PairKeys(counts) ensures c in hand && Count(hand, c) >= 2 {
        var i :| 0 <= i < |counts| && counts[i].1 >= 2 && counts[i].0 == c;
        assert c in Keys(counts);
      }
    }
  }

  function TwoPair(hand: string): bool
  {
    GetPairs(hand) >= 2
  }

  /** `one_pair(hand)`: a joker always makes at least a pair. */
  function OnePair(hand: string, wild: bool): bool
  {
    (wild && 'J' in hand) || GetPairs(hand) >= 1
  }

  /** The `value` chain of `part1`, from five of a kind (6) down to high card (0). */
  function Value(hand: string, wild: bool): (v: nat)
    ensures v <= 6
  {
    if NOfAKind(hand, 5, wild) then 6
    else if NOfAKind(hand, 4, wild) then 5
    else if FullHouse(hand, wild) then 4
    else if NOfAKind(hand, 3, wild) then 3
    else if TwoPair(hand) then 2
    else if OnePair(hand, wild) then 1
    else 0
  }

  /** Wild jokers change nothing for a hand without a J. */
  lemma NoJokerSameValue(hand: string)
    requires 'J' !in hand
    ensures Value(hand, true) == Value(hand, false)
  {
    assert Count(hand, 'J') == 0;
    forall n ensures NOfAKind(hand, n, true) == NOfAKind(hand, n, false) {
      WildNOfAKindIff(hand, n);
      PlainNOfAKindIff(hand, n);
    }
  }

  /** With wild jokers, a hand holding a J is at least one pair. */
  lemma JokerMakesPair(hand: string)
    requires 'J' in hand
    ensures Value(hand, true) >= 1
  {
  }

  /** `list.index(x)`: the first position of `x`, or ValueError. */
  function IndexOf(s: string, c: char): (r: Option<nat>)
    ensures r.Some? <==> c in s
    ensures r.Some? ==> r.value < |s| && s[r.value] == c && c !in s[..r.value]
  {
    if |s| == 0 then None
    else if s[0] == c then Some(0)
    else
      match IndexOf(s[1..], c)
      case None => None
      case Some(k) =>
        assert s[..k + 1] == [s[0]] + s[1..][..k];
        Some(k + 1)
  }

  /** `card_types.index(card)` for every card of the hand. */
  function Indices(hand: string): (r: Option<seq<nat>>)
    ensures r.Some? <==> forall k :: 0 <= k < |hand| ==> hand[k] in CardTypes
    ensures r.Some? ==> |r.value| == |hand| && forall k :: 0 <= k < |hand| ==> IndexOf(CardTypes, hand[k]) == Some(r.value[k])
  {
    if |hand| == 0 then Some([])
    else
      var head, rest := IndexOf(CardTypes, hand[0]), Indices(hand[1..]);
      var tail := hand[1..];
      assert forall k :: 1 <= k < |hand| ==> hand[k] == tail[k - 1];
      if head.Some? && rest.Some? then Some([head.value] + rest.value) else None
  }

  /** J is the weakest card, and different cards have different ranks. */
  lemma CardRanks(a: char, b: char)
    requires a in CardTypes && b in CardTypes
    ensures IndexOf(CardTypes, 'J') == Some(0)
    ensures a != 'J' ==> IndexOf(CardTypes, a).value > 0
    ensures IndexOf(CardTypes, a) == IndexOf(CardTypes, b) ==> a == b
  {
  }

  /** One sort key of `part1`: `((value, indices), bid, hand)`. */
  datatype Entry = Entry(value: nat, indices: seq<nat>, bid: string, hand: string)

  function IntLess(a: nat, b: nat): bool
  {
    a < b
  }

  function CharLess(a: char, b: char): bool
  {
    a < b
  }

  /** Python's comparison of the key tuples, field by field. */
  function EntryLess(a: Entry, b: Entry): bool
  {
    if a.value != b.value then a.value < b.value
    else if a.indices != b.indices then Sorting.LexLess(a.indices, b.indices, IntLess)
    else if a.bid != b.bid then Sorting.LexLess(a.bid, b.bid, CharLess)
    else Sorting.LexLess(a.hand, b.hand, CharLess)
  }

  lemma BaseOrders()
    ensures Sorting.StrictOrder(IntLess)
    ensures Sorting.StrictOrder(CharLess)
  {
  }

  lemma EntryTransitive(a: Entry, b: Entry, c: Entry)
    requires EntryLess(a, b) && EntryLess(b, c)
    ensures EntryLess(a, c)
  {
    BaseOrders();
    if a.value == b.value && b.value == c.value {
      if a.indices != b.indices && b.indices != c.indices {
        Sorting.LexTransitive(a.indices, b.indices, c.indices, IntLess);
        if a.indices == c.indices {
          Sorting.LexIrreflexive(a.indices, IntLess);
        }
      } else if a.indices == b.indices && b.indices == c.indices {
        if a.bid != b.bid && b.bid != c.bid {
          Sorting.LexTransitive(a.bid, b.bid, c.bid, CharLess);
          if a.bid == c.bid {
            Sorting.LexIrreflexive(a.bid, CharLess);
          }
        } else if a.bid == b.bid && b.bid == c.bid {
          Sorting.LexTransitive(a.hand, b.hand, c.hand, CharLess);
        }
      }
    }
  }

  lemma EntryTotal(a: Entry, b: Entry)
    ensures a == b || EntryLess(a, b) || EntryLess(b, a)
  {
    BaseOrders();
    Sorting.LexTotal(a.indices, b.indices, IntLess);
    Sorting.LexTotal(a.bid, b.bid, CharLess);
    Sorting.LexTotal(a.hand, b.hand, CharLess);
  }

  /** The key order of `hands.sort()` is a strict total order. */
  lemma EntryOrder()
    ensures Sorting.StrictOrder(EntryLess)
  {
    BaseOrders();
    forall a: Entry ensures !EntryLess(a, a) {
      Sorting.LexIrreflexive(a.hand, CharLess);
    }
    forall a: Entry, b: Entry, c: Entry | EntryLess(a, b) && EntryLess(b, c) ensures EntryLess(a, c) {
      EntryTransitive(a, b, c);
    }
    forall a: Entry, b: Entry ensures a == b || EntryLess(a, b) || EntryLess(b, a) {
      EntryTotal(a, b);
    }
  }

  /** One input line, split into hand and bid: its sort key, or the
      ValueError of a card outside `card_types`. */
  function EntryOf(line: (string, string)): Option<Entry>
  {
    match Indices(line.0)
    case None => None
    case Some(ix) => Some(Entry(Value(line.0, WildJokers), ix, line.1, line.0))
  }

  function Entries(lines: seq<(string, string)>): (r: Option<seq<Entry>>)
    ensures r.Some? <==> forall k :: 0 <= k < |lines| ==> EntryOf(lines[k]).Some?
    ensures r.Some? ==> |r.value| == |lines| && forall k :: 0 <= k < |lines| ==> r.value[k] == EntryOf(lines[k]).value
  {
    if forall k :: 0 <= k < |lines| ==> EntryOf(lines[k]).Some?
    then Some(seq(|lines|, k requires 0 <= k < |lines| => EntryOf(lines[k]).value))
    else None
  }

  /** `int(bid)`, or 0 where the bare `except` skips a bid that is not a number. */
  function BidValue(e: Entry): int
  {
    match Decimal.ParseInt(e.bid)
    case None => 0
    case Some(v) => v
  }

  /** The winnings loop over the sorted keys, starting at rank `first + 1`. */
  function WinningsFrom(sorted: seq<Entry>, first: nat): int
  {
    if |sorted| == 0 then 0 else (first + 1) * BidValue(sorted[0]) + WinningsFrom(sorted[1..], first + 1)
  }

  function SortEntries(es: seq<Entry>): (r: seq<Entry>)
    ensures multiset(r) == multiset(es) && |r| == |es|
    ensures Sorting.Sorted(r, EntryLess)
  {
    EntryOrder();
    Sorting.Sort(es, EntryLess)
  }

  /** `part1`: the total winnings, or None when a card is not in `card_types`. */
  function Part1(lines: seq<(string, string)>): Option<int>
  {
    match Entries(lines)
    case None => None
    case Some(es) => Some(WinningsFrom(SortEntries(es), 0))
  }

  /** A sum over a sequence of keys. */
  function SumOf<T>(s: seq<T>, g: T -> int): int
  {
    if |s| == 0 then 0 else g(s[0]) + SumOf(s[1..], g)
  }

  lemma {:induction false} SumOfConcat<T>(a: seq<T>, b: seq<T>, g: T -> int)
    ensures SumOf(a + b, g) == SumOf(a, g) + SumOf(b, g)
  {
    if |a| > 0 {
      assert (a + b)[1..] == a[1..] + b;
      SumOfConcat(a[1..], b, g);
    } else {
      assert a + b == b;
    }
  }

  lemma SumOfRemove<T>(s: seq<T>, i: nat, g: T -> int)
    requires i < |s|
    ensures SumOf(s, g) == g(s[i]) + SumOf(s[..i] + s[i + 1..], g)
  {
    assert s == s[..i] + ([s[i]] + s[i + 1..]);
    SumOfConcat(s[..i], [s[i]] + s[i + 1..], g);
    SumOfConcat(s[..i], s[i + 1..], g);
    assert ([s[i]] + s[i + 1..])[1..] == s[i + 1..];
  }

  /** A sum does not depend on the order of its terms. */
  lemma {:induction false} SumOfPermutation<T>(a: seq<T>, b: seq<T>, g: T -> int)
    requires multiset(a) == multiset(b)
    ensures SumOf(a, g) == SumOf(b, g)
    decreases |a|
  {
    if |a| > 0 {
      var i := Sorting.PickSame(a, b);
      SumOfRemove(b, i, g);
      SumOfPermutation(a[1..], b[..i] + b[i + 1..], g);
    } else {
      assert |multiset(b)| == 0;
    }
  }

  function Below(e: Entry): Entry -> int
  {
    f => if EntryLess(f, e) then 1 else 0
  }

  /** The number of keys strictly weaker than `e`. */
  function Weaker(es: seq<Entry>, e: Entry): int
  {
    SumOf(es, Below(e))
  }

  /** A hand's payout as the puzzle defines it: the bid times one more than
      the number of weaker hands. */
  function Payout(es: seq<Entry>): Entry -> int
  {
    e => (1 + Weaker(es, e)) * BidValue(e)
  }

  lemma {:induction false} WeakerNone(s: seq<Entry>, e: Entry)
    requires forall k :: 0 <= k < |s| ==> !EntryLess(s[k], e)
    ensures Weaker(s, e) == 0
  {
    if |s| > 0 {
      WeakerNone(s[1..], e);
    }
  }

  /** In a strictly increasing sequence, the key at `i` has exactly `i`
      weaker keys. */
  lemma {:induction false} WeakerInOrder(s: seq<Entry>, i: nat)
    requires i < |s|
    requires forall p, q :: 0 <= p < q < |s| ==> EntryLess(s[p], s[q])
    ensures Weaker(s, s[i]) == i
  {
    EntryOrder();
    var tail := s[1..];
    forall p, q | 0 <= p < q < |tail| ensures EntryLess(tail[p], tail[q]) {
      assert tail[p] == s[p + 1] && tail[q] == s[q + 1];
    }
    if i == 0 {
      forall k | 0 <= k < |tail| ensures !EntryLess(tail[k], s[0]) {
        assert tail[k] == s[k + 1];
        assert EntryLess(s[0], s[k + 1]);
      }
      WeakerNone(tail, s[0]);
      EntryOrder();
      assert !EntryLess(s[0], s[0]);
    } else {
      assert s[i] == tail[i - 1];
      WeakerInOrder(tail, i - 1);
      assert EntryLess(s[0], s[i]);
    }
  }

  /** Sorted keys without repeats are strictly increasing. */
  lemma StrictlySorted(s: seq<Entry>)
    requires Sorting.Sorted(s, EntryLess)
    requires forall e :: multiset(s)[e] <= 1
    ensures forall p, q :: 0 <= p < q < |s| ==> EntryLess(s[p], s[q])
  {
    EntryOrder();
    forall p, q | 0 <= p < q < |s| ensures EntryLess(s[p], s[q]) {
      if s[p] == s[q] {
        Twice(s, p, q);
      }
      assert !EntryLess(s[q], s[p]);
    }
  }

  lemma Twice<T>(s: seq<T>, p: nat, q: nat)
    requires p < q < |s| && s[p] == s[q]
    ensures multiset(s)[s[p]] >= 2
  {
    assert s == s[..p] + [s[p]] + s[p + 1..q] + [s[q]] + s[q + 1..];
  }

  /** The winnings loop pays each sorted key its rank times its bid. */
  lemma {:induction false} WinningsArePayouts(s: seq<Entry>, k: nat, es: seq<Entry>)
    requires k <= |s|
    requires forall i :: 0 <= i < |s| ==> Weaker(es, s[i]) == i
    ensures WinningsFrom(s[k..], k) == SumOf(s[k..], Payout(es))
    decreases |s| - k
  {
    if k < |s| {
      WinningsArePayouts(s, k + 1, es);
      assert s[k..][1..] == s[k + 1..];
    }
  }

  /** Permuting the keys changes no key's number of weaker keys. */
  lemma WeakerPermutation(a: seq<Entry>, b: seq<Entry>, e: Entry)
    requires multiset(a) == multiset(b)
    ensures Weaker(a, e) == Weaker(b, e)
  {
    SumOfPermutation(a, b, Below(e));
  }

  /** The key of a line holds its hand and bid, so different lines have different keys. */
  lemma EntriesDistinct(lines: seq<(string, string)>)
    requires forall i, j :: 0 <= i < j < |lines| ==> lines[i] != lines[j]
    requires Entries(lines).Some?
    ensures forall e :: multiset(Entries(lines).value)[e] <= 1
  {
    var es := Entries(lines).value;
    forall i, j | 0 <= i < j < |es| ensures es[i] != es[j] {
      assert lines[i] == (es[i].hand, es[i].bid) && lines[j] == (es[j].hand, es[j].bid);
    }
    NoRepeats(es);
  }

  lemma {:induction false} NoRepeats(s: seq<Entry>)
    requires forall i, j :: 0 <= i < j < |s| ==> s[i] != s[j]
    ensures forall e :: multiset(s)[e] <= 1
  {
    if |s| > 0 {
      var tail := s[1..];
      forall i, j | 0 <= i < j < |tail| ensures tail[i] != tail[j] {
        assert tail[i] == s[i + 1] && tail[j] == s[j + 1];
      }
      NoRepeats(tail);
      assert s == [s[0]] + tail;
      assert s[0] !in tail by {
        forall k | 0 <= k < |tail| ensures tail[k] != s[0] {
          assert tail[k] == s[k + 1];
        }
      }
    }
  }

  /** Part 1 pays every hand its bid times one more than the number of weaker
      hands, when no input line is repeated. */
  lemma Part1IsPayouts(lines: seq<(string, string)>)
    requires forall i, j :: 0 <= i < j < |lines| ==> lines[i] != lines[j]
    ensures Part1(lines).Some? <==> forall k :: 0 <= k < |lines| ==> EntryOf(lines[k]).Some?
    ensures Part1(lines).Some? ==> Part1(lines).value == SumOf(Entries(lines).value, Payout(Entries(lines).value))
  {
    if Entries(lines).Some? {
      var es := Entries(lines).value;
      var s := SortEntries(es);
      EntriesDistinct(lines);
      StrictlySorted(s);
      forall i | 0 <= i < |s| ensures Weaker(es, s[i]) == i {
        WeakerInOrder(s, i);
        WeakerPermutation(s, es, s[i]);
      }
      WinningsArePayouts(s, 0, es);
      assert s[0..] == s;
      SumOfPermutation(s, es, Payout(es));
    }
  }

  /** The key of a line, or a placeholder for a line with an unknown card. */
  function EntryOrDefault(line: (string, string)): Entry
  {
    match EntryOf(line)
    case None => Entry(0, [], "", "")
    case Some(e) => e
  }

  /** The keys of the lines, with the placeholder for unknown cards. */
  function KeysOf(lines: seq<(string, string)>): (r: seq<Entry>)
    ensures |r| == |lines|
  {
    if |lines| == 0 then [] else [EntryOrDefault(lines[0])] + KeysOf(lines[1..])
  }

  lemma {:induction false} KeysOfIndex(lines: seq<(string, string)>)
    ensures forall k :: 0 <= k < |lines| ==> KeysOf(lines)[k] == EntryOrDefault(lines[k])
  {
    if |lines| > 0 {
      KeysOfIndex(lines[1..]);
    }
  }

  lemma {:induction false} KeysOfConcat(a: seq<(string, string)>, b: seq<(string, string)>)
    ensures KeysOf(a + b) == KeysOf(a) + KeysOf(b)
  {
    if |a| > 0 {
      assert (a + b)[1..] == a[1..] + b;
      KeysOfConcat(a[1..], b);
    } else {
      assert a + b == b;
    }
  }

  /** Keying two reorderings of the same lines gives two reorderings of
      the same keys. */
  lemma {:induction false} KeysOfMultiset(a: seq<(string, string)>, b: seq<(string, string)>)
    requires multiset(a) == multiset(b)
    ensures multiset(KeysOf(a)) == multiset(KeysOf(b))
    decreases |a|
  {
    if |a| > 0 {
      var i := Sorting.PickSame(a, b);
      KeysOfMultiset(a[1..], b[..i] + b[i + 1..]);
      KeysOfStep(b, i);
    } else {
      assert |multiset(b)| == 0;
      assert b == [];
    }
  }

  /** Keying the lines adds the key of each line once. */
  lemma KeysOfStep(b: seq<(string, string)>, i: nat)
    requires i < |b|
    ensures multiset(KeysOf(b)) == multiset(KeysOf(b[..i] + b[i + 1..])) + multiset{EntryOrDefault(b[i])}
  {
    KeysOfSplit(b, i);
    KeysOfRemove(b, i);
    Sorting.MultisetMiddle(KeysOf(b[..i]), EntryOrDefault(b[i]), KeysOf(b[i + 1..]));
  }

  lemma {:induction false} KeysOfSplit(b: seq<(string, string)>, i: nat)
    requires i < |b|
    ensures KeysOf(b) == KeysOf(b[..i]) + [EntryOrDefault(b[i])] + KeysOf(b[i + 1..])
  {
    if i > 0 {
      var t := b[1..];
      KeysOfSplit(t, i - 1);
      assert t[..i - 1] == b[..i][1..];
      assert t[i..] == b[i + 1..];
    }
  }

  lemma KeysOfRemove(b: seq<(string, string)>, i: nat)
    requires i < |b|
    ensures KeysOf(b[..i] + b[i + 1..]) == KeysOf(b[..i]) + KeysOf(b[i + 1..])
  {
    KeysOfConcat(b[..i], b[i + 1..]);
  }


  lemma EntriesKeys(lines: seq<(string, string)>)
    requires Entries(lines).Some?
    ensures Entries(lines).value == KeysOf(lines)
  {
    KeysOfIndex(lines);
  }

  lemma EntriesMultiset(a: seq<(string, string)>, b: seq<(string, string)>)
    requires multiset(a) == multiset(b)
    requires Entries(a).Some?
    ensures Entries(b).Some?
    ensures multiset(Entries(a).value) == multiset(Entries(b).value)
  {
    forall k | 0 <= k < |b| ensures EntryOf(b[k]).Some? {
      assert b[k] in multiset(a);
      var j :| 0 <= j < |a| && a[j] == b[k];
    }
    EntriesKeys(a);
    EntriesKeys(b);
    KeysOfMultiset(a, b);
  }

  /** Part 1 does not depend on the order of the input lines. */
  lemma Part1Permutation(a: seq<(string, string)>, b: seq<(string, string)>)
    requires multiset(a) == multiset(b)
    ensures Part1(a) == Part1(b)
  {
    if Entries(a).Some? {
      EntriesMultiset(a, b);
      EntryOrder();
      Sorting.SortPermutation(Entries(a).value, Entries(b).value, EntryLess);
    } else if Entries(b).Some? {
      EntriesMultiset(b, a);
    }
  }
}

=== FILE: cube_game.dfy ===
/** 2023 day 2: games of cubes drawn from a bag. Part 1 sums the ids of the
    games that a bag of 12 red, 13 green and 14 blue cubes allows; part 2
    sums the powers of the smallest bag each game needs. */
module CubeGame {
  import opened Wrappers

  datatype Colour = Red | Green | Blue

  /** A count per colour: the bag, one reveal, or the best bag so far. */
  datatype Cubes = Cubes(red: nat, green: nat, blue: nat)

  /** The keys of the bag dictionary, in its order. */
  const Colours: seq<Colour> := [Red, Green, Blue]

  /** The bag of part 1. */
  const Bag: Cubes := Cubes(12, 13, 14)

  const Empty: Cubes := Cubes(0, 0, 0)

  function Count(c: Cubes, colour: Colour): nat
  {
    match colour
    case Red => c.red
    case Green => c.green
    case Blue => c.blue
  }

  /** `c[colour] = n`. */
  function With(c: Cubes, colour: Colour, n: nat): (r: Cubes)
    ensures Count(r, colour) == n
    ensures forall other :: other != colour ==> Count(r, other) == Count(c, other)
  {
    match colour
    case Red => c.(red := n)
    case Green => c.(green := n)
    case Blue => c.(blue := n)
  }

  /** Every count of `a` is at most the same count of `b`. */
  predicate Fits(a: Cubes, b: Cubes)
  {
    a.red <= b.red && a.green <= b.green && a.blue <= b.blue
  }

  lemma FitsCounts(a: Cubes, b: Cubes)
    ensures Fits(a, b) <==> forall colour :: Count(a, colour) <= Count(b, colour)
  {
    assert Count(a, Red) == a.red && Count(a, Green) == a.green && Count(a, Blue) == a.blue;
    assert Count(b, Red) == b.red && Count(b, Green) == b.green && Count(b, Blue) == b.blue;
  }

  /** One token of a reveal, `"<count> <colour>"`. A colour name outside the
      bag adds a key that nothing reads. */
  datatype Token = Token(count: nat, colour: string)

  function ColourOf(name: string): Option<Colour>
  {
    if name == "red" then Some(Red)
    else if name == "green" then Some(Green)
    else if name == "blue" then Some(Blue)
    else None
  }

  /** The `shown` dictionary of one reveal: every colour starts at 0 and each
      token overwrites the count of its colour. */
  function Shown(tokens: seq<Token>): Cubes
  {
    if |tokens| == 0 then Empty
    else
      var last := tokens[|tokens| - 1];
      var before := Shown(tokens[..|tokens| - 1]);
      match ColourOf(last.colour)
      case None => before
      case Some(colour) => With(before, colour, last.count)
  }

  /** A colour no token names counts 0. */
  lemma {:induction false} ShownUnnamed(tokens: seq<Token>, colour: Colour)
    requires forall k :: 0 <= k < |tokens| ==> !Names(tokens[k], colour)
    ensures Count(Shown(tokens), colour) == 0
  {
    if |tokens| > 0 {
      var init := tokens[..|tokens| - 1];
      assert forall k :: 0 <= k < |init| ==> init[k] == tokens[k];
      ShownUnnamed(init, colour);
    }
  }

  /** The last token naming a colour gives its count. */
  lemma {:induction false} ShownLast(tokens: seq<Token>, colour: Colour, k: nat)
    requires k < |tokens| && Names(tokens[k], colour) && LastNaming(tokens, k, colour)
    ensures Count(Shown(tokens), colour) == tokens[k].count
  {
    var init := tokens[..|tokens| - 1];
    if k < |init| {
      assert LastNaming(init, k, colour);
      ShownLast(init, colour, k);
    }
  }

  predicate Names(token: Token, colour: Colour)
  {
    ColourOf(token.colour) == Some(colour)
  }

  /** No token after position `k` names `colour`. */
  predicate LastNaming(tokens: seq<Token>, k: int, colour: Colour)
  {
    forall j :: 0 <= j < |tokens| && k < j ==> !Names(tokens[j], colour)
  }

  lemma AllColours()
    ensures forall colour :: colour in Colours
  {
    forall colour ensures colour in Colours {
      match colour
      case Red => assert Colours[0] == Red;
      case Green => assert Colours[1] == Green;
      case Blue => assert Colours[2] == Blue;
    }
  }

  /** The loop of `possible_state`, over the remaining keys. */
  function PossibleFrom(bag: Cubes, shown: Cubes, keys: seq<Colour>): bool
  {
    if |keys| == 0 then true
    else if Count(bag, keys[0]) < Count(shown, keys[0]) then false
    else PossibleFrom(bag, shown, keys[1..])
  }

  /** `possible_state(bag, shown)`. */
  function PossibleState(bag: Cubes, shown: Cubes): (r: bool)
    ensures r <==> Fits(shown, bag)
  {
    PossibleFromIff(bag, shown, Colours);
    assert Colours[0] == Red && Colours[1] == Green && Colours[2] == Blue;
    PossibleFrom(bag, shown, Colours)
  }

  lemma {:induction false} PossibleFromIff(bag: Cubes, shown: Cubes, keys: seq<Colour>)
    ensures PossibleFrom(bag, shown, keys) <==> forall k :: 0 <= k < |keys| ==> Count(shown, keys[k]) <= Count(bag, keys[k])
  {
    if |keys| > 0 {
      PossibleFromIff(bag, shown, keys[1..]);
      assert forall k :: 1 <= k < |keys| ==> keys[k] == keys[1..][k - 1];
    }
  }

  /** The loop of `min_possible` over the remaining keys: raise each count of
      the best bag to the shown count. */
  function RaiseFrom(best: Cubes, shown: Cubes, keys: seq<Colour>): Cubes
    decreases |keys|
  {
    if |keys| == 0 then best
    else
      var raised := if Count(best, keys[0]) < Count(shown, keys[0]) then With(best, keys[0], Count(shown, keys[0])) else best;
      RaiseFrom(raised, shown, keys[1..])
  }

  lemma {:induction false} RaiseFromCounts(best: Cubes, shown: Cubes, keys: seq<Colour>)
    ensures forall colour :: (Count(RaiseFrom(best, shown, keys), colour) ==
      if colour in keys && Count(best, colour) < Count(shown, colour) then Count(shown, colour) else Count(best, colour))
    decreases |keys|
  {
    if |keys| > 0 {
      var raised := if Count(best, keys[0]) < Count(shown, keys[0]) then With(best, keys[0], Count(shown, keys[0])) else best;
      RaiseFromCounts(raised, shown, keys[1..]);
      assert forall colour :: colour in keys <==> colour == keys[0] || colour in keys[1..];
    }
  }

  /** `min_possible(prior_best, shown)`: the smallest bag that allows both
      the prior best bag and the reveal, count by count. */
  function MinPossible(prior: Cubes, shown: Cubes): (r: Cubes)
    ensures Fits(prior, r) && Fits(shown, r)
    ensures forall b :: Fits(prior, b) && Fits(shown, b) ==> Fits(r, b)
    ensures forall colour :: Count(r, colour) == Count(prior, colour) || Count(r, colour) == Count(shown, colour)
  {
    RaiseFromCounts(prior, shown, Colours);
    AllColours();
    FitsCounts(prior, RaiseFrom(prior, shown, Colours));
    FitsCounts(shown, RaiseFrom(prior, shown, Colours));
    LeastCounts(prior, shown, RaiseFrom(prior, shown, Colours));
    RaiseFrom(prior, shown, Colours)
  }

  function Max(x: nat, y: nat): nat
  {
    if x < y then y else x
  }

  lemma LeastCounts(prior: Cubes, shown: Cubes, r: Cubes)
    requires forall colour :: Count(r, colour) == Max(Count(prior, colour), Count(shown, colour))
    ensures forall b :: Fits(prior, b) && Fits(shown, b) ==> Fits(r, b)
  {
    assert Count(r, Red) == r.red && Count(r, Green) == r.green && Count(r, Blue) == r.blue;
    assert Count(prior, Red) == prior.red && Count(prior, Green) == prior.green && Count(prior, Blue) == prior.blue;
    assert Count(shown, Red) == shown.red && Count(shown, Green) == shown.green && Count(shown, Blue) == shown.blue;
  }

  /** A reveal already allowed by the best bag leaves it unchanged, so
      repeating a reveal changes nothing. */
  lemma MinPossibleIdempotent(prior: Cubes, shown: Cubes)
    ensures Fits(shown, prior) ==> MinPossible(prior, shown) == prior
    ensures MinPossible(MinPossible(prior, shown), shown) == MinPossible(prior, shown)
  {
    var r := MinPossible(prior, shown);
    assert Count(r, Red) == r.red && Count(r, Green) == r.green && Count(r, Blue) == r.blue;
    if Fits(shown, prior) {
      assert Fits(r, prior);
      assert Count(prior, Red) == prior.red && Count(prior, Green) == prior.green && Count(prior, Blue) == prior.blue;
    }
    var r' := MinPossible(r, shown);
    assert Fits(r', r);
    assert Count(r', Red) == r'.red && Count(r', Green) == r'.green && Count(r', Blue) == r'.blue;
  }

  /** `power(bag)`. */
  function Power(bag: Cubes): (r: nat)
    ensures r == 0 <==> bag.red == 0 || bag.green == 0 || bag.blue == 0
  {
    bag.red * bag.green * bag.blue
  }

  datatype Game = Game(id: nat, rounds: seq<seq<Token>>)

  /** The part 1 fold `possible = possible and possible_state(bag, shown)`. */
  function Possible(rounds: seq<seq<Token>>, bag: Cubes): bool
  {
    if |rounds| == 0 then true
    else Possible(rounds[..|rounds| - 1], bag) && PossibleState(bag, Shown(rounds[|rounds| - 1]))
  }

  /** The part 2 fold `best_bag = min_possible(best_bag, shown)` from an empty bag. */
  function Best(rounds: seq<seq<Token>>): Cubes
  {
    if |rounds| == 0 then Empty
    else MinPossible(Best(rounds[..|rounds| - 1]), Shown(rounds[|rounds| - 1]))
  }

  /** Every reveal of the game fits in `bag`. */
  predicate Allows(bag: Cubes, rounds: seq<seq<Token>>)
  {
    forall k :: 0 <= k < |rounds| ==> Fits(Shown(rounds[k]), bag)
  }

  /** The best bag of part 2 allows every reveal and fits in every bag that does. */
  lemma {:induction false} BestIsLeast(rounds: seq<seq<Token>>)
    ensures Allows(Best(rounds), rounds)
    ensures forall bag :: Allows(bag, rounds) ==> Fits(Best(rounds), bag)
  {
    if |rounds| > 0 {
      var init := rounds[..|rounds| - 1];
      BestIsLeast(init);
      forall bag | Allows(bag, rounds) ensures Allows(bag, init) {
        forall k | 0 <= k < |init| ensures Fits(Shown(init[k]), bag) {
          assert init[k] == rounds[k];
        }
      }
      forall k | 0 <= k < |rounds| ensures Fits(Shown(rounds[k]), Best(rounds)) {
        if k < |init| {
          assert rounds[k] == init[k];
        }
      }
    }
  }

  /** A game is possible with a bag iff every reveal fits in it. */
  lemma {:induction false} PossibleIff(rounds: seq<seq<Token>>, bag: Cubes)
    ensures Possible(rounds, bag) <==> Allows(bag, rounds)
  {
    if |rounds| > 0 {
      var init := rounds[..|rounds| - 1];
      PossibleIff(init, bag);
      if Allows(bag, rounds) {
        forall k | 0 <= k < |init| ensures Fits(Shown(init[k]), bag) {
          assert init[k] == rounds[k];
        }
      }
      if Possible(rounds, bag) {
        forall k | 0 <= k < |rounds| ensures Fits(Shown(rounds[k]), bag) {
          if k < |init| {
            assert rounds[k] == init[k];
          }
        }
      }
    }
  }

  /** Part 1 and part 2 agree: a game is possible with a bag iff its part 2
      best bag fits in it. */
  lemma PossibleIffBestFits(rounds: seq<seq<Token>>, bag: Cubes)
    ensures Possible(rounds, bag) <==> Fits(Best(rounds), bag)
  {
    PossibleIff(rounds, bag);
    BestIsLeast(rounds);
    if Fits(Best(rounds), bag) {
      forall k | 0 <= k < |rounds| ensures Fits(Shown(rounds[k]), bag) {
        assert Fits(Shown(rounds[k]), Best(rounds));
      }
    }
  }

  /** `part1`: the sum of the ids of the possible games. */
  function Part1(games: seq<Game>): (total: nat)
    ensures total <= SumIds(games)
  {
    if |games| == 0 then 0
    else
      var last := games[|games| - 1];
      Part1(games[..|games| - 1]) + if Possible(last.rounds, Bag) then last.id else 0
  }

  function SumIds(games: seq<Game>): nat
  {
    if |games| == 0 then 0 else SumIds(games[..|games| - 1]) + games[|games| - 1].id
  }

  /** The sum of the ids of the games whose smallest bag fits in `bag`. */
  function FittingIds(games: seq<Game>, bag: Cubes): nat
  {
    if |games| == 0 then 0
    else FittingIds(games[..|games| - 1], bag) + if Fits(Best(games[|games| - 1].rounds), bag) then games[|games| - 1].id else 0
  }

  /** Part 1 is the sum of the ids of the games whose part 2 best bag fits in
      the bag of 12 red, 13 green and 14 blue cubes. */
  lemma {:induction false} Part1IsFittingIds(games: seq<Game>)
    ensures Part1(games) == FittingIds(games, Bag)
  {
    if |games| > 0 {
      Part1IsFittingIds(games[..|games| - 1]);
      PossibleIffBestFits(games[|games| - 1].rounds, Bag);
    }
  }

  /** `part2`: the sum of the powers of the best bags. */
  function Part2(games: seq<Game>): nat
  {
    if |games| == 0 then 0 else Part2(games[..|games| - 1]) + Power(Best(games[|games| - 1].rounds))
  }

  /** A game in which some colour is never shown contributes nothing to part 2. */
  lemma NeverShownPowerZero(rounds: seq<seq<Token>>, colour: Colour)
    requires forall k :: 0 <= k < |rounds| ==> Count(Shown(rounds[k]), colour) == 0
    ensures Power(Best(rounds)) == 0
  {
    BestIsLeast(rounds);
    var bag := With(Best(rounds), colour, 0);
    forall k | 0 <= k < |rounds| ensures Fits(Shown(rounds[k]), bag) {
      FitsCounts(Shown(rounds[k]), Best(rounds));
      FitsCounts(Shown(rounds[k]), bag);
    }
    assert Fits(Best(rounds), bag);
    FitsCounts(Best(rounds), bag);
    assert Count(Best(rounds), colour) == 0;
  }

  /** The first game of the puzzle text: 3 blue, 4 red; 1 red, 2 green,
      6 blue; 2 green. Its best bag is 4 red, 2 green and 6 blue. */
  lemma Example()
    ensures Best([[Token(3, "blue"), Token(4, "red")],
                  [Token(1, "red"), Token(2, "green"), Token(6, "blue")],
                  [Token(2, "green")]]) == Cubes(4, 2, 6)
    ensures Power(Cubes(4, 2, 6)) == 48
  {
    var r0 := [Token(3, "blue"), Token(4, "red")];
    var r1 := [Token(1, "red"), Token(2, "green"), Token(6, "blue")];
    var r2 := [Token(2, "green")];
    assert Shown(r0) == Cubes(4, 0, 3) by {
      assert r0[..1] == [Token(3, "blue")];
      assert Shown(r0[..1]) == Cubes(0, 0, 3) by { assert r0[..1][..0] == []; }
    }
    assert Shown(r1) == Cubes(1, 2, 6) by {
      assert r1[..2] == [Token(1, "red"), Token(2, "green")];
      assert r1[..2][..1] == [Token(1, "red")];
      assert r1[..2][..1][..0] == [];
    }
    assert Shown(r2) == Cubes(0, 2, 0) by { assert r2[..0] == []; }
    var rounds := [r0, r1, r2];
    assert rounds[..2] == [r0, r1] && rounds[..2][..1] == [r0] && rounds[..2][..1][..0] == [];
    assert Best([r0]) == Cubes(4, 0, 3);
    var b1 := MinPossible(Cubes(4, 0, 3), Cubes(1, 2, 6));
    assert Count(b1, Red) == 4 && Count(b1, Green) == 2 && Count(b1, Blue) == 6;
    var b2 := MinPossible(Cubes(4, 2, 6), Cubes(0, 2, 0));
    assert Count(b2, Red) == 4 && Count(b2, Green) == 2 && Count(b2, Blue) == 6;
  }
}

=== FILE: decimal.dfy ===
/** Python's `str` of a non-negative integer as its list of decimal digits,
    and `int` of a digit string, with the arithmetic they amount to. */
module Decimal {
  import PyOps
  import opened Wrappers

  /** `str(n)`: the decimal digits of `n`, most significant first. */
  function Digits(n: nat): (ds: seq<nat>)
    ensures |ds| == PyOps.NumDigits(n)
    ensures forall k :: 0 <= k < |ds| ==> ds[k] < 10
  {
    if n < 10 then [n] else Digits(n / 10) + [n % 10]
  }

  /** `int(s)` of a digit string (leading zeros allowed, as Python allows them). */
  function ValueOf(ds: seq<nat>): nat
  {
    if |ds| == 0 then 0 else ValueOf(ds[..|ds| - 1]) * 10 + ds[|ds| - 1]
  }

  /** Reading back the digits of a number gives the number. */
  lemma {:induction false} ValueOfDigits(n: nat)
    ensures ValueOf(Digits(n)) == n
  {
    if n >= 10 {
      ValueOfDigits(n / 10);
      assert Digits(n)[..|Digits(n)| - 1] == Digits(n / 10);
    }
  }

  /** A digit string of length `k` reads as less than `10^k`. */
  lemma {:induction false} ValueOfBound(ds: seq<nat>)
    requires forall k :: 0 <= k < |ds| ==> ds[k] < 10
    ensures ValueOf(ds) < PyOps.Pow10(|ds|)
  {
    if |ds| > 0 {
      var init := ds[..|ds| - 1];
      ValueOfBound(init);
      assert ValueOf(init) * 10 <= (PyOps.Pow10(|init|) - 1) * 10;
    }
  }

  /** Reading a concatenation: the front shifted by the length of the back, plus the back. */
  lemma {:induction false} ValueOfAppend(a: seq<nat>, b: seq<nat>)
    ensures ValueOf(a + b) == ValueOf(a) * PyOps.Pow10(|b|) + ValueOf(b)
  {
    if |b| > 0 {
      var b' := b[..|b| - 1];
      assert (a + b)[..|a + b| - 1] == a + b';
      ValueOfAppend(a, b');
      ShiftDigit(ValueOf(a), PyOps.Pow10(|b'|), ValueOf(b'), b[|b| - 1]);
    } else {
      assert a + b == a;
    }
  }

  lemma ShiftDigit(va: int, p: int, vb: int, d: int)
    ensures (va * p + vb) * 10 + d == va * (10 * p) + (vb * 10 + d)
  {
  }

  /** Cutting a digit string after `k` digits: the front is the quotient and
      the back the remainder by a power of ten. */
  lemma SplitDigits(ds: seq<nat>, k: nat)
    requires k <= |ds|
    requires forall i :: 0 <= i < |ds| ==> ds[i] < 10
    ensures ValueOf(ds[..k]) == ValueOf(ds) / PyOps.Pow10(|ds| - k)
    ensures ValueOf(ds[k..]) == ValueOf(ds) % PyOps.Pow10(|ds| - k)
  {
    assert ds[..k] + ds[k..] == ds;
    ValueOfAppend(ds[..k], ds[k..]);
    ValueOfBound(ds[k..]);
    PyOps.DivUnique(ValueOf(ds), PyOps.Pow10(|ds| - k), ValueOf(ds[..k]), ValueOf(ds[k..]));
    PyOps.ModUnique(ValueOf(ds), PyOps.Pow10(|ds| - k), ValueOf(ds[..k]), ValueOf(ds[k..]));
  }

  /** `int(str(a) + str(b))` is `a` shifted left by the digits of `b`, plus `b`. */
  lemma ConcatDigits(a: nat, b: nat)
    ensures ValueOf(Digits(a) + Digits(b)) == a * PyOps.Pow10(PyOps.NumDigits(b)) + b
  {
    ValueOfAppend(Digits(a), Digits(b));
    ValueOfDigits(a);
    ValueOfDigits(b);
  }

  predicate IsDigit(c: char)
  {
    '0' <= c <= '9'
  }

  function DigitValue(c: char): (d: nat)
    ensures d < 10
  {
    if IsDigit(c) then (c as int - '0' as int) else 0
  }

  /** The digit values of a string of ASCII digits. */
  function DigitValues(s: string): (ds: seq<nat>)
    requires forall k :: 0 <= k < |s| ==> IsDigit(s[k])
    ensures |ds| == |s|
    ensures forall k :: 0 <= k < |ds| ==> ds[k] < 10
  {
    seq(|s|, k requires 0 <= k < |s| => DigitValue(s[k]))
  }

  /** `int(s)` of an unsigned string: ValueError unless it is one or more
      ASCII digits. */
  function ParseNat(s: string): Option<nat>
  {
    if |s| > 0 && forall k :: 0 <= k < |s| ==> IsDigit(s[k]) then Some(ValueOf(DigitValues(s))) else None
  }

  /** `int(s)`: an optional sign and then digits. */
  function ParseInt(s: string): (r: Option<int>)
    ensures r.Some? ==> |s| > 0
  {
    if |s| > 0 && (s[0] == '-' || s[0] == '+') then
      match ParseNat(s[1..])
      case None => None
      case Some(n) =>
        var v: int := if s[0] == '-' then -(n as int) else n;
        Some(v)
    else
      match ParseNat(s)
      case None => None
      case Some(n) =>
        var v: int := n;
        Some(v)
  }

  /** `str(n)` of a non-negative integer. */
  function Show(n: nat): (s: string)
    ensures |s| > 0
    ensures forall k :: 0 <= k < |s| ==> IsDigit(s[k])
  {
    var ds := Digits(n);
    seq(|ds|, k requires 0 <= k < |ds| => ('0' as int + ds[k]) as char)
  }

  /** The characters of `str(n)` are the digits of `n`, which read back as `n`. */
  lemma ShowDigits(n: nat)
    ensures forall k :: 0 <= k < |Show(n)| ==> IsDigit(Show(n)[k])
    ensures DigitValues(Show(n)) == Digits(n)
    ensures ValueOf(DigitValues(Show(n))) == n
  {
    ValueOfDigits(n);
  }

  /** `int` of one or more digits without a sign reads them as a number. */
  lemma ParseDigits(s: string)
    requires |s| > 0 && forall k :: 0 <= k < |s| ==> IsDigit(s[k])
    ensures ParseInt(s) == Some(ValueOf(DigitValues(s)) as int)
  {
    assert IsDigit(s[0]);
  }

  /** `int(str(n)) == n`, with or without a sign in front. */
  lemma ParseShow(n: nat)
    ensures ParseNat(Show(n)) == Some(n)
    ensures ParseInt(Show(n)) == Some(n)
    ensures ParseInt("-" + Show(n)) == Some(-(n as int))
  {
    var s := Show(n);
    assert DigitValues(s) == Digits(n);
    ValueOfDigits(n);
    assert ("-" + s)[1..] == s;
  }

  /** A string that `int` accepts has only digits after an optional sign. */
  lemma ParseIntShape(s: string)
    requires ParseInt(s).Some?
    ensures forall k :: 1 <= k < |s| ==> IsDigit(s[k])
    ensures IsDigit(s[0]) || s[0] == '-' || s[0] == '+'
  {
    if s[0] == '-' || s[0] == '+' {
      assert forall k :: 1 <= k < |s| ==> s[1..][k - 1] == s[k];
    }
  }
}

=== FILE: disk_compaction.dfy ===
/** 2024 day 9: disk fragmentation. A dense disk map alternates file and
    gap lengths; part 1 moves single blocks from the end into the leftmost
    gaps, part 2 moves whole files, highest id first, into the leftmost gap
    that fits, and both answer with a position-weighted checksum. */
module DiskCompaction {
  import opened Wrappers

  /** One block of the expanded disk: a '.' or the id of the file holding it. */
  datatype Cell = Gap | File(id: nat)

  /** `(start, size, id)` of a file and `(start, size)` of a gap. */
  datatype FileEntry = FileEntry(start: nat, size: nat, id: nat)
  datatype GapEntry = GapEntry(start: nat, size: nat)

  /** The expanded disk with its `ids` and `gaps` lists. */
  datatype Layout = Layout(disk: seq<Cell>, files: seq<FileEntry>, gaps: seq<GapEntry>)

  function Sum(s: seq<nat>): nat
  {
    if |s| == 0 then 0 else Sum(s[..|s| - 1]) + s[|s| - 1]
  }

  /** `[c] * n`. */
  function Block(c: Cell, n: nat): (b: seq<Cell>)
    ensures |b| == n && forall t :: 0 <= t < n ==> b[t] == c
  {
    seq(n, _ => c)
  }

  /** The `n` cells from `start` exist and all hold `c`. */
  predicate Holds(disk: seq<Cell>, start: nat, n: nat, c: Cell)
  {
    start + n <= |disk| && forall t :: start <= t < start + n ==> disk[t] == c
  }

  predicate FilesHold(disk: seq<Cell>, files: seq<FileEntry>)
  {
    forall k :: 0 <= k < |files| ==> Holds(disk, files[k].start, files[k].size, File(files[k].id))
  }

  predicate GapsHold(disk: seq<Cell>, gaps: seq<GapEntry>)
  {
    forall k :: 0 <= k < |gaps| ==> Holds(disk, gaps[k].start, gaps[k].size, Gap)
  }

  /** Each gap ends before the next one starts. */
  predicate GapsOrdered(gaps: seq<GapEntry>)
  {
    forall i, j :: 0 <= i < j < |gaps| ==> gaps[i].start + gaps[i].size <= gaps[j].start
  }

  /** The expansion loop: even positions of the map are files with ids
      0, 1, 2, ..., odd positions are gaps. */
  function Expand(numbers: seq<nat>): Layout
  {
    if |numbers| == 0 then Layout([], [], [])
    else
      var n := |numbers| - 1;
      var prev := Expand(numbers[..n]);
      if n % 2 == 0 then
        Layout(prev.disk + Block(File(n / 2), numbers[n]), prev.files + [FileEntry(|prev.disk|, numbers[n], n / 2)], prev.gaps)
      else
        Layout(prev.disk + Block(Gap, numbers[n]), prev.files, prev.gaps + [GapEntry(|prev.disk|, numbers[n])])
  }

  lemma HoldsExtend(disk: seq<Cell>, extra: seq<Cell>, start: nat, n: nat, c: Cell)
    requires Holds(disk, start, n, c)
    ensures Holds(disk + extra, start, n, c)
  {
  }

  /** The expanded disk is as long as the digits add up to; file `k` is
      the `2k`-th entry of the map and gap `k` the `(2k+1)`-th, each starting
      where the entries before it end. */
  lemma {:induction false} ExpandEntries(numbers: seq<nat>)
    ensures var l := Expand(numbers);
      && |l.disk| == Sum(numbers)
      && |l.files| == (|numbers| + 1) / 2 && |l.gaps| == |numbers| / 2
      && (forall k :: 0 <= k < |l.files| ==> l.files[k] == FileEntry(Sum(numbers[..2 * k]), numbers[2 * k], k))
      && (forall k :: 0 <= k < |l.gaps| ==> l.gaps[k] == GapEntry(Sum(numbers[..2 * k + 1]), numbers[2 * k + 1]))
  {
    if |numbers| > 0 {
      var n := |numbers| - 1;
      var init := numbers[..n];
      var prev := Expand(init);
      ExpandEntries(init);
      assert numbers[..n + 1] == numbers;
      forall k | 0 <= k < |prev.files| ensures prev.files[k] == FileEntry(Sum(numbers[..2 * k]), numbers[2 * k], k) {
        assert numbers[..2 * k] == init[..2 * k];
      }
      forall k | 0 <= k < |prev.gaps| ensures prev.gaps[k] == GapEntry(Sum(numbers[..2 * k + 1]), numbers[2 * k + 1]) {
        assert numbers[..2 * k + 1] == init[..2 * k + 1];
      }
    }
  }

  /** Every file is filled with its id and every gap with gaps, and the
      gaps come in order within the disk. */
  lemma {:induction false} ExpandHolds(numbers: seq<nat>)
    ensures var l := Expand(numbers);
      && FilesHold(l.disk, l.files) && GapsHold(l.disk, l.gaps) && GapsOrdered(l.gaps)
      && forall k :: 0 <= k < |l.gaps| ==> l.gaps[k].start + l.gaps[k].size <= |l.disk|
  {
    if |numbers| > 0 {
      var n := |numbers| - 1;
      var prev := Expand(numbers[..n]);
      ExpandHolds(numbers[..n]);
      var extra := Block(if n % 2 == 0 then File(n / 2) else Gap, numbers[n]);
      assert Expand(numbers).disk == prev.disk + extra;
      forall k | 0 <= k < |prev.files| ensures Holds(prev.disk + extra, prev.files[k].start, prev.files[k].size, File(prev.files[k].id)) {
        HoldsExtend(prev.disk, extra, prev.files[k].start, prev.files[k].size, File(prev.files[k].id));
      }
      forall k | 0 <= k < |prev.gaps| ensures Holds(prev.disk + extra, prev.gaps[k].start, prev.gaps[k].size, Gap) {
        HoldsExtend(prev.disk, extra, prev.gaps[k].start, prev.gaps[k].size, Gap);
      }
    }
  }

  // ---------------------------------------------------------------------
  // Part 1: moving single blocks

  /** `while expanded[j] == '.' and i < j: j -= 1`. */
  function SkipBack(e: seq<Cell>, i: nat, j: nat): (r: nat)
    requires i <= j < |e|
    ensures i <= r <= j
    ensures r == i || e[r].File?
    ensures forall t :: r < t <= j ==> e[t].Gap?
    decreases j
  {
    if e[j].Gap? && i < j then SkipBack(e, i, j - 1) else j
  }

  /** The outer `while i < j` loop of part 1: the disk and the final `j`. */
  function Part1Loop(e: seq<Cell>, i: nat, j: int): (r: (seq<Cell>, int))
    requires i <= j + 1 && j < |e|
    ensures |r.0| == |e| && -1 <= r.1 < |e|
    decreases j - i
  {
    if i >= j then (e, j)
    else if e[i].Gap? then
      var e' := e[i := e[j]][j := Gap];
      Part1Loop(e', i + 1, SkipBack(e', i, j))
    else Part1Loop(e, i + 1, j)
  }

  /** Part 1 as written: `j` starts at the last block, then
      `expanded = expanded[:j+1]`. */
  function CompactAsWritten(e: seq<Cell>): seq<Cell>
  {
    var r := Part1Loop(e, 0, |e| - 1);
    r.0[..r.1 + 1]
  }

  /** The index of the last file block, or -1. */
  function LastFile(e: seq<Cell>): (j: int)
    ensures -1 <= j < |e|
    ensures j >= 0 ==> e[j].File?
    ensures forall t :: j < t < |e| ==> e[t].Gap?
  {
    if |e| == 0 then -1
    else if e[|e| - 1].File? then |e| - 1
    else LastFile(e[..|e| - 1])
  }

  /** Part 1 with `j` first moved back past the trailing gaps. */
  function Compact(e: seq<Cell>): seq<Cell>
  {
    var r := Part1Loop(e, 0, LastFile(e));
    r.0[..r.1 + 1]
  }

  /** The compacted disk described directly: trailing gaps are dropped, a
      leading file stays, and a leading gap takes the last file. */
  function Fill(s: seq<Cell>): seq<Cell>
    decreases |s|
  {
    if |s| == 0 then []
    else if s[|s| - 1].Gap? then Fill(s[..|s| - 1])
    else if s[0].File? then [s[0]] + Fill(s[1..])
    else [s[|s| - 1]] + Fill(s[1..|s| - 1])
  }

  /** The file blocks of a disk, in order. */
  function Files(s: seq<Cell>): seq<Cell>
  {
    if |s| == 0 then [] else (if s[0].File? then [s[0]] else []) + Files(s[1..])
  }

  lemma {:induction false} FilesConcat(a: seq<Cell>, b: seq<Cell>)
    ensures Files(a + b) == Files(a) + Files(b)
  {
    if |a| > 0 {
      assert (a + b)[1..] == a[1..] + b;
      FilesConcat(a[1..], b);
    } else {
      assert a + b == b;
    }
  }

  /** Trailing gaps change nothing. */
  lemma {:induction false} FillGaps(s: seq<Cell>, g: seq<Cell>)
    requires forall t :: 0 <= t < |g| ==> g[t].Gap?
    ensures Fill(s + g) == Fill(s)
    decreases |g|
  {
    if |g| > 0 {
      var g' := g[..|g| - 1];
      assert (s + g)[..|s + g| - 1] == s + g';
      FillGaps(s, g');
    } else {
      assert s + g == s;
    }
  }

  lemma FillOne(x: Cell)
    requires x.File?
    ensures Fill([x]) == [x]
  {
    assert [x][1..] == [];
  }

  lemma FillGapFront(s: seq<Cell>)
    requires |s| >= 2 && s[0].Gap? && s[|s| - 1].File?
    ensures Fill(s) == [s[|s| - 1]] + Fill(s[1..|s| - 1])
  {
  }

  lemma FillFileFront(s: seq<Cell>)
    requires |s| >= 1 && s[0].File? && s[|s| - 1].File?
    ensures Fill(s) == [s[0]] + Fill(s[1..])
  {
  }

  lemma FillGapBack(s: seq<Cell>)
    requires |s| >= 1 && s[|s| - 1].Gap?
    ensures Fill(s) == Fill(s[..|s| - 1])
  {
  }

  lemma FilesOne(x: Cell)
    ensures Files([x]) == if x.File? then [x] else []
  {
    assert [x][1..] == [];
  }

  /** Files holds no gap. */
  lemma {:induction false} FilesAreFiles(s: seq<Cell>)
    ensures forall x :: x in Files(s) ==> x.File?
  {
    if |s| > 0 {
      FilesAreFiles(s[1..]);
    }
  }

  /** The compacted disk holds exactly the file blocks, as a multiset. */
  lemma {:induction false} FillMultiset(s: seq<Cell>)
    ensures multiset(Fill(s)) == multiset(Files(s))
    decreases |s|
  {
    if |s| > 0 {
      var n := |s| - 1;
      if s[n].Gap? {
        FillMultiset(s[..n]);
        GapBackMultiset(s);
      } else if s[0].File? {
        FillMultiset(s[1..]);
        FillFileFront(s);
      } else {
        FillMultiset(s[1..n]);
        GapFrontMultiset(s);
      }
    }
  }

  lemma GapBackMultiset(s: seq<Cell>)
    requires |s| >= 1 && s[|s| - 1].Gap?
    requires multiset(Fill(s[..|s| - 1])) == multiset(Files(s[..|s| - 1]))
    ensures multiset(Fill(s)) == multiset(Files(s))
  {
    var n := |s| - 1;
    FillGapBack(s);
    assert s == s[..n] + [s[n]];
    FilesConcat(s[..n], [s[n]]);
    FilesOne(s[n]);
  }

  lemma GapFrontMultiset(s: seq<Cell>)
    requires |s| >= 2 && s[0].Gap? && s[|s| - 1].File?
    requires multiset(Fill(s[1..|s| - 1])) == multiset(Files(s[1..|s| - 1]))
    ensures multiset(Fill(s)) == multiset(Files(s))
  {
    FillGapFront(s);
    FilesGapFront(s);
  }

  lemma FilesGapFront(s: seq<Cell>)
    requires |s| >= 2 && s[0].Gap? && s[|s| - 1].File?
    ensures Files(s) == Files(s[1..|s| - 1]) + [s[|s| - 1]]
  {
    var n := |s| - 1;
    assert s[1..] == s[1..n] + [s[n]];
    FilesConcat(s[1..n], [s[n]]);
    FilesOne(s[n]);
  }

  /** The compacted disk holds exactly the file blocks, and no gap. */
  lemma FillFacts(s: seq<Cell>)
    ensures forall x :: x in Fill(s) ==> x.File?
    ensures multiset(Fill(s)) == multiset(Files(s))
    ensures |Fill(s)| == |Files(s)|
  {
    FillMultiset(s);
    FilesAreFiles(s);
    forall x | x in Fill(s) ensures x.File? {
      assert x in multiset(Fill(s));
    }
    assert |multiset(Fill(s))| == |multiset(Files(s))|;
  }

  /** The part 1 loop, started with a file at `j` (or with `i > j`), keeps
      the blocks before `i` and compacts the blocks from `i` to `j`. */
  lemma {:induction false} LoopIsFill(e: seq<Cell>, i: nat, j: int)
    requires i <= j + 1 && j < |e|
    requires i <= j ==> e[j].File?
    ensures var r := Part1Loop(e, i, j); r.0[..r.1 + 1] == e[..i] + Fill(e[i..j + 1])
    decreases j - i
  {
    if i >= j {
      LoopEnd(e, i, j);
    } else if e[i].Gap? {
      var e' := e[i := e[j]][j := Gap];
      var j' := SkipBack(e', i, j);
      assert Part1Loop(e, i, j) == Part1Loop(e', i + 1, j');
      LoopIsFill(e', i + 1, j');
      GapStep(e, e', i, j, j');
    } else {
      assert Part1Loop(e, i, j) == Part1Loop(e, i + 1, j);
      LoopIsFill(e, i + 1, j);
      FileStep(e, i, j);
    }
  }

  /** The loop stops once `i` passes `j`, with the file at `j` (if any) kept. */
  lemma LoopEnd(e: seq<Cell>, i: nat, j: int)
    requires i <= j + 1 && j < |e| && i >= j
    requires i <= j ==> e[j].File?
    ensures var r := Part1Loop(e, i, j); r.0[..r.1 + 1] == e[..i] + Fill(e[i..j + 1])
  {
    if i == j {
      assert e[i..j + 1] == [e[j]];
      FillOne(e[j]);
      assert e[..j + 1] == e[..i] + [e[j]];
    } else {
      assert e[i..j + 1] == [];
    }
  }

  /** A file at `i` stays where it is. */
  lemma FileStep(e: seq<Cell>, i: nat, j: nat)
    requires i < j < |e| && e[i].File? && e[j].File?
    ensures e[..i + 1] + Fill(e[i + 1..j + 1]) == e[..i] + Fill(e[i..j + 1])
  {
    var s := e[i..j + 1];
    FillFileFront(s);
    assert s[1..] == e[i + 1..j + 1];
    assert e[..i + 1] == e[..i] + [e[i]];
  }

  /** A gap at `i` takes the file at `j`; the gaps the inner loop skips
      change nothing. */
  lemma GapStep(e: seq<Cell>, e': seq<Cell>, i: nat, j: nat, j': nat)
    requires i < j < |e| && e[i].Gap? && e[j].File?
    requires e' == e[i := e[j]][j := Gap]
    requires i <= j' < j && forall t :: j' < t <= j ==> e'[t].Gap?
    ensures e'[..i + 1] + Fill(e'[i + 1..j' + 1]) == e[..i] + Fill(e[i..j + 1])
  {
    var s := e[i..j + 1];
    assert |s| == j + 1 - i;
    var inner, between := s[1..|s| - 1], e[i + 1..j];
    assert inner == between by {
      forall t | 0 <= t < |inner| ensures inner[t] == between[t] {
        assert s[1 + t] == e[i + 1 + t];
      }
    }
    FillGapFront(s);
    assert e'[..i + 1] == e[..i] + [e[j]];
    var g := e'[j' + 1..j];
    assert e[i + 1..j] == e'[i + 1..j' + 1] + g;
    assert forall t :: 0 <= t < |g| ==> g[t] == e'[j' + 1 + t];
    FillGaps(e'[i + 1..j' + 1], g);
  }

  /** Part 1 compacts to the direct description: every file block, moved
      to the front, with no gap left. */
  lemma CompactIsFill(e: seq<Cell>)
    ensures Compact(e) == Fill(e)
  {
    var j := LastFile(e);
    LoopIsFill(e, 0, j);
    var front, back := e[..j + 1], e[j + 1..];
    assert e[..0] + Fill(e[0..j + 1]) == Fill(front);
    assert e == front + back;
    assert forall t :: 0 <= t < |back| ==> back[t] == e[j + 1 + t];
    FillGaps(front, back);
  }

  /** As written, part 1 compacts correctly whenever the disk is empty or
      ends in a file block. */
  lemma CompactAsWrittenIsFill(e: seq<Cell>)
    requires |e| == 0 || e[|e| - 1].File?
    ensures CompactAsWritten(e) == Fill(e)
  {
    var r := Part1Loop(e, 0, |e| - 1);
    assert CompactAsWritten(e) == r.0[..r.1 + 1];
    LoopIsFill(e, 0, |e| - 1);
    assert e[0..|e|] == e;
    assert e[..0] + Fill(e) == Fill(e);
  }

  /** `sum(num*pos for pos,num in enumerate(expanded))`, with a gap worth 0. */
  function Checksum(s: seq<Cell>): int
  {
    if |s| == 0 then 0 else Checksum(s[..|s| - 1]) + (|s| - 1) * Value(s[|s| - 1])
  }

  function Value(c: Cell): nat
  {
    if c.Gap? then 0 else c.id
  }

  /** Part 1's checksum: a '.' left on the disk makes `'.' * pos` a string,
      and adding it to the integer total is a TypeError. */
  function StrictChecksum(s: seq<Cell>): (r: Option<int>)
    ensures r.Some? <==> forall t :: 0 <= t < |s| ==> s[t].File?
  {
    if forall t :: 0 <= t < |s| ==> s[t].File? then Some(Checksum(s)) else None
  }

  function Part1AsWritten(numbers: seq<nat>): Option<int>
  {
    StrictChecksum(CompactAsWritten(Expand(numbers).disk))
  }

  function Part1(numbers: seq<nat>): Option<int>
  {
    StrictChecksum(Compact(Expand(numbers).disk))
  }

  /** Part 1 always has an answer: the checksum of the compacted disk,
      which holds every file block of the expansion and nothing else. */
  lemma Part1Compacts(numbers: seq<nat>)
    ensures Part1(numbers).Some?
    ensures multiset(Compact(Expand(numbers).disk)) == multiset(Files(Expand(numbers).disk))
  {
    CompactIsFill(Expand(numbers).disk);
    FillFacts(Expand(numbers).disk);
  }

  /** The map "12" is a one-block file and a two-block gap: as written, the
      loop swaps the trailing gap into the gap before it and keeps it, so the
      checksum raises a TypeError; dropping the trailing gap first gives 0. */
  lemma Part1AsWrittenCounterexample()
    ensures Part1AsWritten([1, 2]) == None
    ensures Part1([1, 2]) == Some(0)
  {
    var l := Expand([1, 2]);
    assert [1, 2][..1] == [1];
    assert Expand([1]).disk == [File(0)];
    assert l.disk == [File(0), Gap, Gap];
    var e' := l.disk[1 := Gap][2 := Gap];
    assert Part1Loop(l.disk, 0, 2) == Part1Loop(l.disk, 1, 2);
    assert SkipBack(e', 1, 2) == 1;
    assert CompactAsWritten(l.disk) == [File(0), Gap];
    Part1Compacts([1, 2]);
    CompactIsFill(l.disk);
    assert l.disk[..2] == [File(0), Gap] && l.disk[..1] == [File(0)];
    assert Fill(l.disk) == [File(0)];
  }

  // ---------------------------------------------------------------------
  // Part 2: moving whole files

  /** The inner `for i in range(file_size)` loop from step `i`. */
  function MoveBlock(disk: seq<Cell>, to: nat, from: nat, n: nat, f: nat, i: nat): (r: seq<Cell>)
    requires i <= n && to + n <= |disk| && from + n <= |disk|
    ensures |r| == |disk|
    decreases n - i
  {
    if i == n then disk else MoveBlock(disk[to + i := File(f)][from + i := Gap], to, from, n, f, i + 1)
  }

  lemma {:induction false} MulNonPositive(x: int, f: nat)
    requires x <= 0
    ensures x * f <= 0
  {
    if f > 0 {
      MulNonPositive(x, f - 1);
      assert x * f == x * (f - 1) + x;
    }
  }

  /** Writing `c` at `a` changes the checksum by `a` times the change of value. */
  lemma {:induction false} ChecksumUpdate(s: seq<Cell>, a: nat, c: Cell)
    requires a < |s|
    ensures Checksum(s[a := c]) == Checksum(s) + a * Value(c) - a * Value(s[a])
  {
    var n := |s| - 1;
    var s' := s[a := c];
    assert s'[..n] == if a < n then s[..n][a := c] else s[..n];
    if a < n {
      ChecksumUpdate(s[..n], a, c);
    }
  }

  /** Moving one block of file `f` from `from` to a gap at `to` is a swap. */
  lemma SwapMultiset(disk: seq<Cell>, to: nat, from: nat, f: nat)
    requires to < from < |disk| && disk[to] == Gap && disk[from] == File(f)
    ensures multiset(disk[to := File(f)][from := Gap]) == multiset(disk)
  {
  }

  /** Moving one block of file `f` down from `from` to `to`. */
  lemma SwapChecksum(disk: seq<Cell>, to: nat, from: nat, f: nat)
    requires to < from < |disk| && disk[to] == Gap && disk[from] == File(f)
    ensures Checksum(disk[to := File(f)][from := Gap]) <= Checksum(disk)
  {
    var d1 := disk[to := File(f)];
    ChecksumUpdate(disk, to, File(f));
    ChecksumUpdate(d1, from, Gap);
    MulNonPositive(to - from, f);
    assert to * f - from * f == (to - from) * f;
  }

  /** The moved blocks swap places with gap blocks one by one, so the disk
      keeps its blocks. */
  lemma {:induction false} MoveBlockMultiset(disk: seq<Cell>, to: nat, from: nat, n: nat, f: nat, i: nat)
    requires i <= n && to < from
    requires Holds(disk, to + i, n - i, Gap) && Holds(disk, from + i, n - i, File(f))
    ensures multiset(MoveBlock(disk, to, from, n, f, i)) == multiset(disk)
    decreases n - i
  {
    if i < n {
      var d := disk[to + i := File(f)][from + i := Gap];
      SwapMultiset(disk, to + i, from + i, f);
      assert MoveBlock(disk, to, from, n, f, i) == MoveBlock(d, to, from, n, f, i + 1);
      MoveBlockMultiset(d, to, from, n, f, i + 1);
    }
  }

  /** Each block moves towards the front, so the checksum can only fall. */
  lemma {:induction false} MoveBlockChecksum(disk: seq<Cell>, to: nat, from: nat, n: nat, f: nat, i: nat)
    requires i <= n && to < from
    requires Holds(disk, to + i, n - i, Gap) && Holds(disk, from + i, n - i, File(f))
    ensures Checksum(MoveBlock(disk, to, from, n, f, i)) <= Checksum(disk)
    decreases n - i
  {
    if i < n {
      var d := disk[to + i := File(f)][from + i := Gap];
      SwapChecksum(disk, to + i, from + i, f);
      assert MoveBlock(disk, to, from, n, f, i) == MoveBlock(d, to, from, n, f, i + 1);
      MoveBlockChecksum(d, to, from, n, f, i + 1);
    }
  }

  /** After the move the file fills the target cells, its old cells are
      gaps, and nothing else changes. */
  lemma {:induction false} MoveBlockCells(disk: seq<Cell>, to: nat, from: nat, n: nat, f: nat, i: nat)
    requires i <= n && to < from
    requires Holds(disk, to + i, n - i, Gap) && Holds(disk, from + i, n - i, File(f))
    ensures var r := MoveBlock(disk, to, from, n, f, i);
      && Holds(r, to + i, n - i, File(f)) && Holds(r, from + i, n - i, Gap)
      && forall t :: 0 <= t < |disk| && !(to + i <= t < to + n) && !(from + i <= t < from + n) ==> r[t] == disk[t]
    decreases n - i
  {
    if i < n {
      var d := disk[to + i := File(f)][from + i := Gap];
      assert MoveBlock(disk, to, from, n, f, i) == MoveBlock(d, to, from, n, f, i + 1);
      assert disk[to + i] == Gap && disk[from + i] == File(f);
      assert !(from + i + 1 <= to + i < from + n);
      assert !(to + i + 1 <= from + i < to + n);
      MoveBlockCells(d, to, from, n, f, i + 1);
      var r := MoveBlock(d, to, from, n, f, i + 1);
      assert r[to + i] == File(f) && r[from + i] == Gap;
    }
  }

  /** The scan over `gaps` for one file: the layout after the file is
      considered, and the gaps list after it. */
  function ScanGaps(disk: seq<Cell>, file: FileEntry, gaps: seq<GapEntry>, g: nat): (r: (seq<Cell>, seq<GapEntry>))
    requires g <= |gaps|
    requires file.start + file.size <= |disk|
    requires forall k :: 0 <= k < |gaps| ==> gaps[k].start + gaps[k].size <= |disk|
    ensures |r.0| == |disk|
    decreases |gaps| - g
  {
    if g == |gaps| then (disk, gaps)
    else
      var gap := gaps[g];
      if gap.start >= file.start then (disk, gaps)
      else if gap.size >= file.size then
        (MoveBlock(disk, gap.start, file.start, file.size, file.id, 0), UseGap(gaps, g, file.size))
      else ScanGaps(disk, file, gaps, g + 1)
  }

  /** The gap a file goes to, described without the early `break`: the
      first gap that starts before the file and is large enough. */
  predicate Fits(gap: GapEntry, file: FileEntry)
  {
    gap.start < file.start && gap.size >= file.size
  }

  /** With the gaps in order, the scan stops at the first gap that fits, or
      moves nothing when none does. */
  lemma {:induction false} ScanIsFirstFit(disk: seq<Cell>, file: FileEntry, gaps: seq<GapEntry>, g: nat)
    requires g <= |gaps| && GapsOrdered(gaps)
    requires file.start + file.size <= |disk|
    requires forall k :: 0 <= k < |gaps| ==> gaps[k].start + gaps[k].size <= |disk|
    requires forall k :: 0 <= k < g ==> !Fits(gaps[k], file)
    ensures (forall k :: 0 <= k < |gaps| ==> !Fits(gaps[k], file)) ==> ScanGaps(disk, file, gaps, g) == (disk, gaps)
    ensures forall k :: 0 <= k < |gaps| && Fits(gaps[k], file) && (forall m :: 0 <= m < k ==> !Fits(gaps[m], file)) ==>
      ScanGaps(disk, file, gaps, g) == ScanGaps(disk, file, gaps, k) && ScanGaps(disk, file, gaps, k).0 == MoveBlock(disk, gaps[k].start, file.start, file.size, file.id, 0)
    decreases |gaps| - g
  {
    if g < |gaps| {
      var gap := gaps[g];
      if gap.start >= file.start {
        forall k | g < k < |gaps| ensures !Fits(gaps[k], file) {
        }
      } else if gap.size < file.size {
        ScanIsFirstFit(disk, file, gaps, g + 1);
      }
    }
  }

  /** The state of part 2 before the files `files[..k]` are considered:
      every such file still sits where the expansion put it, every listed
      gap is free, and the gaps are in order. */
  predicate Part2Ready(disk: seq<Cell>, files: seq<FileEntry>, k: nat, gaps: seq<GapEntry>)
  {
    && k <= |files|
    && (forall m :: 0 <= m < k ==> files[m].id == m && Holds(disk, files[m].start, files[m].size, File(m)))
    && GapsHold(disk, gaps) && GapsOrdered(gaps)
  }

  /** The `for ... in reversed(ids)` loop over the files `files[..k]`. */
  function Part2Loop(disk: seq<Cell>, files: seq<FileEntry>, k: nat, gaps: seq<GapEntry>): (r: seq<Cell>)
    requires Part2Ready(disk, files, k, gaps)
    ensures |r| == |disk|
    decreases k
  {
    if k == 0 then disk
    else
      var file := files[k - 1];
      assert Holds(disk, file.start, file.size, File(k - 1));
      var step := ScanGaps(disk, file, gaps, 0);
      ScanReady(disk, files, k, gaps, 0);
      Part2Loop(step.0, files, k - 1, step.1)
  }

  /** One file's scan keeps every file still to come in place, keeps the
      listed gaps free and in order, keeps the blocks and never raises the
      checksum. */
  lemma {:induction false} ScanReady(disk: seq<Cell>, files: seq<FileEntry>, k: nat, gaps: seq<GapEntry>, g: nat)
    requires Part2Ready(disk, files, k, gaps) && 0 < k && g <= |gaps|
    ensures var r := ScanGaps(disk, files[k - 1], gaps, g);
      && Part2Ready(r.0, files, k - 1, r.1)
      && multiset(r.0) == multiset(disk) && Checksum(r.0) <= Checksum(disk)
    decreases |gaps| - g
  {
    var file := files[k - 1];
    assert Holds(disk, file.start, file.size, File(k - 1));
    if g == |gaps| || gaps[g].start >= file.start {
      assert ScanGaps(disk, file, gaps, g) == (disk, gaps);
    } else if gaps[g].size >= file.size {
      MoveReady(disk, files, k, gaps, g);
    } else {
      assert ScanGaps(disk, file, gaps, g) == ScanGaps(disk, file, gaps, g + 1);
      ScanReady(disk, files, k, gaps, g + 1);
    }
  }

  /** The gaps list after a file of size `n` takes the front of gap `g`:
      `gaps.pop(gap_index)` when nothing is left, otherwise the gap starts
      `n` later and is `n` smaller. */
  function UseGap(gaps: seq<GapEntry>, g: nat, n: nat): seq<GapEntry>
    requires g < |gaps| && n <= gaps[g].size
  {
    var left := gaps[g].size - n;
    if left == 0 then gaps[..g] + gaps[g + 1..] else gaps[g := GapEntry(gaps[g].start + n, left)]
  }

  lemma ScanMoves(disk: seq<Cell>, file: FileEntry, gaps: seq<GapEntry>, g: nat)
    requires g < |gaps| && file.start + file.size <= |disk|
    requires forall k :: 0 <= k < |gaps| ==> gaps[k].start + gaps[k].size <= |disk|
    requires gaps[g].start < file.start && gaps[g].size >= file.size
    ensures ScanGaps(disk, file, gaps, g) == (MoveBlock(disk, gaps[g].start, file.start, file.size, file.id, 0), UseGap(gaps, g, file.size))
  {
  }

  /** Using the front of a gap keeps the gaps free and in order. */
  lemma UseGapReady(r: seq<Cell>, gaps: seq<GapEntry>, g: nat, n: nat)
    requires g < |gaps| && n <= gaps[g].size && GapsOrdered(gaps)
    requires forall q :: 0 <= q < |gaps| && q != g ==> Holds(r, gaps[q].start, gaps[q].size, Gap)
    requires Holds(r, gaps[g].start + n, gaps[g].size - n, Gap)
    ensures GapsHold(r, UseGap(gaps, g, n)) && GapsOrdered(UseGap(gaps, g, n))
  {
    var gaps' := UseGap(gaps, g, n);
    if gaps[g].size == n {
      forall q | 0 <= q < |gaps'| ensures gaps'[q] == gaps[if q < g then q else q + 1] {
      }
    }
  }

  /** The file moves into gap `g`. */
  lemma MoveReady(disk: seq<Cell>, files: seq<FileEntry>, k: nat, gaps: seq<GapEntry>, g: nat)
    requires Part2Ready(disk, files, k, gaps) && 0 < k && g < |gaps|
    requires gaps[g].start < files[k - 1].start && gaps[g].size >= files[k - 1].size
    ensures var r := ScanGaps(disk, files[k - 1], gaps, g);
      && Part2Ready(r.0, files, k - 1, r.1)
      && multiset(r.0) == multiset(disk) && Checksum(r.0) <= Checksum(disk)
  {
    var file := files[k - 1];
    var gap := gaps[g];
    assert Holds(disk, file.start, file.size, File(k - 1));
    assert Holds(disk, gap.start, gap.size, Gap);
    ScanMoves(disk, file, gaps, g);
    var r := MoveBlock(disk, gap.start, file.start, file.size, file.id, 0);
    MoveBlockMultiset(disk, gap.start, file.start, file.size, file.id, 0);
    MoveBlockChecksum(disk, gap.start, file.start, file.size, file.id, 0);
    MoveBlockCells(disk, gap.start, file.start, file.size, file.id, 0);
    FilesStay(disk, r, files, k, gap.start, file.start, file.size);
    GapsStay(disk, r, gaps, g, file.start, file.size, k - 1);
    assert Holds(r, gap.start + file.size, gap.size - file.size, Gap);
    UseGapReady(r, gaps, g, file.size);
  }

  /** The files still to come hold neither gaps nor the moved file, so the
      move leaves them in place. */
  lemma FilesStay(disk: seq<Cell>, r: seq<Cell>, files: seq<FileEntry>, k: nat, to: nat, from: nat, n: nat)
    requires 0 < k <= |files| && |r| == |disk|
    requires forall m :: 0 <= m < k ==> files[m].id == m && Holds(disk, files[m].start, files[m].size, File(m))
    requires Holds(disk, to, n, Gap) && Holds(disk, from, n, File(k - 1))
    requires forall t :: 0 <= t < |disk| && !(to <= t < to + n) && !(from <= t < from + n) ==> r[t] == disk[t]
    ensures forall m :: 0 <= m < k - 1 ==> files[m].id == m && Holds(r, files[m].start, files[m].size, File(m))
  {
    forall m | 0 <= m < k - 1 ensures Holds(r, files[m].start, files[m].size, File(m)) {
      assert Holds(disk, files[m].start, files[m].size, File(m));
      forall t | files[m].start <= t < files[m].start + files[m].size ensures r[t] == File(m) {
        assert disk[t] == File(m);
      }
    }
  }

  /** The other gaps hold no block of the moved file, so the move leaves
      them free. */
  lemma GapsStay(disk: seq<Cell>, r: seq<Cell>, gaps: seq<GapEntry>, g: nat, from: nat, n: nat, f: nat)
    requires g < |gaps| && |r| == |disk| && GapsHold(disk, gaps) && GapsOrdered(gaps)
    requires Holds(disk, from, n, File(f)) && n <= gaps[g].size
    requires forall t :: 0 <= t < |disk| && !(gaps[g].start <= t < gaps[g].start + n) && !(from <= t < from + n) ==> r[t] == disk[t]
    ensures forall q :: 0 <= q < |gaps| && q != g ==> Holds(r, gaps[q].start, gaps[q].size, Gap)
  {
    forall q | 0 <= q < |gaps| && q != g ensures Holds(r, gaps[q].start, gaps[q].size, Gap) {
      assert Holds(disk, gaps[q].start, gaps[q].size, Gap);
      forall t | gaps[q].start <= t < gaps[q].start + gaps[q].size ensures r[t] == Gap {
        assert disk[t] == Gap;
        assert q < g ==> gaps[q].start + gaps[q].size <= gaps[g].start;
        assert q > g ==> gaps[g].start + gaps[g].size <= gaps[q].start;
      }
    }
  }

  /** Part 2 as a whole keeps the blocks of the disk and never raises the
      checksum. */
  lemma {:induction false} Part2LoopFacts(disk: seq<Cell>, files: seq<FileEntry>, k: nat, gaps: seq<GapEntry>)
    requires Part2Ready(disk, files, k, gaps)
    ensures multiset(Part2Loop(disk, files, k, gaps)) == multiset(disk)
    ensures Checksum(Part2Loop(disk, files, k, gaps)) <= Checksum(disk)
    decreases k
  {
    if k > 0 {
      var step := ScanGaps(disk, files[k - 1], gaps, 0);
      ScanReady(disk, files, k, gaps, 0);
      Part2LoopFacts(step.0, files, k - 1, step.1);
    }
  }

  lemma ExpandReady(numbers: seq<nat>)
    ensures var l := Expand(numbers); Part2Ready(l.disk, l.files, |l.files|, l.gaps)
  {
    ExpandEntries(numbers);
    ExpandHolds(numbers);
  }

  /** The disk after part 2 moves the files. */
  function Part2Disk(numbers: seq<nat>): seq<Cell>
  {
    var l := Expand(numbers);
    ExpandReady(numbers);
    Part2Loop(l.disk, l.files, |l.files|, l.gaps)
  }

  /** Part 2: the checksum with '.' read as 0. */
  function Part2(numbers: seq<nat>): int
  {
    Checksum(Part2Disk(numbers))
  }

  /** Moving files keeps every block of the expanded disk (as a multiset)
      and only ever moves blocks towards the front, so the part 2 checksum
      is at most the checksum of the expanded disk. */
  lemma Part2Facts(numbers: seq<nat>)
    ensures multiset(Part2Disk(numbers)) == multiset(Expand(numbers).disk)
    ensures Part2(numbers) <= Checksum(Expand(numbers).disk)
  {
    var l := Expand(numbers);
    ExpandReady(numbers);
    Part2LoopFacts(l.disk, l.files, |l.files|, l.gaps);
  }
}

=== FILE: extrapolation.dfy ===
/** 2023 day 9: extending a sequence of readings at both ends through its
    table of differences. */
module Extrapolation {
  import opened Wrappers
  import PyOps

  /** `[b - a for a, b in zip(s, s[1:])]`. */
  function Diffs(s: seq<int>): (d: seq<int>)
    ensures |d| == if |s| == 0 then 0 else |s| - 1
    ensures forall k {:trigger d[k]} :: 0 <= k < |d| ==> d[k] == s[k + 1] - s[k]
  {
    if |s| < 2 then [] else seq(|s| - 1, k requires 0 <= k < |s| - 1 => s[k + 1] - s[k])
  }

  /** `max(d) == min(d) == 0` for a non-empty row. */
  predicate AllZero(d: seq<int>)
  {
    forall k :: 0 <= k < |d| ==> d[k] == 0
  }

  /** The value after the last reading and the value before the first, or
      None when a row of differences runs out before one is all zero, where
      `max` of the empty row raises ValueError. */
  function Extrapolate(s: seq<int>): (r: Option<(int, int)>)
    decreases |s|
  {
    var d := Diffs(s);
    if |d| == 0 then None
    else if AllZero(d) then Some((s[|s| - 1], s[0]))
    else Extend(s, Extrapolate(d))
  }

  /** One row of the backward pass: the next value adds the row below's
      next value to the last reading, the previous value subtracts the row
      below's previous value from the first reading. */
  function Extend(s: seq<int>, below: Option<(int, int)>): Option<(int, int)>
    requires |s| > 0
  {
    match below
    case None => None
    case Some(ends) => Some((s[|s| - 1] + ends.0, s[0] - ends.1))
  }

  /** A sequence with at most one reading has no differences to stop at. */
  lemma ShortCrashes(s: seq<int>)
    requires |s| <= 1
    ensures Extrapolate(s).None?
  {
  }

  /** Two different readings leave one non-zero difference, whose own row is empty. */
  lemma TwoDifferentCrash(x: int, y: int)
    requires x != y
    ensures Extrapolate([x, y]).None?
  {
    assert Diffs([x, y]) == [y - x];
    assert [y - x][0] != 0;
    assert Extrapolate([y - x]).None?;
  }

  /** The readings `a, a + b, a + 2b, ...`. */
  function Linear(a: int, b: int, n: nat): (s: seq<int>)
    ensures |s| == n
    ensures forall k :: 0 <= k < n ==> s[k] == a + k * b
  {
    seq(n, k requires 0 <= k < n => a + k * b)
  }

  /** `n` copies of `c`. */
  function Constant(c: int, n: nat): (s: seq<int>)
    ensures |s| == n
    ensures forall k :: 0 <= k < n ==> s[k] == c
  {
    seq(n, k requires 0 <= k < n => c)
  }

  lemma DiffsLinearAt(a: int, b: int, n: nat, k: nat)
    requires k + 1 < n
    ensures Diffs(Linear(a, b, n))[k] == b
  {
    var s := Linear(a, b, n);
    assert s[k + 1] == a + (k + 1) * b && s[k] == a + k * b;
    assert (k + 1) * b == k * b + b;
  }

  lemma DiffsLinear(a: int, b: int, n: nat)
    requires n >= 1
    ensures Diffs(Linear(a, b, n)) == Constant(b, n - 1)
  {
    forall k | 0 <= k < n - 1
      ensures Diffs(Linear(a, b, n))[k] == b
    {
      DiffsLinearAt(a, b, n, k);
    }
  }

  lemma DiffsConstant(c: int, n: nat)
    requires n >= 1
    ensures Diffs(Constant(c, n)) == Constant(0, n - 1)
  {
  }

  /** A constant sequence of at least two readings extends with the same constant at both ends. */
  lemma ConstantExtrapolates(c: int, n: nat)
    requires n >= 2
    ensures Extrapolate(Constant(c, n)) == Some((c, c))
  {
    DiffsConstant(c, n);
  }

  /** An arithmetic sequence extends arithmetically at both ends, provided it
      is constant or has at least three readings. */
  lemma LinearExtrapolates(a: int, b: int, n: nat)
    requires n >= 3 || (n >= 2 && b == 0)
    ensures Extrapolate(Linear(a, b, n)) == Some((a + n * b, a - b))
  {
    var s := Linear(a, b, n);
    var d := Diffs(s);
    DiffsLinear(a, b, n);
    assert s[0] == a && s[n - 1] == a + (n - 1) * b;
    assert (n - 1) * b + b == n * b;
    if b == 0 {
      assert AllZero(d);
      assert Extrapolate(s) == Some((s[n - 1], s[0]));
    } else {
      assert d[0] == b;
      assert !AllZero(d);
      ConstantExtrapolates(b, n - 1);
      assert Extrapolate(s) == Extend(s, Some((b, b)));
    }
  }

  /** Every reading negated. */
  function Neg(s: seq<int>): (r: seq<int>)
    ensures |r| == |s|
    ensures forall k :: 0 <= k < |s| ==> r[k] == -s[k]
  {
    seq(|s|, k requires 0 <= k < |s| => -s[k])
  }

  function NegPair(r: Option<(int, int)>): Option<(int, int)>
  {
    match r
    case None => None
    case Some((next, prev)) => Some((-next, -prev))
  }

  function Swap(r: Option<(int, int)>): Option<(int, int)>
  {
    match r
    case None => None
    case Some((next, prev)) => Some((prev, next))
  }

  lemma ExtendNeg(s: seq<int>, below: Option<(int, int)>)
    requires |s| > 0
    ensures Extend(Neg(s), NegPair(below)) == NegPair(Extend(s, below))
  {
  }

  /** Negating the readings negates both extrapolated values. */
  lemma {:induction false} ExtrapolateNeg(s: seq<int>)
    ensures Extrapolate(Neg(s)) == NegPair(Extrapolate(s))
    decreases |s|
  {
    var d := Diffs(s);
    var nd := Diffs(Neg(s));
    assert nd == Neg(d) by {
      forall k | 0 <= k < |d|
        ensures nd[k] == -d[k]
      {
      }
    }
    assert AllZero(Neg(d)) <==> AllZero(d) by {
      assert forall k :: 0 <= k < |d| ==> Neg(d)[k] == -d[k];
    }
    if |d| == 0 {
      assert Extrapolate(Neg(s)) == None;
    } else if AllZero(d) {
      assert Extrapolate(Neg(s)) == Some((Neg(s)[|s| - 1], Neg(s)[0]));
    } else {
      ExtrapolateNeg(d);
      assert Extrapolate(Neg(s)) == Extend(Neg(s), Extrapolate(Neg(d)));
      ExtendNeg(s, Extrapolate(d));
    }
  }

  /** The differences of the reversed readings are the reversed differences, negated. */
  lemma DiffsReverse(s: seq<int>)
    ensures Diffs(PyOps.Reverse(s)) == Neg(PyOps.Reverse(Diffs(s)))
  {
    var r := PyOps.Reverse(s);
    var d := Diffs(s);
    forall k | 0 <= k < |Diffs(r)|
      ensures Diffs(r)[k] == -PyOps.Reverse(d)[k]
    {
      DiffsReverseAt(s, k);
    }
  }

  lemma DiffsReverseAt(s: seq<int>, k: nat)
    requires k + 1 < |s|
    ensures Diffs(PyOps.Reverse(s))[k] == -PyOps.Reverse(Diffs(s))[k]
  {
    var r := PyOps.Reverse(s);
    var d := Diffs(s);
    var i := |s| - 2 - k;
    assert |d| == |s| - 1;
    assert PyOps.Reverse(d)[k] == d[i] == s[i + 1] - s[i];
    assert r[k + 1] == s[i] && r[k] == s[i + 1];
  }

  lemma AllZeroNegReverse(d: seq<int>)
    ensures AllZero(Neg(PyOps.Reverse(d))) <==> AllZero(d)
  {
    var d' := Neg(PyOps.Reverse(d));
    if AllZero(d) {
      forall k | 0 <= k < |d'|
        ensures d'[k] == 0
      {
        assert d'[k] == -d[|d| - 1 - k];
      }
    }
    if AllZero(d') {
      forall k | 0 <= k < |d|
        ensures d[k] == 0
      {
        var i := |d| - 1 - k;
        assert d'[i] == -d[k];
      }
    }
  }

  lemma ExtendReverse(s: seq<int>, below: Option<(int, int)>)
    requires |s| > 0
    ensures Extend(PyOps.Reverse(s), NegPair(Swap(below))) == Swap(Extend(s, below))
  {
    var r := PyOps.Reverse(s);
    assert r[|r| - 1] == s[0] && r[0] == s[|s| - 1];
    if below.Some? {
      var (next, prev) := below.value;
      assert NegPair(Swap(below)) == Some((-prev, -next));
      assert Extend(r, Some((-prev, -next))) == Some((r[|r| - 1] + -prev, r[0] - -next));
    }
  }

  /** Extrapolating the reversed readings swaps the two ends: the value
      before the first reading is the value after the last one of the
      reversed sequence, and crashes coincide. */
  lemma {:induction false} ExtrapolateReverse(s: seq<int>)
    ensures Extrapolate(PyOps.Reverse(s)) == Swap(Extrapolate(s))
    decreases |s|
  {
    var r := PyOps.Reverse(s);
    var d := Diffs(s);
    DiffsReverse(s);
    var d' := Diffs(r);
    AllZeroNegReverse(d);
    if |d| == 0 {
      assert Extrapolate(r) == None;
    } else if AllZero(d) {
      assert Extrapolate(r) == Some((r[|r| - 1], r[0]));
      assert r[|r| - 1] == s[0] && r[0] == s[|s| - 1];
    } else {
      ExtrapolateReverse(d);
      ExtrapolateNeg(PyOps.Reverse(d));
      assert Extrapolate(r) == Extend(r, NegPair(Swap(Extrapolate(d))));
      ExtendReverse(s, Extrapolate(d));
    }
  }

  /** Both answers, summed over the lines, or None when some line crashes. */
  function Totals(lines: seq<seq<int>>): Option<(int, int)>
  {
    if |lines| == 0 then Some((0, 0))
    else
      Combine(Extrapolate(lines[0]), Totals(lines[1..]))
  }

  /** The pairwise sum of two answers, None when either is. */
  function Combine(x: Option<(int, int)>, y: Option<(int, int)>): Option<(int, int)>
  {
    if x.Some? && y.Some? then Some((x.value.0 + y.value.0, x.value.1 + y.value.1)) else None
  }

  lemma CombineSwap(x: Option<(int, int)>, y: Option<(int, int)>)
    ensures Combine(Swap(x), Swap(y)) == Swap(Combine(x, y))
  {
  }

  function ReverseAll(lines: seq<seq<int>>): (r: seq<seq<int>>)
    ensures |r| == |lines|
    ensures forall k :: 0 <= k < |lines| ==> r[k] == PyOps.Reverse(lines[k])
  {
    seq(|lines|, k requires 0 <= k < |lines| => PyOps.Reverse(lines[k]))
  }

  /** The backward total of the lines is the forward total of the reversed lines. */
  lemma {:induction false} TotalsReverse(lines: seq<seq<int>>)
    ensures Totals(ReverseAll(lines)) == Swap(Totals(lines))
  {
    var rs := ReverseAll(lines);
    if |lines| > 0 {
      ExtrapolateReverse(lines[0]);
      assert rs[1..] == ReverseAll(lines[1..]);
      TotalsReverse(lines[1..]);
      assert Totals(rs) == Combine(Extrapolate(rs[0]), Totals(rs[1..]));
      CombineSwap(Extrapolate(lines[0]), Totals(lines[1..]));
    }
  }

  /** One row of the backward pass, for a row whose differences are not all zero. */
  lemma ExtrapolateStep(s: seq<int>, next: int, prev: int)
    requires |s| > 0 && |Diffs(s)| > 0 && !AllZero(Diffs(s))
    requires Extrapolate(Diffs(s)) == Some((next, prev))
    ensures Extrapolate(s) == Some((s[|s| - 1] + next, s[0] - prev))
  {
  }

  /** The puzzle's example line 10 13 16 21 30 45 extends to 68 and 5;
      its rows of differences extend as the lemmas below state. */
  lemma Example(s: seq<int>)
    requires s == [10, 13, 16, 21, 30, 45]
    ensures Extrapolate(s) == Some((68, 5))
  {
    assert Diffs(s) == [3, 3, 5, 9, 15];
    ExampleFirstRow(Diffs(s));
    assert s[1] - s[0] != 0;
    ExtrapolateStep(s, 23, 5);
  }

  lemma ExampleFirstRow(d: seq<int>)
    requires d == [3, 3, 5, 9, 15]
    ensures Extrapolate(d) == Some((23, 5))
  {
    assert Diffs(d) == [0, 2, 4, 6];
    ExampleSecondRow(Diffs(d));
    assert d[2] - d[1] != 0;
    ExtrapolateStep(d, 8, -2);
  }

  lemma ExampleSecondRow(d: seq<int>)
    requires d == [0, 2, 4, 6]
    ensures Extrapolate(d) == Some((8, -2))
  {
    assert d == Linear(0, 2, 4);
    LinearExtrapolates(0, 2, 4);
  }
}

=== FILE: galaxies.dfy ===
/** 2023 day 11: galaxies in an image whose empty rows and columns expand.
    The image is expanded either by inserting the empty rows and columns
    again (`expand`) or by moving each galaxy by a multiple of the number of
    empty rows and columns before it (`taxicab_pairs`); the answer is the sum
    of the taxicab distances over all pairs of galaxies. */
module Galaxies {
  import opened Wrappers

  type Grid = seq<seq<char>>

  datatype Point = Point(row: int, col: int)

  function Abs(x: int): nat
  {
    if x < 0 then -x else x
  }

  /** `taxicab(A, B)` of two (row, column) pairs. */
  function Taxicab(a: Point, b: Point): nat
  {
    Abs(a.row - b.row) + Abs(a.col - b.col)
  }

  lemma TaxicabFacts(a: Point, b: Point)
    ensures Taxicab(a, b) == Taxicab(b, a)
    ensures Taxicab(a, b) == 0 <==> a == b
  {
  }

  predicate Ascending(s: seq<nat>)
  {
    forall i, j :: 0 <= i < j < |s| ==> s[i] < s[j]
  }

  /** `sum([1 if v < x else 0 for v in indices])`. */
  function Before(x: int, indices: seq<nat>): nat
  {
    if |indices| == 0 then 0
    else Before(x, indices[..|indices| - 1]) + if indices[|indices| - 1] < x then 1 else 0
  }

  /** `list.insert(i, x)` for a non-negative index; past the end it appends. */
  function Insert<T>(s: seq<T>, i: nat, x: T): (r: seq<T>)
    ensures |r| == |s| + 1
  {
    if i <= |s| then s[..i] + [x] + s[i..] else s + [x]
  }

  /** The reference for both expansions: every marked element gets
      `fill(element)` inserted just before it. */
  function Spread<T>(s: seq<T>, marks: seq<nat>, fill: T -> T): seq<T>
  {
    if |s| == 0 then []
    else
      var n := |s| - 1;
      Spread(s[..n], marks, fill) + if n in marks then [fill(s[n]), s[n]] else [s[n]]
  }

  lemma {:induction false} BeforeStep(n: nat, marks: seq<nat>)
    requires Ascending(marks)
    ensures Before(n + 1, marks) == Before(n, marks) + if n in marks then 1 else 0
  {
    if |marks| > 0 {
      var init, last := marks[..|marks| - 1], marks[|marks| - 1];
      BeforeStep(n, init);
      assert marks == init + [last];
      if n == last {
        forall k | 0 <= k < |init| ensures init[k] != n {
          assert init[k] == marks[k];
        }
      }
    }
  }

  lemma {:induction false} BeforeAll(m: int, marks: seq<nat>)
    requires forall k :: 0 <= k < |marks| ==> marks[k] < m
    ensures Before(m, marks) == |marks|
  {
    if |marks| > 0 {
      BeforeAll(m, marks[..|marks| - 1]);
    }
  }

  lemma {:induction false} SpreadLength<T>(s: seq<T>, marks: seq<nat>, fill: T -> T)
    requires Ascending(marks)
    ensures |Spread(s, marks, fill)| == |s| + Before(|s|, marks)
  {
    if |s| > 0 {
      var n := |s| - 1;
      SpreadLength(s[..n], marks, fill);
      BeforeStep(n, marks);
      var front := Spread(s[..n], marks, fill);
      assert |front| == n + Before(n, marks);
      if n in marks {
        assert Spread(s, marks, fill) == front + [fill(s[n]), s[n]];
      } else {
        assert Spread(s, marks, fill) == front + [s[n]];
      }
    } else {
      BeforeZero(marks);
    }
  }

  lemma BeforeZero(marks: seq<nat>)
    ensures Before(0, marks) == 0
  {
  }

  lemma SpreadNone<T>(s: seq<T>, fill: T -> T)
    ensures Spread(s, [], fill) == s
  {
    SpreadUnmarked(s, [], fill, 0);
  }

  /** Past the last mark, `Spread` copies the rest unchanged. */
  lemma {:induction false} SpreadUnmarked<T>(s: seq<T>, marks: seq<nat>, fill: T -> T, m: nat)
    requires m <= |s|
    requires forall i :: m <= i < |s| ==> i !in marks
    ensures Spread(s, marks, fill) == Spread(s[..m], marks, fill) + s[m..]
    decreases |s|
  {
    if |s| > m {
      var n := |s| - 1;
      SpreadUnmarked(s[..n], marks, fill, m);
      assert s[..n][..m] == s[..m];
      assert s[..n][m..] + [s[n]] == s[m..];
    } else {
      assert s[..m] == s;
    }
  }

  lemma {:induction false} SpreadSameMarks<T>(s: seq<T>, a: seq<nat>, b: seq<nat>, fill: T -> T)
    requires forall i :: 0 <= i < |s| ==> (i in a <==> i in b)
    ensures Spread(s, a, fill) == Spread(s, b, fill)
  {
    if |s| > 0 {
      SpreadSameMarks(s[..|s| - 1], a, b, fill);
    }
  }

  lemma AscendingSnoc(marks: seq<nat>, j: nat)
    requires Ascending(marks + [j])
    ensures Ascending(marks)
    ensures forall k :: 0 <= k < |marks| ==> marks[k] < j
  {
    var marks' := marks + [j];
    forall k | 0 <= k < |marks| ensures marks[k] < j {
      assert marks'[k] == marks[k] && marks'[|marks|] == j;
    }
    forall p, q | 0 <= p < q < |marks| ensures marks[p] < marks[q] {
      assert marks'[p] == marks[p] && marks'[q] == marks[q];
    }
  }

  /** Adding a mark past all the others is one `insert` at the marked
      element's current position, which still holds that element. */
  lemma SpreadStep<T>(s: seq<T>, marks: seq<nat>, j: nat, fill: T -> T)
    requires Ascending(marks + [j]) && j < |s|
    ensures |Spread(s, marks, fill)| == |s| + |marks|
    ensures Spread(s, marks, fill)[j + |marks|] == s[j]
    ensures Spread(s, marks + [j], fill) == Insert(Spread(s, marks, fill), j + |marks|, fill(s[j]))
  {
    AscendingSnoc(marks, j);
    var front := Spread(s[..j], marks, fill);
    SpreadFront(s, marks, j, fill);
    assert Spread(s, marks + [j], fill) == front + [fill(s[j]), s[j]] + s[j + 1..] by {
      SpreadStepNew(s, marks, j, fill);
    }
    InsertAt(front, s[j], s[j + 1..], fill(s[j]));
  }

  /** Before the new mark, the spread is the spread of the prefix followed
      by the unmarked rest. */
  lemma SpreadFront<T>(s: seq<T>, marks: seq<nat>, j: nat, fill: T -> T)
    requires Ascending(marks) && j < |s|
    requires forall k :: 0 <= k < |marks| ==> marks[k] < j
    ensures |Spread(s[..j], marks, fill)| == j + |marks|
    ensures Spread(s, marks, fill) == Spread(s[..j], marks, fill) + s[j..]
    ensures s[j..] == [s[j]] + s[j + 1..]
  {
    SpreadUnmarked(s, marks, fill, j);
    SpreadLength(s[..j], marks, fill);
    BeforeAll(j, marks);
  }

  lemma InsertAt<T>(front: seq<T>, y: T, tail: seq<T>, x: T)
    ensures Insert(front + ([y] + tail), |front|, x) == front + [x, y] + tail
  {
    var whole := front + ([y] + tail);
    assert whole[..|front|] == front && whole[|front|..] == [y] + tail;
  }

  /** The spread with the new mark, cut at the mark. */
  lemma SpreadStepNew<T>(s: seq<T>, marks: seq<nat>, j: nat, fill: T -> T)
    requires Ascending(marks + [j]) && j < |s|
    ensures Spread(s, marks + [j], fill) == Spread(s[..j], marks, fill) + [fill(s[j]), s[j]] + s[j + 1..]
  {
    var marks' := marks + [j];
    AscendingSnoc(marks, j);
    SpreadUnmarked(s, marks', fill, j + 1);
    assert s[..j + 1][..j] == s[..j];
    SpreadSameMarks(s[..j], marks', marks, fill);
    assert Spread(s[..j + 1], marks', fill) == Spread(s[..j], marks, fill) + [fill(s[j]), s[j]];
  }

  /** `expand_rows(indices)`: `data.insert(i + j, data[i + j])` for each
      `(i, j)` in `enumerate(indices)`; an index past the end raises IndexError. */
  function ExpandRowsFrom(data: Grid, indices: seq<nat>, k: nat): Option<Grid>
    decreases |indices| - k
  {
    if k >= |indices| then Some(data)
    else
      var p := k + indices[k];
      if p >= |data| then None else ExpandRowsFrom(Insert(data, p, data[p]), indices, k + 1)
  }

  function ExpandRows(data: Grid, indices: seq<nat>): Option<Grid>
  {
    ExpandRowsFrom(data, indices, 0)
  }

  function Same(row: seq<char>): seq<char>
  {
    row
  }

  function Dot(c: char): char
  {
    '.'
  }

  lemma {:induction false} ExpandRowsFromSpread(data: Grid, indices: seq<nat>, k: nat)
    requires Ascending(indices) && k <= |indices|
    requires forall i :: 0 <= i < |indices| ==> indices[i] < |data|
    ensures ExpandRowsFrom(Spread(data, indices[..k], Same), indices, k) == Some(Spread(data, indices, Same))
    decreases |indices| - k
  {
    if k < |indices| {
      ExpandRowsStep(data, indices, k);
      ExpandRowsFromSpread(data, indices, k + 1);
    } else {
      assert indices[..k] == indices;
    }
  }

  /** One pass of the loop inserts the next listed row into the spread so far. */
  lemma ExpandRowsStep(data: Grid, indices: seq<nat>, k: nat)
    requires Ascending(indices) && k < |indices| && indices[k] < |data|
    ensures ExpandRowsFrom(Spread(data, indices[..k], Same), indices, k) == ExpandRowsFrom(Spread(data, indices[..k + 1], Same), indices, k + 1)
  {
    SpreadNext(data, indices, k);
    ExpandRowsFromUnfold(Spread(data, indices[..k], Same), indices, k);
  }

  /** The spread over one more index is the spread so far with the row at
      `k + indices[k]` duplicated. */
  lemma SpreadNext(data: Grid, indices: seq<nat>, k: nat)
    requires Ascending(indices) && k < |indices| && indices[k] < |data|
    ensures var spread, p := Spread(data, indices[..k], Same), k + indices[k];
      p < |spread| && Spread(data, indices[..k + 1], Same) == Insert(spread, p, spread[p])
  {
    var done, j := indices[..k], indices[k];
    assert done + [j] == indices[..k + 1];
    AscendingTake(indices, k + 1);
    SpreadStep(data, done, j, Same);
  }

  lemma ExpandRowsFromUnfold(data: Grid, indices: seq<nat>, k: nat)
    requires k < |indices| && k + indices[k] < |data|
    ensures ExpandRowsFrom(data, indices, k) == ExpandRowsFrom(Insert(data, k + indices[k], data[k + indices[k]]), indices, k + 1)
  {
  }

  lemma AscendingTake(s: seq<nat>, n: nat)
    requires Ascending(s) && n <= |s|
    ensures Ascending(s[..n])
  {
    var pre := s[..n];
    forall a, b | 0 <= a < b < |pre| ensures pre[a] < pre[b] {
      assert pre[a] == s[a] && pre[b] == s[b];
    }
  }

  /** With ascending indices of rows that exist, the in-place loop duplicates
      exactly the listed rows, so the height grows by the number of indices. */
  lemma ExpandRowsIsSpread(data: Grid, indices: seq<nat>)
    requires Ascending(indices)
    requires forall i :: 0 <= i < |indices| ==> indices[i] < |data|
    ensures ExpandRows(data, indices) == Some(Spread(data, indices, Same))
    ensures |ExpandRows(data, indices).value| == |data| + |indices|
  {
    SpreadNone(data, Same);
    assert indices[..0] == [];
    ExpandRowsFromSpread(data, indices, 0);
    SpreadLength(data, indices, Same);
    BeforeAll(|data|, indices);
  }

  /** One row of `expand_cols(indices)`: `row.insert(i + j, '.')` for each
      `(i, j)` in `enumerate(indices)`. */
  function ExpandRowFrom(row: seq<char>, indices: seq<nat>, k: nat): seq<char>
    decreases |indices| - k
  {
    if k >= |indices| then row else ExpandRowFrom(Insert(row, k + indices[k], '.'), indices, k + 1)
  }

  /** `expand_cols(indices)`. The loop over indices holds a loop over rows;
      the rows are separate lists, so this does each row's inserts in turn. */
  function ExpandCols(data: Grid, indices: seq<nat>): (r: Grid)
    ensures |r| == |data|
  {
    seq(|data|, i requires 0 <= i < |data| => ExpandRowFrom(data[i], indices, 0))
  }

  lemma {:induction false} ExpandRowFromSpread(row: seq<char>, indices: seq<nat>, k: nat)
    requires Ascending(indices) && k <= |indices|
    requires forall i :: 0 <= i < |indices| ==> indices[i] < |row|
    ensures ExpandRowFrom(Spread(row, indices[..k], Dot), indices, k) == Spread(row, indices, Dot)
    decreases |indices| - k
  {
    if k < |indices| {
      assert indices[..k] + [indices[k]] == indices[..k + 1];
      SpreadStep(row, indices[..k], indices[k], Dot);
      ExpandRowFromSpread(row, indices, k + 1);
    } else {
      assert indices[..k] == indices;
    }
  }

  /** With ascending indices of columns that exist, each row gets a '.'
      inserted before every listed column, so the width grows by the number
      of indices. */
  lemma ExpandRowIsSpread(row: seq<char>, indices: seq<nat>)
    requires Ascending(indices)
    requires forall i :: 0 <= i < |indices| ==> indices[i] < |row|
    ensures ExpandRowFrom(row, indices, 0) == Spread(row, indices, Dot)
    ensures |ExpandRowFrom(row, indices, 0)| == |row| + |indices|
  {
    SpreadNone(row, Dot);
    assert indices[..0] == [];
    ExpandRowFromSpread(row, indices, 0);
    SpreadLength(row, indices, Dot);
    BeforeAll(|row|, indices);
  }

  /** The columns of a row holding '#', ascending. */
  function HashCols(row: seq<char>): seq<nat>
  {
    if |row| == 0 then []
    else HashCols(row[..|row| - 1]) + if row[|row| - 1] == '#' then [|row| - 1] else []
  }

  lemma {:induction false} HashColsMembers(row: seq<char>)
    ensures forall c: nat :: c in HashCols(row) <==> c < |row| && row[c] == '#'
    ensures Ascending(HashCols(row))
    ensures forall k :: 0 <= k < |HashCols(row)| ==> HashCols(row)[k] < |row|
  {
    if |row| > 0 {
      var init := row[..|row| - 1];
      HashColsMembers(init);
      assert forall c :: 0 <= c < |init| ==> init[c] == row[c];
    }
  }

  /** `get_galaxies()`: the positions of '#', row by row, left to right. */
  function Galaxies(data: Grid): seq<Point>
  {
    if |data| == 0 then []
    else
      var n := |data| - 1;
      Galaxies(data[..n]) + RowPoints(n, HashCols(data[n]))
  }

  /** The points of row `r` at the given columns. */
  function RowPoints(r: int, cs: seq<nat>): (ps: seq<Point>)
    ensures |ps| == |cs|
  {
    seq(|cs|, k requires 0 <= k < |cs| => Point(r, cs[k]))
  }

  lemma GalaxiesSnoc(g: Grid, row: seq<char>)
    ensures Galaxies(g + [row]) == Galaxies(g) + RowPoints(|g|, HashCols(row))
  {
    assert (g + [row])[..|g|] == g;
  }

  lemma {:induction false} GalaxiesMembers(data: Grid)
    ensures forall p :: p in Galaxies(data) <==>
      0 <= p.row < |data| && 0 <= p.col < |data[p.row]| && data[p.row][p.col] == '#'
  {
    if |data| > 0 {
      var n := |data| - 1;
      GalaxiesMembers(data[..n]);
      HashColsMembers(data[n]);
      var cs := HashCols(data[n]);
      var last := RowPoints(n, cs);
      forall p ensures p in last <==> p.row == n && 0 <= p.col < |data[n]| && data[n][p.col] == '#' {
        if p.row == n && 0 <= p.col < |data[n]| && data[n][p.col] == '#' {
          var k :| 0 <= k < |cs| && cs[k] == p.col;
          assert last[k] == p;
        }
      }
    }
  }

  /** A point moved by `factor` times the number of marked rows and columns before it. */
  function Moved(p: Point, rows: seq<nat>, cols: seq<nat>, factor: int): Point
  {
    Point(p.row + Before(p.row, rows) * factor, p.col + Before(p.col, cols) * factor)
  }

  function MoveAll(ps: seq<Point>, rows: seq<nat>, cols: seq<nat>, factor: int): (r: seq<Point>)
    ensures |r| == |ps|
  {
    seq(|ps|, k requires 0 <= k < |ps| => Moved(ps[k], rows, cols, factor))
  }

  lemma MoveAllAppend(a: seq<Point>, b: seq<Point>, rows: seq<nat>, cols: seq<nat>, factor: int)
    ensures MoveAll(a + b, rows, cols, factor) == MoveAll(a, rows, cols, factor) + MoveAll(b, rows, cols, factor)
  {
  }

  /** Column numbers moved right by the number of marks before each. */
  function ShiftCols(cs: seq<nat>, marks: seq<nat>): (r: seq<nat>)
    ensures |r| == |cs|
  {
    seq(|cs|, k requires 0 <= k < |cs| => cs[k] + Before(cs[k], marks))
  }

  lemma HashColsSnoc(a: seq<char>, x: char)
    ensures HashCols(a + [x]) == HashCols(a) + if x == '#' then [|a|] else []
  {
    assert (a + [x])[..|a|] == a;
  }

  lemma ShiftColsAppend(a: seq<nat>, b: seq<nat>, marks: seq<nat>)
    ensures ShiftCols(a + b, marks) == ShiftCols(a, marks) + ShiftCols(b, marks)
  {
  }

  /** Inserting '.' before columns without '#' moves every '#' right by the
      number of such columns before it. */
  lemma {:induction false} HashColsSpread(row: seq<char>, marks: seq<nat>)
    requires Ascending(marks)
    requires forall i :: 0 <= i < |row| && i in marks ==> row[i] != '#'
    ensures HashCols(Spread(row, marks, Dot)) == ShiftCols(HashCols(row), marks)
  {
    if |row| > 0 {
      var n := |row| - 1;
      var init := row[..n];
      HashColsSpread(init, marks);
      SpreadLength(init, marks, Dot);
      var front := Spread(init, marks, Dot);
      var tail: seq<nat> := if row[n] == '#' then [n] else [];
      HashColsSnoc(init, row[n]);
      assert init + [row[n]] == row;
      ShiftColsAppend(HashCols(init), tail, marks);
      if n in marks {
        assert Spread(row, marks, Dot) == (front + ['.']) + [row[n]];
        HashColsSnoc(front, '.');
        HashColsSnoc(front + ['.'], row[n]);
      } else {
        assert Spread(row, marks, Dot) == front + [row[n]];
        HashColsSnoc(front, row[n]);
      }
    }
  }

  /** Every row of a grid with duplicated rows is a row of the grid. */
  lemma {:induction false} SpreadRows(data: Grid, marks: seq<nat>)
    ensures forall r :: r in Spread(data, marks, Same) ==> r in data
  {
    if |data| > 0 {
      SpreadRows(data[..|data| - 1], marks);
    }
  }

  lemma {:induction false} NoHashNoCols(row: seq<char>)
    requires '#' !in row
    ensures HashCols(row) == []
  {
    if |row| > 0 {
      assert row[..|row| - 1] + [row[|row| - 1]] == row;
      NoHashNoCols(row[..|row| - 1]);
    }
  }

  lemma MoveRowPoints(n: int, cs: seq<nat>, rows: seq<nat>, cols: seq<nat>)
    ensures MoveAll(RowPoints(n, cs), rows, cols, 1) == RowPoints(n + Before(n, rows), ShiftCols(cs, cols))
  {
  }

  /** Duplicating rows without galaxies moves every galaxy down by the number
      of duplicated rows above it. */
  lemma {:induction false} GalaxiesSpreadRows(data: Grid, marks: seq<nat>)
    requires Ascending(marks)
    requires forall i :: 0 <= i < |data| && i in marks ==> '#' !in data[i]
    ensures Galaxies(Spread(data, marks, Same)) == MoveAll(Galaxies(data), marks, [], 1)
  {
    if |data| > 0 {
      var n := |data| - 1;
      var init := data[..n];
      GalaxiesSpreadRows(init, marks);
      SpreadLength(init, marks, Same);
      var front := Spread(init, marks, Same);
      var cs := HashCols(data[n]);
      GalaxiesSnoc(init, data[n]);
      assert init + [data[n]] == data;
      MoveAllAppend(Galaxies(init), RowPoints(n, cs), marks, [], 1);
      MoveRowPoints(n, cs, marks, []);
      assert ShiftCols(cs, []) == cs;
      if n in marks {
        NoHashNoCols(data[n]);
        assert Spread(data, marks, Same) == (front + [data[n]]) + [data[n]];
        GalaxiesSnoc(front, data[n]);
        GalaxiesSnoc(front + [data[n]], data[n]);
      } else {
        assert Spread(data, marks, Same) == front + [data[n]];
        GalaxiesSnoc(front, data[n]);
      }
    }
  }

  /** Every row of a grid with '.' inserted before the marked columns. */
  function SpreadEach(data: Grid, marks: seq<nat>): (r: Grid)
    ensures |r| == |data|
  {
    seq(|data|, i requires 0 <= i < |data| => Spread(data[i], marks, Dot))
  }

  /** Inserting '.' before galaxy-free columns moves every galaxy right by
      the number of such columns before it. */
  lemma {:induction false} GalaxiesSpreadCols(data: Grid, marks: seq<nat>)
    requires Ascending(marks)
    requires forall r, i :: 0 <= r < |data| && 0 <= i < |data[r]| && i in marks ==> data[r][i] != '#'
    ensures Galaxies(SpreadEach(data, marks)) == MoveAll(Galaxies(data), [], marks, 1)
  {
    if |data| > 0 {
      var n := |data| - 1;
      var init := data[..n];
      var spread := SpreadEach(data, marks);
      GalaxiesSpreadCols(init, marks);
      assert spread == SpreadEach(init, marks) + [Spread(data[n], marks, Dot)];
      HashColsSpread(data[n], marks);
      var cs := HashCols(data[n]);
      GalaxiesSnoc(init, data[n]);
      assert init + [data[n]] == data;
      GalaxiesSnoc(SpreadEach(init, marks), Spread(data[n], marks, Dot));
      MoveAllAppend(Galaxies(init), RowPoints(n, cs), [], marks, 1);
      MoveRowPoints(n, cs, [], marks);
    }
  }

  /** `empty_rows()`: the ascending indices of the rows without a '#'. */
  function EmptyRows(data: Grid): (r: seq<nat>)
    ensures Ascending(r)
    ensures forall i: nat :: i in r <==> i < |data| && '#' !in data[i]
    ensures forall k :: 0 <= k < |r| ==> r[k] < |data|
  {
    if |data| == 0 then []
    else
      var n := |data| - 1;
      var init := EmptyRows(data[..n]);
      assert forall i :: 0 <= i < n ==> data[..n][i] == data[i];
      init + if '#' !in data[n] then [n] else []
  }

  /** The inner loop of `empty_cols`: scans the rows until one has '#' in
      the column; a row too short for the column raises IndexError. */
  function ColumnEmpty(data: Grid, col: nat): Option<bool>
  {
    if |data| == 0 then Some(true)
    else if col >= |data[0]| then None
    else if data[0][col] == '#' then Some(false)
    else ColumnEmpty(data[1..], col)
  }

  /** The columns `0 .. n - 1` of `empty_cols`. */
  function EmptyColsBelow(data: Grid, n: nat): Option<seq<nat>>
  {
    if n == 0 then Some([])
    else
      match EmptyColsBelow(data, n - 1)
      case None => None
      case Some(cols) =>
        match ColumnEmpty(data, n - 1)
        case None => None
        case Some(empty) => Some(cols + if empty then [n - 1] else [])
  }

  /** `empty_cols()`: `self.data[0]` raises IndexError on an empty image. */
  function EmptyCols(data: Grid): Option<seq<nat>>
  {
    if |data| == 0 then None else EmptyColsBelow(data, |data[0]|)
  }

  predicate Rectangular(data: Grid)
  {
    forall r :: 0 <= r < |data| ==> |data[r]| == |data[0]|
  }

  lemma {:induction false} ColumnEmptyIff(data: Grid, col: nat)
    requires forall r :: 0 <= r < |data| ==> col < |data[r]|
    ensures ColumnEmpty(data, col) == Some(forall r :: 0 <= r < |data| ==> data[r][col] != '#')
  {
    if |data| > 0 {
      ColumnEmptyIff(data[1..], col);
      assert forall r :: 1 <= r < |data| ==> data[1..][r - 1] == data[r];
    }
  }

  lemma {:induction false} EmptyColsBelowIff(data: Grid, n: nat)
    requires |data| > 0 && Rectangular(data) && n <= |data[0]|
    ensures EmptyColsBelow(data, n).Some?
    ensures var cols := EmptyColsBelow(data, n).value;
      && Ascending(cols)
      && (forall k :: 0 <= k < |cols| ==> cols[k] < n)
      && (forall c: nat :: c in cols <==> c < n && forall r :: 0 <= r < |data| ==> data[r][c] != '#')
  {
    if n > 0 {
      EmptyColsBelowIff(data, n - 1);
      ColumnEmptyIff(data, n - 1);
    }
  }

  /** On a rectangular image with rows, `empty_cols` lists in ascending order
      exactly the columns with no '#'. */
  lemma EmptyColsIff(data: Grid)
    requires |data| > 0 && Rectangular(data)
    ensures EmptyCols(data).Some?
    ensures var cols := EmptyCols(data).value;
      && Ascending(cols)
      && (forall k :: 0 <= k < |cols| ==> cols[k] < |data[0]|)
      && (forall c: nat :: c in cols <==> c < |data[0]| && forall r :: 0 <= r < |data| ==> data[r][c] != '#')
  {
    EmptyColsBelowIff(data, |data[0]|);
  }

  /** `expand()`: empty rows and columns are found first, then the columns
      and then the rows are inserted again. */
  function Expand(data: Grid): Option<Grid>
  {
    var rows := EmptyRows(data);
    match EmptyCols(data)
    case None => None
    case Some(cols) => ExpandRows(ExpandCols(data, cols), rows)
  }

  /** `itertools.combinations(points, 2)`: each pair of positions `i < j`
      once, in order. */
  function Combinations(ps: seq<Point>): seq<(Point, Point)>
  {
    if |ps| == 0 then []
    else seq(|ps| - 1, k requires 0 <= k < |ps| - 1 => (ps[0], ps[k + 1])) + Combinations(ps[1..])
  }

  lemma {:induction false} CombinationsFacts(ps: seq<Point>)
    ensures 2 * |Combinations(ps)| == |ps| * (|ps| - 1)
    ensures forall a, b :: (a, b) in Combinations(ps) <==> exists i, j :: 0 <= i < j < |ps| && ps[i] == a && ps[j] == b
  {
    if |ps| > 0 {
      var tail := ps[1..];
      CombinationsFacts(tail);
      var first := seq(|ps| - 1, k requires 0 <= k < |ps| - 1 => (ps[0], ps[k + 1]));
      assert Combinations(ps) == first + Combinations(tail);
      assert |ps| * (|ps| - 1) == (|ps| - 1) * (|ps| - 2) + 2 * (|ps| - 1) by {
        MulStep(|ps| - 1);
      }
      forall a, b ensures (a, b) in Combinations(ps) <== exists i, j :: 0 <= i < j < |ps| && ps[i] == a && ps[j] == b {
        if exists i, j :: 0 <= i < j < |ps| && ps[i] == a && ps[j] == b {
          var i, j :| 0 <= i < j < |ps| && ps[i] == a && ps[j] == b;
          if i == 0 {
            assert first[j - 1] == (a, b);
          } else {
            assert tail[i - 1] == a && tail[j - 1] == b;
          }
        }
      }
      forall a, b | (a, b) in Combinations(ps) ensures exists i, j :: 0 <= i < j < |ps| && ps[i] == a && ps[j] == b {
        if (a, b) in first {
          var k :| 0 <= k < |first| && first[k] == (a, b);
          assert ps[0] == a && ps[k + 1] == b;
        } else {
          var i, j :| 0 <= i < j < |tail| && tail[i] == a && tail[j] == b;
          assert ps[i + 1] == a && ps[j + 1] == b;
        }
      }
    }
  }

  lemma MulStep(m: nat)
    ensures (m + 1) * m == m * (m - 1) + 2 * m
  {
  }

  function SumDistances(pairs: seq<(Point, Point)>): nat
  {
    if |pairs| == 0 then 0 else Taxicab(pairs[0].0, pairs[0].1) + SumDistances(pairs[1..])
  }

  /** `taxicab_pairs(expansion)`: galaxies move by `expansion - 1` per empty
      row and column before them; the distances of all pairs are summed. */
  function TaxicabPairs(data: Grid, expansion: int): Option<nat>
  {
    var rows := EmptyRows(data);
    match EmptyCols(data)
    case None => None
    case Some(cols) => Some(SumDistances(Combinations(MoveAll(Galaxies(data), rows, cols, expansion - 1))))
  }

  lemma {:induction false} MoveAllCompose(ps: seq<Point>, rows: seq<nat>, cols: seq<nat>)
    ensures MoveAll(MoveAll(ps, [], cols, 1), rows, [], 1) == MoveAll(ps, rows, cols, 1)
  {
    var a := MoveAll(MoveAll(ps, [], cols, 1), rows, [], 1);
    forall k | 0 <= k < |ps| ensures a[k] == Moved(ps[k], rows, cols, 1) {
      assert Before(ps[k].row, []) == 0;
      assert Before(ps[k].col + Before(ps[k].col, cols), []) == 0;
    }
  }

  /** The expanded image holds every galaxy moved down by the number of empty
      rows above it and right by the number of empty columns left of it. */
  lemma ExpandColsIsSpreadEach(data: Grid, cols: seq<nat>)
    requires |data| > 0 && Rectangular(data) && Ascending(cols)
    requires forall k :: 0 <= k < |cols| ==> cols[k] < |data[0]|
    ensures ExpandCols(data, cols) == SpreadEach(data, cols)
    ensures forall r :: 0 <= r < |data| ==> |ExpandCols(data, cols)[r]| == |data[0]| + |cols|
  {
    forall r | 0 <= r < |data|
      ensures ExpandCols(data, cols)[r] == SpreadEach(data, cols)[r]
      ensures |ExpandCols(data, cols)[r]| == |data[0]| + |cols|
    {
      ExpandRowIsSpread(data[r], cols);
    }
  }

  lemma {:induction false} SpreadNoHash(row: seq<char>, marks: seq<nat>)
    requires '#' !in row
    ensures '#' !in Spread(row, marks, Dot)
  {
    if |row| > 0 {
      var n := |row| - 1;
      assert row[..n] + [row[n]] == row;
      SpreadNoHash(row[..n], marks);
    }
  }

  /** The expanded image holds every galaxy moved down by the number of empty
      rows above it and right by the number of empty columns left of it. */
  lemma ExpandMovesGalaxies(data: Grid)
    requires |data| > 0 && Rectangular(data)
    ensures Expand(data).Some?
    ensures Galaxies(Expand(data).value) == MoveAll(Galaxies(data), EmptyRows(data), EmptyCols(data).value, 1)
    ensures |Expand(data).value| > 0 && Rectangular(Expand(data).value)
  {
    EmptyColsIff(data);
    var rows, cols := EmptyRows(data), EmptyCols(data).value;
    ExpandColsIsSpreadEach(data, cols);
    var wide := ExpandCols(data, cols);
    GalaxiesSpreadCols(data, cols);
    forall i | 0 <= i < |wide| && i in rows ensures '#' !in wide[i] {
      SpreadNoHash(data[i], cols);
    }
    ExpandRowsIsSpread(wide, rows);
    GalaxiesSpreadRows(wide, rows);
    MoveAllCompose(Galaxies(data), rows, cols);
    var tall := Expand(data).value;
    assert tall == Spread(wide, rows, Same);
    SpreadRows(wide, rows);
    forall r | 0 <= r < |tall| ensures |tall[r]| == |tall[0]| {
      assert tall[r] in wide && tall[0] in wide;
    }
  }

  /** Moving by a factor of 0 leaves the points where they are. */
  lemma {:induction false} MoveAllZero(ps: seq<Point>, rows: seq<nat>, cols: seq<nat>)
    ensures MoveAll(ps, rows, cols, 0) == ps
  {
  }

  /** Expansion by 2 as `taxicab_pairs(2)` computes it on the original image
      gives the plain distances between the galaxies of the expanded image. */
  lemma ExpansionTwoIsExpandedImage(data: Grid)
    requires |data| > 0 && Rectangular(data)
    ensures Expand(data).Some?
    ensures TaxicabPairs(data, 2) == TaxicabPairs(Expand(data).value, 1)
    ensures TaxicabPairs(data, 2).Some?
  {
    ExpandMovesGalaxies(data);
    EmptyColsIff(data);
    var big := Expand(data).value;
    EmptyColsIff(big);
    MoveAllZero(Galaxies(big), EmptyRows(big), EmptyCols(big).value);
  }

  /** Part 1 as written: the image is expanded and then `taxicab_pairs()` runs
      with its default expansion 0, which moves every galaxy back by one per
      empty row and column before it in the expanded image. */
  function Part1AsWritten(data: Grid): Option<nat>
  {
    match Expand(data)
    case None => None
    case Some(big) => TaxicabPairs(big, 0)
  }

  /** Part 1 with the expansion the puzzle asks for: each empty row or column counts twice. */
  function Part1(data: Grid): Option<nat>
  {
    TaxicabPairs(data, 2)
  }

  function Part2(data: Grid): Option<nat>
  {
    TaxicabPairs(data, 1000000)
  }
}

=== FILE: galaxies_examples.dfy ===
/** Worked examples for 2023 day 11 on a single column of the image: two
    galaxies with one empty row between them. */
module GalaxiesExamples {
  import opened Wrappers
  import opened Galaxies

  lemma HashColsSmall()
    ensures HashCols("#") == [0] && HashCols(".") == []
    ensures '#' in "#" && '#' !in "."
  {
    assert "#"[..0] == [] && "."[..0] == [];
    assert "#"[0] == '#';
  }

  lemma EmptyRowsOne()
    ensures EmptyRows(["#"]) == []
  {
    HashColsSmall();
    assert ["#"][..0] == [];
  }

  lemma EmptyRowsTwo()
    ensures EmptyRows(["#", "."]) == [1]
  {
    HashColsSmall();
    EmptyRowsOne();
    assert ["#", "."][..1] == ["#"];
  }

  lemma EmptyRowsThree()
    ensures EmptyRows(["#", ".", "#"]) == [1]
  {
    HashColsSmall();
    EmptyRowsTwo();
    assert ["#", ".", "#"][..2] == ["#", "."];
  }

  lemma EmptyRowsThreeDots()
    ensures EmptyRows(["#", ".", "."]) == [1, 2]
  {
    HashColsSmall();
    EmptyRowsTwo();
    assert ["#", ".", "."][..2] == ["#", "."];
  }

  lemma EmptyRowsFour()
    ensures EmptyRows(["#", ".", ".", "#"]) == [1, 2]
  {
    HashColsSmall();
    EmptyRowsThreeDots();
    assert ["#", ".", ".", "#"][..3] == ["#", ".", "."];
  }

  lemma EmptyColsColumn(data: Grid)
    requires |data| > 0 && data[0] == "#"
    ensures EmptyCols(data) == Some([])
  {
    HashColsSmall();
    assert ColumnEmpty(data, 0) == Some(false);
    assert EmptyColsBelow(data, 0) == Some([]);
  }

  lemma GalaxiesColumn(data: Grid, n: nat)
    requires 0 < n <= |data| && data[0] == "#"
    requires forall i :: 0 < i < n ==> data[i] == "."
    ensures Galaxies.Galaxies(data[..n]) == [Point(0, 0)]
  {
    HashColsSmall();
    if n == 1 {
      assert data[..1] == [] + ["#"];
      assert Galaxies.Galaxies(data[..1]) == Galaxies.Galaxies([]) + RowPoints(0, [0]);
    } else {
      GalaxiesColumn(data, n - 1);
      assert data[..n] == data[..n - 1] + ["."];
      GalaxiesSnoc(data[..n - 1], ".");
    }
  }

  lemma GalaxiesThree()
    ensures Galaxies.Galaxies(["#", ".", "#"]) == [Point(0, 0), Point(2, 0)]
  {
    var data: Grid := ["#", ".", "#"];
    HashColsSmall();
    GalaxiesColumn(data, 2);
    assert data == data[..2] + ["#"];
    GalaxiesSnoc(data[..2], "#");
  }

  lemma GalaxiesFour()
    ensures Galaxies.Galaxies(["#", ".", ".", "#"]) == [Point(0, 0), Point(3, 0)]
  {
    var data: Grid := ["#", ".", ".", "#"];
    HashColsSmall();
    GalaxiesColumn(data, 3);
    assert data == data[..3] + ["#"];
    GalaxiesSnoc(data[..3], "#");
  }

  lemma SpreadExample()
    ensures Spread(["#", ".", "#"], [1], Same) == ["#", ".", ".", "#"]
  {
    var data: Grid := ["#", ".", "#"];
    var one: Grid := ["#"];
    var two: Grid := ["#", "."];
    assert 0 !in [1] && 1 in [1] && 2 !in [1];
    assert one[..0] == [] && two[..1] == one && data[..2] == two;
    assert Spread(one, [1], Same) == Spread([], [1], Same) + ["#"];
    assert Spread(two, [1], Same) == Spread(one, [1], Same) + [Same("."), "."];
    assert Spread(data, [1], Same) == Spread(two, [1], Same) + ["#"];
  }

  /** The column image with one empty row expands to two empty rows. */
  lemma ExampleExpand()
    ensures Expand(["#", ".", "#"]) == Some(["#", ".", ".", "#"])
  {
    var data: Grid := ["#", ".", "#"];
    EmptyRowsThree();
    EmptyColsColumn(data);
    assert ExpandCols(data, []) == data;
    assert ExpandRows(data, [1]) == Some(["#", ".", ".", "#"]) by {
      ExpandRowsIsSpread(data, [1]);
      SpreadExample();
    }
  }

  lemma PairOf(ps: seq<Point>)
    requires |ps| == 2
    ensures SumDistances(Combinations(ps)) == Taxicab(ps[0], ps[1])
  {
    assert ps == [ps[0], ps[1]];
    assert ps[1..] == [ps[1]];
    assert Combinations([ps[1]]) == [];
  }

  /** In the expanded image both empty rows count -1, leaving distance 1. */
  lemma ExampleExpandedAtZero()
    ensures TaxicabPairs(["#", ".", ".", "#"], 0) == Some(1)
  {
    var big: Grid := ["#", ".", ".", "#"];
    EmptyRowsFour();
    EmptyColsColumn(big);
    GalaxiesFour();
    BeforeSmall();
    MovedPairDistance([Point(0, 0), Point(3, 0)], [1, 2], []);
  }

  /** Rows 1 and 2 counted -1 each bring the second galaxy up to row 1. */
  lemma MovedPairDistance(ps: seq<Point>, rows: seq<nat>, cols: seq<nat>)
    requires |ps| == 2 && ps[0] == Point(0, 0) && ps[1] == Point(3, 0)
    requires Before(0, rows) == 0 && Before(3, rows) == 2 && Before(0, cols) == 0
    ensures SumDistances(Combinations(MoveAll(ps, rows, cols, -1))) == 1
  {
    var m := MoveAll(ps, rows, cols, -1);
    assert m[0] == Moved(ps[0], rows, cols, -1);
    assert m[1] == Moved(ps[1], rows, cols, -1);
    PairDistanceOne(m);
  }

  lemma PairDistanceOne(ps: seq<Point>)
    requires |ps| == 2 && ps[0] == Point(0, 0) && ps[1] == Point(1, 0)
    ensures SumDistances(Combinations(ps)) == 1
  {
    PairOf(ps);
  }

  lemma BeforeSmall()
    ensures Before(0, []) == 0
    ensures Before(0, [1, 2]) == 0
    ensures Before(3, [1, 2]) == 2
  {
    var marks: seq<nat> := [1, 2];
    assert marks[..1] == [1] && [1][..0] == [];
  }

  lemma DistanceThree()
    ensures SumDistances(Combinations([Point(0, 0), Point(3, 0)])) == 3
  {
    PairOf([Point(0, 0), Point(3, 0)]);
  }

  /** In the expanded image no galaxy moves at expansion 1, leaving distance 3. */
  lemma ExampleExpandedAtOne()
    ensures TaxicabPairs(["#", ".", ".", "#"], 1) == Some(3)
  {
    var big: Grid := ["#", ".", ".", "#"];
    EmptyRowsFour();
    EmptyColsColumn(big);
    GalaxiesFour();
    var moved := MoveAll([Point(0, 0), Point(3, 0)], [1, 2], [], 0);
    MoveAllZero([Point(0, 0), Point(3, 0)], [1, 2], []);
    assert moved == [Point(0, 0), Point(3, 0)];
    DistanceThree();
  }

  /** On the original image expansion 2 puts the galaxies 3 apart. */
  lemma ExampleAtTwo()
    ensures TaxicabPairs(["#", ".", "#"], 2) == Some(3)
  {
    var data: Grid := ["#", ".", "#"];
    assert Rectangular(data);
    ExpansionTwoIsExpandedImage(data);
    ExampleExpand();
    ExampleExpandedAtOne();
  }

  /** Two galaxies in one column with an empty row between them: they are 3
      apart once that row doubles, but part 1 as written reports 1, the
      distance with the empty row removed. */
  lemma Part1AsWrittenCounterexample()
    ensures Part1AsWritten(["#", ".", "#"]) == Some(1)
    ensures Part1(["#", ".", "#"]) == Some(3)
  {
    ExampleExpand();
    ExampleExpandedAtZero();
    ExampleAtTwo();
  }
}

=== FILE: garden_regions.dfy ===
/** The garden plots of 2024/Day12. A flood fill splits the grid into
    regions, each the cells of one plant reachable from one another through
    shared sides; part 1 prices a region at its area times its perimeter. */
module GardenRegions {
  import opened Wrappers
  import opened AocUtil
  import Sorting

  /** The stripped lines of the file, one character per plot. */
  type Grid = seq<seq<char>>

  /** Every row is as long as the first. */
  predicate Shaped(g: Grid)
  {
    forall y :: 0 <= y < |g| ==> |g[y]| == |g[0]|
  }

  /** A grid with a first row, whose width the source reads. */
  predicate Rectangular(g: Grid)
  {
    |g| > 0 && Shaped(g)
  }

  predicate Inside(g: Grid, p: Point)
    requires Rectangular(g)
  {
    0 <= p.x < |g[0]| && 0 <= p.y < |g|
  }

  /** `Grid.at`: the plant at a cell, None off the grid. */
  function At(g: Grid, p: Point): (r: Option<char>)
    requires Rectangular(g)
    ensures r.Some? <==> Inside(g, p)
    ensures r.Some? ==> r.value == g[p.y][p.x]
  {
    if p.x < 0 || p.y < 0 || p.x >= |g[0]| || p.y >= |g| then None else Some(g[p.y][p.x])
  }

  /** The two cells share a side. */
  predicate Adjacent(p: Point, q: Point)
  {
    (p.x == q.x && (q.y == p.y + 1 || q.y == p.y - 1)) || (p.y == q.y && (q.x == p.x + 1 || q.x == p.x - 1))
  }

  /** The points of `ps` that lie on the grid, in order. */
  function OnGrid(g: Grid, ps: seq<Point>): (r: seq<Point>)
    requires Rectangular(g)
    ensures forall q :: q in r <==> q in ps && Inside(g, q)
    ensures |r| <= |ps|
  {
    if |ps| == 0 then [] else (if Inside(g, ps[0]) then [ps[0]] else []) + OnGrid(g, ps[1..])
  }

  /** `neighbors`: the cells beside `p` that lie on the grid, in compass
      order. */
  function Neighbors(g: Grid, p: Point): (r: seq<Point>)
    requires Rectangular(g)
    ensures forall q :: q in r <==> Inside(g, q) && Adjacent(p, q)
    ensures |r| <= 4
  {
    OnGrid(g, [Move(p, North), Move(p, East), Move(p, South), Move(p, West)])
  }

  /** Being neighbours is symmetric. */
  lemma NeighborsSymmetric(g: Grid, p: Point, q: Point)
    requires Rectangular(g) && Inside(g, p) && q in Neighbors(g, p)
    ensures p in Neighbors(g, q)
  {
  }

  /** Every cell of the grid. */
  function Cells(g: Grid): (s: set<Point>)
    requires Rectangular(g)
    ensures forall q :: q in s <==> Inside(g, q)
  {
    set x, y | 0 <= x < |g[0]| && 0 <= y < |g| :: Point(x, y)
  }

  /** The neighbours of `p` holding `kind` that are not in `region`: what
      one round of the flood fill queues. */
  function Grown(g: Grid, kind: char, p: Point, region: set<Point>): (s: set<Point>)
    requires Rectangular(g)
    ensures forall q :: q in s <==> q in Neighbors(g, p) && At(g, q) == Some(kind) && q !in region
  {
    set q | q in Neighbors(g, p) && At(g, q) == Some(kind) && q !in region
  }

  /** The cell `set.pop` takes: any one. */
  ghost function Pick(s: set<Point>): (p: Point)
    requires s != {}
    ensures p in s
  {
    var p :| p in s; p
  }

  /** The `while len(fringe) > 0` loop of `from_file`: pop a cell of the
      fringe, put it in the region, and queue its neighbours of the same
      plant that are in neither. Python's `set.pop` takes an arbitrary
      cell, and so does `:|`. */
  ghost function Fill(g: Grid, kind: char, fringe: set<Point>, region: set<Point>): (r: set<Point>)
    requires Rectangular(g) && fringe <= Cells(g) && region <= Cells(g) && fringe !! region
    ensures region + fringe <= r <= Cells(g)
    decreases |Cells(g) - region|
  {
    if fringe == {} then region
    else
      var p := Pick(fringe);
      var region' := region + {p};
      assert Cells(g) - region == (Cells(g) - region') + {p};
      Fill(g, kind, fringe - {p} + Grown(g, kind, p, region'), region')
  }

  /** Every cell of `s` holds `kind`. */
  ghost predicate OfKind(g: Grid, kind: char, s: set<Point>)
    requires Rectangular(g)
  {
    forall q :: q in s ==> At(g, q) == Some(kind)
  }

  /** Every neighbour of a cell of `s` that holds `kind` is in `s`. */
  ghost predicate Closed(g: Grid, kind: char, s: set<Point>)
    requires Rectangular(g)
  {
    forall q, n :: q in s && n in Neighbors(g, q) && At(g, n) == Some(kind) ==> n in s
  }

  /** Every neighbour holding `kind` of a cell already in the region is in
      the region or queued: the loop's invariant. */
  ghost predicate Bordered(g: Grid, kind: char, region: set<Point>, fringe: set<Point>)
    requires Rectangular(g)
  {
    forall q, n :: q in region && n in Neighbors(g, q) && At(g, n) == Some(kind) ==> n in region + fringe
  }

  /** The flood fill only takes cells of the plant it started from. */
  lemma {:induction false} FillKind(g: Grid, kind: char, fringe: set<Point>, region: set<Point>)
    requires Rectangular(g) && fringe <= Cells(g) && region <= Cells(g) && fringe !! region
    requires OfKind(g, kind, region + fringe)
    ensures OfKind(g, kind, Fill(g, kind, fringe, region))
    decreases |Cells(g) - region|
  {
    if fringe != {} {
      var p := Pick(fringe);
      var region' := region + {p};
      assert Cells(g) - region == (Cells(g) - region') + {p};
      FillKind(g, kind, fringe - {p} + Grown(g, kind, p, region'), region');
    }
  }

  /** The flood fill stops only when no neighbour of the plant is left
      out. */
  lemma {:induction false} FillClosed(g: Grid, kind: char, fringe: set<Point>, region: set<Point>)
    requires Rectangular(g) && fringe <= Cells(g) && region <= Cells(g) && fringe !! region
    requires Bordered(g, kind, region, fringe)
    ensures Closed(g, kind, Fill(g, kind, fringe, region))
    decreases |Cells(g) - region|
  {
    if fringe != {} {
      var p := Pick(fringe);
      var region' := region + {p};
      var fringe' := fringe - {p} + Grown(g, kind, p, region');
      assert Cells(g) - region == (Cells(g) - region') + {p};
      BorderedStep(g, kind, region, fringe, p);
      FillClosed(g, kind, fringe', region');
    }
  }

  /** One round of the flood fill keeps the loop's invariant. */
  lemma BorderedStep(g: Grid, kind: char, region: set<Point>, fringe: set<Point>, p: Point)
    requires Rectangular(g) && p in fringe && Bordered(g, kind, region, fringe)
    ensures Bordered(g, kind, region + {p}, fringe - {p} + Grown(g, kind, p, region + {p}))
  {
    var region' := region + {p};
    var fringe' := fringe - {p} + Grown(g, kind, p, region');
    forall q, n | q in region' && n in Neighbors(g, q) && At(g, n) == Some(kind)
      ensures n in region' + fringe'
    {
      if q != p {
        assert n in region + fringe;
      }
    }
  }

  /** The flood fill takes nothing outside a closed set holding the region
      and the fringe. */
  lemma {:induction false} FillLeast(g: Grid, kind: char, fringe: set<Point>, region: set<Point>, s: set<Point>)
    requires Rectangular(g) && fringe <= Cells(g) && region <= Cells(g) && fringe !! region
    requires region + fringe <= s && Closed(g, kind, s)
    ensures Fill(g, kind, fringe, region) <= s
    decreases |Cells(g) - region|
  {
    if fringe != {} {
      var p := Pick(fringe);
      var region' := region + {p};
      assert Cells(g) - region == (Cells(g) - region') + {p};
      GrownWithin(g, kind, p, region', s);
      FillLeast(g, kind, fringe - {p} + Grown(g, kind, p, region'), region', s);
    }
  }

  /** What one round queues from a cell of a closed set is in the set. */
  lemma GrownWithin(g: Grid, kind: char, p: Point, region: set<Point>, s: set<Point>)
    requires Rectangular(g) && p in s && Closed(g, kind, s)
    ensures Grown(g, kind, p, region) <= s
  {
  }

  /** The region the flood fill grows from `p`. */
  ghost function Component(g: Grid, p: Point): (r: set<Point>)
    requires Rectangular(g) && Inside(g, p)
    ensures p in r && r <= Cells(g)
  {
    Fill(g, g[p.y][p.x], {p}, {})
  }

  /** A region holds one plant and every neighbour of its cells with that
      plant. */
  lemma ComponentShape(g: Grid, p: Point)
    requires Rectangular(g) && Inside(g, p)
    ensures OfKind(g, g[p.y][p.x], Component(g, p)) && Closed(g, g[p.y][p.x], Component(g, p))
  {
    FillKind(g, g[p.y][p.x], {p}, {});
    FillClosed(g, g[p.y][p.x], {p}, {});
  }

  /** A region holds nothing but what is reachable from its start: it lies
      inside every closed set of its plant holding the start. */
  lemma ComponentLeast(g: Grid, p: Point, s: set<Point>)
    requires Rectangular(g) && Inside(g, p) && p in s && Closed(g, g[p.y][p.x], s)
    ensures Component(g, p) <= s
  {
    FillLeast(g, g[p.y][p.x], {p}, {}, s);
  }

  /** The flood fill from any cell of a region gives the same region. */
  lemma ComponentShared(g: Grid, p: Point, c: Point)
    requires Rectangular(g) && Inside(g, p) && c in Component(g, p)
    ensures Inside(g, c) && Component(g, c) == Component(g, p)
  {
    var kind := g[p.y][p.x];
    ComponentShape(g, p);
    ComponentShape(g, c);
    assert At(g, c) == Some(kind);
    ComponentLeast(g, c, Component(g, p));
    if p !in Component(g, c) {
      var u := Component(g, p) - Component(g, c);
      forall q, n | q in u && n in Neighbors(g, q) && At(g, n) == Some(kind)
        ensures n in u
      {
        if n in Component(g, c) {
          NeighborsSymmetric(g, q, n);
          assert false;
        }
      }
      ComponentLeast(g, p, u);
      assert false;
    }
    ComponentLeast(g, p, Component(g, c));
  }

  /** `Region`: its cells and its plant. */
  datatype Region = Region(positions: set<Point>, kind: char)

  /** The region is what the flood fill grows from each of its cells, all of
      them holding its plant. */
  ghost predicate IsRegion(g: Grid, r: Region)
    requires Rectangular(g)
  {
    && r.positions != {}
    && forall c :: c in r.positions ==> Inside(g, c) && g[c.y][c.x] == r.kind && Component(g, c) == r.positions
  }

  /** The flood fill from each cell, as a function of the start. */
  ghost function Grow(g: Grid): Point -> set<Point>
  {
    p => if Rectangular(g) && Inside(g, p) then Component(g, p) else {}
  }

  /** What the scan needs of the flood fill: from every cell it grows a set
      of cells of that cell's plant holding the cell, and from every cell of
      that set it grows the same set. */
  ghost predicate Sound(g: Grid, grow: Point -> set<Point>)
    requires Rectangular(g)
  {
    && (forall p :: Inside(g, p) ==> p in grow(p) && grow(p) <= Cells(g))
    && (forall p, c :: Inside(g, p) && c in grow(p) ==> g[c.y][c.x] == g[p.y][p.x] && grow(c) == grow(p))
  }

  /** The flood fill of the source is sound. */
  lemma GrowSound(g: Grid)
    requires Rectangular(g)
    ensures Sound(g, Grow(g))
  {
    forall p, c | Inside(g, p) && c in Grow(g)(p)
      ensures g[c.y][c.x] == g[p.y][p.x] && Grow(g)(c) == Grow(g)(p)
    {
      ComponentShape(g, p);
      ComponentShared(g, p, c);
      assert At(g, c) == Some(g[p.y][p.x]);
    }
  }

  /** Cell `p` comes before (x, y) in the row-by-row order of the scan. */
  predicate Before(p: Point, x: int, y: int)
  {
    p.y < y || (p.y == y && p.x < x)
  }

  /** The nested `for` loops of `from_file` from cell (x, y) on: a cell not
      yet visited starts a new region, the one `grow` finds from it. */
  ghost function Scan(g: Grid, x: nat, y: nat, visited: set<Point>, grow: Point -> set<Point>): (rs: seq<Region>)
    requires Rectangular(g) && x <= |g[0]| && y <= |g|
    decreases |g| - y, |g[0]| - x
  {
    if y == |g| then []
    else if x == |g[0]| then Scan(g, 0, y + 1, visited, grow)
    else if Point(x, y) in visited then Scan(g, x + 1, y, visited, grow)
    else
      var r := grow(Point(x, y));
      [Region(r, g[y][x])] + Scan(g, x + 1, y, visited + r, grow)
  }

  /** `Region.from_file`. */
  ghost function FromFile(g: Grid): seq<Region>
    requires Rectangular(g)
  {
    Scan(g, 0, 0, {}, Grow(g))
  }

  /** The cells of all the regions. */
  ghost function Union(rs: seq<Region>): set<Point>
  {
    if |rs| == 0 then {} else rs[0].positions + Union(rs[1..])
  }

  /** No two of the regions share a cell. */
  ghost predicate Disjoint(rs: seq<Region>)
  {
    forall i, j :: 0 <= i < j < |rs| ==> rs[i].positions !! rs[j].positions
  }
  /** Each region shares no cell with the regions after it. */
  ghost predicate Separate(rs: seq<Region>)
  {
    |rs| == 0 || (rs[0].positions !! Union(rs[1..]) && Separate(rs[1..]))
  }

  /** Regions each apart from those after them share no cell pairwise. */
  lemma {:induction false} SeparateDisjoint(rs: seq<Region>)
    requires Separate(rs)
    ensures Disjoint(rs)
  {
    if |rs| > 0 {
      SeparateDisjoint(rs[1..]);
      ConsRegion(rs[0], rs[1..]);
      assert [rs[0]] + rs[1..] == rs;
    }
  }


  /** The scan covers every cell it has not already visited. */
  lemma {:induction false} ScanCovers(g: Grid, x: nat, y: nat, visited: set<Point>, grow: Point -> set<Point>)
    requires Rectangular(g) && x <= |g[0]| && y <= |g| && Sound(g, grow)
    requires forall q :: Inside(g, q) && Before(q, x, y) ==> q in visited
    ensures Cells(g) <= visited + Union(Scan(g, x, y, visited, grow))
    decreases |g| - y, |g[0]| - x
  {
    if y == |g| {
    } else if x == |g[0]| {
      ScanCovers(g, 0, y + 1, visited, grow);
    } else if Point(x, y) in visited {
      ScanCovers(g, x + 1, y, visited, grow);
    } else {
      var r := grow(Point(x, y));
      ScanCovers(g, x + 1, y, visited + r, grow);
    }
  }

  /** The cells visited so far are whole regions. */
  ghost predicate Visited(g: Grid, visited: set<Point>, grow: Point -> set<Point>)
    requires Rectangular(g)
  {
    && visited <= Cells(g)
    && forall c :: c in visited ==> grow(c) <= visited
  }

  /** A cell not yet visited starts a region disjoint from what is visited,
      and what is visited stays whole regions. */
  lemma NewRegion(g: Grid, p: Point, visited: set<Point>, grow: Point -> set<Point>)
    requires Rectangular(g) && Inside(g, p) && p !in visited && Sound(g, grow) && Visited(g, visited, grow)
    ensures grow(p) !! visited && Visited(g, visited + grow(p), grow)
  {
    forall c | c in grow(p)
      ensures grow(c) == grow(p) && c !in visited
    {
    }
  }

  /** The scan's regions lie on the grid away from what is visited. */
  lemma {:induction false} ScanFresh(g: Grid, x: nat, y: nat, visited: set<Point>, grow: Point -> set<Point>)
    requires Rectangular(g) && x <= |g[0]| && y <= |g| && Sound(g, grow) && Visited(g, visited, grow)
    ensures Union(Scan(g, x, y, visited, grow)) <= Cells(g) && Union(Scan(g, x, y, visited, grow)) !! visited
    decreases |g| - y, |g[0]| - x
  {
    if y == |g| {
    } else if x == |g[0]| {
      ScanFresh(g, 0, y + 1, visited, grow);
    } else if Point(x, y) in visited {
      ScanFresh(g, x + 1, y, visited, grow);
    } else {
      var r := grow(Point(x, y));
      NewRegion(g, Point(x, y), visited, grow);
      ScanFresh(g, x + 1, y, visited + r, grow);
      assert Scan(g, x, y, visited, grow) == [Region(r, g[y][x])] + Scan(g, x + 1, y, visited + r, grow);
    }
  }

  /** Each of the scan's regions shares no cell with those after it. */
  lemma {:induction false} ScanSeparate(g: Grid, x: nat, y: nat, visited: set<Point>, grow: Point -> set<Point>)
    requires Rectangular(g) && x <= |g[0]| && y <= |g| && Sound(g, grow) && Visited(g, visited, grow)
    ensures Separate(Scan(g, x, y, visited, grow))
    decreases |g| - y, |g[0]| - x
  {
    if y == |g| {
    } else if x == |g[0]| {
      ScanSeparate(g, 0, y + 1, visited, grow);
    } else if Point(x, y) in visited {
      ScanSeparate(g, x + 1, y, visited, grow);
    } else {
      var r := grow(Point(x, y));
      NewRegion(g, Point(x, y), visited, grow);
      var rest := Scan(g, x + 1, y, visited + r, grow);
      ScanSeparate(g, x + 1, y, visited + r, grow);
      ScanFresh(g, x + 1, y, visited + r, grow);
      var rs := [Region(r, g[y][x])] + rest;
      assert Scan(g, x, y, visited, grow) == rs;
      assert rs[1..] == rest;
    }
  }

  /** The region is what `grow` finds from any of its cells, all of them
      holding its plant. */
  ghost predicate FoundRegion(g: Grid, grow: Point -> set<Point>, r: Region)
    requires Rectangular(g)
  {
    && r.positions != {}
    && forall c :: c in r.positions ==> Inside(g, c) && g[c.y][c.x] == r.kind && grow(c) == r.positions
  }

  /** What `grow` finds from a cell is such a region. */
  lemma GrowsRegion(g: Grid, grow: Point -> set<Point>, p: Point)
    requires Rectangular(g) && Inside(g, p) && Sound(g, grow)
    ensures FoundRegion(g, grow, Region(grow(p), g[p.y][p.x]))
  {
  }

  /** Every region the scan makes is what `grow` finds from any of its
      cells. */
  lemma {:induction false} ScanRegions(g: Grid, x: nat, y: nat, visited: set<Point>, grow: Point -> set<Point>)
    requires Rectangular(g) && x <= |g[0]| && y <= |g| && Sound(g, grow) && Visited(g, visited, grow)
    ensures forall i :: 0 <= i < |Scan(g, x, y, visited, grow)| ==> FoundRegion(g, grow, Scan(g, x, y, visited, grow)[i])
    decreases |g| - y, |g[0]| - x
  {
    if y == |g| {
    } else if x == |g[0]| {
      ScanRegions(g, 0, y + 1, visited, grow);
    } else if Point(x, y) in visited {
      ScanRegions(g, x + 1, y, visited, grow);
    } else {
      var p := Point(x, y);
      var r := grow(p);
      NewRegion(g, p, visited, grow);
      GrowsRegion(g, grow, p);
      var rest := Scan(g, x + 1, y, visited + r, grow);
      ScanRegions(g, x + 1, y, visited + r, grow);
      var rs := [Region(r, g[y][x])] + rest;
      assert Scan(g, x, y, visited, grow) == rs;
      forall i | 0 <= i < |rs|
        ensures FoundRegion(g, grow, rs[i])
      {
        if i > 0 {
          assert rs[i] == rest[i - 1];
        }
      }
    }
  }

  /** Putting a region in front of regions disjoint from it. */
  lemma ConsRegion(r: Region, rest: seq<Region>)
    requires Disjoint(rest) && r.positions !! Union(rest)
    ensures Disjoint([r] + rest) && Union([r] + rest) == r.positions + Union(rest)
  {
    var rs := [r] + rest;
    assert rs[1..] == rest;
    UnionMembers(rest);
    forall i, j | 0 <= i < j < |rs|
      ensures rs[i].positions !! rs[j].positions
    {
      assert rs[j] == rest[j - 1];
      if i > 0 {
        assert rs[i] == rest[i - 1];
      }
    }
  }

  /** Each region's cells are in the union. */
  lemma {:induction false} UnionMembers(rs: seq<Region>)
    ensures forall i :: 0 <= i < |rs| ==> rs[i].positions <= Union(rs)
  {
    if |rs| > 0 {
      UnionMembers(rs[1..]);
      assert forall i :: 1 <= i < |rs| ==> rs[i] == rs[1..][i - 1];
    }
  }

  /** `from_file` puts every cell of the grid into exactly one region, and
      every region is a flood-filled component of one plant. */
  lemma FromFilePartitions(g: Grid)
    requires Rectangular(g)
    ensures Union(FromFile(g)) == Cells(g) && Disjoint(FromFile(g)) && Separate(FromFile(g))
    ensures forall i :: 0 <= i < |FromFile(g)| ==> IsRegion(g, FromFile(g)[i])
  {
    var grow := Grow(g);
    GrowSound(g);
    ScanCovers(g, 0, 0, {}, grow);
    ScanFresh(g, 0, 0, {}, grow);
    ScanSeparate(g, 0, 0, {}, grow);
    SeparateDisjoint(FromFile(g));
    ScanRegions(g, 0, 0, {}, grow);
    var rs := FromFile(g);
    forall i | 0 <= i < |rs|
      ensures IsRegion(g, rs[i])
    {
      assert FoundRegion(g, grow, rs[i]);
    }
  }

  /** `area`: the number of cells. */
  function Area(r: Region): nat
  {
    |r.positions|
  }

  function SumAreas(rs: seq<Region>): nat
  {
    if |rs| == 0 then 0 else Area(rs[0]) + SumAreas(rs[1..])
  }

  /** Regions with no cell in common have as many cells together as their
      union. */
  lemma {:induction false} DisjointSize(rs: seq<Region>)
    requires Separate(rs)
    ensures SumAreas(rs) == |Union(rs)|
  {
    if |rs| > 0 {
      DisjointSize(rs[1..]);
    }
  }

  /** The region of the union a cell comes from. */
  lemma {:induction false} UnionWitness(rs: seq<Region>, c: Point) returns (i: nat)
    requires c in Union(rs)
    ensures i < |rs| && c in rs[i].positions
  {
    if c in rs[0].positions {
      i := 0;
    } else {
      var k := UnionWitness(rs[1..], c);
      i := k + 1;
    }
  }

  /** Every cell of the grid is in exactly one region of `from_file`. */
  lemma OneRegion(g: Grid, c: Point) returns (i: nat)
    requires Rectangular(g) && Inside(g, c)
    ensures i < |FromFile(g)| && c in FromFile(g)[i].positions
    ensures forall j :: 0 <= j < |FromFile(g)| && j != i ==> c !in FromFile(g)[j].positions
  {
    FromFilePartitions(g);
    i := UnionWitness(FromFile(g), c);
  }

  /** The areas of the regions add up to the number of cells of the grid. */
  lemma AreasCoverGrid(g: Grid)
    requires Rectangular(g)
    ensures SumAreas(FromFile(g)) == |Cells(g)|
  {
    FromFilePartitions(g);
    DisjointSize(FromFile(g));
  }

  /** The cells of `s` whose neighbour towards `d` is not in `s`. */
  function Exposed(s: set<Point>, d: Cardinal): (e: set<Point>)
    ensures e <= s
    ensures forall p :: p in e <==> p in s && Move(p, d) !in s
  {
    set p | p in s && Move(p, d) !in s
  }

  /** `perimiter`: the sides of the region's cells that face a cell outside
      it. The source sums per cell over the four directions; summing per
      direction over the cells counts the same sides. */
  function Perimeter(r: Region): (n: nat)
    ensures n <= 4 * Area(r)
  {
    var s := r.positions;
    Sorting.SubsetSize(Exposed(s, North), s);
    Sorting.SubsetSize(Exposed(s, East), s);
    Sorting.SubsetSize(Exposed(s, South), s);
    Sorting.SubsetSize(Exposed(s, West), s);
    |Exposed(s, North)| + |Exposed(s, East)| + |Exposed(s, South)| + |Exposed(s, West)|
  }

  /** How far towards `d` a cell lies: one step towards `d` adds one. */
  function Reach(p: Point, d: Cardinal): int
  {
    match d
    case North => -p.y
    case East => p.x
    case South => p.y
    case West => -p.x
  }

  /** A cell of a nonempty set lying furthest towards `d`. */
  lemma {:induction false} Furthest(s: set<Point>, d: Cardinal) returns (p: Point)
    requires s != {}
    ensures p in s && forall q :: q in s ==> Reach(q, d) <= Reach(p, d)
    decreases |s|
  {
    var a :| a in s;
    if s == {a} {
      p := a;
    } else {
      var b := Furthest(s - {a}, d);
      p := if Reach(a, d) > Reach(b, d) then a else b;
    }
  }

  /** A region with a cell has a side facing out in every direction, so its
      perimeter is at least 4. */
  lemma PerimeterAtLeastFour(r: Region)
    requires r.positions != {}
    ensures Perimeter(r) >= 4
  {
    var s := r.positions;
    var n := Furthest(s, North);
    assert Reach(Move(n, North), North) > Reach(n, North);
    assert n in Exposed(s, North);
    var e := Furthest(s, East);
    assert Reach(Move(e, East), East) > Reach(e, East);
    assert e in Exposed(s, East);
    var so := Furthest(s, South);
    assert Reach(Move(so, South), South) > Reach(so, South);
    assert so in Exposed(s, South);
    var w := Furthest(s, West);
    assert Reach(Move(w, West), West) > Reach(w, West);
    assert w in Exposed(s, West);
  }

  /** A region of one cell has perimeter 4. */
  lemma PerimeterSingle(p: Point, kind: char)
    ensures Perimeter(Region({p}, kind)) == 4
  {
    var s := {p};
    assert Exposed(s, North) == s by { assert Move(p, North) != p; }
    assert Exposed(s, East) == s by { assert Move(p, East) != p; }
    assert Exposed(s, South) == s by { assert Move(p, South) != p; }
    assert Exposed(s, West) == s by { assert Move(p, West) != p; }
  }

  /** `price`: area times perimeter; between 4 times the area and 4 times
      its square. */
  function Price(r: Region): (n: nat)
    ensures n <= 4 * Area(r) * Area(r)
    ensures r.positions != {} ==> n >= 4 * Area(r)
  {
    if r.positions != {} then
      PerimeterAtLeastFour(r);
      ScaleBounds(Area(r), Perimeter(r));
      Area(r) * Perimeter(r)
    else 0
  }

  lemma ScaleBounds(a: nat, p: nat)
    requires p <= 4 * a
    ensures a * p <= 4 * a * a && (p >= 4 ==> a * p >= 4 * a)
  {
  }

  function TotalPrice(rs: seq<Region>): nat
  {
    if |rs| == 0 then 0 else Price(rs[0]) + TotalPrice(rs[1..])
  }

  /** Part 1: the sum of the prices of the regions. An empty file has no
      first row, which raises IndexError. */
  ghost function Part1(g: Grid): (r: Option<nat>)
    requires Shaped(g)
    ensures r.Some? <==> |g| > 0
  {
    if |g| == 0 then None else Some(TotalPrice(FromFile(g)))
  }

  /** Every region costs at least 4 per cell, so part 1 is at least 4 times
      the number of cells. */
  lemma {:induction false} TotalAtLeast(rs: seq<Region>)
    requires forall i :: 0 <= i < |rs| ==> rs[i].positions != {}
    ensures TotalPrice(rs) >= 4 * SumAreas(rs)
  {
    if |rs| > 0 {
      assert forall i :: 0 <= i < |rs[1..]| ==> rs[1..][i] == rs[i + 1];
      TotalAtLeast(rs[1..]);
    }
  }

  lemma Part1AtLeast(g: Grid)
    requires Rectangular(g)
    ensures Part1(g).value >= 4 * |Cells(g)|
  {
    FromFilePartitions(g);
    AreasCoverGrid(g);
    TotalAtLeast(FromFile(g));
  }
}

=== FILE: gear_ratios.dfy ===
/** The engine schematic of 2023 day 3: numbers are the maximal runs of
    digits of each line, and a symbol is any character other than '.' and a
    digit. A number next to a symbol, diagonals included, is a part number;
    a symbol next to exactly two numbers is a gear, whose ratio is their
    product. */
module GearRatios {
  import opened Wrappers
  import Decimal

  /** `(start, end, value)` of a run of digits of a line, `end` exclusive. */
  datatype Token = Token(start: nat, end: nat, value: nat)

  /** A number of the schematic. Python keeps one object per number; two
      numbers of the same row start at different columns, so the row and the
      start identify it. */
  datatype Number = Number(row: nat, start: nat, end: nat, value: nat)

  /** `t` is a maximal run of digits of `line`, read as a decimal number. */
  predicate MaximalRun(line: string, t: Token)
  {
    && t.start < t.end <= |line|
    && (forall k :: t.start <= k < t.end ==> Decimal.IsDigit(line[k]))
    && (t.start == 0 || !Decimal.IsDigit(line[t.start - 1]))
    && (t.end == |line| || !Decimal.IsDigit(line[t.end]))
    && t.value == RunValue(line, t.start, t.end)
  }

  /** `int(''.join(number))` for the digits `line[i..e]`. */
  function RunValue(line: string, i: nat, e: nat): nat
    requires i <= e <= |line|
    requires forall k :: i <= k < e ==> Decimal.IsDigit(line[k])
  {
    var run := line[i..e];
    assert forall k :: 0 <= k < |run| ==> Decimal.IsDigit(run[k]);
    Decimal.ValueOf(Decimal.DigitValues(run))
  }

  /** Each token ends before the next one starts. */
  predicate Ordered(ts: seq<Token>)
  {
    forall k, l :: 0 <= k < l < |ts| ==> ts[k].end < ts[l].start
  }

  /** The end of the run of digits that starts at `i`: the inner loop. */
  function RunEnd(line: string, i: nat): (e: nat)
    requires i <= |line|
    ensures i <= e <= |line|
    ensures forall k :: i <= k < e ==> Decimal.IsDigit(line[k])
    ensures e == |line| || !Decimal.IsDigit(line[e])
    decreases |line| - i
  {
    if i < |line| && Decimal.IsDigit(line[i]) then RunEnd(line, i + 1) else i
  }

  /** The outer loop of the tokenizer from `i` on. At a character that is no
      digit the inner loop reads nothing and the loop steps over it; at a
      digit it reads the run, keeps it, and steps over the character that
      ended it. */
  function TokensFrom(line: string, i: nat): seq<Token>
    requires i == 0 || i > |line| || !Decimal.IsDigit(line[i - 1])
    decreases |line| + 1 - i
  {
    if i >= |line| then []
    else if !Decimal.IsDigit(line[i]) then TokensFrom(line, i + 1)
    else
      var e := RunEnd(line, i);
      [Token(i, e, RunValue(line, i, e))] + TokensFrom(line, e + 1)
  }

  /** The tokens of one line. */
  function Tokens(line: string): seq<Token>
  {
    TokensFrom(line, 0)
  }

  /** The token that covers column `x`, if any. */
  function FindToken(ts: seq<Token>, x: int): (r: Option<Token>)
    ensures r.Some? ==> r.value in ts && r.value.start <= x < r.value.end
    ensures r.None? ==> forall k :: 0 <= k < |ts| ==> !(ts[k].start <= x < ts[k].end)
  {
    if |ts| == 0 then None
    else if ts[0].start <= x < ts[0].end then Some(ts[0])
    else FindToken(ts[1..], x)
  }

  /** `numbers[(x, y)]`: the number that covers a cell, or None for the
      KeyError. */
  function Lookup(g: seq<string>, x: int, y: int): Option<Number>
  {
    if 0 <= y < |g| then
      match FindToken(Tokens(g[y]), x)
      case None => None
      case Some(t) => Some(Number(y, t.start, t.end, t.value))
    else None
  }

  /** `n` is one of the numbers of the schematic. */
  predicate IsNumber(g: seq<string>, n: Number)
  {
    0 <= n.row < |g| && Token(n.start, n.end, n.value) in Tokens(g[n.row])
  }

  /** The outer loop steps over a character that is no digit. */
  lemma TokensFromSkip(line: string, i: nat)
    requires i == 0 || i > |line| || !Decimal.IsDigit(line[i - 1])
    requires i < |line| && !Decimal.IsDigit(line[i])
    ensures TokensFrom(line, i) == TokensFrom(line, i + 1)
  {
  }

  /** The outer loop keeps the run of digits that starts at `i`. */
  lemma TokensFromRun(line: string, i: nat)
    requires i == 0 || i > |line| || !Decimal.IsDigit(line[i - 1])
    requires i < |line| && Decimal.IsDigit(line[i])
    ensures var e := RunEnd(line, i);
            TokensFrom(line, i) == [Token(i, e, RunValue(line, i, e))] + TokensFrom(line, e + 1)
  {
  }

  /** Every token from `i` on is a maximal run of digits. */
  lemma {:induction false} TokensFromRuns(line: string, i: nat, k: nat)
    requires i == 0 || i > |line| || !Decimal.IsDigit(line[i - 1])
    requires k < |TokensFrom(line, i)|
    ensures MaximalRun(line, TokensFrom(line, i)[k])
    decreases |line| + 1 - i
  {
    if !Decimal.IsDigit(line[i]) {
      TokensFromSkip(line, i);
      TokensFromRuns(line, i + 1, k);
    } else {
      var e := RunEnd(line, i);
      var rest := TokensFrom(line, e + 1);
      TokensFromRun(line, i);
      if k > 0 {
        TokensFromRuns(line, e + 1, k - 1);
      }
    }
  }

  /** Tokens from `i` on start at `i` or later. */
  lemma {:induction false} TokensFromAfter(line: string, i: nat, k: nat)
    requires i == 0 || i > |line| || !Decimal.IsDigit(line[i - 1])
    requires k < |TokensFrom(line, i)|
    ensures i <= TokensFrom(line, i)[k].start
    decreases |line| + 1 - i
  {
    if !Decimal.IsDigit(line[i]) {
      TokensFromSkip(line, i);
      TokensFromAfter(line, i + 1, k);
    } else if k > 0 {
      var e := RunEnd(line, i);
      var rest := TokensFrom(line, e + 1);
      TokensFromRun(line, i);
      TokensFromAfter(line, e + 1, k - 1);
    }
  }

  /** A token from `i` on ends before every later one starts. */
  lemma {:induction false} TokensFromOrdered(line: string, i: nat, k: nat, l: nat)
    requires i == 0 || i > |line| || !Decimal.IsDigit(line[i - 1])
    requires k < l < |TokensFrom(line, i)|
    ensures TokensFrom(line, i)[k].end < TokensFrom(line, i)[l].start
    decreases |line| + 1 - i
  {
    if !Decimal.IsDigit(line[i]) {
      TokensFromSkip(line, i);
      TokensFromOrdered(line, i + 1, k, l);
    } else {
      var e := RunEnd(line, i);
      var rest := TokensFrom(line, e + 1);
      TokensFromRun(line, i);
      if k == 0 {
        TokensFromAfter(line, e + 1, l - 1);
      } else {
        TokensFromOrdered(line, e + 1, k - 1, l - 1);
      }
    }
  }

  /** The tokens of a line come left to right without overlapping. */
  lemma TokensOrdered(line: string)
    ensures Ordered(Tokens(line))
  {
    forall k, l | 0 <= k < l < |Tokens(line)|
      ensures Tokens(line)[k].end < Tokens(line)[l].start
    {
      TokensFromOrdered(line, 0, k, l);
    }
  }

  /** Every token of a line is a maximal run of digits. */
  lemma TokensAreRuns(line: string, k: nat)
    requires k < |Tokens(line)|
    ensures MaximalRun(line, Tokens(line)[k])
  {
    TokensFromRuns(line, 0, k);
  }

  /** Every digit of a line lies in a token: together with TokensAreRuns,
      the tokens are exactly the maximal runs of digits. */
  lemma {:induction false} TokensCoverDigits(line: string, i: nat, j: nat) returns (k: nat)
    requires i == 0 || i > |line| || !Decimal.IsDigit(line[i - 1])
    requires i <= j < |line| && Decimal.IsDigit(line[j])
    ensures k < |TokensFrom(line, i)|
    ensures TokensFrom(line, i)[k].start <= j < TokensFrom(line, i)[k].end
    decreases |line| + 1 - i
  {
    if !Decimal.IsDigit(line[i]) {
      TokensFromSkip(line, i);
      k := TokensCoverDigits(line, i + 1, j);
    } else {
      var e := RunEnd(line, i);
      assert e < j || j < e;
      var rest := TokensFrom(line, e + 1);
      TokensFromRun(line, i);
      if j < e {
        k := 0;
      } else {
        var k' := TokensCoverDigits(line, e + 1, j);
        k := k' + 1;
        assert TokensFrom(line, i)[k] == rest[k'];
      }
    }
  }

  /** A token of one line, seen as a number of the schematic. */
  lemma TokenIsNumber(g: seq<string>, y: nat, k: nat)
    requires y < |g| && k < |Tokens(g[y])|
    ensures var t := Tokens(g[y])[k]; IsNumber(g, Number(y, t.start, t.end, t.value))
  {
  }

  /** A number spans at least one column. */
  lemma NumberWide(g: seq<string>, n: Number)
    requires IsNumber(g, n)
    ensures n.start < n.end
  {
    var ts := Tokens(g[n.row]);
    var l :| 0 <= l < |ts| && ts[l] == Token(n.start, n.end, n.value);
    TokensAreRuns(g[n.row], l);
  }

  /** Every cell of a number maps to that number, and to no other: the
      dictionary keys of one row never overlap. */
  lemma LookupIff(g: seq<string>, n: Number, x: int, y: int)
    ensures Lookup(g, x, y) == Some(n) <==> IsNumber(g, n) && n.row == y && n.start <= x < n.end
  {
    if IsNumber(g, n) && n.row == y && n.start <= x < n.end {
      var ts := Tokens(g[y]);
      var t := Token(n.start, n.end, n.value);
      var r := FindToken(ts, x);
      var l :| 0 <= l < |ts| && ts[l] == t;
      var m :| 0 <= m < |ts| && ts[m] == r.value;
      TokensOrdered(g[y]);
      assert l == m;
    }
  }

  /** The nine cells around a symbol in the order of
      `itertools.product([-1,0,1], [-1,0,1])`, as (dx, dy). */
  const Offsets: seq<(int, int)> :=
    [(-1, -1), (-1, 0), (-1, 1), (0, -1), (0, 0), (0, 1), (1, -1), (1, 0), (1, 1)]

  /** `n` covers one of the nine cells around column `i` of row `j`. */
  predicate Near(n: Number, i: int, j: int)
  {
    n.row - 1 <= j <= n.row + 1 && n.start - 1 <= i <= n.end
  }

  /** The product of the values of some numbers. */
  function Product(ns: seq<Number>): (p: nat)
    ensures (forall k :: 0 <= k < |ns| ==> ns[k].value > 0) ==> p > 0
  {
    if |ns| == 0 then 1 else ns[0].value * Product(ns[1..])
  }

  predicate Distinct(ns: seq<Number>)
  {
    forall k, l :: 0 <= k < l < |ns| ==> ns[k] != ns[l]
  }

  /** `numbers[(i + dx, j + dy)]` for the nine offsets, in order. */
  function Around(g: seq<string>, i: int, j: int): (cs: seq<Option<Number>>)
    ensures |cs| == |Offsets|
  {
    seq(|Offsets|, k requires 0 <= k < |Offsets| => Lookup(g, i + Offsets[k].0, j + Offsets[k].1))
  }

  /** The loop over the looked-up cells from `k` on: each number met for the
      first time joins `seen` and multiplies `ratio`. */
  function Visit(cs: seq<Option<Number>>, k: nat, seen: seq<Number>, ratio: int): (r: (seq<Number>, int))
    requires k <= |cs|
    ensures seen <= r.0
    decreases |cs| - k
  {
    if k == |cs| then (seen, ratio)
    else
      match cs[k]
      case None => Visit(cs, k + 1, seen, ratio)
      case Some(n) =>
        if n in seen then Visit(cs, k + 1, seen, ratio)
        else Visit(cs, k + 1, seen + [n], ratio * n.value)
  }

  /** The distinct numbers around a cell, in the order they are met. */
  function Seen(g: seq<string>, i: int, j: int): seq<Number>
  {
    Visit(Around(g, i, j), 0, [], 1).0
  }

  /** The product the loop leaves in `ratio` for a cell. */
  function Ratio(g: seq<string>, i: int, j: int): int
  {
    Visit(Around(g, i, j), 0, [], 1).1
  }

  /** The loop keeps `ratio` the product of `seen`, and `seen` free of
      repeats. */
  lemma {:induction false} VisitProduct(cs: seq<Option<Number>>, k: nat, seen: seq<Number>, ratio: int)
    requires k <= |cs|
    requires ratio == Product(seen) && Distinct(seen)
    ensures var r := Visit(cs, k, seen, ratio); r.1 == Product(r.0) && Distinct(r.0)
    decreases |cs| - k
  {
    if k < |cs| {
      match cs[k]
      case None => VisitProduct(cs, k + 1, seen, ratio);
      case Some(n) =>
        if n in seen {
          VisitProduct(cs, k + 1, seen, ratio);
        } else {
          ProductAppend(seen, n);
          VisitProduct(cs, k + 1, seen + [n], ratio * n.value);
        }
    }
  }

  lemma {:induction false} ProductAppend(ns: seq<Number>, n: Number)
    ensures Product(ns + [n]) == Product(ns) * n.value
  {
    if |ns| > 0 {
      assert (ns + [n])[1..] == ns[1..] + [n];
      ProductAppend(ns[1..], n);
    }
  }

  /** A number ends up in `seen` iff it was there already or covers one of
      the cells still to visit. */
  lemma {:induction false} VisitMembers(cs: seq<Option<Number>>, k: nat, seen: seq<Number>, ratio: int, n: Number)
    requires k <= |cs|
    ensures n in Visit(cs, k, seen, ratio).0 <==> n in seen || exists m :: k <= m < |cs| && cs[m] == Some(n)
    decreases |cs| - k
  {
    if k < |cs| {
      match cs[k]
      case None => VisitMembers(cs, k + 1, seen, ratio, n);
      case Some(n') =>
        if n' in seen {
          VisitMembers(cs, k + 1, seen, ratio, n);
        } else {
          VisitMembers(cs, k + 1, seen + [n'], ratio * n'.value, n);
        }
    }
  }

  /** The ratio of a cell is the product of the distinct numbers around it,
      each taken once. */
  lemma RatioIsProduct(g: seq<string>, i: int, j: int)
    ensures Ratio(g, i, j) == Product(Seen(g, i, j))
    ensures Distinct(Seen(g, i, j))
  {
    VisitProduct(Around(g, i, j), 0, [], 1);
  }

  /** A gear's ratio is the product of its two numbers. */
  lemma GearRatioIsPair(g: seq<string>, i: int, j: int)
    requires |Seen(g, i, j)| == 2
    ensures Seen(g, i, j)[0] != Seen(g, i, j)[1]
    ensures Ratio(g, i, j) == Seen(g, i, j)[0].value * Seen(g, i, j)[1].value
  {
    RatioIsProduct(g, i, j);
    var s := Seen(g, i, j);
    assert s[1..][1..] == [];
    assert Product(s[1..]) == s[1].value;
  }

  /** Each offset moves at most one column and one row. */
  lemma OffsetsSmall(m: nat)
    requires m < |Offsets|
    ensures -1 <= Offsets[m].0 <= 1 && -1 <= Offsets[m].1 <= 1
  {
  }

  /** A number met around a cell comes near it. */
  lemma AroundIsNear(g: seq<string>, i: int, j: int, n: Number, m: nat)
    requires m < |Offsets| && Around(g, i, j)[m] == Some(n)
    ensures IsNumber(g, n) && Near(n, i, j)
  {
    OffsetsSmall(m);
    LookupIff(g, n, i + Offsets[m].0, j + Offsets[m].1);
  }

  /** A number that comes near a cell is met around it, at the offset that
      points into it. */
  lemma NearIsAround(g: seq<string>, i: int, j: int, n: Number) returns (m: nat)
    requires IsNumber(g, n) && Near(n, i, j)
    ensures m < |Offsets| && Around(g, i, j)[m] == Some(n)
  {
    var dx := if i < n.start then 1 else if i == n.end then -1 else 0;
    var dy := n.row - j;
    m := 3 * (dx + 1) + (dy + 1);
    NumberWide(g, n);
    assert Offsets[m] == (dx, dy);
    LookupIff(g, n, i + dx, j + dy);
  }

  /** The numbers around a cell are exactly those of the schematic that
      come within one column and one row of it. */
  lemma SeenIsNear(g: seq<string>, i: int, j: int, n: Number)
    ensures n in Seen(g, i, j) <==> IsNumber(g, n) && Near(n, i, j)
  {
    var cs := Around(g, i, j);
    VisitMembers(cs, 0, [], 1, n);
    if n in Seen(g, i, j) {
      var m :| 0 <= m < |cs| && cs[m] == Some(n);
      AroundIsNear(g, i, j, n, m);
    }
    if IsNumber(g, n) && Near(n, i, j) {
      var m := NearIsAround(g, i, j, n);
    }
  }

  /** Any character other than '.' and a digit. */
  predicate IsSymbol(c: char)
  {
    c != '.' && !Decimal.IsDigit(c)
  }

  /** The symbol cells from column `x` of row `y` on, row by row, as
      (column, row). */
  function SymbolsFrom(g: seq<string>, x: nat, y: nat): (s: seq<(nat, nat)>)
    requires y <= |g|
    ensures forall k :: 0 <= k < |s| ==> s[k].1 < |g| && s[k].0 < |g[s[k].1]| && IsSymbol(g[s[k].1][s[k].0])
    ensures forall k :: 0 <= k < |s| ==> y < s[k].1 || (y == s[k].1 && x <= s[k].0)
    decreases |g| - y, if y < |g| then |g[y]| - x else 0
  {
    if y == |g| then []
    else if x >= |g[y]| then SymbolsFrom(g, 0, y + 1)
    else if IsSymbol(g[y][x]) then [(x, y)] + SymbolsFrom(g, x + 1, y)
    else SymbolsFrom(g, x + 1, y)
  }

  /** The symbol cells of the schematic in reading order. */
  function Symbols(g: seq<string>): seq<(nat, nat)>
  {
    SymbolsFrom(g, 0, 0)
  }

  /** Every symbol cell at or after the scan position is met. */
  lemma {:induction false} SymbolsFromComplete(g: seq<string>, x: nat, y: nat, i: nat, j: nat)
    requires y <= j < |g| && i < |g[j]| && IsSymbol(g[j][i])
    requires y < j || x <= i
    ensures (i, j) in SymbolsFrom(g, x, y)
    decreases |g| - y, if y < |g| then |g[y]| - x else 0
  {
    if x >= |g[y]| {
      SymbolsFromComplete(g, 0, y + 1, i, j);
    } else if (x, y) != (i, j) {
      SymbolsFromComplete(g, x + 1, y, i, j);
    }
  }

  /** The scan meets exactly the cells that hold a symbol. */
  lemma SymbolsExact(g: seq<string>, i: nat, j: nat)
    ensures (i, j) in Symbols(g) <==> j < |g| && i < |g[j]| && IsSymbol(g[j][i])
  {
    if j < |g| && i < |g[j]| && IsSymbol(g[j][i]) {
      SymbolsFromComplete(g, 0, 0, i, j);
    }
  }

  /** `number.included` after the scan: the number is around some symbol. */
  predicate Included(g: seq<string>, n: Number)
  {
    exists s :: s in Symbols(g) && n in Seen(g, s.0, s.1)
  }

  /** A number is a part number iff it comes next to a symbol. */
  lemma IncludedIff(g: seq<string>, n: Number)
    ensures Included(g, n) <==> IsNumber(g, n) && exists s :: s in Symbols(g) && Near(n, s.0, s.1)
  {
    if Included(g, n) {
      var s :| s in Symbols(g) && n in Seen(g, s.0, s.1);
      SeenIsNear(g, s.0, s.1, n);
    }
    if IsNumber(g, n) && exists s :: s in Symbols(g) && Near(n, s.0, s.1) {
      var s :| s in Symbols(g) && Near(n, s.0, s.1);
      SeenIsNear(g, s.0, s.1, n);
    }
  }

  /** The numbers of rows `y` on, row by row and left to right. */
  function NumbersFrom(g: seq<string>, y: nat): (ns: seq<Number>)
    requires y <= |g|
    ensures forall k :: 0 <= k < |ns| ==> IsNumber(g, ns[k]) && y <= ns[k].row
    decreases |g| - y
  {
    if y == |g| then []
    else
      RowNumbers(g, y) + NumbersFrom(g, y + 1)
  }

  /** `number_set`: every number of the schematic, once. */
  function AllNumbers(g: seq<string>): seq<Number>
  {
    NumbersFrom(g, 0)
  }

  /** The numbers of one row, left to right. */
  function RowNumbers(g: seq<string>, y: nat): (ns: seq<Number>)
    requires y < |g|
    ensures |ns| == |Tokens(g[y])|
    ensures forall k :: 0 <= k < |ns| ==> ns[k].row == y
  {
    var ts := Tokens(g[y]);
    seq(|ts|, k requires 0 <= k < |ts| => Number(y, ts[k].start, ts[k].end, ts[k].value))
  }

  /** A row's numbers are its tokens, each once. */
  lemma RowNumbersExact(g: seq<string>, y: nat, n: Number)
    requires y < |g|
    ensures Distinct(RowNumbers(g, y))
    ensures n in RowNumbers(g, y) <==> IsNumber(g, n) && n.row == y
  {
    var ts := Tokens(g[y]);
    var row := RowNumbers(g, y);
    TokensOrdered(g[y]);
    forall k, l | 0 <= k < l < |row| ensures row[k] != row[l] {
      assert ts[k].end < ts[l].start;
      TokensAreRuns(g[y], k);
    }
    if IsNumber(g, n) && n.row == y {
      var l :| 0 <= l < |ts| && ts[l] == Token(n.start, n.end, n.value);
      assert row[l] == n;
    }
  }

  /** Every number of the schematic from row `y` on is in the list, and
      only once. */
  lemma {:induction false} NumbersFromExact(g: seq<string>, y: nat, n: Number)
    requires y <= |g|
    ensures Distinct(NumbersFrom(g, y))
    ensures n in NumbersFrom(g, y) <==> IsNumber(g, n) && y <= n.row
    decreases |g| - y
  {
    if y < |g| {
      NumbersFromExact(g, y + 1, n);
      RowNumbersExact(g, y, n);
      var row := RowNumbers(g, y);
      var rest := NumbersFrom(g, y + 1);
      assert NumbersFrom(g, y) == row + rest;
      assert forall l :: 0 <= l < |rest| ==> y < rest[l].row;
      DistinctConcat(row, rest);
      assert n in row + rest <==> n in row || n in rest;
    }
  }

  /** Two lists without repeats and without common numbers join into one
      without repeats. */
  lemma DistinctConcat(a: seq<Number>, b: seq<Number>)
    requires Distinct(a) && Distinct(b)
    requires forall k, l :: 0 <= k < |a| && 0 <= l < |b| ==> a[k].row < b[l].row
    ensures Distinct(a + b)
  {
  }

  /** The sum of the values of the included numbers in a list. */
  function SumIncluded(g: seq<string>, ns: seq<Number>): nat
  {
    if |ns| == 0 then 0
    else (if Included(g, ns[0]) then ns[0].value else 0) + SumIncluded(g, ns[1..])
  }

  /** The sum of the ratios of the gears among some symbol cells. */
  function GearSum(g: seq<string>, cells: seq<(nat, nat)>): int
  {
    if |cells| == 0 then 0
    else
      var c := cells[0];
      (if |Seen(g, c.0, c.1)| == 2 then Ratio(g, c.0, c.1) else 0) + GearSum(g, cells[1..])
  }

  /** The sum of the part numbers, each counted once. */
  function Total(g: seq<string>): nat
  {
    SumIncluded(g, AllNumbers(g))
  }

  /** The values of some numbers added up. */
  function Sum(ns: seq<Number>): nat
  {
    if |ns| == 0 then 0 else ns[0].value + Sum(ns[1..])
  }

  /** The included numbers of a list, in order. */
  function Parts(g: seq<string>, ns: seq<Number>): (ps: seq<Number>)
    ensures forall n :: n in ps <==> n in ns && Included(g, n)
    ensures Distinct(ns) ==> Distinct(ps)
  {
    if |ns| == 0 then []
    else if Included(g, ns[0]) then [ns[0]] + Parts(g, ns[1..])
    else Parts(g, ns[1..])
  }

  lemma {:induction false} SumIncludedIsParts(g: seq<string>, ns: seq<Number>)
    ensures SumIncluded(g, ns) == Sum(Parts(g, ns))
  {
    if |ns| > 0 {
      SumIncludedIsParts(g, ns[1..]);
    }
  }

  /** The total adds up the values of a list that holds every part number
      of the schematic once and nothing else. */
  lemma TotalIsParts(g: seq<string>, n: Number)
    ensures Total(g) == Sum(Parts(g, AllNumbers(g)))
    ensures Distinct(Parts(g, AllNumbers(g)))
    ensures n in Parts(g, AllNumbers(g)) <==> IsNumber(g, n) && Included(g, n)
  {
    SumIncludedIsParts(g, AllNumbers(g));
    NumbersFromExact(g, 0, n);
  }

  /** The products of the two numbers of each gear among some cells. */
  function PairSum(g: seq<string>, cells: seq<(nat, nat)>): int
  {
    if |cells| == 0 then 0
    else
      var s := Seen(g, cells[0].0, cells[0].1);
      (if |s| == 2 then s[0].value * s[1].value else 0) + PairSum(g, cells[1..])
  }

  /** Adding up the ratios of the gears adds up the products of their two
      distinct numbers. */
  lemma {:induction false} GearSumIsPairs(g: seq<string>, cells: seq<(nat, nat)>)
    ensures GearSum(g, cells) == PairSum(g, cells)
  {
    if |cells| > 0 {
      if |Seen(g, cells[0].0, cells[0].1)| == 2 {
        GearRatioIsPair(g, cells[0].0, cells[0].1);
      }
      GearSumIsPairs(g, cells[1..]);
    }
  }

  /** The part of part 1 as written: the sum of the part numbers and the
      product around the last symbol scanned. With no symbol `ratio` is
      never bound, and `return` raises UnboundLocalError. */
  function Part1AsWritten(g: seq<string>): (r: Result<(nat, int), string>)
    ensures r.Failure? <==> |Symbols(g)| == 0
  {
    var s := Symbols(g);
    if |s| == 0 then Failure("UnboundLocalError")
    else Success((Total(g), Ratio(g, s[|s| - 1].0, s[|s| - 1].1)))
  }

  /** Part 1 as the solution means it: the sum of the part numbers and the
      sum of the gear ratios. */
  function Part1(g: seq<string>): (r: (nat, int))
  {
    (Total(g), GearSum(g, Symbols(g)))
  }

  /** Part 1 never fails, and its second half adds up, over the gears of
      the schematic, the products of their two numbers. */
  lemma Part1Gears(g: seq<string>)
    ensures Part1(g).0 == Total(g)
    ensures Part1(g).1 == PairSum(g, Symbols(g))
  {
    GearSumIsPairs(g, Symbols(g));
  }

  /** The loop leaves `seen` and `ratio` alone when no cell holds a
      number. */
  lemma {:induction false} VisitNothing(cs: seq<Option<Number>>, k: nat, seen: seq<Number>, ratio: int)
    requires k <= |cs| && forall m :: k <= m < |cs| ==> cs[m].None?
    ensures Visit(cs, k, seen, ratio) == (seen, ratio)
    decreases |cs| - k
  {
    if k < |cs| {
      VisitNothing(cs, k + 1, seen, ratio);
    }
  }

  /** A lone symbol with no number is no gear, yet the source returns the
      empty product 1 that its loop left in `ratio`. */
  lemma LoneSymbolAsWritten()
    ensures Part1AsWritten(["#"]) == Success((0, 1))
    ensures Part1(["#"]) == (0, 0)
  {
    var g := ["#"];
    assert Tokens(g[0]) == [];
    assert AllNumbers(g) == [];
    assert Symbols(g) == [(0, 0)];
    var cs := Around(g, 0, 0);
    assert forall m :: 0 <= m < |cs| ==> cs[m].None?;
    VisitNothing(cs, 0, [], 1);
    assert GearSum(g, [(0, 0)]) == 0;
  }

  /** A schematic without symbols has no gears, but the source raises. */
  lemma NoSymbolAsWritten()
    ensures Part1AsWritten(["1"]).Failure?
    ensures Part1(["1"]).1 == 0
  {
  }
}

=== FILE: guard_walk.dfy ===
/** The patrolling guard of 2024/Day06. The guard walks straight ahead,
    turns right in front of a '#' or the test obstacle, and either walks off
    the board or comes back to a position and heading it has already turned
    into, which is a loop. Part 2 counts the cells on the guard's path where
    one more obstacle makes the guard loop. */
module GuardWalk {
  import opened AocUtil
  import Sorting

  /** An entry of `visited`. The walk records (position, heading) pairs;
      `reset` as written puts the start position and heading in as two loose
      entries instead of one pair. */
  datatype Entry = Pair(at: Point, heading: Cardinal) | Loose(p: Point) | LooseHeading(h: Cardinal)

  /** `Board`: the grid with its size, the start, the guard's position and
      heading, what it has recorded, and the test obstacle. */
  datatype Board = Board(grid: seq<seq<char>>, width: int, height: int,
                         start: Point, startDir: Cardinal,
                         pos: Point, dir: Cardinal,
                         visited: set<Entry>, spaces: set<Point>,
                         obstacle: Point)

  /** The result of `walk`: the board afterwards and whether the guard is
      still walking. */
  datatype Outcome = Outcome(after: Board, walking: bool)

  /** Every row of the grid is `width` long and there are `height` rows. */
  predicate Shaped(b: Board)
  {
    |b.grid| == b.height && forall y :: 0 <= y < |b.grid| ==> |b.grid[y]| == b.width
  }

  /** `in_bounds`. */
  function InBounds(b: Board, p: Point): (r: bool)
    ensures r <==> 0 <= p.x < b.width && 0 <= p.y < b.height
  {
    !(p.x < 0 || p.x >= b.width || p.y < 0 || p.y >= b.height)
  }

  /** The test obstacle that `reset` puts out of the way. */
  const NoObstacle := Point(-1, -1)

  /** `reset` as evidently intended: the guard back at the start, with the
      start recorded as one (position, heading) pair and the start cell as
      the one visited space. */
  function Reset(b: Board): (r: Board)
    ensures r.pos == b.start && r.dir == b.startDir && r.obstacle == NoObstacle
    ensures r.grid == b.grid && r.width == b.width && r.height == b.height
    ensures r.start == b.start && r.startDir == b.startDir
    ensures r.visited == {Pair(b.start, b.startDir)} && r.spaces == {b.start}
  {
    b.(pos := b.start, dir := b.startDir, visited := {Pair(b.start, b.startDir)},
       spaces := {b.start}, obstacle := NoObstacle)
  }

  /** `reset` as written: `set((pos, direction))` iterates over the tuple and
      makes a set of its two parts. */
  function ResetAsWritten(b: Board): (r: Board)
    ensures r.pos == b.start && r.dir == b.startDir && r.obstacle == NoObstacle
    ensures r.grid == b.grid && r.width == b.width && r.height == b.height
    ensures r.start == b.start && r.startDir == b.startDir && r.spaces == {b.start}
    ensures r.visited != Reset(b).visited
  {
    b.(pos := b.start, dir := b.startDir, visited := {Loose(b.start), LooseHeading(b.startDir)},
       spaces := {b.start}, obstacle := NoObstacle)
  }

  /** `Board(grid, pos, direction)`: the board's size comes from the grid,
      the guard starts at `pos`, and the constructor runs `reset` as
      written. */
  function New(grid: seq<seq<char>>, pos: Point, dir: Cardinal): (b: Board)
    requires |grid| > 0
    ensures b.width == |grid[0]| && b.height == |grid|
    ensures b.grid == grid && b.start == pos && b.startDir == dir
    ensures b == ResetAsWritten(b)
  {
    ResetAsWritten(Board(grid, |grid[0]|, |grid|, pos, dir, pos, dir, {}, {}, NoObstacle))
  }

  /** The reset a run uses: as written, or as evidently intended. */
  function Restart(b: Board, asWritten: bool): (r: Board)
    ensures r.pos == b.start && r.dir == b.startDir && r.obstacle == NoObstacle
    ensures Same(b.(obstacle := NoObstacle), r) && r.spaces == {b.start}
    ensures asWritten <==> Pair(b.start, b.startDir) !in r.visited
  {
    if asWritten then ResetAsWritten(b) else Reset(b)
  }

  /** The cell `p` stops the guard: a '#' or the test obstacle. */
  predicate Blocked(b: Board, p: Point)
    requires Shaped(b) && InBounds(b, p)
  {
    b.grid[p.y][p.x] == '#' || p == b.obstacle
  }

  /** How many steps the guard can still take before the edge. */
  function Room(b: Board): int
  {
    match b.dir
    case North => b.pos.y
    case East => b.width - 1 - b.pos.x
    case South => b.height - 1 - b.pos.y
    case West => b.pos.x
  }

  /** One straight step onto `next`, recorded. */
  function Advance(b: Board, next: Point): Board
  {
    b.(pos := next, visited := b.visited + {Pair(next, b.dir)}, spaces := b.spaces + {next})
  }

  /** `walk`: straight on until the guard leaves the board or meets an
      obstacle; at an obstacle it turns right where it stands, and stops
      walking when it has turned into that position and heading before. */
  function Walk(b: Board): (r: Outcome)
    requires Shaped(b) && InBounds(b, b.pos)
    ensures Same(b, r.after)
    ensures b.visited <= r.after.visited && b.spaces <= r.after.spaces
    ensures !InBounds(b, r.after.pos) ==> !r.walking && r.after.dir == b.dir
    ensures InBounds(b, r.after.pos) ==>
              r.after.dir == Turn(b.dir, Right) && InBounds(b, Move(r.after.pos, b.dir))
              && Blocked(b, Move(r.after.pos, b.dir)) && Pair(r.after.pos, r.after.dir) in r.after.visited
    ensures r.walking ==> InBounds(b, r.after.pos) && Pair(r.after.pos, r.after.dir) !in b.visited
    decreases Room(b)
  {
    var next := Move(b.pos, b.dir);
    if !InBounds(b, next) then Outcome(b.(pos := next), false)
    else if Blocked(b, next) then
      var turned := Turn(b.dir, Right);
      if Pair(b.pos, turned) in b.visited then Outcome(b.(dir := turned), false)
      else Outcome(b.(dir := turned, visited := b.visited + {Pair(b.pos, turned)}), true)
    else Walk(Advance(b, next))
  }

  /** The walk never changes the grid, the start or the test obstacle. */
  predicate Same(b: Board, c: Board)
  {
    c.grid == b.grid && c.width == b.width && c.height == b.height
    && c.start == b.start && c.startDir == b.startDir && c.obstacle == b.obstacle
  }

  /** Stepping off the board ends the walk with the guard outside. */
  lemma OffBoard(b: Board)
    requires Shaped(b) && InBounds(b, b.pos) && !InBounds(b, Move(b.pos, b.dir))
    ensures Walk(b) == Outcome(b.(pos := Move(b.pos, b.dir)), false)
  {
  }

  /** In front of an obstacle the guard turns right without moving. */
  lemma TurnInPlace(b: Board)
    requires Shaped(b) && InBounds(b, b.pos) && InBounds(b, Move(b.pos, b.dir)) && Blocked(b, Move(b.pos, b.dir))
    ensures Walk(b).after.pos == b.pos && Walk(b).after.dir == Turn(b.dir, Right)
    ensures Walk(b).walking <==> Pair(b.pos, Turn(b.dir, Right)) !in b.visited
  {
  }

  /** Every free cell the guard walks onto is recorded, with its heading. */
  lemma {:induction false} WalkRecords(b: Board, k: nat)
    requires Shaped(b) && InBounds(b, b.pos)
    requires forall i :: 1 <= i <= k ==>
               InBounds(b, Shift(b.pos, b.dir, i)) && !Blocked(b, Shift(b.pos, b.dir, i))
    ensures forall i :: 1 <= i <= k ==>
              Shift(b.pos, b.dir, i) in Walk(b).after.spaces
              && Pair(Shift(b.pos, b.dir, i), b.dir) in Walk(b).after.visited
    decreases k
  {
    if k > 0 {
      var next := Move(b.pos, b.dir);
      ShiftOne(b.pos, b.dir);
      var c := Advance(b, next);
      forall i | 1 <= i <= k - 1
        ensures Shift(c.pos, c.dir, i) == Shift(b.pos, b.dir, i + 1)
      {
        ShiftMove(b.pos, b.dir, i);
      }
      WalkRecords(c, k - 1);
      assert Walk(b) == Walk(c);
      forall i | 1 <= i <= k
        ensures Shift(b.pos, b.dir, i) in Walk(b).after.spaces
                && Pair(Shift(b.pos, b.dir, i), b.dir) in Walk(b).after.visited
      {
        if i > 1 {
          assert Shift(b.pos, b.dir, i) == Shift(c.pos, c.dir, i - 1);
        }
      }
    }
  }

  /** What the walk records lies on the board. */
  predicate Recorded(b: Board)
  {
    (forall p :: p in b.spaces ==> InBounds(b, p))
    && (forall e :: e in b.visited && e.Pair? ==> InBounds(b, e.at))
  }

  /** A walk keeps the record on the board. */
  lemma {:induction false} WalkRecorded(b: Board)
    requires Shaped(b) && InBounds(b, b.pos) && Recorded(b)
    ensures Recorded(Walk(b).after)
    decreases Room(b)
  {
    var next := Move(b.pos, b.dir);
    if InBounds(b, next) && !Blocked(b, next) {
      WalkRecorded(Advance(b, next));
    }
  }

  const Headings: set<Cardinal> := {North, East, South, West}

  /** Every position and heading on the board. */
  function States(b: Board): set<Entry>
  {
    var cells := set x, y | 0 <= x < b.width && 0 <= y < b.height :: Point(x, y);
    set p, d | p in cells && d in Headings :: Pair(p, d)
  }

  lemma InStates(b: Board, p: Point, d: Cardinal)
    requires InBounds(b, p)
    ensures Pair(p, d) in States(b)
  {
    assert Point(p.x, p.y) == p;
    assert d in Headings;
  }

  /** The number of states the guard has not yet turned into. */
  function Unseen(b: Board): nat
  {
    |States(b) - b.visited|
  }

  /** A walk that goes on has turned into a state not seen before. */
  lemma UnseenShrinks(b: Board)
    requires Shaped(b) && InBounds(b, b.pos) && Walk(b).walking
    ensures Unseen(Walk(b).after) < Unseen(b)
  {
    var c := Walk(b).after;
    var e := Pair(c.pos, c.dir);
    InStates(b, c.pos, c.dir);
    assert States(c) == States(b);
    var before, after := States(b) - b.visited, States(b) - c.visited;
    assert after <= before - {e};
    Sorting.SubsetSize(after, before - {e});
  }

  /** `walk_off`: walk until the guard leaves the board or loops. Every walk
      that goes on turns into a state never seen before, and there are only
      so many, so the guard always stops. */
  function WalkOff(b: Board): (r: Board)
    requires Shaped(b) && InBounds(b, b.pos)
    ensures Same(b, r)
    ensures b.visited <= r.visited && b.spaces <= r.spaces
    ensures InBounds(b, r.pos) ==> Pair(r.pos, r.dir) in r.visited
    decreases Unseen(b)
  {
    var o := Walk(b);
    if o.walking then
      UnseenShrinks(b);
      WalkOff(o.after)
    else o.after
  }

  /** Walking off keeps the record on the board. */
  lemma {:induction false} WalkOffRecorded(b: Board)
    requires Shaped(b) && InBounds(b, b.pos) && Recorded(b)
    ensures Recorded(WalkOff(b))
    decreases Unseen(b)
  {
    var o := Walk(b);
    WalkRecorded(b);
    if o.walking {
      UnseenShrinks(b);
      WalkOffRecorded(o.after);
    }
  }

  /** `reset` forgets everything a walk did. */
  lemma ResetForgets(b: Board)
    requires Shaped(b) && InBounds(b, b.pos)
    ensures Reset(Walk(b).after) == Reset(b)
    ensures Reset(WalkOff(b)) == Reset(b)
  {
  }

  /** Resetting twice is resetting once. */
  lemma ResetIdempotent(b: Board)
    ensures Reset(Reset(b)) == Reset(b)
  {
  }

  /** After `reset` only the grid stops the guard: the test obstacle lies
      outside every board. */
  lemma ResetClearsObstacle(b: Board, p: Point)
    requires Shaped(b) && InBounds(b, p)
    ensures Shaped(Reset(b)) && (Blocked(Reset(b), p) <==> b.grid[p.y][p.x] == '#')
  {
  }

  /** `set((pos, direction))` does not hold the start state: it holds the
      start position and the start heading, two entries. */
  lemma ResetAsWrittenLoose(b: Board)
    ensures Pair(b.start, b.startDir) !in ResetAsWritten(b).visited
    ensures |ResetAsWritten(b).visited| == 2
  {
    assert Loose(b.start) != LooseHeading(b.startDir);
  }

  /** The reset board records the start state, once. */
  lemma ResetRecordsStart(b: Board)
    ensures Pair(b.start, b.startDir) in Reset(b).visited
    ensures |Reset(b).visited| == 1
  {
  }

  /** Part 1 with the evidently intended `reset`: the number of states the
      guard has been in when it walks off. */
  function Part1(grid: seq<seq<char>>, pos: Point, dir: Cardinal): (n: nat)
    requires |grid| > 0 && forall y :: 0 <= y < |grid| ==> |grid[y]| == |grid[0]|
    requires 0 <= pos.x < |grid[0]| && 0 <= pos.y < |grid|
    ensures n >= 1
  {
    var b := Reset(New(grid, pos, dir));
    assert Shaped(b);
    |WalkOff(b).visited|
  }

  /** Part 1 as computed, with `reset` as written: the size of `visited`
      after walking off, which counts the two loose entries. */
  function Part1AsWritten(grid: seq<seq<char>>, pos: Point, dir: Cardinal): (n: nat)
    requires |grid| > 0 && forall y :: 0 <= y < |grid| ==> |grid[y]| == |grid[0]|
    requires 0 <= pos.x < |grid[0]| && 0 <= pos.y < |grid|
    ensures n >= 2
  {
    var b := New(grid, pos, dir);
    assert Shaped(b);
    assert Loose(pos) != LooseHeading(dir);
    assert {Loose(pos), LooseHeading(dir)} <= WalkOff(b).visited;
    Sorting.SubsetSize({Loose(pos), LooseHeading(dir)}, WalkOff(b).visited);
    |WalkOff(b).visited|
  }

  /** A guard alone on a one-cell board steps off at once: one cell and one
      state visited. Part 1 says 1; as written it says 2. */
  lemma OneCellExample(grid: seq<seq<char>>)
    requires grid == [['.']]
    ensures Part1(grid, Point(0, 0), North) == 1
    ensures Part1AsWritten(grid, Point(0, 0), North) == 2
  {
    var a := New(grid, Point(0, 0), North);
    OffBoard(a);
    var b := Reset(a);
    OffBoard(b);
    assert Loose(Point(0, 0)) != LooseHeading(North);
  }

  /** Whether the guard loops with the test obstacle at `p`: after
      `reset` and `walk_off` it is still on the board. */
  predicate Loops(b: Board, p: Point, asWritten: bool)
    requires Shaped(b) && InBounds(b, b.start)
  {
    InBounds(b, WalkOff(Restart(b, asWritten).(obstacle := p)).pos)
  }

  /** Part 2's `loop_points`: the cells of the unobstructed path, other than
      the start, where an obstacle makes the guard loop. */
  function LoopPoints(b: Board, asWritten: bool): (r: set<Point>)
    requires Shaped(b) && InBounds(b, b.start)
    ensures forall p :: p in r ==> p != b.start && Loops(b, p, asWritten)
  {
    set p | p in WalkOff(Restart(b, asWritten)).spaces && p != b.start && Loops(b, p, asWritten)
  }

  /** An obstacle off the path of a walk changes nothing but itself. */
  lemma {:induction false} WalkWithObstacle(b: Board, q: Point)
    requires Shaped(b) && InBounds(b, b.pos) && !InBounds(b, b.obstacle)
    requires q !in Walk(b).after.spaces
    ensures Walk(b.(obstacle := q)) == Walk(b).(after := Walk(b).after.(obstacle := q))
    decreases Room(b)
  {
    var next := Move(b.pos, b.dir);
    if InBounds(b, next) && !Blocked(b, next) {
      assert Advance(b.(obstacle := q), next) == Advance(b, next).(obstacle := q);
      WalkWithObstacle(Advance(b, next), q);
    }
  }

  /** The same for `walk_off`. */
  lemma {:induction false} WalkOffWithObstacle(b: Board, q: Point)
    requires Shaped(b) && InBounds(b, b.pos) && !InBounds(b, b.obstacle)
    requires q !in WalkOff(b).spaces
    ensures WalkOff(b.(obstacle := q)) == WalkOff(b).(obstacle := q)
    decreases Unseen(b)
  {
    var o := Walk(b);
    WalkWithObstacle(b, q);
    if o.walking {
      UnseenShrinks(b);
      assert o.after.(obstacle := q) == Walk(b.(obstacle := q)).after;
      WalkOffWithObstacle(o.after, q);
    }
  }

  /** When the unobstructed guard walks off the board, trying only the
      cells of its path loses no loop point: an obstacle anywhere else never
      makes it loop. This holds for either reset. */
  lemma LoopPointsComplete(b: Board, q: Point, asWritten: bool)
    requires Shaped(b) && InBounds(b, b.start)
    requires !InBounds(b, WalkOff(Restart(b, asWritten)).pos)
    ensures q in LoopPoints(b, asWritten) <==> q != b.start && Loops(b, q, asWritten)
  {
    if q !in WalkOff(Restart(b, asWritten)).spaces {
      WalkOffWithObstacle(Restart(b, asWritten), q);
    }
  }

  /** The number of loop points, under the given reset: fewer than the
      cells of the unobstructed path. */
  function CountLoopPoints(grid: seq<seq<char>>, pos: Point, dir: Cardinal, asWritten: bool): (n: nat)
    requires |grid| > 0 && forall y :: 0 <= y < |grid| ==> |grid[y]| == |grid[0]|
    requires 0 <= pos.x < |grid[0]| && 0 <= pos.y < |grid|
    ensures var b := Restart(New(grid, pos, dir), asWritten);
            Shaped(b) && n < |WalkOff(b).spaces|
  {
    var b := New(grid, pos, dir);
    assert Shaped(b);
    var path := WalkOff(Restart(b, asWritten)).spaces;
    assert LoopPoints(b, asWritten) <= path - {pos};
    Sorting.SubsetSize(LoopPoints(b, asWritten), path - {pos});
    |LoopPoints(b, asWritten)|
  }

  /** `problem(..., part2=True)` as computed: every board, the first one
      included, is set up by `reset` as written. */
  function Part2AsWritten(grid: seq<seq<char>>, pos: Point, dir: Cardinal): (n: nat)
    requires |grid| > 0 && forall y :: 0 <= y < |grid| ==> |grid[y]| == |grid[0]|
    requires 0 <= pos.x < |grid[0]| && 0 <= pos.y < |grid|
    ensures var b := New(grid, pos, dir);
            Shaped(b) && n < |WalkOff(b).spaces|
  {
    var b := New(grid, pos, dir);
    assert Restart(b, true) == b;
    CountLoopPoints(grid, pos, dir, true)
  }

  /** Part 2 with the evidently intended `reset`. */
  function Part2(grid: seq<seq<char>>, pos: Point, dir: Cardinal): (n: nat)
    requires |grid| > 0 && forall y :: 0 <= y < |grid| ==> |grid[y]| == |grid[0]|
    requires 0 <= pos.x < |grid[0]| && 0 <= pos.y < |grid|
    ensures var b := Reset(New(grid, pos, dir));
            Shaped(b) && n < |WalkOff(b).spaces|
  {
    CountLoopPoints(grid, pos, dir, false)
  }
}

=== FILE: intcode.dfy ===
/** The Intcode virtual machine of 2019/intcode.py: a fetch-decode-execute loop
    over a flat integer memory with three opcodes (ADD = 1, MUL = 2, HALT = 99).
    Every operand is an address; an instruction is always four cells wide.

    `tick` has four outcomes, because the code handles errors in two ways:
    an out-of-bounds `get`/`set` raises `OutOfBoundsException`, which `run`
    catches and turns into a halt; an unknown opcode, a program counter past the
    end, or a short operand slice raise ordinary Python errors that escape `run`. */
module Intcode {
  import opened Wrappers
  import PyOps

  /** The opcodes of the `Opcode` enum. */
  datatype Opcode = Add | Mul | Halt

  /** `Opcode(v)`: the enum lookup by value, which raises `ValueError` for any other value. */
  function DecodeOpcode(v: int): (r: Option<Opcode>)
    ensures r == Some(Add) <==> v == 1
    ensures r == Some(Mul) <==> v == 2
    ensures r == Some(Halt) <==> v == 99
  {
    if v == 1 then Some(Add)
    else if v == 2 then Some(Mul)
    else if v == 99 then Some(Halt)
    else None
  }

  /** The VM's state. The program counter only ever grows from 0, so it is a `nat`.
      There is no fault flag: a caught fault only sets `halt`. */
  datatype VM = VM(pc: nat, memory: seq<int>, halt: bool, tickCount: nat)

  /** `OutOfBoundsException`, the only `IntcodeException`; carries the address. */
  datatype Fault = OutOfBounds(address: int)

  /** The errors that are not `IntcodeException`s and so escape `run`. */
  datatype Crash =
    | PcPastEnd(pc: nat)           // `self.memory[self.pc]` raises IndexError
    | UnknownOpcode(value: int)    // `Opcode(...)` raises ValueError
    | ShortOperands(count: nat)    // `a, b, dst = ...` cannot unpack

  /** What one `tick` did. Each carries the VM as `tick` leaves it. */
  datatype Outcome =
    | Continue(vm: VM)
    | Halted(vm: VM)
    | Faulted(vm: VM, fault: Fault)
    | Crashed(vm: VM, crash: Crash)

  /** What `run` did: it returned with `halt` set, or an error escaped it. */
  datatype RunResult = Stopped(vm: VM) | Escaped(vm: VM, crash: Crash)

  /** `IntcodeVM(code)`. */
  function Init(code: seq<int>): (vm: VM)
    ensures vm.pc == 0 && vm.tickCount == 0 && !vm.halt && vm.memory == code
  {
    VM(0, code, false, 0)
  }

  /** `get(src)`: Python list indexing, where `-len <= src < 0` reads from the end,
      and any other out-of-range address raises `OutOfBoundsException`. */
  function Get(memory: seq<int>, src: int): (r: Result<int, Fault>)
    ensures 0 <= src < |memory| ==> r == Success(memory[src])
    ensures -|memory| <= src < 0 ==> r == Success(memory[|memory| + src])
    ensures src < -|memory| || src >= |memory| ==> r == Failure(OutOfBounds(src))
  {
    if PyOps.IndexOk(|memory|, src) then Success(memory[PyOps.Wrap(|memory|, src)])
    else Failure(OutOfBounds(src))
  }

  /** `set(dst, value)`: overwrites exactly one cell, with the same addressing
      as `get`; an out-of-range address raises and writes nothing. */
  function Set(memory: seq<int>, dst: int, value: int): (r: Result<seq<int>, Fault>)
    ensures r.Success? <==> -|memory| <= dst < |memory|
    ensures r.Failure? ==> r.error == OutOfBounds(dst)
    ensures r.Success? ==> |r.value| == |memory|
    ensures r.Success? ==> forall i :: 0 <= i < |memory| ==>
      r.value[i] == (if i == dst || i == |memory| + dst then value else memory[i])
  {
    if PyOps.IndexOk(|memory|, dst) then Success(memory[PyOps.Wrap(|memory|, dst) := value])
    else Failure(OutOfBounds(dst))
  }

  /** `get_params(count)`: the slice after the opcode cell, shortened at the end of memory. */
  function GetParams(vm: VM, count: nat): (r: seq<int>)
    ensures |r| <= count
    ensures vm.pc + 1 + count <= |vm.memory| ==> r == vm.memory[vm.pc + 1..vm.pc + 1 + count]
  {
    PyOps.Slice(vm.memory, vm.pc + 1, vm.pc + 1 + count)
  }

  /** The arithmetic an opcode applies. */
  function Apply(op: Opcode, x: int, y: int): int
  {
    if op == Mul then x * y else x + y
  }

  /** `tick()`: count the tick, decode the opcode at `pc`, execute it.
      ADD and MUL read both operands before writing, and only advance `pc`
      after the write succeeded. */
  function Tick(vm: VM): (r: Outcome)
    ensures r.vm.tickCount == vm.tickCount + 1
    ensures r.Continue? ==> r.vm.pc == vm.pc + 4 <= |vm.memory| && |r.vm.memory| == |vm.memory| && r.vm.halt == vm.halt
    ensures r.Halted? <==> vm.pc < |vm.memory| && vm.memory[vm.pc] == 99
    ensures r.Halted? ==> r.vm == vm.(halt := true, tickCount := vm.tickCount + 1)
    ensures r.Faulted? ==> r.vm == vm.(tickCount := vm.tickCount + 1)
    ensures r.Crashed? ==> r.vm == vm.(tickCount := vm.tickCount + 1)
    ensures r.Crashed? <==>
      || vm.pc >= |vm.memory|
      || DecodeOpcode(vm.memory[vm.pc]).None?
      || (vm.memory[vm.pc] in {1, 2} && vm.pc + 4 > |vm.memory|)
  {
    var counted := vm.(tickCount := vm.tickCount + 1);
    if vm.pc >= |vm.memory| then Crashed(counted, PcPastEnd(vm.pc))
    else
      match DecodeOpcode(vm.memory[vm.pc])
      case None => Crashed(counted, UnknownOpcode(vm.memory[vm.pc]))
      case Some(Halt) => Halted(counted.(halt := true))
      case Some(op) =>
        var params := GetParams(vm, 3);
        if |params| != 3 then Crashed(counted, ShortOperands(|params|))
        else
          match Get(vm.memory, params[0])
          case Failure(f) => Faulted(counted, f)
          case Success(x) =>
            match Get(vm.memory, params[1])
            case Failure(f) => Faulted(counted, f)
            case Success(y) =>
              match Set(vm.memory, params[2], Apply(op, x, y))
              case Failure(f) => Faulted(counted, f)
              case Success(memory) => Continue(counted.(memory := memory, pc := vm.pc + 4))
  }

  /** `run()`: tick until `halt`. A caught `OutOfBoundsException` sets `halt`
      and ends the loop; any other error escapes. Every continuing tick moves
      `pc` four cells further through a memory whose size never changes, so the
      loop always ends. */
  function Run(vm: VM): (r: RunResult)
    ensures r.Stopped? ==> r.vm.halt
    ensures |r.vm.memory| == |vm.memory|
    ensures r.vm.tickCount >= vm.tickCount
    decreases |vm.memory| - vm.pc
  {
    if vm.halt then Stopped(vm)
    else
      match Tick(vm)
      case Continue(next) => Run(next)
      case Halted(next) => Stopped(next)
      case Faulted(next, _) => Stopped(next.(halt := true))
      case Crashed(next, crash) => Escaped(next, crash)
  }

  /** The cell an in-range operand addresses. */
  function Cell(memory: seq<int>, address: int): int
    requires PyOps.IndexOk(|memory|, address)
  {
    memory[PyOps.Wrap(|memory|, address)]
  }

  /** Every operand of the instruction at `pc` addresses a cell. */
  predicate OperandsInRange(vm: VM)
    requires vm.pc + 4 <= |vm.memory|
  {
    && PyOps.IndexOk(|vm.memory|, vm.memory[vm.pc + 1])
    && PyOps.IndexOk(|vm.memory|, vm.memory[vm.pc + 2])
    && PyOps.IndexOk(|vm.memory|, vm.memory[vm.pc + 3])
  }

  /** ADD and MUL with addressable operands write the sum or product of the
      two source cells into the destination cell, change no other cell, and
      advance `pc` by exactly 4. */
  lemma ArithmeticStep(vm: VM)
    requires vm.pc + 4 <= |vm.memory| && vm.memory[vm.pc] in {1, 2}
    requires OperandsInRange(vm)
    ensures var a, b, dst := vm.memory[vm.pc + 1], vm.memory[vm.pc + 2], vm.memory[vm.pc + 3];
      var x, y := Cell(vm.memory, a), Cell(vm.memory, b);
      var v := if vm.memory[vm.pc] == 1 then x + y else x * y;
      Tick(vm) == Continue(vm.(pc := vm.pc + 4, memory := vm.memory[PyOps.Wrap(|vm.memory|, dst) := v], tickCount := vm.tickCount + 1))
  {
    var a, b, dst := vm.memory[vm.pc + 1], vm.memory[vm.pc + 2], vm.memory[vm.pc + 3];
    var params := GetParams(vm, 3);
    assert params == vm.memory[vm.pc + 1..vm.pc + 4];
    var x, y := Cell(vm.memory, a), Cell(vm.memory, b);
    assert Get(vm.memory, a) == Success(x);
    assert Get(vm.memory, b) == Success(y);
  }

  /** HALT sets `halt` and changes neither `pc` nor memory, and `run` then
      executes no further tick. */
  lemma HaltStep(vm: VM)
    requires vm.pc < |vm.memory| && vm.memory[vm.pc] == 99 && !vm.halt
    ensures Tick(vm) == Halted(vm.(halt := true, tickCount := vm.tickCount + 1))
    ensures Run(vm) == Stopped(vm.(halt := true, tickCount := vm.tickCount + 1))
  {
  }

  /** A halted VM is left exactly as it is by `run`. */
  lemma RunAfterHalt(vm: VM)
    requires vm.halt
    ensures Run(vm) == Stopped(vm)
  {
  }

  /** An ADD or MUL whose operand addresses a cell outside memory raises before
      any write and before `pc += 4`; `run` catches it, sets `halt` and stops
      with memory and `pc` as they were. */
  lemma OutOfBoundsOperandHalts(vm: VM)
    requires !vm.halt && vm.pc + 4 <= |vm.memory| && vm.memory[vm.pc] in {1, 2}
    requires !OperandsInRange(vm)
    ensures Tick(vm).Faulted?
    ensures Run(vm) == Stopped(vm.(halt := true, tickCount := vm.tickCount + 1))
  {
    var a, b, dst := vm.memory[vm.pc + 1], vm.memory[vm.pc + 2], vm.memory[vm.pc + 3];
    assert GetParams(vm, 3) == [a, b, dst];
    if !PyOps.IndexOk(|vm.memory|, a) {
      assert Get(vm.memory, a).Failure?;
    } else if !PyOps.IndexOk(|vm.memory|, b) {
      assert Get(vm.memory, b).Failure?;
    } else {
      assert Set(vm.memory, dst, 0).Failure?;
    }
  }

  /** An unknown opcode, a `pc` past the end and a short operand slice are not
      `IntcodeException`s: they escape `run` instead of halting the VM. */
  lemma CrashEscapesRun(vm: VM)
    requires !vm.halt
    requires || vm.pc >= |vm.memory|
             || DecodeOpcode(vm.memory[vm.pc]).None?
             || (vm.memory[vm.pc] in {1, 2} && vm.pc + 4 > |vm.memory|)
    ensures Run(vm).Escaped?
    ensures !Run(vm).vm.halt
  {
  }

  /** `run` ends either with `halt` set or with an escaping error, and in
      the first case the final instruction was HALT or a faulting ADD/MUL:
      the two cannot be told apart from the state, since there is no fault flag. */
  lemma {:induction false} RunEndsAtHaltOrFault(vm: VM)
    requires !vm.halt
    ensures var r := Run(vm);
      r.Stopped? ==> r.vm.pc < |r.vm.memory| && r.vm.memory[r.vm.pc] in {1, 2, 99}
    decreases |vm.memory| - vm.pc
  {
    match Tick(vm)
    case Continue(next) => RunEndsAtHaltOrFault(next);
    case Halted(next) =>
    case Faulted(next, _) =>
    case Crashed(next, _) =>
  }

  /** Example from the puzzle text: one tick of `1,0,0,0,99` adds cell 0 to
      itself, then the next tick halts. */
  lemma ExampleAddOneTick()
    ensures Tick(Init([1, 0, 0, 0, 99])) == Continue(VM(4, [2, 0, 0, 0, 99], false, 1))
    ensures Run(Init([1, 0, 0, 0, 99])) == Stopped(VM(4, [2, 0, 0, 0, 99], true, 2))
  {
    var vm0 := Init([1, 0, 0, 0, 99]);
    ArithmeticStep(vm0);
    assert vm0.memory[0 := 2] == [2, 0, 0, 0, 99];
    HaltStep(VM(4, [2, 0, 0, 0, 99], false, 1));
  }

  lemma ExampleMul()
    ensures Run(Init([2, 3, 0, 3, 99])) == Stopped(VM(4, [2, 3, 0, 6, 99], true, 2))
  {
    var vm0 := Init([2, 3, 0, 3, 99]);
    ArithmeticStep(vm0);
    assert vm0.memory[3 := 6] == [2, 3, 0, 6, 99];
    HaltStep(VM(4, [2, 3, 0, 6, 99], false, 1));
  }

  lemma ExampleSquare()
    ensures Run(Init([2, 4, 4, 5, 99, 0])) == Stopped(VM(4, [2, 4, 4, 5, 99, 9801], true, 2))
  {
    var vm0 := Init([2, 4, 4, 5, 99, 0]);
    ArithmeticStep(vm0);
    assert vm0.memory[5 := 9801] == [2, 4, 4, 5, 99, 9801];
    HaltStep(VM(4, [2, 4, 4, 5, 99, 9801], false, 1));
  }

  /** A continuing tick hands `run` on to the next state. */
  lemma RunContinues(vm: VM, next: VM)
    requires !vm.halt && Tick(vm) == Continue(next)
    ensures Run(vm) == Run(next)
  {
  }

  /** Example from the puzzle text: the first ADD overwrites the HALT at
      cell 4 with a MUL, which then runs. */
  lemma ExampleSelfModifying()
    ensures Run(Init([1, 1, 1, 4, 99, 5, 6, 0, 99])) == Stopped(VM(8, [30, 1, 1, 4, 2, 5, 6, 0, 99], true, 3))
  {
    var vm0 := Init([1, 1, 1, 4, 99, 5, 6, 0, 99]);
    var vm1 := VM(4, [1, 1, 1, 4, 2, 5, 6, 0, 99], false, 1);
    ArithmeticStep(vm0);
    assert vm0.memory[4 := 2] == vm1.memory;
    RunContinues(vm0, vm1);
    SelfModifyingRest();
  }

  lemma SelfModifyingRest()
    ensures Run(VM(4, [1, 1, 1, 4, 2, 5, 6, 0, 99], false, 1)) == Stopped(VM(8, [30, 1, 1, 4, 2, 5, 6, 0, 99], true, 3))
  {
    var vm1 := VM(4, [1, 1, 1, 4, 2, 5, 6, 0, 99], false, 1);
    var vm2 := VM(8, [30, 1, 1, 4, 2, 5, 6, 0, 99], false, 2);
    ArithmeticStep(vm1);
    assert vm1.memory[0 := 30] == vm2.memory;
    RunContinues(vm1, vm2);
    HaltStep(vm2);
  }

  /** Address -1 is not out of bounds: Python reads the last cell. */
  lemma NegativeAddressWraps()
    ensures Run(Init([1, -1, 0, 0, 99])) == Stopped(VM(4, [100, -1, 0, 0, 99], true, 2))
  {
    var vm0 := Init([1, -1, 0, 0, 99]);
    ArithmeticStep(vm0);
    assert vm0.memory[0 := 100] == [100, -1, 0, 0, 99];
    HaltStep(VM(4, [100, -1, 0, 0, 99], false, 1));
  }
}

=== FILE: lens_hashmap.dfy ===
/** 2023 day 15: the HASH of a label and the box-of-lenses hash map built on it. */
module LensHashMap {
  import opened Wrappers

  /** One character of the HASH: add its code, multiply by 17, keep the low eight bits. */
  function HashStep(acc: nat, c: char): (r: nat)
    ensures r < 256
  {
    ((acc + c as nat) * 17) % 256
  }

  /** The hash loop continued from `acc` over the characters of `s`. */
  function HashFrom(acc: nat, s: string): (r: nat)
    ensures acc < 256 || |s| > 0 ==> r < 256
    decreases |s|
  {
    if |s| == 0 then acc else HashFrom(HashStep(acc, s[0]), s[1..])
  }

  /** `Label.__hash__`. */
  function Hash(s: string): (r: nat)
    ensures r < 256
  {
    HashFrom(0, s)
  }

  lemma {:induction false} HashFromSnoc(acc: nat, s: string, c: char)
    ensures HashFrom(acc, s + [c]) == HashStep(HashFrom(acc, s), c)
    decreases |s|
  {
    if |s| > 0 {
      assert (s + [c])[1..] == s[1..] + [c];
      HashFromSnoc(HashStep(acc, s[0]), s[1..], c);
    }
  }

  /** The empty label hashes to 0, and appending a character applies one more step. */
  lemma HashSnoc(s: string, c: char)
    ensures Hash("") == 0
    ensures Hash(s + [c]) == ((Hash(s) + c as nat) * 17) % 256
  {
    HashFromSnoc(0, s, c);
  }

  lemma HashExample()
    ensures Hash("HASH") == 52
  {
    var s: string := "HASH";
    assert s[1..] == "ASH" && s[1..][1..] == "SH" && s[1..][1..][1..] == "H" && "H"[1..] == [];
    assert HashStep(0, 'H') == 200 && HashStep(200, 'A') == 153;
    assert HashStep(153, 'S') == 172 && HashStep(172, 'H') == 52;
    assert HashFrom(172, "H") == HashFrom(52, []);
    assert HashFrom(153, "SH") == HashFrom(172, "H");
    assert HashFrom(200, "ASH") == HashFrom(153, "SH");
    assert HashFrom(0, s) == HashFrom(200, "ASH");
  }

  /** A labelled lens: a `(key, value)` pair in a box. */
  datatype Lens = Lens(name: string, focal: int)

  /** `HashMap`: `capacity` boxes, each an ordered list of lenses. */
  datatype HashMap = HashMap(capacity: nat, boxes: seq<seq<Lens>>)

  datatype KeyError = KeyError(key: string)

  /** The shape the constructor gives: one box per unit of capacity. A
      capacity of 0 would make every access divide by zero. */
  predicate WellFormed(h: HashMap)
  {
    h.capacity > 0 && |h.boxes| == h.capacity
  }

  /** Every lens sits in the box its label hashes to, and labels within a box are distinct. */
  predicate Valid(h: HashMap)
  {
    WellFormed(h)
    && (forall b, i :: 0 <= b < |h.boxes| && 0 <= i < |h.boxes[b]| ==> Hash(h.boxes[b][i].name) % h.capacity == b)
    && (forall b, i, j :: 0 <= b < |h.boxes| && 0 <= i < j < |h.boxes[b]| ==> h.boxes[b][i].name != h.boxes[b][j].name)
  }

  /** `HashMap(capacity)`. */
  function New(capacity: nat): (h: HashMap)
    ensures capacity > 0 ==> Valid(h)
    ensures forall b :: 0 <= b < |h.boxes| ==> h.boxes[b] == []
  {
    HashMap(capacity, seq(capacity, _ => []))
  }

  /** `_get_box`: the index of the box a key belongs in. */
  function BoxOf(h: HashMap, key: string): (b: nat)
    requires WellFormed(h)
    ensures b < |h.boxes|
  {
    Hash(key) % h.capacity
  }

  /** `keys.index(key)`: the first slot holding the label, if any. */
  function IndexOf(box: seq<Lens>, key: string): (r: Option<nat>)
    ensures r.Some? ==> (r.value < |box| && box[r.value].name == key
      && forall j :: 0 <= j < r.value ==> box[j].name != key)
    ensures r.None? <==> forall j :: 0 <= j < |box| ==> box[j].name != key
  {
    if |box| == 0 then None
    else if box[0].name == key then Some(0)
    else match IndexOf(box[1..], key)
      case None => None
      case Some(i) => Some(i + 1)
  }

  /** `__getitem__`. */
  function Get(h: HashMap, key: string): Result<int, KeyError>
    requires WellFormed(h)
  {
    var box := h.boxes[BoxOf(h, key)];
    match IndexOf(box, key)
    case Some(i) => Success(box[i].focal)
    case None => Failure(KeyError(key))
  }

  /** `__setitem__`: replace in place when the label is present, else append. */
  function Set(h: HashMap, key: string, v: int): (r: HashMap)
    requires WellFormed(h)
    ensures WellFormed(r) && r.capacity == h.capacity
    ensures forall b :: 0 <= b < |h.boxes| && b != BoxOf(h, key) ==> r.boxes[b] == h.boxes[b]
  {
    var b := BoxOf(h, key);
    var box := h.boxes[b];
    match IndexOf(box, key)
    case Some(i) => h.(boxes := h.boxes[b := box[i := Lens(key, v)]])
    case None => h.(boxes := h.boxes[b := box + [Lens(key, v)]])
  }

  /** `pop`: the removed value and the map without that lens, or KeyError. */
  function Pop(h: HashMap, key: string): (r: Result<(int, HashMap), KeyError>)
    requires WellFormed(h)
    ensures r.Success? ==> WellFormed(r.value.1) && r.value.1.capacity == h.capacity
    ensures r.Success? ==> forall b :: 0 <= b < |h.boxes| && b != BoxOf(h, key) ==> r.value.1.boxes[b] == h.boxes[b]
  {
    var b := BoxOf(h, key);
    var box := h.boxes[b];
    match IndexOf(box, key)
    case Some(i) => Success((box[i].focal, h.(boxes := h.boxes[b := box[..i] + box[i + 1..]])))
    case None => Failure(KeyError(key))
  }

  /** `__delitem__`: `pop` with KeyError swallowed. */
  function Delete(h: HashMap, key: string): (r: HashMap)
    requires WellFormed(h)
    ensures WellFormed(r) && r.capacity == h.capacity
    ensures Get(h, key).Failure? ==> r == h
  {
    match Pop(h, key)
    case Success((_, h')) => h'
    case Failure(_) => h
  }

  /** A lookup after `set(k, v)` returns `v`; lookups of other keys are unaffected. */
  lemma GetAfterSet(h: HashMap, key: string, v: int, other: string)
    requires WellFormed(h)
    ensures Get(Set(h, key, v), key) == Success(v)
    ensures other != key ==> Get(Set(h, key, v), other) == Get(h, other)
  {
    var b := BoxOf(h, key);
    var box := h.boxes[b];
    var nb := Set(h, key, v).boxes[b];
    match IndexOf(box, key) {
      case Some(i) =>
        assert nb == box[i := Lens(key, v)];
        IndexOfFirst(nb, key, i);
        if other != key && BoxOf(h, other) == b {
          IndexOfIgnoresOtherLabel(box, i, Lens(key, v), other);
        }
      case None =>
        assert nb == box + [Lens(key, v)];
        IndexOfFirst(nb, key, |box|);
        if other != key && BoxOf(h, other) == b {
          IndexOfIgnoresAppend(box, Lens(key, v), other);
        }
    }
  }

  /** The first slot holding a label is where `IndexOf` finds it. */
  lemma IndexOfFirst(box: seq<Lens>, key: string, k: nat)
    requires k < |box| && box[k].name == key
    requires forall j :: 0 <= j < k ==> box[j].name != key
    ensures IndexOf(box, key) == Some(k)
  {
    var r := IndexOf(box, key);
    assert r.Some?;
    assert !(r.value < k) && !(k < r.value);
  }

  /** Overwriting a slot with a lens of another label does not move the first `other`. */
  lemma IndexOfIgnoresOtherLabel(box: seq<Lens>, i: nat, l: Lens, other: string)
    requires i < |box| && box[i].name != other && l.name != other
    ensures IndexOf(box[i := l], other) == IndexOf(box, other)
  {
    var box' := box[i := l];
    if IndexOf(box, other).Some? {
      IndexOfFirst(box', other, IndexOf(box, other).value);
    } else {
      assert forall j :: 0 <= j < |box'| ==> box'[j].name != other;
    }
  }

  lemma IndexOfIgnoresAppend(box: seq<Lens>, l: Lens, other: string)
    requires l.name != other
    ensures IndexOf(box + [l], other) == IndexOf(box, other)
  {
    var box' := box + [l];
    if IndexOf(box, other).Some? {
      IndexOfFirst(box', other, IndexOf(box, other).value);
    } else {
      assert forall j :: 0 <= j < |box'| ==> box'[j].name != other;
    }
  }

  /** Setting keeps every lens in its own box and the labels of each box distinct. */
  lemma SetKeepsValid(h: HashMap, key: string, v: int)
    requires Valid(h)
    ensures Valid(Set(h, key, v))
  {
  }

  /** Setting a present label keeps its slot; a new label goes at the end of its box. */
  lemma SetPosition(h: HashMap, key: string, v: int)
    requires WellFormed(h)
    ensures var box := h.boxes[BoxOf(h, key)];
      match IndexOf(box, key)
      case Some(i) => Set(h, key, v).boxes[BoxOf(h, key)] == box[i := Lens(key, v)]
      case None => Set(h, key, v).boxes[BoxOf(h, key)] == box + [Lens(key, v)]
  {
  }

  /** `pop` returns the stored value, removes only that lens, keeps the order
      of the rest, and a later lookup of the key fails. */
  lemma PopAfterSet(h: HashMap, key: string, v: int)
    requires Valid(h)
    ensures Pop(Set(h, key, v), key).Success?
    ensures Pop(Set(h, key, v), key).value.0 == v
    ensures Get(Pop(Set(h, key, v), key).value.1, key).Failure?
  {
    SetKeepsValid(h, key, v);
    GetAfterSet(h, key, v, key);
    var s := Set(h, key, v);
    var b := BoxOf(s, key);
    var box := s.boxes[b];
    var i := IndexOf(box, key).value;
    var rest := box[..i] + box[i + 1..];
    forall j | 0 <= j < |rest|
      ensures rest[j].name != key
    {
      if j < i {
        assert rest[j] == box[j];
      } else {
        assert rest[j] == box[j + 1];
      }
    }
  }

  lemma PopKeepsOrder(h: HashMap, key: string)
    requires WellFormed(h) && Pop(h, key).Success?
    ensures var box := h.boxes[BoxOf(h, key)];
      var i := IndexOf(box, key).value;
      Pop(h, key).value.1.boxes[BoxOf(h, key)] == box[..i] + box[i + 1..]
      && Pop(h, key).value.0 == box[i].focal
  {
  }

  /** Popping keeps every lens in its own box and the labels of each box distinct. */
  lemma PopKeepsValid(h: HashMap, key: string)
    requires Valid(h) && Pop(h, key).Success?
    ensures Valid(Pop(h, key).value.1)
  {
    var b := BoxOf(h, key);
    var box := h.boxes[b];
    var i := IndexOf(box, key).value;
    var rest := box[..i] + box[i + 1..];
    var r := Pop(h, key).value.1;
    assert r.boxes == h.boxes[b := rest];
    forall p | 0 <= p < |rest|
      ensures rest[p] == box[if p < i then p else p + 1]
    {
    }
  }

  /** `del` of an absent key changes nothing. */
  lemma DeleteAbsent(h: HashMap, key: string)
    requires WellFormed(h) && Get(h, key).Failure?
    ensures Delete(h, key) == h
  {
  }

  /** The focusing power of one box, numbered `b` from 0: `Σ (b+1)·(slot+1)·focal`. */
  function BoxPower(box: seq<Lens>, b: nat): int
  {
    if |box| == 0 then 0
    else BoxPower(box[..|box| - 1], b) + (b + 1) * |box| * box[|box| - 1].focal
  }

  /** The power of the first `|boxes|` boxes. */
  function Power(boxes: seq<seq<Lens>>): int
  {
    if |boxes| == 0 then 0
    else Power(boxes[..|boxes| - 1]) + BoxPower(boxes[|boxes| - 1], |boxes| - 1)
  }

  /** `value()`. */
  function Value(h: HashMap): int
  {
    Power(h.boxes)
  }

  /** Replacing one box changes the total by that box's change. */
  lemma {:induction false} PowerUpdate(boxes: seq<seq<Lens>>, b: nat, nb: seq<Lens>)
    requires b < |boxes|
    ensures Power(boxes[b := nb]) == Power(boxes) - BoxPower(boxes[b], b) + BoxPower(nb, b)
  {
    var n := |boxes|;
    if b < n - 1 {
      assert boxes[b := nb][..n - 1] == boxes[..n - 1][b := nb];
      PowerUpdate(boxes[..n - 1], b, nb);
    } else {
      assert boxes[b := nb][..n - 1] == boxes[..n - 1];
    }
  }

  /** A new label adds `(box+1)·(its slot+1)·value` to the map's value. */
  lemma ValueAfterSetNew(h: HashMap, key: string, v: int)
    requires WellFormed(h) && Get(h, key).Failure?
    ensures Value(Set(h, key, v)) == Value(h) + (BoxOf(h, key) + 1) * (|h.boxes[BoxOf(h, key)]| + 1) * v
  {
    var b := BoxOf(h, key);
    var box := h.boxes[b];
    assert (box + [Lens(key, v)])[..|box|] == box;
    PowerUpdate(h.boxes, b, box + [Lens(key, v)]);
  }

  /** One step of part 2: `label-` or `label=value`. */
  datatype Op = Remove(name: string) | Assign(name: string, focal: int)

  function Apply(h: HashMap, op: Op): (r: HashMap)
    requires WellFormed(h)
    ensures WellFormed(r) && r.capacity == h.capacity
  {
    match op
    case Remove(key) => Delete(h, key)
    case Assign(key, v) => Set(h, key, v)
  }

  function ApplyAll(h: HashMap, ops: seq<Op>): (r: HashMap)
    requires WellFormed(h)
    ensures WellFormed(r) && r.capacity == h.capacity
    decreases |ops|
  {
    if |ops| == 0 then h else ApplyAll(Apply(h, ops[0]), ops[1..])
  }

  /** Every operation keeps the map valid. */
  lemma ApplyKeepsValid(h: HashMap, op: Op)
    requires Valid(h)
    ensures Valid(Apply(h, op))
  {
    match op
    case Remove(key) =>
      if Pop(h, key).Success? {
        PopKeepsValid(h, key);
      }
    case Assign(key, v) =>
      SetKeepsValid(h, key, v);
  }

  lemma {:induction false} ApplyAllKeepsValid(h: HashMap, ops: seq<Op>)
    requires Valid(h)
    ensures Valid(ApplyAll(h, ops))
    decreases |ops|
  {
    if |ops| > 0 {
      ApplyKeepsValid(h, ops[0]);
      ApplyAllKeepsValid(Apply(h, ops[0]), ops[1..]);
    }
  }

  /** Part 1: the sum of the token hashes. */
  function Part1(tokens: seq<string>): int
  {
    if |tokens| == 0 then 0 else Hash(tokens[0]) + Part1(tokens[1..])
  }

  /** Part 1 is at most 255 per token. */
  lemma {:induction false} Part1Bound(tokens: seq<string>)
    ensures 0 <= Part1(tokens) <= 255 * |tokens|
  {
    if |tokens| > 0 {
      Part1Bound(tokens[1..]);
    }
  }

  /** Part 2: apply every operation to a 256-box map and take its value. */
  function Part2(ops: seq<Op>): int
  {
    Value(ApplyAll(New(256), ops))
  }
}

=== FILE: list_distance.dfy ===
/** 2024 day 1: two lists of location ids. Part 1 pairs the lists in sorted
    order and sums the distances; part 2 weighs each left id by the number
    of times it occurs on the right. */
module ListDistance {
  import Sorting

  function Abs(x: int): nat
  {
    if x < 0 then -x else x
  }

  /** `sum(abs(l - r) for l, r in zip(a, b))`: pairs up to the shorter list. */
  function ZipDistance(a: seq<int>, b: seq<int>): nat
  {
    if |a| == 0 || |b| == 0 then 0 else Abs(a[0] - b[0]) + ZipDistance(a[1..], b[1..])
  }

  /** Part 1: the distance between the two lists in sorted order. */
  function Part1(left: seq<int>, right: seq<int>): nat
  {
    ZipDistance(Sorting.IntSort(left), Sorting.IntSort(right))
  }

  lemma IntSortPermutation(a: seq<int>, b: seq<int>)
    requires multiset(a) == multiset(b)
    ensures Sorting.IntSort(a) == Sorting.IntSort(b)
  {
    Sorting.IntOrder();
    Sorting.SortPermutation(a, b, (x: int, y: int) => x < y);
  }

  /** Reordering either list leaves part 1 unchanged. */
  lemma Part1Permutation(left: seq<int>, left': seq<int>, right: seq<int>, right': seq<int>)
    requires multiset(left) == multiset(left') && multiset(right) == multiset(right')
    ensures Part1(left, right) == Part1(left', right')
  {
    IntSortPermutation(left, left');
    IntSortPermutation(right, right');
  }

  lemma {:induction false} ZipDistanceSelf(a: seq<int>)
    ensures ZipDistance(a, a) == 0
  {
    if |a| > 0 {
      ZipDistanceSelf(a[1..]);
    }
  }

  lemma {:induction false} ZipDistanceSymmetric(a: seq<int>, b: seq<int>)
    ensures ZipDistance(a, b) == ZipDistance(b, a)
  {
    if |a| > 0 && |b| > 0 {
      ZipDistanceSymmetric(a[1..], b[1..]);
    }
  }

  /** Lists with the same elements are at distance 0, and the distance is symmetric. */
  lemma Part1Facts(left: seq<int>, right: seq<int>)
    ensures multiset(left) == multiset(right) ==> Part1(left, right) == 0
    ensures Part1(left, right) == Part1(right, left)
  {
    if multiset(left) == multiset(right) {
      IntSortPermutation(left, right);
      ZipDistanceSelf(Sorting.IntSort(left));
    }
    ZipDistanceSymmetric(Sorting.IntSort(left), Sorting.IntSort(right));
  }

  /** The `counts` defaultdict of part 2, built over the right list. */
  function Counts(right: seq<int>): (counts: map<int, nat>)
    ensures forall n :: n in counts <==> n in right
    ensures forall n :: n in counts ==> counts[n] == multiset(right)[n]
  {
    if |right| == 0 then map[]
    else
      var init, last := right[..|right| - 1], right[|right| - 1];
      assert right == init + [last];
      var counts := Counts(init);
      counts[last := (if last in counts then counts[last] else 0) + 1]
  }

  /** `counts[number]`, where a missing key reads as 0. */
  function Lookup(counts: map<int, nat>, n: int): nat
  {
    if n in counts then counts[n] else 0
  }

  /** Part 2's loop over the left list. */
  function Part2With(left: seq<int>, counts: map<int, nat>): int
  {
    if |left| == 0 then 0 else Part2With(left[..|left| - 1], counts) + left[|left| - 1] * Lookup(counts, left[|left| - 1])
  }

  function Part2(left: seq<int>, right: seq<int>): int
  {
    Part2With(left, Counts(right))
  }

  /** The similarity score read off the multiset of the right list. */
  function Similarity(left: seq<int>, m: multiset<int>): int
  {
    if |left| == 0 then 0 else left[0] * m[left[0]] + Similarity(left[1..], m)
  }

  lemma {:induction false} SimilarityAppend(a: seq<int>, x: int, m: multiset<int>)
    ensures Similarity(a + [x], m) == Similarity(a, m) + x * m[x]
  {
    if |a| > 0 {
      assert (a + [x])[1..] == a[1..] + [x];
      SimilarityAppend(a[1..], x, m);
    }
  }

  /** Part 2 is the sum of each left id times the number of times it occurs
      on the right. */
  lemma {:induction false} Part2IsSimilarity(left: seq<int>, right: seq<int>)
    ensures Part2(left, right) == Similarity(left, multiset(right))
  {
    if |left| > 0 {
      var init, last := left[..|left| - 1], left[|left| - 1];
      Part2IsSimilarity(init, right);
      assert left == init + [last];
      SimilarityAppend(init, last, multiset(right));
    }
  }

  /** Removing the element at `i` takes its term out of the score. */
  lemma {:induction false} SimilarityRemove(s: seq<int>, i: nat, m: multiset<int>)
    requires i < |s|
    ensures Similarity(s, m) == s[i] * m[s[i]] + Similarity(s[..i] + s[i + 1..], m)
  {
    if i > 0 {
      SimilarityRemove(s[1..], i - 1, m);
      assert s[1..][..i - 1] + s[1..][i..] == (s[..i] + s[i + 1..])[1..];
    } else {
      assert s[..0] + s[1..] == s[1..];
    }
  }

  lemma {:induction false} SimilarityPermutation(a: seq<int>, b: seq<int>, m: multiset<int>)
    requires multiset(a) == multiset(b)
    ensures Similarity(a, m) == Similarity(b, m)
    decreases |a|
  {
    if |a| > 0 {
      var i := Sorting.PickSame(a, b);
      SimilarityRemove(b, i, m);
      SimilarityPermutation(a[1..], b[..i] + b[i + 1..], m);
    } else {
      assert |multiset(b)| == 0;
    }
  }

  /** Reordering either list leaves part 2 unchanged. */
  lemma Part2Permutation(left: seq<int>, left': seq<int>, right: seq<int>, right': seq<int>)
    requires multiset(left) == multiset(left') && multiset(right) == multiset(right')
    ensures Part2(left, right) == Part2(left', right')
  {
    Part2IsSimilarity(left, right);
    Part2IsSimilarity(left', right');
    SimilarityPermutation(left, left', multiset(right));
  }

  /** Each 3 on the left meets two 3s on the right, the 4 one 4, the 1 none. */
  lemma Example()
    ensures Part2([3, 4, 1, 3], [3, 4, 3]) == 16
  {
    var m := multiset([3, 4, 3]);
    assert m[3] == 2 && m[4] == 1 && m[1] == 0;
    Part2IsSimilarity([3, 4, 1, 3], [3, 4, 3]);
    assert Similarity([3], m) == 6;
    assert Similarity([1, 3], m) == 6 by { assert [1, 3][1..] == [3]; }
    assert Similarity([4, 1, 3], m) == 10 by { assert [4, 1, 3][1..] == [1, 3]; }
    assert Similarity([3, 4, 1, 3], m) == 16 by { assert [3, 4, 1, 3][1..] == [4, 1, 3]; }
  }
}

=== FILE: logic_gates.dfy ===
/** The logic-gate circuit of 2024/Day24. Wires hold a bit or nothing yet;
    a gate whose two inputs are known and whose output is not sets its
    output, and setting a wire at once updates every gate reading it.
    `sim` sweeps all gates until a sweep sets nothing, then reads the
    number on the `z` wires. */
module LogicGates {
  import opened Wrappers
  import PyOps
  import Decimal
  import Sorting

  /** The three gate classes. */
  datatype Kind = Xor | Or | And

  /** A gate: its class, its two input wires and its output wire, by name. */
  datatype Gate = Gate(kind: Kind, a: string, b: string, out: string)

  /** A circuit: the names of all its wires and its gates in file order. */
  datatype Circuit = Circuit(wires: set<string>, gates: seq<Gate>)

  /** The wire states: a known wire maps to its bit; a wire whose state is
      `None` has no entry. */
  type State = map<string, bool>

  /** What `update` reports: the states afterwards and whether it set its
      output. */
  datatype Updated = Updated(after: State, changed: bool)

  /** Every wire a gate names is a wire of the circuit: `from_file` creates
      the missing ones. */
  predicate WellFormed(c: Circuit)
  {
    forall g :: 0 <= g < |c.gates| ==>
      c.gates[g].a in c.wires && c.gates[g].b in c.wires && c.gates[g].out in c.wires
  }

  /** Only wires of the circuit have states. */
  predicate Fits(c: Circuit, st: State)
  {
    st.Keys <= c.wires
  }

  /** How many of two bits are set. */
  function Ones(x: bool, y: bool): nat
  {
    (if x then 1 else 0) + (if y then 1 else 0)
  }

  /** `op` of XOR, OR and AND. Python's `or` and `and` return one of their
      operands, which on bits is the boolean result. */
  function Op(kind: Kind, x: bool, y: bool): (r: bool)
    ensures kind == Xor ==> (r <==> Ones(x, y) == 1)
    ensures kind == Or ==> (r <==> Ones(x, y) >= 1)
    ensures kind == And ==> (r <==> Ones(x, y) == 2)
  {
    match kind
    case Xor => x != y
    case Or => x || y
    case And => x && y
  }

  /** No gate depends on the order of its inputs. */
  lemma OpSymmetric(kind: Kind, x: bool, y: bool)
    ensures Op(kind, x, y) == Op(kind, y, x)
  {
  }

  /** The gate can fire: both inputs known, the output not. */
  predicate Ready(st: State, gate: Gate)
  {
    gate.out !in st && gate.a in st && gate.b in st
  }

  /** The gate's output holds the gate's function of its inputs. */
  predicate Computes(st: State, gate: Gate)
  {
    gate.a in st && gate.b in st && gate.out in st
    && st[gate.out] == Op(gate.kind, st[gate.a], st[gate.b])
  }

  /** `r` knows every wire `st` knows, with the same bit. */
  predicate Extends(st: State, r: State)
  {
    st.Keys <= r.Keys && forall w :: w in st ==> r[w] == st[w]
  }

  /** Wire `w` is the output of a gate that computes it in `r`. */
  ghost predicate Driven(c: Circuit, r: State, w: string)
  {
    exists g :: 0 <= g < |c.gates| && c.gates[g].out == w && Computes(r, c.gates[g])
  }

  /** Every wire `r` knows beyond `st` was set by a gate, correctly. */
  ghost predicate Justified(c: Circuit, st: State, r: State)
  {
    forall w {:trigger Driven(c, r, w)} :: w in r && w !in st ==> Driven(c, r, w)
  }

  /** The number of wires still unknown. */
  function Unknown(c: Circuit, st: State): nat
  {
    |c.wires - st.Keys|
  }

  /** Learning wires never adds unknown ones. */
  lemma UnknownShrinks(c: Circuit, st: State, r: State)
    requires Extends(st, r) && Fits(c, r)
    ensures Unknown(c, r) <= Unknown(c, st)
  {
    Sorting.SubsetSize(c.wires - r.Keys, c.wires - st.Keys);
  }

  /** Learning a new wire removes an unknown one. */
  lemma UnknownDrops(c: Circuit, st: State, r: State, w: string)
    requires Extends(st, r) && Fits(c, r) && w in r && w !in st
    ensures Unknown(c, r) < Unknown(c, st)
  {
    var before := c.wires - st.Keys;
    assert w in before;
    Sorting.SubsetSize(c.wires - r.Keys, before - {w});
  }

  /** Justification carries over a second round of learning. */
  lemma JustifiedTrans(c: Circuit, st: State, mid: State, r: State)
    requires Extends(st, mid) && Extends(mid, r)
    requires Justified(c, st, mid) && Justified(c, mid, r)
    ensures Justified(c, st, r)
  {
    forall w | w in r && w !in st
      ensures Driven(c, r, w)
    {
      if w in mid {
        assert Driven(c, mid, w);
        var g :| 0 <= g < |c.gates| && c.gates[g].out == w && Computes(mid, c.gates[g]);
        assert Computes(r, c.gates[g]);
      }
    }
  }

  /** `Gate.update` of gate `g`: when both inputs are known and the output
      is not, set the output, which updates the gates reading it, and
      report True; otherwise change nothing and report False. */
  function Update(c: Circuit, st: State, g: nat): (r: Updated)
    requires WellFormed(c) && Fits(c, st) && g < |c.gates|
    ensures Extends(st, r.after) && Fits(c, r.after)
    ensures r.changed <==> Ready(st, c.gates[g])
    ensures !r.changed ==> r.after == st
    ensures r.changed ==> Computes(r.after, c.gates[g])
    ensures Justified(c, st, r.after)
    decreases Unknown(c, st), 1
  {
    var gate := c.gates[g];
    if gate.out in st || gate.a !in st || gate.b !in st then Updated(st, false)
    else
      var v := Op(gate.kind, st[gate.a], st[gate.b]);
      var after := Set(c, st, gate.out, v);
      assert Computes(after, gate);
      assert Driven(c, after, gate.out);
      Updated(after, true)
  }

  /** `Wire.set`: store the bit, then update every gate that reads the wire,
      in the order of the gate list. */
  function Set(c: Circuit, st: State, w: string, v: bool): (r: State)
    requires WellFormed(c) && Fits(c, st) && w in c.wires
    ensures Fits(c, r) && w in r && r[w] == v
    ensures Extends(st[w := v], r)
    ensures Justified(c, st[w := v], r)
    decreases Unknown(c, st), if w in st then |c.gates| + 3 else 0
  {
    assert w !in st ==> Unknown(c, st[w := v]) < Unknown(c, st) by {
      if w !in st {
        UnknownDrops(c, st, st[w := v], w);
      }
    }
    Cascade(c, st[w := v], w, 0)
  }

  /** The loop of `Wire.set` over the gates reading `w`, from the `k`-th
      gate on. */
  function Cascade(c: Circuit, st: State, w: string, k: nat): (r: State)
    requires WellFormed(c) && Fits(c, st) && k <= |c.gates|
    ensures Extends(st, r) && Fits(c, r)
    ensures Justified(c, st, r)
    decreases Unknown(c, st), |c.gates| - k + 2
  {
    if k == |c.gates| then st
    else
      var gate := c.gates[k];
      var mid := if gate.a == w || gate.b == w then Update(c, st, k).after else st;
      UnknownShrinks(c, st, mid);
      var r := Cascade(c, mid, w, k + 1);
      JustifiedTrans(c, st, mid, r);
      r
  }

  /** No gate from the `k`-th on can fire. */
  predicate NoneReady(c: Circuit, st: State, k: nat)
  {
    forall g :: k <= g < |c.gates| ==> !Ready(st, c.gates[g])
  }

  /** One sweep of `sim` over the gates from the `k`-th on: whether any
      `update` reported True. */
  function Pass(c: Circuit, st: State, k: nat): (r: Updated)
    requires WellFormed(c) && Fits(c, st) && k <= |c.gates|
    ensures Extends(st, r.after) && Fits(c, r.after)
    ensures !r.changed ==> r.after == st && NoneReady(c, st, k)
    ensures r.changed ==> Unknown(c, r.after) < Unknown(c, st)
    ensures NoneReady(c, st, k) ==> r == Updated(st, false)
    ensures Justified(c, st, r.after)
    decreases |c.gates| - k
  {
    if k == |c.gates| then Updated(st, false)
    else
      var u := Update(c, st, k);
      var rest := Pass(c, u.after, k + 1);
      UnknownShrinks(c, u.after, rest.after);
      assert u.changed ==> Unknown(c, u.after) < Unknown(c, st) by {
        if u.changed {
          UnknownDrops(c, st, u.after, c.gates[k].out);
        }
      }
      JustifiedTrans(c, st, u.after, rest.after);
      Updated(rest.after, u.changed || rest.changed)
  }

  /** No gate can fire any more. */
  predicate Settled(c: Circuit, st: State)
  {
    NoneReady(c, st, 0)
  }

  /** The loop of `sim`: sweep until a sweep sets nothing. Every sweep that
      sets something learns a wire, so the loop ends, and it ends with no
      gate able to fire and every learnt wire set by a gate. */
  function Sim(c: Circuit, st: State): (r: State)
    requires WellFormed(c) && Fits(c, st)
    ensures Extends(st, r) && Fits(c, r)
    ensures Justified(c, st, r)
    ensures Settled(c, r)
    decreases Unknown(c, st)
  {
    var p := Pass(c, st, 0);
    if !p.changed then st
    else
      var r := Sim(c, p.after);
      JustifiedTrans(c, st, p.after, r);
      r
  }

  /** Each wire is the output of at most one gate, and the wires set before
      the sweep are outputs of none: the shape of a puzzle circuit. */
  predicate Driving(c: Circuit, init: State)
  {
    && (forall g, h :: 0 <= g < h < |c.gates| ==> c.gates[g].out != c.gates[h].out)
    && (forall g :: 0 <= g < |c.gates| ==> c.gates[g].out !in init)
  }

  /** A settled circuit computes its gate functions: every gate with both
      inputs known has its output known, holding the gate of its inputs. */
  lemma SettledComputes(c: Circuit, init: State, r: State)
    requires Driving(c, init)
    requires Extends(init, r) && Justified(c, init, r) && Settled(c, r)
    ensures forall g :: 0 <= g < |c.gates| && c.gates[g].a in r && c.gates[g].b in r ==>
              Computes(r, c.gates[g])
  {
    forall g | 0 <= g < |c.gates| && c.gates[g].a in r && c.gates[g].b in r
      ensures Computes(r, c.gates[g])
    {
      assert !Ready(r, c.gates[g]);
      var w := c.gates[g].out;
      assert w in r && w !in init;
      assert Driven(c, r, w);
      var h :| 0 <= h < |c.gates| && c.gates[h].out == w && Computes(r, c.gates[h]);
      assert h == g;
    }
  }

  /** `sim` from the given states: all gates settle, and a puzzle circuit
      then computes every gate whose inputs are known. */
  lemma SimComputes(c: Circuit, init: State)
    requires WellFormed(c) && Fits(c, init) && Driving(c, init)
    ensures forall g :: 0 <= g < |c.gates| && c.gates[g].a in Sim(c, init) && c.gates[g].b in Sim(c, init) ==>
              Computes(Sim(c, init), c.gates[g])
  {
    SettledComputes(c, init, Sim(c, init));
  }

  /** `reset`: every wire's state becomes `None`. */
  function Reset(c: Circuit): (r: State)
    ensures Fits(c, r) && forall w :: w in c.wires ==> w !in r
  {
    map[]
  }

  /** A reset circuit has no gate that can fire: `sim` changes nothing. */
  lemma {:induction false} ResetSettles(c: Circuit)
    requires WellFormed(c)
    ensures Sim(c, Reset(c)) == Reset(c)
  {
    var st := Reset(c);
    assert NoneReady(c, st, 0);
  }

  /** `f'{i:02}'`: at least two digits, zero-padded. */
  function Pad2(i: nat): string
  {
    if i < 10 then "0" + Decimal.Show(i) else Decimal.Show(i)
  }

  /** `int` reads the padded number back, the leading zero included. */
  lemma PadParses(i: nat)
    ensures Decimal.ParseNat(Pad2(i)) == Some(i)
  {
    Decimal.ParseShow(i);
    if i < 10 {
      var t := Decimal.Show(i);
      Decimal.ShowDigits(i);
      assert Decimal.DigitValues("0" + t) == [0] + Decimal.DigitValues(t);
      Decimal.ValueOfAppend([0], Decimal.DigitValues(t));
    }
  }

  /** The name of bit `i` of the number on wires with prefix `p`. */
  function Name(p: char, i: nat): (s: string)
    ensures |s| > 0 && s[0] == p
  {
    [p] + Pad2(i)
  }

  /** The wire name starts with `p`. */
  predicate Prefixed(w: string, p: char)
  {
    |w| > 0 && w[0] == p
  }

  /** Different bits, or different prefixes, are on different wires. */
  lemma NameInjective(p: char, i: nat, q: char, j: nat)
    requires Name(p, i) == Name(q, j)
    ensures p == q && i == j
  {
    assert Pad2(i) == Name(p, i)[1..];
    assert Pad2(j) == Name(q, j)[1..];
    PadParses(i);
    PadParses(j);
  }

  /** `num_size`: the number of wires whose name starts with 'z', less one. */
  function NumSize(c: Circuit): int
  {
    |set w | w in c.wires && Prefixed(w, 'z')| - 1
  }

  /** `range(num_size + (1 if prefix == 'z' else 0))`: how many bits
      `extract_num` reads; an empty range when that is negative. */
  function Width(c: Circuit, p: char): (n: nat)
    ensures p != 'z' ==> n == if NumSize(c) < 0 then 0 else NumSize(c)
  {
    var n := NumSize(c) + (if p == 'z' then 1 else 0);
    if n < 0 then 0 else n
  }

  /** How many bits `set_num` writes. */
  function SetWidth(c: Circuit): nat
  {
    if NumSize(c) < 0 then 0 else NumSize(c)
  }

  /** `(value >> i) & 1`: Python shifts right by flooring, so negative
      values give the bits of their two's complement. */
  function Bit(v: int, i: nat): bool
  {
    (v / PyOps.Pow2(i)) % 2 == 1
  }

  /** The loop of `extract_num` over the first `n` bits: `wire.get() << i`
      raises KeyError for a missing wire and TypeError for an unknown one. */
  function ExtractBits(c: Circuit, st: State, p: char, n: nat): (r: Option<int>)
    requires Fits(c, st)
    ensures r.Some? <==> forall i :: 0 <= i < n ==> Name(p, i) in st
    ensures r.Some? ==> 0 <= r.value < PyOps.Pow2(n)
  {
    if n == 0 then Some(0)
    else
      match ExtractBits(c, st, p, n - 1)
      case None => None
      case Some(v) =>
        var w := Name(p, n - 1);
        if w !in st then None
        else Some(v + if st[w] then PyOps.Pow2(n - 1) else 0)
  }

  /** `extract_num(prefix)`. */
  function ExtractNum(c: Circuit, st: State, p: char): (r: Option<int>)
    requires Fits(c, st)
    ensures r.Some? <==> forall i :: 0 <= i < Width(c, p) ==> Name(p, i) in st
    ensures r.Some? ==> 0 <= r.value < PyOps.Pow2(Width(c, p))
  {
    ExtractBits(c, st, p, Width(c, p))
  }

  /** The loop of `set_num` over the first `n` bits: the state of a wire
      not in the circuit raises KeyError. */
  function SetBits(c: Circuit, st: State, p: char, v: int, n: nat): (r: Option<State>)
    requires Fits(c, st)
    ensures r.Some? <==> forall i :: 0 <= i < n ==> Name(p, i) in c.wires
    ensures r.Some? ==> Fits(c, r.value)
    ensures r.Some? ==> forall i :: 0 <= i < n ==> Name(p, i) in r.value && r.value[Name(p, i)] == Bit(v, i)
    ensures r.Some? ==> forall w :: w in st && !Prefixed(w, p) ==> w in r.value && r.value[w] == st[w]
    ensures r.Some? ==> forall w :: w in r.value && w !in st ==> Prefixed(w, p)
  {
    if n == 0 then Some(st)
    else
      match SetBits(c, st, p, v, n - 1)
      case None => None
      case Some(s) =>
        var w := Name(p, n - 1);
        if w !in c.wires then None
        else
          NamesDiffer(p, n - 1);
          Some(s[w := Bit(v, n - 1)])
  }

  /** The wires of bits below `n` are not the wire of bit `n`. */
  lemma NamesDiffer(p: char, n: nat)
    ensures forall i :: 0 <= i < n ==> Name(p, i) != Name(p, n)
  {
    forall i | 0 <= i < n
      ensures Name(p, i) != Name(p, n)
    {
      if Name(p, i) == Name(p, n) {
        NameInjective(p, i, p, n);
      }
    }
  }

  /** `set_num(prefix, value)`. */
  function SetNum(c: Circuit, st: State, p: char, v: int): (r: Option<State>)
    requires Fits(c, st)
    ensures r.Some? <==> forall i :: 0 <= i < SetWidth(c) ==> Name(p, i) in c.wires
    ensures r.Some? ==> Fits(c, r.value)
    ensures r.Some? ==> forall i :: 0 <= i < SetWidth(c) ==>
              Name(p, i) in r.value && r.value[Name(p, i)] == Bit(v, i)
    ensures r.Some? ==> forall w :: w in st && !Prefixed(w, p) ==> w in r.value && r.value[w] == st[w]
  {
    SetBits(c, st, p, v, SetWidth(c))
  }

  /** The number the first `n` bits of `v` make. */
  function LowBits(v: int, n: nat): nat
  {
    if n == 0 then 0 else LowBits(v, n - 1) + if Bit(v, n - 1) then PyOps.Pow2(n - 1) else 0
  }

  /** Euclidean remainder is determined by any quotient and remainder in range. */
  lemma ModUniqueInt(a: int, d: int, q: int, r: int)
    requires d > 0 && 0 <= r < d && a == d * q + r
    ensures a % d == r
  {
    var q', r' := a / d, a % d;
    assert d * q + r == d * q' + r';
    assert d * (q - q') == r' - r;
    if q > q' {
      MulAtLeastOne(d, q - q');
    } else if q < q' {
      MulAtLeastOne(d, q' - q);
    }
  }

  lemma MulAtLeastOne(d: int, k: int)
    requires d > 0 && k >= 1
    ensures d * k >= d
  {
    assert d * k == d + d * (k - 1);
  }

  /** One more bit: the remainder modulo 2^(n+1) adds bit n to the
      remainder modulo 2^n. */
  lemma ModStep(v: int, n: nat)
    ensures v % PyOps.Pow2(n + 1) == v % PyOps.Pow2(n) + if Bit(v, n) then PyOps.Pow2(n) else 0
  {
    var p := PyOps.Pow2(n);
    var q, r := v / p, v % p;
    var b := q % 2;
    assert q == 2 * (q / 2) + b;
    assert v == p * q + r;
    assert v == (2 * p) * (q / 2) + (b * p + r) by {
      assert p * q == p * (2 * (q / 2)) + p * b;
    }
    assert 0 <= b * p + r < 2 * p by {
      assert b == 0 || b == 1;
    }
    ModUniqueInt(v, 2 * p, q / 2, b * p + r);
  }

  /** The first `n` bits of `v` make `v` modulo 2^n, negative `v` too. */
  lemma {:induction false} LowBitsMod(v: int, n: nat)
    ensures LowBits(v, n) == v % PyOps.Pow2(n)
  {
    if n > 0 {
      LowBitsMod(v, n - 1);
      ModStep(v, n - 1);
    }
  }

  /** Reading back bits that hold `v`'s bits gives `v`'s low bits. */
  lemma {:induction false} ExtractBitsOf(c: Circuit, st: State, p: char, v: int, n: nat)
    requires Fits(c, st)
    requires forall i :: 0 <= i < n ==> Name(p, i) in st && st[Name(p, i)] == Bit(v, i)
    ensures ExtractBits(c, st, p, n) == Some(LowBits(v, n))
  {
    if n > 0 {
      ExtractBitsOf(c, st, p, v, n - 1);
      var w := Name(p, n - 1);
      assert w in st && st[w] == Bit(v, n - 1);
      assert ExtractBits(c, st, p, n)
             == Some(LowBits(v, n - 1) + if st[w] then PyOps.Pow2(n - 1) else 0);
    }
  }

  /** `extract_num(p)` after `set_num(p, v)` gives `v` modulo 2^num_size,
      for any prefix but 'z', which reads one bit more than `set_num`
      writes. */
  lemma ExtractAfterSet(c: Circuit, st: State, p: char, v: int)
    requires Fits(c, st) && p != 'z' && SetNum(c, st, p, v).Some?
    ensures ExtractNum(c, SetNum(c, st, p, v).value, p) == Some(v % PyOps.Pow2(SetWidth(c)))
  {
    var s := SetNum(c, st, p, v).value;
    ExtractBitsOf(c, s, p, v, SetWidth(c));
    LowBitsMod(v, SetWidth(c));
  }

  /** `setup(x, y)`: reset, then put `x` on the x wires and `y` on the y
      wires. */
  function Setup(c: Circuit, x: int, y: int): (r: Option<State>)
    ensures r.Some? ==> Fits(c, r.value)
    ensures r.Some? <==> forall i :: 0 <= i < SetWidth(c) ==> Name('x', i) in c.wires && Name('y', i) in c.wires
  {
    match SetNum(c, Reset(c), 'x', x)
    case None => None
    case Some(s) => SetNum(c, s, 'y', y)
  }

  /** After `setup(x, y)` the x wires read `x` and the y wires read `y`,
      each modulo 2^num_size: setting the y wires leaves the x wires alone. */
  lemma SetupReads(c: Circuit, x: int, y: int)
    requires Setup(c, x, y).Some?
    ensures ExtractNum(c, Setup(c, x, y).value, 'x') == Some(x % PyOps.Pow2(SetWidth(c)))
    ensures ExtractNum(c, Setup(c, x, y).value, 'y') == Some(y % PyOps.Pow2(SetWidth(c)))
  {
    var s := SetNum(c, Reset(c), 'x', x).value;
    var r := SetNum(c, s, 'y', y).value;
    forall i | 0 <= i < SetWidth(c)
      ensures Name('x', i) in r && r[Name('x', i)] == Bit(x, i)
    {
      assert Prefixed(Name('x', i), 'x');
    }
    ExtractBitsOf(c, r, 'x', x, SetWidth(c));
    LowBitsMod(x, SetWidth(c));
    ExtractAfterSet(c, s, 'y', y);
  }

  /** `sim()`: settle the circuit, then read the number on the z wires. */
  function Simulate(c: Circuit, st: State): (r: Option<int>)
    requires WellFormed(c) && Fits(c, st)
    ensures r.Some? <==> forall i :: 0 <= i < Width(c, 'z') ==> Name('z', i) in Sim(c, st)
    ensures r.Some? ==> 0 <= r.value < PyOps.Pow2(Width(c, 'z'))
  {
    ExtractNum(c, Sim(c, st), 'z')
  }
}

=== FILE: mirrors.dfy ===
/** 2023 day 13: lines of reflection in patterns of ash and rocks, exact or
    with a given number of smudges, and the summary value of a pattern. */
module Mirrors {
  import opened Wrappers
  import PyOps
  import AocUtil

  type Pattern = seq<seq<char>>

  /** Mismatches between paired rows, pair by pair, over the shorter side. */
  function PairDistance(left: Pattern, right: Pattern): nat
  {
    if |left| == 0 || |right| == 0 then 0
    else AocUtil.Distance(left[0], right[0]) + PairDistance(left[1..], right[1..])
  }

  /** The loop of `is_horizontal_reflection` with the distance so far. */
  function ReflectLoop(left: Pattern, right: Pattern, total: nat, smudges: nat): bool
  {
    if |left| == 0 || |right| == 0 then total == smudges
    else
      var total' := total + AocUtil.Distance(left[0], right[0]);
      if total' > smudges then false else ReflectLoop(left[1..], right[1..], total', smudges)
  }

  /** The rows above `row`, nearest first, and the rows from `row` down
      (`data[:row][::-1]` and `data[row:]`). */
  function Above(data: Pattern, row: nat): Pattern
  {
    PyOps.Reverse(data[..if row > |data| then |data| else row])
  }

  function Below(data: Pattern, row: nat): Pattern
  {
    data[if row > |data| then |data| else row..]
  }

  /** `is_horizontal_reflection(data, row, smudge_count)`. */
  function IsReflection(data: Pattern, row: nat, smudges: nat): bool
  {
    ReflectLoop(Above(data, row), Below(data, row), 0, smudges)
  }

  lemma {:induction false} ReflectLoopIff(left: Pattern, right: Pattern, total: nat, smudges: nat)
    requires total <= smudges
    ensures ReflectLoop(left, right, total, smudges) <==> total + PairDistance(left, right) == smudges
  {
    if |left| > 0 && |right| > 0 {
      var total' := total + AocUtil.Distance(left[0], right[0]);
      if total' <= smudges {
        ReflectLoopIff(left[1..], right[1..], total', smudges);
      }
    }
  }

  /** A line of reflection with `s` smudges is one where the rows mirrored
      about it, over the shorter side, differ in exactly `s` places in all;
      the early exit loses nothing. */
  lemma IsReflectionIff(data: Pattern, row: nat, smudges: nat)
    ensures IsReflection(data, row, smudges) <==> PairDistance(Above(data, row), Below(data, row)) == smudges
  {
    ReflectLoopIff(Above(data, row), Below(data, row), 0, smudges);
  }

  /** `is_horizontal_reflection_no_smudges`: every mirrored pair of rows is equal. */
  function NoSmudgesLoop(left: Pattern, right: Pattern): bool
  {
    if |left| == 0 || |right| == 0 then true
    else if left[0] != right[0] then false
    else NoSmudgesLoop(left[1..], right[1..])
  }

  function IsReflectionNoSmudges(data: Pattern, row: nat): bool
  {
    NoSmudgesLoop(Above(data, row), Below(data, row))
  }

  /** All rows have one width. */
  predicate Rectangular(data: Pattern)
  {
    forall i, j :: 0 <= i < |data| && 0 <= j < |data| ==> |data[i]| == |data[j]|
  }

  lemma {:induction false} NoSmudgesAgree(left: Pattern, right: Pattern)
    requires forall i, j :: 0 <= i < |left| && 0 <= j < |right| ==> |left[i]| == |right[j]|
    ensures NoSmudgesLoop(left, right) <==> PairDistance(left, right) == 0
  {
    if |left| > 0 && |right| > 0 {
      AocUtil.DistanceZero(left[0], right[0]);
      if AocUtil.Distance(left[0], right[0]) == 0 {
        assert left[0] == right[0];
      }
      NoSmudgesAgree(left[1..], right[1..]);
    }
  }

  /** With no smudges allowed the two checks agree on a rectangular pattern. */
  lemma NoSmudgesIsZero(data: Pattern, row: nat)
    requires Rectangular(data)
    ensures IsReflectionNoSmudges(data, row) == IsReflection(data, row, 0)
  {
    IsReflectionIff(data, row, 0);
    var left, right := Above(data, row), Below(data, row);
    forall i, j | 0 <= i < |left| && 0 <= j < |right|
      ensures |left[i]| == |right[j]|
    {
      var cut := if row > |data| then |data| else row;
      assert left[i] == data[cut - 1 - i] && right[j] == data[cut + j];
    }
    NoSmudgesAgree(left, right);
  }

  /** The split indices 1 .. n - 1 that are lines of reflection, in order. */
  function Reflections(data: Pattern, smudges: nat, n: nat): (r: seq<nat>)
    ensures forall i :: i in r <==> 1 <= i < n && IsReflection(data, i, smudges)
    ensures forall p, q :: 0 <= p < q < |r| ==> r[p] < r[q]
  {
    if n <= 1 then []
    else
      var rest := Reflections(data, smudges, n - 1);
      assert forall p :: 0 <= p < |rest| ==> rest[p] in rest;
      if IsReflection(data, n - 1, smudges) then rest + [n - 1] else rest
  }

  /** `Map(data, smudge_count)`. The rows must be non-empty: the column
      iterator never stops on an empty pattern (`AocUtil.TransposeAsWritten`). */
  datatype Map = Map(data: Pattern, horizontal: seq<nat>, vertical: seq<nat>)

  function MapOf(data: Pattern, smudges: nat): (m: Map)
    requires |data| > 0
    ensures forall i :: i in m.horizontal <==> 1 <= i < |data| && IsReflection(data, i, smudges)
    ensures forall i :: i in m.vertical <==>
      1 <= i < AocUtil.MinLen(data) && IsReflection(AocUtil.Transpose(data), i, smudges)
  {
    AocUtil.TransposeShape(data);
    var transposed := AocUtil.Transpose(data);
    Map(data, Reflections(data, smudges, |data|), Reflections(transposed, smudges, |transposed|))
  }

  function Sum(xs: seq<nat>): nat
  {
    if |xs| == 0 then 0 else xs[0] + Sum(xs[1..])
  }

  /** `sum(100 * horizontal) + sum(vertical)`: the list of rows is repeated a
      hundred times before it is summed. */
  function Value(m: Map): nat
  {
    Sum(Repeat(m.horizontal, 100)) + Sum(m.vertical)
  }

  function Repeat<T>(s: seq<T>, n: nat): seq<T>
  {
    if n == 0 then [] else s + Repeat(s, n - 1)
  }

  lemma {:induction false} SumAppend(a: seq<nat>, b: seq<nat>)
    ensures Sum(a + b) == Sum(a) + Sum(b)
  {
    if |a| > 0 {
      assert (a + b)[1..] == a[1..] + b;
      SumAppend(a[1..], b);
    } else {
      assert a + b == b;
    }
  }

  lemma {:induction false} SumRepeat(s: seq<nat>, n: nat)
    ensures Sum(Repeat(s, n)) == n * Sum(s)
  {
    if n > 0 {
      SumRepeat(s, n - 1);
      SumAppend(s, Repeat(s, n - 1));
      Scale(n - 1, Sum(s));
    }
  }

  lemma Scale(m: nat, x: nat)
    ensures (m + 1) * x == x + m * x
  {
  }

  /** The value is 100 times the sum of the horizontal lines plus the sum of the vertical ones. */
  lemma ValueIs(m: Map)
    ensures Value(m) == 100 * Sum(m.horizontal) + Sum(m.vertical)
  {
    SumRepeat(m.horizontal, 100);
  }

  /** `problem`: a blank line closes the pattern read so far; at the end a
      pending pattern counts only if it has more than one row. A blank line
      with no pattern pending would make the column iterator run forever
      (None). */
  function Problem(lines: seq<seq<char>>, smudges: nat): Option<nat>
  {
    ProblemFrom(lines, smudges, [], 0)
  }

  /** Adds the value of a finished pattern to the running total. */
  function Close(data: Pattern, smudges: nat, total: nat): nat
    requires |data| > 0
  {
    total + Value(MapOf(data, smudges))
  }

  function ProblemFrom(lines: seq<seq<char>>, smudges: nat, data: Pattern, total: nat): Option<nat>
  {
    if |lines| == 0 then Some(if |data| > 1 then Close(data, smudges, total) else total)
    else if |lines[0]| == 0 then
      (if |data| == 0 then None
       else ProblemFrom(lines[1..], smudges, [], Close(data, smudges, total)))
    else ProblemFrom(lines[1..], smudges, data + [lines[0]], total)
  }

  /** No two blank lines in a row. */
  predicate NoDoubleBlank(lines: seq<seq<char>>)
  {
    forall k :: 1 <= k < |lines| ==> |lines[k - 1]| > 0 || |lines[k]| > 0
  }

  /** A blank line with no pending pattern is the only way not to finish. */
  lemma {:induction false} ProblemFinishes(lines: seq<seq<char>>, smudges: nat, data: Pattern, total: nat)
    requires NoDoubleBlank(lines)
    requires |lines| > 0 && |lines[0]| == 0 ==> |data| > 0
    ensures ProblemFrom(lines, smudges, data, total).Some?
    ensures ProblemFrom(lines, smudges, data, total).value >= total
  {
    if |lines| > 0 {
      var rest := lines[1..];
      assert NoDoubleBlank(rest) by {
        forall k | 1 <= k < |rest| ensures |rest[k - 1]| > 0 || |rest[k]| > 0 {
          assert rest[k - 1] == lines[k] && rest[k] == lines[k + 1];
        }
      }
      if |lines[0]| == 0 {
        var total' := Close(data, smudges, total);
        assert |rest| > 0 ==> |rest[0]| > 0 by {
          if |rest| > 0 { assert rest[0] == lines[1]; }
        }
        ProblemFinishes(rest, smudges, [], total');
        assert ProblemFrom(lines, smudges, data, total) == ProblemFrom(rest, smudges, [], total');
      } else {
        var data' := data + [lines[0]];
        ProblemFinishes(rest, smudges, data', total);
        assert ProblemFrom(lines, smudges, data, total) == ProblemFrom(rest, smudges, data', total);
      }
    }
  }

  /** Input without two blank lines in a row, starting with a pattern, always gets an answer. */
  lemma ProblemAnswers(lines: seq<seq<char>>, smudges: nat)
    requires NoDoubleBlank(lines)
    requires |lines| > 0 ==> |lines[0]| > 0
    ensures Problem(lines, smudges).Some?
  {
    ProblemFinishes(lines, smudges, [], 0);
  }

  /** Two equal rows reflect about the line between them; their two columns
      "##" and ".." do not. */
  lemma Example()
    ensures Value(MapOf(["#.", "#."], 0)) == 100
  {
    var data: Pattern := ["#.", "#."];
    assert Above(data, 1) == ["#."] && Below(data, 1) == ["#."];
    AocUtil.TransposeShape(data);
    var t := AocUtil.Transpose(data);
    assert AocUtil.MinLen(data) == 2;
    assert t[0] == "##" && t[1] == "..";
    assert Above(t, 1) == ["##"] && Below(t, 1) == [".."];
    assert AocUtil.Distance("##", "..") == 2;
    var m := MapOf(data, 0);
    assert m.horizontal == [1];
    assert m.vertical == [];
    ValueIs(m);
  }
}

=== FILE: monkey_market.dfy ===
/** 2024 day 22: the buyers' pseudo-random secret numbers, the ring buffer of
    recent price changes, and the first-offer recording of part 2. */
module MonkeyMarket {
  import opened Wrappers
  import PyOps

  const Modulus: nat := 16777216

  /** `mix`: bitwise xor of the two numbers. */
  function Mix(number: nat, secret: nat): nat
  {
    PyOps.Xor(number, secret)
  }

  /** `prune`: the remainder modulo 2^24. */
  function Prune(number: nat): (r: nat)
    ensures r < Modulus
    ensures number < Modulus ==> r == number
  {
    number % Modulus
  }

  /** `evolve`: multiply by 64, divide by 32, multiply by 2048, each step mixed and pruned. */
  function Evolve(number: nat): (r: nat)
    ensures r < Modulus
  {
    var a := Prune(Mix(number * 64, number));
    var b := Prune(Mix(a / 32, a));
    Prune(Mix(b * 2048, b))
  }

  /** Mixing a number into itself gives 0, and mixing is symmetric. */
  lemma MixLaws(a: nat, b: nat)
    ensures Mix(a, a) == 0
    ensures Mix(a, b) == Mix(b, a)
  {
    PyOps.XorSelf(a);
    PyOps.XorComm(a, b);
  }

  /** Zero is a fixed point of the generator. */
  lemma EvolveZero()
    ensures Evolve(0) == 0
  {
  }

  /** The secret after `k` evolutions. */
  function EvolveN(number: nat, k: nat): (r: nat)
    ensures k > 0 ==> r < Modulus
  {
    if k == 0 then number else Evolve(EvolveN(number, k - 1))
  }

  /** Part 1: the sum of every buyer's 2000th secret. */
  function Part1(numbers: seq<nat>): nat
  {
    if |numbers| == 0 then 0 else EvolveN(numbers[0], 2000) + Part1(numbers[1..])
  }

  lemma {:induction false} Part1Bound(numbers: seq<nat>)
    ensures Part1(numbers) < Modulus * (|numbers| + 1)
  {
    if |numbers| > 0 {
      Part1Bound(numbers[1..]);
    }
  }

  /** `CircularArray`: `maxsize` slots, initially None, and the next slot `i`. */
  datatype Ring<T> = Ring(maxsize: nat, data: seq<Option<T>>, i: nat)

  /** The shape the constructor gives; a zero size would make `add` fail. */
  predicate WellFormed<T>(c: Ring<T>)
  {
    c.maxsize > 0 && |c.data| == c.maxsize && c.i < c.maxsize
  }

  function NewRing<T>(maxsize: nat): (c: Ring<T>)
    ensures maxsize > 0 ==> WellFormed(c)
  {
    Ring(maxsize, seq(maxsize, _ => None), 0)
  }

  /** `add`: overwrite slot `i` and advance `i` modulo the size. */
  function Add<T>(c: Ring<T>, v: T): (r: Ring<T>)
    requires WellFormed(c)
    ensures WellFormed(r) && r.maxsize == c.maxsize
  {
    c.(data := c.data[c.i := Some(v)], i := if c.i + 1 == c.maxsize then 0 else c.i + 1)
  }

  /** `last`: the slot before `i`, wrapping round. */
  function Last<T>(c: Ring<T>): Option<T>
    requires WellFormed(c)
  {
    c.data[if c.i == 0 then c.maxsize - 1 else c.i - 1]
  }

  /** The indices used by `add` and `last` are Python's `(i+1) % maxsize`
      and `(i+maxsize-1) % maxsize`; the index stays in `[0, maxsize)`. */
  lemma RingIndices<T>(c: Ring<T>, v: T)
    requires WellFormed(c)
    ensures Add(c, v).i == (c.i + 1) % c.maxsize
    ensures Last(c) == c.data[(c.i + c.maxsize - 1) % c.maxsize]
  {
    var n := c.maxsize;
    if c.i + 1 == n {
      PyOps.ModUnique(c.i + 1, n, 1, 0);
    } else {
      PyOps.ModUnique(c.i + 1, n, 0, c.i + 1);
    }
    if c.i == 0 {
      PyOps.ModUnique(c.i + n - 1, n, 0, n - 1);
    } else {
      PyOps.ModUnique(c.i + n - 1, n, 1, c.i - 1);
    }
  }

  /** `as_tuple`: the slots from `i` to the end, then those before `i`. */
  function AsTuple<T>(c: Ring<T>): (r: seq<Option<T>>)
    requires WellFormed(c)
    ensures |r| == c.maxsize
  {
    c.data[c.i..] + c.data[..c.i]
  }

  /** `last()` returns the value just added. */
  lemma LastAfterAdd<T>(c: Ring<T>, v: T)
    requires WellFormed(c)
    ensures Last(Add(c, v)) == Some(v)
  {
  }

  /** Adding shifts the tuple left by one and puts the new value last. */
  lemma AsTupleAfterAdd<T>(c: Ring<T>, v: T)
    requires WellFormed(c)
    ensures AsTuple(Add(c, v)) == AsTuple(c)[1..] + [Some(v)]
  {
    var d' := c.data[c.i := Some(v)];
    if c.i + 1 < c.maxsize {
      assert d'[c.i + 1..] == c.data[c.i + 1..];
      assert d'[..c.i + 1] == c.data[..c.i] + [Some(v)];
      assert AsTuple(c)[1..] == c.data[c.i + 1..] + c.data[..c.i];
    } else {
      assert d'[..c.maxsize] == c.data[..c.i] + [Some(v)];
    }
  }

  /** The values added, oldest first. */
  function AddAll<T>(c: Ring<T>, vs: seq<T>): (r: Ring<T>)
    requires WellFormed(c)
    ensures WellFormed(r) && r.maxsize == c.maxsize
  {
    if |vs| == 0 then c else Add(AddAll(c, vs[..|vs| - 1]), vs[|vs| - 1])
  }

  /** The last `n` of `vs`, oldest first, padded in front with None while fewer than `n` exist. */
  function Window<T>(n: nat, vs: seq<T>): (w: seq<Option<T>>)
    ensures |w| == n
  {
    if |vs| >= n then seq(n, k requires 0 <= k < n => Some(vs[|vs| - n + k]))
    else seq(n - |vs|, _ => None) + seq(|vs|, k requires 0 <= k < |vs| => Some(vs[k]))
  }

  lemma WindowSnoc<T>(n: nat, vs: seq<T>, v: T)
    requires n > 0
    ensures Window(n, vs + [v]) == Window(n, vs)[1..] + [Some(v)]
  {
    var a, b := Window(n, vs + [v]), Window(n, vs)[1..] + [Some(v)];
    forall k | 0 <= k < n
      ensures a[k] == b[k]
    {
      WindowAt(n, vs + [v], k);
      if k < n - 1 {
        WindowAt(n, vs, k + 1);
        assert b[k] == Window(n, vs)[k + 1];
      }
    }
  }

  /** Slot `k` of the window holds the value added `n - k` additions ago, if any. */
  lemma WindowAt<T>(n: nat, vs: seq<T>, k: nat)
    requires k < n
    ensures Window(n, vs)[k] == if k + |vs| >= n then Some(vs[k + |vs| - n]) else None
  {
  }

  /** `as_tuple` lists the last `maxsize` values added, oldest first (None
      standing for slots not yet written). */
  lemma {:induction false} AsTupleHistory<T>(n: nat, vs: seq<T>)
    requires n > 0
    ensures AsTuple(AddAll(NewRing<T>(n), vs)) == Window(n, vs)
  {
    if |vs| > 0 {
      var init := vs[..|vs| - 1];
      AsTupleHistory(n, init);
      AsTupleAfterAdd(AddAll(NewRing<T>(n), init), vs[|vs| - 1]);
      WindowSnoc(n, init, vs[|vs| - 1]);
      assert init + [vs[|vs| - 1]] == vs;
    }
  }

  /** The price changes between consecutive prices. */
  function Changes(prices: seq<int>): (cs: seq<int>)
    ensures |cs| == if |prices| == 0 then 0 else |prices| - 1
  {
    if |prices| <= 1 then [] else [prices[1] - prices[0]] + Changes(prices[1..])
  }

  lemma {:induction false} ChangesAt(prices: seq<int>, k: nat)
    requires k + 1 < |prices|
    ensures Changes(prices)[k] == prices[k + 1] - prices[k]
  {
    if k > 0 {
      ChangesAt(prices[1..], k - 1);
    }
  }

  /** A window of changes as a dictionary key. */
  type Key = seq<Option<int>>

  /** The part-2 loop for one buyer from loop round `j` on: the price before
      round `j` is `prices[j]`, `ring` holds the changes so far, and a window
      is recorded at round `j` only when `j >= threshold` and it has not been
      recorded before. */
  function RecordFrom(prices: seq<int>, threshold: nat, j: nat, ring: Ring<int>, recorded: map<Key, int>): map<Key, int>
    requires WellFormed(ring) && j < |prices|
    decreases |prices| - j
  {
    if j + 1 >= |prices| then recorded
    else
      var price := prices[j + 1];
      var ring' := Add(ring, price - prices[j]);
      var key := AsTuple(ring');
      var recorded' := if j >= threshold && key !in recorded then recorded[key := price] else recorded;
      RecordFrom(prices, threshold, j + 1, ring', recorded')
  }

  /** The four changes ending with the change into `prices[r + 1]`. */
  function ChangeWindow(prices: seq<int>, r: nat): Key
    requires r + 1 < |prices|
  {
    Window(4, Changes(prices)[..r + 1])
  }

  /** One buyer's recorded first offers, with a window size of 4. */
  function Record(prices: seq<int>, threshold: nat): map<Key, int>
  {
    if |prices| == 0 then map[] else RecordFrom(prices, threshold, 0, NewRing(4), map[])
  }

  /** A price recorded for a window is never replaced by a later one. */
  lemma {:induction false} RecordKeepsFirst(prices: seq<int>, threshold: nat, j: nat, ring: Ring<int>, recorded: map<Key, int>)
    requires WellFormed(ring) && j < |prices|
    ensures forall k :: k in recorded ==> (k in RecordFrom(prices, threshold, j, ring, recorded)
      && RecordFrom(prices, threshold, j, ring, recorded)[k] == recorded[k])
    decreases |prices| - j
  {
    if j + 1 < |prices| {
      var price := prices[j + 1];
      var ring' := Add(ring, price - prices[j]);
      var key := AsTuple(ring');
      var recorded' := if j >= threshold && key !in recorded then recorded[key := price] else recorded;
      RecordKeepsFirst(prices, threshold, j + 1, ring', recorded');
    }
  }

  /** Every round from `threshold` on records the window of the last four
      changes, unless an earlier round recorded it already. */
  lemma {:induction false} RecordHasWindows(prices: seq<int>, threshold: nat, j: nat, ring: Ring<int>, recorded: map<Key, int>)
    requires j < |prices| && ring == AddAll(NewRing(4), Changes(prices)[..j])
    ensures forall r :: j <= r && threshold <= r && r + 1 < |prices| ==>
      ChangeWindow(prices, r) in RecordFrom(prices, threshold, j, ring, recorded)
    decreases |prices| - j
  {
    if j + 1 < |prices| {
      var price := prices[j + 1];
      var ring' := Add(ring, price - prices[j]);
      var key := AsTuple(ring');
      var recorded' := if j >= threshold && key !in recorded then recorded[key := price] else recorded;
      RecordStepRing(prices, j, ring);
      RecordHasWindows(prices, threshold, j + 1, ring', recorded');
      RecordKeepsFirst(prices, threshold, j + 1, ring', recorded');
      var result := RecordFrom(prices, threshold, j, ring, recorded);
      assert result == RecordFrom(prices, threshold, j + 1, ring', recorded');
      assert j >= threshold ==> key in recorded';
    }
  }

  /** The ring after round `j` holds the window of the changes up to `j`. */
  lemma RecordStepRing(prices: seq<int>, j: nat, ring: Ring<int>)
    requires j + 1 < |prices| && ring == AddAll(NewRing(4), Changes(prices)[..j])
    ensures Add(ring, prices[j + 1] - prices[j]) == AddAll(NewRing(4), Changes(prices)[..j + 1])
    ensures AsTuple(Add(ring, prices[j + 1] - prices[j])) == ChangeWindow(prices, j)
  {
    RingAfterRound(prices, j, ring);
    AsTupleHistory(4, Changes(prices)[..j + 1]);
  }

  lemma RingAfterRound(prices: seq<int>, j: nat, ring: Ring<int>)
    requires j + 1 < |prices| && ring == AddAll(NewRing(4), Changes(prices)[..j])
    ensures Add(ring, prices[j + 1] - prices[j]) == AddAll(NewRing(4), Changes(prices)[..j + 1])
  {
    var cs := Changes(prices);
    ChangesAt(prices, j);
    var c: Ring<int> := NewRing(4);
    var upto, d := cs[..j + 1], prices[j + 1] - prices[j];
    assert |upto| - 1 == j;
    assert upto[..|upto| - 1] == cs[..j] && upto[|upto| - 1] == d;
    AddAllSnoc(c, upto);
    assert AddAll(c, upto) == Add(AddAll(c, upto[..|upto| - 1]), upto[|upto| - 1]);
    assert AddAll(c, upto[..|upto| - 1]) == ring;
  }

  lemma AddAllSnoc<T>(c: Ring<T>, vs: seq<T>)
    requires WellFormed(c) && |vs| > 0
    ensures AddAll(c, vs) == Add(AddAll(c, vs[..|vs| - 1]), vs[|vs| - 1])
  {
  }

  /** `if j >= 4`: the recording as written. */
  function BuyerOffersAsWritten(prices: seq<int>): map<Key, int>
  {
    Record(prices, 4)
  }

  /** `if j >= 3`: every window of four complete changes is a candidate. */
  function BuyerOffers(prices: seq<int>): map<Key, int>
  {
    Record(prices, 3)
  }

  /** Each full window of four consecutive changes is recorded for the buyer. */
  lemma BuyerOffersComplete(prices: seq<int>, r: nat)
    requires 3 <= r && r + 1 < |prices|
    ensures ChangeWindow(prices, r) in BuyerOffers(prices)
  {
    assert Changes(prices)[..0] == [];
    RecordHasWindows(prices, 3, 0, NewRing(4), map[]);
  }

  /** Prices 0, 1, 2, 3, 4: the four changes of +1 are complete after the
      fourth round, but the recording as written never stores them. */
  lemma FirstWindowMissed()
    ensures BuyerOffersAsWritten([0, 1, 2, 3, 4]) == map[]
    ensures BuyerOffers([0, 1, 2, 3, 4]) == map[[Some(1), Some(1), Some(1), Some(1)] := 4]
  {
    var p: seq<int> := [0, 1, 2, 3, 4];
    var r0 := NewRing<int>(4);
    var r1 := Add(r0, 1);
    var r2 := Add(r1, 1);
    var r3 := Add(r2, 1);
    var r4 := Add(r3, 1);
    assert AsTuple(r4) == [Some(1), Some(1), Some(1), Some(1)];
    assert RecordFrom(p, 4, 3, r3, map[]) == map[];
    assert RecordFrom(p, 3, 3, r3, map[]) == map[[Some(1), Some(1), Some(1), Some(1)] := 4];
  }

  /** Every change between two single-digit prices lies in [-9, 9]. */
  lemma ChangesInRange(prices: seq<int>, k: nat)
    requires forall p :: 0 <= p < |prices| ==> 0 <= prices[p] <= 9
    requires k < |Changes(prices)|
    ensures -9 <= Changes(prices)[k] <= 9
  {
    ChangesAt(prices, k);
  }

  /** A buyer's prices: the last digit of each secret, from the initial one on. */
  function BuyerPrices(init: nat, rounds: nat): (p: seq<int>)
    ensures |p| == rounds + 1
    ensures forall k :: 0 <= k < |p| ==> 0 <= p[k] <= 9
  {
    seq(rounds + 1, k requires 0 <= k <= rounds => EvolveN(init, k) % 10)
  }

  /** The bananas a window earns across all buyers, absent buyers adding nothing. */
  function Total(key: Key, offers: seq<map<Key, int>>): int
  {
    if |offers| == 0 then 0
    else (if key in offers[0] then offers[0][key] else 0) + Total(key, offers[1..])
  }

  /** The loop over the recorded windows keeping the best total seen. */
  function BestFrom(best: int, keys: seq<Key>, offers: seq<map<Key, int>>): (r: int)
    decreases |keys|
    ensures r >= best
    ensures forall k :: 0 <= k < |keys| ==> r >= Total(keys[k], offers)
    ensures r == best || exists k :: 0 <= k < |keys| && r == Total(keys[k], offers)
  {
    if |keys| == 0 then best
    else
      var total := Total(keys[0], offers);
      var r := BestFrom(if total > best then total else best, keys[1..], offers);
      assert forall k :: 1 <= k < |keys| ==> keys[k] == keys[1..][k - 1];
      r
  }

  /** Every buyer's recorded windows: with the threshold as written
      (`j >= 4`) or the corrected one (`j >= 3`). */
  function Offers(numbers: seq<nat>, asWritten: bool): (o: seq<map<Key, int>>)
    ensures |o| == |numbers|
    ensures forall b :: 0 <= b < |numbers| ==>
              o[b] == Record(BuyerPrices(numbers[b], 2000), if asWritten then 4 else 3)
  {
    seq(|numbers|, b requires 0 <= b < |numbers| =>
      if asWritten then BuyerOffersAsWritten(BuyerPrices(numbers[b], 2000))
      else BuyerOffers(BuyerPrices(numbers[b], 2000)))
  }

  /** Part 2 as computed, with `j >= 4`, over the buyers' starting secrets and
      the recorded windows in the order the dictionary yields them: the best
      total of any of those windows, or 0 when none earns anything. */
  function Part2AsWritten(numbers: seq<nat>, keys: seq<Key>): (r: int)
    ensures r >= 0
    ensures forall k :: 0 <= k < |keys| ==> r >= Total(keys[k], Offers(numbers, true))
    ensures r == 0 || exists k :: 0 <= k < |keys| && r == Total(keys[k], Offers(numbers, true))
  {
    BestFrom(0, keys, Offers(numbers, true))
  }

  /** Part 2 with the corrected threshold `j >= 3`. */
  function Part2(numbers: seq<nat>, keys: seq<Key>): (r: int)
    ensures r >= 0
    ensures forall k :: 0 <= k < |keys| ==> r >= Total(keys[k], Offers(numbers, false))
    ensures r == 0 || exists k :: 0 <= k < |keys| && r == Total(keys[k], Offers(numbers, false))
  {
    BestFrom(0, keys, Offers(numbers, false))
  }
}

=== FILE: mul_tokens.dfy ===
/** 2024 day 3: picking `mul(X,Y)`, `do()` and `don't()` instructions out of
    corrupted memory with a regular expression, and adding up the products,
    in part 2 only while the last switch seen was `do()`. */
module MulTokens {
  import opened Wrappers
  import Decimal
  import PyStr

  /** The three kinds of text the expression recognises; the operands of a
      `mul` are the digit strings between its parentheses. */
  datatype Token = Mul(x: string, y: string) | Do | Dont

  /** A match: the token and where its text ends. */
  datatype Found = Found(token: Token, end: nat)

  function Text(t: Token): string
  {
    match t
    case Mul(x, y) => "mul(" + x + "," + y + ")"
    case Do => "do()"
    case Dont => "don't()"
  }

  /** `[\d]*`: any number of ASCII digits, none included. */
  predicate AllDigits(s: string)
  {
    forall k :: 0 <= k < |s| ==> Decimal.IsDigit(s[k])
  }

  /** A token the expression can produce when each operand has at least
      `least` digits: 0 for the `*` the source writes. */
  predicate WellFormed(t: Token, least: nat)
  {
    t.Mul? ==> AllDigits(t.x) && AllDigits(t.y) && |t.x| >= least && |t.y| >= least
  }

  /** Every token of `ts` well formed, peeled from the front as the search finds them. */
  predicate AllWellFormed(ts: seq<Token>, least: nat)
  {
    |ts| > 0 ==> WellFormed(ts[0], least) && AllWellFormed(ts[1..], least)
  }

  lemma {:induction false} AllWellFormedIff(ts: seq<Token>, least: nat)
    ensures AllWellFormed(ts, least) <==> forall k :: 0 <= k < |ts| ==> WellFormed(ts[k], least)
  {
    if |ts| > 0 {
      AllWellFormedIff(ts[1..], least);
      assert forall k :: 1 <= k < |ts| ==> ts[k] == ts[1..][k - 1];
    }
  }

  /** The `n` characters from `p` on are digits. */
  predicate DigitsAt(s: string, p: nat, n: nat)
  {
    p + n <= |s| && forall i :: p <= i < p + n ==> Decimal.IsDigit(s[i])
  }

  /** The longest run of digits starting at `p`, as a greedy `[\d]*` takes it. */
  function DigitRun(s: string, p: nat): (n: nat)
    requires p <= |s|
    ensures DigitsAt(s, p, n)
    ensures p + n < |s| ==> !Decimal.IsDigit(s[p + n])
    decreases |s| - p
  {
    if p < |s| && Decimal.IsDigit(s[p]) then 1 + DigitRun(s, p + 1) else 0
  }

  /** The first alternative, `mul\([\d]*,[\d]*\)` (or `+` for `least` 1), at `p`. */
  function MulAt(s: string, p: nat, least: nat): (r: Option<Found>)
    requires p <= |s|
    ensures r.Some? ==> p < r.value.end <= |s|
  {
    if PyStr.StartsAt(s, p, "mul(") then MulArgs(s, p + 4, least) else None
  }

  /** The operands and closing parenthesis of a `mul`, from `a` on. */
  function MulArgs(s: string, a: nat, least: nat): (r: Option<Found>)
    requires a <= |s|
    ensures r.Some? ==> a < r.value.end <= |s|
  {
    var c := a + DigitRun(s, a);
    if !(c < |s| && s[c] == ',') then None
    else
      var b := c + 1;
      var e := b + DigitRun(s, b);
      if !(e < |s| && s[e] == ')') then None
      else if c - a < least || e - b < least then None
      else Some(Found(Mul(s[a..c], s[b..e]), e + 1))
  }

  /** The alternatives tried in the order the expression lists them. */
  function MatchAt(s: string, p: nat, least: nat): (r: Option<Found>)
    requires p <= |s|
    ensures r.Some? ==> p < r.value.end <= |s|
  {
    match MulAt(s, p, least)
    case Some(f) => Some(f)
    case None =>
      if PyStr.StartsAt(s, p, "do()") then Some(Found(Do, p + 4))
      else if PyStr.StartsAt(s, p, "don't()") then Some(Found(Dont, p + 7))
      else None
  }

  lemma {:induction false} DigitRunExact(s: string, p: nat, n: nat)
    requires DigitsAt(s, p, n)
    requires p + n < |s| && !Decimal.IsDigit(s[p + n])
    ensures DigitRun(s, p) == n
    decreases n
  {
    if n > 0 {
      assert Decimal.IsDigit(s[p]);
      DigitRunExact(s, p + 1, n - 1);
    }
  }

  /** Digits written at `a` make the operand digits. */
  lemma {:induction false} DigitsWritten(s: string, a: nat, x: string)
    requires PyStr.StartsAt(s, a, x) && AllDigits(x)
    ensures DigitsAt(s, a, |x|)
  {
    forall i | a <= i < a + |x|
      ensures Decimal.IsDigit(s[i])
    {
      assert s[a + (i - a)] == x[i - a];
    }
  }

  /** The slice of a digit run is made of digits and is written there. */
  lemma {:induction false} DigitsSliced(s: string, a: nat, c: nat)
    requires a <= c && DigitsAt(s, a, c - a)
    ensures AllDigits(s[a..c]) && PyStr.StartsAt(s, a, s[a..c])
  {
    assert forall i :: 0 <= i < c - a ==> s[a..c][i] == s[a + i];
  }

  /** Text starts with `u + v` where it starts with `u` and then `v`. */
  lemma {:induction false} StartsAtAppend(s: string, p: nat, u: string, v: string)
    ensures PyStr.StartsAt(s, p, u + v) <==> PyStr.StartsAt(s, p, u) && PyStr.StartsAt(s, p + |u|, v)
  {
    var w := u + v;
    if PyStr.StartsAt(s, p, u) && PyStr.StartsAt(s, p + |u|, v) {
      forall i | 0 <= i < |w|
        ensures s[p + i] == w[i]
      {
        if i < |u| {
          assert s[p + i] == u[i];
        } else {
          assert s[p + |u| + (i - |u|)] == v[i - |u|];
        }
      }
      assert PyStr.StartsAt(s, p, w);
    }
    if PyStr.StartsAt(s, p, w) {
      forall i | 0 <= i < |u|
        ensures s[p + i] == u[i]
      {
        assert s[p + i] == w[i];
      }
      forall i | 0 <= i < |v|
        ensures s[p + |u| + i] == v[i]
      {
        assert s[p + (|u| + i)] == w[|u| + i];
      }
      assert PyStr.StartsAt(s, p, u) && PyStr.StartsAt(s, p + |u|, v);
    }
  }

  lemma {:induction false} StartsAtChar(s: string, p: nat, c: char)
    ensures PyStr.StartsAt(s, p, [c]) <==> p < |s| && s[p] == c
  {
    if PyStr.StartsAt(s, p, [c]) {
      assert s[p + 0] == [c][0];
    }
    if p < |s| && s[p] == c {
      forall i | 0 <= i < 1
        ensures s[p + i] == [c][i]
      {
        assert i == 0;
      }
    }
  }

  /** A `mul` is written at `p` exactly when its five pieces follow each other there. */
  lemma {:induction false} MulPieces(s: string, p: nat, x: string, y: string)
    ensures PyStr.StartsAt(s, p, Text(Mul(x, y))) <==>
      PyStr.StartsAt(s, p, "mul(") && PyStr.StartsAt(s, p + 4, x) && p + 4 + |x| < |s| && s[p + 4 + |x|] == ','
      && PyStr.StartsAt(s, p + 5 + |x|, y) && p + 5 + |x| + |y| < |s| && s[p + 5 + |x| + |y|] == ')'
  {
    var open := "mul(";
    assert Text(Mul(x, y)) == (((open + x) + [',']) + y) + [')'];
    StartsAtAppend(s, p, (((open + x) + [',']) + y), [')']);
    StartsAtAppend(s, p, ((open + x) + [',']), y);
    StartsAtAppend(s, p, open + x, [',']);
    StartsAtAppend(s, p, open, x);
    StartsAtChar(s, p + 4 + |x|, ',');
    StartsAtChar(s, p + 5 + |x| + |y|, ')');
  }

  /** The pieces of a `mul` the first alternative matched. */
  lemma {:induction false} MulSound(s: string, p: nat, least: nat)
    requires p <= |s| && MulAt(s, p, least).Some?
    ensures var f := MulAt(s, p, least).value;
      WellFormed(f.token, least) && PyStr.StartsAt(s, p, Text(f.token)) && f.end == p + |Text(f.token)|
  {
    var a := p + 4;
    var c := a + DigitRun(s, a);
    var b := c + 1;
    var e := b + DigitRun(s, b);
    var x, y := s[a..c], s[b..e];
    assert MulArgs(s, a, least) == Some(Found(Mul(x, y), e + 1));
    DigitsSliced(s, a, c);
    DigitsSliced(s, b, e);
    MulPieces(s, p, x, y);
    TextLength(Mul(x, y));
  }

  /** What the expression finds at `p` is there in the text. */
  lemma {:induction false} MatchSound(s: string, p: nat, least: nat)
    requires p <= |s| && MatchAt(s, p, least).Some?
    ensures var f := MatchAt(s, p, least).value;
      WellFormed(f.token, least) && PyStr.StartsAt(s, p, Text(f.token)) && f.end == p + |Text(f.token)|
  {
    if MulAt(s, p, least).Some? {
      MulSound(s, p, least);
    }
  }

  lemma {:induction false} ArgsComplete(s: string, a: nat, x: string, y: string, least: nat)
    requires a <= |s| && WellFormed(Mul(x, y), least)
    requires PyStr.StartsAt(s, a, x) && a + |x| < |s| && s[a + |x|] == ','
    requires PyStr.StartsAt(s, a + |x| + 1, y) && a + |x| + 1 + |y| < |s| && s[a + |x| + 1 + |y|] == ')'
    ensures MulArgs(s, a, least) == Some(Found(Mul(x, y), a + |x| + |y| + 2))
  {
    DigitsWritten(s, a, x);
    DigitsWritten(s, a + |x| + 1, y);
    DigitRunExact(s, a, |x|);
    DigitRunExact(s, a + |x| + 1, |y|);
    SliceWritten(s, a, x);
    SliceWritten(s, a + |x| + 1, y);
  }

  lemma {:induction false} SliceWritten(s: string, a: nat, x: string)
    requires PyStr.StartsAt(s, a, x)
    ensures s[a..a + |x|] == x
  {
    var v := s[a..a + |x|];
    assert forall i :: 0 <= i < |x| ==> v[i] == x[i];
  }

  lemma {:induction false} MulComplete(s: string, p: nat, x: string, y: string, least: nat)
    requires p <= |s| && WellFormed(Mul(x, y), least) && PyStr.StartsAt(s, p, Text(Mul(x, y)))
    ensures MulAt(s, p, least) == Some(Found(Mul(x, y), p + |Text(Mul(x, y))|))
  {
    MulPieces(s, p, x, y);
    ArgsComplete(s, p + 4, x, y, least);
    TextLength(Mul(x, y));
  }

  /** Text starting with `d` is no `mul`. */
  lemma {:induction false} NotMul(s: string, p: nat, least: nat)
    requires p < |s| && s[p] == 'd'
    ensures MulAt(s, p, least) == None
  {
    assert !PyStr.StartsAt(s, p, "mul(") by {
      assert s[p + 0] != "mul("[0];
    }
  }

  lemma {:induction false} DontComplete(s: string, p: nat, least: nat)
    requires p <= |s| && PyStr.StartsAt(s, p, Text(Dont))
    ensures MatchAt(s, p, least) == Some(Found(Dont, p + 7))
  {
    assert s[p + 0] == Text(Dont)[0] && s[p + 2] == Text(Dont)[2];
    NotMul(s, p, least);
    assert !PyStr.StartsAt(s, p, "do()") by {
      assert s[p + 2] != "do()"[2];
    }
  }

  lemma {:induction false} DoComplete(s: string, p: nat, least: nat)
    requires p <= |s| && PyStr.StartsAt(s, p, Text(Do))
    ensures MatchAt(s, p, least) == Some(Found(Do, p + 4))
  {
    assert s[p + 0] == Text(Do)[0];
    NotMul(s, p, least);
  }

  /** A well-formed token written at `p` is exactly what the expression finds there. */
  lemma {:induction false} MatchComplete(s: string, p: nat, t: Token, least: nat)
    requires p <= |s| && WellFormed(t, least) && PyStr.StartsAt(s, p, Text(t))
    ensures MatchAt(s, p, least) == Some(Found(t, p + |Text(t)|))
  {
    match t
    case Mul(x, y) => MulComplete(s, p, x, y, least);
    case Do => DoComplete(s, p, least);
    case Dont => DontComplete(s, p, least);
  }

  /** `re.findall`: scan from the left, take a match and continue after it,
      or step one character on. */
  function FindFrom(s: string, p: nat, least: nat): seq<Token>
    requires p <= |s|
    decreases |s| - p
  {
    if p == |s| then []
    else
      match MatchAt(s, p, least)
      case Some(f) => [f.token] + FindFrom(s, f.end, least)
      case None => FindFrom(s, p + 1, least)
  }

  function FindAll(s: string, least: nat): seq<Token>
  {
    FindFrom(s, 0, least)
  }

  /** Every token found is well formed. */
  lemma {:induction false} FoundWellFormed(s: string, p: nat, least: nat)
    requires p <= |s|
    ensures AllWellFormed(FindFrom(s, p, least), least)
    decreases |s| - p
  {
    if p < |s| {
      match MatchAt(s, p, least)
      case Some(f) =>
        FindStep(s, p, f.token, least, f.end);
        MatchSound(s, p, least);
        FoundWellFormed(s, f.end, least);
        assert ([f.token] + FindFrom(s, f.end, least))[1..] == FindFrom(s, f.end, least);
      case None =>
        FoundWellFormed(s, p + 1, least);
    }
  }

  /** The tokens written one after another. */
  function Texts(ts: seq<Token>): string
  {
    if |ts| == 0 then "" else Text(ts[0]) + Texts(ts[1..])
  }

  /** A token found at `q` is followed by whatever is found after its end `k`. */
  lemma {:induction false} FindStep(s: string, q: nat, t: Token, least: nat, k: nat)
    requires q <= |s| && MatchAt(s, q, least) == Some(Found(t, k))
    ensures k <= |s|
    ensures FindFrom(s, q, least) == [t] + FindFrom(s, k, least)
  {
  }

  lemma {:induction false} TextLength(t: Token)
    ensures |Text(t)| == match t case Mul(x, y) => |x| + |y| + 6 case Do => 4 case Dont => 7
  {
  }

  /** A well-formed token written at `q` is found there, and the search goes on after it. */
  lemma {:induction false} FindCons(s: string, q: nat, t: Token, least: nat, k: nat, rest: seq<Token>)
    requires k == q + |Text(t)| && k <= |s| && WellFormed(t, least) && PyStr.StartsAt(s, q, Text(t))
    requires FindFrom(s, k, least) == rest
    ensures FindFrom(s, q, least) == [t] + rest
  {
    FindText(s, q, t, least, k);
  }

  lemma FindText(s: string, q: nat, t: Token, least: nat, k: nat)
    requires k == q + |Text(t)| && k <= |s| && WellFormed(t, least) && PyStr.StartsAt(s, q, Text(t))
    ensures FindFrom(s, q, least) == [t] + FindFrom(s, k, least)
  {
    MatchComplete(s, q, t, least);
    var m := MatchAt(s, q, least);
    assert m == Some(Found(t, k));
    FindStep(s, q, t, least, k);
  }

  /** Well-formed tokens written at `q` up to the end: the first, then the others up to the end. */
  lemma {:induction false} TextsSplit(s: string, q: nat, ts: seq<Token>, least: nat)
    requires |ts| > 0 && AllWellFormed(ts, least)
    requires PyStr.StartsAt(s, q, Texts(ts)) && q + |Texts(ts)| == |s|
    ensures WellFormed(ts[0], least) && AllWellFormed(ts[1..], least)
    ensures q + |Text(ts[0])| <= |s| && PyStr.StartsAt(s, q, Text(ts[0]))
    ensures PyStr.StartsAt(s, q + |Text(ts[0])|, Texts(ts[1..]))
    ensures q + |Text(ts[0])| + |Texts(ts[1..])| == |s|
  {
    assert Texts(ts) == Text(ts[0]) + Texts(ts[1..]);
    StartsAtAppend(s, q, Text(ts[0]), Texts(ts[1..]));
  }

  /** Scanning well-formed tokens written back to back up to the end of
      the text finds exactly those tokens. */
  lemma {:induction false} FindTexts(s: string, q: nat, ts: seq<Token>, least: nat)
    requires AllWellFormed(ts, least)
    requires PyStr.StartsAt(s, q, Texts(ts)) && q + |Texts(ts)| == |s|
    ensures FindFrom(s, q, least) == ts
    decreases |ts|
  {
    if |ts| > 0 {
      var t, rest := ts[0], ts[1..];
      TextsSplit(s, q, ts, least);
      var k := q + |Text(t)|;
      FindTexts(s, k, rest, least);
      FindCons(s, q, t, least, k, rest);
      assert [t] + rest == ts;
    } else {
      FindEnd(s, q, least);
    }
  }

  /** Nothing is found at the end of the text. */
  lemma {:induction false} FindEnd(s: string, q: nat, least: nat)
    requires q == |s|
    ensures FindFrom(s, q, least) == []
  {
  }

  /** Writing the tokens out and searching the text gives them back. */
  lemma {:induction false} FindAllTexts(ts: seq<Token>, least: nat)
    requires forall k :: 0 <= k < |ts| ==> WellFormed(ts[k], least)
    ensures FindAll(Texts(ts), least) == ts
  {
    AllWellFormedIff(ts, least);
    var s := Texts(ts);
    assert s[0..|s|] == s;
    FindTexts(s, 0, ts, least);
  }

  /** `int(x) * int(y)`, None when `int` rejects an empty operand. */
  function Product(x: string, y: string): Option<int>
  {
    match (Decimal.ParseInt(x), Decimal.ParseInt(y))
    case (Some(a), Some(b)) => Some(a * b)
    case _ => None
  }

  /** Whether the last switch among `ts` was `do()`; true before any switch. */
  function EnabledAfter(ts: seq<Token>): bool
  {
    if |ts| == 0 then true
    else
      match ts[|ts| - 1]
      case Do => true
      case Dont => false
      case Mul(_, _) => EnabledAfter(ts[..|ts| - 1])
  }

  /** Whether the instruction at `i` is added to the total. */
  predicate Counted(ts: seq<Token>, i: nat, part2: bool)
    requires i < |ts|
  {
    ts[i].Mul? && (!part2 || EnabledAfter(ts[..i]))
  }

  function Add(total: Option<int>, term: Option<int>): Option<int>
  {
    if total.Some? && term.Some? then Some(total.value + term.value) else None
  }

  /** The answer read off the instructions: the products of the counted
      `mul`s added up, or None when one of them cannot be read. */
  function Total(ts: seq<Token>, part2: bool): Option<int>
  {
    if |ts| == 0 then Some(0)
    else
      var i := |ts| - 1;
      var before := Total(ts[..i], part2);
      if Counted(ts, i, part2) then Add(before, Product(ts[i].x, ts[i].y)) else before
  }

  /** The classification of `problem`'s loop, on a token's text. `don't`
      must be tested first, as `don't()` also starts with `do`. */
  lemma {:induction false} Classify(t: Token)
    ensures PyStr.StartsWith(Text(t), "don't") <==> t.Dont?
    ensures PyStr.StartsWith(Text(t), "do") <==> t.Do? || t.Dont?
    ensures PyStr.StartsWith(Text(t), "mul") <==> t.Mul?
  {
    var w := Text(t);
    if t.Mul? {
      assert w[..3] == "mul" && w[0] == 'm';
    } else if t.Do? {
      assert w[..2] == "do" && w[2] == '(';
    } else {
      assert w[..5] == "don't" && w[..2] == "do" && w[0] == 'd';
    }
  }

  /** Testing for `do` before `don't` would read every `don't()` as `do()`. */
  lemma {:induction false} DoFirstMisreads()
    ensures PyStr.StartsWith(Text(Dont), "do")
  {
  }

  /** The operands as `command[4:-1].split(',')` cuts them out of a `mul`. */
  lemma {:induction false} Operands(x: string, y: string)
    requires AllDigits(x) && AllDigits(y)
    ensures var w := Text(Mul(x, y)); PyStr.Split(w[4..|w| - 1], ',') == [x, y]
  {
    var w := Text(Mul(x, y));
    assert w[4..|w| - 1] == x + [','] + y;
    assert PyStr.Free(x, ',') && PyStr.Free(y, ',') by {
      assert forall k :: 0 <= k < |x| ==> Decimal.IsDigit(x[k]);
      assert forall k :: 0 <= k < |y| ==> Decimal.IsDigit(y[k]);
    }
    PyStr.SplitAfter(x, ',', y);
    PyStr.SplitFree(y, ',');
  }

  /** Adding one instruction at the end. */
  lemma {:induction false} TotalSnoc(pre: seq<Token>, t: Token, part2: bool)
    ensures EnabledAfter(pre + [t]) == (if t.Mul? then EnabledAfter(pre) else t.Do?)
    ensures Total(pre + [t], part2) ==
      if t.Mul? && (!part2 || EnabledAfter(pre)) then Add(Total(pre, part2), Product(t.x, t.y))
      else Total(pre, part2)
  {
    var ts := pre + [t];
    assert ts[..|pre|] == pre && ts[|pre|] == t;
  }

  lemma {:induction false} TotalNone(ts: seq<Token>, i: nat, part2: bool)
    requires i <= |ts| && Total(ts[..i], part2) == None
    ensures Total(ts, part2) == None
    decreases |ts| - i
  {
    if i < |ts| {
      assert ts[..i + 1] == ts[..i] + [ts[i]];
      TotalSnoc(ts[..i], ts[i], part2);
      TotalNone(ts, i + 1, part2);
    } else {
      assert ts[..i] == ts;
    }
  }

  /** `x, y = command[4:-1].split(',')` and `int(x) * int(y)` on a `mul`. */
  method Evaluate(t: Token) returns (v: Option<int>)
    requires t.Mul? && WellFormed(t, 0)
    ensures v == Product(t.x, t.y)
  {
    var command := Text(t);
    Operands(t.x, t.y);
    var parts := PyStr.Split(command[4..|command| - 1], ',');
    var x, y := Decimal.ParseInt(parts[0]), Decimal.ParseInt(parts[1]);
    if x.None? || y.None? {
      return None;
    }
    return Some(x.value * y.value);
  }

  /** One pass of `problem`'s loop: classify the command by its prefix,
      switch `enabled`, or compute the product of a `mul` that counts
      (`Some(0)` standing for nothing added, None for a ValueError). */
  method Execute(t: Token, enabled: bool, part2: bool) returns (enabled': bool, term: Option<int>)
    requires WellFormed(t, 0)
    ensures enabled' == if t.Mul? then enabled else t.Do?
    ensures term == if t.Mul? && (!part2 || enabled) then Product(t.x, t.y) else Some(0)
  {
    var command := Text(t);
    Classify(t);
    enabled', term := enabled, Some(0);
    if PyStr.StartsWith(command, "don't") {
      enabled' := false;
    } else if PyStr.StartsWith(command, "do") {
      enabled' := true;
    } else if (!part2 || enabled) && PyStr.StartsWith(command, "mul") {
      term := Evaluate(t);
    }
  }

  /** What one pass of the loop does to the running total and switch. */
  lemma {:induction false} Advance(ts: seq<Token>, i: nat, part2: bool, sum: int, enabled: bool, enabled': bool, term: Option<int>)
    requires i < |ts| && Total(ts[..i], part2) == Some(sum) && enabled == EnabledAfter(ts[..i])
    requires enabled' == if ts[i].Mul? then enabled else ts[i].Do?
    requires term == if ts[i].Mul? && (!part2 || enabled) then Product(ts[i].x, ts[i].y) else Some(0)
    ensures enabled' == EnabledAfter(ts[..i + 1])
    ensures term.Some? ==> Total(ts[..i + 1], part2) == Some(sum + term.value)
    ensures term.None? ==> Total(ts, part2) == None
  {
    assert ts[..i + 1] == ts[..i] + [ts[i]];
    TotalSnoc(ts[..i], ts[i], part2);
    if term.None? {
      TotalNone(ts, i + 1, part2);
    }
  }

  /** `problem`'s loop over the commands found, stopping at the first
      ValueError. */
  method Interpret(ts: seq<Token>, part2: bool) returns (total: Option<int>)
    requires forall k :: 0 <= k < |ts| ==> WellFormed(ts[k], 0)
    ensures total == Total(ts, part2)
  {
    var sum := 0;
    var enabled := true;
    var i := 0;
    while i < |ts|
      invariant i <= |ts|
      invariant Total(ts[..i], part2) == Some(sum)
      invariant enabled == EnabledAfter(ts[..i])
    {
      var enabled', term := Execute(ts[i], enabled, part2);
      Advance(ts, i, part2, sum, enabled, enabled', term);
      if term.None? {
        return None;
      }
      sum, enabled, i := sum + term.value, enabled', i + 1;
    }
    assert ts[..i] == ts;
    return Some(sum);
  }

  /** `problem`: find the instructions in the text and interpret them. */
  function Problem(s: string, part2: bool, least: nat): Option<int>
  {
    Total(FindAll(s, least), part2)
  }

  /** In part 1 the switches change nothing: only the `mul`s count, so
      removing the switches, or the part 2 rule when there is no `don't()`,
      gives the same total. */
  lemma {:induction false} NoDontSameTotal(ts: seq<Token>)
    requires forall k :: 0 <= k < |ts| ==> !ts[k].Dont?
    ensures Total(ts, true) == Total(ts, false)
  {
    if |ts| > 0 {
      var i := |ts| - 1;
      NoDontSameTotal(ts[..i]);
      NeverDisabled(ts[..i]);
    }
  }

  lemma {:induction false} NeverDisabled(ts: seq<Token>)
    requires forall k :: 0 <= k < |ts| ==> !ts[k].Dont?
    ensures EnabledAfter(ts)
  {
    if |ts| > 0 {
      NeverDisabled(ts[..|ts| - 1]);
    }
  }

  /** Products of digit strings are never negative. */
  lemma {:induction false} ProductNonNegative(x: string, y: string)
    requires Product(x, y).Some? && AllDigits(x) && AllDigits(y)
    ensures Product(x, y).value >= 0
  {
    assert |x| > 0 && Decimal.IsDigit(x[0]) && |y| > 0 && Decimal.IsDigit(y[0]);
    var a, b := Decimal.ParseInt(x).value, Decimal.ParseInt(y).value;
    assert a >= 0 && b >= 0;
  }

  /** Part 2 adds a subset of part 1's non-negative products, so it is never larger. */
  lemma {:induction false} Part2AtMostPart1(ts: seq<Token>)
    requires forall k :: 0 <= k < |ts| ==> WellFormed(ts[k], 0)
    requires Total(ts, false).Some?
    ensures Total(ts, true).Some? && Total(ts, true).value <= Total(ts, false).value
  {
    if |ts| > 0 {
      var i := |ts| - 1;
      assert Total(ts[..i], false).Some?;
      Part2AtMostPart1(ts[..i]);
      if ts[i].Mul? {
        ProductNonNegative(ts[i].x, ts[i].y);
      }
    }
  }

  /** A `mul` right after `don't()` is not added in part 2. */
  lemma {:induction false} DontDisables(pre: seq<Token>, x: string, y: string)
    ensures Total(pre + [Dont, Mul(x, y)], true) == Total(pre, true)
  {
    TotalSnoc(pre, Dont, true);
    TotalSnoc(pre + [Dont], Mul(x, y), true);
    assert pre + [Dont] + [Mul(x, y)] == pre + [Dont, Mul(x, y)];
  }

  lemma {:induction false} ParseSmall(s: string, v: nat)
    requires (s == "2" && v == 2) || (s == "4" && v == 4) || (s == "5" && v == 5) || (s == "8" && v == 8)
    ensures Decimal.ParseInt(s) == Some(v)
  {
    Decimal.ParseDigits(s);
    assert Decimal.DigitValues(s) == [v];
  }

  lemma {:induction false} ExampleProducts()
    ensures Product("2", "4") == Some(8) && Product("5", "5") == Some(25)
    ensures Product("11", "8") == Some(88) && Product("8", "5") == Some(40)
  {
    ParseSmall("2", 2);
    ParseSmall("4", 4);
    ParseSmall("5", 5);
    ParseSmall("8", 8);
    assert Decimal.ParseInt("11") == Some(11) by {
      Decimal.ParseDigits("11");
      assert Decimal.DigitValues("11") == [1, 1];
    }
  }

  /** The first three instructions of the example: mul(2,4), don't(), mul(5,5). */
  lemma {:induction false} ExampleStart(part2: bool)
    ensures Total([Mul("2", "4"), Dont, Mul("5", "5")], part2) == Some(if part2 then 8 else 33)
  {
    ExampleProducts();
    var t1 := [Mul("2", "4")];
    var t2 := t1 + [Dont];
    assert [Mul("2", "4"), Dont, Mul("5", "5")] == t2 + [Mul("5", "5")];
    TotalSnoc([], Mul("2", "4"), part2);
    assert [] + [Mul("2", "4")] == t1;
    TotalSnoc(t1, Dont, part2);
    TotalSnoc(t2, Mul("5", "5"), part2);
  }

  /** The example: mul(2,4), don't(), mul(5,5), mul(11,8), do(), mul(8,5)
      add up to 161 in part 1 and 48 in part 2. */
  lemma {:induction false} Example(ts: seq<Token>, part2: bool)
    requires ts == [Mul("2", "4"), Dont, Mul("5", "5"), Mul("11", "8"), Do, Mul("8", "5")]
    ensures Total(ts, part2) == Some(if part2 then 48 else 161)
  {
    ExampleProducts();
    var t3 := [Mul("2", "4"), Dont, Mul("5", "5")];
    ExampleStart(part2);
    var t4 := t3 + [Mul("11", "8")];
    var t5 := t4 + [Do];
    assert ts == t5 + [Mul("8", "5")];
    TotalSnoc(t3, Mul("11", "8"), part2);
    TotalSnoc(t4, Do, part2);
    TotalSnoc(t5, Mul("8", "5"), part2);
  }

  /** With `[\d]*` the expression accepts `mul(,5)`, and `int('')` then raises. */
  lemma {:induction false} EmptyOperandRaises(s: string)
    requires s == "mul(,5)"
    ensures FindAll(s, 0) == [Mul("", "5")]
    ensures Problem(s, false, 0) == None
  {
    var t := Mul("", "5");
    assert Texts([t]) == s;
    FindAllTexts([t], 0);
    assert [t][..0] == [];
  }

  /** Nothing is found at a character that starts none of the three words. */
  lemma {:induction false} NoMatch(s: string, p: nat, least: nat)
    requires p < |s| && s[p] != 'm' && s[p] != 'd'
    ensures MatchAt(s, p, least) == None
  {
    assert s[p + 0] != "mul("[0] && s[p + 0] != "do()"[0] && s[p + 0] != "don't()"[0];
  }

  /** With at least one digit per operand such text is skipped. */
  lemma {:induction false} EmptyOperandSkipped(s: string)
    requires s == "mul(,5)"
    ensures Problem(s, false, 1) == Some(0)
  {
    assert MulArgs(s, 4, 1) == None by {
      assert DigitRun(s, 4) == 0;
    }
    assert MatchAt(s, 0, 1) == None by {
      assert s[0 + 0] != "do()"[0] && s[0 + 0] != "don't()"[0];
    }
    NoMatch(s, 6, 1);
    assert FindFrom(s, 6, 1) == [];
    NoMatch(s, 5, 1);
    assert FindFrom(s, 5, 1) == [];
    NoMatch(s, 4, 1);
    assert FindFrom(s, 4, 1) == [];
    NoMatch(s, 3, 1);
    assert FindFrom(s, 3, 1) == [];
    NoMatch(s, 2, 1);
    assert FindFrom(s, 2, 1) == [];
    NoMatch(s, 1, 1);
    assert FindFrom(s, 1, 1) == [];
  }

  /** With at least one digit per operand every `mul` found can be read,
      so the answer always exists. */
  lemma {:induction false} ReadableTotal(ts: seq<Token>, part2: bool)
    requires forall k :: 0 <= k < |ts| ==> WellFormed(ts[k], 1)
    ensures Total(ts, part2).Some?
  {
    if |ts| > 0 {
      var i := |ts| - 1;
      ReadableTotal(ts[..i], part2);
      if ts[i].Mul? {
        Decimal.ParseDigits(ts[i].x);
        Decimal.ParseDigits(ts[i].y);
      }
    }
  }

  /** The corrected search never makes `problem` raise. */
  lemma {:induction false} CorrectedNeverRaises(s: string, part2: bool)
    ensures Problem(s, part2, 1).Some?
  {
    FoundWellFormed(s, 0, 1);
    AllWellFormedIff(FindAll(s, 1), 1);
    ReadableTotal(FindAll(s, 1), part2);
  }
}

=== FILE: node_network.dfy ===
/** The desert network of 2023 day 8: nodes with a left and a right
    neighbour, and a walk that follows a string of L and R instructions over
    and over. Part 1 counts the steps from AAA to ZZZ; part 2 looks for the
    first repeated (node, instruction index) state on the walk from every
    start node and answers the least common multiple of the cycle lengths. */
module NodeNetwork {
  import opened Wrappers
  import PyOps

  /** One line of the network: `id = (left, right)`. */
  datatype Node = Node(id: string, left: string, right: string)

  /** The whitespace `str.split()` separates words at (ASCII only). */
  predicate IsSpace(c: char)
  {
    c == ' ' || c == '\t' || c == '\n' || c == '\r' || c == '\U{000B}' || c == '\U{000C}'
  }

  /** The characters `from_string` deletes before splitting. */
  predicate IsPunct(c: char)
  {
    c == '(' || c == ')' || c == ','
  }

  /** The text with '(', ')' and ',' deleted: the three `replace` calls. */
  function Unpunct(s: string): (r: string)
    ensures |r| <= |s|
    ensures forall k :: 0 <= k < |r| ==> !IsPunct(r[k])
  {
    if |s| == 0 then ""
    else if IsPunct(s[0]) then Unpunct(s[1..])
    else [s[0]] + Unpunct(s[1..])
  }

  /** Where the word that starts at `k` ends. */
  function WordEnd(s: string, k: nat): (e: nat)
    requires k <= |s|
    ensures k <= e <= |s|
    ensures forall m :: k <= m < e ==> !IsSpace(s[m])
    ensures e == |s| || IsSpace(s[e])
    decreases |s| - k
  {
    if k == |s| || IsSpace(s[k]) then k else WordEnd(s, k + 1)
  }

  /** `s.split()`: the maximal runs of non-whitespace characters. */
  function Words(s: string): (ws: seq<string>)
    ensures forall k :: 0 <= k < |ws| ==> |ws[k]| > 0
    decreases |s|
  {
    if |s| == 0 then []
    else if IsSpace(s[0]) then Words(s[1..])
    else
      var e := WordEnd(s, 0);
      [s[..e]] + Words(s[e..])
  }

  /** A word that `from_string` reads back as it is: not empty, with no
      whitespace and none of the deleted characters. */
  predicate Plain(w: string)
  {
    |w| > 0 && forall k :: 0 <= k < |w| ==> !IsSpace(w[k]) && !IsPunct(w[k])
  }

  /** `Node.from_string`: delete the punctuation, split at whitespace and
      unpack four words, the second being the '='. Any other count of words
      raises ValueError. `strip` is left out: `split()` ignores whitespace
      at both ends anyway. */
  function ParseNode(line: string): (r: Option<Node>)
    ensures r.Some? ==> |r.value.id| > 0 && |r.value.left| > 0 && |r.value.right| > 0
  {
    var ws := Words(Unpunct(line));
    if |ws| == 4 then Some(Node(ws[0], ws[2], ws[3])) else None
  }

  /** The line of the puzzle input for a node, as `__repr__` writes it with
      the parentheses around the pair. */
  function ShowNode(n: Node): string
  {
    n.id + " = (" + n.left + ", " + n.right + ")"
  }

  lemma {:induction false} UnpunctConcat(a: string, b: string)
    ensures Unpunct(a + b) == Unpunct(a) + Unpunct(b)
  {
    if |a| > 0 {
      assert (a + b)[0] == a[0];
      assert (a + b)[1..] == a[1..] + b;
      UnpunctConcat(a[1..], b);
    } else {
      assert a + b == b;
    }
  }

  lemma {:induction false} UnpunctPlain(w: string)
    requires forall k :: 0 <= k < |w| ==> !IsPunct(w[k])
    ensures Unpunct(w) == w
  {
    if |w| > 0 {
      UnpunctPlain(w[1..]);
    }
  }

  lemma {:induction false} WordEndPlain(w: string, rest: string, k: nat)
    requires k <= |w| && forall m :: 0 <= m < |w| ==> !IsSpace(w[m])
    requires rest == [] || IsSpace(rest[0])
    ensures WordEnd(w + rest, k) == |w|
    decreases |w| - k
  {
    if k < |w| {
      WordEndPlain(w, rest, k + 1);
    }
  }

  /** A word followed by whitespace or by nothing is the first word. */
  lemma WordsFront(w: string, rest: string)
    requires Plain(w) && (rest == [] || IsSpace(rest[0]))
    ensures Words(w + rest) == [w] + Words(rest)
  {
    WordEndPlain(w, rest, 0);
    assert (w + rest)[..|w|] == w;
    assert (w + rest)[|w|..] == rest;
  }

  /** Whitespace in front of the words is skipped. */
  lemma WordsSpace(rest: string)
    ensures Words(" " + rest) == Words(rest)
  {
    assert (" " + rest)[1..] == rest;
  }

  /** The punctuation-only pieces of a node's line. */
  lemma UnpunctLiterals()
    ensures Unpunct(" = (") == " = " && Unpunct(", ") == " " && Unpunct(")") == ""
  {
    UnpunctConcat(" = ", "(");
    UnpunctPlain(" = ");
    UnpunctConcat(",", " ");
    UnpunctPlain(" ");
  }

  /** The part of a node's line after '(' loses its comma and bracket. */
  lemma UnpunctTail(l: string, r: string)
    requires Plain(l) && Plain(r)
    ensures Unpunct(l + (", " + (r + ")"))) == l + (" " + r)
  {
    UnpunctLiterals();
    UnpunctPlain(l);
    UnpunctPlain(r);
    UnpunctConcat(r, ")");
    UnpunctConcat(", ", r + ")");
    UnpunctConcat(l, ", " + (r + ")"));
  }

  /** Deleting the punctuation of a node's line leaves its three names
      and the '=' between single spaces. */
  lemma UnpunctShow(n: Node)
    requires Plain(n.id) && Plain(n.left) && Plain(n.right)
    ensures Unpunct(ShowNode(n)) == n.id + " = " + n.left + " " + n.right
  {
    var tail := n.left + (", " + (n.right + ")"));
    assert ShowNode(n) == n.id + (" = (" + tail);
    UnpunctTail(n.left, n.right);
    UnpunctLiterals();
    UnpunctConcat(" = (", tail);
    UnpunctConcat(n.id, " = (" + tail);
    UnpunctPlain(n.id);
  }

  /** A plain word, a space and more text: the word, then the words of the
      rest. */
  lemma WordsSpaced(w: string, rest: string)
    requires Plain(w)
    ensures Words(w + (" " + rest)) == [w] + Words(rest)
  {
    WordsFront(w, " " + rest);
    WordsSpace(rest);
  }

  /** Four plain words between single spaces split into those words. */
  lemma WordsFour(a: string, b: string, c: string, d: string)
    requires Plain(a) && Plain(b) && Plain(c) && Plain(d)
    ensures Words(a + (" " + (b + (" " + (c + (" " + d)))))) == [a, b, c, d]
  {
    WordsFront(d, []);
    assert d + [] == d;
    WordsSpaced(c, d);
    WordsSpaced(b, c + (" " + d));
    WordsSpaced(a, b + (" " + (c + (" " + d))));
  }

  /** Reading back the line of a node with plain names gives the node. */
  lemma ParseShow(n: Node)
    requires Plain(n.id) && Plain(n.left) && Plain(n.right)
    ensures ParseNode(ShowNode(n)) == Some(n)
  {
    UnpunctShow(n);
    assert n.id + " = " + n.left + " " + n.right == n.id + (" " + ("=" + (" " + (n.left + (" " + n.right)))));
    WordsFour(n.id, "=", n.left, n.right);
  }

  /** The `nodes` dictionary: every node under its id; a later line with
      the same id replaces the earlier one. */
  function Build(ns: seq<Node>): (net: map<string, Node>)
    ensures forall id :: id in net ==> net[id].id == id
    ensures forall k :: 0 <= k < |ns| ==> ns[k].id in net
  {
    if |ns| == 0 then map[]
    else
      var last := ns[|ns| - 1];
      Build(ns[..|ns| - 1])[last.id := last]
  }

  /** Each id maps to the last node written with it. */
  lemma {:induction false} BuildLast(ns: seq<Node>, id: string)
    requires id in Build(ns)
    ensures exists k :: 0 <= k < |ns| && ns[k] == Build(ns)[id]
                        && forall l :: k < l < |ns| ==> ns[l].id != id
  {
    var last := ns[|ns| - 1];
    if last.id == id {
      assert ns[|ns| - 1] == Build(ns)[id];
    } else {
      var pre := ns[..|ns| - 1];
      BuildLast(pre, id);
      var k :| 0 <= k < |pre| && pre[k] == Build(pre)[id] && forall l :: k < l < |pre| ==> pre[l].id != id;
      assert ns[k] == Build(ns)[id];
      forall l | k < l < |ns| ensures ns[l].id != id {
        if l < |pre| { assert ns[l] == pre[l]; }
      }
    }
  }

  /** Reading the node lines: ValueError on the first malformed one. */
  function ReadNetwork(lines: seq<string>): (r: Option<map<string, Node>>)
    ensures r.Some? ==> forall k :: 0 <= k < |lines| ==> ParseNode(lines[k]).Some?
  {
    if forall k :: 0 <= k < |lines| ==> ParseNode(lines[k]).Some? then
      Some(Build(seq(|lines|, k requires 0 <= k < |lines| => ParseNode(lines[k]).value)))
    else None
  }

  type Network = map<string, Node>

  /** Every node is stored under its own id. */
  predicate Keyed(net: Network)
  {
    forall id :: id in net ==> net[id].id == id
  }

  /** One step from the node `id`: `get_left` on 'L', `get_right` on 'R',
      staying put on any other character; None for the KeyError of a
      neighbour without a line of its own. */
  function Move(net: Network, id: string, c: char): (r: Option<string>)
    requires id in net
    ensures r.Some? ==> r.value in net
    ensures c != 'L' && c != 'R' ==> r == Some(id)
  {
    if c == 'L' then (if net[id].left in net then Some(net[id].left) else None)
    else if c == 'R' then (if net[id].right in net then Some(net[id].right) else None)
    else Some(id)
  }

  /** Where the walk from `start` is after `m` steps, the instructions
      repeating: the reference the loops below are measured against. */
  function Steps(net: Network, instrs: string, start: string, m: nat): (r: Option<string>)
    requires |instrs| > 0 && start in net
    ensures r.Some? ==> r.value in net
  {
    if m == 0 then Some(start)
    else
      match Steps(net, instrs, start, m - 1)
      case None => None
      case Some(id) => Move(net, id, instrs[(m - 1) % |instrs|])
  }

  /** How part 1's loop ends. */
  datatype Walked = Reached(steps: nat) | Missing | Unfinished

  /** The loop of part 1 from `id` after `count` steps, with at most `fuel`
      more steps: it moves, counts, and stops on ZZZ. */
  function Walk(net: Network, instrs: string, id: string, count: nat, fuel: nat): Walked
    requires |instrs| > 0 && id in net
    decreases fuel
  {
    if fuel == 0 then Unfinished
    else
      match Move(net, id, instrs[count % |instrs|])
      case None => Missing
      case Some(n) =>
        if n == "ZZZ" then Reached(count + 1) else Walk(net, instrs, n, count + 1, fuel - 1)
  }

  /** Part 1: the steps from AAA until ZZZ is first reached. Without AAA the
      lookup raises KeyError; with no instructions `itertools.cycle` yields
      nothing and the count stays 0. */
  function Part1(net: Network, instrs: string, fuel: nat): (r: Walked)
    ensures "AAA" !in net ==> r == Missing
    ensures "AAA" in net && |instrs| == 0 ==> r == Reached(0)
  {
    if "AAA" !in net then Missing
    else if |instrs| == 0 then Reached(0)
    else Walk(net, instrs, "AAA", 0, fuel)
  }

  /** The steps of the reference walk before ZZZ. */
  predicate Before(net: Network, instrs: string, start: string, lo: nat, hi: nat)
    requires |instrs| > 0 && start in net
  {
    forall m :: lo < m < hi ==> Steps(net, instrs, start, m).Some? && Steps(net, instrs, start, m).value != "ZZZ"
  }

  lemma {:induction false} WalkIsFirstArrival(net: Network, instrs: string, start: string, id: string, count: nat, fuel: nat)
    requires |instrs| > 0 && start in net && id in net
    requires Steps(net, instrs, start, count) == Some(id)
    ensures Walk(net, instrs, id, count, fuel).Reached? ==>
              var c := Walk(net, instrs, id, count, fuel).steps;
              count < c <= count + fuel && Steps(net, instrs, start, c) == Some("ZZZ") && Before(net, instrs, start, count, c)
    ensures Walk(net, instrs, id, count, fuel).Missing? ==>
              exists m :: count < m <= count + fuel && Steps(net, instrs, start, m).None?
    decreases fuel
  {
    if fuel > 0 {
      match Move(net, id, instrs[count % |instrs|])
      case None =>
        assert Steps(net, instrs, start, count + 1).None?;
      case Some(n) =>
        assert Steps(net, instrs, start, count + 1) == Some(n);
        if n != "ZZZ" {
          WalkIsFirstArrival(net, instrs, start, n, count + 1, fuel - 1);
        }
    }
  }

  /** Part 1 answers the first positive step count at which the walk from
      AAA stands on ZZZ, and raises only where the walk meets a neighbour
      without a line. */
  lemma Part1IsFirstArrival(net: Network, instrs: string, fuel: nat)
    requires |instrs| > 0 && "AAA" in net
    ensures Part1(net, instrs, fuel).Reached? ==>
              var c := Part1(net, instrs, fuel).steps;
              0 < c <= fuel && Steps(net, instrs, "AAA", c) == Some("ZZZ") && Before(net, instrs, "AAA", 0, c)
    ensures Part1(net, instrs, fuel).Missing? ==>
              exists m :: 0 < m <= fuel && Steps(net, instrs, "AAA", m).None?
  {
    WalkIsFirstArrival(net, instrs, "AAA", "AAA", 0, fuel);
  }

  lemma {:induction false} WalkFinds(net: Network, instrs: string, start: string, id: string, count: nat, fuel: nat, c: nat)
    requires |instrs| > 0 && start in net && id in net
    requires Steps(net, instrs, start, count) == Some(id)
    requires count < c <= count + fuel && Steps(net, instrs, start, c) == Some("ZZZ") && Before(net, instrs, start, count, c)
    ensures Walk(net, instrs, id, count, fuel) == Reached(c)
    decreases fuel
  {
    var n := Steps(net, instrs, start, count + 1);
    assert n == Move(net, id, instrs[count % |instrs|]);
    if c > count + 1 {
      WalkFinds(net, instrs, start, n.value, count + 1, fuel - 1, c);
    }
  }

  /** With fuel for the whole walk, part 1 finds the first arrival at ZZZ. */
  lemma Part1Finds(net: Network, instrs: string, fuel: nat, c: nat)
    requires |instrs| > 0 && "AAA" in net
    requires 0 < c <= fuel && Steps(net, instrs, "AAA", c) == Some("ZZZ") && Before(net, instrs, "AAA", 0, c)
    ensures Part1(net, instrs, fuel) == Reached(c)
  {
    WalkFinds(net, instrs, "AAA", "AAA", 0, fuel, c);
  }

  /** `node.id[-1] == 'Z'`: a node of `end_set`. */
  predicate IsEnd(id: string)
  {
    |id| > 0 && id[|id| - 1] == 'Z'
  }

  /** A repeat found on the walk: the count at which the state was first
      seen, the distance to its repeat, and `potential_end`. */
  datatype Cycle = Cycle(leadUp: nat, length: nat, end: Option<nat>)

  /** The states the walk can be in: a node and an instruction index. */
  function States(net: Network, n: nat): set<(string, nat)>
  {
    set id, i | id in net && 0 <= i < n :: (id, i)
  }

  lemma InStates(net: Network, n: nat, id: string, i: nat)
    requires id in net && i < n
    ensures (id, i) in States(net, n)
  {
  }

  lemma NewStateShrinks(all: set<(string, nat)>, seen: map<(string, nat), nat>, s: (string, nat), c: nat)
    requires seen.Keys <= all && s in all && s !in seen
    ensures seen[s := c].Keys <= all
    ensures |all - seen[s := c].Keys| < |all - seen.Keys|
  {
    assert all - seen[s := c].Keys == (all - seen.Keys) - {s};
  }

  /** The inner loop of `part2attempt2` from `id` after `count` steps: take
      a step, note an end node in `potential_end`, and stop at the first
      (node, index) state seen before. */
  function CycleFrom(net: Network, instrs: string, id: string, count: nat, seen: map<(string, nat), nat>, potential: Option<nat>): Result<Cycle, string>
    requires |instrs| > 0 && id in net
    requires seen.Keys <= States(net, |instrs|)
    requires forall s :: s in seen ==> seen[s] <= count
    decreases |States(net, |instrs|) - seen.Keys|
  {
    var i := count % |instrs|;
    match Move(net, id, instrs[i])
    case None => Failure("KeyError")
    case Some(n) =>
      var c := count + 1;
      var pot := if IsEnd(n) then Some(c) else potential;
      if (n, i) in seen then Success(Cycle(seen[(n, i)], c - seen[(n, i)], pot))
      else
        InStates(net, |instrs|, n, i);
        NewStateShrinks(States(net, |instrs|), seen, (n, i), c);
        CycleFrom(net, instrs, n, c, seen[(n, i) := c], pot)
  }

  /** What the loop knows about the states it has recorded. */
  predicate Recorded(net: Network, instrs: string, start: string, count: nat, seen: map<(string, nat), nat>)
    requires |instrs| > 0 && start in net
  {
    forall s :: s in seen ==> seen[s] <= count && Visited(net, instrs, start, s, seen[s])
  }

  /** The walk stood in state `s` after `t` steps. */
  predicate Visited(net: Network, instrs: string, start: string, s: (string, nat), t: nat)
    requires |instrs| > 0 && start in net
  {
    1 <= t && Steps(net, instrs, start, t) == Some(s.0) && (t - 1) % |instrs| == s.1
  }

  /** The walk is in the same state after `a` and after `b` steps: on the
      same node, about to read the same instruction. */
  predicate SameState(net: Network, instrs: string, start: string, a: nat, b: nat)
    requires |instrs| > 0 && start in net
  {
    Steps(net, instrs, start, a) == Steps(net, instrs, start, b) && a % |instrs| == b % |instrs|
  }

  /** What a cycle found after `count` steps promises: it is real (the walk
      is in the same state at the lead-up and one positive length later,
      and it closes after `count`), and its end is either the one the
      search was given or an end node the walk reached after `count`. */
  predicate FoundCycle(net: Network, instrs: string, start: string, count: nat, potential: Option<nat>, cy: Cycle)
    requires |instrs| > 0 && start in net
  {
    && cy.length > 0 && cy.leadUp >= 1 && count < cy.leadUp + cy.length
    && SameState(net, instrs, start, cy.leadUp, cy.leadUp + cy.length)
    && (cy.end == potential || (cy.end.Some? && count < cy.end.value <= cy.leadUp + cy.length
                               && Steps(net, instrs, start, cy.end.value).Some?
                               && IsEnd(Steps(net, instrs, start, cy.end.value).value)))
  }

  /** A found cycle is real: the walk stands in the same state at the
      lead-up and one cycle length later, and the length is positive. The
      end it reports is the one it was given or an end node this walk
      reached. */
  lemma {:induction false} CycleSound(net: Network, instrs: string, start: string, id: string, count: nat,
                                      seen: map<(string, nat), nat>, potential: Option<nat>)
    requires |instrs| > 0 && start in net && id in net
    requires seen.Keys <= States(net, |instrs|)
    requires Steps(net, instrs, start, count) == Some(id)
    requires Recorded(net, instrs, start, count, seen)
    ensures CycleOutcome(net, instrs, start, count, potential, CycleFrom(net, instrs, id, count, seen, potential))
    decreases |States(net, |instrs|) - seen.Keys|
  {
    var i := count % |instrs|;
    StepTaken(net, instrs, start, count, id);
    match Move(net, id, instrs[i])
    case None =>
      CycleStuck(net, instrs, start, id, count, seen, potential);
    case Some(n) =>
      if (n, i) !in seen {
        CycleFromStep(net, instrs, id, count, seen, potential, n);
        RecordedStep(net, instrs, start, count, seen, n);
        var pot := if IsEnd(n) then Some(count + 1) else potential;
        CycleSound(net, instrs, start, n, count + 1, seen[(n, i) := count + 1], pot);
        CycleOutcomeStep(net, instrs, start, count, potential, n, CycleFrom(net, instrs, n, count + 1, seen[(n, i) := count + 1], pot));
      } else {
        CycleCloses(net, instrs, start, id, count, seen, potential, n);
      }
  }

  /** What the search started after `count` steps promises: a cycle it
      finds is a `FoundCycle`, and it fails only where the walk breaks off
      later on. */
  ghost predicate CycleOutcome(net: Network, instrs: string, start: string, count: nat, potential: Option<nat>, r: Result<Cycle, string>)
    requires |instrs| > 0 && start in net
  {
    match r
    case Success(cy) => FoundCycle(net, instrs, start, count, potential, cy)
    case Failure(_) => exists m :: count < m && Steps(net, instrs, start, m).None?
  }

  /** An outcome of the search from the next step is one of the search
      from this step. */
  lemma CycleOutcomeStep(net: Network, instrs: string, start: string, count: nat, potential: Option<nat>, n: string, r: Result<Cycle, string>)
    requires |instrs| > 0 && start in net
    requires Steps(net, instrs, start, count + 1) == Some(n)
    requires CycleOutcome(net, instrs, start, count + 1, if IsEnd(n) then Some(count + 1) else potential, r)
    ensures CycleOutcome(net, instrs, start, count, potential, r)
  {
    if r.Success? {
      FoundCycleStep(net, instrs, start, count, potential, n, r.value);
    } else {
      var m :| count + 1 < m && Steps(net, instrs, start, m).None?;
      assert count < m;
    }
  }

  /** A cycle found from the next step is one found from this step. */
  lemma FoundCycleStep(net: Network, instrs: string, start: string, count: nat, potential: Option<nat>, n: string, cy: Cycle)
    requires |instrs| > 0 && start in net
    requires Steps(net, instrs, start, count + 1) == Some(n)
    requires FoundCycle(net, instrs, start, count + 1, if IsEnd(n) then Some(count + 1) else potential, cy)
    ensures FoundCycle(net, instrs, start, count, potential, cy)
  {
  }

  /** One step of the walk moves by the instruction it reads. */
  lemma StepTaken(net: Network, instrs: string, start: string, count: nat, id: string)
    requires |instrs| > 0 && start in net && id in net
    requires Steps(net, instrs, start, count) == Some(id)
    ensures Steps(net, instrs, start, count + 1) == Move(net, id, instrs[count % |instrs|])
  {
  }

  /** A step that leaves the network fails the search, and the walk breaks
      off there. */
  lemma CycleStuck(net: Network, instrs: string, start: string, id: string, count: nat,
                   seen: map<(string, nat), nat>, potential: Option<nat>)
    requires |instrs| > 0 && start in net && id in net
    requires seen.Keys <= States(net, |instrs|)
    requires forall s :: s in seen ==> seen[s] <= count
    requires Steps(net, instrs, start, count) == Some(id)
    requires Move(net, id, instrs[count % |instrs|]).None?
    ensures CycleFrom(net, instrs, id, count, seen, potential).Failure?
    ensures CycleOutcome(net, instrs, start, count, potential, CycleFrom(net, instrs, id, count, seen, potential))
  {
    StepTaken(net, instrs, start, count, id);
  }

  /** The step that meets a state seen before closes a real cycle. */
  lemma CycleCloses(net: Network, instrs: string, start: string, id: string, count: nat,
                    seen: map<(string, nat), nat>, potential: Option<nat>, n: string)
    requires |instrs| > 0 && start in net && id in net
    requires seen.Keys <= States(net, |instrs|)
    requires Steps(net, instrs, start, count) == Some(id)
    requires Recorded(net, instrs, start, count, seen)
    requires Move(net, id, instrs[count % |instrs|]) == Some(n) && (n, count % |instrs|) in seen
    ensures CycleFrom(net, instrs, id, count, seen, potential).Success?
    ensures CycleOutcome(net, instrs, start, count, potential, CycleFrom(net, instrs, id, count, seen, potential))
  {
    var i := count % |instrs|;
    var c := count + 1;
    assert Steps(net, instrs, start, c) == Some(n);
    var a := seen[(n, i)];
    assert Steps(net, instrs, start, a) == Some(n);
    SuccessorIndex(a, c, i, |instrs|);
  }

  /** One round of the loop that meets a new state goes on from it. */
  lemma CycleFromStep(net: Network, instrs: string, id: string, count: nat, seen: map<(string, nat), nat>, potential: Option<nat>, n: string)
    requires |instrs| > 0 && id in net
    requires seen.Keys <= States(net, |instrs|)
    requires forall s :: s in seen ==> seen[s] <= count
    requires Move(net, id, instrs[count % |instrs|]) == Some(n) && (n, count % |instrs|) !in seen
    ensures seen[(n, count % |instrs|) := count + 1].Keys <= States(net, |instrs|)
    ensures |States(net, |instrs|) - seen[(n, count % |instrs|) := count + 1].Keys| < |States(net, |instrs|) - seen.Keys|
    ensures CycleFrom(net, instrs, id, count, seen, potential)
         == CycleFrom(net, instrs, n, count + 1, seen[(n, count % |instrs|) := count + 1],
                      if IsEnd(n) then Some(count + 1) else potential)
  {
    InStates(net, |instrs|, n, count % |instrs|);
    NewStateShrinks(States(net, |instrs|), seen, (n, count % |instrs|), count + 1);
  }

  /** Recording the state after one more step keeps what the loop knows. */
  lemma RecordedStep(net: Network, instrs: string, start: string, count: nat, seen: map<(string, nat), nat>, n: string)
    requires |instrs| > 0 && start in net
    requires Recorded(net, instrs, start, count, seen)
    requires Steps(net, instrs, start, count + 1) == Some(n)
    ensures Recorded(net, instrs, start, count + 1, seen[(n, count % |instrs|) := count + 1])
  {
    assert Visited(net, instrs, start, (n, count % |instrs|), count + 1);
  }

  /** Two step counts one past counts with the same index have the same
      index. */
  lemma SuccessorIndex(a: nat, c: nat, i: nat, n: nat)
    requires n > 0 && a >= 1 && c >= 1 && (a - 1) % n == i && (c - 1) % n == i
    ensures a % n == c % n
  {
    var qa := (a - 1) / n;
    var qc := (c - 1) / n;
    if i + 1 < n {
      PyOps.ModUnique(a, n, qa, i + 1);
      PyOps.ModUnique(c, n, qc, i + 1);
    } else {
      assert a == n * (qa + 1);
      PyOps.ModUnique(a, n, qa + 1, 0);
      PyOps.ModUnique(c, n, qc + 1, 0);
    }
  }

  /** From two counts in the same state on, the walk repeats itself. */
  lemma {:induction false} SameStateOnward(net: Network, instrs: string, start: string, a: nat, b: nat, t: nat)
    requires |instrs| > 0 && start in net
    requires SameState(net, instrs, start, a, b)
    ensures SameState(net, instrs, start, a + t, b + t)
  {
    if t > 0 {
      SameStateOnward(net, instrs, start, a, b, t - 1);
      var x := a + t - 1;
      var y := b + t - 1;
      assert instrs[x % |instrs|] == instrs[y % |instrs|];
      assert Steps(net, instrs, start, a + t) == Steps(net, instrs, start, b + t) by {
        match Steps(net, instrs, start, x)
        case None =>
        case Some(id) =>
      }
      ModStep(x, y, |instrs|);
    }
  }

  lemma ModStep(x: nat, y: nat, n: nat)
    requires n > 0 && x % n == y % n
    ensures (x + 1) % n == (y + 1) % n
  {
    var r := x % n;
    if r + 1 < n {
      PyOps.ModUnique(x + 1, n, x / n, r + 1);
      PyOps.ModUnique(y + 1, n, y / n, r + 1);
    } else {
      PyOps.ModUnique(x + 1, n, x / n + 1, 0);
      PyOps.ModUnique(y + 1, n, y / n + 1, 0);
    }
  }

  /** The cycle of one start: the walk from it repeats with the cycle's
      length from the lead-up on, every step after. */
  lemma CycleRepeats(net: Network, instrs: string, start: string, cy: Cycle, t: nat)
    requires |instrs| > 0 && start in net
    requires CycleFrom(net, instrs, start, 0, map[], None) == Success(cy)
    ensures Steps(net, instrs, start, cy.leadUp + t) == Steps(net, instrs, start, cy.leadUp + cy.length + t)
  {
    CycleSound(net, instrs, start, start, 0, map[], None);
    SameStateOnward(net, instrs, start, cy.leadUp, cy.leadUp + cy.length, t);
  }

  /** `b % a == 0` for positive `a`: a divides b. */
  predicate Divides(a: nat, b: nat)
  {
    a > 0 && b % a == 0
  }

  lemma MulDivides(a: nat, q: nat)
    requires a > 0
    ensures Divides(a, a * q)
  {
    PyOps.ModUnique(a * q, a, q, 0);
  }

  lemma DividesIsMul(a: nat, b: nat)
    requires Divides(a, b)
    ensures b == a * (b / a)
  {
  }

  /** The smallest positive multiple of `a` from `a * k` on that `b`
      divides. */
  function LcmSearch(a: nat, b: nat, k: nat): (r: nat)
    requires a > 0 && b > 0 && 1 <= k <= b
    decreases b - k
  {
    if k == b || (a * k) % b == 0 then a * k else LcmSearch(a, b, k + 1)
  }

  /** `math.lcm(a, b)`: the least common multiple, 0 when either is 0. */
  function Lcm(a: nat, b: nat): nat
  {
    if a == 0 || b == 0 then 0 else LcmSearch(a, b, 1)
  }

  lemma {:induction false} LcmSearchCommon(a: nat, b: nat, k: nat)
    requires a > 0 && b > 0 && 1 <= k <= b
    ensures var r := LcmSearch(a, b, k); r > 0 && Divides(a, r) && Divides(b, r)
    ensures exists q :: k <= q <= b && LcmSearch(a, b, k) == a * q
              && forall q' :: k <= q' < q ==> (a * q') % b != 0
    decreases b - k
  {
    if k == b || (a * k) % b == 0 {
      MulDivides(a, k);
      if k == b {
        MulDivides(b, a);
        assert a * k == b * a;
      }
      PyOps.MulAtLeast(a, k);
    } else {
      LcmSearchCommon(a, b, k + 1);
      var q :| k + 1 <= q <= b && LcmSearch(a, b, k + 1) == a * q
               && forall q' :: k + 1 <= q' < q ==> (a * q') % b != 0;
      assert LcmSearch(a, b, k) == a * q;
    }
  }

  /** The lcm of two positive numbers is a positive multiple of both, and
      no smaller positive number is. */
  lemma LcmIsLeast(a: nat, b: nat, m: nat)
    requires a > 0 && b > 0
    ensures Lcm(a, b) > 0 && Divides(a, Lcm(a, b)) && Divides(b, Lcm(a, b))
    ensures 0 < m && Divides(a, m) && Divides(b, m) ==> Lcm(a, b) <= m
  {
    LcmSearchCommon(a, b, 1);
    if 0 < m && Divides(a, m) && Divides(b, m) {
      var q :| 1 <= q <= b && Lcm(a, b) == a * q && forall q' :: 1 <= q' < q ==> (a * q') % b != 0;
      DividesIsMul(a, m);
      var q' := m / a;
      MulMonotone(a, q, q');
    }
  }

  lemma MulMonotone(a: nat, q: nat, q': nat)
    requires q <= q'
    ensures a * q <= a * q'
  {
  }

  /** A common multiple of two numbers that lies below their lcm and is
      still a multiple of both is 0; so every common multiple is a multiple
      of the lcm. */
  lemma LcmDivides(a: nat, b: nat, m: nat)
    requires Divides(a, m) && Divides(b, m)
    ensures Divides(Lcm(a, b), m)
  {
    LcmIsLeast(a, b, 0);
    var l := Lcm(a, b);
    var q := m / l;
    var s := m % l;
    assert m == l * q + s;
    DividesIsMul(a, l);
    DividesIsMul(b, l);
    RemainderDivides(a, m, l, q, s);
    RemainderDivides(b, m, l, q, s);
    if s > 0 {
      LcmIsLeast(a, b, s);
      assert false;
    }
  }

  /** If `d` divides `m` and `l`, it divides `m - l * q`. */
  lemma RemainderDivides(d: nat, m: nat, l: nat, q: nat, s: nat)
    requires Divides(d, m) && Divides(d, l) && m == l * q + s
    ensures Divides(d, s)
  {
    var u := m / d;
    var v := l / d;
    DividesIsMul(d, m);
    DividesIsMul(d, l);
    assert s == d * u - d * v * q;
    assert s == d * (u - v * q);
    MulDivides(d, u - v * q);
  }

  lemma DividesTrans(a: nat, b: nat, c: nat)
    requires Divides(a, b) && Divides(b, c)
    ensures Divides(a, c)
  {
    DividesIsMul(a, b);
    DividesIsMul(b, c);
    assert c == a * ((b / a) * (c / b));
    MulDivides(a, (b / a) * (c / b));
  }

  /** `math.lcm(*xs)`, folded from the left; 1 for no arguments. */
  function LcmAll(xs: seq<nat>): nat
  {
    if |xs| == 0 then 1 else Lcm(LcmAll(xs[..|xs| - 1]), xs[|xs| - 1])
  }

  /** The lcm of positive numbers is a positive multiple of each of them,
      and divides every number that all of them divide. */
  lemma {:induction false} LcmAllIsLeast(xs: seq<nat>, m: nat)
    requires forall k :: 0 <= k < |xs| ==> xs[k] > 0
    ensures LcmAll(xs) > 0
    ensures forall k :: 0 <= k < |xs| ==> Divides(xs[k], LcmAll(xs))
    ensures (forall k :: 0 <= k < |xs| ==> Divides(xs[k], m)) ==> Divides(LcmAll(xs), m)
  {
    if |xs| == 0 {
      PyOps.ModUnique(m, 1, m, 0);
    } else {
      var pre := xs[..|xs| - 1];
      var x := xs[|xs| - 1];
      LcmAllIsLeast(pre, m);
      var lp := LcmAll(pre);
      LcmIsLeast(lp, x, 0);
      forall k | 0 <= k < |xs| ensures Divides(xs[k], LcmAll(xs)) {
        if k < |pre| {
          assert xs[k] == pre[k];
          DividesTrans(xs[k], lp, LcmAll(xs));
        }
      }
      if forall k :: 0 <= k < |xs| ==> Divides(xs[k], m) {
        assert forall k :: 0 <= k < |pre| ==> Divides(pre[k], m) by {
          forall k | 0 <= k < |pre| ensures Divides(pre[k], m) { assert pre[k] == xs[k]; }
        }
        LcmDivides(lp, x, m);
      }
    }
  }

  /** The loop over the start nodes of `part2attempt2`: every start's cycle
      in turn. `potential_end` is one variable for all starts, so a start
      whose walk met no end before repeating keeps the previous start's
      value, and the very first such start raises UnboundLocalError. With no
      instructions the inner loop never runs and nothing is recorded. */
  function Cycles(net: Network, instrs: string, starts: seq<string>, potential: Option<nat>): (r: Result<seq<Cycle>, string>)
    requires forall k :: 0 <= k < |starts| ==> starts[k] in net
    ensures r.Success? && |instrs| > 0 ==> |r.value| == |starts|
  {
    if |starts| == 0 || |instrs| == 0 then Success([])
    else
      match CycleFrom(net, instrs, starts[0], 0, map[], potential)
      case Failure(e) => Failure(e)
      case Success(cy) =>
        if cy.end.None? then Failure("UnboundLocalError")
        else
          match Cycles(net, instrs, starts[1..], cy.end)
          case Failure(e) => Failure(e)
          case Success(rest) => Success([cy] + rest)
  }

  /** Every recorded cycle is a real cycle of its start, of positive
      length. */
  lemma {:induction false} CyclesSound(net: Network, instrs: string, starts: seq<string>, potential: Option<nat>, k: nat)
    requires forall k :: 0 <= k < |starts| ==> starts[k] in net
    requires |instrs| > 0 && Cycles(net, instrs, starts, potential).Success?
    requires k < |starts|
    ensures var cy := Cycles(net, instrs, starts, potential).value[k];
            cy.length > 0 && SameState(net, instrs, starts[k], cy.leadUp, cy.leadUp + cy.length)
  {
    var cy0 := CycleFrom(net, instrs, starts[0], 0, map[], potential).value;
    if k == 0 {
      CycleSound(net, instrs, starts[0], starts[0], 0, map[], potential);
    } else {
      CyclesSound(net, instrs, starts[1..], cy0.end, k - 1);
    }
  }

  /** Every recorded cycle at once. */
  lemma CyclesAllSound(net: Network, instrs: string, starts: seq<string>, potential: Option<nat>)
    requires forall k :: 0 <= k < |starts| ==> starts[k] in net
    requires |instrs| > 0 && Cycles(net, instrs, starts, potential).Success?
    ensures var cs := Cycles(net, instrs, starts, potential).value;
            |cs| == |starts|
            && forall k :: 0 <= k < |cs| ==>
                 cs[k].length > 0 && SameState(net, instrs, starts[k], cs[k].leadUp, cs[k].leadUp + cs[k].length)
  {
    var cs := Cycles(net, instrs, starts, potential).value;
    forall k | 0 <= k < |cs|
      ensures cs[k].length > 0 && SameState(net, instrs, starts[k], cs[k].leadUp, cs[k].leadUp + cs[k].length)
    {
      CyclesSound(net, instrs, starts, potential, k);
    }
  }

  /** The cycle lengths, in the order of the starts. */
  function Lengths(cs: seq<Cycle>): (ls: seq<nat>)
    ensures |ls| == |cs|
    ensures forall k :: 0 <= k < |cs| ==> ls[k] == cs[k].length
  {
    seq(|cs|, k requires 0 <= k < |cs| => cs[k].length)
  }

  /** `part2attempt2`: the lcm of the cycle lengths of the start nodes,
      which come in the order the set `start_set` yields them. */
  function Part2(net: Network, instrs: string, starts: seq<string>): (r: Result<nat, string>)
    requires forall k :: 0 <= k < |starts| ==> starts[k] in net
    ensures r.Success? <==> Cycles(net, instrs, starts, None).Success?
  {
    match Cycles(net, instrs, starts, None)
    case Failure(e) => Failure(e)
    case Success(cs) => Success(LcmAll(Lengths(cs)))
  }

  /** The answer of part 2 is a positive step count after which every
      start's walk, from its lead-up on, is back in the state it started
      its cycle in; and it divides every other such common multiple. */
  lemma Part2IsLcm(net: Network, instrs: string, starts: seq<string>, m: nat)
    requires forall k :: 0 <= k < |starts| ==> starts[k] in net
    requires |instrs| > 0 && Part2(net, instrs, starts).Success?
    ensures var cs := Cycles(net, instrs, starts, None).value;
            var r := Part2(net, instrs, starts).value;
            && r > 0
            && (forall k :: 0 <= k < |cs| ==>
                  (cs[k].length > 0 && Divides(cs[k].length, r)
                   && SameState(net, instrs, starts[k], cs[k].leadUp, cs[k].leadUp + cs[k].length)))
            && ((forall k :: 0 <= k < |cs| ==> Divides(cs[k].length, m)) ==> Divides(r, m))
  {
    var cs := Cycles(net, instrs, starts, None).value;
    var ls := Lengths(cs);
    CyclesAllSound(net, instrs, starts, None);
    assert Part2(net, instrs, starts).value == LcmAll(ls);
    LcmAllIsLeast(ls, m);
  }
}

=== FILE: page_order.dfy ===
/** 2024 day 5: page-ordering rules, the validity check of an update, the
    in-place repair that moves offending pages, and the middle page. */
module PageOrder {
  import opened Wrappers

  /** `rules[a]`: the pages that must come after `a` (a defaultdict of lists). */
  type Rules = map<int, seq<int>>

  function After(rules: Rules, page: int): seq<int>
  {
    if page in rules then rules[page] else []
  }

  /** Page `update[i]` has no rule-successor among the pages before it. */
  predicate Ok(update: seq<int>, rules: Rules, i: nat)
    requires i < |update|
  {
    forall k :: 0 <= k < i ==> update[k] !in After(rules, update[i])
  }

  /** The loop of `is_valid` from position `i` on. */
  function ValidFrom(update: seq<int>, rules: Rules, i: nat): bool
    decreases |update| - i
  {
    if i >= |update| then true
    else if exists rule :: rule in After(rules, update[i]) && rule in update[..i] then false
    else ValidFrom(update, rules, i + 1)
  }

  /** `is_valid`. */
  function IsValid(update: seq<int>, rules: Rules): bool
  {
    ValidFrom(update, rules, 0)
  }

  /** The first `n` positions are all in order. */
  predicate PrefixValid(update: seq<int>, rules: Rules, n: nat)
    requires n <= |update|
  {
    forall p :: 0 <= p < n ==> Ok(update, rules, p)
  }

  lemma {:induction false} ValidFromIff(update: seq<int>, rules: Rules, i: nat)
    requires i <= |update|
    ensures ValidFrom(update, rules, i) <==> forall p :: i <= p < |update| ==> Ok(update, rules, p)
    decreases |update| - i
  {
    if i < |update| {
      ValidFromIff(update, rules, i + 1);
      if !Ok(update, rules, i) {
        var k :| 0 <= k < i && update[k] in After(rules, update[i]);
        var rule := update[k];
        assert rule in After(rules, update[i]) && rule in update[..i];
        assert !ValidFrom(update, rules, i);
        assert !(forall p :: i <= p < |update| ==> Ok(update, rules, p));
      }
    }
  }

  /** An update is invalid exactly when some page has a rule-successor at an earlier index. */
  lemma IsValidIff(update: seq<int>, rules: Rules)
    ensures IsValid(update, rules) <==>
      !exists p, k :: 0 <= k < p < |update| && update[k] in After(rules, update[p])
  {
    ValidFromIff(update, rules, 0);
    if !IsValid(update, rules) {
      var p :| 0 <= p < |update| && !Ok(update, rules, p);
      var k :| 0 <= k < p && update[k] in After(rules, update[p]);
    } else {
      forall p, k | 0 <= k < p < |update|
        ensures update[k] !in After(rules, update[p])
      {
        assert Ok(update, rules, p);
      }
    }
  }

  /** The first rule of `rs` that appears in `prefix` (the `for ... break` of `fix_order`). */
  function FirstViolation(rs: seq<int>, prefix: seq<int>): (r: Option<int>)
    ensures r.Some? ==> r.value in rs && r.value in prefix
    ensures r.None? ==> forall x :: x in rs ==> x !in prefix
  {
    if |rs| == 0 then None
    else if rs[0] in prefix then Some(rs[0])
    else FirstViolation(rs[1..], prefix)
  }

  /** `update.index(x)`: the first position holding `x`. */
  function Index(s: seq<int>, x: int): (j: nat)
    requires x in s
    ensures j < |s| && s[j] == x
    ensures forall k :: 0 <= k < j ==> s[k] != x
  {
    if s[0] == x then 0 else 1 + Index(s[1..], x)
  }

  /** `update.pop(j)` followed by `update.insert(i, rule)`: the page at `j`
      ends up right after the page that was at `i`. */
  function MoveAfter(update: seq<int>, j: nat, i: nat): (v: seq<int>)
    requires j < i < |update|
    ensures |v| == |update|
  {
    var rest := update[..j] + update[j + 1..];
    rest[..i] + [update[j]] + rest[i..]
  }

  lemma MoveAfterAt(update: seq<int>, j: nat, i: nat, q: nat)
    requires j < i < |update| && q < |update|
    ensures MoveAfter(update, j, i)[q] ==
      if q < j then update[q] else if q < i then update[q + 1] else if q == i then update[j] else update[q]
  {
  }

  /** The move keeps the pages. */
  lemma MoveAfterPermutes(update: seq<int>, j: nat, i: nat)
    requires j < i < |update|
    ensures multiset(MoveAfter(update, j, i)) == multiset(update)
  {
    var rest := update[..j] + update[j + 1..];
    assert update == update[..j] + [update[j]] + update[j + 1..];
    assert multiset(update) == multiset(rest) + multiset{update[j]};
    assert rest == rest[..i] + rest[i..];
    assert multiset(MoveAfter(update, j, i)) == multiset(rest[..i]) + multiset{update[j]} + multiset(rest[i..]);
  }

  /** Moving an earlier page after position `i - 1` keeps the first `i - 1` positions in order. */
  lemma MoveKeepsPrefix(update: seq<int>, rules: Rules, j: nat, i: nat)
    requires j < i < |update| && PrefixValid(update, rules, i)
    ensures PrefixValid(MoveAfter(update, j, i), rules, i - 1)
  {
    var v := MoveAfter(update, j, i);
    forall p | 0 <= p < i - 1
      ensures Ok(v, rules, p)
    {
      MoveAfterAt(update, j, i, p);
      var src := if p < j then p else p + 1;
      assert v[p] == update[src];
      assert Ok(update, rules, src);
      forall k | 0 <= k < p
        ensures v[k] !in After(rules, v[p])
      {
        MoveAfterAt(update, j, i, k);
      }
    }
  }

  /** `fix_order` from position `i`, with a bound on the number of rounds;
      None when the bound runs out. */
  function FixFrom(update: seq<int>, rules: Rules, i: nat, fuel: nat): Option<seq<int>>
    decreases fuel
  {
    if i >= |update| then Some(update)
    else if fuel == 0 then None
    else match FirstViolation(After(rules, update[i]), update[..i])
      case None => FixFrom(update, rules, i + 1, fuel - 1)
      case Some(rule) =>
        var j := Index(update, rule);
        assert rule in update[..i];
        FixFrom(MoveAfter(update, j, i), rules, i - 1, fuel - 1)
  }

  function FixOrder(update: seq<int>, rules: Rules, fuel: nat): Option<seq<int>>
  {
    FixFrom(update, rules, 0, fuel)
  }

  lemma IndexInPrefix(update: seq<int>, rule: int, i: nat)
    requires i <= |update| && rule in update[..i]
    ensures rule in update && Index(update, rule) < i
  {
    var k :| 0 <= k < i && update[k] == rule;
  }

  /** Whenever the repair finishes, it has only moved pages around, and the result is valid. */
  lemma {:induction false} FixFromCorrect(update: seq<int>, rules: Rules, i: nat, fuel: nat)
    requires i <= |update| && PrefixValid(update, rules, i)
    requires FixFrom(update, rules, i, fuel).Some?
    ensures multiset(FixFrom(update, rules, i, fuel).value) == multiset(update)
    ensures IsValid(FixFrom(update, rules, i, fuel).value, rules)
    decreases fuel
  {
    if i >= |update| {
      ValidFromIff(update, rules, 0);
    } else {
      var found := FirstViolation(After(rules, update[i]), update[..i]);
      if found.None? {
        NoViolationOk(update, rules, i);
        FixFromCorrect(update, rules, i + 1, fuel - 1);
      } else {
        IndexInPrefix(update, found.value, i);
        var j := Index(update, found.value);
        MoveKeepsPrefix(update, rules, j, i);
        MoveAfterPermutes(update, j, i);
        assert FixFrom(update, rules, i, fuel) == FixFrom(MoveAfter(update, j, i), rules, i - 1, fuel - 1);
        FixFromCorrect(MoveAfter(update, j, i), rules, i - 1, fuel - 1);
      }
    }
  }

  lemma NoViolationOk(update: seq<int>, rules: Rules, i: nat)
    requires i < |update| && PrefixValid(update, rules, i)
    requires FirstViolation(After(rules, update[i]), update[..i]).None?
    ensures PrefixValid(update, rules, i + 1)
  {
    forall k | 0 <= k < i
      ensures update[k] !in After(rules, update[i])
    {
      assert update[k] in update[..i];
    }
  }

  lemma FixOrderCorrect(update: seq<int>, rules: Rules, fuel: nat)
    requires FixOrder(update, rules, fuel).Some?
    ensures multiset(FixOrder(update, rules, fuel).value) == multiset(update)
    ensures IsValid(FixOrder(update, rules, fuel).value, rules)
  {
    FixFromCorrect(update, rules, 0, fuel);
  }

  /** An update already in order is left unchanged, in one pass. */
  lemma {:induction false} FixFromValid(update: seq<int>, rules: Rules, i: nat, fuel: nat)
    requires i <= |update| && IsValid(update, rules) && fuel >= |update| - i
    ensures FixFrom(update, rules, i, fuel) == Some(update)
    decreases |update| - i
  {
    if i < |update| {
      ValidFromIff(update, rules, 0);
      assert Ok(update, rules, i);
      FixFromValid(update, rules, i + 1, fuel - 1);
    }
  }

  lemma FixOrderKeepsValid(update: seq<int>, rules: Rules)
    requires IsValid(update, rules)
    ensures FixOrder(update, rules, |update|) == Some(update)
  {
    FixFromValid(update, rules, 0, |update|);
  }

  /** `middle`: the page with as many pages before it as after it, or, for
      an even number of pages, one more before it. */
  function Middle(update: seq<int>): (m: int)
    requires |update| > 0
    ensures exists i :: 0 <= i < |update| && update[i] == m
                        && |update| - 1 - i <= i <= |update| - i
  {
    var i := |update| / 2;
    assert update[i] == update[i] && |update| - 1 - i <= i <= |update| - i;
    update[i]
  }

  /** The page `middle` picks is the one at the position the contract pins
      down: before and after it the counts differ by at most one, more
      before. */
  lemma MiddleUnique(update: seq<int>, i: nat)
    requires i < |update| && |update| - 1 - i <= i <= |update| - i
    ensures i == |update| / 2 && Middle(update) == update[i]
    ensures |update| % 2 == 1 ==> |update[..i]| == |update[i + 1..]|
  {
  }

  /** 75,47,61,53,29 is in order under its rules; 75,97,47,61,53 is not (97|75). */
  lemma Examples()
    ensures IsValid([75, 47, 61, 53, 29], map[75 := [47, 61, 53, 29], 47 := [61, 53, 29], 61 := [53, 29], 53 := [29]])
    ensures !IsValid([75, 97, 47, 61, 53], map[97 := [75]])
    ensures Middle([75, 47, 61, 53, 29]) == 61
  {
    var rules := map[75 := [47, 61, 53, 29], 47 := [61, 53, 29], 61 := [53, 29], 53 := [29]];
    var u := [75, 47, 61, 53, 29];
    IsValidIff(u, rules);
    IsValidIff([75, 97, 47, 61, 53], map[97 := [75]]);
    assert [75, 97, 47, 61, 53][0] in After(map[97 := [75]], [75, 97, 47, 61, 53][1]);
  }

  /** With the rule 97|75, the repair moves 75 after 97. */
  lemma FixExample()
    ensures FixOrder([75, 97, 47, 61, 53], map[97 := [75]], 10) == Some([97, 75, 47, 61, 53])
  {
    var rules := map[97 := [75]];
    var u := [75, 97, 47, 61, 53];
    assert u[..1] == [75];
    assert Index(u, 75) == 0;
    assert MoveAfter(u, 0, 1) == [97, 75, 47, 61, 53];
    FixOrderKeepsValid([97, 75, 47, 61, 53], rules);
    IsValidIff([97, 75, 47, 61, 53], rules);
    FixFromValid([97, 75, 47, 61, 53], rules, 0, 8);
  }

  /** Part 1 sums the middles of valid updates; part 2 repairs the invalid
      ones (given enough rounds) and sums their middles. Updates come from
      split lines, so they are non-empty. */
  function Part1(updates: seq<seq<int>>, rules: Rules): int
    requires forall u :: u in updates ==> |u| > 0
  {
    if |updates| == 0 then 0
    else (if IsValid(updates[0], rules) then Middle(updates[0]) else 0) + Part1(updates[1..], rules)
  }

  function Part2(updates: seq<seq<int>>, rules: Rules, fuel: nat): Option<int>
    requires forall u :: u in updates ==> |u| > 0
  {
    if |updates| == 0 then Some(0)
    else
      var rest := Part2(updates[1..], rules, fuel);
      if IsValid(updates[0], rules) then rest
      else match (FixOrder(updates[0], rules, fuel), rest)
        case (Some(fixed), Some(total)) =>
          FixOrderCorrect(updates[0], rules, fuel);
          assert |fixed| == |multiset(fixed)| == |updates[0]|;
          Some(Middle(fixed) + total)
        case _ => None
  }
}

=== FILE: pipe_maze.dfy ===
/** The pipe maze of 2023 day 10: a grid of pipe glyphs, each connecting
    two of its four sides, and a start tile `S` that connects all four.
    Part 1 answers the largest breadth-first distance from the start along
    the pipes; part 2 counts the tiles off the loop that a row scan finds
    inside it by the parity of the crossings to their left. */
module PipeMaze {
  import opened Wrappers
  import PyOps

  /** The sides of a tile: UP, LEFT, DOWN and RIGHT, numbered so that the
      opposite side is two further round. */
  const Up: nat := 0
  const Left: nat := 1
  const Down: nat := 2
  const Right: nat := 3

  /** `accepting_connector`: the side a neighbour must connect from. */
  function Opposite(d: nat): (o: nat)
    requires d < 4
    ensures o < 4 && o != d
    ensures (d == Up <==> o == Down) && (d == Left <==> o == Right)
  {
    (d + 2) % 4
  }

  lemma OppositeTwice(d: nat)
    requires d < 4
    ensures Opposite(Opposite(d)) == d
  {
  }

  /** `connects_from` of a glyph, from the table in `Pipe.__init__`. */
  function ConnectsFrom(c: char): (sides: set<nat>)
    ensures forall d :: d in sides ==> d < 4
    ensures c in "|-LJ7F" ==> |sides| == 2
    ensures c == 'S' ==> sides == {Up, Left, Down, Right}
    ensures c !in "|-LJ7FS" ==> sides == {}
  {
    if c == '|' then {Up, Down}
    else if c == '-' then {Left, Right}
    else if c == 'L' then {Right, Up}
    else if c == 'J' then {Up, Left}
    else if c == '7' then {Down, Left}
    else if c == 'F' then {Down, Right}
    else if c == 'S' then {Up, Down, Left, Right}
    else {}
  }

  /** The pipe glyphs are the six ways to pick two of the four sides. */
  lemma GlyphsArePairs(a: nat, b: nat)
    requires a < b < 4
    ensures exists c :: c in "|-LJ7F" && ConnectsFrom(c) == {a, b}
  {
    if a == Up && b == Left { assert ConnectsFrom('J') == {a, b}; }
    else if a == Up && b == Down { assert ConnectsFrom('|') == {a, b}; }
    else if a == Up && b == Right { assert ConnectsFrom('L') == {a, b}; }
    else if a == Left && b == Down { assert ConnectsFrom('7') == {a, b}; }
    else if a == Left && b == Right { assert ConnectsFrom('-') == {a, b}; }
    else { assert ConnectsFrom('F') == {a, b}; }
  }

  /** A tile: row `y`, column `x`. */
  datatype Pos = Pos(y: nat, x: nat)

  predicate InGrid(g: seq<string>, p: Pos)
  {
    p.y < |g| && p.x < |g[p.y]|
  }

  function At(g: seq<string>, p: Pos): char
    requires InGrid(g, p)
  {
    g[p.y][p.x]
  }

  /** The lookup at the start of `connect`, with Python's indexing: a row or
      column index of -1 reads the last row or column, and only an index
      past the end raises the IndexError that makes `connect` return. */
  function TargetAsWritten(g: seq<string>, p: Pos, d: nat): (t: Option<Pos>)
    requires InGrid(g, p) && d < 4
    ensures t.Some? ==> InGrid(g, t.value)
  {
    if d == Up then
      var r := p.y - 1;
      if PyOps.IndexOk(|g|, r) && PyOps.IndexOk(|g[PyOps.Wrap(|g|, r)]|, p.x)
      then Some(Pos(PyOps.Wrap(|g|, r), p.x)) else None
    else if d == Down then
      var r := p.y + 1;
      if PyOps.IndexOk(|g|, r) && PyOps.IndexOk(|g[PyOps.Wrap(|g|, r)]|, p.x)
      then Some(Pos(PyOps.Wrap(|g|, r), p.x)) else None
    else if d == Left then
      var c := p.x - 1;
      if PyOps.IndexOk(|g[p.y]|, c) then Some(Pos(p.y, PyOps.Wrap(|g[p.y]|, c))) else None
    else
      var c := p.x + 1;
      if PyOps.IndexOk(|g[p.y]|, c) then Some(Pos(p.y, PyOps.Wrap(|g[p.y]|, c))) else None
  }

  /** The tile next to `p` on side `d`, when there is one: no wrapping
      round the edges. */
  function Target(g: seq<string>, p: Pos, d: nat): (t: Option<Pos>)
    requires InGrid(g, p) && d < 4
    ensures t.Some? ==> InGrid(g, t.value)
  {
    if d == Up then
      if p.y > 0 && p.x < |g[p.y - 1]| then Some(Pos(p.y - 1, p.x)) else None
    else if d == Down then
      if p.y + 1 < |g| && p.x < |g[p.y + 1]| then Some(Pos(p.y + 1, p.x)) else None
    else if d == Left then
      if p.x > 0 then Some(Pos(p.y, p.x - 1)) else None
    else
      if p.x + 1 < |g[p.y]| then Some(Pos(p.y, p.x + 1)) else None
  }

  /** Away from the edges the lookup of `connect` is the plain one. */
  lemma TargetAgrees(g: seq<string>, p: Pos, d: nat)
    requires InGrid(g, p) && d < 4
    requires 0 < p.y && 0 < p.x
    ensures TargetAsWritten(g, p, d) == Target(g, p, d)
  {
  }

  /** The tile next door lies one step away on side `d`, and the step on
      the opposite side leads back. */
  lemma TargetBack(g: seq<string>, p: Pos, d: nat)
    requires InGrid(g, p) && d < 4 && Target(g, p, d).Some?
    ensures Target(g, Target(g, p, d).value, Opposite(d)) == Some(p)
  {
  }

  /** One call of `connect` on side `d`: the tile next door on that side
      becomes a neighbour when the pipe connects from `d` and the tile
      connects back from the opposite side. `wrap` chooses the lookup as
      written or the plain one. */
  function Link(g: seq<string>, p: Pos, d: nat, wrap: bool): (ns: seq<Pos>)
    requires InGrid(g, p) && d < 4
    ensures |ns| <= 1
    ensures forall k :: 0 <= k < |ns| ==> InGrid(g, ns[k])
  {
    var t := if wrap then TargetAsWritten(g, p, d) else Target(g, p, d);
    if d in ConnectsFrom(At(g, p)) && t.Some? && Opposite(d) in ConnectsFrom(At(g, t.value)) then [t.value]
    else []
  }

  /** `pipe.neighbors` after `make_connections`, which calls `connect` on
      the sides UP, LEFT, DOWN and RIGHT in turn. */
  function NeighborsWith(g: seq<string>, p: Pos, wrap: bool): (ns: seq<Pos>)
    requires InGrid(g, p)
    ensures |ns| <= 4
    ensures forall k :: 0 <= k < |ns| ==> InGrid(g, ns[k])
  {
    Link(g, p, Up, wrap) + Link(g, p, Left, wrap) + Link(g, p, Down, wrap) + Link(g, p, Right, wrap)
  }

  /** The neighbours as written, with Python's wrapping lookup. */
  function NeighborsAsWritten(g: seq<string>, p: Pos): seq<Pos>
    requires InGrid(g, p)
  {
    NeighborsWith(g, p, true)
  }

  /** The neighbours with the plain lookup. */
  function Neighbors(g: seq<string>, p: Pos): (ns: seq<Pos>)
    requires InGrid(g, p)
    ensures forall k :: 0 <= k < |ns| ==> InGrid(g, ns[k])
  {
    NeighborsWith(g, p, false)
  }

  /** `q` is a neighbour of `p` exactly when some side of `p` that `p`
      connects from leads to `q`, and `q` connects back from the opposite
      side. */
  lemma NeighborsIff(g: seq<string>, p: Pos, q: Pos)
    requires InGrid(g, p)
    ensures q in Neighbors(g, p)
        <==> exists d :: 0 <= d < 4 && d in ConnectsFrom(At(g, p)) && Target(g, p, d) == Some(q)
                                    && Opposite(d) in ConnectsFrom(At(g, q))
  {
    if exists d :: 0 <= d < 4 && d in ConnectsFrom(At(g, p)) && Target(g, p, d) == Some(q)
                   && Opposite(d) in ConnectsFrom(At(g, q)) {
      var d :| 0 <= d < 4 && d in ConnectsFrom(At(g, p)) && Target(g, p, d) == Some(q)
               && Opposite(d) in ConnectsFrom(At(g, q));
      assert q in Link(g, p, d, false);
    }
  }

  /** Neighbours are mutual: a pipe is a neighbour of each of its
      neighbours. */
  lemma NeighborsSymmetric(g: seq<string>, p: Pos, q: Pos)
    requires InGrid(g, p) && q in Neighbors(g, p)
    ensures InGrid(g, q) && p in Neighbors(g, q)
  {
    NeighborsIff(g, p, q);
    var d :| 0 <= d < 4 && d in ConnectsFrom(At(g, p)) && Target(g, p, d) == Some(q)
             && Opposite(d) in ConnectsFrom(At(g, q));
    TargetBack(g, p, d);
    OppositeTwice(d);
    NeighborsIff(g, q, p);
  }

  /** Neighbours are next to each other: one row or one column apart. */
  lemma NeighborsAdjacent(g: seq<string>, p: Pos, q: Pos)
    requires InGrid(g, p) && q in Neighbors(g, p)
    ensures (q.y == p.y && (q.x + 1 == p.x || p.x + 1 == q.x))
         || (q.x == p.x && (q.y + 1 == p.y || p.y + 1 == q.y))
  {
    NeighborsIff(g, p, q);
  }

  /** As written, a pipe at the left edge looks up the last tile of its
      row: in the row `-.-` the first pipe takes the last one as its
      neighbour across the edge, while the last pipe, whose lookup to the
      right runs past the end, does not take it back. */
  lemma WrapAsWritten()
    ensures Pos(0, 2) in NeighborsAsWritten(["-.-"], Pos(0, 0))
    ensures Pos(0, 0) !in NeighborsAsWritten(["-.-"], Pos(0, 2))
  {
    var g := ["-.-"];
    assert At(g, Pos(0, 0)) == '-' && At(g, Pos(0, 1)) == '.' && At(g, Pos(0, 2)) == '-';
    assert Link(g, Pos(0, 0), Left, true) == [Pos(0, 2)];
    assert Link(g, Pos(0, 2), Left, true) == [] && Link(g, Pos(0, 2), Right, true) == [];
  }

  /** With the plain lookup the same pipe has no neighbours at all. */
  lemma NoWrap()
    ensures Neighbors(["-.-"], Pos(0, 0)) == []
  {
    var g := ["-.-"];
    assert At(g, Pos(0, 0)) == '-' && At(g, Pos(0, 1)) == '.';
    assert Link(g, Pos(0, 0), Left, false) == [] && Link(g, Pos(0, 0), Right, false) == [];
  }

  // ---------------------------------------------------------------------
  // Part 1: breadth-first search from the start tile.

  /** The tiles of the grid, one per character of each row. */
  function Cells(g: seq<string>): (cells: set<Pos>)
    ensures forall p :: p in cells <==> InGrid(g, p)
  {
    set y: nat, x: nat | y < |g| && x < |g[y]| :: Pos(y, x)
  }

  /** The column of the last `S` of a row. */
  function LastSIn(row: string): (x: Option<nat>)
    ensures x.Some? ==> x.value < |row| && row[x.value] == 'S'
    ensures forall k :: (if x.Some? then x.value else -1) < k < |row| ==> row[k] != 'S'
  {
    if |row| == 0 then None
    else if row[|row| - 1] == 'S' then Some(|row| - 1)
    else LastSIn(row[..|row| - 1])
  }

  /** `start`: the tile of the last `S` in reading order, which is the
      one the parser keeps; `None` when there is no `S`. */
  function LastS(g: seq<string>): (s: Option<Pos>)
    ensures s.Some? ==> InGrid(g, s.value) && At(g, s.value) == 'S'
    ensures forall p :: InGrid(g, p) && At(g, p) == 'S' && s != Some(p) ==>
              s.Some? && (p.y < s.value.y || (p.y == s.value.y && p.x < s.value.x))
  {
    if |g| == 0 then None
    else
      match LastSIn(g[|g| - 1])
      case Some(x) => Some(Pos(|g| - 1, x))
      case None =>
        var s := LastS(g[..|g| - 1]);
        assert forall p :: InGrid(g[..|g| - 1], p) ==> At(g[..|g| - 1], p) == At(g, p);
        s
  }

  /** The neighbours of every tile, as `make_connections` leaves them
      before the search starts. */
  type Graph = map<Pos, seq<Pos>>

  /** Every neighbour is itself a tile of the graph. */
  ghost predicate Closed(adj: Graph)
  {
    forall p :: p in adj ==> forall n :: n in adj[p] ==> n in adj
  }

  /** No tile is its own neighbour. */
  ghost predicate Loopless(adj: Graph)
  {
    forall p :: p in adj ==> p !in adj[p]
  }

  function Adjacency(g: seq<string>): (adj: Graph)
    ensures forall p :: p in adj <==> InGrid(g, p)
    ensures forall p :: p in adj ==> adj[p] == Neighbors(g, p)
  {
    map p | p in Cells(g) :: Neighbors(g, p)
  }

  /** The pipe graph is closed, has no loops from a tile to itself, and
      its links run both ways. */
  lemma AdjacencyShape(g: seq<string>)
    ensures Closed(Adjacency(g)) && Loopless(Adjacency(g))
    ensures forall p, q :: p in Adjacency(g) && q in Adjacency(g)[p] ==> p in Adjacency(g)[q]
  {
    var adj := Adjacency(g);
    forall p, q | p in adj && q in adj[p]
      ensures q in adj && p in adj[q] && q != p
    {
      NeighborsSymmetric(g, p, q);
      NeighborsAdjacent(g, p, q);
    }
  }

  /** The tiles holding an `S`, which the parser gives distance 0. */
  function Starts(g: seq<string>): (src: set<Pos>)
    ensures forall p :: p in src <==> InGrid(g, p) && At(g, p) == 'S'
  {
    set p | p in Cells(g) && At(g, p) == 'S'
  }

  /** A walk along the links of `adj` from one of the tiles `src`. */
  ghost predicate Walk(adj: Graph, src: set<Pos>, w: seq<Pos>)
  {
    && |w| >= 1
    && w[0] in src
    && (forall i :: 0 <= i < |w| ==> w[i] in adj)
    && (forall i :: 0 <= i < |w| - 1 ==> w[i + 1] in adj[w[i]])
  }

  /** Some walk of `n` steps from `src` ends at `q`. */
  ghost predicate WalkTo(adj: Graph, src: set<Pos>, q: Pos, n: nat)
  {
    exists w :: Walk(adj, src, w) && |w| == n + 1 && w[n] == q
  }

  lemma WalkToStep(adj: Graph, src: set<Pos>, p: Pos, n: nat, q: Pos, m: nat)
    requires p in adj && q in adj && q in adj[p] && WalkTo(adj, src, p, n) && m == n + 1
    ensures WalkTo(adj, src, q, m)
  {
    var w :| Walk(adj, src, w) && |w| == n + 1 && w[n] == p;
    var w' := w + [q];
    assert forall i :: 0 <= i < |w| ==> w'[i] == w[i];
    assert Walk(adj, src, w');
  }

  /** `neighbor.dist = min(neighbor.dist, pipe.dist + 1)` for each of the
      neighbours `ns` of a pipe at distance `d`; a tile missing from `dist`
      is still at infinity. */
  function Relax(ns: seq<Pos>, d: nat, dist: map<Pos, nat>): (r: map<Pos, nat>)
    ensures forall q :: q in r <==> q in dist || q in ns
    ensures forall q :: q in r ==> (q in dist && r[q] == dist[q]) || (q in ns && r[q] == d + 1)
    ensures forall q :: q in dist ==> r[q] <= dist[q]
    ensures forall q :: q in ns ==> r[q] <= d + 1
    decreases |ns|
  {
    if |ns| == 0 then dist
    else
      var q := ns[0];
      Relax(ns[1..], d, if q in dist && dist[q] <= d + 1 then dist else dist[q := d + 1])
  }

  predicate NoDup(s: seq<Pos>)
  {
    forall i, j :: 0 <= i < j < |s| ==> s[i] != s[j]
  }

  /** The appends of the same loop: each neighbour neither seen nor
      waiting joins the back of the fringe, once. */
  function Enqueue(ns: seq<Pos>, fringe: seq<Pos>, seen: set<Pos>): (r: seq<Pos>)
    ensures |fringe| <= |r| && r[..|fringe|] == fringe
    ensures forall k :: |fringe| <= k < |r| ==> r[k] in ns && r[k] !in seen
    ensures forall q :: q in ns ==> q in seen || q in r
    ensures NoDup(fringe) ==> NoDup(r)
    decreases |ns|
  {
    if |ns| == 0 then fringe
    else
      var q := ns[0];
      var f := if q !in seen && q !in fringe then fringe + [q] else fringe;
      var r := Enqueue(ns[1..], f, seen);
      assert forall k :: 0 <= k < |f| ==> r[k] == r[..|f|][k] == f[k];
      assert forall k :: |fringe| <= k < |f| ==> f[k] == q;
      assert q in seen || q in f;
      assert forall x :: x in ns[1..] ==> x in ns;
      r
  }

  /** Every distance recorded is the length of a walk to its tile. */
  ghost predicate Witnessed(adj: Graph, src: set<Pos>, dist: map<Pos, nat>)
  {
    forall q :: q in dist ==> q in adj && WalkTo(adj, src, q, dist[q])
  }

  lemma InitWitnessed(adj: Graph, src: set<Pos>)
    requires src <= adj.Keys
    ensures Witnessed(adj, src, map p | p in src :: 0)
  {
    forall q | q in src
      ensures WalkTo(adj, src, q, 0)
    {
      assert Walk(adj, src, [q]);
    }
  }

  /** Relaxing the neighbours of a pipe keeps every distance a walk
      length: the new ones extend the walk to the pipe by one step. */
  lemma RelaxWitnessed(adj: Graph, src: set<Pos>, p: Pos, dist: map<Pos, nat>)
    requires Closed(adj) && p in adj && p in dist && Witnessed(adj, src, dist)
    ensures Witnessed(adj, src, Relax(adj[p], dist[p], dist))
  {
    forall q | q in Relax(adj[p], dist[p], dist)
      ensures q in adj && WalkTo(adj, src, q, Relax(adj[p], dist[p], dist)[q])
    {
      RelaxedWitnessed(adj, src, p, dist, q);
    }
  }

  lemma RelaxedWitnessed(adj: Graph, src: set<Pos>, p: Pos, dist: map<Pos, nat>, q: Pos)
    requires Closed(adj) && p in adj && p in dist && Witnessed(adj, src, dist)
    requires q in Relax(adj[p], dist[p], dist)
    ensures q in adj && WalkTo(adj, src, q, Relax(adj[p], dist[p], dist)[q])
  {
    var r := Relax(adj[p], dist[p], dist);
    if q in dist && r[q] == dist[q] {
      WalkToSame(adj, src, q, dist[q], r[q]);
    } else {
      WalkToStep(adj, src, p, dist[p], q, r[q]);
    }
  }

  lemma WalkToSame(adj: Graph, src: set<Pos>, q: Pos, n: nat, m: nat)
    requires WalkTo(adj, src, q, n) && n == m
    ensures WalkTo(adj, src, q, m)
  {
  }

  /** The bookkeeping of the search that holds for any grid: the fringe
      and the seen set are disjoint, every neighbour of a seen pipe is
      seen or waiting, and every waiting or seen pipe has a distance. */
  ghost predicate Searching(adj: Graph, dist: map<Pos, nat>, fringe: seq<Pos>, seen: set<Pos>)
  {
    && seen <= adj.Keys
    && (forall k :: 0 <= k < |fringe| ==> fringe[k] in adj && fringe[k] in dist && fringe[k] !in seen)
    && NoDup(fringe)
    && (forall q :: q in seen ==> q in dist)
    && (forall q :: q in seen ==> forall n :: n in adj[q] ==> n in seen || n in fringe)
  }

  /** One turn of the `while` loop: pop the head, relax and enqueue its
      neighbours, and mark it seen. */
  function Step(adj: Graph, dist: map<Pos, nat>, fringe: seq<Pos>, seen: set<Pos>): (s: (map<Pos, nat>, seq<Pos>, set<Pos>))
    requires Searching(adj, dist, fringe, seen) && |fringe| > 0
    ensures s.2 == seen + {fringe[0]}
    ensures |fringe| - 1 <= |s.1| && s.1[..|fringe| - 1] == fringe[1..]
  {
    var p := fringe[0];
    (Relax(adj[p], dist[p], dist), Enqueue(adj[p], fringe[1..], seen), seen + {p})
  }

  /** The fringe after a turn is the rest of the old one followed by new
      tiles that were neither seen nor waiting. */
  lemma StepFringe(adj: Graph, dist: map<Pos, nat>, fringe: seq<Pos>, seen: set<Pos>)
    requires Closed(adj) && Loopless(adj)
    requires Searching(adj, dist, fringe, seen) && |fringe| > 0
    ensures var s := Step(adj, dist, fringe, seen);
      && (forall k :: 0 <= k < |s.1| ==> s.1[k] in adj && s.1[k] in s.0 && s.1[k] !in s.2)
      && NoDup(s.1)
  {
    var p := fringe[0];
    var (dist', fringe', seen') := Step(adj, dist, fringe, seen);
    assert NoDup(fringe[1..]);
    forall k | 0 <= k < |fringe'|
      ensures fringe'[k] in adj && fringe'[k] in dist' && fringe'[k] !in seen'
    {
      if k < |fringe| - 1 {
        assert fringe'[k] == fringe[1..][k] == fringe[k + 1];
      }
    }
  }

  /** After a turn every neighbour of a seen pipe is still seen or
      waiting: the popped pipe's own neighbours were just enqueued. */
  lemma StepClosed(adj: Graph, dist: map<Pos, nat>, fringe: seq<Pos>, seen: set<Pos>)
    requires Searching(adj, dist, fringe, seen) && |fringe| > 0
    ensures var s := Step(adj, dist, fringe, seen);
      forall q :: q in s.2 ==> forall n :: n in adj[q] ==> n in s.2 || n in s.1
  {
    var p := fringe[0];
    var (dist', fringe', seen') := Step(adj, dist, fringe, seen);
    forall q, n | q in seen' && n in adj[q]
      ensures n in seen' || n in fringe'
    {
      if q in seen && n in fringe && n != p {
        var k :| 0 <= k < |fringe| && fringe[k] == n;
        assert fringe'[k - 1] == fringe[1..][k - 1] == n;
      }
    }
  }

  lemma StepSearching(adj: Graph, dist: map<Pos, nat>, fringe: seq<Pos>, seen: set<Pos>)
    requires Closed(adj) && Loopless(adj)
    requires Searching(adj, dist, fringe, seen) && |fringe| > 0
    ensures var s := Step(adj, dist, fringe, seen); Searching(adj, s.0, s.1, s.2)
  {
    StepFringe(adj, dist, fringe, seen);
    StepClosed(adj, dist, fringe, seen);
  }

  /** The breadth-first layering, which holds when the start is the only
      tile at distance 0: only seen or waiting tiles have a distance, the
      distances along the fringe climb and span at most one, no seen pipe
      is farther than the head of the fringe, and every neighbour of a
      seen pipe is at most one further. */
  ghost predicate Layered(adj: Graph, dist: map<Pos, nat>, fringe: seq<Pos>, seen: set<Pos>)
    requires Searching(adj, dist, fringe, seen)
  {
    && (forall q :: q in dist ==> q in seen || q in fringe)
    && (forall k, l :: 0 <= k <= l < |fringe| ==> dist[fringe[k]] <= dist[fringe[l]])
    && (forall k :: 0 <= k < |fringe| ==> dist[fringe[k]] <= dist[fringe[0]] + 1)
    && (|fringe| > 0 ==> forall q :: q in seen ==> dist[q] <= dist[fringe[0]])
    && (forall q :: q in seen ==> forall n :: n in adj[q] ==> n in dist && dist[n] <= dist[q] + 1)
  }

  /** In a layered search a turn changes no distance already known, and
      the tiles it appends are new ones, one further than the pipe
      popped. */
  lemma StepFacts(adj: Graph, dist: map<Pos, nat>, fringe: seq<Pos>, seen: set<Pos>)
    requires Closed(adj) && Loopless(adj)
    requires Searching(adj, dist, fringe, seen) && |fringe| > 0 && Layered(adj, dist, fringe, seen)
    ensures var s := Step(adj, dist, fringe, seen);
      && (forall q :: q in dist ==> q in s.0 && s.0[q] == dist[q])
      && (forall k :: |fringe| - 1 <= k < |s.1| ==>
            s.1[k] in adj[fringe[0]] && s.1[k] !in dist && s.1[k] in s.0 && s.0[s.1[k]] == dist[fringe[0]] + 1)
  {
    var p := fringe[0];
    var d := dist[p];
    var (dist', fringe', seen') := Step(adj, dist, fringe, seen);
    forall q | q in dist
      ensures q in dist' && dist'[q] == dist[q]
    {
      if q !in seen {
        var k :| 0 <= k < |fringe| && fringe[k] == q;
      }
    }
    StepFringe(adj, dist, fringe, seen);
  }

  /** The distances along the fringe after a turn still climb and span at
      most one, and the head is no nearer than the pipe popped. */
  lemma StepLayeredFringe(adj: Graph, dist: map<Pos, nat>, fringe: seq<Pos>, seen: set<Pos>)
    requires Closed(adj) && Loopless(adj)
    requires Searching(adj, dist, fringe, seen) && |fringe| > 0 && Layered(adj, dist, fringe, seen)
    ensures var s := Step(adj, dist, fringe, seen);
      && Searching(adj, s.0, s.1, s.2)
      && (forall k, l :: 0 <= k <= l < |s.1| ==> s.0[s.1[k]] <= s.0[s.1[l]])
      && (forall k :: 0 <= k < |s.1| ==> dist[fringe[0]] <= s.0[s.1[k]] <= dist[fringe[0]] + 1)
  {
    var p := fringe[0];
    var (dist', fringe', seen') := Step(adj, dist, fringe, seen);
    StepSearching(adj, dist, fringe, seen);
    StepFacts(adj, dist, fringe, seen);
    forall k | 0 <= k < |fringe'| && k < |fringe| - 1
      ensures fringe'[k] == fringe[k + 1] && dist'[fringe'[k]] == dist[fringe[k + 1]]
    {
      assert fringe'[k] == fringe[1..][k];
    }
  }

  /** After a turn only seen or waiting tiles have a distance. */
  lemma StepLayeredKeys(adj: Graph, dist: map<Pos, nat>, fringe: seq<Pos>, seen: set<Pos>)
    requires Closed(adj) && Loopless(adj)
    requires Searching(adj, dist, fringe, seen) && |fringe| > 0 && Layered(adj, dist, fringe, seen)
    ensures var s := Step(adj, dist, fringe, seen); forall q :: q in s.0 ==> q in s.2 || q in s.1
  {
    var p := fringe[0];
    var (dist', fringe', seen') := Step(adj, dist, fringe, seen);
    forall q | q in dist'
      ensures q in seen' || q in fringe'
    {
      if q in fringe && q != p {
        var k :| 0 <= k < |fringe| && fringe[k] == q;
        assert fringe'[k - 1] == fringe[1..][k - 1] == q;
      }
    }
  }

  /** After a turn no seen pipe is farther than the new head, and the
      neighbours of seen pipes are still at most one further. */
  lemma StepLayeredSeen(adj: Graph, dist: map<Pos, nat>, fringe: seq<Pos>, seen: set<Pos>)
    requires Closed(adj) && Loopless(adj)
    requires Searching(adj, dist, fringe, seen) && |fringe| > 0 && Layered(adj, dist, fringe, seen)
    ensures var s := Step(adj, dist, fringe, seen);
      && (forall q :: q in s.2 ==> q in s.0 && s.0[q] <= dist[fringe[0]])
      && (forall q :: q in s.2 ==> forall n :: n in adj[q] ==> n in s.0 && s.0[n] <= s.0[q] + 1)
  {
    StepFacts(adj, dist, fringe, seen);
  }

  lemma StepLayered(adj: Graph, dist: map<Pos, nat>, fringe: seq<Pos>, seen: set<Pos>)
    requires Closed(adj) && Loopless(adj)
    requires Searching(adj, dist, fringe, seen) && |fringe| > 0 && Layered(adj, dist, fringe, seen)
    ensures var s := Step(adj, dist, fringe, seen); Searching(adj, s.0, s.1, s.2) && Layered(adj, s.0, s.1, s.2)
    ensures var s := Step(adj, dist, fringe, seen); forall q :: q in dist ==> q in s.0 && s.0[q] == dist[q]
  {
    StepLayeredFringe(adj, dist, fringe, seen);
    StepLayeredKeys(adj, dist, fringe, seen);
    StepLayeredSeen(adj, dist, fringe, seen);
    StepFacts(adj, dist, fringe, seen);
  }

  /** Once the search has settled with a single start, every walk from the
      start stays among the seen pipes and is no shorter than the distance
      recorded for each tile on it. */
  lemma {:induction false} WalkBounded(adj: Graph, start: Pos, dist: map<Pos, nat>, seen: set<Pos>, w: seq<Pos>)
    requires start in seen && seen <= dist.Keys && dist[start] == 0
    requires forall q :: q in seen ==> q in adj && forall n :: n in adj[q] ==> n in seen && dist[n] <= dist[q] + 1
    requires Walk(adj, {start}, w)
    ensures forall i :: 0 <= i < |w| ==> w[i] in seen && dist[w[i]] <= i
  {
    if |w| > 1 {
      var v := w[..|w| - 1];
      assert forall i :: 0 <= i < |v| ==> v[i] == w[i];
      assert Walk(adj, {start}, v);
      WalkBounded(adj, start, dist, seen, v);
      assert w[|w| - 1] in adj[w[|w| - 2]];
    }
  }

  /** What the loop of `part1` keeps: the bookkeeping and the walks for
      any grid, and, when `start` is the only source, the layering and
      that `far` is the farthest seen pipe. */
  ghost predicate Invariant(adj: Graph, src: set<Pos>, start: Pos, dist: map<Pos, nat>, fringe: seq<Pos>, seen: set<Pos>, far: Pos)
  {
    && Closed(adj) && Loopless(adj)
    && Searching(adj, dist, fringe, seen) && Witnessed(adj, src, dist)
    && start in dist && dist[start] == 0
    && (start in seen || start in fringe)
    && far in dist && (far in seen || far == start)
    && (src == {start} ==> Layered(adj, dist, fringe, seen))
    && (src == {start} ==> forall q :: q in seen ==> dist[q] <= dist[far])
  }

  lemma InitInvariant(adj: Graph, src: set<Pos>, start: Pos)
    requires Closed(adj) && Loopless(adj) && src <= adj.Keys && start in src
    ensures Invariant(adj, src, start, map p | p in src :: 0, [start], {}, start)
  {
    var dist := map p | p in src :: 0;
    InitWitnessed(adj, src);
    assert Searching(adj, dist, [start], {});
  }

  /** The update of `farthest` when a pipe is popped. */
  function Farther(dist: map<Pos, nat>, far: Pos, pipe: Pos): (f: Pos)
    requires far in dist && pipe in dist
    ensures f == far || f == pipe
    ensures dist[f] >= dist[far] && dist[f] >= dist[pipe]
  {
    if dist[pipe] > dist[far] then pipe else far
  }

  /** `farthest` after a turn is still a seen pipe (or the start), and
      with a single start it is as far as any seen pipe, since the turn
      changes no known distance. */
  lemma StepFar(adj: Graph, src: set<Pos>, start: Pos, dist: map<Pos, nat>, fringe: seq<Pos>, seen: set<Pos>, far: Pos)
    requires Invariant(adj, src, start, dist, fringe, seen, far) && |fringe| > 0
    ensures var s := Step(adj, dist, fringe, seen);
      var f := Farther(dist, far, fringe[0]);
      && f in s.0 && (f in s.2 || f == start)
      && (src == {start} ==> forall q :: q in s.2 ==> s.0[q] <= s.0[f])
  {
    var pipe := fringe[0];
    var next := Step(adj, dist, fringe, seen);
    var f := Farther(dist, far, pipe);
    if src == {start} {
      StepFacts(adj, dist, fringe, seen);
      assert forall q :: q in next.2 ==> q in dist && dist[q] <= dist[f];
    }
  }

  lemma StepInvariant(adj: Graph, src: set<Pos>, start: Pos, dist: map<Pos, nat>, fringe: seq<Pos>, seen: set<Pos>, far: Pos)
    requires Invariant(adj, src, start, dist, fringe, seen, far) && |fringe| > 0
    ensures var s := Step(adj, dist, fringe, seen);
      Invariant(adj, src, start, s.0, s.1, s.2, Farther(dist, far, fringe[0]))
    ensures Step(adj, dist, fringe, seen).2 <= adj.Keys
    ensures adj.Keys - Step(adj, dist, fringe, seen).2 < adj.Keys - seen
  {
    var pipe := fringe[0];
    var next := Step(adj, dist, fringe, seen);
    StepSearching(adj, dist, fringe, seen);
    RelaxWitnessed(adj, src, pipe, dist);
    if src == {start} {
      StepLayered(adj, dist, fringe, seen);
    }
    StepFar(adj, src, start, dist, fringe, seen, far);
    assert pipe in adj.Keys - seen && pipe !in adj.Keys - next.2;
    if start !in seen && start != pipe {
      var k :| 0 <= k < |fringe| && fringe[k] == start;
      assert next.1[k - 1] == fringe[1..][k - 1] == start;
    }
  }

  /** When the fringe runs dry with a single start, no walk from it is
      shorter than the distance recorded for where it ends, and it ends
      among the seen pipes. */
  lemma ExitOptimal(adj: Graph, start: Pos, dist: map<Pos, nat>, seen: set<Pos>, far: Pos)
    requires Invariant(adj, {start}, start, dist, [], seen, far)
    ensures forall q, n :: WalkTo(adj, {start}, q, n) ==> q in seen && dist[q] <= n
  {
    forall q, n | WalkTo(adj, {start}, q, n)
      ensures q in seen && dist[q] <= n
    {
      var w :| Walk(adj, {start}, w) && |w| == n + 1 && w[n] == q;
      WalkBounded(adj, start, dist, seen, w);
    }
  }

  /** The `while` loop of `part1` over the pipe graph `adj`, with the
      tiles `src` at distance 0 and the fringe starting at `start`. It
      answers the pipe `farthest`, the seen set and the distances. Every
      recorded distance is a walk length; with `start` the only source,
      `far` is the farthest seen pipe, and the seen set with its distances
      are the reachable tiles with their shortest walks. */
  method Search(adj: Graph, src: set<Pos>, start: Pos) returns (far: Pos, seen: set<Pos>, dist: map<Pos, nat>)
    requires Closed(adj) && Loopless(adj) && src <= adj.Keys && start in src
    ensures start in seen && far in seen && seen <= adj.Keys && seen <= dist.Keys
    ensures forall q :: q in seen ==> forall n :: n in adj[q] ==> n in seen
    ensures Witnessed(adj, src, dist)
    ensures src == {start} ==> forall q :: q in seen ==> dist[q] <= dist[far]
    ensures src == {start} ==> forall q, n :: WalkTo(adj, src, q, n) ==> q in seen && dist[q] <= n
  {
    dist := map p | p in src :: 0;
    var fringe := [start];
    seen := {};
    far := start;
    InitInvariant(adj, src, start);
    while |fringe| > 0
      invariant Invariant(adj, src, start, dist, fringe, seen, far)
      decreases |adj.Keys - seen|
    {
      StepInvariant(adj, src, start, dist, fringe, seen, far);
      far := Farther(dist, far, fringe[0]);
      var next := Step(adj, dist, fringe, seen);
      dist, fringe, seen := next.0, next.1, next.2;
    }
    if src == {start} {
      ExitOptimal(adj, start, dist, seen, far);
    }
  }

  /** `part1`: the distance recorded for the farthest pipe, or `None` for a
      grid without an `S`, where the source fails on the missing start.
      The search runs over the plain neighbours. */
  method Part1(g: seq<string>) returns (r: Option<nat>, seen: set<Pos>, dist: map<Pos, nat>)
    ensures r.None? <==> Starts(g) == {}
    ensures r.Some? ==> LastS(g).Some? && LastS(g).value in seen && seen <= Cells(g)
    ensures r.Some? ==> forall q :: q in seen ==> forall n :: n in Neighbors(g, q) ==> n in seen
    ensures r.Some? ==> forall q :: q in seen ==> q in dist && WalkTo(Adjacency(g), Starts(g), q, dist[q])
    ensures r.Some? ==> exists q :: q in seen && dist[q] == r.value
    ensures r.Some? && Starts(g) == {LastS(g).value} ==> forall q :: q in seen ==> dist[q] <= r.value
    ensures r.Some? && Starts(g) == {LastS(g).value} ==>
              forall q, n :: WalkTo(Adjacency(g), Starts(g), q, n) ==> q in seen && dist[q] <= n
  {
    var s := LastS(g);
    if s.None? {
      return None, {}, map[];
    }
    AdjacencyShape(g);
    var far;
    far, seen, dist := Search(Adjacency(g), Starts(g), s.value);
    r := Some(dist[far]);
  }

  /** A grid in which no lookup of `connect` wraps back onto its own tile:
      at least two rows, and no row exactly one tile long. In a one-row
      grid the lookup above a pipe reads its own row, and in a one-tile row
      the lookup to the left reads the tile itself. */
  predicate NoSelfWrap(g: seq<string>)
  {
    |g| >= 2 && forall y :: 0 <= y < |g| ==> |g[y]| != 1
  }

  lemma TargetAsWrittenMoves(g: seq<string>, p: Pos, d: nat)
    requires InGrid(g, p) && d < 4 && NoSelfWrap(g)
    ensures TargetAsWritten(g, p, d) != Some(p)
  {
  }

  /** The graph as `make_connections` builds it with the wrapping lookup. */
  function AdjacencyAsWritten(g: seq<string>): (adj: Graph)
    ensures forall p :: p in adj <==> InGrid(g, p)
    ensures forall p :: p in adj ==> adj[p] == NeighborsAsWritten(g, p)
  {
    map p | p in Cells(g) :: NeighborsAsWritten(g, p)
  }

  /** The wrapping graph is closed, and when no lookup wraps onto its own
      tile no pipe is its own neighbour. Its links need not run both ways
      (see `WrapAsWritten`). */
  lemma AdjacencyAsWrittenShape(g: seq<string>)
    requires NoSelfWrap(g)
    ensures Closed(AdjacencyAsWritten(g)) && Loopless(AdjacencyAsWritten(g))
  {
    forall p | InGrid(g, p)
      ensures p !in NeighborsAsWritten(g, p)
    {
      NotOwnNeighbor(g, p);
    }
  }

  lemma NotOwnNeighbor(g: seq<string>, p: Pos)
    requires InGrid(g, p) && NoSelfWrap(g)
    ensures p !in NeighborsAsWritten(g, p)
  {
    TargetAsWrittenMoves(g, p, Up);
    TargetAsWrittenMoves(g, p, Left);
    TargetAsWrittenMoves(g, p, Down);
    TargetAsWrittenMoves(g, p, Right);
  }


  /** `part1` as written: the same search over the neighbours that the
      wrapping lookup of `connect` gives. */
  method Part1AsWritten(g: seq<string>) returns (r: Option<nat>, seen: set<Pos>, dist: map<Pos, nat>)
    requires NoSelfWrap(g)
    ensures r.None? <==> Starts(g) == {}
    ensures r.Some? ==> LastS(g).Some? && LastS(g).value in seen && seen <= Cells(g)
    ensures r.Some? ==> forall q :: q in seen ==> forall n :: n in NeighborsAsWritten(g, q) ==> n in seen
    ensures r.Some? ==> forall q :: q in seen ==> q in dist && WalkTo(AdjacencyAsWritten(g), Starts(g), q, dist[q])
    ensures r.Some? ==> exists q :: q in seen && dist[q] == r.value
    ensures r.Some? && Starts(g) == {LastS(g).value} ==> forall q :: q in seen ==> dist[q] <= r.value
    ensures r.Some? && Starts(g) == {LastS(g).value} ==>
              forall q, n :: WalkTo(AdjacencyAsWritten(g), Starts(g), q, n) ==> q in seen && dist[q] <= n
  {
    var s := LastS(g);
    if s.None? {
      return None, {}, map[];
    }
    AdjacencyAsWrittenShape(g);
    var far;
    far, seen, dist := Search(AdjacencyAsWritten(g), Starts(g), s.value);
    r := Some(dist[far]);
  }

  /** The grid `S.-` over `...`. */
  const WrapGrid: seq<string> := ["S.-", "..."]

  /** Its one `S` is the top-left tile. */
  lemma WrapGridStarts()
    ensures Starts(WrapGrid) == {Pos(0, 0)} && LastS(WrapGrid) == Some(Pos(0, 0))
  {
    var g := WrapGrid;
    assert g[0] == "S.-" && g[1] == "...";
    assert LastSIn(g[1]) == None;
    assert LastSIn(g[0]) == Some(0) by {
      assert LastSIn(g[0][..2]) == Some(0) by { assert LastSIn(g[0][..2][..1]) == Some(0); }
    }
    forall p | InGrid(g, p) && At(g, p) == 'S'
      ensures p == Pos(0, 0)
    {
      assert p.y == 0 || p.y == 1;
    }
  }

  /** As written, the `S` links to the `-` across the left edge, which
      links nowhere. */
  lemma WrapGridLinksAsWritten()
    ensures InGrid(WrapGrid, Pos(0, 0)) && InGrid(WrapGrid, Pos(0, 2))
    ensures NeighborsAsWritten(WrapGrid, Pos(0, 0)) == [Pos(0, 2)]
    ensures NeighborsAsWritten(WrapGrid, Pos(0, 2)) == []
  {
    var g := WrapGrid;
    assert g[0] == "S.-" && g[1] == "...";
    assert At(g, Pos(0, 0)) == 'S' && At(g, Pos(0, 1)) == '.' && At(g, Pos(0, 2)) == '-';
    assert At(g, Pos(1, 0)) == '.' && At(g, Pos(1, 2)) == '.';
    assert Link(g, Pos(0, 0), Left, true) == [Pos(0, 2)];
    assert Link(g, Pos(0, 0), Up, true) == [] && Link(g, Pos(0, 0), Down, true) == [];
    assert Link(g, Pos(0, 0), Right, true) == [];
    assert Link(g, Pos(0, 2), Left, true) == [] && Link(g, Pos(0, 2), Right, true) == [];
  }

  /** With the plain lookup the `S` links nowhere. */
  lemma WrapGridLinksPlain()
    ensures InGrid(WrapGrid, Pos(0, 0)) && Neighbors(WrapGrid, Pos(0, 0)) == []
  {
    var g := WrapGrid;
    assert g[0] == "S.-" && g[1] == "...";
    assert At(g, Pos(0, 1)) == '.' && At(g, Pos(1, 0)) == '.';
  }

  /** In a graph where `a` links only to `b` and `b` links nowhere, a
      walk from `a` is `a` alone or `a` then `b`. */
  lemma {:induction false} WalksOfTwo(adj: Graph, a: Pos, b: Pos, w: seq<Pos>)
    requires a in adj && b in adj && adj[a] == [b] && adj[b] == []
    requires Walk(adj, {a}, w)
    ensures |w| <= 2 && w[|w| - 1] == (if |w| == 1 then a else b)
    decreases |w|
  {
    if |w| > 1 {
      var v := w[..|w| - 1];
      assert Walk(adj, {a}, v);
      WalksOfTwo(adj, a, b, v);
      assert w[|w| - 1] in adj[v[|v| - 1]];
    }
  }

  /** The second tile of a walk is a neighbour of the first. */
  lemma WalkFirstStep(adj: Graph, src: set<Pos>, w: seq<Pos>)
    requires Walk(adj, src, w) && |w| > 1
    ensures w[0] in adj && w[1] in adj[w[0]]
  {
  }

  /** A search result over such a graph, with every distance a walk
      length, every walk at least as long as the distance, and `r` the
      largest distance of the seen set, answers 1. */
  lemma AnswerOfTwo(adj: Graph, a: Pos, b: Pos, seen: set<Pos>, dist: map<Pos, nat>, r: nat)
    requires a in adj && b in adj && adj[a] == [b] && adj[b] == []
    requires forall q :: q in seen ==> q in dist && WalkTo(adj, {a}, q, dist[q])
    requires exists q :: q in seen && dist[q] == r
    requires forall q :: q in seen ==> dist[q] <= r
    requires forall q, n :: WalkTo(adj, {a}, q, n) ==> q in seen && dist[q] <= n
    ensures r == 1
  {
    var q :| q in seen && dist[q] == r;
    ghost var w :| Walk(adj, {a}, w) && |w| == dist[q] + 1 && w[dist[q]] == q;
    WalksOfTwo(adj, a, b, w);
    assert Walk(adj, {a}, [a, b]);
    assert WalkTo(adj, {a}, b, 1);
  }

  /** Over a graph where `a` links nowhere, a search result whose `r` is
      the distance of some seen pipe reached by a walk of that length
      answers 0. */
  lemma AnswerOfOne(adj: Graph, a: Pos, seen: set<Pos>, dist: map<Pos, nat>, r: nat)
    requires a in adj && adj[a] == []
    requires forall q :: q in seen ==> q in dist && WalkTo(adj, {a}, q, dist[q])
    requires exists q :: q in seen && dist[q] == r
    ensures r == 0
  {
    var q :| q in seen && dist[q] == r;
    ghost var w :| Walk(adj, {a}, w) && |w| == dist[q] + 1 && w[dist[q]] == q;
    if |w| > 1 {
      WalkFirstStep(adj, {a}, w);
      assert false;
    }
  }

  /** On the grid `S.-` over `...` the lookup to the left of the `S` wraps
      to the `-` at the end of its row, so part 1 as written answers 1,
      where the plain lookup leaves the `S` alone and part 1 answers 0. */
  method WrapPart1Example() returns (written: Option<nat>, plain: Option<nat>)
    ensures written == Some(1) && plain == Some(0)
  {
    WrapGridStarts();
    WrapGridLinksAsWritten();
    WrapGridLinksPlain();
    var seen, dist;
    written, seen, dist := Part1AsWritten(WrapGrid);
    AnswerOfTwo(AdjacencyAsWritten(WrapGrid), Pos(0, 0), Pos(0, 2), seen, dist, written.value);
    plain, seen, dist := Part1(WrapGrid);
    AnswerOfOne(Adjacency(WrapGrid), Pos(0, 0), seen, dist, plain.value);
  }

  // ---------------------------------------------------------------------
  // Part 2: the row scan that counts the tiles inside the loop.

  /** A tile as the scan of `part2` sees it: whether the search reached
      it, and the direction the walk round the loop gave it (1 where the
      loop runs down, -1 where it runs up, 0 elsewhere). */
  datatype Tile = Tile(reached: bool, direction: int)

  /** A reached tile that carries a direction. */
  predicate Marked(t: Tile)
  {
    t.reached && t.direction != 0
  }

  /** `last_direction` after the first `n` tiles of a row: the direction
      of the nearest marked tile to the left, `None` when there is none. */
  function LastDir(row: seq<Tile>, n: nat): (d: Option<int>)
    requires n <= |row|
    ensures d.None? <==> forall j :: 0 <= j < n ==> !Marked(row[j])
    ensures d.Some? ==> exists j :: 0 <= j < n && Marked(row[j]) && row[j].direction == d.value
                                    && forall i :: j < i < n ==> !Marked(row[i])
  {
    if n == 0 then None
    else if Marked(row[n - 1]) then Some(row[n - 1].direction)
    else
      var d := LastDir(row, n - 1);
      assert d.Some? ==> exists j :: 0 <= j < n - 1 && Marked(row[j]) && row[j].direction == d.value
                                      && forall i :: j < i < n ==> !Marked(row[i]);
      d
  }

  /** `count` after the first `n` tiles: each reached tile whose direction
      differs from the last one adds its direction, so a run of tiles
      going the same way counts once. */
  function Crossings(row: seq<Tile>, n: nat): int
    requires n <= |row|
  {
    if n == 0 then 0
    else
      var t := row[n - 1];
      Crossings(row, n - 1) + if t.reached && LastDir(row, n - 1) != Some(t.direction) then t.direction else 0
  }

  /** A tile the search did not reach is inside when the crossings to its
      left are odd. Python's `count % 2` and Dafny's agree for the
      divisor 2, negative counts included. */
  predicate Inside(row: seq<Tile>, k: nat)
    requires k < |row|
  {
    !row[k].reached && Crossings(row, k) % 2 == 1
  }

  /** The tiles among the first `n` of a row that are inside. */
  function InsideUpTo(row: seq<Tile>, n: nat): nat
    requires n <= |row|
  {
    |set k | 0 <= k < n && Inside(row, k)|
  }

  lemma InsideUpToStep(row: seq<Tile>, n: nat)
    requires n < |row|
    ensures InsideUpTo(row, n + 1) == InsideUpTo(row, n) + if Inside(row, n) then 1 else 0
  {
    var s := set k | 0 <= k < n && Inside(row, k);
    if Inside(row, n) {
      assert (set k | 0 <= k < n + 1 && Inside(row, k)) == s + {n};
    } else {
      assert (set k | 0 <= k < n + 1 && Inside(row, k)) == s;
    }
  }

  /** The inside tiles of the first `n` rows. */
  function InsideRows(rows: seq<seq<Tile>>, n: nat): nat
    requires n <= |rows|
  {
    if n == 0 then 0 else InsideRows(rows, n - 1) + InsideUpTo(rows[n - 1], |rows[n - 1]|)
  }

  /** The closing loop of `part2`: each row scanned left to right with
      `count` and `last_direction`, counting the unreached tiles where the
      count is odd. */
  method InsideCount(rows: seq<seq<Tile>>) returns (inside: nat)
    ensures inside == InsideRows(rows, |rows|)
  {
    inside := 0;
    for y := 0 to |rows|
      invariant inside == InsideRows(rows, y)
    {
      var row := rows[y];
      var count := 0;
      var last: Option<int> := None;
      for x := 0 to |row|
        invariant count == Crossings(row, x) && last == LastDir(row, x)
        invariant inside == InsideRows(rows, y) + InsideUpTo(row, x)
      {
        InsideUpToStep(row, x);
        var t := row[x];
        if t.reached {
          if Some(t.direction) != last {
            count := count + t.direction;
            if t.direction != 0 {
              last := Some(t.direction);
            }
          }
        } else if count % 2 == 1 {
          inside := inside + 1;
        }
      }
    }
  }

  /** A run of reached tiles going the same way counts once: the second
      adds nothing. */
  lemma RunCountsOnce(row: seq<Tile>, j: nat)
    requires j + 1 < |row| && Marked(row[j]) && row[j + 1] == row[j]
    ensures Crossings(row, j + 2) == Crossings(row, j + 1)
  {
  }

  /** Tiles going opposite ways cancel: after a down and an up the parity
      is what it was before them. */
  lemma OppositeCancel(row: seq<Tile>, j: nat)
    requires j + 1 < |row| && Marked(row[j]) && row[j + 1] == Tile(true, -row[j].direction)
    requires LastDir(row, j) != Some(row[j].direction)
    ensures Crossings(row, j + 2) == Crossings(row, j)
  {
  }

  /** A row the loop never passes through has no tile inside. */
  lemma {:induction false} NoLoopNoInside(row: seq<Tile>, n: nat)
    requires n <= |row|
    requires forall k :: 0 <= k < |row| ==> !row[k].reached
    ensures Crossings(row, n) == 0 && InsideUpTo(row, n) == 0
  {
    if n > 0 {
      NoLoopNoInside(row, n - 1);
      InsideUpToStep(row, n - 1);
    }
  }
}

=== FILE: pulse_modules.dfy ===
/** The pulse propagation of 2023 day 20: flip-flop, conjunction and
    broadcaster modules that pass LOW and HIGH pulses along a first-in
    first-out queue. Part 1 multiplies the low and high pulse counts after
    1000 button presses; part 2 multiplies the press counts at which each
    input of the conjunction `zh` first sent it a HIGH pulse. */
module PulseModules {
  import opened Wrappers

  /** `Level`: LOW (also OFF) and HIGH (also ON). */
  datatype Level = Low | High

  /** `Level.invert`. */
  function Invert(l: Level): (r: Level)
    ensures r != l
  {
    if l == Low then High else Low
  }

  /** Inverting twice gives the level back. */
  lemma InvertTwice(l: Level)
    ensures Invert(Invert(l)) == l
  {
  }

  /** The three module classes with their state: a flip-flop's on/off
      state, a conjunction's remembered level per sender. */
  datatype Kind = FlipFlop(state: Level) | Conjunction(memory: map<string, Level>) | Broadcaster

  datatype Module = Module(name: string, kind: Kind, dsts: seq<string>)

  /** A queue entry `(dst, pulse, src)`. */
  datatype Pulse = Pulse(dst: string, level: Level, src: string)

  /** What a module does with one pulse: its new state and the level it
      sends to all its destinations, if any. */
  datatype Reaction = Reaction(after: Module, sent: Option<Level>)

  /** `get_pulse` of the three classes. */
  function Receive(m: Module, level: Level, sender: string): (r: Reaction)
    ensures r.after.name == m.name && r.after.dsts == m.dsts
  {
    match m.kind
    case FlipFlop(s) =>
      if level == Low then Reaction(m.(kind := FlipFlop(Invert(s))), Some(Invert(s)))
      else Reaction(m, None)
    case Conjunction(mem) =>
      var mem' := mem[sender := level];
      Reaction(m.(kind := Conjunction(mem')), Some(if Low in mem'.Values then High else Low))
    case Broadcaster =>
      Reaction(m, Some(level))
  }

  /** `send_pulse`: one queue entry per destination, in order, behind the
      entries already queued. */
  function Send(queue: seq<Pulse>, name: string, dsts: seq<string>, level: Level): (q: seq<Pulse>)
    ensures |q| == |queue| + |dsts|
    ensures q[..|queue|] == queue
    ensures forall k :: 0 <= k < |dsts| ==> q[|queue| + k] == Pulse(dsts[k], level, name)
  {
    queue + seq(|dsts|, k requires 0 <= k < |dsts| => Pulse(dsts[k], level, name))
  }

  /** A run of pulses into one module, in order: the module afterwards and
      the levels it sent, in order. */
  function Feed(m: Module, ps: seq<(Level, string)>): (r: (Module, seq<Level>))
    ensures r.0.name == m.name && r.0.dsts == m.dsts
    decreases |ps|
  {
    if |ps| == 0 then (m, [])
    else
      var prev := Feed(m, ps[..|ps| - 1]);
      var re := Receive(prev.0, ps[|ps| - 1].0, ps[|ps| - 1].1);
      (re.after, prev.1 + (if re.sent.Some? then [re.sent.value] else []))
  }

  /** How many of the pulses are LOW. */
  function LowCount(ps: seq<(Level, string)>): nat
  {
    if |ps| == 0 then 0
    else LowCount(ps[..|ps| - 1]) + (if ps[|ps| - 1].0 == Low then 1 else 0)
  }

  /** `l` inverted `n` times. */
  function Flipped(l: Level, n: nat): Level
  {
    if n % 2 == 0 then l else Invert(l)
  }

  lemma FlippedStep(l: Level, n: nat)
    ensures Flipped(l, n + 1) == Invert(Flipped(l, n))
  {
    if n % 2 == 0 {
      assert (n + 1) % 2 == 1;
    } else {
      assert (n + 1) % 2 == 0;
    }
  }

  /** A flip-flop ignores HIGH pulses and toggles on every LOW one, sending
      its new state each time: after the pulses it is toggled once per LOW
      pulse, and it has sent the alternating levels ON, OFF, ON, ... counted
      from its starting state. */
  lemma {:induction false} FlipFlopParity(name: string, dsts: seq<string>, s: Level, ps: seq<(Level, string)>)
    ensures var r := Feed(Module(name, FlipFlop(s), dsts), ps);
            && r.0.kind == FlipFlop(Flipped(s, LowCount(ps)))
            && |r.1| == LowCount(ps)
            && forall k :: 0 <= k < |r.1| ==> r.1[k] == Flipped(s, k + 1)
    decreases |ps|
  {
    if |ps| > 0 {
      var pre := ps[..|ps| - 1];
      FlipFlopParity(name, dsts, s, pre);
      FlippedStep(s, LowCount(pre));
    }
  }

  /** A broadcaster keeps no state and sends on every pulse it gets, at the
      level it got. */
  lemma {:induction false} BroadcasterForwards(name: string, dsts: seq<string>, ps: seq<(Level, string)>)
    ensures var r := Feed(Module(name, Broadcaster, dsts), ps);
            && r.0 == Module(name, Broadcaster, dsts)
            && |r.1| == |ps|
            && forall k :: 0 <= k < |ps| ==> r.1[k] == ps[k].0
    decreases |ps|
  {
    if |ps| > 0 {
      var pre := ps[..|ps| - 1];
      BroadcasterForwards(name, dsts, pre);
      var r := Feed(Module(name, Broadcaster, dsts), ps);
      forall k | 0 <= k < |ps| ensures r.1[k] == ps[k].0 {
        if k < |pre| { assert ps[k] == pre[k]; }
      }
    }
  }

  /** The level last received from `sender`, or `initial` when it sent
      nothing. */
  function LastFrom(ps: seq<(Level, string)>, sender: string, initial: Level): Level
  {
    if |ps| == 0 then initial
    else if ps[|ps| - 1].1 == sender then ps[|ps| - 1].0
    else LastFrom(ps[..|ps| - 1], sender, initial)
  }

  /** The senders of the pulses. */
  function Senders(ps: seq<(Level, string)>): set<string>
  {
    set k | 0 <= k < |ps| :: ps[k].1
  }

  /** A conjunction remembers, for every sender it knew or heard from, the
      last level that sender sent, and nothing else; every pulse makes it
      send, and it sends LOW exactly when all remembered levels are HIGH. */
  lemma {:induction false} ConjunctionRemembers(name: string, dsts: seq<string>, mem: map<string, Level>, ps: seq<(Level, string)>)
    ensures var r := Feed(Module(name, Conjunction(mem), dsts), ps);
            && r.0.kind.Conjunction?
            && r.0.kind.memory.Keys == mem.Keys + Senders(ps)
            && (forall s :: s in r.0.kind.memory ==>
                  r.0.kind.memory[s] == LastFrom(ps, s, if s in mem then mem[s] else Low))
            && |r.1| == |ps|
            && (|ps| > 0 ==> (r.1[|ps| - 1] == Low <==> forall s :: s in r.0.kind.memory ==> r.0.kind.memory[s] == High))
    decreases |ps|
  {
    if |ps| > 0 {
      var pre := ps[..|ps| - 1];
      ConjunctionRemembers(name, dsts, mem, pre);
      var last := ps[|ps| - 1];
      assert Senders(ps) == Senders(pre) + {last.1} by {
        forall x | x in Senders(ps) ensures x in Senders(pre) + {last.1} {
          var k :| 0 <= k < |ps| && ps[k].1 == x;
          if k < |pre| { assert pre[k] == ps[k]; }
        }
        forall x | x in Senders(pre) ensures x in Senders(ps) {
          var k :| 0 <= k < |pre| && pre[k].1 == x;
          assert ps[k] == pre[k];
        }
      }
    }
  }

  /** `register_sender`: a conjunction starts to remember `sender` at LOW;
      the other modules ignore it. */
  function Register(m: Module, sender: string): (r: Module)
    ensures r.name == m.name && r.dsts == m.dsts
    ensures r.kind.Conjunction? <==> m.kind.Conjunction?
  {
    match m.kind
    case Conjunction(mem) => m.(kind := Conjunction(mem[sender := Low]))
    case _ => m
  }

  /** Every module is stored under its own name. */
  predicate Keyed(modules: map<string, Module>)
  {
    forall k :: k in modules ==> modules[k].name == k
  }

  /** The registration loop of `Sim.__init__`: every (source, destination)
      link in order; a destination without a module is skipped. */
  function RegisterAll(modules: map<string, Module>, links: seq<(string, string)>): (r: map<string, Module>)
    ensures r.Keys == modules.Keys
    ensures forall k :: k in modules ==>
              (r[k].name == modules[k].name && r[k].dsts == modules[k].dsts
               && (r[k].kind.Conjunction? <==> modules[k].kind.Conjunction?))
    decreases |links|
  {
    if |links| == 0 then modules
    else
      var prev := RegisterAll(modules, links[..|links| - 1]);
      var (src, dst) := links[|links| - 1];
      if dst in prev then prev[dst := Register(prev[dst], src)] else prev
  }

  /** The sources of the links into `dst`. */
  function SendersTo(links: seq<(string, string)>, dst: string): set<string>
  {
    set k | 0 <= k < |links| && links[k].1 == dst :: links[k].0
  }

  /** After registration a conjunction remembers every module that lists it
      as a destination, each at LOW, on top of what it remembered before;
      flip-flops and broadcasters are untouched. */
  lemma {:induction false} RegisterAllMemory(modules: map<string, Module>, links: seq<(string, string)>, name: string)
    requires name in modules
    ensures var m := RegisterAll(modules, links)[name];
            && (!modules[name].kind.Conjunction? ==> m == modules[name])
            && (modules[name].kind.Conjunction? ==>
                  && m.kind.memory.Keys == modules[name].kind.memory.Keys + SendersTo(links, name)
                  && forall s :: s in m.kind.memory ==>
                       m.kind.memory[s] == (if s in SendersTo(links, name) then Low else modules[name].kind.memory[s]))
    decreases |links|
  {
    if |links| > 0 {
      var pre := links[..|links| - 1];
      RegisterAllMemory(modules, pre, name);
      SendersToStep(links, name);
    }
  }

  lemma SendersToStep(links: seq<(string, string)>, name: string)
    requires |links| > 0
    ensures var last := links[|links| - 1];
            SendersTo(links, name) == SendersTo(links[..|links| - 1], name) + (if last.1 == name then {last.0} else {})
  {
    var pre := links[..|links| - 1];
    var last := links[|links| - 1];
    forall x | x in SendersTo(links, name)
      ensures x in SendersTo(pre, name) + (if last.1 == name then {last.0} else {})
    {
      var k :| 0 <= k < |links| && links[k].1 == name && links[k].0 == x;
      if k < |pre| { assert pre[k] == links[k]; }
    }
    forall x | x in SendersTo(pre, name) ensures x in SendersTo(links, name) {
      var k :| 0 <= k < |pre| && pre[k].1 == name && pre[k].0 == x;
      assert links[k] == pre[k];
    }
  }

  /** The module kinds a line can describe: `%name`, `&name` and
      `broadcaster`. */
  datatype Type = FlipFlopType | ConjunctionType | BroadcasterType

  /** A parsed line: the type, the name without its prefix, and the
      destinations. */
  datatype Spec = Spec(typ: Type, name: string, dsts: seq<string>)

  /** The module a line creates: flip-flops start OFF, conjunctions with an
      empty memory. */
  function Fresh(sp: Spec): (m: Module)
    ensures m.name == sp.name && m.dsts == sp.dsts
  {
    match sp.typ
    case FlipFlopType => Module(sp.name, FlipFlop(Low), sp.dsts)
    case ConjunctionType => Module(sp.name, Conjunction(map[]), sp.dsts)
    case BroadcasterType => Module(sp.name, Broadcaster, sp.dsts)
  }

  /** `self.modules`: each module stored under its name as it is created,
      a later line with the same name replacing the earlier module. */
  function Modules(specs: seq<Spec>): (r: map<string, Module>)
    ensures Keyed(r)
    ensures forall k :: 0 <= k < |specs| ==> specs[k].name in r
    decreases |specs|
  {
    if |specs| == 0 then map[]
    else
      var last := specs[|specs| - 1];
      Modules(specs[..|specs| - 1])[last.name := Fresh(last)]
  }

  /** The `links` list: every (module, destination) pair, module by
      module. */
  function Links(specs: seq<Spec>): seq<(string, string)>
    decreases |specs|
  {
    if |specs| == 0 then []
    else
      var last := specs[|specs| - 1];
      Links(specs[..|specs| - 1]) + seq(|last.dsts|, k requires 0 <= k < |last.dsts| => (last.name, last.dsts[k]))
  }

  /** Every link comes from a line and names one of its destinations. */
  lemma {:induction false} LinksFromSpecs(specs: seq<Spec>, src: string, dst: string)
    ensures (exists k :: 0 <= k < |Links(specs)| && Links(specs)[k] == (src, dst))
        <==> (exists j :: 0 <= j < |specs| && specs[j].name == src && dst in specs[j].dsts)
    decreases |specs|
  {
    if |specs| > 0 {
      var pre := specs[..|specs| - 1];
      var last := specs[|specs| - 1];
      LinksFromSpecs(pre, src, dst);
      var lp := Links(pre);
      var ls := Links(specs);
      assert ls[..|lp|] == lp;
      if exists k :: 0 <= k < |ls| && ls[k] == (src, dst) {
        var k :| 0 <= k < |ls| && ls[k] == (src, dst);
        if k < |lp| {
          assert lp[k] == (src, dst);
          var j :| 0 <= j < |pre| && pre[j].name == src && dst in pre[j].dsts;
          assert specs[j] == pre[j];
        } else {
          assert last.dsts[k - |lp|] == dst;
        }
      }
      if exists j :: 0 <= j < |specs| && specs[j].name == src && dst in specs[j].dsts {
        var j :| 0 <= j < |specs| && specs[j].name == src && dst in specs[j].dsts;
        if j < |pre| {
          assert pre[j] == specs[j];
          var k :| 0 <= k < |lp| && lp[k] == (src, dst);
          assert ls[k] == (src, dst);
        } else {
          var i :| 0 <= i < |last.dsts| && last.dsts[i] == dst;
          assert ls[|lp| + i] == (src, dst);
        }
      }
    }
  }

  /** The simulation state: the modules, the pulse queue, the pulse counts
      per level, the presses so far, whether `rx` got a LOW pulse, and the
      press count at which each input of `zh` first sent it HIGH, in the
      order they were recorded. */
  datatype Sim = Sim(modules: map<string, Module>, queue: seq<Pulse>, lows: nat, highs: nat,
                     presses: nat, rxLow: bool, cycles: seq<(string, nat)>)

  /** `Sim.__init__` after the lines are parsed. */
  function Init(specs: seq<Spec>): (s: Sim)
    ensures s.queue == [] && s.lows == 0 && s.highs == 0 && s.presses == 0 && s.cycles == []
    ensures Keyed(s.modules)
  {
    var ms := Modules(specs);
    Sim(RegisterAll(ms, Links(specs)), [], 0, 0, 0, false, [])
  }

  /** A conjunction starts out remembering exactly the modules whose line
      lists it, each at LOW. */
  lemma InitConjunction(specs: seq<Spec>, name: string, src: string)
    requires name in Init(specs).modules && Init(specs).modules[name].kind.Conjunction?
    ensures var mem := Init(specs).modules[name].kind.memory;
            && (src in mem <==> exists j :: 0 <= j < |specs| && specs[j].name == src && name in specs[j].dsts)
            && (src in mem ==> mem[src] == Low)
  {
    var ms := Modules(specs);
    var links := Links(specs);
    RegisterAllMemory(ms, links, name);
    ModulesFresh(specs, name);
    LinksFromSpecs(specs, src, name);
    assert src in SendersTo(links, name) <==> exists k :: 0 <= k < |links| && links[k] == (src, name);
  }

  /** Every module is created fresh from some line, so a conjunction starts
      with an empty memory. */
  lemma {:induction false} ModulesFresh(specs: seq<Spec>, name: string)
    requires name in Modules(specs)
    ensures Modules(specs)[name].kind.Conjunction? ==> Modules(specs)[name].kind.memory == map[]
    decreases |specs|
  {
    if |specs| > 0 && specs[|specs| - 1].name != name {
      ModulesFresh(specs[..|specs| - 1], name);
    }
  }

  /** Whether the table holds an entry for `key`. */
  predicate HasKey(cycles: seq<(string, nat)>, key: string)
  {
    exists k :: 0 <= k < |cycles| && cycles[k].0 == key
  }

  /** `tick`: pop the oldest pulse, count it, note a LOW pulse to `rx` or the
      first HIGH pulse from each input of `zh`, and deliver it; a pulse to a
      name without a module is counted and dropped. */
  function Tick(s: Sim): (r: Sim)
    requires |s.queue| > 0
    requires Keyed(s.modules)
    ensures r.lows + r.highs == s.lows + s.highs + 1
    ensures s.queue[0].level == Low ==> r.lows == s.lows + 1
    ensures s.queue[0].level == High ==> r.highs == s.highs + 1
    ensures r.presses == s.presses
    ensures Keyed(r.modules) && r.modules.Keys == s.modules.Keys
    ensures forall k :: k in s.modules && k != s.queue[0].dst ==> r.modules[k] == s.modules[k]
    ensures |r.queue| >= |s.queue| - 1 && r.queue[..|s.queue| - 1] == s.queue[1..]
    ensures s.queue[0].dst !in s.modules ==> r.modules == s.modules && r.queue == s.queue[1..]
    ensures |s.cycles| <= |r.cycles| && r.cycles[..|s.cycles|] == s.cycles
  {
    var p := s.queue[0];
    var rest := s.queue[1..];
    var lows := if p.level == Low then s.lows + 1 else s.lows;
    var highs := if p.level == Low then s.highs else s.highs + 1;
    var rx := s.rxLow || (p.dst == "rx" && p.level == Low);
    var cycles :=
      if p.dst == "zh" && p.level == High && !HasKey(s.cycles, p.src) then s.cycles + [(p.src, s.presses)]
      else s.cycles;
    if p.dst in s.modules then
      var m := s.modules[p.dst];
      var re := Receive(m, p.level, p.src);
      var queue := if re.sent.Some? then Send(rest, m.name, m.dsts, re.sent.value) else rest;
      Sim(s.modules[p.dst := re.after], queue, lows, highs, s.presses, rx, cycles)
    else
      Sim(s.modules, rest, lows, highs, s.presses, rx, cycles)
  }

  /** A delivered pulse puts the receiver's reaction, sent to each of its
      destinations in order, at the back of the queue. */
  lemma TickDelivers(s: Sim)
    requires |s.queue| > 0 && Keyed(s.modules) && s.queue[0].dst in s.modules
    ensures var m := s.modules[s.queue[0].dst];
            var re := Receive(m, s.queue[0].level, s.queue[0].src);
            && Tick(s).modules[s.queue[0].dst] == re.after
            && |Tick(s).queue| == |s.queue| - 1 + (if re.sent.Some? then |m.dsts| else 0)
            && forall k :: 0 <= k < |m.dsts| && re.sent.Some? ==>
                 Tick(s).queue[|s.queue| - 1 + k] == Pulse(m.dsts[k], re.sent.value, s.queue[0].dst)
  {
  }

  /** `push_the_button`: one more press and a LOW pulse from `button` to
      `broadcaster` at the back of the queue. */
  function Push(s: Sim): (r: Sim)
    ensures r.presses == s.presses + 1
    ensures r.queue == s.queue + [Pulse("broadcaster", Low, "button")]
    ensures r.modules == s.modules && r.lows == s.lows && r.highs == s.highs && r.cycles == s.cycles
  {
    s.(presses := s.presses + 1, queue := s.queue + [Pulse("broadcaster", Low, "button")])
  }

  /** `run`: tick until the queue is empty, for at most `fuel` ticks; None
      when the pulses keep coming. */
  function Run(s: Sim, fuel: nat): (r: Option<Sim>)
    requires Keyed(s.modules)
    ensures r.Some? ==> r.value.queue == [] && Keyed(r.value.modules) && r.value.presses == s.presses
    ensures r.Some? ==> r.value.lows + r.value.highs >= s.lows + s.highs + |s.queue|
    decreases fuel
  {
    if |s.queue| == 0 then Some(s)
    else if fuel == 0 then None
    else Run(Tick(s), fuel - 1)
  }

  /** `score`. */
  function Score(s: Sim): nat
  {
    s.lows * s.highs
  }

  /** What the simulation keeps true: modules under their names, pulses
      queued only after a press, and each recorded press count between 1
      and the presses so far, with no input recorded twice. */
  predicate Well(s: Sim)
  {
    && Keyed(s.modules)
    && (|s.queue| > 0 ==> s.presses > 0)
    && (forall k :: 0 <= k < |s.cycles| ==> 1 <= s.cycles[k].1 <= s.presses)
    && (forall j, k :: 0 <= j < k < |s.cycles| ==> s.cycles[j].0 != s.cycles[k].0)
  }

  lemma InitWell(specs: seq<Spec>)
    ensures Well(Init(specs))
  {
  }

  lemma TickWell(s: Sim)
    requires |s.queue| > 0 && Well(s)
    ensures Well(Tick(s))
  {
    var r := Tick(s);
    var p := s.queue[0];
    if p.dst == "zh" && p.level == High && !HasKey(s.cycles, p.src) {
      assert r.cycles == s.cycles + [(p.src, s.presses)];
      forall j, k | 0 <= j < k < |r.cycles| ensures r.cycles[j].0 != r.cycles[k].0 {
        if k == |s.cycles| {
          assert r.cycles[j] == s.cycles[j];
        } else {
          assert r.cycles[j] == s.cycles[j] && r.cycles[k] == s.cycles[k];
        }
      }
    }
  }

  lemma PushWell(s: Sim)
    requires Well(s)
    ensures Well(Push(s))
  {
  }

  lemma {:induction false} RunWell(s: Sim, fuel: nat)
    requires Well(s) && Run(s, fuel).Some?
    ensures Well(Run(s, fuel).value)
    ensures |s.cycles| <= |Run(s, fuel).value.cycles| && Run(s, fuel).value.cycles[..|s.cycles|] == s.cycles
    decreases fuel
  {
    if |s.queue| > 0 {
      TickWell(s);
      RunWell(Tick(s), fuel - 1);
    }
  }

  /** Part 1's loop: `n` presses, each followed by a full run. */
  function Presses(s: Sim, n: nat, fuel: nat): (r: Option<Sim>)
    requires Keyed(s.modules)
    ensures r.Some? ==> r.value.presses == s.presses + n && Keyed(r.value.modules)
    decreases n
  {
    if n == 0 then Some(s)
    else
      match Run(Push(s), fuel)
      case None => None
      case Some(s') => Presses(s', n - 1, fuel)
  }

  /** Every press counts at least the pulse from the button. */
  lemma {:induction false} PressesCount(s: Sim, n: nat, fuel: nat)
    requires Keyed(s.modules) && Presses(s, n, fuel).Some?
    ensures Presses(s, n, fuel).value.lows + Presses(s, n, fuel).value.highs >= s.lows + s.highs + n
    decreases n
  {
    if n > 0 {
      var s' := Run(Push(s), fuel).value;
      assert s'.lows + s'.highs >= s.lows + s.highs + 1;
      PressesCount(s', n - 1, fuel);
    }
  }

  /** Part 1: the score after 1000 presses. */
  function Part1(specs: seq<Spec>, fuel: nat): (r: Option<nat>)
    ensures r.Some? ==> Presses(Init(specs), 1000, fuel).Some?
                        && r.value == Presses(Init(specs), 1000, fuel).value.lows * Presses(Init(specs), 1000, fuel).value.highs
  {
    match Presses(Init(specs), 1000, fuel)
    case None => None
    case Some(s) => Some(Score(s))
  }

  /** The product of the recorded press counts. */
  function Product(cycles: seq<(string, nat)>): nat
  {
    if |cycles| == 0 then 1 else Product(cycles[..|cycles| - 1]) * cycles[|cycles| - 1].1
  }

  lemma {:induction false} ProductPositive(cycles: seq<(string, nat)>)
    requires forall k :: 0 <= k < |cycles| ==> cycles[k].1 >= 1
    ensures Product(cycles) >= 1
    decreases |cycles|
  {
    if |cycles| > 0 {
      ProductPositive(cycles[..|cycles| - 1]);
      var p := Product(cycles[..|cycles| - 1]);
      var c := cycles[|cycles| - 1].1;
      assert p * c >= 1 * c;
    }
  }

  /** Part 2's loop: press and run while fewer than four inputs of `zh` are
      recorded, at most `presses` more times; then the product of their
      press counts. */
  function Part2Loop(s: Sim, presses: nat, fuel: nat): (r: Option<nat>)
    requires Keyed(s.modules)
    decreases presses
  {
    if |s.cycles| >= 4 then Some(Product(s.cycles))
    else if presses == 0 then None
    else
      match Run(Push(s), fuel)
      case None => None
      case Some(s') => Part2Loop(s', presses - 1, fuel)
  }

  /** The loop ends with at least four recorded inputs, keeping those
      recorded before, and answers the product of their press counts. */
  lemma {:induction false} Part2LoopSound(s: Sim, presses: nat, fuel: nat)
    requires Well(s) && Part2Loop(s, presses, fuel).Some?
    ensures exists t: Sim :: Well(t) && |t.cycles| >= 4 && |s.cycles| <= |t.cycles| && t.cycles[..|s.cycles|] == s.cycles
                             && Part2Loop(s, presses, fuel).value == Product(t.cycles)
    decreases presses
  {
    if |s.cycles| >= 4 {
      assert s.cycles[..|s.cycles|] == s.cycles;
    } else {
      PushWell(s);
      var s' := Run(Push(s), fuel).value;
      RunWell(Push(s), fuel);
      Part2LoopSound(s', presses - 1, fuel);
      var t :| Well(t) && |t.cycles| >= 4 && |s'.cycles| <= |t.cycles| && t.cycles[..|s'.cycles|] == s'.cycles
               && Part2Loop(s', presses - 1, fuel).value == Product(t.cycles);
      PrefixTrans(s.cycles, s'.cycles, t.cycles);
    }
  }

  lemma PrefixTrans<T>(a: seq<T>, b: seq<T>, c: seq<T>)
    requires |a| <= |b| <= |c| && b[..|a|] == a && c[..|b|] == b
    ensures c[..|a|] == a
  {
    assert c[..|b|][..|a|] == c[..|a|];
  }

  /** Every recorded press count is positive, so the answer is too. */
  lemma Part2LoopPositive(s: Sim, presses: nat, fuel: nat)
    requires Well(s) && Part2Loop(s, presses, fuel).Some?
    ensures Part2Loop(s, presses, fuel).value >= 1
  {
    Part2LoopSound(s, presses, fuel);
    var t :| Well(t) && |t.cycles| >= 4 && |s.cycles| <= |t.cycles| && t.cycles[..|s.cycles|] == s.cycles
             && Part2Loop(s, presses, fuel).value == Product(t.cycles);
    ProductPositive(t.cycles);
  }

  /** Part 2 from the initial state. */
  function Part2(specs: seq<Spec>, presses: nat, fuel: nat): (r: Option<nat>)
    ensures r.Some? ==> r.value >= 1
  {
    InitWell(specs);
    var r := Part2Loop(Init(specs), presses, fuel);
    if r.Some? then Part2LoopPositive(Init(specs), presses, fuel); r else r
  }
}

=== FILE: py_ops.dfy ===
/** Python semantics that Dafny does not share: list indexing with negative
    indices, slice clamping, decimal digit counts and bitwise xor on
    non-negative integers. */
module PyOps {

  /** Python accepts an index `i` into a list of length `n` when `-n <= i < n`. */
  predicate IndexOk(n: nat, i: int) {
    0 <= i + n && i < n
  }

  /** The position Python actually uses for an accepted index:
      negative indices count from the end. */
  function Wrap(n: nat, i: int): (k: nat)
    requires IndexOk(n, i)
    ensures k < n
  {
    if i < 0 then n + i else i
  }

  /** Python's clamping of one slice bound into `[0, n]`. */
  function SliceBound(n: nat, i: int): (k: nat)
    ensures k <= n
  {
    if i < 0 then (if n + i < 0 then 0 else n + i)
    else if i > n then n
    else i
  }

  /** `s[start:stop]` with Python's clamping; an empty slice when the bounds cross. */
  function Slice<T>(s: seq<T>, start: int, stop: int): seq<T>
  {
    var lo := SliceBound(|s|, start);
    var hi := SliceBound(|s|, stop);
    if lo < hi then s[lo..hi] else []
  }

  /** For non-negative bounds a Python slice is the Dafny subsequence clipped to the list. */
  lemma SliceNonNegative<T>(s: seq<T>, start: nat, len: nat)
    requires start + len <= |s|
    ensures Slice(s, start, start + len) == s[start..start + len]
  {
  }

  /** `s[::-1]`. */
  function Reverse<T>(s: seq<T>): (r: seq<T>)
    ensures |r| == |s|
    ensures forall k :: 0 <= k < |s| ==> r[k] == s[|s| - 1 - k]
  {
    seq(|s|, k requires 0 <= k < |s| => s[|s| - 1 - k])
  }

  /** Reversing keeps the elements. */
  lemma {:induction false} ReverseMultiset<T>(s: seq<T>)
    ensures multiset(Reverse(s)) == multiset(s)
  {
    if |s| > 0 {
      var init, last := s[..|s| - 1], s[|s| - 1];
      ReverseMultiset(init);
      assert s == init + [last];
      assert Reverse(s) == [last] + Reverse(init);
    }
  }

  /** `2 ** k`. */
  function Pow2(k: nat): (r: nat)
    ensures r >= 1
  {
    if k == 0 then 1 else 2 * Pow2(k - 1)
  }

  /** `10 ** k`. */
  function Pow10(k: nat): (r: nat)
    ensures r >= 1
  {
    if k == 0 then 1 else 10 * Pow10(k - 1)
  }

  lemma Pow2Add(a: nat, b: nat)
    ensures Pow2(a + b) == Pow2(a) * Pow2(b)
  {
    if a > 0 {
      Pow2Add(a - 1, b);
    }
  }

  lemma Pow10Add(a: nat, b: nat)
    ensures Pow10(a + b) == Pow10(a) * Pow10(b)
  {
    if a > 0 {
      Pow10Add(a - 1, b);
    }
  }

  /** `len(str(n))` for a non-negative integer. */
  function NumDigits(n: nat): (d: nat)
    ensures d >= 1
  {
    if n < 10 then 1 else 1 + NumDigits(n / 10)
  }

  /** A number has `d` decimal digits exactly when it lies in `[10^(d-1), 10^d)`
      (or is 0 with one digit). */
  lemma {:induction false} NumDigitsBounds(n: nat)
    ensures n < Pow10(NumDigits(n))
    ensures n >= 10 ==> Pow10(NumDigits(n) - 1) <= n
  {
    if n >= 10 {
      NumDigitsBounds(n / 10);
    }
  }

  /** Bitwise `a ^ b` on non-negative integers, bit by bit from the lowest. */
  function Xor(a: nat, b: nat): nat
  {
    if a == 0 then b
    else if b == 0 then a
    else 2 * Xor(a / 2, b / 2) + (if a % 2 == b % 2 then 0 else 1)
  }

  lemma {:induction false} XorComm(a: nat, b: nat)
    ensures Xor(a, b) == Xor(b, a)
  {
    if a != 0 && b != 0 {
      XorComm(a / 2, b / 2);
    }
  }

  lemma {:induction false} XorSelf(a: nat)
    ensures Xor(a, a) == 0
  {
    if a != 0 {
      XorSelf(a / 2);
    }
  }

  /** xor never sets a bit above the highest bit of its operands. */
  lemma {:induction false} XorBound(a: nat, b: nat, k: nat)
    requires a < Pow2(k) && b < Pow2(k)
    ensures Xor(a, b) < Pow2(k)
  {
    if a != 0 && b != 0 {
      assert k > 0;
      XorBound(a / 2, b / 2, k - 1);
    }
  }

  /** `a >> k`: `k` halvings, each dropping the lowest bit. */
  function Shr(a: nat, k: nat): (r: nat)
    ensures r <= a
    ensures k > 0 && a > 0 ==> r < a
  {
    if k == 0 then a else Shr(a / 2, k - 1)
  }

  /** `a >> k` is the `q` with `q * 2**k <= a < (q + 1) * 2**k`. */
  lemma {:induction false} ShrBounds(a: nat, k: nat)
    ensures Pow2(k) * Shr(a, k) <= a < Pow2(k) * Shr(a, k) + Pow2(k)
  {
    if k > 0 {
      var p, s := Pow2(k - 1), Shr(a / 2, k - 1);
      ShrBounds(a / 2, k - 1);
      assert Pow2(k) == 2 * p && Shr(a, k) == s;
      assert a == 2 * (a / 2) + a % 2;
      assert Pow2(k) * s == 2 * (p * s);
    }
  }

  /** Shifting right by `k` is floor division by `2 ** k`. */
  lemma ShrIsDivPow2(a: nat, k: nat)
    ensures Shr(a, k) == a / Pow2(k)
  {
    ShrBounds(a, k);
    DivUnique(a, Pow2(k), Shr(a, k), a - Pow2(k) * Shr(a, k));
  }

  lemma {:induction false} MulAtLeast(d: nat, x: nat)
    requires x >= 1
    ensures d * x >= d
  {
    if x > 1 {
      MulAtLeast(d, x - 1);
      assert d * x == d * (x - 1) + d;
    }
  }

  /** Floor division is determined by any quotient and remainder in range. */
  lemma DivUnique(a: nat, d: nat, q: nat, r: nat)
    requires d > 0 && r < d && a == d * q + r
    ensures a / d == q
  {
    var q' := a / d;
    var r' := a % d;
    assert a == d * q' + r';
    if q' < q {
      MulAtLeast(d, q - q');
      assert false;
    } else if q' > q {
      MulAtLeast(d, q' - q);
      assert false;
    }
  }

  /** The remainder is determined likewise. */
  lemma ModUnique(a: nat, d: nat, q: nat, r: nat)
    requires d > 0 && r < d && a == d * q + r
    ensures a % d == r
  {
    DivUnique(a, d, q, r);
  }
}

=== FILE: py_str.dfy ===
/** Python's string methods that the solutions lean on: `startswith`,
    `split` on a one-character separator and its inverse `join`. */
module PyStr {

  /** `s.startswith(prefix)`. */
  predicate StartsWith(s: string, prefix: string)
  {
    |prefix| <= |s| && s[..|prefix|] == prefix
  }

  /** `s[p:].startswith(w)`, stated character by character. */
  predicate StartsAt(s: string, p: nat, w: string)
  {
    p + |w| <= |s| && forall i :: 0 <= i < |w| ==> s[p + i] == w[i]
  }

  /** Matching at a position is `startswith` on the tail from there. */
  lemma StartsAtTail(s: string, p: nat, w: string)
    requires p <= |s|
    ensures StartsAt(s, p, w) <==> StartsWith(s[p..], w)
  {
    if StartsAt(s, p, w) {
      assert s[p..][..|w|] == w;
    }
  }

  /** No character of `s` is `sep`. */
  predicate Free(s: string, sep: char)
  {
    forall i :: 0 <= i < |s| ==> s[i] != sep
  }

  /** `sep.join(parts)`. */
  function Join(parts: seq<string>, sep: char): string
  {
    if |parts| == 0 then ""
    else if |parts| == 1 then parts[0]
    else parts[0] + [sep] + Join(parts[1..], sep)
  }

  /** `s.split(sep)`: the pieces between separators, empty pieces included,
      so there is always one more piece than separators. */
  function Split(s: string, sep: char): (parts: seq<string>)
    ensures |parts| >= 1
    ensures forall k :: 0 <= k < |parts| ==> Free(parts[k], sep)
  {
    if |s| == 0 then [""]
    else
      var rest := Split(s[1..], sep);
      if s[0] == sep then [""] + rest else [[s[0]] + rest[0]] + rest[1..]
  }

  /** Splitting text without a separator gives the text itself. */
  lemma {:induction false} SplitFree(x: string, sep: char)
    requires Free(x, sep)
    ensures Split(x, sep) == [x]
  {
    if |x| > 0 {
      SplitFree(x[1..], sep);
      assert [x[0]] + x[1..] == x;
    }
  }

  /** A separator after a free piece ends that piece. */
  lemma {:induction false} SplitAfter(x: string, sep: char, y: string)
    requires Free(x, sep)
    ensures Split(x + [sep] + y, sep) == [x] + Split(y, sep)
  {
    if |x| == 0 {
      assert x + [sep] + y == [sep] + y;
      assert ([sep] + y)[1..] == y;
    } else {
      SplitAfter(x[1..], sep, y);
      assert (x + [sep] + y)[1..] == x[1..] + [sep] + y;
      assert [x[0]] + x[1..] == x;
    }
  }

  /** How `split` treats the first character. */
  lemma SplitCons(c: char, t: string, sep: char)
    ensures Split([c] + t, sep) == ConsPieces(c, Split(t, sep), sep)
  {
    assert ([c] + t)[1..] == t;
  }

  /** The pieces `split` makes of `[c] + t`, from the pieces of `t`. */
  function ConsPieces(c: char, pieces: seq<string>, sep: char): seq<string>
    requires |pieces| >= 1
  {
    if c == sep then [""] + pieces else [[c] + pieces[0]] + pieces[1..]
  }

  lemma ConsPiecesAppend(c: char, l: seq<string>, r: seq<string>, sep: char)
    requires |l| >= 1
    ensures ConsPieces(c, l + r, sep) == ConsPieces(c, l, sep) + r
  {
    if c != sep {
      assert (l + r)[0] == l[0];
      assert (l + r)[1..] == l[1..] + r;
    }
  }

  /** A separator splits the text around it independently:
      `(a + sep + b).split(sep) == a.split(sep) + b.split(sep)`. */
  lemma {:induction false} SplitConcat(a: string, sep: char, b: string)
    ensures Split(a + [sep] + b, sep) == Split(a, sep) + Split(b, sep)
  {
    if |a| == 0 {
      assert a + [sep] + b == [sep] + b;
      SplitCons(sep, b, sep);
    } else {
      var t := a[1..] + [sep] + b;
      var l, r := Split(a[1..], sep), Split(b, sep);
      calc {
        Split(a + [sep] + b, sep);
        { assert a + [sep] + b == [a[0]] + t; }
        Split([a[0]] + t, sep);
        { SplitCons(a[0], t, sep); }
        ConsPieces(a[0], Split(t, sep), sep);
        { SplitConcat(a[1..], sep, b); }
        ConsPieces(a[0], l + r, sep);
        { ConsPiecesAppend(a[0], l, r, sep); }
        ConsPieces(a[0], l, sep) + r;
        { SplitCons(a[0], a[1..], sep); assert a == [a[0]] + a[1..]; }
        Split(a, sep) + r;
      }
    }
  }

  /** Splitting what `join` built gives back the pieces. */
  lemma {:induction false} SplitJoin(parts: seq<string>, sep: char)
    requires |parts| >= 1 && forall k :: 0 <= k < |parts| ==> Free(parts[k], sep)
    ensures Split(Join(parts, sep), sep) == parts
  {
    if |parts| == 1 {
      SplitFree(parts[0], sep);
    } else {
      SplitJoin(parts[1..], sep);
      SplitAfter(parts[0], sep, Join(parts[1..], sep));
      assert [parts[0]] + parts[1..] == parts;
    }
  }

  lemma JoinFront(c: char, first: string, rest: seq<string>, sep: char)
    ensures Join([[c] + first] + rest, sep) == [c] + Join([first] + rest, sep)
  {
    var ps := [[c] + first] + rest;
    var qs := [first] + rest;
    assert ps[1..] == rest && qs[1..] == rest;
  }

  /** Joining the pieces of a split gives back the text. */
  lemma {:induction false} JoinSplit(s: string, sep: char)
    ensures Join(Split(s, sep), sep) == s
  {
    if |s| > 0 {
      var rest := Split(s[1..], sep);
      JoinSplit(s[1..], sep);
      if s[0] == sep {
        assert ([""] + rest)[1..] == rest;
        assert [s[0]] + s[1..] == s;
      } else {
        JoinFront(s[0], rest[0], rest[1..], sep);
        assert [rest[0]] + rest[1..] == rest;
        assert [s[0]] + s[1..] == s;
      }
    }
  }
}

=== FILE: reports.dfy ===
/** 2024 day 2: which reactor reports are safe, with and without the problem dampener. */
module Reports {

  function Abs(x: int): nat
  {
    if x < 0 then -x else x
  }

  /** The loop of `is_safe` from the pair `(report[i], report[i + 1])` on,
      with the two direction flags so far. */
  function SafeFrom(report: seq<int>, i: nat, ascending: bool, descending: bool): bool
    decreases |report| - i
  {
    if i + 1 >= |report| then ascending || descending
    else
      var a, b := report[i], report[i + 1];
      var ascending' := if a > b then false else ascending;
      var descending' := if a > b then descending else if b > a then false else descending;
      if 1 <= Abs(a - b) <= 3 then SafeFrom(report, i + 1, ascending', descending') else false
  }

  /** `is_safe`. */
  function IsSafe(report: seq<int>): bool
  {
    SafeFrom(report, 0, true, true)
  }

  /** Every step from index `i` on moves by 1 to 3. */
  predicate Gradual(report: seq<int>, i: nat)
  {
    forall k :: i <= k < |report| - 1 ==> 1 <= Abs(report[k + 1] - report[k]) <= 3
  }

  predicate Increasing(report: seq<int>, i: nat)
  {
    forall k :: i <= k < |report| - 1 ==> report[k] < report[k + 1]
  }

  predicate Decreasing(report: seq<int>, i: nat)
  {
    forall k :: i <= k < |report| - 1 ==> report[k] > report[k + 1]
  }

  /** The loop from `i` succeeds exactly when the rest is gradual and still
      goes in a direction whose flag is set. */
  lemma {:induction false} SafeFromIff(report: seq<int>, i: nat, ascending: bool, descending: bool)
    ensures SafeFrom(report, i, ascending, descending) <==>
      Gradual(report, i) && ((ascending && Increasing(report, i)) || (descending && Decreasing(report, i)))
    decreases |report| - i
  {
    if i + 1 < |report| {
      var a, b := report[i], report[i + 1];
      var ascending' := if a > b then false else ascending;
      var descending' := if a > b then descending else if b > a then false else descending;
      SafeFromIff(report, i + 1, ascending', descending');
      PredicatesStep(report, i);
      if 1 <= Abs(a - b) <= 3 {
        assert SafeFrom(report, i, ascending, descending) == SafeFrom(report, i + 1, ascending', descending');
      }
    }
  }

  /** Each predicate from `i` is its condition on the first step plus the
      predicate from `i + 1`. */
  lemma PredicatesStep(report: seq<int>, i: nat)
    requires i + 1 < |report|
    ensures Gradual(report, i) <==> 1 <= Abs(report[i + 1] - report[i]) <= 3 && Gradual(report, i + 1)
    ensures Increasing(report, i) <==> report[i] < report[i + 1] && Increasing(report, i + 1)
    ensures Decreasing(report, i) <==> report[i] > report[i + 1] && Decreasing(report, i + 1)
  {
  }

  /** A report is safe iff every step moves by 1 to 3 and all steps go the same way. */
  lemma IsSafeIff(report: seq<int>)
    ensures IsSafe(report) <==> Gradual(report, 0) && (Increasing(report, 0) || Decreasing(report, 0))
  {
    SafeFromIff(report, 0, true, true);
  }

  /** Reports of length 0 or 1 are safe; safe reports are strictly monotone. */
  lemma SafeShapes(report: seq<int>)
    ensures |report| <= 1 ==> IsSafe(report)
    ensures IsSafe(report) ==> Increasing(report, 0) || Decreasing(report, 0)
  {
    IsSafeIff(report);
  }

  /** The report without element `i`. */
  function Without(report: seq<int>, i: nat): (r: seq<int>)
    requires i < |report|
    ensures |r| == |report| - 1
  {
    report[..i] + report[i + 1..]
  }

  /** The loop of `is_safe_damped` over the element to leave out, from `i` on. */
  function DampedFrom(report: seq<int>, i: nat): bool
    decreases |report| - i
  {
    if i >= |report| then false
    else IsSafe(Without(report, i)) || DampedFrom(report, i + 1)
  }

  /** `is_safe_damped`. */
  function IsSafeDamped(report: seq<int>): bool
  {
    IsSafe(report) || DampedFrom(report, 0)
  }

  lemma {:induction false} DampedFromIff(report: seq<int>, i: nat)
    ensures DampedFrom(report, i) <==> exists k :: i <= k < |report| && IsSafe(Without(report, k))
    decreases |report| - i
  {
    if i < |report| {
      DampedFromIff(report, i + 1);
    }
  }

  /** A report passes with the dampener iff it is safe or becomes safe
      without some single element; so every safe report passes. */
  lemma DampedIff(report: seq<int>)
    ensures IsSafeDamped(report) <==> IsSafe(report) || exists k :: 0 <= k < |report| && IsSafe(Without(report, k))
    ensures IsSafe(report) ==> IsSafeDamped(report)
  {
    DampedFromIff(report, 0);
  }

  /** Dropping the first or last level of a safe report leaves it safe. */
  lemma DropFirstStaysSafe(report: seq<int>)
    requires IsSafe(report) && |report| >= 1
    ensures IsSafe(Without(report, 0))
  {
    IsSafeIff(report);
    var front := Without(report, 0);
    assert forall k :: 0 <= k < |front| ==> front[k] == report[k + 1];
    IsSafeIff(front);
  }

  lemma DropLastStaysSafe(report: seq<int>)
    requires IsSafe(report) && |report| >= 1
    ensures IsSafe(Without(report, |report| - 1))
  {
    IsSafeIff(report);
    var back := Without(report, |report| - 1);
    assert forall k :: 0 <= k < |back| ==> back[k] == report[k];
    IsSafeIff(back);
  }

  lemma SafeExample()
    ensures IsSafe([7, 6, 4, 2, 1])
  {
    IsSafeIff([7, 6, 4, 2, 1]);
  }

  /** 2 to 7 is too big a step. */
  lemma UnsafeExample()
    ensures !IsSafe([1, 2, 7, 8, 9])
  {
    IsSafeIff([1, 2, 7, 8, 9]);
    assert [1, 2, 7, 8, 9][2] - [1, 2, 7, 8, 9][1] == 5;
  }

  /** 1, 3, 2 changes direction; removing the 3 repairs the report. */
  lemma DampedExample()
    ensures !IsSafe([1, 3, 2, 4, 5]) && IsSafeDamped([1, 3, 2, 4, 5])
  {
    TurnsBack();
    var r := [1, 3, 2, 4, 5];
    assert Without(r, 1) == [1, 2, 4, 5];
    IsSafeIff([1, 2, 4, 5]);
    assert DampedFrom(r, 1);
  }

  lemma TurnsBack()
    ensures !IsSafe([1, 3, 2, 4, 5])
  {
    IsSafeIff([1, 3, 2, 4, 5]);
    assert [1, 3, 2, 4, 5][0] < [1, 3, 2, 4, 5][1] && [1, 3, 2, 4, 5][1] > [1, 3, 2, 4, 5][2];
  }

  /** The number of reports a check accepts. */
  function CountSafe(reports: seq<seq<int>>, damped: bool): nat
  {
    if |reports| == 0 then 0
    else
      var ok := if damped then IsSafeDamped(reports[0]) else IsSafe(reports[0]);
      (if ok then 1 else 0) + CountSafe(reports[1..], damped)
  }

  /** The dampener never rejects a report part 1 accepted. */
  lemma {:induction false} DampedCountsMore(reports: seq<seq<int>>)
    ensures CountSafe(reports, true) >= CountSafe(reports, false)
  {
    if |reports| > 0 {
      DampedIff(reports[0]);
      DampedCountsMore(reports[1..]);
    }
  }
}

=== FILE: rock_tilt.dfy ===
/** 2023 day 14: round rocks ('O') rolling across a platform of empty cells
    ('.') and fixed cube rocks ('#'), tilts in the four directions, the spin
    cycle with its repetition shortcut, and the load on the north beams. */
module RockTilt {
  import opened Wrappers
  import PyOps

  type Row = seq<char>
  type Board = seq<Row>

  /** The day's own `Direction`. */
  datatype Direction = North | East | South | West

  /** The cells a round rock can move through or occupy. */
  predicate Movable(c: char)
  {
    c == 'O' || c == '.'
  }

  /** The inner loop of `shift_left`: the rock at `j` swaps places with the
      empty cell on its left until something else is there. */
  function Roll(line: Row, j: nat): (r: Row)
    requires j < |line|
    ensures |r| == |line|
    decreases j
  {
    if j > 0 && line[j - 1] == '.' then Roll(line[j - 1 := 'O'][j := '.'], j - 1) else line
  }

  /** The outer loop of `shift_left` from index `i` on: each rock met rolls left. */
  function ShiftFrom(line: Row, i: nat): (r: Row)
    requires i <= |line|
    ensures |r| == |line|
    decreases |line| - i
  {
    if i == |line| then line
    else ShiftFrom(if line[i] == 'O' then Roll(line, i) else line, i + 1)
  }

  /** `shift_left`, on a copy: the input is a value and is never changed. */
  function ShiftLeft(line: Row): (r: Row)
    ensures |r| == |line|
  {
    ShiftFrom(line, 0)
  }

  /** Among the first `n` cells, no rock sits right of an empty cell. */
  predicate SettledBelow(line: Row, n: nat)
  {
    forall k :: 0 < k < n && k < |line| ==> (line[k] == 'O' ==> line[k - 1] != '.')
  }

  predicate Settled(line: Row)
  {
    SettledBelow(line, |line|)
  }

  /** `b` has the cube rocks (and any other fixed cell) of `a` at the same
      places, and movable cells exactly where `a` has them. */
  predicate KeepsFixed(a: Row, b: Row)
  {
    |a| == |b| &&
    forall k :: 0 <= k < |a| ==> (Movable(a[k]) <==> Movable(b[k])) && (!Movable(a[k]) ==> b[k] == a[k])
  }

  lemma RollFacts(line: Row, j: nat, i: nat)
    requires j <= i < |line| && line[j] == 'O' && SettledBelow(line, j)
    requires forall k :: j < k <= i ==> line[k] == '.'
    ensures SettledBelow(Roll(line, j), i + 1)
    ensures multiset(Roll(line, j)) == multiset(line)
    ensures KeepsFixed(line, Roll(line, j))
  {
    RollSettles(line, j, i);
    RollKeeps(line, j);
  }

  lemma {:induction false} RollSettles(line: Row, j: nat, i: nat)
    requires j <= i < |line| && line[j] == 'O' && SettledBelow(line, j)
    requires forall k :: j < k <= i ==> line[k] == '.'
    ensures SettledBelow(Roll(line, j), i + 1)
    decreases j
  {
    if j > 0 && line[j - 1] == '.' {
      RollSettles(line[j - 1 := 'O'][j := '.'], j - 1, i);
    }
  }

  lemma {:induction false} RollKeeps(line: Row, j: nat)
    requires j < |line| && line[j] == 'O'
    ensures multiset(Roll(line, j)) == multiset(line)
    ensures KeepsFixed(line, Roll(line, j))
    decreases j
  {
    if j > 0 && line[j - 1] == '.' {
      var next := line[j - 1 := 'O'][j := '.'];
      assert multiset(next) == multiset(line);
      RollKeeps(next, j - 1);
    }
  }

  lemma {:induction false} ShiftFromFacts(line: Row, i: nat)
    requires i <= |line| && SettledBelow(line, i)
    ensures Settled(ShiftFrom(line, i))
    ensures multiset(ShiftFrom(line, i)) == multiset(line)
    ensures KeepsFixed(line, ShiftFrom(line, i))
    decreases |line| - i
  {
    if i < |line| {
      var next := if line[i] == 'O' then Roll(line, i) else line;
      if line[i] == 'O' {
        RollFacts(line, i, i);
      }
      ShiftFromFacts(next, i + 1);
    }
  }

  /** After `shift_left` no rock sits right of an empty cell; the length,
      the rocks and every cube rock's position are kept. */
  lemma ShiftLeftFacts(line: Row)
    ensures Settled(ShiftLeft(line))
    ensures multiset(ShiftLeft(line)) == multiset(line)
    ensures multiset(ShiftLeft(line))['O'] == multiset(line)['O']
    ensures KeepsFixed(line, ShiftLeft(line))
  {
    ShiftFromFacts(line, 0);
  }

  lemma {:induction false} ShiftFromSettled(line: Row, i: nat)
    requires i <= |line| && Settled(line)
    ensures ShiftFrom(line, i) == line
    decreases |line| - i
  {
    if i < |line| {
      ShiftFromSettled(line, i + 1);
    }
  }

  /** A settled line is left alone, so shifting twice is shifting once. */
  lemma ShiftLeftIdempotent(line: Row)
    ensures Settled(line) ==> ShiftLeft(line) == line
    ensures ShiftLeft(ShiftLeft(line)) == ShiftLeft(line)
  {
    if Settled(line) {
      ShiftFromSettled(line, 0);
    }
    ShiftLeftFacts(line);
    ShiftFromSettled(ShiftLeft(line), 0);
  }

  lemma ShiftExample()
    ensures ShiftLeft(".O.#..O") == "O..#O.."
  {
    var s := ".O.#..O";
    assert Roll(s, 1) == "O..#..O";
    assert Roll("O..#..O", 6) == "O..#O..";
    assert ShiftFrom("O..#O..", 2) == "O..#O.." by {
      ShiftLeftIdempotent("O..#O..");
      ShiftFromSettled("O..#O..", 2);
    }
  }

  /** `shift_left(row[::-1])[::-1]`: rocks roll right. */
  function ShiftRight(line: Row): (r: Row)
    ensures |r| == |line|
  {
    PyOps.Reverse(ShiftLeft(PyOps.Reverse(line)))
  }

  /** Rolling right keeps the rocks and the fixed cells, and leaves no rock
      immediately left of an empty cell. */
  lemma ShiftRightFacts(line: Row)
    ensures multiset(ShiftRight(line)) == multiset(line)
    ensures KeepsFixed(line, ShiftRight(line))
    ensures forall k :: 0 <= k < |line| - 1 ==> (ShiftRight(line)[k] == 'O' ==> ShiftRight(line)[k + 1] != '.')
  {
    var rev := PyOps.Reverse(line);
    ShiftLeftFacts(rev);
    PyOps.ReverseMultiset(line);
    PyOps.ReverseMultiset(ShiftLeft(rev));
    ReverseKeepsFixed(rev, ShiftLeft(rev));
    assert PyOps.Reverse(rev) == line;
    ReverseSettled(ShiftLeft(rev));
  }

  lemma ReverseKeepsFixed(a: Row, b: Row)
    requires KeepsFixed(a, b)
    ensures KeepsFixed(PyOps.Reverse(a), PyOps.Reverse(b))
  {
    forall k | 0 <= k < |a|
      ensures (Movable(PyOps.Reverse(a)[k]) <==> Movable(PyOps.Reverse(b)[k])) && (!Movable(PyOps.Reverse(a)[k]) ==> PyOps.Reverse(b)[k] == PyOps.Reverse(a)[k])
    {
      assert PyOps.Reverse(a)[k] == a[|a| - 1 - k] && PyOps.Reverse(b)[k] == b[|a| - 1 - k];
    }
  }

  lemma ReverseSettled(s: Row)
    requires Settled(s)
    ensures forall k :: 0 <= k < |s| - 1 ==> (PyOps.Reverse(s)[k] == 'O' ==> PyOps.Reverse(s)[k + 1] != '.')
  {
    var r := PyOps.Reverse(s);
    forall k | 0 <= k < |s| - 1
      ensures r[k] == 'O' ==> r[k + 1] != '.'
    {
      var m := |s| - 1 - k;
      assert r[k] == s[m] && r[k + 1] == s[m - 1];
    }
  }

  /** Each row shifted left, or right when `toEnd` is set. */
  function ShiftRows(rows: Board, toEnd: bool): (r: Board)
    ensures |r| == |rows|
    ensures forall i :: 0 <= i < |rows| ==> r[i] == if toEnd then ShiftRight(rows[i]) else ShiftLeft(rows[i])
  {
    seq(|rows|, i requires 0 <= i < |rows| => if toEnd then ShiftRight(rows[i]) else ShiftLeft(rows[i]))
  }

  /** Every row has at least as many cells as there are rows. */
  predicate WideEnough(m: Board)
  {
    forall i :: 0 <= i < |m| ==> |m[i]| >= |m|
  }

  predicate Square(m: Board)
  {
    forall i :: 0 <= i < |m| ==> |m[i]| == |m|
  }

  /** The day's own `Cols`: one column per ROW, so only the first `len(data)`
      columns; a row shorter than that raises IndexError (None). */
  function Columns(m: Board): (r: Option<Board>)
    ensures r.Some? <==> WideEnough(m)
    ensures r.Some? ==> |r.value| == |m| && Square(r.value)
    ensures r.Some? ==> forall j, i :: 0 <= j < |m| && 0 <= i < |m| ==> r.value[j][i] == m[i][j]
  {
    if WideEnough(m) then
      Some(seq(|m|, j requires 0 <= j < |m| => seq(|m|, i requires 0 <= i < |m| => m[i][j])))
    else None
  }

  /** Columns of a wide board drop everything past column `len(data) - 1`:
      a one-row board keeps just its first cell. */
  lemma ColumnsTruncate()
    ensures Columns(["O."]) == Some(["O"])
  {
    var c := Columns(["O."]).value;
    assert |c| == 1 && |c[0]| == 1 && c[0][0] == 'O';
    assert c[0] == "O";
    assert c == ["O"];
  }

  /** `Board.tilt`. */
  function Tilt(b: Board, d: Direction): Option<Board>
  {
    match d
    case West => Some(ShiftRows(b, false))
    case East => Some(ShiftRows(b, true))
    case North =>
      (match Columns(b)
       case None => None
       case Some(cols) => Columns(ShiftRows(cols, false)))
    case South =>
      (match Columns(b)
       case None => None
       case Some(cols) => Columns(ShiftRows(cols, true)))
  }

  /** A square board tilts without error into a square board of the same size,
      with every cube rock where it was. */
  lemma TiltSquare(b: Board, d: Direction)
    requires Square(b)
    ensures Tilt(b, d).Some?
    ensures |Tilt(b, d).value| == |b| && Square(Tilt(b, d).value)
    ensures forall i, j :: 0 <= i < |b| && 0 <= j < |b| && b[i][j] == '#' ==> Tilt(b, d).value[i][j] == '#'
  {
    if d == North || d == South {
      var cols := Columns(b).value;
      var shifted := ShiftRows(cols, d == South);
      forall j | 0 <= j < |cols|
        ensures KeepsFixed(cols[j], shifted[j])
      {
        if d == South { ShiftRightFacts(cols[j]); } else { ShiftLeftFacts(cols[j]); }
      }
      assert WideEnough(shifted);
    } else {
      forall i | 0 <= i < |b|
        ensures KeepsFixed(b[i], Tilt(b, d).value[i])
      {
        if d == East { ShiftRightFacts(b[i]); } else { ShiftLeftFacts(b[i]); }
      }
    }
  }

  /** One spin: north, west, south, east. */
  function Spin(b: Board): Option<Board>
  {
    match Tilt(b, North)
    case None => None
    case Some(n) =>
      match Tilt(n, West)
      case None => None
      case Some(w) =>
        match Tilt(w, South)
        case None => None
        case Some(s) => Tilt(s, East)
  }

  lemma SpinSquare(b: Board)
    requires Square(b)
    ensures Spin(b).Some? && |Spin(b).value| == |b| && Square(Spin(b).value)
  {
    TiltSquare(b, North);
    var n := Tilt(b, North).value;
    TiltSquare(n, West);
    var w := Tilt(n, West).value;
    TiltSquare(w, South);
    TiltSquare(Tilt(w, South).value, East);
  }

  /** `n` spins, stopping at the first error. */
  function Spins(b: Board, n: nat): Option<Board>
    decreases n
  {
    if n == 0 then Some(b)
    else match Spin(b)
      case None => None
      case Some(next) => Spins(next, n - 1)
  }

  function Then(o: Option<Board>, n: nat): Option<Board>
  {
    match o
    case None => None
    case Some(b) => Spins(b, n)
  }

  lemma {:induction false} SpinsAdd(b: Board, m: nat, n: nat)
    ensures Spins(b, m + n) == Then(Spins(b, m), n)
    decreases m
  {
    if m > 0 {
      match Spin(b)
      case None =>
      case Some(next) => SpinsAdd(next, m - 1, n);
    }
  }

  /** A square board survives any number of spins. */
  lemma {:induction false} SpinsSquare(b: Board, n: nat)
    requires Square(b)
    ensures Spins(b, n).Some?
    decreases n
  {
    if n > 0 {
      SpinSquare(b);
      SpinsSquare(Spin(b).value, n - 1);
    }
  }

  /** Once the board after `first` spins reappears after `later` spins, the
      run repeats with period `later - first`. */
  lemma {:induction false} Periodic(b: Board, first: nat, later: nat, m: nat)
    requires first < later && Spins(b, first) == Spins(b, later)
    ensures Spins(b, first + m) == Spins(b, first + m % (later - first))
    decreases m
  {
    var period := later - first;
    if m >= period {
      Periodic(b, first, later, m - period);
      SpinsAdd(b, first, m - period);
      SpinsAdd(b, later, m - period);
      assert first + m == later + (m - period);
      PeriodMod(m, period);
    } else {
      assert m % period == m;
    }
  }

  lemma PeriodMod(m: nat, period: nat)
    requires 0 < period <= m
    ensures (m - period) % period == m % period
  {
    var q := (m - period) / period;
    var r := (m - period) % period;
    assert m == period * (q + 1) + r;
    PyOps.ModUnique(m, period, q + 1, r);
  }

  /** Once the boards after `first` and `later` spins agree, the board after
      `count` spins is the one at the same place in the first period. */
  lemma SkipCycles(b: Board, first: nat, later: nat, count: nat)
    requires first < later <= count && Spins(b, first) == Spins(b, later)
    ensures first + (count - later) % (later - first) < later
    ensures Spins(b, count) == Spins(b, first + (count - later) % (later - first))
  {
    var remaining := count - later;
    assert remaining % (later - first) < later - first;
    Periodic(b, first, later, remaining);
    SpinsAdd(b, later, remaining);
    SpinsAdd(b, first, remaining);
  }

  /** The two dictionaries of `cycle` after `i` spins: every index below `i`
      maps to the board after that many spins, and every board seen maps to
      an index below `i` at which it was seen. */
  ghost predicate Seen(b: Board, boardToIndex: map<Board, nat>, indexToBoard: map<nat, Board>, i: nat)
  {
    && (forall k: nat :: k in indexToBoard <==> k < i)
    && (forall k :: k in indexToBoard ==> Spins(b, k) == Some(indexToBoard[k]))
    && (forall x :: x in boardToIndex ==> boardToIndex[x] < i && Spins(b, boardToIndex[x]) == Some(x))
  }

  lemma SeenExtend(b: Board, boardToIndex: map<Board, nat>, indexToBoard: map<nat, Board>, i: nat, x: Board)
    requires Seen(b, boardToIndex, indexToBoard, i) && Spins(b, i) == Some(x)
    ensures Seen(b, boardToIndex[x := i], indexToBoard[i := x], i + 1)
  {
    var bi, ib := boardToIndex[x := i], indexToBoard[i := x];
    forall k: nat
      ensures k in ib <==> k < i + 1
    {
      assert k in ib <==> k == i || k in indexToBoard;
    }
    forall k | k in ib
      ensures Spins(b, k) == Some(ib[k])
    {
      if k != i {
        assert ib[k] == indexToBoard[k];
      }
    }
    forall y | y in bi
      ensures bi[y] < i + 1 && Spins(b, bi[y]) == Some(y)
    {
      if y != x {
        assert bi[y] == boardToIndex[y];
      }
    }
  }

  /** A board already in the dictionary was first reached at an earlier spin. */
  lemma SeenFirst(b: Board, boardToIndex: map<Board, nat>, indexToBoard: map<nat, Board>, i: nat, x: Board)
    requires Seen(b, boardToIndex, indexToBoard, i) && x in boardToIndex
    ensures boardToIndex[x] < i && Spins(b, boardToIndex[x]) == Some(x)
  {
  }

  lemma SeenLookup(b: Board, boardToIndex: map<Board, nat>, indexToBoard: map<nat, Board>, i: nat, k: nat)
    requires Seen(b, boardToIndex, indexToBoard, i) && k < i
    ensures k in indexToBoard && Spins(b, k) == Some(indexToBoard[k])
  {
  }

  /** One more spin of the board reached after `i` spins. */
  lemma SpinsStep(b: Board, i: nat, x: Board)
    requires Spins(b, i) == Some(x)
    ensures Spins(b, i + 1) == Spin(x)
  {
    SpinsAdd(b, i, 1);
    assert Spins(x, 1) == Spin(x) by {
      match Spin(x)
      case None =>
      case Some(next) => assert Spins(next, 0) == Some(next);
    }
  }

  /** A spin that fails leaves every longer run failed. */
  lemma StuckStaysStuck(b: Board, m: nat, count: nat)
    requires m <= count && Spins(b, m) == None
    ensures Spins(b, count) == None
  {
    SpinsAdd(b, m, count - m);
  }

  /** The branch of `cycle` that meets a board seen before: the boards from
      its first sighting on repeat, so the answer is the board at the same
      place in that period. */
  method CycleFound(board: Board, count: nat, boardToIndex: map<Board, nat>, indexToBoard: map<nat, Board>, i: nat, result: Board)
    returns (r: Option<Board>)
    requires i <= count && Spins(board, i) == Some(result)
    requires Seen(board, boardToIndex, indexToBoard, i) && result in boardToIndex
    ensures r == Spins(board, count)
  {
    var cyclesAfter := boardToIndex[result];
    var cycleLength := i - cyclesAfter;
    var remaining := count - i;
    SeenFirst(board, boardToIndex, indexToBoard, i, result);
    SkipCycles(board, cyclesAfter, i, count);
    var k := cyclesAfter + remaining % cycleLength;
    SeenLookup(board, boardToIndex, indexToBoard, i, k);
    return Some(indexToBoard[k]);
  }

  /** One turn of the loop of `cycle`: the board is recorded, and the next
      spin either continues the run or leaves every longer one failed. */
  lemma CycleStep(b: Board, boardToIndex: map<Board, nat>, indexToBoard: map<nat, Board>, i: nat, x: Board, count: nat)
    requires i < count && Seen(b, boardToIndex, indexToBoard, i) && Spins(b, i) == Some(x)
    ensures Seen(b, boardToIndex[x := i], indexToBoard[i := x], i + 1)
    ensures Spins(b, i + 1) == Spin(x)
    ensures Spin(x).None? ==> Spins(b, count) == None
  {
    SeenExtend(b, boardToIndex, indexToBoard, i, x);
    SpinsStep(b, i, x);
    if Spin(x).None? {
      StuckStaysStuck(b, i + 1, count);
    }
  }

  /** `Board.cycle(count)`: spins, remembering every board seen; when a board
      repeats, the answer is looked up inside the cycle. Boards are compared
      by their text, which is their content. */
  method Cycle(board: Board, count: nat) returns (r: Option<Board>)
    ensures r == Spins(board, count)
  {
    var i := 0;
    var result := board;
    var boardToIndex: map<Board, nat> := map[];
    var indexToBoard: map<nat, Board> := map[];
    while i < count
      invariant i <= count
      invariant Spins(board, i) == Some(result)
      invariant Seen(board, boardToIndex, indexToBoard, i)
    {
      if result in boardToIndex {
        r := CycleFound(board, count, boardToIndex, indexToBoard, i, result);
        return;
      }
      CycleStep(board, boardToIndex, indexToBoard, i, result, count);
      boardToIndex := boardToIndex[result := i];
      indexToBoard := indexToBoard[i := result];
      var next := Spin(result);
      if next.None? {
        return None;
      }
      result := next.value;
      i := i + 1;
    }
    return Some(result);
  }

  /** The number of round rocks in a row. */
  function Rocks(row: Row): nat
  {
    multiset(row)['O']
  }

  /** `load`: each rock weighs the number of rows from its row to the south
      edge, inclusive. */
  function Load(b: Board): nat
  {
    if |b| == 0 then 0 else Rocks(b[0]) * |b| + Load(b[1..])
  }

  /** East and west tilts move rocks only within their row, so the load stays. */
  lemma {:induction false} SidewaysKeepsLoad(b: Board, toEnd: bool)
    ensures Load(ShiftRows(b, toEnd)) == Load(b)
  {
    if |b| > 0 {
      var s := ShiftRows(b, toEnd);
      if toEnd { ShiftRightFacts(b[0]); } else { ShiftLeftFacts(b[0]); }
      assert s[1..] == ShiftRows(b[1..], toEnd);
      SidewaysKeepsLoad(b[1..], toEnd);
    }
  }

  lemma LoadExample()
    ensures Load(["O.", ".O"]) == 3
  {
    assert multiset("O.")['O'] == 1;
    assert multiset(".O")['O'] == 1;
    assert ["O.", ".O"][1..] == [".O"];
  }
}

=== FILE: rocket_fuel.dfy ===
/** 2019 day 1: fuel for a module of a given mass, and fuel for that fuel. */
module RocketFuel {

  /** `mass // 3 - 2`; Dafny's `/` is floor division for the positive divisor 3. */
  function Fuel(mass: int): int
  {
    mass / 3 - 2
  }

  /** The fuel formula is the floor of a third, less two. */
  lemma FuelIsFloorThird(mass: int)
    ensures 3 * (Fuel(mass) + 2) <= mass < 3 * (Fuel(mass) + 2) + 3
  {
  }

  /** Part 1: the formula summed over every module. */
  function Part1(masses: seq<int>): int
  {
    if |masses| == 0 then 0 else Fuel(masses[0]) + Part1(masses[1..])
  }

  /** Part 2 for one module: keep taking fuel for the last amount while it is positive. */
  function FuelForFuel(mass: int): (r: nat)
    ensures Fuel(mass) <= 0 ==> r == 0
    ensures Fuel(mass) > 0 ==> r >= Fuel(mass)
    decreases if mass > 0 then mass else 0
  {
    var f := Fuel(mass);
    if f <= 0 then 0 else f + FuelForFuel(f)
  }

  /** Part 2: the per-module totals summed. */
  function Part2Total(masses: seq<int>): int
  {
    if |masses| == 0 then 0 else FuelForFuel(masses[0]) + Part2Total(masses[1..])
  }

  /** The loop of part 2: an inner loop per mass that stops at the first
      non-positive amount. */
  method Part2(masses: seq<int>) returns (required: int)
    ensures required == Part2Total(masses)
  {
    required := 0;
    var i := 0;
    while i < |masses|
      invariant 0 <= i <= |masses|
      invariant required + Part2Total(masses[i..]) == Part2Total(masses)
    {
      var mass := masses[i];
      assert masses[i..][1..] == masses[i + 1..];
      while true
        invariant required + FuelForFuel(mass) + Part2Total(masses[i + 1..]) == Part2Total(masses)
        decreases if mass > 0 then mass else 0
      {
        var fuel := mass / 3 - 2;
        if fuel <= 0 {
          break;
        }
        required := required + fuel;
        mass := fuel;
      }
      i := i + 1;
    }
  }

  /** Each amount added is positive and smaller than the mass it came from. */
  lemma FuelShrinks(mass: int)
    requires Fuel(mass) > 0
    ensures 0 < Fuel(mass) < mass
  {
  }

  /** Per module, part 2 needs at least `max(0, mass // 3 - 2)`, so part 2
      never falls below part 1. */
  lemma {:induction false} Part2AtLeastPart1(masses: seq<int>)
    ensures Part2Total(masses) >= Part1(masses)
  {
    if |masses| > 0 {
      Part2AtLeastPart1(masses[1..]);
    }
  }

  /** 14 needs 2; 1969 needs 966 once the fuel's own fuel is counted. */
  lemma Examples()
    ensures Fuel(12) == 2 && Fuel(14) == 2 && Fuel(1969) == 654
    ensures FuelForFuel(14) == 2 && FuelForFuel(1969) == 966
  {
    assert FuelForFuel(5) == 0;
    assert FuelForFuel(21) == 5;
    assert FuelForFuel(70) == 26;
    assert FuelForFuel(216) == 96;
    assert FuelForFuel(654) == 312;
  }
}

=== FILE: scratchcards.dfy ===
/** The scratchcards of 2023/Day04. A card lists the numbers you have and
    the winning numbers; its match count is how many of your numbers win.
    Part 1 scores a card 2^(count - 1), or 0 without a match. In part 2 a
    card with k matches wins one copy of each of the next k cards for every
    instance of it you hold, and the answer is the number of instances. */
module Scratchcards {
  import opened Wrappers
  import Decimal
  import PyStr
  import PyOps

  /** A parsed card: the numbers you have, in order, and the winning set. */
  datatype Card = Card(have: seq<int>, winning: set<int>)

  // ---------------------------------------------------------------------------
  // Reading a card
  // ---------------------------------------------------------------------------

  /** The `for number in s.split(' ')` loops: empty pieces (from doubled
      spaces) are skipped and the others read with `int`, which raises on
      anything that is not a number. */
  function ReadPieces(pieces: seq<string>): (r: Option<seq<int>>)
    ensures r.Some? ==> |r.value| <= |pieces|
  {
    if |pieces| == 0 then Some([])
    else if |pieces[0]| == 0 then ReadPieces(pieces[1..])
    else match (Decimal.ParseInt(pieces[0]), ReadPieces(pieces[1..]))
      case (Some(n), Some(ns)) => Some([n] + ns)
      case _ => None
  }

  /** The numbers of a space-separated list. */
  function Numbers(s: string): Option<seq<int>>
  {
    ReadPieces(PyStr.Split(s, ' '))
  }

  /** `card_str, winning_str = line.split('|')`, the text after the last ':'
      of the first half, and the two number lists. The unpacking raises
      unless the line holds exactly one '|'. */
  function ParseCard(line: string): (r: Option<Card>)
    ensures r.Some? ==> |PyStr.Split(line, '|')| == 2
  {
    var parts := PyStr.Split(line, '|');
    if |parts| != 2 then None
    else
      var header := PyStr.Split(parts[0], ':');
      match (Numbers(header[|header| - 1]), Numbers(parts[1]))
      case (Some(have), Some(winning)) => Some(Card(have, set n | n in winning))
      case _ => None
  }

  /** The pieces `str(n)` of a list of numbers. */
  function Shown(xs: seq<nat>): (r: seq<string>)
    ensures |r| == |xs|
    ensures forall k :: 0 <= k < |xs| ==> r[k] == Decimal.Show(xs[k])
  {
    seq(|xs|, k requires 0 <= k < |xs| => Decimal.Show(xs[k]))
  }

  /** The same numbers as integers. */
  function Ints(xs: seq<nat>): (r: seq<int>)
    ensures |r| == |xs|
    ensures forall k :: 0 <= k < |xs| ==> r[k] == xs[k] as int
  {
    seq(|xs|, k requires 0 <= k < |xs| => xs[k] as int)
  }

  /** Numbers written out separated by single spaces. */
  function Written(xs: seq<nat>): string
  {
    PyStr.Join(Shown(xs), ' ')
  }

  lemma ShownFree(xs: seq<nat>)
    ensures forall k :: 0 <= k < |xs| ==> PyStr.Free(Shown(xs)[k], ' ')
  {
    forall k | 0 <= k < |xs|
      ensures PyStr.Free(Shown(xs)[k], ' ')
    {
      var s := Decimal.Show(xs[k]);
      assert forall i :: 0 <= i < |s| ==> Decimal.IsDigit(s[i]);
    }
  }

  /** Reading the pieces `str(n)` gives the numbers back. */
  lemma {:induction false} ReadShown(xs: seq<nat>)
    ensures ReadPieces(Shown(xs)) == Some(Ints(xs))
  {
    if |xs| > 0 {
      Decimal.ParseShow(xs[0]);
      ReadShown(xs[1..]);
      assert Shown(xs)[1..] == Shown(xs[1..]);
      assert |Shown(xs)[0]| > 0;
      assert Ints(xs) == [xs[0] as int] + Ints(xs[1..]);
    }
  }

  /** Empty pieces do not count, wherever they are. */
  lemma {:induction false} ReadPiecesAppend(a: seq<string>, b: seq<string>)
    ensures ReadPieces(a + b) == match (ReadPieces(a), ReadPieces(b))
                                 case (Some(x), Some(y)) => Some(x + y)
                                 case _ => None
  {
    if |a| > 0 {
      ReadPiecesAppend(a[1..], b);
      assert (a + b)[0] == a[0];
      assert (a + b)[1..] == a[1..] + b;
      var x, y := ReadPieces(a[1..]), ReadPieces(b);
      if |a[0]| > 0 && Decimal.ParseInt(a[0]).Some? && x.Some? && y.Some? {
        assert [Decimal.ParseInt(a[0]).value] + x.value + y.value
               == [Decimal.ParseInt(a[0]).value] + (x.value + y.value);
      }
    } else {
      assert a + b == b;
      if ReadPieces(b).Some? {
        assert [] + ReadPieces(b).value == ReadPieces(b).value;
      }
    }
  }

  /** Numbers written with single spaces and padded with a space at both ends,
      as they stand between ':' and '|' on a card, read back as written. */
  lemma NumbersWritten(xs: seq<nat>)
    ensures Numbers(" " + Written(xs) + " ")
            == Some(Ints(xs))
  {
    var w := Written(xs);
    ShownFree(xs);
    PyStr.SplitConcat("", ' ', w + " ");
    PyStr.SplitConcat(w, ' ', "");
    assert " " + w + " " == "" + [' '] + (w + [' '] + "");
    assert w + " " == w + [' '] + "";
    if |xs| == 0 {
      assert PyStr.Split(w, ' ') == [""];
    } else {
      PyStr.SplitJoin(Shown(xs), ' ');
    }
    assert PyStr.Split("", ' ') == [""];
    var mid := PyStr.Split(w, ' ');
    assert PyStr.Split(" " + w + " ", ' ') == [""] + (mid + [""]);
    assert [""][1..] == [];
    assert ReadPieces([""]) == Some([]);
    ReadPiecesAppend([""], mid + [""]);
    ReadPiecesAppend(mid, [""]);
    if |xs| == 0 {
      assert ReadPieces(mid) == Some([]);
    } else {
      ReadShown(xs);
      assert ReadPieces(mid) == Some(Ints(xs));
    }
    assert Ints(xs) + [] == Ints(xs) && [] + Ints(xs) == Ints(xs);
  }

  /** Numbers after a single leading space, as after '|' on a card. */
  lemma NumbersAfterSpace(xs: seq<nat>)
    ensures Numbers(" " + Written(xs)) == Some(Ints(xs))
  {
    var w := Written(xs);
    ShownFree(xs);
    PyStr.SplitConcat("", ' ', w);
    assert " " + w == "" + [' '] + w;
    assert PyStr.Split("", ' ') == [""];
    var mid := PyStr.Split(w, ' ');
    assert PyStr.Split(" " + w, ' ') == [""] + mid;
    assert [""][1..] == [];
    assert ReadPieces([""]) == Some([]);
    ReadPiecesAppend([""], mid);
    if |xs| == 0 {
      assert mid == [""];
      assert ReadPieces(mid) == Some([]);
    } else {
      PyStr.SplitJoin(Shown(xs), ' ');
      ReadShown(xs);
    }
    assert [] + Ints(xs) == Ints(xs);
  }

  /** The text of a card: `Card <id>: <have> | <winning>`. */
  function CardLine(id: nat, have: seq<nat>, winning: seq<nat>): string
  {
    "Card " + Decimal.Show(id) + ":" + " " + Written(have) + " " + "|" + " " + Written(winning)
  }

  /** Digits and spaces hold no separator. */
  lemma WrittenFree(xs: seq<nat>, sep: char)
    requires sep == '|' || sep == ':'
    ensures PyStr.Free(Written(xs), sep)
  {
    ShownFree(xs);
    forall k | 0 <= k < |xs|
      ensures PyStr.Free(Shown(xs)[k], sep)
    {
      var s := Decimal.Show(xs[k]);
      assert forall i :: 0 <= i < |s| ==> Decimal.IsDigit(s[i]);
    }
    JoinFree(Shown(xs), ' ', sep);
  }

  lemma {:induction false} JoinFree(parts: seq<string>, glue: char, sep: char)
    requires glue != sep
    requires forall k :: 0 <= k < |parts| ==> PyStr.Free(parts[k], sep)
    ensures PyStr.Free(PyStr.Join(parts, glue), sep)
  {
    if |parts| > 1 {
      JoinFree(parts[1..], glue, sep);
      var a, b := parts[0], PyStr.Join(parts[1..], glue);
      assert PyStr.Free(a, sep);
      assert forall i :: 0 <= i < |a + [glue] + b| ==>
        (a + [glue] + b)[i] == if i < |a| then a[i] else if i == |a| then glue else b[i - |a| - 1];
    }
  }

  /** The text before '|' on a written card. */
  function CardLeft(id: nat, have: seq<nat>): string
  {
    "Card " + Decimal.Show(id) + [':'] + (" " + Written(have) + " ")
  }

  lemma LeftFree(id: nat, have: seq<nat>)
    ensures PyStr.Free(CardLeft(id, have), '|')
  {
    var title, padded := "Card " + Decimal.Show(id), " " + Written(have) + " ";
    var left := CardLeft(id, have);
    LabelFree(id, '|');
    WrittenFree(have, '|');
    assert PyStr.Free(padded, '|') by {
      assert forall i :: 1 <= i < |padded| - 1 ==> padded[i] == Written(have)[i - 1];
    }
    assert forall i :: 0 <= i < |left| ==>
      left[i] == if i < |title| then title[i] else if i == |title| then ':' else padded[i - |title| - 1];
  }

  lemma BarSplit(id: nat, have: seq<nat>, winning: seq<nat>)
    ensures PyStr.Split(CardLine(id, have, winning), '|')
            == [CardLeft(id, have), " " + Written(winning)]
  {
    var left, right := CardLeft(id, have), " " + Written(winning);
    assert CardLine(id, have, winning) == left + ['|'] + right;
    LeftFree(id, have);
    WrittenFree(winning, '|');
    assert PyStr.Free(right, '|') by {
      assert forall i :: 1 <= i < |right| ==> right[i] == Written(winning)[i - 1];
    }
    PyStr.SplitAfter(left, '|', right);
    PyStr.SplitFree(right, '|');
  }

  lemma ColonSplit(id: nat, have: seq<nat>)
    ensures var p := PyStr.Split(CardLeft(id, have), ':'); p[|p| - 1] == " " + Written(have) + " "
  {
    var title, padded := "Card " + Decimal.Show(id), " " + Written(have) + " ";
    LabelFree(id, ':');
    WrittenFree(have, ':');
    assert PyStr.Free(padded, ':') by {
      assert forall i :: 1 <= i < |padded| - 1 ==> padded[i] == Written(have)[i - 1];
    }
    PyStr.SplitAfter(title, ':', padded);
    PyStr.SplitFree(padded, ':');
  }

  /** A card written out reads back as the card: your numbers in order and
      the winning numbers as a set. */
  lemma ParseCardLine(id: nat, have: seq<nat>, winning: seq<nat>)
    ensures ParseCard(CardLine(id, have, winning))
            == Some(Card(Ints(have), set n | n in Ints(winning)))
  {
    BarSplit(id, have, winning);
    ColonSplit(id, have);
    NumbersWritten(have);
    NumbersAfterSpace(winning);
  }

  /** "Card <id>" holds neither separator. */
  lemma LabelFree(id: nat, sep: char)
    requires sep == '|' || sep == ':'
    ensures PyStr.Free("Card " + Decimal.Show(id), sep)
  {
    var d := Decimal.Show(id);
    assert forall i :: 0 <= i < |d| ==> Decimal.IsDigit(d[i]);
    assert forall i :: 5 <= i < 5 + |d| ==> ("Card " + d)[i] == d[i - 5];
  }

  // ---------------------------------------------------------------------------
  // Part 1
  // ---------------------------------------------------------------------------

  /** How many of the numbers you have are winning numbers; a number you
      have twice counts twice. */
  function Matches(have: seq<int>, winning: set<int>): (n: nat)
    ensures n <= |have|
  {
    if |have| == 0 then 0
    else (if have[0] in winning then 1 else 0) + Matches(have[1..], winning)
  }

  /** The counting loop of `part1` and `part2`. */
  method CountMatches(have: seq<int>, winning: set<int>) returns (count: nat)
    ensures count == Matches(have, winning)
  {
    count := 0;
    var i := 0;
    while i < |have|
      invariant 0 <= i <= |have|
      invariant count + Matches(have[i..], winning) == Matches(have, winning)
    {
      assert have[i..][1..] == have[i + 1..];
      if have[i] in winning {
        count := count + 1;
      }
      i := i + 1;
    }
  }

  /** A card has no match exactly when none of its numbers wins. */
  lemma {:induction false} NoMatchIff(have: seq<int>, winning: set<int>)
    ensures Matches(have, winning) == 0 <==> forall k :: 0 <= k < |have| ==> have[k] !in winning
  {
    if |have| > 0 {
      NoMatchIff(have[1..], winning);
      assert forall k :: 1 <= k < |have| ==> have[k] == have[1..][k - 1];
    }
  }

  /** With no number written twice, the count is the size of the overlap of
      your numbers with the winning set. */
  lemma {:induction false} MatchesOverlap(have: seq<int>, winning: set<int>)
    requires forall i, j :: 0 <= i < j < |have| ==> have[i] != have[j]
    ensures Matches(have, winning) == |(set n | n in have) * winning|
  {
    if |have| > 0 {
      var rest := have[1..];
      assert forall i, j :: 0 <= i < j < |rest| ==> rest[i] != rest[j] by {
        forall i, j | 0 <= i < j < |rest|
          ensures rest[i] != rest[j]
        {
          assert rest[i] == have[i + 1] && rest[j] == have[j + 1];
        }
      }
      MatchesOverlap(rest, winning);
      var all, tail := (set n | n in have) * winning, (set n | n in rest) * winning;
      assert have[0] !in tail;
      if have[0] in winning {
        assert all == tail + {have[0]};
      } else {
        assert all == tail;
      }
    }
  }

  /** `2 ** (count - 1)` for a card with matches, 0 otherwise. */
  function Score(count: nat): (s: nat)
    ensures count == 0 <==> s == 0
  {
    if count == 0 then 0 else PyOps.Pow2(count - 1)
  }

  /** The first match is worth one point and each further match doubles it. */
  lemma ScoreDoubles(count: nat)
    ensures Score(1) == 1
    ensures count >= 1 ==> Score(count + 1) == 2 * Score(count)
  {
  }

  /** Part 1: the sum of the scores of the cards. */
  function Part1(cards: seq<Card>): nat
  {
    if |cards| == 0 then 0
    else Score(Matches(cards[0].have, cards[0].winning)) + Part1(cards[1..])
  }

  /** Part 1 is zero exactly when no card has a match. */
  lemma {:induction false} Part1ZeroIff(cards: seq<Card>)
    ensures Part1(cards) == 0
            <==> forall k :: 0 <= k < |cards| ==> Matches(cards[k].have, cards[k].winning) == 0
  {
    if |cards| > 0 {
      Part1ZeroIff(cards[1..]);
      assert forall k :: 1 <= k < |cards| ==> cards[k] == cards[1..][k - 1];
    }
  }

  // ---------------------------------------------------------------------------
  // Part 2
  // ---------------------------------------------------------------------------

  /** The number of instances of card `n`, given the match count of every
      card: the original plus one copy for every instance of an earlier card
      whose matches reach card `n`. */
  function Instances(counts: seq<nat>, n: nat): (r: nat)
    requires n < |counts|
    ensures r >= 1
    decreases n, 1
  {
    1 + Pending(counts, n, n)
  }

  /** The copies of card `t` won by the cards before `n`: card `m` wins a copy
      of each of the cards m + 1 .. m + counts[m] per instance of it. */
  function Pending(counts: seq<nat>, n: nat, t: nat): nat
    requires n <= |counts|
    decreases n, 0
  {
    if n == 0 then 0
    else
      var m := n - 1;
      Pending(counts, m, t) + (if m < t <= m + counts[m] then Instances(counts, m) else 0)
  }

  /** The total number of instances of the first `n` cards. */
  function AllInstances(counts: seq<nat>, n: nat): (r: nat)
    requires n <= |counts|
    ensures r >= n
  {
    if n == 0 then 0 else AllInstances(counts, n - 1) + Instances(counts, n - 1)
  }

  /** The inner `for i in range(count)` loop: the next `count` cards each get
      `v` more copies, entries past the end of the queue being appended. */
  method AddCopies(queue: seq<nat>, count: nat, v: nat) returns (q: seq<nat>)
    ensures |q| == if count <= |queue| then |queue| else count
    ensures forall i :: 0 <= i < |q| ==>
              q[i] == (if i < |queue| then queue[i] else 0) + (if i < count then v else 0)
  {
    q := queue;
    var i := 0;
    while i < count
      invariant 0 <= i <= count
      invariant |q| == if i <= |queue| then |queue| else i
      invariant forall k :: 0 <= k < |q| ==>
                  q[k] == (if k < |queue| then queue[k] else 0) + (if k < i then v else 0)
    {
      if i < |q| {
        q := q[i := q[i] + v];
      } else {
        q := q + [v];
      }
      i := i + 1;
    }
  }

  /** One card of `part2`'s loop: take its queued copies, count its
      instances and queue the copies it wins. */
  method Play(queue: seq<nat>, count: nat) returns (instances: nat, q: seq<nat>)
    ensures instances == 1 + (if |queue| > 0 then queue[0] else 0)
    ensures |q| >= |queue| - 1 && |q| >= count
    ensures forall i :: 0 <= i < |q| ==>
              q[i] == (if i + 1 < |queue| then queue[i + 1] else 0) + (if i < count then instances else 0)
  {
    instances := 1;
    var rest := queue;
    if |rest| > 0 {
      instances := instances + rest[0];
      rest := rest[1..];
    }
    q := AddCopies(rest, count, instances);
  }

  /** Adding card `n` to those already played changes the copies pending
      for card `t` only if card `n` reaches it. */
  lemma PendingStep(counts: seq<nat>, n: nat, t: nat)
    requires n < |counts|
    ensures Pending(counts, n + 1, t)
            == Pending(counts, n, t) + (if n < t <= n + counts[n] then Instances(counts, n) else 0)
  {
  }

  /** Part 2: the copy-propagation queue of `part2`, given each card's match
      count, counts every instance of every card. */
  method Part2(counts: seq<nat>) returns (cards: nat)
    ensures cards == AllInstances(counts, |counts|)
  {
    cards := 0;
    var queue: seq<nat> := [];
    var n := 0;
    while n < |counts|
      invariant 0 <= n <= |counts|
      invariant cards == AllInstances(counts, n)
      invariant forall i :: 0 <= i < |queue| ==> queue[i] == Pending(counts, n, n + i)
      invariant forall t :: n + |queue| <= t ==> Pending(counts, n, t) == 0
    {
      var instances, q := Play(queue, counts[n]);
      assert instances == Instances(counts, n) by {
        if |queue| == 0 {
          assert Pending(counts, n, n + 0) == 0;
        } else {
          assert queue[0] == Pending(counts, n, n + 0);
        }
      }
      forall i | 0 <= i < |q|
        ensures q[i] == Pending(counts, n + 1, n + 1 + i)
      {
        PendingStep(counts, n, n + 1 + i);
        if i + 1 >= |queue| {
          assert Pending(counts, n, n + 1 + i) == 0;
        }
      }
      var next := n + 1;
      forall t | next + |q| <= t
        ensures Pending(counts, next, t) == 0
      {
        PendingStep(counts, n, t);
      }
      cards := cards + instances;
      queue := q;
      n := n + 1;
    }
  }

  /** Every card is held at least once, so part 2 is at least the number of
      cards. */
  lemma AtLeastOneEach(counts: seq<nat>)
    ensures AllInstances(counts, |counts|) >= |counts|
  {
  }

  /** Without any match every card is held exactly once. */
  lemma {:induction false} NoMatchesOneEach(counts: seq<nat>, n: nat)
    requires n <= |counts|
    requires forall k :: 0 <= k < |counts| ==> counts[k] == 0
    ensures AllInstances(counts, n) == n
  {
    if n > 0 {
      NoMatchesOneEach(counts, n - 1);
      NoPending(counts, n - 1, n - 1);
    }
  }

  lemma {:induction false} NoPending(counts: seq<nat>, n: nat, t: nat)
    requires n <= |counts|
    requires forall k :: 0 <= k < |counts| ==> counts[k] == 0
    ensures Pending(counts, n, t) == 0
  {
    if n > 0 {
      NoPending(counts, n - 1, t);
    }
  }

  /** A card's copies reach exactly the next `count` cards: one instance of
      card `n` more for every instance of card `m`, when `m < n <= m + counts[m]`. */
  lemma {:induction false} PendingCounts(counts: seq<nat>, n: nat, t: nat, m: nat)
    requires m < n <= |counts|
    requires m < t <= m + counts[m]
    ensures Pending(counts, n, t) >= Instances(counts, m)
  {
    if n - 1 > m {
      PendingCounts(counts, n - 1, t, m);
    }
  }

  /** The example's match counts 4, 2, 2, 1, 0, 0 give 30 scratchcards. */
  lemma Example(counts: seq<nat>)
    requires counts == [4, 2, 2, 1, 0, 0]
    ensures AllInstances(counts, 6) == 30
  {
    assert Instances(counts, 0) == 1;
    assert Pending(counts, 1, 1) == 1 && Instances(counts, 1) == 2;
    assert Pending(counts, 1, 2) == 1 && Pending(counts, 2, 2) == 3;
    assert Instances(counts, 2) == 4;
    assert Pending(counts, 1, 3) == 1 && Pending(counts, 2, 3) == 3;
    assert Pending(counts, 3, 3) == 7 && Instances(counts, 3) == 8;
    assert Pending(counts, 1, 4) == 1 && Pending(counts, 2, 4) == 1;
    assert Pending(counts, 3, 4) == 5 && Pending(counts, 4, 4) == 13;
    assert Instances(counts, 4) == 14;
    assert Pending(counts, 1, 5) == 0 && Pending(counts, 2, 5) == 0 && Pending(counts, 3, 5) == 0;
    assert Pending(counts, 4, 5) == 0 && Pending(counts, 5, 5) == 0;
    assert Instances(counts, 5) == 1;
    assert AllInstances(counts, 1) == 1 && AllInstances(counts, 2) == 3;
    assert AllInstances(counts, 3) == 7 && AllInstances(counts, 4) == 15;
    assert AllInstances(counts, 5) == 29;
  }
}

=== FILE: seed_maps.dfy ===
/** The almanac of 2023/Day5: maps made of ranges that move a source span to
    a destination span, values outside every span passing through unchanged,
    and the `Range` record with its widening operations. */
module SeedMaps {
  import opened Wrappers

  // ---------------------------------------------------------------------------
  // Range
  // ---------------------------------------------------------------------------

  /** An integer or one of the float infinities `Range()` starts from. */
  datatype Ext = NegInf | Fin(n: int) | PosInf

  /** Python's `<` between two such values. */
  predicate Lt(a: Ext, b: Ext)
  {
    match (a, b)
    case (NegInf, NegInf) => false
    case (NegInf, _) => true
    case (Fin(x), Fin(y)) => x < y
    case (Fin(_), PosInf) => true
    case (_, _) => false
  }

  predicate Le(a: Ext, b: Ext)
  {
    a == b || Lt(a, b)
  }

  /** `min(a, b)`: `a` unless `b` is smaller. */
  function Min(a: Ext, b: Ext): (r: Ext)
    ensures Le(r, a) && Le(r, b) && (r == a || r == b)
  {
    if Lt(b, a) then b else a
  }

  /** `max(a, b)`: `a` unless `b` is larger. */
  function Max(a: Ext, b: Ext): (r: Ext)
    ensures Le(a, r) && Le(b, r) && (r == a || r == b)
  {
    if Lt(a, b) then b else a
  }

  /** `Range`: a lower and an upper end. */
  datatype Range = Range(lo: Ext, hi: Ext)

  /** `Range()`: from +inf down to -inf, the range that covers nothing. */
  function Empty(): Range
  {
    Range(PosInf, NegInf)
  }

  /** `r` reaches at least as far as `s` on both ends. */
  predicate Covers(r: Range, s: Range)
  {
    Le(r.lo, s.lo) && Le(s.hi, r.hi)
  }

  /** `Range.extend`. */
  function Extend(r: Range, o: Range): (e: Range)
    ensures Covers(e, r) && Covers(e, o)
  {
    Range(Min(r.lo, o.lo), Max(r.hi, o.hi))
  }

  /** Extending gives the smallest range that covers both. */
  lemma ExtendLeast(r: Range, o: Range, c: Range)
    requires Covers(c, r) && Covers(c, o)
    ensures Covers(c, Extend(r, o))
  {
  }

  /** The order in which ranges are merged does not matter. */
  lemma ExtendCommutes(r: Range, o: Range)
    ensures Extend(r, o) == Extend(o, r)
  {
  }

  lemma ExtendAssociates(r: Range, o: Range, p: Range)
    ensures Extend(Extend(r, o), p) == Extend(r, Extend(o, p))
  {
  }

  /** `Range()` is where extending starts: it changes nothing. */
  lemma ExtendEmpty(r: Range)
    ensures Extend(Empty(), r) == r && Extend(r, Empty()) == r
  {
  }

  /** `Range.raise_max`. */
  function RaiseMax(r: Range, newMax: int): (e: Range)
    ensures Covers(e, r) && Le(Fin(newMax), e.hi)
  {
    Range(r.lo, Max(r.hi, Fin(newMax)))
  }

  /** `Range.reduce_min`. */
  function ReduceMin(r: Range, newMin: int): (e: Range)
    ensures Covers(e, r) && Le(e.lo, Fin(newMin))
  {
    Range(Min(r.lo, Fin(newMin)), r.hi)
  }

  /** Raising the top and lowering the bottom are extending by a range open
      on the other side. */
  lemma OneSided(r: Range, n: int)
    ensures RaiseMax(r, n) == Extend(r, Range(PosInf, Fin(n)))
    ensures ReduceMin(r, n) == Extend(r, Range(Fin(n), NegInf))
  {
  }

  /** Equal (min, max) pairs: what `__eq__` is meant to test. */
  predicate Eq(r: Range, s: Range)
  {
    r.lo == s.lo && r.hi == s.hi
  }

  lemma EqIsSame(r: Range, s: Range)
    ensures Eq(r, s) <==> r == s
  {
  }

  /** CPython's modulus for hashing numbers, 2**61 - 1. */
  const Modulus: int := 0x1FFF_FFFF_FFFF_FFFF

  /** `hash` of an int or an infinity, as CPython computes it: the value
      reduced modulo 2**61 - 1 keeping its sign, -1 replaced by -2 because
      -1 signals an error in C, and +-314159 for the infinities. */
  function Hash(e: Ext): int
  {
    match e
    case NegInf => -314159
    case PosInf => 314159
    case Fin(n) =>
      var h := if n >= 0 then n % Modulus else -((-n) % Modulus);
      if h == -1 then -2 else h
  }

  /** `__eq__` as written: equal hashes of the (min, max) tuples. A tuple's
      hash is some function of its items' hashes; which one is a parameter. */
  predicate EqAsWritten(r: Range, s: Range, tupleHash: (int, int) -> int)
  {
    tupleHash(Hash(r.lo), Hash(r.hi)) == tupleHash(Hash(s.lo), Hash(s.hi))
  }

  /** Equal ranges compare equal as written too. */
  lemma EqAsWrittenSound(r: Range, s: Range, tupleHash: (int, int) -> int)
    requires Eq(r, s)
    ensures EqAsWritten(r, s, tupleHash)
  {
  }

  /** As written, (-1, 0) and (-2, 0) compare equal whatever the tuple hash:
      -1 and -2 hash alike. */
  lemma EqAsWrittenCollides(tupleHash: (int, int) -> int)
    ensures EqAsWritten(Range(Fin(-1), Fin(0)), Range(Fin(-2), Fin(0)), tupleHash)
    ensures !Eq(Range(Fin(-1), Fin(0)), Range(Fin(-2), Fin(0)))
  {
  }

  // ---------------------------------------------------------------------------
  // MapRange
  // ---------------------------------------------------------------------------

  /** `MapRange`: `len` values from `src` on go to `dst` on. */
  datatype MapRange = MapRange(dst: int, src: int, len: int)

  /** `src` lies in the range's source span. */
  predicate Contains(m: MapRange, src: int)
  {
    m.src <= src < m.src + m.len
  }

  /** `MapRange.get`: a source value in the span moves with it; any other
      value is returned as it is. */
  function Get(m: MapRange, src: int): (r: int)
    ensures Contains(m, src) ==> r - m.dst == src - m.src
    ensures !Contains(m, src) ==> r == src
  {
    var into := src - m.src;
    if into >= m.len || into < 0 then src else m.dst + into
  }

  /** The range read the other way round. */
  function Invert(m: MapRange): MapRange
  {
    MapRange(m.src, m.dst, m.len)
  }

  /** Inside its span a range is undone by its inverse. */
  lemma GetInvert(m: MapRange, src: int)
    requires Contains(m, src)
    ensures Contains(Invert(m), Get(m, src)) && Get(Invert(m), Get(m, src)) == src
  {
  }

  /** Inside its span a range keeps the order of values. */
  lemma GetMonotone(m: MapRange, a: int, b: int)
    requires Contains(m, a) && Contains(m, b) && a < b
    ensures Get(m, a) < Get(m, b)
  {
  }

  // ---------------------------------------------------------------------------
  // Map
  // ---------------------------------------------------------------------------

  /** Source starts strictly decreasing, as `Map` keeps its ranges. */
  ghost predicate Descending(s: seq<MapRange>)
  {
    forall i, j :: 0 <= i < j < |s| ==> s[j].src < s[i].src
  }

  /** The source starts of the ranges. */
  function Starts(s: seq<MapRange>): (r: set<int>)
    ensures forall v :: v in r <==> exists k :: 0 <= k < |s| && s[k].src == v
  {
    set k | 0 <= k < |s| :: s[k].src
  }

  /** Two ranges share a source start. Sorting the `(src_start, range)`
      tuples then compares two `MapRange` objects, which have no order, and
      raises TypeError. */
  ghost predicate Tie(s: seq<MapRange>)
  {
    exists i, j :: 0 <= i < j < |s| && s[i].src == s[j].src
  }

  /** Puts `x` into a descending list, or fails on a tie. */
  function InsertDesc(x: MapRange, s: seq<MapRange>): (r: Option<seq<MapRange>>)
    requires Descending(s)
    ensures r.None? <==> x.src in Starts(s)
    ensures r.Some? ==> multiset(r.value) == multiset(s) + multiset{x}
  {
    if |s| == 0 then Some([x])
    else if x.src == s[0].src then None
    else if x.src > s[0].src then
      assert x.src !in Starts(s);
      Some([x] + s)
    else
      StartsCons(s);
      DescendingTail(s);
      match InsertDesc(x, s[1..])
      case None => None
      case Some(t) =>
        assert s == [s[0]] + s[1..];
        Some([s[0]] + t)
  }

  lemma StartsCons(s: seq<MapRange>)
    requires |s| > 0
    ensures Starts(s) == {s[0].src} + Starts(s[1..])
  {
    assert forall k :: 1 <= k < |s| ==> s[k] == s[1..][k - 1];
  }

  lemma DescendingTail(s: seq<MapRange>)
    requires |s| > 0 && Descending(s)
    ensures Descending(s[1..])
  {
    forall i, j | 0 <= i < j < |s| - 1 ensures s[1..][j].src < s[1..][i].src {
      assert s[1..][i] == s[i + 1] && s[1..][j] == s[j + 1];
    }
  }

  /** Inserting keeps the list descending. */
  lemma {:induction false} InsertDescSorted(x: MapRange, s: seq<MapRange>)
    requires Descending(s) && InsertDesc(x, s).Some?
    ensures Descending(InsertDesc(x, s).value)
  {
    if |s| > 0 && x.src < s[0].src {
      DescendingTail(s);
      InsertDescSorted(x, s[1..]);
      var t := InsertDesc(x, s[1..]).value;
      assert s == [s[0]] + s[1..];
      AllBelow(t, s[1..], x, s[0].src);
      ConsDescending(s[0], t);
    }
  }

  /** A rearrangement of ranges below a bound, and one more below it, stays
      below it. */
  lemma AllBelow(t: seq<MapRange>, s: seq<MapRange>, x: MapRange, bound: int)
    requires multiset(t) == multiset(s) + multiset{x}
    requires x.src < bound && forall k :: 0 <= k < |s| ==> s[k].src < bound
    ensures forall k :: 0 <= k < |t| ==> t[k].src < bound
  {
    forall k | 0 <= k < |t| ensures t[k].src < bound {
      assert t[k] in multiset(s) + multiset{x};
      if t[k] != x {
        assert t[k] in multiset(s);
        var j :| 0 <= j < |s| && s[j] == t[k];
      }
    }
  }

  lemma ConsDescending(h: MapRange, t: seq<MapRange>)
    requires Descending(t) && forall k :: 0 <= k < |t| ==> t[k].src < h.src
    ensures Descending([h] + t)
  {
    var r := [h] + t;
    forall i, j | 0 <= i < j < |r| ensures r[j].src < r[i].src {
      if i > 0 {
        assert r[i] == t[i - 1] && r[j] == t[j - 1];
      }
    }
  }

  /** The same ranges have the same starts. */
  lemma StartsOfSame(a: seq<MapRange>, b: seq<MapRange>)
    requires multiset(a) == multiset(b)
    ensures Starts(a) == Starts(b)
  {
    forall v | v in Starts(a) ensures v in Starts(b) {
      var k :| 0 <= k < |a| && a[k].src == v;
      assert a[k] in multiset(b);
    }
    forall v | v in Starts(b) ensures v in Starts(a) {
      var k :| 0 <= k < |b| && b[k].src == v;
      assert b[k] in multiset(a);
    }
  }

  /** A tie in a list with one more range: in the list, or with the new one. */
  lemma TieSnoc(s: seq<MapRange>, x: MapRange)
    ensures Tie(s + [x]) <==> Tie(s) || x.src in Starts(s)
  {
    var t := s + [x];
    if Tie(t) {
      var i, j :| 0 <= i < j < |t| && t[i].src == t[j].src;
      if j < |s| {
        assert s[i].src == s[j].src;
      } else {
        assert s[i].src == x.src;
      }
    }
    if x.src in Starts(s) {
      var k :| 0 <= k < |s| && s[k].src == x.src;
      assert t[k].src == t[|s|].src;
    }
    if Tie(s) {
      var i, j :| 0 <= i < j < |s| && s[i].src == s[j].src;
      assert t[i].src == t[j].src;
    }
  }

  /** `Map.__init__`: the ranges sorted by source start and reversed, so the
      highest start comes first; a tie raises. */
  function Build(ranges: seq<MapRange>): (r: Option<seq<MapRange>>)
    ensures r.None? <==> Tie(ranges)
    ensures r.Some? ==> Descending(r.value) && multiset(r.value) == multiset(ranges)
  {
    if |ranges| == 0 then Some([])
    else
      var init, last := ranges[..|ranges| - 1], ranges[|ranges| - 1];
      assert ranges == init + [last];
      TieSnoc(init, last);
      match Build(init)
      case None => None
      case Some(t) =>
        StartsOfSame(t, init);
        var r := InsertDesc(last, t);
        if r.Some? then
          InsertDescSorted(last, t);
          r
        else r
  }

  /** `Map.get`: the first range, in descending order, whose source start is
      at most `src` decides; with none, `src` passes through. */
  function MapGet(ranges: seq<MapRange>, src: int): int
  {
    if |ranges| == 0 then src
    else if ranges[0].src > src then MapGet(ranges[1..], src)
    else Get(ranges[0], src)
  }

  /** The spans are non-empty and no two overlap. */
  ghost predicate Disjoint(s: seq<MapRange>)
  {
    (forall k :: 0 <= k < |s| ==> s[k].len > 0)
    && forall i, j :: 0 <= i < |s| && 0 <= j < |s| && i != j ==> !Contains(s[j], s[i].src)
  }

  /** With descending, disjoint spans, `Map.get` moves a value by the range
      whose span holds it. */
  lemma {:induction false} MapGetInSpan(ranges: seq<MapRange>, src: int, k: nat)
    requires Descending(ranges) && Disjoint(ranges)
    requires k < |ranges| && Contains(ranges[k], src)
    ensures MapGet(ranges, src) == ranges[k].dst + (src - ranges[k].src)
    decreases k
  {
    if ranges[0].src > src {
      var tail := ranges[1..];
      assert k > 0;
      assert Descending(tail) by {
        forall i, j | 0 <= i < j < |tail| ensures tail[j].src < tail[i].src {
          assert tail[i] == ranges[i + 1] && tail[j] == ranges[j + 1];
        }
      }
      assert Disjoint(tail) by {
        forall i, j | 0 <= i < |tail| && 0 <= j < |tail| && i != j
          ensures !Contains(tail[j], tail[i].src)
        {
          assert tail[i] == ranges[i + 1] && tail[j] == ranges[j + 1];
        }
      }
      assert tail[k - 1] == ranges[k];
      MapGetInSpan(tail, src, k - 1);
    } else if k > 0 {
      assert ranges[k].src < ranges[0].src <= src;
      assert Contains(ranges[k], ranges[0].src);
    }
  }

  /** A value in no span passes through `Map.get` unchanged. */
  lemma {:induction false} MapGetOutside(ranges: seq<MapRange>, src: int)
    requires forall k :: 0 <= k < |ranges| ==> !Contains(ranges[k], src)
    ensures MapGet(ranges, src) == src
    decreases |ranges|
  {
    if |ranges| > 0 && ranges[0].src > src {
      assert forall k :: 0 <= k < |ranges| - 1 ==> ranges[1..][k] == ranges[k + 1];
      MapGetOutside(ranges[1..], src);
    }
  }

  /** The seed-to-location walk of part 1: through each map in turn. */
  function Locate(maps: seq<seq<MapRange>>, v: int): int
  {
    if |maps| == 0 then v else Locate(maps[1..], MapGet(maps[0], v))
  }

  /** `part1`: the lowest location of any seed; `min` of no seeds raises. */
  function Part1(seeds: seq<int>, maps: seq<seq<MapRange>>): (r: Option<int>)
    ensures r.None? <==> |seeds| == 0
    ensures r.Some? ==> (exists k :: 0 <= k < |seeds| && r.value == Locate(maps, seeds[k]))
                        && forall k :: 0 <= k < |seeds| ==> r.value <= Locate(maps, seeds[k])
  {
    if |seeds| == 0 then None
    else
      var here := Locate(maps, seeds[0]);
      match Part1(seeds[1..], maps)
      case None => Some(here)
      case Some(rest) =>
        assert forall k :: 0 <= k < |seeds| - 1 ==> seeds[1..][k] == seeds[k + 1];
        if rest < here then Some(rest) else Some(here)
  }

  /** The example's seed-to-soil map is already in descending order. */
  lemma SoilBuilt(ranges: seq<MapRange>)
    requires ranges == [MapRange(50, 98, 2), MapRange(52, 50, 48)]
    ensures Build(ranges) == Some(ranges)
  {
    var a, b := ranges[0], ranges[1];
    assert Build([a]) == Some([a]) by {
      assert [a][..0] == [];
    }
    assert ranges[..1] == [a];
    assert InsertDesc(b, [a]) == Some([a, b]) by {
      assert [a][1..] == [];
      assert InsertDesc(b, []) == Some([b]);
      assert [a] + [b] == [a, b];
    }
  }

  /** In it seed 79 goes to soil 81 and seed 14 stays 14. */
  lemma SoilExample(ranges: seq<MapRange>)
    requires ranges == [MapRange(50, 98, 2), MapRange(52, 50, 48)]
    ensures MapGet(ranges, 79) == 81 && MapGet(ranges, 14) == 14
  {
    var tail := ranges[1..];
    assert tail == [MapRange(52, 50, 48)];
    assert MapGet(ranges, 79) == MapGet(tail, 79) == 81;
    assert MapGet(ranges, 14) == MapGet(tail, 14) == MapGet(tail[1..], 14) == 14;
  }
}

=== FILE: sorting.dfy ===
/** Python's `sorted` and `list.sort` on a sequence, for an element order
    given as a strict total order, and Python's lexicographic comparison of
    lists and strings. */
module Sorting {

  /** `lt` is irreflexive, transitive and total: any two different elements
      are ordered one way or the other. */
  ghost predicate StrictOrder<T(!new)>(lt: (T, T) -> bool)
  {
    && (forall a :: !lt(a, a))
    && (forall a, b, c :: lt(a, b) && lt(b, c) ==> lt(a, c))
    && (forall a, b :: a == b || lt(a, b) || lt(b, a))
  }

  /** No element is smaller than one before it. */
  ghost predicate Sorted<T>(s: seq<T>, lt: (T, T) -> bool)
  {
    forall i, j :: 0 <= i < j < |s| ==> !lt(s[j], s[i])
  }

  /** Inserts `x` before the first element it is smaller than, so after any
      equal ones (the stable position). */
  function Insert<T>(x: T, s: seq<T>, lt: (T, T) -> bool): (r: seq<T>)
    ensures multiset(r) == multiset(s) + multiset{x}
    ensures |r| == |s| + 1
  {
    if |s| == 0 then [x]
    else if lt(x, s[0]) then [x] + s
    else
      assert s == [s[0]] + s[1..];
      [s[0]] + Insert(x, s[1..], lt)
  }

  lemma {:induction false} InsertSorted<T(!new)>(x: T, s: seq<T>, lt: (T, T) -> bool)
    requires StrictOrder(lt) && Sorted(s, lt)
    ensures Sorted(Insert(x, s, lt), lt)
  {
    if |s| > 0 && !lt(x, s[0]) {
      var rest := Insert(x, s[1..], lt);
      InsertSorted(x, s[1..], lt);
      forall k | 0 <= k < |rest| ensures !lt(rest[k], s[0]) {
        assert rest[k] in multiset(rest);
        if rest[k] != x {
          assert rest[k] in multiset(s[1..]);
          var j :| 0 <= j < |s[1..]| && s[1..][j] == rest[k];
          assert s[j + 1] == rest[k];
        }
      }
      var r := [s[0]] + rest;
      forall i, j | 0 <= i < j < |r| ensures !lt(r[j], r[i]) {
        if i > 0 {
          assert r[i] == rest[i - 1] && r[j] == rest[j - 1];
        }
      }
    } else if |s| > 0 {
      var r := [x] + s;
      forall i, j | 0 <= i < j < |r| ensures !lt(r[j], r[i]) {
        if i == 0 {
          assert !lt(s[j - 1], s[0]);
        }
      }
    }
  }

  /** Insertion sort: a sorted permutation of `s`. */
  function Sort<T(!new)>(s: seq<T>, lt: (T, T) -> bool): (r: seq<T>)
    requires StrictOrder(lt)
    ensures multiset(r) == multiset(s)
    ensures |r| == |s|
    ensures Sorted(r, lt)
  {
    if |s| == 0 then []
    else
      var rest := Sort(s[..|s| - 1], lt);
      assert s == s[..|s| - 1] + [s[|s| - 1]];
      InsertSorted(s[|s| - 1], rest, lt);
      Insert(s[|s| - 1], rest, lt)
  }

  /** Two sorted sequences with the same elements are equal: the sorted order
      of a multiset is unique under a strict total order. */
  lemma {:induction false} SortedUnique<T(!new)>(a: seq<T>, b: seq<T>, lt: (T, T) -> bool)
    requires StrictOrder(lt)
    requires Sorted(a, lt) && Sorted(b, lt) && multiset(a) == multiset(b)
    ensures a == b
  {
    if |a| == 0 {
      assert |multiset(b)| == 0;
    } else {
      SameHead(a, b, lt);
      SameTails(a, b);
      SortedTail(a, lt);
      SortedTail(b, lt);
      SortedUnique(a[1..], b[1..], lt);
      ConsEqual(a, b);
    }
  }

  /** Sorted reorderings of each other start with the same element. */
  lemma SameHead<T(!new)>(a: seq<T>, b: seq<T>, lt: (T, T) -> bool)
    requires StrictOrder(lt)
    requires Sorted(a, lt) && Sorted(b, lt) && multiset(a) == multiset(b) && |a| > 0
    ensures |b| > 0 && a[0] == b[0]
  {
    assert a[0] in multiset(b);
    var i :| 0 <= i < |b| && b[i] == a[0];
    assert b[0] in multiset(a);
    var j :| 0 <= j < |a| && a[j] == b[0];
    assert !lt(b[i], b[0]) && !lt(a[j], a[0]);
  }

  lemma SameTails<T>(a: seq<T>, b: seq<T>)
    requires |a| > 0 && |b| > 0 && a[0] == b[0] && multiset(a) == multiset(b)
    ensures multiset(a[1..]) == multiset(b[1..])
  {
    var x, y := a[1..], b[1..];
    assert a == [a[0]] + x && b == [b[0]] + y;
    assert multiset(a) == multiset{a[0]} + multiset(x);
    assert multiset(b) == multiset{a[0]} + multiset(y);
    assert multiset(x) == multiset(a) - multiset{a[0]};
    assert multiset(y) == multiset(b) - multiset{a[0]};
  }

  lemma ConsEqual<T>(a: seq<T>, b: seq<T>)
    requires |a| > 0 && |b| > 0 && a[0] == b[0] && a[1..] == b[1..]
    ensures a == b
  {
    assert a == [a[0]] + a[1..] && b == [b[0]] + b[1..];
  }

  lemma SortedTail<T>(s: seq<T>, lt: (T, T) -> bool)
    requires Sorted(s, lt) && |s| > 0
    ensures Sorted(s[1..], lt)
  {
    var t := s[1..];
    forall p, q | 0 <= p < q < |t| ensures !lt(t[q], t[p]) {
      assert t[q] == s[q + 1] && t[p] == s[p + 1];
    }
  }

  /** Sorting depends only on the elements, not on their order. */
  lemma SortPermutation<T(!new)>(a: seq<T>, b: seq<T>, lt: (T, T) -> bool)
    requires StrictOrder(lt) && multiset(a) == multiset(b)
    ensures Sort(a, lt) == Sort(b, lt)
  {
    SortedUnique(Sort(a, lt), Sort(b, lt), lt);
  }

  /** Python's comparison of two lists (or strings): the first difference
      decides, and a proper prefix is smaller. */
  function LexLess<T(==)>(a: seq<T>, b: seq<T>, lt: (T, T) -> bool): bool
  {
    if |b| == 0 then false
    else if |a| == 0 then true
    else if a[0] == b[0] then LexLess(a[1..], b[1..], lt)
    else lt(a[0], b[0])
  }

  lemma {:induction false} LexIrreflexive<T(!new)>(a: seq<T>, lt: (T, T) -> bool)
    requires StrictOrder(lt)
    ensures !LexLess(a, a, lt)
  {
    if |a| > 0 {
      LexIrreflexive(a[1..], lt);
    }
  }

  lemma {:induction false} LexTransitive<T(!new)>(a: seq<T>, b: seq<T>, c: seq<T>, lt: (T, T) -> bool)
    requires StrictOrder(lt) && LexLess(a, b, lt) && LexLess(b, c, lt)
    ensures LexLess(a, c, lt)
  {
    if |a| > 0 && a[0] == b[0] && b[0] == c[0] {
      LexTransitive(a[1..], b[1..], c[1..], lt);
    }
  }

  lemma {:induction false} LexTotal<T(!new)>(a: seq<T>, b: seq<T>, lt: (T, T) -> bool)
    requires StrictOrder(lt)
    ensures a == b || LexLess(a, b, lt) || LexLess(b, a, lt)
  {
    if |a| > 0 && |b| > 0 && a[0] == b[0] {
      LexTotal(a[1..], b[1..], lt);
      if a[1..] == b[1..] {
        assert a == [a[0]] + a[1..] && b == [b[0]] + b[1..];
      }
    }
  }

  /** Lexicographic comparison is itself a strict total order. */
  lemma LexStrictOrder<T(!new)>(lt: (T, T) -> bool)
    requires StrictOrder(lt)
    ensures StrictOrder((a: seq<T>, b: seq<T>) => LexLess(a, b, lt))
  {
    forall a: seq<T> ensures !LexLess(a, a, lt) {
      LexIrreflexive(a, lt);
    }
    forall a: seq<T>, b: seq<T>, c: seq<T> | LexLess(a, b, lt) && LexLess(b, c, lt) ensures LexLess(a, c, lt) {
      LexTransitive(a, b, c, lt);
    }
    forall a: seq<T>, b: seq<T> ensures a == b || LexLess(a, b, lt) || LexLess(b, a, lt) {
      LexTotal(a, b, lt);
    }
  }

  /** The order of integers and of characters. */
  lemma IntOrder()
    ensures StrictOrder((a: int, b: int) => a < b)
  {
  }

  lemma CharOrder()
    ensures StrictOrder((a: char, b: char) => a < b)
  {
  }

  /** Sorting integers gives the ascending order of the same elements. */
  lemma SortInts(s: seq<int>)
    requires StrictOrder((a: int, b: int) => a < b)
    ensures var r := Sort(s, (a: int, b: int) => a < b);
      forall i, j :: 0 <= i < j < |r| ==> r[i] <= r[j]
  {
    var r := Sort(s, (a: int, b: int) => a < b);
    forall i, j | 0 <= i < j < |r| ensures r[i] <= r[j] {
      assert !((a: int, b: int) => a < b)(r[j], r[i]);
    }
  }

  /** `sorted(xs)` of a list of integers. */
  function IntSort(s: seq<int>): (r: seq<int>)
    ensures multiset(r) == multiset(s)
    ensures forall i, j :: 0 <= i < j < |r| ==> r[i] <= r[j]
  {
    IntOrder();
    SortInts(s);
    Sort(s, (a: int, b: int) => a < b)
  }

  /** The first element of `a` sits somewhere in a reordering `b`, and the
      rests are reorderings of each other. */
  lemma PickSame<T>(a: seq<T>, b: seq<T>) returns (i: nat)
    requires |a| > 0 && multiset(a) == multiset(b)
    ensures i < |b| && b[i] == a[0] && multiset(a[1..]) == multiset(b[..i] + b[i + 1..])
  {
    assert a[0] in multiset(b);
    i :| 0 <= i < |b| && b[i] == a[0];
    RemoveMultiset(b, i);
    assert a == [a[0]] + a[1..];
    assert multiset(a) == multiset{a[0]} + multiset(a[1..]);
  }

  lemma RemoveMultiset<T>(s: seq<T>, i: nat)
    requires i < |s|
    ensures multiset(s[..i] + s[i + 1..]) == multiset(s) - multiset{s[i]}
  {
    assert s == s[..i] + [s[i]] + s[i + 1..];
  }

  lemma InsertMultiset<T>(s: seq<T>, i: nat, x: T)
    requires i <= |s|
    ensures multiset(s[..i] + [x] + s[i..]) == multiset(s) + multiset{x}
  {
    assert s == s[..i] + s[i..];
  }

  lemma MultisetMiddle<T>(x: seq<T>, e: T, y: seq<T>)
    ensures multiset(x + [e] + y) == multiset(x + y) + multiset{e}
  {
  }

  /** A subset is no larger than the set holding it. */
  lemma {:induction false} SubsetSize<T>(a: set<T>, b: set<T>)
    requires a <= b
    ensures |a| <= |b|
    decreases |b|
  {
    if a != {} {
      var x :| x in a;
      SubsetSize(a - {x}, b - {x});
    }
  }
}

=== FILE: springs.dfy ===
/** 2023 day 12, the brute-force solver: a row of spring conditions
    ('.' working, '#' broken, '?' unknown), the contiguous broken groups it
    shows, every way to fill in the unknowns, and the five-fold unfolding. */
module Springs {
  import opened Wrappers

  type Row = seq<char>

  /** Number of occurrences of `c`, as `list.count`. */
  function Count(s: Row, c: char): nat
  {
    multiset(s)[c]
  }

  function Sum(xs: seq<nat>): nat
  {
    if |xs| == 0 then 0 else xs[0] + Sum(xs[1..])
  }

  /** The group-collecting loop with the size of the group in progress.
      Any cell other than '#' closes a group; with no unknowns left (as
      `is_valid` demands) that is exactly a working cell. */
  function GroupsFrom(s: Row, size: nat): seq<nat>
    decreases |s|
  {
    if |s| == 0 then (if size > 0 then [size] else [])
    else if s[0] == '#' then GroupsFrom(s[1..], size + 1)
    else if size > 0 then [size] + GroupsFrom(s[1..], 0)
    else GroupsFrom(s[1..], 0)
  }

  /** `get_groups`: the sizes of the broken groups, in order. */
  function Groups(s: Row): seq<nat>
  {
    GroupsFrom(s, 0)
  }

  /** How many '#' the row starts with. */
  function LeadingBroken(s: Row): (n: nat)
    ensures n <= |s|
    ensures forall k :: 0 <= k < n ==> s[k] == '#'
    ensures n < |s| ==> s[n] != '#'
  {
    if |s| == 0 || s[0] != '#' then 0 else 1 + LeadingBroken(s[1..])
  }

  /** Reference definition: skip to the next broken cell, take the whole run
      of '#' there as one group, and continue after it. */
  function Runs(s: Row): seq<nat>
    decreases |s|
  {
    if |s| == 0 then []
    else if s[0] != '#' then Runs(s[1..])
    else
      var n := LeadingBroken(s);
      [n] + Runs(s[n..])
  }

  /** The loop reports the maximal runs: with a group of `size` in progress,
      the first run is extended by the leading '#' of the rest. */
  lemma {:induction false} GroupsFromRuns(s: Row, size: nat)
    ensures GroupsFrom(s, size) ==
      if size == 0 then Runs(s)
      else [size + LeadingBroken(s)] + Runs(s[LeadingBroken(s)..])
    decreases |s|
  {
    if |s| > 0 {
      if s[0] == '#' {
        GroupsFromRuns(s[1..], size + 1);
        assert s[LeadingBroken(s)..] == s[1..][LeadingBroken(s[1..])..];
      } else {
        GroupsFromRuns(s[1..], 0);
      }
    }
  }

  lemma GroupsAreRuns(s: Row)
    ensures Groups(s) == Runs(s)
  {
    GroupsFromRuns(s, 0);
  }

  /** Every run is non-empty, together they hold every '#', and with the
      working cell needed between neighbours they fit in the row. */
  lemma RunsFacts(s: Row)
    ensures forall k :: 0 <= k < |Runs(s)| ==> Runs(s)[k] > 0
    ensures Sum(Runs(s)) == Count(s, '#')
    ensures |Runs(s)| > 0 ==> Sum(Runs(s)) + |Runs(s)| - 1 <= |s|
  {
    RunsPositive(s);
    RunsSum(s);
    RunsFit(s);
  }

  lemma {:induction false} RunsPositive(s: Row)
    ensures forall k :: 0 <= k < |Runs(s)| ==> Runs(s)[k] > 0
    decreases |s|
  {
    if |s| > 0 {
      if s[0] != '#' {
        RunsPositive(s[1..]);
      } else {
        RunsPositive(s[LeadingBroken(s)..]);
      }
    }
  }

  lemma {:induction false} RunsSum(s: Row)
    ensures Sum(Runs(s)) == Count(s, '#')
    decreases |s|
  {
    if |s| > 0 {
      assert s == [s[0]] + s[1..];
      if s[0] != '#' {
        RunsSum(s[1..]);
      } else {
        var n := LeadingBroken(s);
        AllBroken(s[..n]);
        RunsSum(s[n..]);
        assert s == s[..n] + s[n..];
      }
    }
  }

  lemma {:induction false} RunsFit(s: Row)
    ensures |Runs(s)| > 0 ==> Sum(Runs(s)) + |Runs(s)| - 1 <= |s|
    decreases |s|
  {
    if |s| > 0 {
      if s[0] != '#' {
        RunsFit(s[1..]);
      } else {
        var n := LeadingBroken(s);
        if n < |s| {
          var rest := s[n + 1..];
          assert s[n..] == [s[n]] + rest;
          assert Runs(s[n..]) == Runs(rest);
          RunsFit(rest);
          RunsSum(rest);
          RunsSum(s[n..]);
          if |Runs(rest)| > 0 {
            assert Sum(Runs(s)) == n + Sum(Runs(rest));
          }
        }
      }
    }
  }

  lemma {:induction false} AllBroken(s: Row)
    requires forall k :: 0 <= k < |s| ==> s[k] == '#'
    ensures Count(s, '#') == |s|
  {
    if |s| > 0 {
      assert s == s[..|s| - 1] + [s[|s| - 1]];
      AllBroken(s[..|s| - 1]);
    }
  }

  lemma GroupsFacts(s: Row)
    ensures forall k :: 0 <= k < |Groups(s)| ==> Groups(s)[k] > 0
    ensures Sum(Groups(s)) == Count(s, '#')
    ensures |Groups(s)| > 0 ==> Sum(Groups(s)) + |Groups(s)| - 1 <= |s|
  {
    GroupsAreRuns(s);
    RunsFacts(s);
  }

  lemma GroupsExample()
    ensures Groups("#.#.###") == [1, 1, 3]
  {
    GroupsAreRuns("#.#.###");
    assert LeadingBroken("###") == 3;
    assert "#.#.###"[1..] == ".#.###";
  }

  /** Why `is_valid` could not answer. */
  datatype Unanswerable = UnknownsRemain

  /** `Conditions.is_valid`: refuses a row with unknowns (ValueError),
      otherwise compares the groups with the expected ones. */
  function IsValid(s: Row, groups: seq<nat>): (r: Result<bool, Unanswerable>)
    ensures r.Failure? <==> '?' in s
  {
    if '?' in s then Failure(UnknownsRemain) else Success(Groups(s) == groups)
  }

  /** A row with no unknowns. */
  predicate Known(s: Row)
  {
    forall k :: 0 <= k < |s| ==> s[k] == '.' || s[k] == '#'
  }

  function UnknownCount(s: Row): nat
  {
    Count(s, '?')
  }

  /** Replace the unknowns of `s`, in order, by `values`. */
  function Fill(s: Row, values: Row): (r: Row)
    requires |values| == UnknownCount(s)
    ensures |r| == |s|
  {
    if |s| == 0 then []
    else
      assert s == [s[0]] + s[1..];
      if s[0] == '?' then [values[0]] + Fill(s[1..], values[1..])
      else [s[0]] + Fill(s[1..], values)
  }

  /** `r` is `s` with every unknown decided and every known cell kept. */
  predicate Completion(s: Row, r: Row)
  {
    |r| == |s| &&
    forall k :: 0 <= k < |s| ==> if s[k] == '?' then r[k] == '.' || r[k] == '#' else r[k] == s[k]
  }

  lemma {:induction false} FillFacts(s: Row, values: Row)
    requires |values| == UnknownCount(s) && Known(values)
    ensures Completion(s, Fill(s, values))
    ensures Count(Fill(s, values), '#') == Count(s, '#') + Count(values, '#')
  {
    if |s| > 0 {
      assert s == [s[0]] + s[1..];
      if s[0] == '?' {
        assert values == [values[0]] + values[1..];
        FillFacts(s[1..], values[1..]);
      } else {
        FillFacts(s[1..], values);
      }
      var r := Fill(s, values);
      assert r == [r[0]] + r[1..];
    }
  }

  /** The decisions a completion made, in order. */
  function Decisions(s: Row, r: Row): (values: Row)
    requires Completion(s, r)
    ensures |values| == UnknownCount(s) && Known(values)
    ensures Fill(s, values) == r
  {
    if |s| == 0 then []
    else
      assert s == [s[0]] + s[1..];
      assert Completion(s[1..], r[1..]);
      if s[0] == '?' then [r[0]] + Decisions(s[1..], r[1..])
      else Decisions(s[1..], r[1..])
  }

  /** `itertools.product(('.', '#'), repeat=n)`: the first position varies slowest. */
  function Products(n: nat): seq<Row>
  {
    if n == 0 then [[]]
    else Prefixed('.', Products(n - 1)) + Prefixed('#', Products(n - 1))
  }

  function Prefixed(c: char, rows: seq<Row>): (r: seq<Row>)
    ensures |r| == |rows|
    ensures forall k :: 0 <= k < |rows| ==> r[k] == [c] + rows[k]
  {
    seq(|rows|, k requires 0 <= k < |rows| => [c] + rows[k])
  }

  /** The product lists every decided row of length `n`, and nothing else. */
  lemma ProductsMembers(n: nat, v: Row)
    ensures v in Products(n) <==> |v| == n && Known(v)
  {
    if v in Products(n) {
      ProductsSound(n, v);
    }
    if |v| == n && Known(v) {
      ProductsComplete(n, v);
    }
  }

  lemma {:induction false} ProductsSound(n: nat, v: Row)
    requires v in Products(n)
    ensures |v| == n && Known(v)
  {
    if n > 0 {
      var p := Products(n - 1);
      var k :| 0 <= k < |Products(n)| && Products(n)[k] == v;
      var w := if k < |p| then p[k] else p[k - |p|];
      assert w in p;
      assert v == [v[0]] + w && (v[0] == '.' || v[0] == '#');
      ProductsSound(n - 1, w);
    }
  }

  lemma {:induction false} ProductsComplete(n: nat, v: Row)
    requires |v| == n && Known(v)
    ensures v in Products(n)
  {
    if n > 0 {
      var p := Products(n - 1);
      ProductsComplete(n - 1, v[1..]);
      var k :| 0 <= k < |p| && p[k] == v[1..];
      assert v == [v[0]] + v[1..];
      if v[0] == '.' {
        assert Prefixed('.', p)[k] == v;
      } else {
        assert Prefixed('#', p)[k] == v;
        assert Products(n)[|p| + k] == v;
      }
    }
  }

  /** The loop of `possibilities` over candidate decisions: skip those with
      the wrong number of '#', keep the filled rows that are valid. */
  function Keep(s: Row, groups: seq<nat>, candidates: seq<Row>): seq<Row>
    requires forall k :: 0 <= k < |candidates| ==> |candidates[k]| == UnknownCount(s)
  {
    if |candidates| == 0 then []
    else
      var missing := Sum(groups) - Count(s, '#');
      var values := candidates[0];
      var rest := Keep(s, groups, candidates[1..]);
      if Count(values, '#') != missing then rest
      else if IsValid(Fill(s, values), groups) == Success(true) then [Fill(s, values)] + rest
      else rest
  }

  /** `possibilities`. */
  function Possibilities(s: Row, groups: seq<nat>): seq<Row>
  {
    var n := UnknownCount(s);
    forall k | 0 <= k < |Products(n)|
      ensures |Products(n)[k]| == n
    {
      ProductsMembers(n, Products(n)[k]);
    }
    Keep(s, groups, Products(n))
  }

  /** A completion has no unknown left. */
  lemma CompletionKnown(s: Row, r: Row)
    requires Completion(s, r)
    ensures '?' !in r
  {
  }

  /** What `Keep` keeps: the filled rows of the candidates with the right
      number of '#' that show the expected groups. */
  lemma {:induction false} KeepSound(s: Row, groups: seq<nat>, candidates: seq<Row>, r: Row)
      returns (values: Row)
    requires forall k :: 0 <= k < |candidates| ==> |candidates[k]| == UnknownCount(s)
    requires r in Keep(s, groups, candidates)
    ensures values in candidates && |values| == UnknownCount(s)
    ensures r == Fill(s, values) && Groups(r) == groups
  {
    var rest := Keep(s, groups, candidates[1..]);
    if r in rest {
      values := KeepSound(s, groups, candidates[1..], r);
    } else {
      values := candidates[0];
    }
  }

  lemma {:induction false} KeepComplete(s: Row, groups: seq<nat>, candidates: seq<Row>, values: Row)
    requires forall k :: 0 <= k < |candidates| ==> |candidates[k]| == UnknownCount(s)
    requires values in candidates && |values| == UnknownCount(s) && Known(values)
    requires Groups(Fill(s, values)) == groups
    ensures Fill(s, values) in Keep(s, groups, candidates)
  {
    if candidates[0] == values {
      FillFacts(s, values);
      CompletionKnown(s, Fill(s, values));
      GroupsFacts(Fill(s, values));
    } else {
      KeepComplete(s, groups, candidates[1..], values);
    }
  }

  /** A row is among the possibilities exactly when it fills in the unknowns
      of `s` and shows the expected groups. So every result has no unknown,
      keeps every known cell, is valid, and has `sum(groups)` broken cells. */
  lemma PossibilitiesIff(s: Row, groups: seq<nat>, r: Row)
    ensures r in Possibilities(s, groups) <==> Completion(s, r) && Groups(r) == groups
    ensures r in Possibilities(s, groups) ==>
      '?' !in r && IsValid(r, groups) == Success(true) && Count(r, '#') == Sum(groups)
  {
    var n := UnknownCount(s);
    forall k | 0 <= k < |Products(n)|
      ensures |Products(n)[k]| == n
    {
      ProductsMembers(n, Products(n)[k]);
    }
    if r in Possibilities(s, groups) {
      var values := KeepSound(s, groups, Products(n), r);
      ProductsMembers(n, values);
      FillFacts(s, values);
    }
    if Completion(s, r) && Groups(r) == groups {
      var values := Decisions(s, r);
      ProductsMembers(n, values);
      KeepComplete(s, groups, Products(n), values);
    }
    if Completion(s, r) {
      CompletionKnown(s, r);
      GroupsFacts(r);
    }
  }

  /** `s` repeated `n` times. */
  function Repeat<T>(s: seq<T>, n: nat): (r: seq<T>)
    ensures |r| == n * |s|
  {
    if n == 0 then [] else s + Repeat(s, n - 1)
  }

  /** `from_line` with `fold_count`: the row followed by `fold_count - 1`
      copies of '?' and the row; the groups repeated `fold_count` times. */
  function Unfold(s: Row, groups: seq<nat>, foldCount: int): (Row, seq<nat>)
  {
    if foldCount <= 1 then (s, groups)
    else (s + Repeat("?" + s, foldCount - 1), Repeat(groups, foldCount))
  }

  lemma {:induction false} RepeatCount(s: Row, n: nat, c: char)
    ensures Count(Repeat(s, n), c) == n * Count(s, c)
  {
    if n > 0 {
      RepeatCount(s, n - 1, c);
      assert Count(Repeat(s, n), c) == Count(s, c) + Count(Repeat(s, n - 1), c);
      MulSucc(n - 1, Count(s, c));
    }
  }

  lemma MulSucc(m: nat, x: nat)
    ensures (m + 1) * x == x + m * x
  {
  }

  /** Folding `k` times gives `k * n + k - 1` cells, of which the unknowns
      are `k` times the original's plus the `k - 1` joints. */
  lemma UnfoldShape(s: Row, groups: seq<nat>, k: nat)
    requires k >= 1
    ensures |Unfold(s, groups, k).0| == k * |s| + k - 1
    ensures |Unfold(s, groups, k).1| == k * |groups|
    ensures UnknownCount(Unfold(s, groups, k).0) == k * UnknownCount(s) + k - 1
  {
    if k > 1 {
      var joined := "?" + s;
      RepeatCount(joined, k - 1, '?');
      assert Count(joined, '?') == 1 + Count(s, '?');
      assert Count(s + Repeat(joined, k - 1), '?') == Count(s, '?') + Count(Repeat(joined, k - 1), '?');
      MulSucc(k - 1, |s|);
      MulSucc(k - 1, Count(s, '?'));
      MulOne(k - 1, |s|);
      MulOne(k - 1, Count(s, '?'));
    }
  }

  lemma MulOne(m: nat, x: nat)
    ensures m * (x + 1) == m * x + m
  {
  }
}

=== FILE: springs_dynamic.dfy ===
/** 2023 day 12, the recursive counter: splits the row at its first unknown
    and either closes the groups seen so far, starts the next group there,
    or extends the group in progress. */
module SpringsDynamic {
  import Springs

  type Row = seq<char>

  /** `str.find`: the first index of `c`, or -1. */
  function Find(s: Row, c: char): (r: int)
    ensures -1 <= r < |s|
    ensures r == -1 <==> c !in s
    ensures r >= 0 ==> s[r] == c && c !in s[..r]
  {
    if |s| == 0 then -1
    else if s[0] == c then 0
    else
      var r := Find(s[1..], c);
      assert r >= 0 ==> s[..r + 1] == [s[0]] + s[1..][..r];
      if r == -1 then -1 else r + 1
  }

  /** `s[k:]` for a non-negative `k`, empty past the end. */
  function Drop<T>(s: seq<T>, k: nat): (r: seq<T>)
    ensures |r| == if k > |s| then 0 else |s| - k
  {
    if k > |s| then [] else s[k..]
  }

  /** `s[:k]` for a non-negative `k`, the whole of `s` past the end. */
  function Take<T>(s: seq<T>, k: nat): (r: seq<T>)
    ensures |r| == if k > |s| then |s| else k
  {
    if k > |s| then s else s[..k]
  }

  /** `room_for_group(string, length, end)`: a group of `length` broken
      springs fits at the start of `s`, followed by a working one unless
      `end`. */
  function RoomForGroup(s: Row, length: int, end: bool): (r: bool)
    ensures length < 0 ==> !r
    ensures r ==> |s| >= length + (if end then 0 else 1)
    ensures (exists k :: 0 <= k < length && k < |s| && s[k] == '.') ==> !r
    ensures !end && 0 <= length < |s| && s[length] == '#' ==> !r
    ensures r <== 0 <= length && |s| >= length + (if end then 0 else 1) &&
      (forall k :: 0 <= k < length ==> s[k] != '.') && (!end ==> s[length] != '#')
  {
    if length < 0 then false
    else if |s| < length + 1 && !end then false
    else if |s| < length then false
    else if exists k :: 0 <= k < length && s[k] == '.' then false
    else if !end && s[length] == '#' then false
    else true
  }

  /** `get_arrangements(string, groups, count_only=True)`. */
  function Arrangements(s: Row, groups: seq<nat>): (n: nat)
    decreases |s|
  {
    var index := Find(s, '?');
    if index == -1 then (if Springs.Groups(s) == groups then 1 else 0)
    else if |s| < Springs.Sum(groups) + |groups| - 1 then 0
    else
      var left, right := s[..index], s[index..];
      var lgroups := Springs.Groups(left);
      var rgroups := Drop(groups, |lgroups|);
      if lgroups == Take(groups, |lgroups|) then
        var closed := Arrangements(right[1..], rgroups);
        var started :=
          if (|left| == 0 || left[|left| - 1] != '#') && |rgroups| > 0
             && RoomForGroup(right, rgroups[0], |right| == rgroups[0])
          then Arrangements(Drop(right, rgroups[0] + 1), rgroups[1..])
          else 0;
        closed + started
      else
        assert |lgroups| > 0;
        assert |left| > 0;
        if |lgroups| <= |groups| && lgroups[..|lgroups| - 1] == groups[..|lgroups| - 1] && left[|left| - 1] == '#' then
          var needed := groups[|lgroups| - 1] as int - lgroups[|lgroups| - 1] as int;
          var end := |right| == needed;
          if RoomForGroup(s[index..], needed, end) then Arrangements(Drop(s, index + needed + 1), rgroups)
          else 0
        else 0
  }

  /** With no unknowns the count is 1 for a valid row and 0 otherwise. */
  lemma NoUnknowns(s: Row, groups: seq<nat>)
    requires '?' !in s
    ensures Arrangements(s, groups) == if Springs.Groups(s) == groups then 1 else 0
    ensures Arrangements(s, groups) == 1 <==> Springs.IsValid(s, groups).Success? && Springs.IsValid(s, groups).value
  {
  }

  /** A row shorter than the groups and the gaps between them has no arrangement. */
  lemma TooShort(s: Row, groups: seq<nat>)
    requires |s| < Springs.Sum(groups) + |groups| - 1
    ensures Arrangements(s, groups) == 0
  {
    if Find(s, '?') == -1 {
      Springs.GroupsFacts(s);
    }
  }

  lemma Example()
    ensures Arrangements("?.#", [1]) == 1
    ensures Arrangements("?#", [1]) == 1
  {
    assert Find("?.#", '?') == 0;
    assert Springs.Groups("") == [];
    assert Springs.Groups(".#") == [1];
    assert Springs.Groups("#") == [1];
    assert Springs.Groups("#.#") == [1, 1];
    assert Find(".#", '?') == -1;
    assert Find("#", '?') == -1;
    assert Drop("?.#", 2) == "#";
    assert Find("?#", '?') == 0;
    assert Drop("?#", 2) == "";
    assert Springs.Groups("") == [];
  }
}

=== FILE: stones.dfy ===
/** 2024 day 11: the engraved stones that change on every blink, counted one
    stone at a time and rewritten in place. */
module Stones {
  import PyOps
  import Decimal

  /** A stone whose decimal form has an even number of digits splits. */
  predicate Splits(stone: nat)
  {
    PyOps.NumDigits(stone) % 2 == 0
  }

  /** `int(str_stone[:half]), int(str_stone[half:])`. */
  function Halves(stone: nat): (nat, nat)
    requires Splits(stone)
  {
    var ds := Decimal.Digits(stone);
    var half := |ds| / 2;
    (Decimal.ValueOf(ds[..half]), Decimal.ValueOf(ds[half..]))
  }

  /** The halves are the quotient and remainder by ten to the half length. */
  lemma HalvesArithmetic(stone: nat)
    requires Splits(stone)
    ensures var p := PyOps.Pow10(PyOps.NumDigits(stone) / 2);
      Halves(stone) == (stone / p, stone % p)
  {
    var ds := Decimal.Digits(stone);
    Decimal.SplitDigits(ds, |ds| / 2);
    Decimal.ValueOfDigits(stone);
    assert |ds| - |ds| / 2 == |ds| / 2;
  }

  /** The stones one stone becomes after one blink. */
  function BlinkOne(stone: nat): (r: seq<nat>)
    ensures 1 <= |r| <= 2
  {
    if stone == 0 then [1]
    else if Splits(stone) then [Halves(stone).0, Halves(stone).1]
    else [stone * 2024]
  }

  /** `blink_stone(stone, count)`: how many stones one stone becomes. */
  function BlinkStone(stone: nat, count: nat): (r: nat)
    ensures r >= 1
    ensures count == 0 ==> r == 1
    decreases count
  {
    if count == 0 then 1
    else if stone == 0 then BlinkStone(1, count - 1)
    else if Splits(stone) then BlinkStone(Halves(stone).0, count - 1) + BlinkStone(Halves(stone).1, count - 1)
    else BlinkStone(stone * 2024, count - 1)
  }

  /** `blink_fast`: the counts summed over a row of stones. */
  function BlinkFast(stones: seq<nat>, count: nat): (r: nat)
    ensures r >= |stones|
  {
    if |stones| == 0 then 0
    else BlinkFast(stones[..|stones| - 1], count) + BlinkStone(stones[|stones| - 1], count)
  }

  /** The row after one blink, each stone replaced by what it becomes. */
  function BlinkAll(stones: seq<nat>): seq<nat>
  {
    if |stones| == 0 then []
    else BlinkAll(stones[..|stones| - 1]) + BlinkOne(stones[|stones| - 1])
  }

  /** `blink`: the in-place rewrite, stepping past both halves of a split stone. */
  method Blink(stones: seq<nat>) returns (r: seq<nat>)
    ensures r == BlinkAll(stones)
  {
    r := stones;
    var i := 0;
    ghost var k := 0;
    while i < |r|
      invariant 0 <= k <= |stones|
      invariant r == BlinkAll(stones[..k]) + stones[k..]
      invariant i == |BlinkAll(stones[..k])|
      decreases |stones| - k
    {
      var stone := r[i];
      ghost var i0, piece := i, BlinkOne(stones[k]);
      BlinkAllStep(stones, k);
      Splice(BlinkAll(stones[..k]), stones[k], stones[k + 1..], piece);
      assert stone == stones[k];
      if stone == 0 {
        r := r[i := 1];
        i := i + 1;
      } else if Splits(stone) {
        var (left, right) := Halves(stone);
        r := r[..i] + [left, right] + r[i + 1..];
        i := i + 2;
      } else {
        r := r[i := stone * 2024];
        i := i + 1;
      }
      k := k + 1;
    }
    assert stones[..k] == stones;
  }

  /** Replacing the element after `front` by `piece`. */
  lemma Splice(front: seq<nat>, x: nat, rest: seq<nat>, piece: seq<nat>)
    ensures var s := front + [x] + rest;
      s[..|front|] + piece + s[|front| + 1..] == front + piece + rest
      && (|piece| == 1 ==> s[|front| := piece[0]] == front + piece + rest)
  {
    var s := front + [x] + rest;
    assert s[..|front|] == front;
    assert s[|front| + 1..] == rest;
  }

  lemma BlinkAllStep(stones: seq<nat>, k: nat)
    requires k < |stones|
    ensures BlinkAll(stones[..k + 1]) == BlinkAll(stones[..k]) + BlinkOne(stones[k])
    ensures BlinkAll(stones[..k]) + stones[k..] == BlinkAll(stones[..k]) + [stones[k]] + stones[k + 1..]
  {
    assert stones[..k + 1][..k] == stones[..k];
    assert stones[k..] == [stones[k]] + stones[k + 1..];
  }

  /** Zero stones turn into ones, and an unblinked stone counts once. */
  lemma ZeroBecomesOne(count: nat)
    ensures BlinkStone(0, count + 1) == BlinkStone(1, count)
    ensures BlinkStone(0, 0) == 1
  {
  }

  /** One more blink is a blink of what the stone becomes. */
  lemma BlinkStoneUnfolds(stone: nat, count: nat)
    ensures BlinkStone(stone, count + 1) == BlinkFast(BlinkOne(stone), count)
  {
    var r := BlinkOne(stone);
    assert BlinkFast([r[0]], count) == BlinkStone(r[0], count) by {
      assert [r[0]][..0] == [];
    }
    if |r| == 2 {
      assert r[..1] == [r[0]];
    } else {
      assert r == [r[0]];
    }
  }

  lemma {:induction false} BlinkFastAppend(a: seq<nat>, b: seq<nat>, count: nat)
    ensures BlinkFast(a + b, count) == BlinkFast(a, count) + BlinkFast(b, count)
  {
    if |b| > 0 {
      assert (a + b)[..|a + b| - 1] == a + b[..|b| - 1];
      BlinkFastAppend(a, b[..|b| - 1], count);
    } else {
      assert a + b == a;
    }
  }

  /** Counting `count` blinks of the blinked row is counting `count + 1` blinks
      of the original; in particular the in-place blink yields as many stones
      as `blink_fast(stones, 1)` predicts. */
  lemma {:induction false} BlinkAllAgrees(stones: seq<nat>, count: nat)
    ensures BlinkFast(BlinkAll(stones), count) == BlinkFast(stones, count + 1)
    ensures |BlinkAll(stones)| == BlinkFast(stones, 1)
  {
    if |stones| > 0 {
      var init, last := stones[..|stones| - 1], stones[|stones| - 1];
      BlinkAllAgrees(init, count);
      BlinkFastAppend(BlinkAll(init), BlinkOne(last), count);
      BlinkFastAppend(BlinkAll(init), BlinkOne(last), 0);
      BlinkStoneUnfolds(last, count);
      BlinkStoneUnfolds(last, 0);
      OneBlinkCount(BlinkOne(last));
      OneBlinkCount(BlinkAll(init));
    }
  }

  /** Counting no blinks counts the stones. */
  lemma {:induction false} OneBlinkCount(stones: seq<nat>)
    ensures BlinkFast(stones, 0) == |stones|
  {
    if |stones| > 0 {
      OneBlinkCount(stones[..|stones| - 1]);
    }
  }

  /** The puzzle's first example row after one blink. */
  lemma ExampleBlink()
    ensures BlinkAll([0, 1, 10, 99, 999]) == [1, 2024, 1, 0, 9, 9, 2021976]
  {
    ExampleFront();
    GrowNineNineNine();
    BlinkAllSnoc([0, 1, 10, 99], 999);
    assert [0, 1, 10, 99] + [999] == [0, 1, 10, 99, 999];
  }

  lemma ExampleFront()
    ensures BlinkAll([0, 1, 10, 99]) == [1, 2024, 1, 0, 9, 9]
  {
    ExampleStart();
    SplitTen();
    SplitNinetyNine();
    BlinkAllSnoc([0, 1], 10);
    BlinkAllSnoc([0, 1, 10], 99);
    assert [0, 1] + [10] == [0, 1, 10];
    assert [0, 1, 10] + [99] == [0, 1, 10, 99];
  }

  lemma ExampleStart()
    ensures BlinkAll([0, 1]) == [1, 2024]
  {
    assert BlinkOne(0) == [1];
    assert BlinkOne(1) == [2024];
    BlinkAllSnoc([], 0);
    BlinkAllSnoc([0], 1);
    assert [] + [0] == [0];
    assert [0] + [1] == [0, 1];
  }

  lemma BlinkAllSnoc(front: seq<nat>, x: nat)
    ensures BlinkAll(front + [x]) == BlinkAll(front) + BlinkOne(x)
  {
    assert (front + [x])[..|front|] == front;
  }

  lemma SplitTen()
    ensures BlinkOne(10) == [1, 0]
  {
    assert PyOps.NumDigits(10) == 2;
    HalvesArithmetic(10);
  }

  lemma SplitNinetyNine()
    ensures BlinkOne(99) == [9, 9]
  {
    assert PyOps.NumDigits(99) == 2;
    HalvesArithmetic(99);
  }

  lemma GrowNineNineNine()
    ensures BlinkOne(999) == [2021976]
  {
    assert PyOps.NumDigits(999) == 3;
  }
}

=== FILE: three_bit_decompiled.dfy ===
/** 2024/Day17/decompiled.py: the puzzle program
    2,4,1,1,7,5,4,6,1,4,0,3,5,5,3,0 rewritten by hand as arithmetic on A.
    One loop of the program outputs `one_iter(A)` and shifts A right by three
    bits, so A can be rebuilt from the desired output three bits at a time,
    starting from the last output. */
module ThreeBitDecompiled {
  import opened Wrappers
  import PyOps
  import M = ThreeBitMachine

  /** The puzzle program the decompilation is of. */
  const Program: seq<nat> := [2, 4, 1, 1, 7, 5, 4, 6, 1, 4, 0, 3, 5, 5, 3, 0]

  /** `one_iter(A)`: the value one loop of the program outputs. */
  function OneIter(a: nat): (r: nat)
    ensures r < 8
  {
    var b := PyOps.Xor(a % 8, 1);
    PyOps.Xor(PyOps.Xor(b, PyOps.Shr(a, b)), 4) % 8
  }

  /** Candidate `i` of the search produces `num`. */
  predicate Hits(base: nat, num: nat, i: nat)
  {
    OneIter(base + i) == num
  }

  /** The `for i in range(9)` search: the first `i` in `[from, 9)` with
      `one_iter(base + i) == num`, if any. */
  function FirstMatch(base: nat, num: nat, from: nat): (r: Option<nat>)
    requires from <= 9
    ensures r.Some? ==> from <= r.value < 9 && Hits(base, num, r.value)
    ensures r.Some? ==> forall j :: from <= j < r.value ==> !Hits(base, num, j)
    ensures r.None? ==> forall j :: from <= j < 9 ==> !Hits(base, num, j)
    decreases 9 - from
  {
    if from == 9 then None
    else if Hits(base, num, from) then Some(from)
    else FirstMatch(base, num, from + 1)
  }

  /** One pass of the reconstruction loop: `A << 3`, then add the first
      matching `i`, or nothing when no `i` matches. */
  function Extend(a: nat, num: nat): (r: nat)
    ensures 8 * a <= r <= 8 * a + 8
    ensures FirstMatch(8 * a, num, 0).Some? ==> OneIter(r) == num
    ensures FirstMatch(8 * a, num, 0).None? ==> r == 8 * a
  {
    match FirstMatch(8 * a, num, 0)
    case Some(i) => 8 * a + i
    case None => 8 * a
  }

  /** The reconstruction loop over `result[::-1]`: the last number is
      placed first, in the highest three bits. */
  function Reconstruct(result: seq<nat>): (a: nat)
  {
    if result == [] then 0 else Extend(Reconstruct(result[1..]), result[0])
  }

  /** The output loop: `while A != 0`, output `one_iter(A)` and shift A right by 3. */
  function Emit(a: nat): (out: seq<nat>)
    ensures forall k :: 0 <= k < |out| ==> out[k] < 8
    ensures a == 0 <==> out == []
    decreases a
  {
    if a == 0 then [] else [OneIter(a)] + Emit(PyOps.Shr(a, 3))
  }

  lemma Pow2Three()
    ensures PyOps.Pow2(3) == 8
  {
    assert PyOps.Pow2(1) == 2;
    assert PyOps.Pow2(2) == 4;
  }

  /** `A >> 3 == A // 8`. */
  lemma ShrThree(a: nat)
    ensures PyOps.Shr(a, 3) == a / 8
  {
    Pow2Three();
    PyOps.ShrIsDivPow2(a, 3);
  }

  /** For A > 0 the output loop emits one number per base-8 digit of A. */
  lemma {:induction false} EmitLength(a: nat)
    ensures a < PyOps.Pow2(3 * |Emit(a)|)
    ensures a > 0 ==> PyOps.Pow2(3 * (|Emit(a)| - 1)) <= a
    decreases a
  {
    if a > 0 {
      Pow2Three();
      ShrThree(a);
      var k := |Emit(a / 8)|;
      EmitLength(a / 8);
      PyOps.Pow2Add(3, 3 * k);
      if a / 8 > 0 {
        PyOps.Pow2Add(3, 3 * (k - 1));
      }
    }
  }

  /** Every step of the reconstruction found its number at a digit below 8,
      and the first step (the last number) chose a non-zero digit. */
  predicate Sound(result: seq<nat>)
  {
    forall k :: 0 <= k < |result| ==>
      var base := 8 * Reconstruct(result[k + 1..]);
      var i := FirstMatch(base, result[k], 0);
      i.Some? && i.value < 8 && (k == |result| - 1 ==> i.value > 0)
  }

  /** The reconstruction inverts the output loop: when every step found its
      number at a digit below 8 (so no carry spills into the digits above)
      and the top digit is not 0, running the output loop on the
      reconstructed A gives back exactly the numbers it was built from. */
  lemma {:induction false} EmitReconstruct(result: seq<nat>)
    requires Sound(result)
    ensures Emit(Reconstruct(result)) == result
    decreases |result|
  {
    if result != [] {
      var a := Reconstruct(result);
      SoundHead(result);
      SoundTail(result);
      ShrThree(a);
      EmitReconstruct(result[1..]);
    }
  }

  /** The first step of a sound reconstruction: A is positive, outputs the
      first number, and shifts back to the A rebuilt from the rest. */
  lemma SoundHead(result: seq<nat>)
    requires Sound(result) && result != []
    ensures var a := Reconstruct(result);
      a > 0 && OneIter(a) == result[0] && a / 8 == Reconstruct(result[1..])
  {
    var i := FirstMatch(8 * Reconstruct(result[1..]), result[0], 0);
    assert i.Some? && i.value < 8;
    assert result[0..] == result;
    SoundSuffixPositive(result, 0);
  }

  /** `Sound` holds of every tail of a sound list. */
  lemma SoundTail(result: seq<nat>)
    requires Sound(result) && result != []
    ensures Sound(result[1..])
  {
    var rest := result[1..];
    forall k | 0 <= k < |rest|
      ensures var base := 8 * Reconstruct(rest[k + 1..]);
        var j := FirstMatch(base, rest[k], 0);
        j.Some? && j.value < 8 && (k == |rest| - 1 ==> j.value > 0)
    {
      assert rest[k + 1..] == result[k + 2..];
      assert rest[k] == result[k + 1];
    }
  }

  /** Under `Sound`, every non-empty suffix reconstructs to a positive A. */
  lemma {:induction false} SoundSuffixPositive(result: seq<nat>, k: nat)
    requires Sound(result) && k < |result|
    ensures Reconstruct(result[k..]) > 0
    decreases |result| - k
  {
    var s := result[k..];
    var i := FirstMatch(8 * Reconstruct(result[k + 1..]), result[k], 0).value;
    assert s[1..] == result[k + 1..];
    assert Reconstruct(s) == 8 * Reconstruct(result[k + 1..]) + i;
    if k == |result| - 1 {
      assert i > 0;
    } else {
      SoundSuffixPositive(result, k + 1);
    }
  }

  /** The program's own loop is a do-while: it outputs once before testing A. */
  function MachineOutput(a: nat): (out: seq<nat>)
    ensures |out| >= 1
    decreases a
  {
    [OneIter(a)] + (if a / 8 == 0 then [] else MachineOutput(a / 8))
  }

  /** The number of loops the program runs from A. */
  function Loops(a: nat): (n: nat)
    ensures n >= 1
    decreases a
  {
    1 + (if a / 8 == 0 then 0 else Loops(a / 8))
  }

  /** For A > 0 the do-while and the output loop agree; for A = 0 the
      program still outputs once, where the output loop outputs nothing. */
  lemma {:induction false} MachineOutputIsEmit(a: nat)
    ensures a > 0 ==> MachineOutput(a) == Emit(a)
    ensures MachineOutput(0) == [OneIter(0)] && Emit(0) == []
    decreases a
  {
    ShrThree(a);
    if a > 0 && a / 8 > 0 {
      MachineOutputIsEmit(a / 8);
    }
  }

  /** The machine state at `pc` with the given registers, running the puzzle program. */
  function At(a: nat, b: nat, c: nat, output: seq<nat>, pc: nat, start: M.Machine): M.Machine
  {
    M.Machine(a, b, c, Program, output, pc, start.startA, start.startB, start.startC)
  }

  /** What one loop of the puzzle program does: output `one_iter(A)`,
      divide A by 8, and jump back to the start unless A became 0. */
  predicate LoopEffect(m: M.Machine, r: Option<M.Machine>)
  {
    && r.Some?
    && r.value.program == m.program
    && r.value.a == m.a / 8
    && r.value.output == m.output + [OneIter(m.a)]
    && r.value.pc == (if m.a / 8 == 0 then 16 else 0)
  }

  /** Every run of the first `n` steps of `f` on a program `p` from its
      start is one such loop. */
  ghost predicate LoopWorks(f: M.Machine -> Result<M.Machine, M.Crash>, p: seq<nat>, n: nat)
  {
    forall m: M.Machine {:trigger M.Iterate(f, m, n)} :: m.program == p && m.pc == 0 ==> LoopEffect(m, M.Iterate(f, m, n))
  }

  /** One loop of the puzzle program on the machine: its eight instructions. */
  lemma OneLoop(m: M.Machine)
    requires m.program == Program && m.pc == 0
    ensures LoopEffect(m, M.Steps(m, 8))
  {
    var b1 := PyOps.Xor(m.a % 8, 1);
    var c1 := M.DivPow(m.a, b1);
    var m4 := At(m.a, PyOps.Xor(b1, c1), c1, m.output, 8, m);
    FirstHalf(m);
    SecondHalf(m4, b1, c1);
    M.IterateAdd(M.Step, m, 4, 4);
  }

  /** `bst 4; bxl 1; cdv 5; bxc`. */
  lemma FirstHalf(m: M.Machine)
    requires m.program == Program && m.pc == 0
    ensures var b1 := PyOps.Xor(m.a % 8, 1);
      var c1 := M.DivPow(m.a, b1);
      M.Steps(m, 4) == Some(At(m.a, PyOps.Xor(b1, c1), c1, m.output, 8, m))
  {
    var a := m.a;
    var b1 := PyOps.Xor(a % 8, 1);
    var c1 := M.DivPow(a, b1);
    var m1 := At(a, a % 8, m.c, m.output, 2, m);
    var m2 := At(a, b1, m.c, m.output, 4, m);
    var m3 := At(a, b1, c1, m.output, 6, m);
    assert M.Step(m) == Success(m1);
    assert M.Step(m1) == Success(m2);
    assert M.Step(m2) == Success(m3);
  }

  /** `bxl 4; adv 3; out 5; jnz 0`. */
  lemma SecondHalf(m: M.Machine, b1: nat, c1: nat)
    requires m.program == Program && m.pc == 8
    requires b1 == PyOps.Xor(m.a % 8, 1) && c1 == M.DivPow(m.a, b1) && m.b == PyOps.Xor(b1, c1) && m.c == c1
    ensures M.Steps(m, 4)
      == Some(At(m.a / 8, PyOps.Xor(m.b, 4), c1, m.output + [OneIter(m.a)], if m.a / 8 == 0 then 16 else 0, m))
  {
    ShrThree(m.a);
    var a := m.a;
    var b3 := PyOps.Xor(m.b, 4);
    var m5 := At(a, b3, c1, m.output, 10, m);
    var m6 := At(a / 8, b3, c1, m.output, 12, m);
    var m7 := At(a / 8, b3, c1, m.output + [OneIter(a)], 14, m);
    assert M.Step(m) == Success(m5);
    assert M.Step(m5) == Success(m6);
    assert M.Step(m6) == Success(m7);
  }

  /** The puzzle program's first eight instructions are one loop. */
  lemma PuzzleLoopWorks()
    ensures LoopWorks(M.Step, Program, 8)
  {
    forall m: M.Machine | m.program == Program && m.pc == 0
      ensures LoopEffect(m, M.Iterate(M.Step, m, 8))
    {
      OneLoop(m);
    }
  }

  /** `n` steps for each of the `Loops(A)` loops. */
  function LoopSteps(n: nat, a: nat): nat
    decreases a
  {
    n + (if a / 8 == 0 then 0 else LoopSteps(n, a / 8))
  }

  lemma {:induction false} LoopStepsCount(a: nat)
    ensures LoopSteps(8, a) == 8 * Loops(a)
    decreases a
  {
    if a / 8 != 0 {
      LoopStepsCount(a / 8);
    }
  }

  /** The do-while output appended, loop by loop, to an output already there. */
  function OutputAfter(a: nat, output: seq<nat>): seq<nat>
    decreases a
  {
    var out := output + [OneIter(a)];
    if a / 8 == 0 then out else OutputAfter(a / 8, out)
  }

  lemma {:induction false} OutputAfterAppends(a: nat, output: seq<nat>)
    ensures OutputAfter(a, output) == output + MachineOutput(a)
    decreases a
  {
    if a / 8 != 0 {
      OutputAfterAppends(a / 8, output + [OneIter(a)]);
    }
  }

  /** `Loops(A)` loops of a 16-number program made of one `n`-step loop
      leave it at its end, having output the do-while output. */
  lemma {:induction false} AllLoops(f: M.Machine -> Result<M.Machine, M.Crash>, m: M.Machine, n: nat)
    requires LoopWorks(f, m.program, n) && |m.program| == 16 && m.pc == 0
    ensures var r := M.Iterate(f, m, LoopSteps(n, m.a));
      r.Some? && r.value.pc == 16 && r.value.output == OutputAfter(m.a, m.output)
    decreases m.a
  {
    assert LoopEffect(m, M.Iterate(f, m, n));
    var next := M.Iterate(f, m, n).value;
    if m.a / 8 != 0 {
      AllLoops(f, next, n);
      M.IterateAdd(f, m, n, LoopSteps(n, m.a / 8));
    }
  }

  /** The decompilation is faithful: the machine running the puzzle program
      from A, whatever B and C hold, returns after `Loops(A)` loops having
      output exactly the do-while output. */
  lemma MachineMatchesDecompiled(m: M.Machine)
    requires m.program == Program && m.pc == 0
    ensures var r := M.Run(m, false, 8 * Loops(m.a));
      r.Done? && r.m.output == m.output + MachineOutput(m.a)
  {
    PuzzleLoopWorks();
    AllLoops(M.Step, m, 8);
    LoopStepsCount(m.a);
    OutputAfterAppends(m.a, m.output);
    M.RunFinishes(m, 8 * Loops(m.a));
  }

  /** For A > 0 the machine's output is exactly the output loop's. */
  lemma MachineMatchesEmit(m: M.Machine)
    requires m.program == Program && m.pc == 0 && m.a > 0
    ensures var r := M.Run(m, false, 8 * Loops(m.a));
      r.Done? && r.m.output == m.output + Emit(m.a)
  {
    MachineMatchesDecompiled(m);
    MachineOutputIsEmit(m.a);
  }

  /** The reconstruction step finds its number whenever one of the nine
      candidates matches, and then `one_iter` of the new A is that number. */
  lemma ExtendFindsMatch(a: nat, num: nat, i: nat)
    requires i < 9 && Hits(8 * a, num, i)
    ensures OneIter(Extend(a, num)) == num
    ensures Extend(a, num) <= 8 * a + i
  {
  }
}

=== FILE: three_bit_machine.dfy ===
/** The three-bit computer of 2024/Day17/main.py: registers A, B and C, a
    program of numbers read two at a time as (operator, operand), and an
    output list. Eight instructions, selected through the `opcodes` table.

    The registers and program values are natural numbers, as they are for every
    puzzle input. Errors that Python would raise are made explicit as `Crash`;
    `run` may loop forever (a `jnz` back to the start with A never reaching 0),
    so it is given a step budget. */
module ThreeBitMachine {
  import opened Wrappers
  import PyOps

  /** The eight instructions, in the order of their opcodes 0..7. */
  datatype Instruction = Adv | Bxl | Bst | Jnz | Bxc | Out | Bdv | Cdv

  /** The `opcodes` table; any other operator raises `KeyError`. */
  function Decode(operator: nat): (r: Option<Instruction>)
    ensures r.Some? <==> operator < 8
    ensures r == Some(Adv) <==> operator == 0
    ensures r == Some(Jnz) <==> operator == 3
    ensures r == Some(Out) <==> operator == 5
  {
    if operator == 0 then Some(Adv)
    else if operator == 1 then Some(Bxl)
    else if operator == 2 then Some(Bst)
    else if operator == 3 then Some(Jnz)
    else if operator == 4 then Some(Bxc)
    else if operator == 5 then Some(Out)
    else if operator == 6 then Some(Bdv)
    else if operator == 7 then Some(Cdv)
    else None
  }

  /** A machine, including the start registers that `reset` restores. */
  datatype Machine = Machine(
    a: nat, b: nat, c: nat,
    program: seq<nat>,
    output: seq<nat>,
    pc: nat,
    startA: nat, startB: nat, startC: nat)

  /** The errors Python would raise inside `run`. */
  datatype Crash =
    | Unpack(pc: nat)              // only one number left at `pc`
    | UnknownOperator(operator: nat)  // `opcodes[operator]` raises KeyError
    | BadComboOperand(operand: nat)   // `combo` returns None, and `2 ** None` or `None % 8` raises
    | NoOutput                        // quine mode reads `output[-1]` of an empty output
    | OutputPastProgram(count: nat)   // quine mode indexes the program past its end

  /** `Machine(A, B, C, program)`. */
  function Init(a: nat, b: nat, c: nat, program: seq<nat>): (m: Machine)
    ensures m.a == m.startA == a && m.b == m.startB == b && m.c == m.startC == c
    ensures m.program == program && m.output == [] && m.pc == 0
  {
    Machine(a, b, c, program, [], 0, a, b, c)
  }

  /** `reset()`: start registers back, output emptied, `pc` to 0. */
  function Reset(m: Machine): (r: Machine)
    ensures r.a == m.startA && r.b == m.startB && r.c == m.startC
    ensures r.output == [] && r.pc == 0
    ensures r.program == m.program
    ensures r.startA == m.startA && r.startB == m.startB && r.startC == m.startC
  {
    m.(a := m.startA, b := m.startB, c := m.startC, output := [], pc := 0)
  }

  /** `reset` is idempotent, and a fresh machine is already reset, whatever ran since. */
  lemma ResetRestoresInit(a: nat, b: nat, c: nat, program: seq<nat>, m: Machine)
    requires m.program == program && m.startA == a && m.startB == b && m.startC == c
    ensures Reset(m) == Init(a, b, c, program)
    ensures Reset(Reset(m)) == Reset(m)
  {
  }

  /** `combo(machine, operand)`: literal for 0..3, a register for 4..6, 0 for the
      reserved operand 7 (after printing a complaint), and None above 7. */
  function Combo(m: Machine, operand: nat): (r: Option<nat>)
    ensures r.Some? <==> operand <= 7
    ensures operand <= 3 ==> r == Some(operand)
    ensures operand == 4 ==> r == Some(m.a)
    ensures operand == 5 ==> r == Some(m.b)
    ensures operand == 6 ==> r == Some(m.c)
    ensures operand == 7 ==> r == Some(0)
  {
    if operand <= 3 then Some(operand)
    else if operand == 4 then Some(m.a)
    else if operand == 5 then Some(m.b)
    else if operand == 6 then Some(m.c)
    else if operand == 7 then Some(0)
    else None
  }

  /** `A // 2 ** k`, the division of `adv`, `bdv` and `cdv`, computed as `k`
      halvings; `DivPowIsFloorDiv` shows the two agree. */
  function DivPow(x: nat, k: nat): nat
  {
    PyOps.Shr(x, k)
  }

  lemma DivPowIsFloorDiv(x: nat, k: nat)
    ensures DivPow(x, k) == x / PyOps.Pow2(k)
  {
    PyOps.ShrIsDivPow2(x, k);
  }

  /** One instruction as the function in the `opcodes` table executes it. */
  function Execute(m: Machine, ins: Instruction, operand: nat): (r: Result<Machine, Crash>)
    ensures r.Success? ==> r.value.program == m.program
  {
    match ins
    case Adv =>
      (match Combo(m, operand)
       case None => Failure(BadComboOperand(operand))
       case Some(k) => Success(m.(a := DivPow(m.a, k), pc := m.pc + 2)))
    case Bxl => Success(m.(b := PyOps.Xor(m.b, operand), pc := m.pc + 2))
    case Bst =>
      (match Combo(m, operand)
       case None => Failure(BadComboOperand(operand))
       case Some(v) => Success(m.(b := v % 8, pc := m.pc + 2)))
    case Jnz => if m.a == 0 then Success(m.(pc := m.pc + 2)) else Success(m.(pc := operand))
    case Bxc => Success(m.(b := PyOps.Xor(m.b, m.c), pc := m.pc + 2))
    case Out =>
      (match Combo(m, operand)
       case None => Failure(BadComboOperand(operand))
       case Some(v) => Success(m.(output := m.output + [v % 8], pc := m.pc + 2)))
    case Bdv =>
      (match Combo(m, operand)
       case None => Failure(BadComboOperand(operand))
       case Some(k) => Success(m.(b := DivPow(m.a, k), pc := m.pc + 2)))
    case Cdv =>
      (match Combo(m, operand)
       case None => Failure(BadComboOperand(operand))
       case Some(k) => Success(m.(c := DivPow(m.a, k), pc := m.pc + 2)))
  }

  /** What each instruction may change: only the combo instructions can fail,
      and only on an operand above 7; `jnz` alone sets `pc` other than by 2;
      `out` alone writes output, one value below 8; each other instruction
      writes the one register its name says, and `bst` leaves B below 8. */
  lemma ExecuteFrame(m: Machine, ins: Instruction, operand: nat)
    ensures var r := Execute(m, ins, operand);
      && (r.Failure? <==> ins in {Adv, Bst, Out, Bdv, Cdv} && operand > 7)
      && (r.Failure? ==> r.error == BadComboOperand(operand))
      && (r.Success? ==> var n := r.value;
        && n.startA == m.startA && n.startB == m.startB && n.startC == m.startC
        && (ins != Jnz ==> n.pc == m.pc + 2)
        && (ins != Out ==> n.output == m.output)
        && (ins in {Adv, Bxl, Bst, Jnz, Bxc, Out, Bdv} ==> n.c == m.c)
        && (ins in {Adv, Jnz, Out, Cdv} ==> n.b == m.b)
        && (ins != Adv ==> n.a == m.a)
        && (ins == Bst ==> n.b < 8)
        && (ins == Out ==> |n.output| == |m.output| + 1 && n.output[..|m.output|] == m.output && n.output[|m.output|] < 8))
  {
  }

  /** The three divisions differ only in the register they write. */
  lemma DivisionsAgree(m: Machine, operand: nat)
    requires operand <= 7
    ensures var k := Combo(m, operand).value;
      && Execute(m, Adv, operand) == Success(m.(a := DivPow(m.a, k), pc := m.pc + 2))
      && Execute(m, Bdv, operand) == Success(m.(b := DivPow(m.a, k), pc := m.pc + 2))
      && Execute(m, Cdv, operand) == Success(m.(c := DivPow(m.a, k), pc := m.pc + 2))
  {
  }

  /** `jnz` is the only instruction that can set `pc` to anything but `pc + 2`,
      and it never touches a register or the output. */
  lemma JumpSemantics(m: Machine, operand: nat)
    ensures Execute(m, Jnz, operand).Success?
    ensures var n := Execute(m, Jnz, operand).value;
      && n.a == m.a && n.b == m.b && n.c == m.c && n.output == m.output
      && n.pc == (if m.a == 0 then m.pc + 2 else operand)
  {
  }

  /** The xor instructions: `bxl` with the literal operand, `bxc` with C (its operand ignored). */
  lemma XorSemantics(m: Machine, operand: nat)
    ensures Execute(m, Bxl, operand) == Success(m.(b := PyOps.Xor(m.b, operand), pc := m.pc + 2))
    ensures Execute(m, Bxc, operand) == Success(m.(b := PyOps.Xor(m.b, m.c), pc := m.pc + 2))
  {
  }

  /** One pass of the `while` body: unpack the two numbers at `pc`, look the
      operator up, execute it. The slice `program[pc:pc+2]` holds fewer
      than two numbers when `pc` is at or past the last one, and the unpacking raises. */
  function Step(m: Machine): (r: Result<Machine, Crash>)
    ensures m.pc + 1 >= |m.program| ==> r == Failure(Unpack(m.pc))
    ensures m.pc + 1 < |m.program| && m.program[m.pc] > 7 ==> r == Failure(UnknownOperator(m.program[m.pc]))
    ensures r.Success? ==> r.value.program == m.program
  {
    if m.pc + 1 >= |m.program| then Failure(Unpack(m.pc))
    else
      match Decode(m.program[m.pc])
      case None => Failure(UnknownOperator(m.program[m.pc]))
      case Some(ins) => Execute(m, ins, m.program[m.pc + 1])
  }

  /** How `run` ended. `Done` is the loop exit: the plain run returns the
      output, quine mode returns `output == program`. `Mismatch` is quine
      mode's early `return False`. */
  datatype Stop =
    | Done(m: Machine)
    | Mismatch(m: Machine)
    | Crashed(m: Machine, crash: Crash)
    | OutOfFuel(m: Machine)

  /** The `while` loop of `run(quine)` around a loop body `step`, for at most
      `fuel` passes. The loop runs while `pc <= len(program) - 1`. In quine
      mode, after an `out` (operator 5, read before the body runs), the last
      output is compared with the program at the same index: `output[-1]`
      raises on an empty output, and the program index raises past its end. */
  function RunWith(step: Machine -> Result<Machine, Crash>, m: Machine, quine: bool, fuel: nat): (r: Stop)
    ensures r.Done? ==> r.m.pc >= |r.m.program|
    ensures r.Mismatch? ==> quine && |r.m.output| >= 1
    decreases fuel
  {
    if m.pc >= |m.program| then Done(m)
    else if fuel == 0 then OutOfFuel(m)
    else
      match step(m)
      case Failure(e) => Crashed(m, e)
      case Success(n) =>
        if quine && m.program[m.pc] == 5 then
          var k := |n.output| - 1;
          if k < 0 then Crashed(n, NoOutput)
          else if k >= |n.program| then Crashed(n, OutputPastProgram(|n.output|))
          else if n.output[k] != n.program[k] then Mismatch(n)
          else RunWith(step, n, quine, fuel - 1)
        else RunWith(step, n, quine, fuel - 1)
  }

  /** A loop body that never changes the program. */
  ghost predicate KeepsProgram(step: Machine -> Result<Machine, Crash>)
  {
    forall m: Machine {:trigger step(m)} :: step(m).Success? ==> step(m).value.program == m.program
  }

  /** A loop body that only runs with an operator and operand at `pc`, and
      writes output only for operator 5, appending exactly one value. */
  ghost predicate AppendsOnOut(step: Machine -> Result<Machine, Crash>)
  {
    forall m: Machine {:trigger step(m)} :: step(m).Success? ==>
      && m.pc + 1 < |m.program|
      && (m.program[m.pc] == 5 ==>
            |step(m).value.output| == |m.output| + 1 && step(m).value.output[..|m.output|] == m.output)
      && (m.program[m.pc] != 5 ==> step(m).value.output == m.output)
  }

  /** The machine's loop body is such a body. */
  lemma StepDiscipline()
    ensures KeepsProgram(Step)
    ensures AppendsOnOut(Step)
  {
    forall m: Machine | Step(m).Success?
      ensures m.pc + 1 < |m.program|
      ensures m.program[m.pc] == 5 ==>
        |Step(m).value.output| == |m.output| + 1 && Step(m).value.output[..|m.output|] == m.output
      ensures m.program[m.pc] != 5 ==> Step(m).value.output == m.output
    {
      var ins := Decode(m.program[m.pc]).value;
      ExecuteFrame(m, ins, m.program[m.pc + 1]);
    }
  }

  lemma {:induction false} RunKeepsProgram(step: Machine -> Result<Machine, Crash>, m: Machine, quine: bool, fuel: nat)
    requires KeepsProgram(step)
    ensures RunWith(step, m, quine, fuel).m.program == m.program
    decreases fuel
  {
    if m.pc < |m.program| && fuel > 0 && step(m).Success? {
      RunKeepsProgram(step, step(m).value, quine, fuel - 1);
    }
  }

  /** `run(quine)`, for at most `fuel` instructions. */
  function Run(m: Machine, quine: bool, fuel: nat): (r: Stop)
    ensures r.m.program == m.program
    ensures r.Done? ==> r.m.pc >= |m.program|
    ensures r.Mismatch? ==> quine && |r.m.output| >= 1
  {
    StepDiscipline();
    RunKeepsProgram(Step, m, quine, fuel);
    RunWith(Step, m, quine, fuel)
  }

  /** Output is append-only: whatever the loop returns, it extends the output it started from. */
  lemma {:induction false} RunOutputGrows(step: Machine -> Result<Machine, Crash>, m: Machine, quine: bool, fuel: nat)
    requires AppendsOnOut(step)
    ensures var r := RunWith(step, m, quine, fuel);
      |r.m.output| >= |m.output| && r.m.output[..|m.output|] == m.output
    decreases fuel
  {
    if m.pc < |m.program| && fuel > 0 && step(m).Success? {
      var n := step(m).value;
      RunOutputGrows(step, n, quine, fuel - 1);
    }
  }

  /** `k` passes of a loop body, or None when the loop would stop or crash
      before all `k` are made. */
  function Iterate(step: Machine -> Result<Machine, Crash>, m: Machine, k: nat): Option<Machine>
    decreases k
  {
    if k == 0 then Some(m)
    else if m.pc >= |m.program| then None
    else
      match step(m)
      case Failure(_) => None
      case Success(n) => Iterate(step, n, k - 1)
  }

  /** Pass counts add up. */
  lemma {:induction false} IterateAdd(step: Machine -> Result<Machine, Crash>, m: Machine, j: nat, k: nat)
    requires Iterate(step, m, j).Some?
    ensures Iterate(step, m, j + k) == Iterate(step, Iterate(step, m, j).value, k)
    decreases j
  {
    if j > 0 {
      IterateAdd(step, step(m).value, j - 1, k);
    }
  }

  lemma {:induction false} IterateKeepsProgram(step: Machine -> Result<Machine, Crash>, m: Machine, k: nat)
    requires KeepsProgram(step) && Iterate(step, m, k).Some?
    ensures Iterate(step, m, k).value.program == m.program
    decreases k
  {
    if k > 0 {
      IterateKeepsProgram(step, step(m).value, k - 1);
    }
  }

  /** A plain loop that gets through `k` passes goes on from where they leave it. */
  lemma {:induction false} RunIterate(step: Machine -> Result<Machine, Crash>, m: Machine, fuel: nat, k: nat)
    requires k <= fuel && Iterate(step, m, k).Some?
    ensures RunWith(step, m, false, fuel) == RunWith(step, Iterate(step, m, k).value, false, fuel - k)
    decreases k
  {
    if k > 0 {
      RunIterate(step, step(m).value, fuel - 1, k - 1);
    }
  }

  /** `k` instructions of the machine. */
  function Steps(m: Machine, k: nat): (r: Option<Machine>)
  {
    Iterate(Step, m, k)
  }

  /** Running `j` and then `k` instructions is running `j + k`. */
  lemma StepsThen(m: Machine, j: nat, k: nat, n: Machine)
    requires Steps(m, j) == Some(n)
    ensures Steps(m, j + k) == Steps(n, k)
  {
    IterateAdd(Step, m, j, k);
  }

  /** A plain run whose last instruction leaves the program returns. */
  lemma RunFinishes(m: Machine, k: nat)
    requires Steps(m, k).Some? && Steps(m, k).value.pc >= |m.program|
    ensures Run(m, false, k) == Done(Steps(m, k).value)
  {
    StepDiscipline();
    RunIterate(Step, m, k, k);
    IterateKeepsProgram(Step, m, k);
  }

  /** The value `run(True)` returns, when it returns: True exactly when the
      loop ended with the output equal to the program. */
  predicate QuineAccepts(r: Stop)
  {
    r.Done? && r.m.output == r.m.program
  }

  /** In quine mode the output, when it starts as a prefix of the program,
      stays one for as long as the loop goes on: each output is compared
      with the program at the same index the moment it is produced. */
  lemma {:induction false} QuineOutputIsPrefix(step: Machine -> Result<Machine, Crash>, m: Machine, fuel: nat)
    requires KeepsProgram(step) && AppendsOnOut(step)
    requires |m.output| <= |m.program| && m.output == m.program[..|m.output|]
    ensures var r := RunWith(step, m, true, fuel);
      r.Done? || r.OutOfFuel? || (r.Crashed? && r.m == m) ==>
        |r.m.output| <= |m.program| && r.m.output == m.program[..|r.m.output|]
    decreases fuel
  {
    if m.pc < |m.program| && fuel > 0 && step(m).Success? {
      var n := step(m).value;
      var k := |n.output| - 1;
      if m.program[m.pc] != 5 || (0 <= k < |n.program| && n.output[k] == n.program[k]) {
        assert n.output == m.program[..|n.output|];
        QuineOutputIsPrefix(step, n, fuel - 1);
      }
    }
  }

  /** Quine mode is the plain loop with an early exit: whenever the plain
      loop returns, `run(True)` accepts exactly when the plain output equals
      the program, for a machine whose output so far is a prefix of the program. */
  lemma {:induction false} QuineAgreesWithPlainLoop(step: Machine -> Result<Machine, Crash>, m: Machine, fuel: nat)
    requires KeepsProgram(step) && AppendsOnOut(step)
    requires |m.output| <= |m.program| && m.output == m.program[..|m.output|]
    requires RunWith(step, m, false, fuel).Done?
    ensures QuineAccepts(RunWith(step, m, true, fuel)) <==> RunWith(step, m, false, fuel).m.output == m.program
    decreases fuel
  {
    RunKeepsProgram(step, m, false, fuel);
    if m.pc < |m.program| {
      var n := step(m).value;
      var plain := RunWith(step, n, false, fuel - 1);
      RunOutputGrows(step, n, false, fuel - 1);
      if m.program[m.pc] == 5 {
        var k := |n.output| - 1;
        if k >= |m.program| {
          assert |plain.m.output| > |m.program|;
        } else if n.output[k] != m.program[k] {
          assert plain.m.output[k] == n.output[k];
        } else {
          assert n.output == m.program[..|n.output|];
          QuineAgreesWithPlainLoop(step, n, fuel - 1);
        }
      } else {
        QuineAgreesWithPlainLoop(step, n, fuel - 1);
      }
    }
  }

  /** For the machine: `run(True)` accepts exactly when `run()` returns the program. */
  lemma QuineAgreesWithPlainRun(m: Machine, fuel: nat)
    requires |m.output| <= |m.program| && m.output == m.program[..|m.output|]
    requires Run(m, false, fuel).Done?
    ensures QuineAccepts(Run(m, true, fuel)) <==> Run(m, false, fuel).m.output == m.program
  {
    StepDiscipline();
    QuineAgreesWithPlainLoop(Step, m, fuel);
  }

  /** The example program 0,1,5,4,3,0 of the puzzle text, started from A = 729. */
  const ExampleCode: seq<nat> := [0, 1, 5, 4, 3, 0]

  function ExampleAt(a: nat, output: seq<nat>, pc: nat): Machine
  {
    Machine(a, 0, 0, ExampleCode, output, pc, 729, 0, 0)
  }

  /** One loop of the example halves A and outputs the new A modulo 8, then
      jumps back while A is not 0. */
  lemma ExampleLoop(a: nat, output: seq<nat>)
    ensures Steps(ExampleAt(a, output, 0), 3)
      == Some(ExampleAt(a / 2, output + [(a / 2) % 8], if a / 2 == 0 then 6 else 0))
  {
    var m0 := ExampleAt(a, output, 0);
    var m1 := ExampleAt(a / 2, output, 2);
    var m2 := ExampleAt(a / 2, output + [(a / 2) % 8], 4);
    assert DivPow(a, 1) == PyOps.Shr(a / 2, 0) == a / 2;
    assert Step(m0) == Success(m1);
    assert Step(m1) == Success(m2);
  }

  /** What the example program outputs from A after `output`: the successive
      halvings of A, each modulo 8, down to and including 0. */
  function Halvings(a: nat, output: seq<nat>): (r: seq<nat>)
    decreases a
  {
    var out := output + [(a / 2) % 8];
    if a / 2 == 0 then out else Halvings(a / 2, out)
  }

  /** `n` steps for each halving. */
  function HalvingSteps(n: nat, a: nat): nat
    decreases a
  {
    n + (if a / 2 == 0 then 0 else HalvingSteps(n, a / 2))
  }

  /** The example at the start of a loop. */
  function ExampleStart(a: nat, output: seq<nat>): Machine
  {
    ExampleAt(a, output, 0)
  }

  /** A loop body under which every `n` passes from the start are one such loop. */
  ghost predicate HalvesA(step: Machine -> Result<Machine, Crash>, n: nat)
  {
    forall a: nat, output: seq<nat> {:trigger ExampleStart(a, output)} ::
      Iterate(step, ExampleStart(a, output), n)
        == Some(ExampleAt(a / 2, output + [(a / 2) % 8], if a / 2 == 0 then 6 else 0))
  }

  /** Repeating the loop until A is 0 outputs the halvings and leaves the program. */
  lemma {:induction false} HalvingLoops(step: Machine -> Result<Machine, Crash>, n: nat, a: nat, output: seq<nat>)
    requires HalvesA(step, n)
    ensures Iterate(step, ExampleAt(a, output, 0), HalvingSteps(n, a)) == Some(ExampleAt(0, Halvings(a, output), 6))
    decreases a
  {
    var out := output + [(a / 2) % 8];
    assert Iterate(step, ExampleStart(a, output), n) == Some(ExampleAt(a / 2, out, if a / 2 == 0 then 6 else 0));
    if a / 2 != 0 {
      HalvingLoops(step, n, a / 2, out);
      IterateAdd(step, ExampleAt(a, output, 0), n, HalvingSteps(n, a / 2));
    }
  }

  /** From any A the example runs loop after loop to its end, having output the halvings. */
  lemma ExampleRun(a: nat, output: seq<nat>)
    ensures Steps(ExampleAt(a, output, 0), HalvingSteps(3, a)) == Some(ExampleAt(0, Halvings(a, output), 6))
  {
    forall a': nat, output': seq<nat>
      ensures Iterate(Step, ExampleStart(a', output'), 3)
        == Some(ExampleAt(a' / 2, output' + [(a' / 2) % 8], if a' / 2 == 0 then 6 else 0))
    {
      ExampleLoop(a', output');
    }
    HalvingLoops(Step, 3, a, output);
  }

  lemma HalvingsOf11()
    ensures Halvings(11, [4, 6, 3, 5, 6, 3]) == [4, 6, 3, 5, 6, 3, 5, 2, 1, 0]
    ensures HalvingSteps(3, 11) == 12
  {
    assert Halvings(2, [4, 6, 3, 5, 6, 3, 5, 2]) == [4, 6, 3, 5, 6, 3, 5, 2, 1, 0];
  }

  lemma HalvingsOf91()
    ensures Halvings(91, [4, 6, 3]) == [4, 6, 3, 5, 6, 3, 5, 2, 1, 0]
    ensures HalvingSteps(3, 91) == 21
  {
    HalvingsOf11();
    assert Halvings(45, [4, 6, 3, 5]) == Halvings(11, [4, 6, 3, 5, 6, 3]);
  }

  lemma HalvingsOf729()
    ensures Halvings(729, []) == [4, 6, 3, 5, 6, 3, 5, 2, 1, 0]
    ensures HalvingSteps(3, 729) == 30
  {
    HalvingsOf91();
  }

  /** With A = 729 the example outputs 4,6,3,5,6,3,5,2,1,0. */
  lemma ExampleProgram()
    ensures Run(Init(729, 0, 0, [0, 1, 5, 4, 3, 0]), false, 30).m.output == [4, 6, 3, 5, 6, 3, 5, 2, 1, 0]
  {
    HalvingsOf729();
    ExampleRun(729, []);
    assert Init(729, 0, 0, ExampleCode) == ExampleAt(729, [], 0);
    RunFinishes(ExampleAt(729, [], 0), 30);
  }
}

=== FILE: towels.dfy ===
/** 2024 day 19: whether a design can be laid out from the available towel
    patterns, and in how many ways. The patterns come from a set, so they
    are a sequence here, in the order the set yields them, each pattern
    listed once; the results do not depend on that order. A sequence
    listing a pattern twice, which no set yields, makes `Ways` count each
    copy. */
module Towels {
  import Sorting

  /** No pattern is empty: an empty pattern would make the recursion call
      itself on the same design forever. */
  predicate NonEmpty(sources: seq<string>)
  {
    forall k :: 0 <= k < |sources| ==> |sources[k]| > 0
  }

  /** `target.startswith(prefix)`. */
  predicate StartsWith(target: string, prefix: string)
  {
    |prefix| <= |target| && target[..|prefix|] == prefix
  }

  /** `is_possible(target)`. */
  predicate IsPossible(sources: seq<string>, target: string)
    requires NonEmpty(sources)
    decreases |target|, |sources| + 1
  {
    |target| == 0 || PossibleFrom(sources, target, 0)
  }

  /** The loop of `is_possible` over the patterns from the `k`-th on. */
  predicate PossibleFrom(sources: seq<string>, target: string, k: nat)
    requires NonEmpty(sources) && k <= |sources|
    decreases |target|, |sources| - k
  {
    if k == |sources| then false
    else if StartsWith(target, sources[k]) && IsPossible(sources, target[|sources[k]|..]) then true
    else PossibleFrom(sources, target, k + 1)
  }

  /** `ways_to_make(target)`. */
  function Ways(sources: seq<string>, target: string): nat
    requires NonEmpty(sources)
    decreases |target|, |sources| + 1
  {
    if |target| == 0 then 1 else WaysFrom(sources, target, 0)
  }

  /** The loop of `ways_to_make` over the patterns from the `k`-th on. */
  function WaysFrom(sources: seq<string>, target: string, k: nat): nat
    requires NonEmpty(sources) && k <= |sources|
    decreases |target|, |sources| - k
  {
    if k == |sources| then 0
    else
      (if StartsWith(target, sources[k]) then Ways(sources, target[|sources[k]|..]) else 0)
      + WaysFrom(sources, target, k + 1)
  }

  /** A design is possible exactly when it can be made in at least one way. */
  lemma {:induction false} PossibleIffWays(sources: seq<string>, target: string)
    requires NonEmpty(sources)
    ensures IsPossible(sources, target) <==> Ways(sources, target) > 0
    decreases |target|, |sources| + 1
  {
    if |target| > 0 {
      PossibleFromIffWays(sources, target, 0);
    }
  }

  lemma {:induction false} PossibleFromIffWays(sources: seq<string>, target: string, k: nat)
    requires NonEmpty(sources) && k <= |sources|
    ensures PossibleFrom(sources, target, k) <==> WaysFrom(sources, target, k) > 0
    decreases |target|, |sources| - k
  {
    if k < |sources| {
      if StartsWith(target, sources[k]) {
        PossibleIffWays(sources, target[|sources[k]|..]);
      }
      PossibleFromIffWays(sources, target, k + 1);
    }
  }

  /** All indices of `ks` name a pattern. */
  predicate Indices(sources: seq<string>, ks: seq<nat>)
  {
    forall i :: 0 <= i < |ks| ==> ks[i] < |sources|
  }

  /** The design laid out by the patterns with indices `ks`, in order. */
  function Spell(sources: seq<string>, ks: seq<nat>): string
    requires Indices(sources, ks)
  {
    if |ks| == 0 then [] else sources[ks[0]] + Spell(sources, ks[1..])
  }

  /** A possible design is spelled by some sequence of patterns. */
  lemma {:induction false} PossibleSpelled(sources: seq<string>, target: string) returns (ks: seq<nat>)
    requires NonEmpty(sources) && IsPossible(sources, target)
    ensures Indices(sources, ks) && Spell(sources, ks) == target
    decreases |target|
  {
    if |target| == 0 {
      ks := [];
    } else {
      var j := PossibleFromWitness(sources, target, 0);
      var p := sources[j];
      var rest := PossibleSpelled(sources, target[|p|..]);
      ks := [j] + rest;
      assert ks[1..] == rest;
      assert target == p + target[|p|..];
    }
  }

  /** The pattern the loop of `is_possible` succeeded with. */
  lemma {:induction false} PossibleFromWitness(sources: seq<string>, target: string, k: nat) returns (j: nat)
    requires NonEmpty(sources) && k <= |sources| && PossibleFrom(sources, target, k)
    ensures k <= j < |sources| && StartsWith(target, sources[j])
    ensures IsPossible(sources, target[|sources[j]|..])
    decreases |sources| - k
  {
    if StartsWith(target, sources[k]) && IsPossible(sources, target[|sources[k]|..]) {
      j := k;
    } else {
      j := PossibleFromWitness(sources, target, k + 1);
    }
  }

  /** The loop finds a pattern that works at or after `k`. */
  lemma {:induction false} PossibleFromAt(sources: seq<string>, target: string, k: nat, j: nat)
    requires NonEmpty(sources) && k <= j < |sources|
    requires StartsWith(target, sources[j]) && IsPossible(sources, target[|sources[j]|..])
    ensures PossibleFrom(sources, target, k)
    decreases j - k
  {
    if k < j && !(StartsWith(target, sources[k]) && IsPossible(sources, target[|sources[k]|..])) {
      PossibleFromAt(sources, target, k + 1, j);
    }
  }

  /** A design spelled by patterns is possible. */
  lemma {:induction false} SpelledPossible(sources: seq<string>, ks: seq<nat>)
    requires NonEmpty(sources) && Indices(sources, ks)
    ensures IsPossible(sources, Spell(sources, ks))
    decreases |ks|
  {
    if |ks| > 0 {
      var t := Spell(sources, ks);
      var p := sources[ks[0]];
      var rest := Spell(sources, ks[1..]);
      assert t == p + rest;
      assert t[..|p|] == p && t[|p|..] == rest;
      SpelledPossible(sources, ks[1..]);
      PossibleFromAt(sources, t, 0, ks[0]);
    }
  }

  /** A design is possible iff some sequence of patterns spells it. */
  lemma PossibleIffSpelled(sources: seq<string>, target: string)
    requires NonEmpty(sources)
    ensures IsPossible(sources, target) <==> exists ks :: Indices(sources, ks) && Spell(sources, ks) == target
  {
    if IsPossible(sources, target) {
      var ks := PossibleSpelled(sources, target);
    }
    if exists ks :: Indices(sources, ks) && Spell(sources, ks) == target {
      var ks :| Indices(sources, ks) && Spell(sources, ks) == target;
      SpelledPossible(sources, ks);
    }
  }

  /** The ways contributed by the pattern `p`, counting with the patterns `sources`. */
  function Term(sources: seq<string>, target: string, p: string): nat
    requires NonEmpty(sources) && |p| > 0
  {
    if StartsWith(target, p) then Ways(sources, target[|p|..]) else 0
  }

  /** The terms of the patterns in `ps`, added up. */
  function SumTerms(sources: seq<string>, target: string, ps: seq<string>): nat
    requires NonEmpty(sources) && NonEmpty(ps)
  {
    if |ps| == 0 then 0 else Term(sources, target, ps[0]) + SumTerms(sources, target, ps[1..])
  }

  lemma {:induction false} WaysFromIsSum(sources: seq<string>, target: string, k: nat)
    requires NonEmpty(sources) && k <= |sources|
    ensures WaysFrom(sources, target, k) == SumTerms(sources, target, sources[k..])
    decreases |sources| - k
  {
    if k < |sources| {
      assert sources[k..][1..] == sources[k + 1..];
      WaysFromIsSum(sources, target, k + 1);
    }
  }

  /** Removing the pattern at `i` takes its term out of the sum. */
  lemma {:induction false} SumTermsRemove(sources: seq<string>, target: string, ps: seq<string>, i: nat)
    requires NonEmpty(sources) && NonEmpty(ps) && i < |ps|
    ensures SumTerms(sources, target, ps) == Term(sources, target, ps[i]) + SumTerms(sources, target, ps[..i] + ps[i + 1..])
  {
    if i > 0 {
      SumTermsRemove(sources, target, ps[1..], i - 1);
      assert ps[1..][..i - 1] + ps[1..][i..] == (ps[..i] + ps[i + 1..])[1..];
    } else {
      assert ps[..0] + ps[1..] == ps[1..];
    }
  }

  lemma {:induction false} SumTermsPermutation(sources: seq<string>, target: string, a: seq<string>, b: seq<string>)
    requires NonEmpty(sources) && NonEmpty(a) && NonEmpty(b) && multiset(a) == multiset(b)
    ensures SumTerms(sources, target, a) == SumTerms(sources, target, b)
    decreases |a|
  {
    if |a| > 0 {
      var i := Sorting.PickSame(a, b);
      SumTermsRemove(sources, target, b, i);
      var b' := b[..i] + b[i + 1..];
      assert NonEmpty(b') by {
        forall k | 0 <= k < |b'|
          ensures |b'[k]| > 0
        {
          if k < i { assert b'[k] == b[k]; } else { assert b'[k] == b[k + 1]; }
        }
      }
      SumTermsPermutation(sources, target, a[1..], b');
    } else {
      assert |multiset(b)| == 0;
    }
  }

  /** Pattern lists with the same terms give the same sum. */
  lemma {:induction false} SumTermsSameTerms(s1: seq<string>, s2: seq<string>, target: string, ps: seq<string>)
    requires NonEmpty(s1) && NonEmpty(s2) && NonEmpty(ps)
    requires forall k :: 0 <= k < |ps| ==> Term(s1, target, ps[k]) == Term(s2, target, ps[k])
    ensures SumTerms(s1, target, ps) == SumTerms(s2, target, ps)
  {
    if |ps| > 0 {
      SumTermsSameTerms(s1, s2, target, ps[1..]);
    }
  }

  lemma SameElementsNonEmpty(s1: seq<string>, s2: seq<string>)
    requires NonEmpty(s1) && multiset(s1) == multiset(s2)
    ensures NonEmpty(s2)
  {
    forall k | 0 <= k < |s2|
      ensures |s2[k]| > 0
    {
      assert s2[k] in multiset(s2);
      var j :| 0 <= j < |s1| && s1[j] == s2[k];
    }
  }

  /** The number of ways does not depend on the order the set of patterns
      is iterated in. */
  lemma {:induction false} WaysPermutation(s1: seq<string>, s2: seq<string>, target: string)
    requires NonEmpty(s1) && NonEmpty(s2) && multiset(s1) == multiset(s2)
    ensures Ways(s1, target) == Ways(s2, target)
    decreases |target|
  {
    if |target| > 0 {
      forall k | 0 <= k < |s1|
        ensures Term(s1, target, s1[k]) == Term(s2, target, s1[k])
      {
        if StartsWith(target, s1[k]) {
          WaysPermutation(s1, s2, target[|s1[k]|..]);
        }
      }
      WaysFromIsSum(s1, target, 0);
      WaysFromIsSum(s2, target, 0);
      assert s1[0..] == s1 && s2[0..] == s2;
      SumTermsSameTerms(s1, s2, target, s1);
      SumTermsPermutation(s2, target, s1, s2);
    }
  }

  /** The iteration order does not change whether a design is possible. */
  lemma PossiblePermutation(s1: seq<string>, s2: seq<string>, target: string)
    requires NonEmpty(s1) && multiset(s1) == multiset(s2)
    ensures NonEmpty(s2) && (IsPossible(s1, target) <==> IsPossible(s2, target))
  {
    SameElementsNonEmpty(s1, s2);
    PossibleIffWays(s1, target);
    PossibleIffWays(s2, target);
    WaysPermutation(s1, s2, target);
  }

  /** Part 1: the number of possible designs. */
  function Part1(sources: seq<string>, targets: seq<string>): nat
    requires NonEmpty(sources)
  {
    if |targets| == 0 then 0
    else (if IsPossible(sources, targets[0]) then 1 else 0) + Part1(sources, targets[1..])
  }

  /** Part 2: the number of ways summed over the designs. */
  function Part2(sources: seq<string>, targets: seq<string>): nat
    requires NonEmpty(sources)
  {
    if |targets| == 0 then 0 else Ways(sources, targets[0]) + Part2(sources, targets[1..])
  }

  /** Each possible design has at least one way, so part 2 is never below part 1. */
  lemma {:induction false} Part2AtLeastPart1(sources: seq<string>, targets: seq<string>)
    requires NonEmpty(sources)
    ensures Part2(sources, targets) >= Part1(sources, targets)
  {
    if |targets| > 0 {
      PossibleIffWays(sources, targets[0]);
      Part2AtLeastPart1(sources, targets[1..]);
    }
  }

  /** The empty design is possible in exactly one way, the empty arrangement. */
  lemma EmptyDesign(sources: seq<string>)
    requires NonEmpty(sources)
    ensures IsPossible(sources, "") && Ways(sources, "") == 1
  {
  }

  /** With patterns b, r and br, the design r is made one way and brr two ways. */
  lemma Example()
    ensures Ways(["b", "r", "br"], "r") == 1
    ensures Ways(["b", "r", "br"], "brr") == 2
  {
    var s := ["b", "r", "br"];
    assert NonEmpty(s);
    assert !StartsWith("r", "b") && StartsWith("r", "r") && !StartsWith("r", "br");
    assert "r"[1..] == "";
    assert Ways(s, "r") == 1;
    assert StartsWith("rr", "r") && !StartsWith("rr", "b") && !StartsWith("rr", "br");
    assert "rr"[1..] == "r";
    assert Ways(s, "rr") == 1;
    assert StartsWith("brr", "b") && !StartsWith("brr", "r") && StartsWith("brr", "br");
    assert "brr"[1..] == "rr" && "brr"[2..] == "r";
  }
}

=== FILE: warehouse.dfy ===
/** The lanternfish warehouse of 2024/Day15, single-width boxes. The robot
    tries to step in a direction; boxes in its way are pushed as a chain
    when the cell past the chain is free, and nothing moves when a wall ends
    the chain. Walls never move. The score sums 100·y + x over the boxes. */
module Warehouse {
  import opened AocUtil
  import Sorting

  /** `Map`: the walls, the boxes and the robot. */
  datatype Map = Map(walls: set<Point>, boxes: set<Point>, robot: Point)

  /** The result of `move`: the map afterwards and whether the robot moved. */
  datatype Outcome = Outcome(after: Map, moved: bool)

  /** How a chain of boxes ends: after `len` boxes, at a wall or at a free cell. */
  datatype Chain = Blocked(len: nat) | Clear(len: nat)

  /** `b` lies on the ray from `p` in direction `d`, `p` included. */
  predicate OnRay(p: Point, d: Cardinal, b: Point)
  {
    match d
    case North => b.x == p.x && b.y <= p.y
    case East => b.y == p.y && b.x >= p.x
    case South => b.x == p.x && b.y >= p.y
    case West => b.y == p.y && b.x <= p.x
  }

  /** The boxes still ahead of the push loop. */
  function Ahead(boxes: set<Point>, p: Point, d: Cardinal): set<Point>
  {
    set b | b in boxes && OnRay(p, d, b)
  }

  /** Each box passed leaves one box fewer ahead, so the push loop ends. */
  lemma AheadShrinks(boxes: set<Point>, p: Point, d: Cardinal)
    requires p in boxes
    ensures |Ahead(boxes, Move(p, d), d)| < |Ahead(boxes, p, d)|
  {
    var a, b := Ahead(boxes, Move(p, d), d), Ahead(boxes, p, d);
    assert a <= b - {p};
    Sorting.SubsetSize(a, b - {p});
  }

  /** The `while True` loop of `move`, from the cell `p` past the first box:
      how many boxes follow in a row, and whether a wall or a free cell comes
      after them. Walls are tested before boxes, as in the loop. */
  function ChainFrom(walls: set<Point>, boxes: set<Point>, p: Point, d: Cardinal): (c: Chain)
    ensures forall i :: 0 <= i < c.len ==> Shift(p, d, i) in boxes && Shift(p, d, i) !in walls
    ensures c.Blocked? ==> Shift(p, d, c.len) in walls
    ensures c.Clear? ==> Shift(p, d, c.len) !in walls && Shift(p, d, c.len) !in boxes
    decreases |Ahead(boxes, p, d)|
  {
    if p in walls then Blocked(0)
    else if p in boxes then
      AheadShrinks(boxes, p, d);
      var rest := ChainFrom(walls, boxes, Move(p, d), d);
      assert forall i :: 1 <= i <= rest.len + 1 ==> Shift(p, d, i) == Shift(Move(p, d), d, i - 1);
      match rest
      case Blocked(n) => Blocked(n + 1)
      case Clear(n) => Clear(n + 1)
    else Clear(0)
  }

  /** The chain is determined by the cells: the number of boxes in a row
      from `p`, and what comes after them. */
  lemma ChainUnique(walls: set<Point>, boxes: set<Point>, p: Point, d: Cardinal, n: nat, blocked: bool)
    requires forall i :: 0 <= i < n ==> Shift(p, d, i) in boxes && Shift(p, d, i) !in walls
    requires blocked ==> Shift(p, d, n) in walls
    requires !blocked ==> Shift(p, d, n) !in walls && Shift(p, d, n) !in boxes
    ensures ChainFrom(walls, boxes, p, d) == if blocked then Blocked(n) else Clear(n)
  {
  }

  /** `Map.move`: one attempted step of the robot. */
  function Step(m: Map, d: Cardinal): (r: Outcome)
    ensures r.after.walls == m.walls
    ensures r.moved ==> r.after.robot == Move(m.robot, d)
    ensures !r.moved ==> r.after == m
    ensures |r.after.boxes| == |m.boxes|
  {
    var next := Move(m.robot, d);
    if next in m.walls then Outcome(m, false)
    else if next in m.boxes then
      match ChainFrom(m.walls, m.boxes, Move(next, d), d)
      case Blocked(_) => Outcome(m, false)
      case Clear(n) =>
        ShiftMove(next, d, n);
        var target := Shift(next, d, n + 1);
        assert target != next;
        Outcome(Map(m.walls, m.boxes - {next} + {target}, next), true)
    else Outcome(Map(m.walls, m.boxes, next), true)
  }

  /** A step into a wall changes nothing. */
  lemma IntoWall(m: Map, d: Cardinal)
    requires Move(m.robot, d) in m.walls
    ensures Step(m, d) == Outcome(m, false)
  {
  }

  /** A step onto a free cell moves the robot and nothing else. */
  lemma IntoFree(m: Map, d: Cardinal)
    requires Move(m.robot, d) !in m.walls && Move(m.robot, d) !in m.boxes
    ensures Step(m, d) == Outcome(Map(m.walls, m.boxes, Move(m.robot, d)), true)
  {
  }

  /** When the boxes from the robot's next cell on are followed by a wall,
      the move fails and nothing changes. */
  lemma WallEndsChain(m: Map, d: Cardinal, n: nat)
    requires forall i :: 0 <= i <= n ==>
               Shift(Move(m.robot, d), d, i) in m.boxes && Shift(Move(m.robot, d), d, i) !in m.walls
    requires Shift(Move(m.robot, d), d, n + 1) in m.walls
    ensures Step(m, d) == Outcome(m, false)
  {
    var next := Move(m.robot, d);
    assert Shift(next, d, 0) == next;
    forall i | 0 <= i <= n
      ensures Shift(Move(next, d), d, i) == Shift(next, d, i + 1)
    {
      ShiftMove(next, d, i);
    }
    ChainUnique(m.walls, m.boxes, Move(next, d), d, n, true);
  }

  /** When the boxes from the robot's next cell on are followed by a free
      cell, the first box goes to that cell and the robot takes its place:
      the box count stays the same. */
  lemma PushChain(m: Map, d: Cardinal, n: nat)
    requires forall i :: 0 <= i <= n ==>
               Shift(Move(m.robot, d), d, i) in m.boxes && Shift(Move(m.robot, d), d, i) !in m.walls
    requires Shift(Move(m.robot, d), d, n + 1) !in m.walls
    requires Shift(Move(m.robot, d), d, n + 1) !in m.boxes
    ensures var next := Move(m.robot, d);
            Step(m, d) == Outcome(Map(m.walls, m.boxes - {next} + {Shift(next, d, n + 1)}, next), true)
  {
    var next := Move(m.robot, d);
    assert Shift(next, d, 0) == next;
    forall i | 0 <= i <= n
      ensures Shift(Move(next, d), d, i) == Shift(next, d, i + 1)
    {
      ShiftMove(next, d, i);
    }
    ChainUnique(m.walls, m.boxes, Move(next, d), d, n, false);
  }

  /** A warehouse as the input describes one: no box on a wall, and the
      robot on neither. */
  predicate Valid(m: Map)
  {
    m.walls !! m.boxes && m.robot !in m.walls && m.robot !in m.boxes
  }

  /** Every step keeps a warehouse valid. */
  lemma StepValid(m: Map, d: Cardinal)
    requires Valid(m)
    ensures Valid(Step(m, d).after)
  {
    var next := Move(m.robot, d);
    if next !in m.walls && next in m.boxes {
      var c := ChainFrom(m.walls, m.boxes, Move(next, d), d);
      if c.Clear? {
        ShiftMove(next, d, c.len);
      }
    }
  }

  /** `do_sequence`: the moves one after another. */
  function Run(m: Map, moves: seq<Cardinal>): (r: Map)
    ensures r.walls == m.walls && |r.boxes| == |m.boxes|
    decreases |moves|
  {
    if |moves| == 0 then m else Run(Step(m, moves[0]).after, moves[1..])
  }

  /** A whole sequence of moves keeps a warehouse valid. */
  lemma {:induction false} RunValid(m: Map, moves: seq<Cardinal>)
    requires Valid(m)
    ensures Valid(Run(m, moves))
    decreases |moves|
  {
    if |moves| > 0 {
      StepValid(m, moves[0]);
      RunValid(Step(m, moves[0]).after, moves[1..]);
    }
  }

  // ---------------------------------------------------------------------------
  // Score
  // ---------------------------------------------------------------------------

  /** A box's GPS coordinate. */
  function Gps(b: Point): int
  {
    100 * b.y + b.x
  }

  /** `score`: the sum of the GPS coordinates of the boxes. */
  ghost function Score(boxes: set<Point>): int
  {
    if boxes == {} then 0
    else
      var b :| b in boxes;
      Gps(b) + Score(boxes - {b})
  }

  /** The sum does not depend on the order boxes are taken in. */
  lemma {:induction false} ScoreRemove(boxes: set<Point>, x: Point)
    requires x in boxes
    ensures Score(boxes) == Gps(x) + Score(boxes - {x})
    decreases |boxes|
  {
    var b :| b in boxes && Score(boxes) == Gps(b) + Score(boxes - {b});
    if b != x {
      ScoreRemove(boxes - {b}, x);
      ScoreRemove(boxes - {x}, b);
      assert boxes - {b} - {x} == boxes - {x} - {b};
    }
  }

  /** A box added to the set adds its coordinate. */
  lemma ScoreAdd(boxes: set<Point>, x: Point)
    requires x !in boxes
    ensures Score(boxes + {x}) == Score(boxes) + Gps(x)
  {
    ScoreRemove(boxes + {x}, x);
    assert boxes + {x} - {x} == boxes;
  }

  /** What one step in a direction adds to a GPS coordinate. */
  function Delta(d: Cardinal): (r: int)
    ensures r == Gps(Move(Point(0, 0), d))
  {
    match d
    case North => -100
    case East => 1
    case South => 100
    case West => -1
  }

  lemma GpsShift(p: Point, d: Cardinal, k: nat)
    ensures Gps(Shift(p, d, k)) == Gps(p) + k * Delta(d)
  {
  }

  /** A push of `n + 1` boxes moves the score by `n + 1` steps in the push's
      direction, as if every box of the chain moved one cell. */
  lemma PushScore(m: Map, d: Cardinal, n: nat)
    requires Move(m.robot, d) in m.boxes
    requires Shift(Move(m.robot, d), d, n + 1) !in m.boxes
    ensures var next := Move(m.robot, d);
            Score(m.boxes - {next} + {Shift(next, d, n + 1)}) == Score(m.boxes) + (n + 1) * Delta(d)
  {
    var next := Move(m.robot, d);
    var target := Shift(next, d, n + 1);
    ScoreRemove(m.boxes, next);
    ScoreAdd(m.boxes - {next}, target);
    GpsShift(next, d, n + 1);
  }

  /** A step changes the score only by a push, by one step per pushed box. */
  lemma StepScore(m: Map, d: Cardinal) returns (pushed: nat)
    ensures !Step(m, d).moved ==> pushed == 0
    ensures Score(Step(m, d).after.boxes) == Score(m.boxes) + pushed * Delta(d)
  {
    pushed := 0;
    var next := Move(m.robot, d);
    if next !in m.walls && next in m.boxes {
      var c := ChainFrom(m.walls, m.boxes, Move(next, d), d);
      if c.Clear? {
        ShiftMove(next, d, c.len);
        PushScore(m, d, c.len);
        pushed := c.len + 1;
      }
    }
  }

  /** The example score: one box at (4, 1) scores 104. */
  lemma ScoreExample()
    ensures Score({Point(4, 1)}) == 104
  {
    ScoreRemove({Point(4, 1)}, Point(4, 1));
    assert {Point(4, 1)} - {Point(4, 1)} == {};
  }

  /** A box pushed east against a wall: the first push succeeds, the second
      fails, and the score grows by one. */
  lemma PushExample()
    ensures var m := Map({Point(3, 0)}, {Point(1, 0)}, Point(0, 0));
            var m1 := Map({Point(3, 0)}, {Point(2, 0)}, Point(1, 0));
            Step(m, East) == Outcome(m1, true) && Step(m1, East) == Outcome(m1, false)
  {
    var m := Map({Point(3, 0)}, {Point(1, 0)}, Point(0, 0));
    var m1 := Map({Point(3, 0)}, {Point(2, 0)}, Point(1, 0));
    PushChain(m, East, 0);
    assert {Point(1, 0)} - {Point(1, 0)} + {Point(2, 0)} == {Point(2, 0)};
    WallEndsChain(m1, East, 0);
  }
}

=== FILE: word_search.dfy ===
/** The word search of 2024/Day04. The grid is read along rows, columns
    and both families of diagonals; part 1 counts XMAS forwards and
    backwards on every line, part 2 counts the cells where two diagonal
    MAS cross. A cell is the pair `(x, y)` of column and row, as
    `diagonal_to_xy` returns it. */
module WordSearch {
  import opened Wrappers
  import PyOps
  import PyStr

  /** The lines of the file, stripped. */
  type Grid = seq<string>

  /** Every row is as long as the first, as in a puzzle grid. */
  predicate Rectangular(g: Grid)
  {
    forall y :: 0 <= y < |g| ==> |g[y]| == |g[0]|
  }

  function Min(a: int, b: int): int
  {
    if a < b then a else b
  }

  /** `get_horizontal`: the rows, each read backwards when `reverse`. */
  function Horizontal(g: Grid, reverse: bool): (r: seq<string>)
    requires |g| > 0 && Rectangular(g)
    ensures |r| == |g| && forall y :: 0 <= y < |g| ==> |r[y]| == |g[0]|
    ensures forall y, k :: 0 <= y < |g| && 0 <= k < |g[0]| ==>
              r[y][k] == g[y][if reverse then |g[0]| - 1 - k else k]
  {
    if reverse then seq(|g|, y requires 0 <= y < |g| => PyOps.Reverse(g[y])) else g
  }

  /** Column `i`, read top to bottom. */
  function Column(g: Grid, i: nat): string
    requires |g| > 0 && Rectangular(g) && i < |g[0]|
  {
    seq(|g|, y requires 0 <= y < |g| => g[y][i])
  }

  /** `get_vertical`: one string per column, each read bottom to top when
      `reverse`. */
  function Vertical(g: Grid, reverse: bool): (r: seq<string>)
    requires |g| > 0 && Rectangular(g)
    ensures |r| == |g[0]| && forall i :: 0 <= i < |r| ==> |r[i]| == |g|
    ensures forall i, k :: 0 <= i < |g[0]| && 0 <= k < |g| ==>
              r[i][k] == g[if reverse then |g| - 1 - k else k][i]
  {
    var cols := seq(|g[0]|, i requires 0 <= i < |g[0]| => Column(g, i));
    if reverse then seq(|cols|, i requires 0 <= i < |cols| => PyOps.Reverse(cols[i])) else cols
  }

  /** Reading the columns of the columns gives back the rows: the columns
      are the transposed grid. */
  lemma VerticalTwice(g: Grid)
    requires |g| > 0 && Rectangular(g) && |g[0]| > 0
    ensures Vertical(Vertical(g, false), false) == g
  {
    var t := Vertical(g, false);
    var tt := Vertical(t, false);
    assert |tt| == |g|;
    forall y | 0 <= y < |g|
      ensures tt[y] == g[y]
    {
      assert |tt[y]| == |g[y]|;
      forall k | 0 <= k < |g[y]|
        ensures tt[y][k] == g[y][k]
      {
        assert tt[y][k] == t[k][y];
      }
    }
  }

  /** Reading the rows backwards twice gives the rows. */
  lemma HorizontalReverseTwice(g: Grid)
    requires |g| > 0 && Rectangular(g)
    ensures Horizontal(Horizontal(g, true), true) == g
  {
    var r := Horizontal(g, true);
    var rr := Horizontal(r, true);
    forall y | 0 <= y < |g|
      ensures rr[y] == g[y]
    {
      assert |rr[y]| == |g[y]|;
    }
  }

  /** The number of diagonals `get_diagonals` returns: one per row, then
      one per column after the first. */
  function DiagCount(w: nat, h: nat): nat
  {
    h + (if w > 0 then w - 1 else 0)
  }

  /** The length of diagonal `i`: those from row `h - 1 - i` up, then those
      from column `i - h + 1` on. */
  function DiagLen(i: nat, w: nat, h: nat): nat
    requires i < DiagCount(w, h)
  {
    if i < h then Min(w, i + 1) else Min(h, w - (i - h + 1))
  }

  /** `diagonal_to_xy`: the cell of character `j` of diagonal `i`; the
      down-left family mirrors the columns. */
  function DiagonalToXY(i: int, j: int, w: int, h: int, downleft: bool): (c: (int, int))
    ensures 0 <= w && 0 <= h && 0 <= i < DiagCount(w, h) && 0 <= j < DiagLen(i, w, h) ==>
              0 <= c.0 < w && 0 <= c.1 < h
  {
    var (x, y) := if i < h then (j, h - 1 - i + j) else (i - h + 1 + j, j);
    if downleft then (w - 1 - x, y) else (x, y)
  }

  /** The diagonal and position of a cell: the inverse of `diagonal_to_xy`. */
  function XYToDiagonal(x: int, y: int, w: int, h: int, downleft: bool): (int, int)
  {
    var x' := if downleft then w - 1 - x else x;
    if y >= x' then (h - 1 - (y - x'), x') else (h - 1 + (x' - y), y)
  }

  /** Every position on a diagonal is a cell, and finding that cell's
      diagonal gives back the position. */
  lemma DiagonalRoundTrip(i: nat, j: nat, w: nat, h: nat, downleft: bool)
    requires i < DiagCount(w, h) && j < DiagLen(i, w, h)
    ensures XYToDiagonal(DiagonalToXY(i, j, w, h, downleft).0, DiagonalToXY(i, j, w, h, downleft).1, w, h, downleft) == (i, j)
  {
  }

  /** Every cell lies on exactly one diagonal of each family, at a position
      that `diagonal_to_xy` maps back to the cell. */
  lemma CellRoundTrip(x: int, y: int, w: nat, h: nat, downleft: bool)
    requires 0 <= x < w && 0 <= y < h
    ensures var (i, j) := XYToDiagonal(x, y, w, h, downleft);
            0 <= i < DiagCount(w, h) && 0 <= j < DiagLen(i, w, h) && DiagonalToXY(i, j, w, h, downleft) == (x, y)
  {
  }

  /** One step along a diagonal moves one row down and one column right, or
      left for the down-left family. */
  lemma DiagonalStep(i: int, j: int, w: int, h: int, downleft: bool)
    ensures DiagonalToXY(i, j + 1, w, h, downleft).0 == DiagonalToXY(i, j, w, h, downleft).0 + (if downleft then -1 else 1)
    ensures DiagonalToXY(i, j + 1, w, h, downleft).1 == DiagonalToXY(i, j, w, h, downleft).1 + 1
  {
  }

  /** Diagonal `i` of a family, read from its top end. */
  function Diagonal(g: Grid, i: nat, downleft: bool): (s: string)
    requires |g| > 0 && Rectangular(g) && i < DiagCount(|g[0]|, |g|)
    ensures |s| == DiagLen(i, |g[0]|, |g|)
  {
    var w, h := |g[0]|, |g|;
    seq(DiagLen(i, w, h), j requires 0 <= j < DiagLen(i, w, h) =>
      var c := DiagonalToXY(i, j, w, h, downleft);
      g[c.1][c.0])
  }

  /** All diagonals of a family, in the order of `get_diagonals`. */
  function Diagonals(g: Grid, downleft: bool): (r: seq<string>)
    requires |g| > 0 && Rectangular(g)
    ensures |r| == DiagCount(|g[0]|, |g|)
  {
    seq(DiagCount(|g[0]|, |g|), i requires 0 <= i < DiagCount(|g[0]|, |g|) => Diagonal(g, i, downleft))
  }

  /** The inner loop of `get_diagonals` for the diagonal starting on row
      `row` of the first column, or of the last for the down-left family. */
  method RowDiagonal(g: Grid, row: nat, downleft: bool) returns (line: string)
    requires |g| > 0 && Rectangular(g) && row < |g|
    ensures line == Diagonal(g, |g| - 1 - row, downleft)
  {
    var w, h := |g[0]|, |g|;
    var i := h - 1 - row;
    var n := Min(w, h - row);
    line := "";
    var col := 0;
    while col < n
      invariant 0 <= col <= n && |line| == col
      invariant forall j :: 0 <= j < col ==> line[j] == Diagonal(g, i, downleft)[j]
    {
      var realCol := if downleft then -(col + 1) else col;
      assert DiagonalToXY(i, col, w, h, downleft) == (PyOps.Wrap(w, realCol), row + col);
      line := line + [g[row + col][PyOps.Wrap(w, realCol)]];
      col := col + 1;
    }
  }

  /** The inner loop of `get_diagonals` for the diagonal starting on column
      `col` of the top row, counted from the right for the down-left family. */
  method ColumnDiagonal(g: Grid, col: nat, downleft: bool) returns (line: string)
    requires |g| > 0 && Rectangular(g) && 1 <= col < |g[0]|
    ensures line == Diagonal(g, |g| + col - 1, downleft)
  {
    var w, h := |g[0]|, |g|;
    var i := h + col - 1;
    var n := Min(h, w - col);
    line := "";
    var r := 0;
    while r < n
      invariant 0 <= r <= n && |line| == r
      invariant forall j :: 0 <= j < r ==> line[j] == Diagonal(g, i, downleft)[j]
    {
      var realCol := if downleft then -(r + col + 1) else r + col;
      assert DiagonalToXY(i, r, w, h, downleft) == (PyOps.Wrap(w, realCol), r);
      line := line + [g[r][PyOps.Wrap(w, realCol)]];
      r := r + 1;
    }
  }

  /** `get_diagonals`, loop for loop: first the diagonals starting on each
      row from the bottom up, then those starting on each column of the top
      row after the first; with `reverse`, each read backwards. */
  method GetDiagonals(g: Grid, downleft: bool, reverse: bool) returns (result: seq<string>)
    requires |g| > 0 && Rectangular(g)
    ensures |result| == DiagCount(|g[0]|, |g|)
    ensures forall i :: 0 <= i < |result| ==>
              result[i] == if reverse then PyOps.Reverse(Diagonal(g, i, downleft)) else Diagonal(g, i, downleft)
  {
    var w, h := |g[0]|, |g|;
    result := [];
    var row := h;
    while row > 0
      invariant 0 <= row <= h && |result| == h - row
      invariant forall i :: 0 <= i < |result| ==> result[i] == Diagonal(g, i, downleft)
    {
      row := row - 1;
      var line := RowDiagonal(g, row, downleft);
      result := result + [line];
    }
    var col := 1;
    while col < w
      invariant 1 <= col && (col <= w || col == 1)
      invariant |result| == h + col - 1
      invariant forall i :: 0 <= i < |result| ==> result[i] == Diagonal(g, i, downleft)
    {
      var line := ColumnDiagonal(g, col, downleft);
      result := result + [line];
      col := col + 1;
    }
    if reverse {
      result := seq(|result|, i requires 0 <= i < |result| => PyOps.Reverse(result[i]));
    }
  }

  /** `all_directions`: rows, columns and both diagonal families, forwards. */
  function AllDirections(g: Grid): (r: seq<string>)
    requires |g| > 0 && Rectangular(g)
    ensures |r| == |g| + |g[0]| + 2 * DiagCount(|g[0]|, |g|)
  {
    Horizontal(g, false) + Vertical(g, false) + Diagonals(g, false) + Diagonals(g, true)
  }

  /** No later letter of the word repeats its first, so two matches never
      overlap. */
  predicate FirstUnique(word: string)
  {
    |word| > 0 && forall d :: 0 < d < |word| ==> word[d] != word[0]
  }

  /** The number of places at or after `from` where `word` starts. */
  function Occurrences(s: string, word: string, from: nat): nat
    decreases |s| - from
  {
    if from + |word| > |s| then 0
    else (if PyStr.StartsAt(s, from, word) then 1 else 0) + Occurrences(s, word, from + 1)
  }

  /** `len(re.findall(word, s))` from `from` on: scan left to right, and
      after a match go on past its end. */
  function FindAllCount(s: string, word: string, from: nat): nat
    requires |word| > 0
    decreases |s| - from
  {
    if from + |word| > |s| then 0
    else if PyStr.StartsAt(s, from, word) then 1 + FindAllCount(s, word, from + |word|)
    else FindAllCount(s, word, from + 1)
  }

  /** The starts of the matches of `re.finditer(word, s)` from `from` on. */
  function FindIter(s: string, word: string, from: nat): (r: seq<nat>)
    requires |word| > 0
    ensures forall k :: 0 <= k < |r| ==> from <= r[k] && PyStr.StartsAt(s, r[k], word)
    decreases |s| - from
  {
    if from + |word| > |s| then []
    else if PyStr.StartsAt(s, from, word) then [from] + FindIter(s, word, from + |word|)
    else FindIter(s, word, from + 1)
  }

  /** Inside a match of a word whose first letter does not repeat, no other
      match starts. */
  lemma NoMatchInside(s: string, word: string, p: nat, q: nat)
    requires FirstUnique(word) && PyStr.StartsAt(s, p, word) && p < q < p + |word|
    ensures !PyStr.StartsAt(s, q, word)
  {
    assert s[q] == word[q - p];
  }

  /** Skipping the inside of a match skips no occurrence. */
  lemma {:induction false} SkipInside(s: string, word: string, p: nat, q: nat)
    requires FirstUnique(word) && PyStr.StartsAt(s, p, word) && p < q <= p + |word|
    ensures Occurrences(s, word, p + 1) == Occurrences(s, word, q)
    decreases q - p
  {
    if q > p + 1 {
      SkipInside(s, word, p, q - 1);
      NoMatchInside(s, word, p, q - 1);
    }
  }

  /** For such a word `findall` finds every occurrence. */
  lemma {:induction false} FindAllCountsAll(s: string, word: string, from: nat)
    requires FirstUnique(word)
    ensures FindAllCount(s, word, from) == Occurrences(s, word, from)
    decreases |s| - from
  {
    if from + |word| <= |s| {
      if PyStr.StartsAt(s, from, word) {
        FindAllCountsAll(s, word, from + |word|);
        SkipInside(s, word, from, from + |word|);
      } else {
        FindAllCountsAll(s, word, from + 1);
      }
    }
  }

  /** For such a word `finditer` reports every place the word starts. */
  lemma {:induction false} FindIterFindsAll(s: string, word: string, from: nat, p: nat)
    requires FirstUnique(word) && from <= p && PyStr.StartsAt(s, p, word)
    ensures p in FindIter(s, word, from)
    decreases |s| - from
  {
    if p > from {
      if PyStr.StartsAt(s, from, word) {
        if p < from + |word| {
          NoMatchInside(s, word, from, p);
        }
        FindIterFindsAll(s, word, from + |word|, p);
      } else {
        FindIterFindsAll(s, word, from + 1, p);
      }
    }
  }

  /** What one line adds in part 1: XMAS forwards and backwards. */
  function LineCount(line: string): nat
  {
    FindAllCount(line, "XMAS", 0) + FindAllCount(line, "SAMX", 0)
  }

  function SumCounts(lines: seq<string>): nat
  {
    if |lines| == 0 then 0 else LineCount(lines[0]) + SumCounts(lines[1..])
  }

  /** Every occurrence of XMAS, forwards and backwards, on the lines. */
  function SumOccurrences(lines: seq<string>): nat
  {
    if |lines| == 0 then 0
    else Occurrences(lines[0], "XMAS", 0) + Occurrences(lines[0], "SAMX", 0) + SumOccurrences(lines[1..])
  }

  /** Part 1. An empty file has no first row, which raises IndexError. */
  function Part1(g: Grid): (r: Option<nat>)
    requires Rectangular(g)
    ensures r.Some? <==> |g| > 0
  {
    if |g| == 0 then None else Some(SumCounts(AllDirections(g)))
  }

  lemma {:induction false} SumCountsAll(lines: seq<string>)
    ensures SumCounts(lines) == SumOccurrences(lines)
  {
    if |lines| > 0 {
      FindAllCountsAll(lines[0], "XMAS", 0);
      FindAllCountsAll(lines[0], "SAMX", 0);
      SumCountsAll(lines[1..]);
    }
  }

  /** Part 1 counts every occurrence of XMAS and of SAMX on every row,
      column and diagonal of both families: none is lost to `findall`
      skipping past a match. */
  lemma Part1CountsAll(g: Grid)
    requires |g| > 0 && Rectangular(g)
    ensures Part1(g) == Some(SumOccurrences(AllDirections(g)))
  {
    SumCountsAll(AllDirections(g));
  }

  /** The starts of MAS and then SAM on a line, as part 2 finds them. */
  function Hits(line: string): seq<nat>
  {
    FindIter(line, "MAS", 0) + FindIter(line, "SAM", 0)
  }

  /** The centres of the MAS and SAM part 2 finds on one diagonal family,
      each mapped to its cell by `diagonal_to_xy`. */
  function Centers(g: Grid, downleft: bool): set<(int, int)>
    requires |g| > 0 && Rectangular(g)
  {
    set i, k | 0 <= i < DiagCount(|g[0]|, |g|) && 0 <= k < |Hits(Diagonal(g, i, downleft))| ::
      DiagonalToXY(i, Hits(Diagonal(g, i, downleft))[k] + 1, |g[0]|, |g|, downleft)
  }

  /** Part 2: the cells that are centres on both families. An empty file
      raises IndexError. */
  function Part2(g: Grid): (r: Option<nat>)
    requires Rectangular(g)
    ensures r.Some? <==> |g| > 0
  {
    if |g| == 0 then None else Some(|Centers(g, false) * Centers(g, true)|)
  }

  /** M and S at the two ends, in either order. */
  predicate MS(a: char, b: char)
  {
    (a == 'M' && b == 'S') || (a == 'S' && b == 'M')
  }

  /** The cell is an inner cell holding the A of a MAS read along the
      diagonal of the family through it. */
  predicate CrossArm(g: Grid, x: int, y: int, downleft: bool)
    requires |g| > 0 && Rectangular(g)
  {
    && 1 <= x < |g[0]| - 1 && 1 <= y < |g| - 1
    && g[y][x] == 'A'
    && if downleft then MS(g[y - 1][x + 1], g[y + 1][x - 1]) else MS(g[y - 1][x - 1], g[y + 1][x + 1])
  }

  /** The cell is the centre of an X of two MAS. */
  predicate IsXmas(g: Grid, x: int, y: int)
    requires |g| > 0 && Rectangular(g)
  {
    CrossArm(g, x, y, false) && CrossArm(g, x, y, true)
  }

  /** Every cell that is the centre of an X of two MAS. */
  function XmasCells(g: Grid): set<(int, int)>
    requires |g| > 0 && Rectangular(g)
  {
    set x, y | 0 <= x < |g[0]| && 0 <= y < |g| && IsXmas(g, x, y) :: (x, y)
  }

  /** The cells with a MAS across them along one family. */
  function ArmCells(g: Grid, downleft: bool): set<(int, int)>
    requires |g| > 0 && Rectangular(g)
  {
    set x, y | 0 <= x < |g[0]| && 0 <= y < |g| && CrossArm(g, x, y, downleft) :: (x, y)
  }

  /** Three consecutive characters of a diagonal are three consecutive cells
      along it. */
  lemma DiagonalThree(g: Grid, i: nat, p: nat, downleft: bool)
    requires |g| > 0 && Rectangular(g) && i < DiagCount(|g[0]|, |g|) && p + 3 <= DiagLen(i, |g[0]|, |g|)
    ensures var (x, y) := DiagonalToXY(i, p + 1, |g[0]|, |g|, downleft);
            var dx := if downleft then -1 else 1;
            && 0 <= x - dx < |g[0]| && 0 <= x + dx < |g[0]| && 1 <= y < |g| - 1
            && Diagonal(g, i, downleft)[p] == g[y - 1][x - dx]
            && Diagonal(g, i, downleft)[p + 1] == g[y][x]
            && Diagonal(g, i, downleft)[p + 2] == g[y + 1][x + dx]
  {
    DiagonalStep(i, p, |g[0]|, |g|, downleft);
    DiagonalStep(i, p + 1, |g[0]|, |g|, downleft);
  }

  /** The three letters of a three-letter word where it starts. */
  lemma Spelled(s: string, p: nat, word: string)
    requires |word| == 3 && PyStr.StartsAt(s, p, word)
    ensures s[p] == word[0] && s[p + 1] == word[1] && s[p + 2] == word[2]
  {
    assert s[p + 0] == word[0];
  }

  /** A match part 2 finds spells MAS one way or the other. */
  lemma HitSpells(s: string, k: nat)
    requires k < |Hits(s)|
    ensures Hits(s)[k] + 3 <= |s| && s[Hits(s)[k] + 1] == 'A' && MS(s[Hits(s)[k]], s[Hits(s)[k] + 2])
  {
    var mas := FindIter(s, "MAS", 0);
    var p := Hits(s)[k];
    if k < |mas| {
      Spelled(s, p, "MAS");
    } else {
      assert p == FindIter(s, "SAM", 0)[k - |mas|];
      Spelled(s, p, "SAM");
    }
  }

  /** A place where MAS is spelled one way or the other is a match part 2
      finds. */
  lemma SpellIsHit(s: string, p: nat)
    requires p + 3 <= |s| && s[p + 1] == 'A' && MS(s[p], s[p + 2])
    ensures exists k :: 0 <= k < |Hits(s)| && Hits(s)[k] == p
  {
    var mas := FindIter(s, "MAS", 0);
    if s[p] == 'M' {
      assert PyStr.StartsAt(s, p, "MAS");
      FindIterFindsAll(s, "MAS", 0, p);
      var k :| 0 <= k < |mas| && mas[k] == p;
      assert Hits(s)[k] == p;
    } else {
      var sam := FindIter(s, "SAM", 0);
      assert PyStr.StartsAt(s, p, "SAM");
      FindIterFindsAll(s, "SAM", 0, p);
      var k :| 0 <= k < |sam| && sam[k] == p;
      assert Hits(s)[|mas| + k] == p;
    }
  }

  /** Three consecutive characters of a diagonal spell MAS one way or the
      other exactly when the cell of the middle one has a MAS across it. */
  lemma ArmAlong(g: Grid, i: nat, p: nat, downleft: bool)
    requires |g| > 0 && Rectangular(g) && i < DiagCount(|g[0]|, |g|) && p + 3 <= DiagLen(i, |g[0]|, |g|)
    ensures var c := DiagonalToXY(i, p + 1, |g[0]|, |g|, downleft);
            var s := Diagonal(g, i, downleft);
            CrossArm(g, c.0, c.1, downleft) <==> s[p + 1] == 'A' && MS(s[p], s[p + 2])
  {
    DiagonalThree(g, i, p, downleft);
  }

  /** Every cell away from the border lies on a diagonal of each family with
      a neighbour along it on both sides. */
  lemma InnerOnDiagonal(x: int, y: int, w: nat, h: nat, downleft: bool)
    requires 1 <= x < w - 1 && 1 <= y < h - 1
    ensures var (i, j) := XYToDiagonal(x, y, w, h, downleft);
            && 0 <= i < DiagCount(w, h) && 1 <= j && j + 2 <= DiagLen(i, w, h)
            && DiagonalToXY(i, j, w, h, downleft) == (x, y)
  {
    CellRoundTrip(x, y, w, h, downleft);
  }

  /** Every centre part 2 finds has a MAS across it. */
  lemma CentersAreArms(g: Grid, downleft: bool, i: nat, k: nat)
    requires |g| > 0 && Rectangular(g) && i < DiagCount(|g[0]|, |g|)
    requires k < |Hits(Diagonal(g, i, downleft))|
    ensures var c := DiagonalToXY(i, Hits(Diagonal(g, i, downleft))[k] + 1, |g[0]|, |g|, downleft);
            CrossArm(g, c.0, c.1, downleft)
  {
    var s := Diagonal(g, i, downleft);
    HitSpells(s, k);
    ArmAlong(g, i, Hits(s)[k], downleft);
  }

  /** A cell with a MAS across it is the centre of a match part 2 finds:
      the `k`-th on diagonal `i`. */
  lemma ArmHit(g: Grid, downleft: bool, x: int, y: int) returns (i: nat, k: nat)
    requires |g| > 0 && Rectangular(g) && CrossArm(g, x, y, downleft)
    ensures i < DiagCount(|g[0]|, |g|) && k < |Hits(Diagonal(g, i, downleft))|
    ensures DiagonalToXY(i, Hits(Diagonal(g, i, downleft))[k] + 1, |g[0]|, |g|, downleft) == (x, y)
  {
    var (i', j) := XYToDiagonal(x, y, |g[0]|, |g|, downleft);
    InnerOnDiagonal(x, y, |g[0]|, |g|, downleft);
    i := i';
    ArmAlong(g, i, j - 1, downleft);
    var s := Diagonal(g, i, downleft);
    SpellIsHit(s, j - 1);
    k :| 0 <= k < |Hits(s)| && Hits(s)[k] == j - 1;
  }

  /** Every cell with a MAS across it is a centre part 2 finds. */
  lemma ArmsAreCenters(g: Grid, downleft: bool, x: int, y: int)
    requires |g| > 0 && Rectangular(g) && CrossArm(g, x, y, downleft)
    ensures (x, y) in Centers(g, downleft)
  {
    var i, k := ArmHit(g, downleft, x, y);
  }

  /** A centre part 2 finds is a cell with a MAS across it. */
  lemma CenterIsArm(g: Grid, downleft: bool, c: (int, int))
    requires |g| > 0 && Rectangular(g) && c in Centers(g, downleft)
    ensures c in ArmCells(g, downleft)
  {
    var i, k :| 0 <= i < DiagCount(|g[0]|, |g|) && 0 <= k < |Hits(Diagonal(g, i, downleft))| &&
                c == DiagonalToXY(i, Hits(Diagonal(g, i, downleft))[k] + 1, |g[0]|, |g|, downleft);
    CentersAreArms(g, downleft, i, k);
    assert 0 <= c.0 < |g[0]| && 0 <= c.1 < |g| && CrossArm(g, c.0, c.1, downleft);
  }

  /** The centres part 2 finds along a family are exactly the cells with a
      MAS across them along it. */
  lemma CentersExact(g: Grid, downleft: bool)
    requires |g| > 0 && Rectangular(g)
    ensures Centers(g, downleft) == ArmCells(g, downleft)
  {
    forall c | c in Centers(g, downleft)
      ensures c in ArmCells(g, downleft)
    {
      CenterIsArm(g, downleft, c);
    }
    forall c | c in ArmCells(g, downleft)
      ensures c in Centers(g, downleft)
    {
      ArmsAreCenters(g, downleft, c.0, c.1);
    }
  }

  /** Part 2 counts exactly the cells that are the centre of an X of two
      MAS, each read either way. */
  lemma Part2CountsXmas(g: Grid)
    requires |g| > 0 && Rectangular(g)
    ensures Part2(g) == Some(|XmasCells(g)|)
  {
    CentersExact(g, false);
    CentersExact(g, true);
    assert ArmCells(g, false) * ArmCells(g, true) == XmasCells(g);
  }
}

=== FILE: workflows.dfy ===
/** The part sorter of 2023/Day19. A part rates four categories; a
    workflow is a list of rules, each sending the part on to another
    workflow or to the verdicts 'A' (accept) and 'R' (reject). The answer
    sums the ratings of the accepted parts. */
module Workflows {
  import opened Wrappers
  import PyOps
  import PyStr
  import Decimal

  /** The exception a step raises, and `Unfinished` when the evaluation
      loop had not stopped within its step bound. */
  datatype Error = KeyError | ValueError | IndexError | NameError | AttributeError | Unfinished

  /** `categories`: the only keys a part may have. */
  predicate IsCategory(k: string)
  {
    k == "x" || k == "m" || k == "a" || k == "s"
  }

  /** A part: its ratings by category. */
  type Part = map<string, int>

  /** Every category is rated. */
  predicate Complete(p: Part)
  {
    "x" in p && "m" in p && "a" in p && "s" in p
  }

  /** The part has no key outside the categories, which `__setitem__`
      guarantees for every part it builds. */
  predicate OnlyCategories(p: Part)
  {
    forall k :: k in p ==> IsCategory(k)
  }

  /** One `key=value` item of a part's text: the unpacking of
      `split('=')` and `int` raise ValueError, `__setitem__` raises
      KeyError for a key outside the categories. */
  function Assignment(item: string): (r: Result<(string, int), Error>)
    ensures r.Success? ==> IsCategory(r.value.0)
  {
    var kv := PyStr.Split(item, '=');
    if |kv| != 2 then Failure(ValueError)
    else
      match Decimal.ParseInt(kv[1])
      case None => Failure(ValueError)
      case Some(v) => if IsCategory(kv[0]) then Success((kv[0], v)) else Failure(KeyError)
  }

  /** The assignment loop of `Part.from_string`, from `acc` on: a later item
      for the same key overwrites an earlier one, and the first item that
      raises decides the error. */
  function Assign(items: seq<string>, acc: Part): (r: Result<Part, Error>)
    ensures r.Success? <==> forall i :: 0 <= i < |items| ==> Assignment(items[i]).Success?
    ensures r.Success? ==> forall k :: k in r.value ==> k in acc || IsCategory(k)
    ensures r.Success? ==> forall k :: k in acc ==> k in r.value
    ensures r.Success? ==> forall i :: 0 <= i < |items| ==> Assignment(items[i]).value.0 in r.value
  {
    if |items| == 0 then Success(acc)
    else
      match Assignment(items[0])
      case Failure(e) => Failure(e)
      case Success(kv) =>
        var r := Assign(items[1..], acc[kv.0 := kv.1]);
        assert forall i :: 1 <= i < |items| ==> items[i] == items[1..][i - 1];
        r
  }

  /** `Part.from_string` of a stripped line: drop the braces, split on
      ',', assign each item. */
  function PartFromString(s: string): (r: Result<Part, Error>)
    ensures r.Success? ==> OnlyCategories(r.value)
  {
    Assign(PyStr.Split(PyOps.Slice(s, 1, -1), ','), map[])
  }

  /** `str(v)` of an integer. */
  function IntText(v: int): string
  {
    if v < 0 then "-" + Decimal.Show(-v) else Decimal.Show(v)
  }

  /** `int` reads `str(v)` back, and `str(v)` holds neither separator. */
  lemma IntTextParses(v: int)
    ensures Decimal.ParseInt(IntText(v)) == Some(v)
    ensures PyStr.Free(IntText(v), ',') && PyStr.Free(IntText(v), '=')
  {
    if v < 0 {
      Decimal.ParseShow(-v);
    } else {
      Decimal.ParseShow(v);
    }
    IntTextFree(v);
  }

  /** `str(v)` is a sign and digits, so it holds neither separator. */
  lemma IntTextFree(v: int)
    ensures forall i :: 0 <= i < |IntText(v)| ==> IntText(v)[i] == '-' || Decimal.IsDigit(IntText(v)[i])
    ensures PyStr.Free(IntText(v), ',') && PyStr.Free(IntText(v), '=')
  {
    if v < 0 {
      var t := Decimal.Show(-v);
      assert forall i :: 1 <= i < |"-" + t| ==> ("-" + t)[i] == t[i - 1];
    }
  }

  /** The `key=value` item `__str__` writes. */
  function Item(p: Part, k: string): string
    requires k in p
  {
    k + "=" + IntText(p[k])
  }

  /** `Part.__str__`: every category, in the order x, m, a, s. */
  function PartText(p: Part): string
    requires Complete(p)
  {
    "{" + PyStr.Join([Item(p, "x"), Item(p, "m"), Item(p, "a"), Item(p, "s")], ',') + "}"
  }

  /** One item reads back as its key and value. */
  lemma ItemParses(p: Part, k: string)
    requires k in p && IsCategory(k)
    ensures Assignment(Item(p, k)) == Success((k, p[k]))
    ensures PyStr.Free(Item(p, k), ',')
  {
    IntTextParses(p[k]);
    assert PyStr.Free(k, '=');
    PyStr.SplitAfter(k, '=', IntText(p[k]));
    PyStr.SplitFree(IntText(p[k]), '=');
    assert Item(p, k) == k + ['='] + IntText(p[k]);
  }

  /** Reading back the text of a part gives the part. */
  lemma PartRoundTrip(p: Part)
    requires Complete(p) && OnlyCategories(p)
    ensures PartFromString(PartText(p)) == Success(p)
  {
    var items := [Item(p, "x"), Item(p, "m"), Item(p, "a"), Item(p, "s")];
    ItemParses(p, "x");
    ItemParses(p, "m");
    ItemParses(p, "a");
    ItemParses(p, "s");
    var body := PyStr.Join(items, ',');
    assert PyOps.Slice(PartText(p), 1, -1) == body;
    PyStr.SplitJoin(items, ',');
    var m0: Part := map[];
    var m1 := m0["x" := p["x"]];
    var m2 := m1["m" := p["m"]];
    var m3 := m2["a" := p["a"]];
    var m4 := m3["s" := p["s"]];
    var t := [Item(p, "s")];
    AssignStep([Item(p, "a")] + t, m2, "a", p["a"]);
    AssignStep(t, m3, "s", p["s"]);
    assert t[1..] == [];
    assert Assign(t, m3) == Success(m4);
    assert Assign([Item(p, "a")] + t, m2) == Success(m4);
    AssignStep([Item(p, "x"), Item(p, "m"), Item(p, "a"), Item(p, "s")], m0, "x", p["x"]);
    AssignStep([Item(p, "m"), Item(p, "a"), Item(p, "s")], m1, "m", p["m"]);
    assert [Item(p, "m"), Item(p, "a"), Item(p, "s")][1..] == [Item(p, "a")] + t;
    assert items[1..] == [Item(p, "m"), Item(p, "a"), Item(p, "s")];
    assert m4 == p;
  }

  /** One step of the assignment loop. */
  lemma AssignStep(items: seq<string>, acc: Part, k: string, v: int)
    requires |items| > 0 && Assignment(items[0]) == Success((k, v))
    ensures Assign(items, acc) == Assign(items[1..], acc[k := v])
  {
  }

  /** A rating, or 0 when the category is missing. */
  function Value(p: Part, k: string): int
  {
    if k in p then p[k] else 0
  }

  /** `rating`: the sum of the part's values, which are at most the four
      categories. */
  function Rating(p: Part): int
  {
    Value(p, "x") + Value(p, "m") + Value(p, "a") + Value(p, "s")
  }

  /** `sum` of no values is 0. */
  lemma RatingEmpty()
    ensures Rating(map[]) == 0
  {
  }

  /** Setting one category moves the sum by the change in that value, as
      `sum(self.values())` does. */
  lemma RatingSet(p: Part, k: string, v: int)
    requires IsCategory(k)
    ensures Rating(p[k := v]) == Rating(p) - Value(p, k) + v
  {
  }

  /** The comparison of a conditional rule. */
  datatype Op = Less | Greater

  /** A rule: a test of one category against a number, or none, and the
      workflow it sends a part to. */
  datatype Rule = Cond(category: char, op: Op, limit: int, dest: string) | Always(dest: string)

  /** `Rule.from_string`. Text that does not split into exactly two pieces
      on ':' or whose number `int` rejects raises ValueError, which makes
      the whole text an unconditional destination. A test shorter than two
      characters raises IndexError, and an operator other than '<' and '>'
      reaches the undefined `ArgumentError`, a NameError; neither is
      caught. */
  function RuleFromString(s: string): (r: Result<Rule, Error>)
    ensures PyStr.Free(s, ':') ==> r == Success(Always(s))
    ensures r.Success? && r.value.Cond? ==> PyStr.Free(r.value.dest, ':') && r.value.category != ':'
  {
    var pieces := PyStr.Split(s, ':');
    assert PyStr.Free(s, ':') ==> |pieces| == 1 by {
      if PyStr.Free(s, ':') {
        PyStr.SplitFree(s, ':');
      }
    }
    if |pieces| != 2 then Success(Always(s))
    else
      var test := pieces[0];
      if |test| < 2 then Failure(IndexError)
      else
        match Decimal.ParseInt(test[2..])
        case None => Success(Always(s))
        case Some(n) =>
          if test[1] == '<' then Success(Cond(test[0], Less, n, pieces[1]))
          else if test[1] == '>' then Success(Cond(test[0], Greater, n, pieces[1]))
          else Failure(NameError)
  }

  /** `c<n:d` and `c>n:d` read as the test of category `c` against `n`,
      sending the part to `d`. */
  lemma CondParses(c: char, o: char, n: nat, d: string)
    requires c != ':' && (o == '<' || o == '>') && PyStr.Free(d, ':')
    ensures RuleFromString([c, o] + Decimal.Show(n) + ":" + d)
            == Success(Cond(c, if o == '<' then Less else Greater, n, d))
  {
    var test := [c, o] + Decimal.Show(n);
    Decimal.ShowDigits(n);
    Decimal.ParseShow(n);
    assert PyStr.Free(test, ':') by {
      assert forall i :: 2 <= i < |test| ==> test[i] == Decimal.Show(n)[i - 2];
    }
    PyStr.SplitAfter(test, ':', d);
    PyStr.SplitFree(d, ':');
    assert [c, o] + Decimal.Show(n) + ":" + d == test + [':'] + d;
    assert test[2..] == Decimal.Show(n);
  }

  /** A known operator with a number is a test; any other operator raises. */
  lemma BadOperatorRaises(c: char, o: char, n: nat, d: string)
    requires c != ':' && o != ':' && o != '<' && o != '>' && PyStr.Free(d, ':')
    ensures RuleFromString([c, o] + Decimal.Show(n) + ":" + d) == Failure(NameError)
  {
    var test := [c, o] + Decimal.Show(n);
    Decimal.ShowDigits(n);
    Decimal.ParseShow(n);
    assert PyStr.Free(test, ':') by {
      assert forall i :: 2 <= i < |test| ==> test[i] == Decimal.Show(n)[i - 2];
    }
    PyStr.SplitAfter(test, ':', d);
    PyStr.SplitFree(d, ':');
    assert [c, o] + Decimal.Show(n) + ":" + d == test + [':'] + d;
    assert test[2..] == Decimal.Show(n);
  }

  /** `applies_to`: an unconditional rule always applies; a test reads the
      part, which raises KeyError for a key outside the categories or
      missing from the part. */
  function Applies(rule: Rule, p: Part): (r: Result<bool, Error>)
    ensures rule.Always? ==> r == Success(true)
    ensures rule.Cond? && IsCategory([rule.category]) && [rule.category] in p ==>
              r.Success? && (r.value <==> if rule.op == Less then p[[rule.category]] < rule.limit
                                          else p[[rule.category]] > rule.limit)
    ensures rule.Cond? && !IsCategory([rule.category]) ==> r == Failure(KeyError)
  {
    match rule
    case Always(_) => Success(true)
    case Cond(c, op, limit, _) =>
      var k := [c];
      if !IsCategory(k) || k !in p then Failure(KeyError)
      else if op == Less then Success(p[k] < limit)
      else Success(p[k] > limit)
  }

  /** The rule loop of `evaluate`: the destination of the first rule that
      applies, None when none does, or the error of the first test that
      raises. */
  function FirstMatch(rules: seq<Rule>, p: Part): (r: Result<Option<string>, Error>)
    ensures r == Success(None) <==> forall i :: 0 <= i < |rules| ==> Applies(rules[i], p) == Success(false)
    ensures (forall i :: 0 <= i < |rules| ==> Applies(rules[i], p).Success?) ==> r.Success?
    ensures r.Success? && r.value.Some? ==>
              exists i :: 0 <= i < |rules| && Applies(rules[i], p) == Success(true) && rules[i].dest == r.value.value
                          && forall j :: 0 <= j < i ==> Applies(rules[j], p) == Success(false)
  {
    if |rules| == 0 then Success(None)
    else
      match Applies(rules[0], p)
      case Failure(e) => Failure(e)
      case Success(true) => Success(Some(rules[0].dest))
      case Success(false) =>
        var r := FirstMatch(rules[1..], p);
        assert forall i :: 1 <= i < |rules| ==> rules[i] == rules[1..][i - 1];
        assert r.Success? && r.value.Some? ==>
                 exists i :: 0 <= i < |rules| && Applies(rules[i], p) == Success(true) && rules[i].dest == r.value.value
                             && forall j :: 0 <= j < i ==> Applies(rules[j], p) == Success(false) by {
          if r.Success? && r.value.Some? {
            var i :| 0 <= i < |rules[1..]| && Applies(rules[1..][i], p) == Success(true) && rules[1..][i].dest == r.value.value
                     && forall j :: 0 <= j < i ==> Applies(rules[1..][j], p) == Success(false);
            assert Applies(rules[i + 1], p) == Success(true);
          }
        }
        r
  }

  /** What a name in `Workflow.workflows` stands for: a verdict or a
      workflow's rules. */
  datatype Target = Verdict(accept: bool) | Flow(rules: seq<Rule>)

  /** `Workflow.workflows`, passed along instead of a class global. */
  type Registry = map<string, Target>

  /** The registry before any workflow is read: 'A' accepts, 'R' rejects. */
  function Base(): (r: Registry)
    ensures r.Keys == {"A", "R"} && r["A"] == Verdict(true) && r["R"] == Verdict(false)
  {
    map["A" := Verdict(true), "R" := Verdict(false)]
  }

  /** `evaluate`, from a workflow with the given rules, for at most `fuel`
      rounds of the while loop. A name without an entry raises KeyError; a
      workflow where no rule applies is run again, for ever. */
  function Evaluate(reg: Registry, rules: seq<Rule>, p: Part, fuel: nat): (r: Result<bool, Error>)
    decreases fuel
  {
    if fuel == 0 then Failure(Unfinished)
    else
      match FirstMatch(rules, p)
      case Failure(e) => Failure(e)
      case Success(None) => Evaluate(reg, rules, p, fuel - 1)
      case Success(Some(d)) =>
        if d !in reg then Failure(KeyError)
        else
          match reg[d]
          case Verdict(b) => Success(b)
          case Flow(next) => Evaluate(reg, next, p, fuel - 1)
  }

  /** More rounds never change an evaluation that finished. */
  lemma {:induction false} EvaluateMore(reg: Registry, rules: seq<Rule>, p: Part, fuel: nat, more: nat)
    requires Evaluate(reg, rules, p, fuel) != Failure(Unfinished) && fuel <= more
    ensures Evaluate(reg, rules, p, more) == Evaluate(reg, rules, p, fuel)
    decreases fuel
  {
    var m := FirstMatch(rules, p);
    if m.Success? {
      if m.value.None? {
        EvaluateMore(reg, rules, p, fuel - 1, more - 1);
      } else if m.value.value in reg && reg[m.value.value].Flow? {
        EvaluateMore(reg, reg[m.value.value].rules, p, fuel - 1, more - 1);
      }
    }
  }

  /** When no rule of the workflow applies, `evaluate` never returns. */
  lemma {:induction false} NoMatchHangs(reg: Registry, rules: seq<Rule>, p: Part, fuel: nat)
    requires forall i :: 0 <= i < |rules| ==> Applies(rules[i], p) == Success(false)
    ensures Evaluate(reg, rules, p, fuel) == Failure(Unfinished)
  {
    if fuel > 0 {
      NoMatchHangs(reg, rules, p, fuel - 1);
    }
  }

  /** A rule that reads no key outside the categories. */
  predicate RuleOk(rule: Rule)
  {
    rule.Cond? ==> IsCategory([rule.category])
  }

  /** The name leads to a verdict or to a workflow ranked below `k`. */
  predicate Below(reg: Registry, rank: map<string, nat>, k: nat, d: string)
  {
    d in reg && (reg[d].Flow? ==> d in rank && rank[d] < k)
  }

  /** The rules read only categories, end in an unconditional rule, and
      send parts only to names ranked below `k`. */
  predicate RulesOk(reg: Registry, rank: map<string, nat>, k: nat, rules: seq<Rule>)
  {
    && |rules| > 0 && rules[|rules| - 1].Always?
    && forall i :: 0 <= i < |rules| ==> RuleOk(rules[i]) && Below(reg, rank, k, rules[i].dest)
  }

  /** Every workflow is ranked above the workflows it sends parts to, as in
      a puzzle input, whose workflows form a tree. */
  predicate Ranked(reg: Registry, rank: map<string, nat>)
  {
    forall n :: n in reg && reg[n].Flow? ==> n in rank && RulesOk(reg, rank, rank[n], reg[n].rules)
  }

  /** With every category rated, some rule of a well-formed workflow
      applies. */
  lemma {:induction false} SomeRuleApplies(reg: Registry, rank: map<string, nat>, k: nat, rules: seq<Rule>, p: Part)
    requires RulesOk(reg, rank, k, rules) && Complete(p)
    ensures FirstMatch(rules, p).Success? && FirstMatch(rules, p).value.Some?
    ensures Below(reg, rank, k, FirstMatch(rules, p).value.value)
  {
    forall i | 0 <= i < |rules|
      ensures Applies(rules[i], p).Success?
    {
      assert RuleOk(rules[i]);
    }
    assert Applies(rules[|rules| - 1], p) == Success(true);
    var r := FirstMatch(rules, p);
    assert r != Success(None);
    var i :| 0 <= i < |rules| && Applies(rules[i], p) == Success(true) && rules[i].dest == r.value.value
             && forall j :: 0 <= j < i ==> Applies(rules[j], p) == Success(false);
    assert Below(reg, rank, k, rules[i].dest);
  }

  /** `evaluate` sends every fully rated part to a verdict, in as many
      rounds as the workflow's rank and one more. */
  lemma {:induction false} SendsSomewhere(reg: Registry, rank: map<string, nat>, n: string, p: Part, fuel: nat)
    requires Ranked(reg, rank) && n in reg && reg[n].Flow? && Complete(p)
    requires n in rank && fuel > rank[n]
    ensures Evaluate(reg, reg[n].rules, p, fuel).Success?
    decreases rank[n]
  {
    var rules := reg[n].rules;
    assert RulesOk(reg, rank, rank[n], rules);
    SomeRuleApplies(reg, rank, rank[n], rules, p);
    var d := FirstMatch(rules, p).value.value;
    EvaluateStep(reg, rules, p, fuel, d);
    if reg[d].Flow? {
      SendsSomewhere(reg, rank, d, p, fuel - 1);
    }
  }

  /** One round of `evaluate` that found a rule sending the part to `d`. */
  lemma EvaluateStep(reg: Registry, rules: seq<Rule>, p: Part, fuel: nat, d: string)
    requires fuel > 0 && FirstMatch(rules, p) == Success(Some(d)) && d in reg
    ensures Evaluate(reg, rules, p, fuel) ==
              match reg[d]
              case Verdict(b) => Success(b)
              case Flow(next) => Evaluate(reg, next, p, fuel - 1)
  {
  }

  /** `Workflow.from_string` of a stripped line: the name before '{', the
      rules between it and the closing brace. Text with no '{' or with
      more than one raises ValueError. */
  function WorkflowFromString(s: string): (r: Result<(string, seq<Rule>), Error>)
    ensures r.Success? ==> PyStr.Free(r.value.0, '{')
  {
    var pieces := PyStr.Split(s, '{');
    if |pieces| != 2 then Failure(ValueError)
    else
      match ParseRules(PyStr.Split(PyOps.Slice(pieces[1], 0, -1), ','))
      case Failure(e) => Failure(e)
      case Success(rules) => Success((pieces[0], rules))
  }

  /** `tuple(Rule.from_string(rule) for rule in rules)`: the first text that
      raises decides the error. */
  function ParseRules(texts: seq<string>): (r: Result<seq<Rule>, Error>)
    ensures r.Success? <==> forall i :: 0 <= i < |texts| ==> RuleFromString(texts[i]).Success?
    ensures r.Success? ==> |r.value| == |texts|
    ensures r.Success? ==> forall i :: 0 <= i < |texts| ==> r.value[i] == RuleFromString(texts[i]).value
  {
    if |texts| == 0 then Success([])
    else
      match RuleFromString(texts[0])
      case Failure(e) => Failure(e)
      case Success(rule) =>
        assert forall i :: 1 <= i < |texts| ==> texts[i] == texts[1..][i - 1];
        match ParseRules(texts[1..])
        case Failure(e) => Failure(e)
        case Success(rest) => Success([rule] + rest)
  }

  /** Some line reads as a workflow named `k`. */
  predicate Named(lines: seq<string>, k: string)
  {
    exists i :: 0 <= i < |lines| && WorkflowFromString(lines[i]).Success? && WorkflowFromString(lines[i]).value.0 == k
  }

  /** The workflow loop of `problem`: each line registers its workflow under
      its name, a later one replacing an earlier one of the same name. */
  function Load(reg: Registry, lines: seq<string>): (r: Result<Registry, Error>)
    ensures r.Success? ==> reg.Keys <= r.value.Keys
    ensures r.Success? <==> forall i :: 0 <= i < |lines| ==> WorkflowFromString(lines[i]).Success?
    ensures r.Success? ==> forall i :: 0 <= i < |lines| ==> WorkflowFromString(lines[i]).value.0 in r.value
    ensures r.Success? ==> forall k :: k in r.value ==> k in reg || Named(lines, k)
    decreases |lines|
  {
    if |lines| == 0 then Success(reg)
    else
      match WorkflowFromString(lines[0])
      case Failure(e) => Failure(e)
      case Success(w) =>
        assert forall i :: 1 <= i < |lines| ==> lines[i] == lines[1..][i - 1];
        Load(reg[w.0 := Flow(w.1)], lines[1..])
  }

  /** The part loop of `problem`: read each part, evaluate it, and add the
      rating of each accepted one. */
  function Total(reg: Registry, start: seq<Rule>, lines: seq<string>, fuel: nat): (r: Result<int, Error>)
  {
    Collect(seq(|lines|, i requires 0 <= i < |lines| => Judge(reg, start, lines[i], fuel)))
  }

  /** Adding up line by line: the first line that raises stops the loop. */
  function Collect(rs: seq<Result<int, Error>>): (r: Result<int, Error>)
  {
    if |rs| == 0 then Success(0)
    else
      match rs[0]
      case Failure(e) => Failure(e)
      case Success(c) =>
        match Collect(rs[1..])
        case Failure(e) => Failure(e)
        case Success(t) => Success(c + t)
  }

  /** What one part line adds to the answer: its rating when accepted, 0
      when rejected, or the error that reading or evaluating it raised.
      Either verdict is announced on a debug line that formats the part
      through `Part.__str__`, which looks up all four categories, so a part
      lacking one raises KeyError even when the verdict needed none. */
  function Judge(reg: Registry, start: seq<Rule>, line: string, fuel: nat): Result<int, Error>
  {
    match PartFromString(line)
    case Failure(e) => Failure(e)
    case Success(p) =>
      match Evaluate(reg, start, p, fuel)
      case Failure(e) => Failure(e)
      case Success(accepted) =>
        if !Complete(p) then Failure(KeyError)
        else Success(if accepted then Rating(p) else 0)
  }

  /** Every part rates all four categories. */
  predicate AllComplete(parts: seq<Part>)
  {
    forall i :: 0 <= i < |parts| ==> Complete(parts[i])
  }

  /** The sum of the ratings of parts. */
  function SumRatings(parts: seq<Part>): int
  {
    if |parts| == 0 then 0 else Rating(parts[0]) + SumRatings(parts[1..])
  }

  /** The sum of what the lines add. */
  function Sum(cs: seq<int>): int
  {
    if |cs| == 0 then 0 else cs[0] + Sum(cs[1..])
  }

  /** A line whose part reads and evaluates adds its rating when accepted
      and 0 when rejected, provided the part rates every category; otherwise
      announcing the verdict raises KeyError. */
  lemma JudgeOf(reg: Registry, start: seq<Rule>, line: string, fuel: nat, p: Part, verdict: bool)
    requires PartFromString(line) == Success(p) && Evaluate(reg, start, p, fuel) == Success(verdict)
    ensures Judge(reg, start, line, fuel) ==
      if Complete(p) then Success(if verdict then Rating(p) else 0) else Failure(KeyError)
  {
  }

  /** A part that evaluates but lacks a category raises KeyError, whether
      accepted or rejected. */
  lemma IncompleteRaises(reg: Registry, start: seq<Rule>, line: string, fuel: nat, p: Part)
    requires PartFromString(line) == Success(p) && Evaluate(reg, start, p, fuel).Success?
    requires !Complete(p)
    ensures Judge(reg, start, line, fuel) == Failure(KeyError)
  {
  }

  /** The first part that lacks a category. */
  lemma FirstIncomplete(parts: seq<Part>) returns (k: nat)
    requires !AllComplete(parts)
    ensures k < |parts| && !Complete(parts[k]) && AllComplete(parts[..k])
  {
    k := 0;
    while Complete(parts[k])
      invariant k < |parts| && AllComplete(parts[..k])
      invariant exists j :: k <= j < |parts| && !Complete(parts[j])
      decreases |parts| - k
    {
      assert parts[..k + 1] == parts[..k] + [parts[k]];
      k := k + 1;
    }
  }

  /** When every line reads and every part evaluates, but some part lacks a
      category, the answer is KeyError: the first such part raises it. */
  lemma TotalIncomplete(reg: Registry, start: seq<Rule>, lines: seq<string>, fuel: nat,
                        parts: seq<Part>, verdicts: seq<bool>)
    requires |parts| == |lines| == |verdicts|
    requires forall i :: 0 <= i < |lines| ==> PartFromString(lines[i]) == Success(parts[i])
    requires forall i :: 0 <= i < |parts| ==> Evaluate(reg, start, parts[i], fuel) == Success(verdicts[i])
    requires !AllComplete(parts)
    ensures Total(reg, start, lines, fuel) == Failure(KeyError)
  {
    var k := FirstIncomplete(parts);
    var rs := seq(|lines|, i requires 0 <= i < |lines| => Judge(reg, start, lines[i], fuel));
    forall i | 0 <= i < k
      ensures rs[i].Success?
    {
      assert parts[..k][i] == parts[i];
      JudgeOf(reg, start, lines[i], fuel, parts[i], verdicts[i]);
    }
    IncompleteRaises(reg, start, lines[k], fuel, parts[k]);
    CollectFails(rs, k);
  }

  /** When no line raises, the answer is the sum of what each line adds. */
  lemma {:induction false} CollectSums(rs: seq<Result<int, Error>>, cs: seq<int>)
    requires |cs| == |rs|
    requires forall i :: 0 <= i < |rs| ==> rs[i] == Success(cs[i])
    ensures Collect(rs) == Success(Sum(cs))
  {
    if |rs| > 0 {
      assert forall i :: 1 <= i < |rs| ==> rs[1..][i - 1] == rs[i] && cs[1..][i - 1] == cs[i];
      CollectSums(rs[1..], cs[1..]);
    }
  }

  /** The first line that raises decides the error. */
  lemma {:induction false} CollectFails(rs: seq<Result<int, Error>>, k: nat)
    requires k < |rs| && rs[k].Failure? && forall i :: 0 <= i < k ==> rs[i].Success?
    ensures Collect(rs) == Failure(rs[k].error)
  {
    if k > 0 {
      assert forall i :: 0 <= i < k - 1 ==> rs[1..][i] == rs[i + 1];
      CollectFails(rs[1..], k - 1);
    }
  }

  /** The contributions of parts that all get the same verdict. */
  lemma {:induction false} SumUniform(parts: seq<Part>, verdict: bool, cs: seq<int>)
    requires |cs| == |parts|
    requires forall i :: 0 <= i < |parts| ==> cs[i] == if verdict then Rating(parts[i]) else 0
    ensures Sum(cs) == if verdict then SumRatings(parts) else 0
  {
    if |parts| > 0 {
      assert forall i :: 1 <= i < |parts| ==> parts[1..][i - 1] == parts[i] && cs[1..][i - 1] == cs[i];
      SumUniform(parts[1..], verdict, cs[1..]);
    }
  }

  /** When every part is accepted the answer is the sum of all ratings; when
      every part is rejected it is 0; either way a part lacking a category
      makes it KeyError. */
  lemma TotalUniform(reg: Registry, start: seq<Rule>, lines: seq<string>, fuel: nat, parts: seq<Part>, verdict: bool)
    requires |parts| == |lines|
    requires forall i :: 0 <= i < |lines| ==> PartFromString(lines[i]) == Success(parts[i])
    requires forall i :: 0 <= i < |parts| ==> Evaluate(reg, start, parts[i], fuel) == Success(verdict)
    ensures Total(reg, start, lines, fuel) ==
      if AllComplete(parts) then Success(if verdict then SumRatings(parts) else 0) else Failure(KeyError)
  {
    if !AllComplete(parts) {
      TotalIncomplete(reg, start, lines, fuel, parts, seq(|parts|, _ => verdict));
      return;
    }
    var cs := seq(|parts|, i requires 0 <= i < |parts| => if verdict then Rating(parts[i]) else 0);
    forall i | 0 <= i < |lines|
      ensures Judge(reg, start, lines[i], fuel) == Success(cs[i])
    {
      JudgeOf(reg, start, lines[i], fuel, parts[i], verdict);
    }
    var rs := seq(|lines|, i requires 0 <= i < |lines| => Judge(reg, start, lines[i], fuel));
    CollectSums(rs, cs);
    SumUniform(parts, verdict, cs);
  }

  /** The sum of the ratings of the parts whose verdict is accept. */
  function SumAccepted(parts: seq<Part>, verdicts: seq<bool>): int
    requires |verdicts| == |parts|
  {
    if |parts| == 0 then 0
    else (if verdicts[0] then Rating(parts[0]) else 0) + SumAccepted(parts[1..], verdicts[1..])
  }

  /** The contributions of parts with any mix of verdicts. */
  lemma {:induction false} SumMixed(parts: seq<Part>, verdicts: seq<bool>, cs: seq<int>)
    requires |cs| == |parts| == |verdicts|
    requires forall i :: 0 <= i < |parts| ==> cs[i] == if verdicts[i] then Rating(parts[i]) else 0
    ensures Sum(cs) == SumAccepted(parts, verdicts)
  {
    if |parts| > 0 {
      assert forall i :: 1 <= i < |parts| ==>
        parts[1..][i - 1] == parts[i] && verdicts[1..][i - 1] == verdicts[i] && cs[1..][i - 1] == cs[i];
      SumMixed(parts[1..], verdicts[1..], cs[1..]);
    }
  }

  /** When every line reads and every part evaluates, the answer is the sum
      of the ratings of exactly the accepted parts, whatever the mix of
      verdicts, unless a part lacks a category, which makes it KeyError. */
  lemma TotalMixed(reg: Registry, start: seq<Rule>, lines: seq<string>, fuel: nat,
                   parts: seq<Part>, verdicts: seq<bool>)
    requires |parts| == |lines| == |verdicts|
    requires forall i :: 0 <= i < |lines| ==> PartFromString(lines[i]) == Success(parts[i])
    requires forall i :: 0 <= i < |parts| ==> Evaluate(reg, start, parts[i], fuel) == Success(verdicts[i])
    ensures Total(reg, start, lines, fuel) ==
      if AllComplete(parts) then Success(SumAccepted(parts, verdicts)) else Failure(KeyError)
  {
    if !AllComplete(parts) {
      TotalIncomplete(reg, start, lines, fuel, parts, verdicts);
      return;
    }
    var cs := seq(|parts|, i requires 0 <= i < |parts| => if verdicts[i] then Rating(parts[i]) else 0);
    forall i | 0 <= i < |lines|
      ensures Judge(reg, start, lines[i], fuel) == Success(cs[i])
    {
      JudgeOf(reg, start, lines[i], fuel, parts[i], verdicts[i]);
    }
    var rs := seq(|lines|, i requires 0 <= i < |lines| => Judge(reg, start, lines[i], fuel));
    CollectSums(rs, cs);
    SumMixed(parts, verdicts, cs);
  }

  /** With a workflow named 'in', `problem` answers the sum of the ratings
      of the parts that workflow accepts, or KeyError when some part lacks a
      category. */
  lemma ProblemAccepted(workflowLines: seq<string>, partLines: seq<string>, fuel: nat,
                        reg: Registry, rules: seq<Rule>, parts: seq<Part>, verdicts: seq<bool>)
    requires Load(Base(), workflowLines) == Success(reg) && "in" in reg && reg["in"] == Flow(rules)
    requires |parts| == |partLines| == |verdicts|
    requires forall i :: 0 <= i < |partLines| ==> PartFromString(partLines[i]) == Success(parts[i])
    requires forall i :: 0 <= i < |parts| ==> Evaluate(reg, rules, parts[i], fuel) == Success(verdicts[i])
    ensures Problem(workflowLines, partLines, fuel) ==
      if AllComplete(parts) then Success(SumAccepted(parts, verdicts)) else Failure(KeyError)
  {
    TotalMixed(reg, rules, partLines, fuel, parts, verdicts);
  }

  /** `problem`: load the workflows, then sum the accepted parts from
      workflow 'in'. A missing 'in' raises KeyError; an 'in' that is a
      verdict has no `evaluate`. */
  function Problem(workflowLines: seq<string>, partLines: seq<string>, fuel: nat): (r: Result<int, Error>)
    ensures Load(Base(), workflowLines).Success? && !Named(workflowLines, "in") ==> r == Failure(KeyError)
  {
    match Load(Base(), workflowLines)
    case Failure(e) => Failure(e)
    case Success(reg) =>
      if "in" !in reg then Failure(KeyError)
      else
        match reg["in"]
        case Verdict(_) => Failure(AttributeError)
        case Flow(rules) => Total(reg, rules, partLines, fuel)
  }
}

=== FILE: wrappers.dfy ===
/** Failure-carrying result types shared by every model in this project.
    A Python function that may raise is modelled as returning one of these. */
module Wrappers {

  /** A value that may be absent (Python's `None`). */
  datatype Option<+T> = None | Some(value: T)

  /** Either a value or the error the Python code would raise. */
  datatype Result<+T, +E> = Success(value: T) | Failure(error: E)
}
